=== FILE: README.md ===
# Discrete cores of the emh.github.io sketches

The repository is a set of independent browser sketches. Each one mixes
canvas drawing with a small piece of discrete logic, and this project models
that logic in Dafny, one module per source file or shared component:

- **Pixel editor** (`gpt/pixels/main.mjs`):
  - `PixelGrid` is the sparse multi-resolution pixel store, with its bounded
    undo/redo history and zoom levels 0 to 20.
  - `Raster` holds the Bresenham line, the rectangle outline, the filled
    rectangle and the midpoint circle.
  - `PixelColour` holds hex/RGB conversion and 50/50 blending.
  - `PixelPack` is the bit-packed palette format, written and read back.
- **Rokoban** (`vibes/rokoban/main.mjs`): the gcd-based grid size, box
  placement and pushing, player and enemy moves, line of sight, treasure
  collection, the exit filter of `spawnEnemy` and the exit-to-entrance map.
- **Genuary 2026 sketches**:
  - the twelve-rules animation movers (`Animation`);
  - the letter tiles of "write genuary" (`GenuaryLetters`);
  - the boolean-gate automaton (`BooleanAutomaton`);
  - the city height growth (`City`);
  - the Delaunay bookkeeping and birth/death step of the crazy automaton
    (`CrazyAutomaton`);
  - the polar L-system (`Polar`, sharing `LSystem`);
  - the interval sweep and playback timeline of the quine (`Quine`);
  - the quadtree of "boxes only" (`Boxes`);
  - the circle packing and its spatial grid (`CirclePacking`, `CircleGrid`);
  - the tesseract's vertices, edges and rotations (`Tesseract`);
  - the cyclic automaton (`CyclicAutomaton`).
- **Genesis sketches**:
  - the stack flood fill and `paint` shared by growth, shape, symmetry and
    pattern (`FloodFill` and one wrapper module each);
  - graph rewriting (`GenesisGraph`) and the L-system of `rules.mjs`
    (`GenesisRules`);
  - the genetic agents (`Seed`) and the hex life automaton (`HexLife`);
  - the hue palettes (`HuePalette`), the rectangle scaffold (`Scaffold`) and
    the Truchet tiles (`Truchet`).
- **Anagramish** (`anagramish2`): the tag-spec parser (`Html`), the sorted-letter
  comparison (`AnagramUtils`) and the board and cursor state machine
  (`AnagramGame`).

A few modules are shared:
- `Optional` is the result type for a missing value.
- `Seqs` holds `[...new Set(xs)]`, `indexOf` and the stable
  `Array.prototype.sort`.
- `JsText` holds `trim`.

Conventions:
- Every `Math.random` or `rnd` draw is a parameter together with its range.
  `rnd(n, m)` is `floor(random * (n - m) + m)`.
- JavaScript numbers are `int` where the source only ever holds whole
  numbers, and `real` otherwise.
- Where the source has a defect, the operation is modelled as written. A
  corrected definition sits beside it, and lemmas relate the two (see
  "## Findings").

## Model

| member | source | states |
|---|---|---|
| Html.Split | anagramish2/html.mjs:2-3 | `String.prototype.split` with a one-character separator: at least one piece, and no piece holds the separator |
| Html.JoinSplit | anagramish2/html.mjs:2-3 | joining the pieces of a split with the same separator gives back the original string |
| Html.SplitJoin | anagramish2/html.mjs:2-3 | splitting a join of separator-free pieces gives back the pieces, so split is the inverse of join |
| Html.SplitMany | anagramish2/html.mjs:2-3 | a split yields more than one piece exactly when the separator occurs in the string |
| Html.HeadIsPrefix | anagramish2/html.mjs:2 | the first piece of a split (the prefix holding name and id) is a prefix of the spec |
| Html.PiecesFrom | anagramish2/html.mjs:2-3 | every character of every piece occurs in the split string |
| Html.Parse | anagramish2/html.mjs:1-6 | `parse` yields classes that contain no dot |
| Html.NameAndId | anagramish2/html.mjs:3 | the name part has no hash; an id is present exactly when the prefix holds a hash; without a hash the name is the whole prefix |
| Html.NameAndIdBuilt | anagramish2/html.mjs:3 | reading `name#id` (or `name`) back gives the name and id it was built from |
| Html.ParseNoHash | anagramish2/html.mjs:1-6 | for a spec without `#` there is no id, and the name joined with the classes by dots is the spec again |
| Html.ParseJoined | anagramish2/html.mjs:1-6 | parsing a dot-join takes name and id from the first piece and the remaining pieces, unchanged, as the classes |
| Html.ParseBuilt | anagramish2/html.mjs:1-6 | parsing the spec built from a separator-free name, optional id and classes gives back exactly that name, id and class list |
| Html.NonBlank | anagramish2/html.mjs:14 | the class filter keeps exactly the classes whose trimmed text is not empty |
| Html.AddClasses | anagramish2/html.mjs:14 | repeated `classList.add`: fails exactly when some token holds ASCII white space; otherwise the list holds exactly the old classes and the tokens, still without repeats |
| Html.SetElement | anagramish2/html.mjs:8-15 | `set` builds the element tag from the name, lower-cased as `createElement` does in an HTML document, sets the id only when it is present and non-empty, and holds exactly the non-blank classes without repeats; it fails exactly when the name is not a valid element name of the DOM Standard (an empty one included) or a non-blank class holds white space |
| Html.AsciiLower | anagramish2/html.mjs:11 | `createElement` lower-cases exactly the ASCII capitals of the name, leaving its length and every other character alone |
| Html.SetElementEmptyName | anagramish2/html.mjs:1-11 | a spec of classes only (".a") or an id only ("#x") has an empty name, so `set` throws |
| Html.SetElementSpaceName | anagramish2/html.mjs:1-11 | a name holding a space ("a b") is not a valid element name, so `set` throws |
| Html.SetElementLowerCase | anagramish2/html.mjs:1-13 | `set("DIV#x")` succeeds with tag "div", id "x" and no classes |
| Html.KeptClasses | anagramish2/html.mjs:14 | adding the non-blank classes to an empty list succeeds exactly when none holds white space, and then gives exactly those classes without repeats |
| JsText.TrimStart | anagramish2/html.mjs:14 | the leading half of `String.prototype.trim`: never longer than the input, and the identity when the first character is not white space |
| JsText.TrimStartSkips | anagramish2/html.mjs:14 | what leading trim removes is a run of white space, and what remains is a suffix of the input that starts with a non-space |
| JsText.TrimEnd | anagramish2/html.mjs:14 | the trailing half of trim: a prefix of the input ending in a non-space, with only white space cut off |
| JsText.TrimEmptyIff | anagramish2/html.mjs:14 | `c.trim() === ''` holds exactly when every character of `c` is JavaScript white space |
| AnagramUtils.EmptyRow | anagramish2/utils.js:1 | `emptyRow` is five empty cells |
| AnagramUtils.EmptyBoard | anagramish2/utils.js:3 | `emptyBoard` is six rows, each an empty row |
| AnagramUtils.LexLtIrreflexive | anagramish2/utils.js:8-9 | the string order `<` used by `compare` and by `sort` is irreflexive |
| AnagramUtils.LexTrichotomy | anagramish2/utils.js:8-11 | of `<`, `>` and equality between two strings exactly one holds, so `compare` takes exactly one branch |
| AnagramUtils.LexLtTransitive | anagramish2/utils.js:8-9 | the string order `<` is transitive |
| AnagramUtils.LexLeTotalPreorder | anagramish2/utils.js:14 | the default `sort` comparison is a total preorder, so sorting by it is well defined |
| AnagramUtils.Compare | anagramish2/utils.js:5-12 | the recursive merge count never exceeds either list's length |
| AnagramUtils.CompareSymmetric | anagramish2/utils.js:5-12 | `compare(ch1, ch2) == compare(ch2, ch1)` for all inputs |
| AnagramUtils.CompareIsIntersection | anagramish2/utils.js:5-12 | on two sorted lists the merge count is the size of their multiset intersection |
| AnagramUtils.Sorted | anagramish2/utils.js:14 | `[...w].sort()` is a permutation of the letters |
| AnagramUtils.SortedSorts | anagramish2/utils.js:14 | `[...w].sort()` is ordered by the string order |
| AnagramUtils.CompareWords | anagramish2/utils.js:14 | the number of shared letters never exceeds either word's length |
| AnagramUtils.CompareWordsCounts | anagramish2/utils.js:14 | `compareWords` counts the letters two words share, with multiplicity (multiset intersection size) |
| AnagramUtils.Chars | anagramish2/utils.js:14 | spreading a string gives one one-character string per character, in order |
| AnagramUtils.CharsCount | anagramish2/utils.js:14 | the spread of a word holds each one-character string as often as the word holds that character |
| AnagramUtils.CompareStrings | anagramish2/utils.js:14 | `compareWords` on strings never exceeds either word's length |
| AnagramUtils.CompareWordsProperties | anagramish2/utils.js:14 | `compareWords` is symmetric, ignores letter order, and a word shares all its letters with itself |
| AnagramUtils.CompareStringsProperties | anagramish2/utils.js:14 | the same for strings: symmetric, invariant under anagrams, and `compareWords(w, w)` is the length of `w` |
| AnagramGame.Letters | anagramish2/main.mjs:28-29 | `w.split('')`: one filled cell per character of the word, in order |
| AnagramGame.Keys | anagramish2/main.mjs:106 | the keys of a full row are exactly the letters its cells hold, in order |
| AnagramGame.Join | anagramish2/main.mjs:102 | `row.join('')` of a row of empty cells is the empty string |
| AnagramGame.KeysOfLetters | anagramish2/main.mjs:28-29 | a row built from a word is full and reads back as that word's characters |
| AnagramGame.Pairs | anagramish2/main.mjs:6 | the pairs file gives one entry per line, and an entry has two words exactly when its line holds a comma |
| AnagramGame.Init | anagramish2/main.mjs:24-38 | `init`: six rows, the start word in row 0 and the target in row 5, empty rows between, cursor at (0, 1); it throws exactly when the drawn line has no second word |
| AnagramGame.TrailingNewlineFails | anagramish2/main.mjs:6 | a pairs file ending in a newline has an empty last line, on which `init` throws when the draw picks it (also lines 24-29) |
| Html.SplitTrailing | anagramish2/main.mjs:6 | a text that ends with the separator splits into at least two pieces, the last of them empty |
| AnagramGame.InitInv | anagramish2/main.mjs:24-38 | for a two-word pair `init` succeeds, and the state it builds satisfies the game invariant (framed board, ladder of accepted rows, cursor on an open row) |
| AnagramGame.Backspace | anagramish2/main.mjs:92-96 | Backspace keeps the pair and the board height, and does nothing at column 0 |
| AnagramGame.Typed | anagramish2/main.mjs:100 | the row after writing the key at the cursor has the row's length |
| AnagramGame.TypeKey | anagramish2/main.mjs:97-125 | a letter key never changes the chosen pair |
| AnagramGame.HandleKey | anagramish2/main.mjs:91-129 | `handleKey` as intended: a key other than Backspace or a lower-case letter leaves the state unchanged, so does every key once the game is won, and no key changes the pair |
| AnagramGame.HandleKeyAsWritten | anagramish2/main.mjs:91-98 | `handleKey` as written throws exactly for Backspace or a letter once the game is won, when the position it reads is `null`; otherwise it does what the intended handler does |
| AnagramGame.KeyAfterWinThrows | anagramish2/main.mjs:91-113 | right after the winning key, the same letter or Backspace throws as written, while the intended handler leaves the won game unchanged |
| AnagramGame.BackspaceEffect | anagramish2/main.mjs:92-96 | Backspace at column 0 changes nothing; otherwise it empties the cell left of the cursor, moves the cursor left, and changes no other cell or row |
| AnagramGame.LetterIsNotBackspace | anagramish2/main.mjs:92-97 | a lower-case letter key never takes the Backspace branch |
| AnagramGame.LetterEffect | anagramish2/main.mjs:98-116 | a letter before the last column is written at the cursor and moves the cursor one right, changing nothing else |
| AnagramGame.FinishedRowFull | anagramish2/main.mjs:102-110 | when the fifth letter is typed the row and the row above are full, and the row below is full exactly when it is the target row |
| AnagramGame.FinishRejected | anagramish2/main.mjs:102-109 | a finished row that is not a dictionary word or does not share four letters with the row above is replaced by an empty row and the cursor goes back to column 0 |
| AnagramGame.FinishWins | anagramish2/main.mjs:110-113 | an accepted row just above the target that shares four letters with it keeps the typed row and clears the cursor (the game is won) |
| AnagramGame.FinishAdvances | anagramish2/main.mjs:114-125 | an accepted row that does not win keeps the typed row and moves the cursor to the start of the next row |
| AnagramGame.HandleKeyKeepsInv | anagramish2/main.mjs:91-129 | every key press, before or after a win, preserves the game invariant: each accepted row is a dictionary word sharing four letters with the one above, the target stays last, and the cursor stays on an open row |
| AnagramGame.BackspaceKeepsInv | anagramish2/main.mjs:92-96 | Backspace preserves the game invariant |
| AnagramGame.TypeKeyKeepsInv | anagramish2/main.mjs:97-125 | a letter key preserves the game invariant in each of its four branches |
| AnagramGame.WinKeepsInv | anagramish2/main.mjs:110-113 | the winning branch preserves the game invariant |
| AnagramGame.NextRowKeepsInv | anagramish2/main.mjs:114-125 | accepting a row and moving down, inserting an empty row above the target when needed, preserves the game invariant |
| AnagramGame.AcceptedRow | anagramish2/main.mjs:102-110 | a row that passes both checks extends the ladder of accepted rows by one and fills its row |
| AnagramGame.NextRowInserted | anagramish2/main.mjs:122-124 | inserting an empty row just above the target when the cursor reaches it keeps the board framed and the ladder intact |
| AnagramGame.NextRowStarted | anagramish2/main.mjs:117-120 | moving the cursor to column 0 of an empty row below the ladder satisfies the invariant |
| Animation.CellsAcross | genart/genuary2026/02_twelverulesofanimation.mjs:38-39 | `Math.floor(side / CELL_SIZE)`: the largest number of whole 50-pixel cells that fit in the side |
| Animation.Neighbours4 | genart/genuary2026/02_twelverulesofanimation.mjs:25-30 | `neighbors4` lists four cells, exactly the cells at Manhattan distance 1 |
| Animation.KeepInside | genart/genuary2026/02_twelverulesofanimation.mjs:54-56 | the bounds filter keeps exactly the listed cells that lie inside the grid, never adding any |
| Animation.PickNeighbour | genart/genuary2026/02_twelverulesofanimation.mjs:53-58 | `pickNeighbor` returns, when it returns a cell, an in-bounds orthogonal neighbour |
| Animation.PickNeighbourExists | genart/genuary2026/02_twelverulesofanimation.mjs:53-58 | an in-bounds cell gets a neighbour exactly when the grid has at least two cells; on a one-cell grid the pick is `undefined` |
| Animation.PickNeighbourCovers | genart/genuary2026/02_twelverulesofanimation.mjs:53-58 | every in-bounds orthogonal neighbour is picked by some draw of `rndInt` |
| Animation.Clamp01 | genart/genuary2026/02_twelverulesofanimation.mjs:15 | `clamp01` lies in [0, 1], is the identity there, and sends values below to 0 and above to 1 |
| Animation.EaseOutBackEnds | genart/genuary2026/02_twelverulesofanimation.mjs:18-22 | whatever the overshoot `s`, `easeOutBack` is 0 at and before t = 0 and 1 at and after t = 1 |
| Animation.EaseOutBackOvershoots | genart/genuary2026/02_twelverulesofanimation.mjs:18-22 | with the default overshoot 1.8 the easing passes 1 before settling (at t = 0.8 it is above 1) |
| Animation.BlobsHomeAtCycleEnd | genart/genuary2026/02_twelverulesofanimation.mjs:147-185 | once a full cycle has elapsed, the home blob is back on its home centre and the pushed target blob back on its target centre |
| Animation.NewMover | genart/genuary2026/02_twelverulesofanimation.mjs:87-95 | one mover: home at the drawn cell, target an in-bounds cell next to it |
| Animation.ResetMovers | genart/genuary2026/02_twelverulesofanimation.mjs:83-97 | `resetMovers` makes `floor(rows*cols/20)` movers, mover i homed at the i-th draw, each with an in-bounds target at distance 1 |
| Animation.Carry | genart/genuary2026/02_twelverulesofanimation.mjs:207 | one hand-off step: the target cell takes the home cell's current hue and every other cell keeps its hue |
| Animation.HandOff | genart/genuary2026/02_twelverulesofanimation.mjs:205-208 | the hand-off loop keeps the hue grid's shape |
| Animation.HandOffAppend | genart/genuary2026/02_twelverulesofanimation.mjs:205-208 | handing off two mover lists in turn is handing off their concatenation |
| Animation.HandOffSnoc | genart/genuary2026/02_twelverulesofanimation.mjs:205-208 | the last mover in the list acts last, on the grid the earlier movers left |
| Animation.HandOffUntargeted | genart/genuary2026/02_twelverulesofanimation.mjs:205-208 | a cell no mover targets keeps its hue through the hand-off |
| Animation.LastMoverWins | genart/genuary2026/02_twelverulesofanimation.mjs:205-208 | a cell targeted by several movers ends with the hue the last of them found at its home when its turn came |
| Animation.HandOffKeepsHues | genart/genuary2026/02_twelverulesofanimation.mjs:45-51 | the hand-off only moves hues, so every hue stays a `rndInt(360)` value (also lines 205-208) |
| Animation.CycleEnd | genart/genuary2026/02_twelverulesofanimation.mjs:202-211 | the end-of-cycle loop, mover by mover, computes exactly the hand-off |
| BooleanAutomaton.MaskTest | genart/genuary2026/07_boolean_algebra.mjs:146-151 | testing `con & FLAG` on the OR of the chosen direction flags recovers exactly the chosen set, so connections can be kept as a set (also lines 16-21) |
| BooleanAutomaton.ApplyOp | genart/genuary2026/07_boolean_algebra.mjs:31-41 | `applyOp` with no inputs returns its seed (1 for AND and NAND, 0 otherwise), and the result is a bit |
| BooleanAutomaton.ApplyOpBit | genart/genuary2026/07_boolean_algebra.mjs:31-41 | every gate maps bits to a bit |
| BooleanAutomaton.AndAll | genart/genuary2026/07_boolean_algebra.mjs:33 | AND is 1 exactly when every input is 1 |
| BooleanAutomaton.OrAny | genart/genuary2026/07_boolean_algebra.mjs:35 | OR is 1 exactly when some input is 1 |
| BooleanAutomaton.XorParity | genart/genuary2026/07_boolean_algebra.mjs:37-38 | XOR is the parity of the ones; XNOR, seeded with 0 and negating at each step, is the parity of the zeros |
| BooleanAutomaton.ChainLast | genart/genuary2026/07_boolean_algebra.mjs:34-36 | NAND and NOR fold from the left: NAND is 1 after a final 0 and otherwise the negation of the chain before it; NOR is 0 after a final 1 and otherwise the negation of the chain before it |
| BooleanAutomaton.Available | genart/genuary2026/07_boolean_algebra.mjs:44-51 | the `bits` list holds each direction at most once, and exactly the directions whose neighbour lies on the grid |
| BooleanAutomaton.Remove | genart/genuary2026/07_boolean_algebra.mjs:57 | `bits.splice(index, 1)` shortens the list by one |
| BooleanAutomaton.RemoveKeeps | genart/genuary2026/07_boolean_algebra.mjs:57 | splicing out one entry of a repeat-free list removes exactly that direction and keeps the rest distinct |
| BooleanAutomaton.PickCount | genart/genuary2026/07_boolean_algebra.mjs:53-58 | drawing without replacement yields only available directions, as many as the draws or the list allows, whichever is fewer |
| BooleanAutomaton.PickConnectionFits | genart/genuary2026/07_boolean_algebra.mjs:43-61 | `pickConnection` connects only to existing neighbours, and to exactly min(K, available) distinct ones |
| BooleanAutomaton.ReadIf | genart/genuary2026/07_boolean_algebra.mjs:146-151 | each `if (con & D)` line pushes one value when the direction is connected and none otherwise |
| BooleanAutomaton.InputsCount | genart/genuary2026/07_boolean_algebra.mjs:144-151 | a cell collects exactly one input per connection, each of them a bit |
| BooleanAutomaton.Update | genart/genuary2026/07_boolean_algebra.mjs:136-162 | `update` keeps the grid's shape and every cell's gate and connections, changing only values |
| BooleanAutomaton.UpdateValid | genart/genuary2026/07_boolean_algebra.mjs:136-162 | after a step the grid still holds bits and every connection still points at an existing neighbour |
| BooleanAutomaton.UpdateIsLocal | genart/genuary2026/07_boolean_algebra.mjs:137-161 | the step is synchronous: a cell's new value depends only on its gate, its connections and the old values of the neighbours it is connected to |
| BooleanAutomaton.Init | genart/genuary2026/07_boolean_algebra.mjs:120-134 | `init` builds a rows-by-cols grid whose cells hold the drawn gate and a bit |
| BooleanAutomaton.InitValid | genart/genuary2026/07_boolean_algebra.mjs:120-134 | the fresh grid is valid, and each cell has min(3, available) connections, so every read in `update` is in bounds |
| Boxes.ClampInRange | genart/genuary2026/12_boxes_only.mjs:45 | `clamp(v, a, b)` lies in [a, b] and is the identity on values already there |
| Boxes.BelowStep | genart/genuary2026/12_boxes_only.mjs:61-65 | the curve index `isBelow` reads always lies within the curve's points |
| Boxes.BelowStepExact | genart/genuary2026/12_boxes_only.mjs:160-176 | on the canvas, with the STEPS + 1 points `update` builds, the clamp never bites: the index is `floor(y / H * STEPS)` in portrait and `floor(x / W * STEPS)` otherwise (also lines 61-65) |
| Boxes.SqDist | genart/genuary2026/12_boxes_only.mjs:97-99 | a squared distance is never negative |
| Boxes.SegParam | genart/genuary2026/12_boxes_only.mjs:88-94 | the projection parameter is clamped to [0, 1] and is 0 when the segment is shorter than the 1e-12 squared threshold |
| Boxes.Dist2PointSeg | genart/genuary2026/12_boxes_only.mjs:87-100 | `dist2PointSeg` is the squared distance from P to the segment point at the clamped parameter, and to A for a degenerate segment |
| Boxes.OnSegmentZero | genart/genuary2026/12_boxes_only.mjs:87-100 | every point of a non-degenerate segment is at distance 0 from it |
| Boxes.PolylineLeast | genart/genuary2026/12_boxes_only.mjs:102-113 | `dist2PointPolyline` stays `Infinity` exactly when there is no segment, and is otherwise the least segment distance, attained by some segment |
| Boxes.Pow2 | genart/genuary2026/12_boxes_only.mjs:136 | 2^e is positive |
| Boxes.SplitOnlyAboveMin | genart/genuary2026/12_boxes_only.mjs:133-136 | only sizes above MIN_SIZE = 2 split, and a split size halves exactly |
| Boxes.LeafSizes | genart/genuary2026/12_boxes_only.mjs:126-145 | every drawn leaf is no larger than the square it came from and never smaller than 2 |
| Boxes.LeavesFromMax | genart/genuary2026/12_boxes_only.mjs:126-145 | from a 256 square every leaf is 256 / 2^j with j at most 7 |
| Boxes.SplitUnfolds | genart/genuary2026/12_boxes_only.mjs:135-141 | a splitting square draws its top-left, top-right, bottom-left and bottom-right quarters' leaves, in that order |
| Boxes.QuartersPartition | genart/genuary2026/12_boxes_only.mjs:136-141 | the four quarters partition the square: a point of the square lies in exactly one of them |
| Boxes.SubdivideTiles | genart/genuary2026/12_boxes_only.mjs:126-145 | the leaves of `subdivide` tile its square exactly: every point of the square lies in exactly one leaf and no point outside lies in any |
| Boxes.End | genart/genuary2026/12_boxes_only.mjs:148-149 | the loops stop at the first multiple of 256 at or past the side |
| Boxes.DrawSquare | genart/genuary2026/12_boxes_only.mjs:150 | one `subdivide(x, y, MAX_SIZE)` call appends leaves covering exactly the 256 square at (x, y), keeping what was drawn before |
| Boxes.DrawRow | genart/genuary2026/12_boxes_only.mjs:149-151 | one row of the loop appends leaves covering exactly the 256-high band at y, out to the first multiple of 256 past W |
| Boxes.DrawQuadtree | genart/genuary2026/12_boxes_only.mjs:147-153 | `drawQuadtree` draws no point twice, covers every point of the W by H canvas, and draws squares of size 2 to 256 only |
| CircleGrid.Ceil | genart/genuary2026/14_everything_fits_perfectly.mjs:20-21 | `Math.ceil`: the least integer at or above the value |
| CircleGrid.Init | genart/genuary2026/14_everything_fits_perfectly.mjs:18-23 | `init`: cells a tenth of the shorter side, at least 10 rows and 10 columns covering the canvas with less than a cell to spare, and, because `fill([])` shares one array along a row, one bucket per row that every cell of the row names |
| CircleGrid.RowTable | genart/genuary2026/14_everything_fits_perfectly.mjs:22 | the cell table `init` builds: every cell of row r names the same bucket r |
| CircleGrid.CeilCovers | genart/genuary2026/14_everything_fits_perfectly.mjs:20-21 | `ceil(v / cs)` cells of size cs cover v, and one fewer do not |
| CircleGrid.TruncBounds | genart/genuary2026/14_everything_fits_perfectly.mjs:41-42 | `| 0` truncates toward zero by less than one, from below for positive values and from above for negative ones |
| CircleGrid.GridIndex | genart/genuary2026/14_everything_fits_perfectly.mjs:40-45 | `gridIndex` always names a cell of the grid |
| CircleGrid.GridIndexInside | genart/genuary2026/14_everything_fits_perfectly.mjs:40-45 | a point over the grid gets the cell it lies in: the clamp only moves points beyond the edges |
| CircleGrid.AxisInside | genart/genuary2026/14_everything_fits_perfectly.mjs:41 | on one axis, a coordinate inside n cells maps to the cell it lies in |
| CircleGrid.ClampCloser | genart/genuary2026/14_everything_fits_perfectly.mjs:41-42 | the clamp of `gridIndex` never pulls two values further apart |
| CircleGrid.TruncCloser | genart/genuary2026/14_everything_fits_perfectly.mjs:41-42 | truncating two values less than 2 apart gives integers at most 2 apart |
| CircleGrid.NearbyCells | genart/genuary2026/14_everything_fits_perfectly.mjs:40-45 | points less than two cells apart on both axes get cells at most two apart on both axes |
| CircleGrid.NearBelow | genart/genuary2026/14_everything_fits_perfectly.mjs:47-64 | the neighbour search returns only indices that the buckets hold |
| CircleGrid.NearFinds | genart/genuary2026/14_everything_fits_perfectly.mjs:47-64 | the search with a given reach returns every index bucketed in a cell within that reach of the point's cell |
| CircleGrid.NearCellFinds | genart/genuary2026/14_everything_fits_perfectly.mjs:51-61 | the row and column scan around a cell visits every bucket within the reach |
| CircleGrid.ScanSharedRows | genart/genuary2026/14_everything_fits_perfectly.mjs:51-61 | with the buckets `init` builds, the scan of a block of rows yields each row's shared bucket once per on-grid column |
| CircleGrid.NeighboursNearSharedRows | genart/genuary2026/14_everything_fits_perfectly.mjs:47-64 | on the grid `init` builds, `neighborsNear` returns the whole contents of rows gy-1 to gy+1 whatever the columns, each row repeated once per on-grid column of gx-1 to gx+1 |
| CircleGrid.SharedRowsAround | genart/genuary2026/14_everything_fits_perfectly.mjs:51-61 | the reach-1 scan around a cell on such a grid is the three-row view with repeats |
| CirclePacking.Start | genart/genuary2026/14_everything_fits_perfectly.mjs:7-23 | the initial state: the grid `init` builds, no circles, not done, and every bucket index valid (also lines 185-186) |
| CirclePacking.CanGrow | genart/genuary2026/14_everything_fits_perfectly.mjs:106-127 | `canGrow` only allows a growth that keeps the radius within a cell |
| CirclePacking.StepAt | genart/genuary2026/14_everything_fits_perfectly.mjs:133-144 | one pass of the `growTick` loop changes only circle i: a dead circle stays as it is, a living one either grows by dr or stops for good |
| CirclePacking.GrowFrom | genart/genuary2026/14_everything_fits_perfectly.mjs:133-146 | the rest of the loop from circle i applies one such pass to each later circle, against radii already updated, and counts the circles still growing |
| CirclePacking.GrowTick | genart/genuary2026/14_everything_fits_perfectly.mjs:129-147 | `growTick` keeps the grid, the count and the done flag, changes each circle only by growing it by `speed * dt` or stopping it, and returns the number that grew |
| CirclePacking.TickNeverShrinks | genart/genuary2026/14_everything_fits_perfectly.mjs:129-147 | with a non-negative step a tick never shrinks a circle, and a stopped circle never starts again |
| CirclePacking.AliveZero | genart/genuary2026/14_everything_fits_perfectly.mjs:129-155 | the tick's count is 0 exactly when no circle is left growing |
| CirclePacking.Push | genart/genuary2026/14_everything_fits_perfectly.mjs:95-100 | adding a circle appends a living circle of the initial radius and puts its index into the bucket of its centre's cell, nothing else changing |
| CirclePacking.PushInto | genart/genuary2026/14_everything_fits_perfectly.mjs:98-100 | the new index is appended to exactly the bucket that the centre's cell names |
| CirclePacking.Attempt | genart/genuary2026/14_everything_fits_perfectly.mjs:74-100 | one attempt either pushes a circle at the drawn point (when the spot is clear) or changes nothing |
| CirclePacking.SpawnFrom | genart/genuary2026/14_everything_fits_perfectly.mjs:73-101 | the loop from a given attempt adds at most the remaining target and at most one circle per remaining attempt, only after the existing circles |
| CirclePacking.SpawnCircles | genart/genuary2026/14_everything_fits_perfectly.mjs:69-104 | `spawnCircles` adds at most ten circles from at most 2000 attempts, appended after the existing ones, and returns how many |
| CirclePacking.Update | genart/genuary2026/14_everything_fits_perfectly.mjs:149-156 | `update`: spawn, then grow; done becomes true exactly when it was already or when the frame adds no circle and leaves none growing |
| CirclePacking.OverlapsSymmetric | genart/genuary2026/14_everything_fits_perfectly.mjs:87-123 | the overlap test `dx*dx + dy*dy < rr*rr` is symmetric in the two circles |
| CirclePacking.OverlapIsClose | genart/genuary2026/14_everything_fits_perfectly.mjs:40-45 | overlapping discs of at most a cell's radius sit in cells at most two apart on both axes (also line 123) |
| CirclePacking.OverlapIsListed | genart/genuary2026/14_everything_fits_perfectly.mjs:47-64 | a search reaching two cells lists every circle that a disc of at most a cell's radius overlaps (also line 123) |
| CirclePacking.SafeGrowthFits | genart/genuary2026/14_everything_fits_perfectly.mjs:106-127 | with a two-cell reach, a circle allowed to grow overlaps no other circle at its new radius |
| CirclePacking.ReplaceFits | genart/genuary2026/14_everything_fits_perfectly.mjs:139 | growing a circle in place to a radius that overlaps nobody keeps the packing invariant |
| CirclePacking.SafeStepFits | genart/genuary2026/14_everything_fits_perfectly.mjs:133-144 | one pass of the loop body with a two-cell reach keeps the packing invariant |
| CirclePacking.SafeGrowFromFits | genart/genuary2026/14_everything_fits_perfectly.mjs:133-146 | the whole grow loop with a two-cell reach keeps the packing invariant |
| CirclePacking.SafePushFits | genart/genuary2026/14_everything_fits_perfectly.mjs:78-100 | pushing a circle at a spot the two-cell search found clear keeps the packing invariant |
| CirclePacking.SafeAttemptFits | genart/genuary2026/14_everything_fits_perfectly.mjs:74-100 | one spawn attempt with a two-cell reach keeps the packing invariant |
| CirclePacking.SafeSpawnFromFits | genart/genuary2026/14_everything_fits_perfectly.mjs:73-101 | the spawn loop with a two-cell reach keeps the packing invariant |
| CirclePacking.UpdateKeepsFit | genart/genuary2026/14_everything_fits_perfectly.mjs:149-156 | with a two-cell reach every frame keeps the circles inside their cell size and pairwise apart |
| CirclePacking.StartFits | genart/genuary2026/14_everything_fits_perfectly.mjs:18-23 | the empty canvas satisfies the packing invariant once a cell is at least the initial radius |
| CirclePacking.HundredGrid | genart/genuary2026/14_everything_fits_perfectly.mjs:18-23 | on a 100 by 100 canvas `init` builds ten rows and ten columns of ten-pixel cells, row r naming bucket r, all buckets empty |
| CirclePacking.TwoRowsReached | genart/genuary2026/14_everything_fits_perfectly.mjs:95-139 | the counterexample state is reachable: two spawns at (5, 5) and (5, 24) on a fresh 100 by 100 canvas, then growth to radius 9.5 |
| CirclePacking.GridSearchBlind | genart/genuary2026/14_everything_fits_perfectly.mjs:47-64 | on that grid the written one-cell search from each circle sees only the circle itself (twice, since the row's cells share a bucket), never the other |
| CirclePacking.GridTickGrowsBoth | genart/genuary2026/14_everything_fits_perfectly.mjs:129-147 | one written tick at the longest step grows both circles to 9.55 |
| CirclePacking.WrittenTickOverlaps | genart/genuary2026/14_everything_fits_perfectly.mjs:106-147 | the state satisfies the packing invariant, yet one tick with the written one-cell reach grows the two circles into an overlap; with a two-cell reach the same tick keeps them apart (also lines 47-64) |
| City.HeightOf | genart/genuary2026/08_city.mjs:113 | `1 + floor(random * MAX_FLOORS)` is a height from 1 to 20 |
| City.Init | genart/genuary2026/08_city.mjs:109-116 | `init(N)`: an N by N grid of empty towers whose heights are the drawn ones, all within [1, MAX_FLOORS] |
| City.Grow | genart/genuary2026/08_city.mjs:123-134 | the growth pass keeps the N by N shape |
| City.Update | genart/genuary2026/08_city.mjs:120-137 | `update(N)` is the growth pass when some tower grew, and a fresh `init` when none did |
| City.GrowSteps | genart/genuary2026/08_city.mjs:123-134 | the pass raises exactly the towers below their height whose draw is under the rate, by one floor, and never changes a height |
| City.UpdateSane | genart/genuary2026/08_city.mjs:120-137 | every update keeps `current <= max` and every height within [1, MAX_FLOORS] |
| City.RestartsWhenStalled | genart/genuary2026/08_city.mjs:127-136 | if every unfinished tower draws at or above the rate, the city restarts, even though some towers are unfinished |
| City.GrowingDoesNotRestart | genart/genuary2026/08_city.mjs:127-136 | one unfinished tower that draws under the rate keeps the city growing instead of restarting |
| City.DrawOrder | genart/genuary2026/08_city.mjs:91-104 | `drawGrid` visits every cell of the N by N grid exactly once, in non-decreasing i + j |
| City.Diagonal | genart/genuary2026/08_city.mjs:93-103 | one pass of the outer loop adds exactly the cells of anti-diagonal s, by increasing i, skipping j outside [0, N) |
| City.Visit | genart/genuary2026/08_city.mjs:94-101 | one drawn cell of the inner loop is (i, s - i) inside the grid, appended after the earlier cells |
| City.DiagonalDone | genart/genuary2026/08_city.mjs:93-103 | after the inner loop, the cells drawn so far are the earlier ones plus diagonal s |
| City.DrawnBackToFront | genart/genuary2026/08_city.mjs:91-104 | a tower drawn later never stands higher up the screen than one drawn earlier, so nearer towers are painted over farther ones (also lines 9-14) |
| City.FitsIff | genart/genuary2026/08_city.mjs:24-26 | for a positive N the diamond test `halfW / a + halfH / b <= 1` is equivalent to N being at least the needed size |
| City.NToCover | genart/genuary2026/08_city.mjs:16-29 | `computeNToCover` returns the first N from the starting size whose diamond covers the padded canvas |
| City.NToCoverClosed | genart/genuary2026/08_city.mjs:16-29 | in closed form that N is the larger of the starting size and the ceiling of the needed size, so the loop always ends |
| CrazyAutomaton.Clamp | genart/genuary2026/09_crazy_automaton.mjs:20 | `clamp` is at least lo, at most hi when lo <= hi, and the identity inside [lo, hi] |
| CrazyAutomaton.DenominatorIsTwiceOrient | genart/genuary2026/09_crazy_automaton.mjs:230-259 | the circumcentre denominator `d` is twice the orientation determinant `orient` |
| CrazyAutomaton.OrientSwap | genart/genuary2026/09_crazy_automaton.mjs:259-309 | exchanging the first two corners negates the orientation, which is why the fan swaps a and b |
| CrazyAutomaton.Circumcenter | genart/genuary2026/09_crazy_automaton.mjs:229-243 | `circumcenter` returns null exactly when `|d| < EPS` |
| CrazyAutomaton.MakeSuperTriangle | genart/genuary2026/09_crazy_automaton.mjs:215-226 | the three super-triangle corners are appended after the n input points, at indices n, n + 1 and n + 2, the inputs unchanged |
| CrazyAutomaton.SuperTriangleOrientation | genart/genuary2026/09_crazy_automaton.mjs:215-268 | the super-triangle has orientation -4 margin², so it winds clockwise and has a circumcircle unless the canvas is tiny |
| CrazyAutomaton.Key | genart/genuary2026/09_crazy_automaton.mjs:257 | `edgeKey` stores the smaller endpoint first and names the same pair of endpoints |
| CrazyAutomaton.KeyCanonical | genart/genuary2026/09_crazy_automaton.mjs:257 | keys ignore the order of the endpoints and tell different unordered pairs apart |
| CrazyAutomaton.Incidences | genart/genuary2026/09_crazy_automaton.mjs:362-373 | three edge incidences per triangle, each naming a side of the triangle it comes from (also lines 281-283) |
| CrazyAutomaton.FindKey | genart/genuary2026/09_crazy_automaton.mjs:368 | the `Map.get` lookup finds the entry for a key, or reports that there is none (also line 285) |
| CrazyAutomaton.GroupSpec | genart/genuary2026/09_crazy_automaton.mjs:360-373 | the insertion-ordered Map has one entry per key that occurs, holding exactly the values recorded under that key, in order |
| CrazyAutomaton.SelectMeaning | genart/genuary2026/09_crazy_automaton.mjs:360-373 | a value is listed under a key exactly when that (key, value) pair was recorded |
| CrazyAutomaton.EdgeToTrisMeaning | genart/genuary2026/09_crazy_automaton.mjs:360-373 | `edgeToTris` lists under each edge exactly the triangles having it as a side |
| CrazyAutomaton.IncidencesMeaning | genart/genuary2026/09_crazy_automaton.mjs:362-373 | an incidence (e, i) is recorded exactly when e is a side of triangle i |
| CrazyAutomaton.Bad | genart/genuary2026/09_crazy_automaton.mjs:272-276 | the bad triangles are exactly those whose circumcircle holds the new point |
| CrazyAutomaton.Kept | genart/genuary2026/09_crazy_automaton.mjs:298-302 | the filter keeps exactly the triangles that are not bad |
| CrazyAutomaton.Boundary | genart/genuary2026/09_crazy_automaton.mjs:292-296 | the boundary holds exactly the edges whose count is 1 |
| CrazyAutomaton.BoundaryIsOnceEdges | genart/genuary2026/09_crazy_automaton.mjs:278-296 | an edge is on the cavity boundary exactly when it is a side of exactly one bad triangle |
| CrazyAutomaton.IncidencesBelow | genart/genuary2026/09_crazy_automaton.mjs:278-290 | edges of triangles over the points have both endpoints among the points |
| CrazyAutomaton.Fan | genart/genuary2026/09_crazy_automaton.mjs:304-318 | the triangle on boundary edge (u, v) and the new point keeps the point as corner c, joins the edge, and is swapped to positive orientation; it is dropped exactly when its circumcentre is degenerate |
| CrazyAutomaton.FanAll | genart/genuary2026/09_crazy_automaton.mjs:304-319 | every new triangle has the new point as c and a boundary edge as its other side, well oriented |
| CrazyAutomaton.FanAllComplete | genart/genuary2026/09_crazy_automaton.mjs:304-319 | every boundary edge whose triangle with the new point is not degenerate gets a new triangle |
| CrazyAutomaton.Insert | genart/genuary2026/09_crazy_automaton.mjs:270-320 | one insertion keeps only non-bad old triangles and adds well-oriented triangles on the new point |
| CrazyAutomaton.InsertFansBoundary | genart/genuary2026/09_crazy_automaton.mjs:278-319 | every triangle an insertion adds rests on an edge that exactly one bad triangle had |
| CrazyAutomaton.InsertFrom | genart/genuary2026/09_crazy_automaton.mjs:270-320 | after the insertion loop every triangle is an old one or a well-oriented one on an inserted point |
| CrazyAutomaton.RemoveSuper | genart/genuary2026/09_crazy_automaton.mjs:322-324 | the final filter keeps exactly the triangles that touch no super-triangle corner |
| CrazyAutomaton.BuildDelaunay | genart/genuary2026/09_crazy_automaton.mjs:261-327 | `buildDelaunay` returns the points with the three corners appended, and triangles over input points only, each well oriented with a circumcircle |
| CrazyAutomaton.AddUnique | genart/genuary2026/09_crazy_automaton.mjs:344-345 | `Set.add` holds the old members and the new one, nothing else |
| CrazyAutomaton.LinkStep | genart/genuary2026/09_crazy_automaton.mjs:335-347 | one edge entry keeps one neighbour set per site |
| CrazyAutomaton.LinkStepMeaning | genart/genuary2026/09_crazy_automaton.mjs:335-347 | after one edge entry, v is u's neighbour exactly when it was before or the entry links them, and the set stays duplicate-free |
| CrazyAutomaton.BuildNeighbours | genart/genuary2026/09_crazy_automaton.mjs:330-333 | one neighbour set per site |
| CrazyAutomaton.NeighboursMeaning | genart/genuary2026/09_crazy_automaton.mjs:330-352 | v is u's neighbour exactly when some entry shared by two triangles links them among real sites, and every set is duplicate-free |
| CrazyAutomaton.NeighboursSymmetric | genart/genuary2026/09_crazy_automaton.mjs:343-346 | the neighbour relation is symmetric |
| CrazyAutomaton.NeighbourBelow | genart/genuary2026/09_crazy_automaton.mjs:343 | every neighbour is a real site, never a super-triangle corner |
| CrazyAutomaton.Counts | genart/genuary2026/09_crazy_automaton.mjs:349 | `counts[i]` is the size of site i's neighbour list |
| CrazyAutomaton.CountsAreSetSizes | genart/genuary2026/09_crazy_automaton.mjs:349 | each count is the number of distinct neighbours |
| CrazyAutomaton.NeighbourGraph | genart/genuary2026/09_crazy_automaton.mjs:354-381 | the neighbour graph derived from the triangles is symmetric, with counts equal to set sizes |
| CrazyAutomaton.Recalculate | genart/genuary2026/09_crazy_automaton.mjs:354-381 | `recalculateTriangulation`: triangles over the sites only, and a symmetric neighbour graph |
| CrazyAutomaton.D2 | genart/genuary2026/09_crazy_automaton.mjs:397-399 | a squared distance is never negative |
| CrazyAutomaton.Scan | genart/genuary2026/09_crazy_automaton.mjs:392-402 | the scan returns -1 exactly for no neighbours, and otherwise the first neighbour at the greatest squared distance |
| CrazyAutomaton.Spawn | genart/genuary2026/09_crazy_automaton.mjs:383-423 | no child exactly when the site has no neighbours; otherwise the jittered midpoint towards the first farthest neighbour, clamped into the canvas |
| CrazyAutomaton.FirstFarthestUnique | genart/genuary2026/09_crazy_automaton.mjs:392-402 | the strict `d2 > bestD2` scan singles out one neighbour: two positions that are both the first at the greatest distance are the same |
| CrazyAutomaton.SpawnNearMidpoint | genart/genuary2026/09_crazy_automaton.mjs:409-422 | when the midpoint of a site and its first farthest neighbour lies on the canvas, the spawned child sits within the jitter of it on each axis, so less than one unit away along either axis for draws in [-1, 1) |
| CrazyAutomaton.Survivors | genart/genuary2026/09_crazy_automaton.mjs:429-436 | the survivors of the first m sites are at most m |
| CrazyAutomaton.Children | genart/genuary2026/09_crazy_automaton.mjs:437-441 | the children of the first m sites are at most m |
| CrazyAutomaton.SurvivorsMeaning | genart/genuary2026/09_crazy_automaton.mjs:429-436 | the survivors are as many as the sites whose count n (0 when missing) has A <= n < C |
| CrazyAutomaton.StepCA | genart/genuary2026/09_crazy_automaton.mjs:425-448 | `stepCA`: the survivors in order, then the spawned children, cut to MAX_SITES; births count the children and deaths the sites that did not survive |
| CrazyAutomaton.SyncVel | genart/genuary2026/09_crazy_automaton.mjs:450-458 | `syncVel` leaves exactly n velocities, keeping existing ones and padding with zero |
| CyclicAutomaton.Init | genart/genuary2026/16_order_and_disorder.mjs:16-36 | `init` picks one of the three configurations (so k >= 3 and t >= 2) and fills a rows-by-cols grid with states below k |
| CyclicAutomaton.Wrap | genart/genuary2026/16_order_and_disorder.mjs:76-77 | `(i + d + n) % n` is on the grid: i + d when that is inside, and the opposite edge when it steps off |
| CyclicAutomaton.Next | genart/genuary2026/16_order_and_disorder.mjs:79-83 | `(v + 1) % k` is a state below k |
| CyclicAutomaton.NextInjective | genart/genuary2026/16_order_and_disorder.mjs:79-83 | two states below k have the same successor only when they are equal |
| CyclicAutomaton.CountAhead | genart/genuary2026/16_order_and_disorder.mjs:72-81 | counting over a list of offsets never exceeds the number of offsets |
| CyclicAutomaton.Count | genart/genuary2026/16_order_and_disorder.mjs:70-81 | a cell has at most eight neighbours ahead |
| CyclicAutomaton.OffsetAt | genart/genuary2026/16_order_and_disorder.mjs:72-74 | each offset (dr, dc) other than (0, 0) is one of the eight that the loops visit |
| CyclicAutomaton.Visit | genart/genuary2026/16_order_and_disorder.mjs:74-79 | one pass of the inner body adds the neighbour at that offset to the count exactly when it holds the next state |
| CyclicAutomaton.CountRow | genart/genuary2026/16_order_and_disorder.mjs:73-80 | the inner loop over dc counts the offsets of row dr |
| CyclicAutomaton.CountNeighbours | genart/genuary2026/16_order_and_disorder.mjs:70-81 | the two nested loops compute the cell's count of neighbours ahead |
| CyclicAutomaton.Update | genart/genuary2026/16_order_and_disorder.mjs:65-88 | `update` keeps the grid's shape and the states below k; each cell keeps its state or takes the next one, and it moves exactly when at least t neighbours hold the next state |
| CyclicAutomaton.Shift | genart/genuary2026/16_order_and_disorder.mjs:79-83 | renaming every state to its successor keeps a valid grid of the same shape |
| CyclicAutomaton.ShiftKeepsCount | genart/genuary2026/16_order_and_disorder.mjs:79 | renaming every state leaves each cell's count of neighbours ahead unchanged |
| CyclicAutomaton.UpdateCommutesWithShift | genart/genuary2026/16_order_and_disorder.mjs:65-88 | the rule only compares a state with its successor, so renaming all states commutes with a step |
| CyclicAutomaton.UniformIsStill | genart/genuary2026/16_order_and_disorder.mjs:65-88 | a grid holding one state everywhere never changes, since no neighbour is ahead and every threshold is positive |
| CyclicAutomaton.NoneAhead | genart/genuary2026/16_order_and_disorder.mjs:79 | in a uniform grid no neighbour holds the next state |
| FloodFill.Pushes | genart/genesis/growth.mjs:130-133 | the four guarded pushes are exactly the in-bounds 4-neighbours of the pixel |
| FloodFill.AdjacentInBounds | genart/genesis/growth.mjs:130-133 | every pushed neighbour of an in-bounds pixel is in bounds |
| FloodFill.Fill | genart/genesis/growth.mjs:105-135 | `fill` only adds to the claimed set, never claims a line pixel, claims the start pixel's whole region of non-line pixels reachable through unclaimed pixels and nothing beyond it (every pixel it claims is reached from the start by a walk through pixels it claimed), and paints exactly what it claims with the given colour (nothing for `null`) |
| FloodFill.Step | genart/genesis/growth.mjs:112-134 | one iteration of the loop keeps the fill invariant: claimed pixels are painted, every unclaimed neighbour of a claimed pixel is still on the stack, and every stacked position is the start or a neighbour of a claimed pixel |
| FloodFill.ClaimKeepsInv | genart/genesis/growth.mjs:121-133 | claiming an unclaimed, non-line popped pixel and pushing its neighbours keeps the whole fill invariant |
| FloodFill.SkipKeepsInv | genart/genesis/growth.mjs:114-119 | dropping a popped pixel that is claimed or a line pixel keeps the whole fill invariant |
| FloodFill.FrontierClaim | genart/genesis/growth.mjs:121-133 | claiming the popped pixel and pushing its neighbours keeps every unclaimed neighbour of a claimed pixel on the stack |
| FloodFill.FrontierSkip | genart/genesis/growth.mjs:114-119 | dropping a popped pixel that is already claimed or a line pixel keeps the frontier |
| FloodFill.Claim | genart/genesis/growth.mjs:121-128 | claiming a pixel marks it and paints it with the colour, when there is one, leaving every other pixel alone |
| FloodFill.ReachClaim | genart/genesis/growth.mjs:121-133 | a popped pixel is the start or a neighbour of an earlier claim, so once claimed it is reached from the start through claimed pixels, and the neighbours it pushes are neighbours of a claimed pixel |
| FloodFill.SourcedPop | genart/genesis/growth.mjs:112-119 | popping the stack leaves only the start and neighbours of claimed pixels on it |
| FloodFill.ClaimShrinks | genart/genesis/growth.mjs:112-134 | each claim leaves one fewer unclaimed pixel, which is why the loop ends |
| FloodFill.PathStaysIn | genart/genesis/growth.mjs:105-135 | a walk through non-line pixels that starts in a sealed claimed set never leaves it |
| FloodFill.FillPlain | genart/genesis/growth.mjs:65-73 | a `null`-coloured fill claims the start pixel's region and only pixels a non-line walk from the start reaches, keeps the claimed set sealed, and paints nothing |
| FloodFill.ReachedIsPath | genart/genesis/growth.mjs:105-135 | a walk through pixels a fill claimed is a walk through non-line pixels |
| FloodFill.FromFrame | genart/genesis/growth.mjs:61-74 | a fill started on the frame adds only pixels reached from the frame |
| FloodFill.FrameRows | genart/genesis/growth.mjs:61-67 | the first frame loop leaves every top and bottom pixel claimed or a line pixel, with the claimed set sealed and holding only pixels reached from the frame |
| FloodFill.FrameColumns | genart/genesis/growth.mjs:68-74 | the second frame loop does the same for the left and right columns, again claiming only pixels reached from the frame |
| FloodFill.FrameFill | genart/genesis/growth.mjs:62-66 | one frame step fills from a frame pixel only when it is unclaimed; afterwards that pixel is claimed or a line pixel, the claimed set stays sealed, and every claimed pixel is reached from the frame |
| FloodFill.RowsNext | genart/genesis/growth.mjs:61-67 | covering both ends of a column extends the covered stretch of the top and bottom rows by one |
| FloodFill.ColumnsNext | genart/genesis/growth.mjs:68-74 | covering both ends of a row extends the covered stretch of the left and right columns by one |
| FloodFill.FramePass | genart/genesis/growth.mjs:61-74 | after the frame loops the claimed set is sealed, is exactly the set of pixels a non-line walk from the frame reaches, and leaves no frame pixel unclaimed unless it is a line pixel; nothing is painted |
| FloodFill.FrameCovered | genart/genesis/growth.mjs:61-74 | covered top and bottom rows and side columns cover the whole frame |
| FloodFill.FrameWalksStay | genart/genesis/growth.mjs:61-74 | a sealed set covering the frame holds every walk that starts at a non-line frame pixel |
| FloodFill.RepaintStep | genart/genesis/growth.mjs:88 | one more coloured fill keeps the record: pixels claimed before and line pixels keep their colour, and every other pixel keeps its colour or takes one from the palette |
| FloodFill.Visit | genart/genesis/growth.mjs:78-88 | the interior loop body skips a claimed pixel or a line pixel, and otherwise fills from it with its colour |
| FloodFill.InteriorRow | genart/genesis/growth.mjs:77-89 | one row of the interior pass leaves every pixel of the row claimed or a line pixel |
| FloodFill.InteriorPass | genart/genesis/growth.mjs:76-90 | the interior pass leaves every interior pixel claimed or a line pixel; pixels claimed before and line pixels keep their colour, every other pixel keeps its colour or takes one from the palette |
| FloodFill.Paint | genart/genesis/growth.mjs:54-93 | `paint`: every pixel ends up claimed or a line pixel; `outside` is exactly the pixels reachable from the frame, and they and line pixels keep their colour; every other pixel keeps its colour or takes a palette colour, and with single-colour inks every non-line pixel the frame does not reach, a region cut off by lines included, takes one |
| FloodFill.PaintInterior | genart/genesis/pattern.mjs:218-242 | the `paint` of pattern.mjs, the interior pass alone: every interior pixel ends claimed or a line pixel, and pixels keep their colour or take one from the palette, line pixels keeping theirs |
| FloodFill.RepaintedFacts | genart/genesis/growth.mjs:54-93 | the repaint record read pixel by pixel: kept pixels keep their colour, and with single-colour inks every non-line pixel not claimed before is painted from the palette |
| GenesisGrowth.ColourAt | genart/genesis/growth.mjs:86-99 | `COLORS[i4 % COLORS.length]` is one of the three opaque palette colours |
| GenesisGrowth.Inks | genart/genesis/growth.mjs:86-88 | the fill started at (x, y) uses the single colour chosen by its byte offset |
| GenesisGrowth.InksInPalette | genart/genesis/growth.mjs:86-99 | every fill colour growth.mjs can choose is red, blue or yellow |
| GenesisGrowth.Paint | genart/genesis/growth.mjs:54-93 | `paint`: the frame pass's claimed set is exactly the pixels reachable from the frame and keeps its colour, as do line pixels; every other non-line pixel, a region cut off from the frame included, ends up red, blue or yellow |
| GenesisShape.Inks | genart/genesis/shape.mjs:118-120 | each interior fill uses the one colour `randColor` drew for it (also line 11) |
| GenesisShape.InksInPalette | genart/genesis/shape.mjs:5-11 | every colour shape.mjs can draw is red, blue or yellow |
| GenesisShape.Paint | genart/genesis/shape.mjs:86-125 | `paint`: the frame pass claims exactly the pixels reachable from the frame; they and line pixels keep their colour; every other non-line pixel, a region cut off from the frame included, ends up red, blue or yellow |
| GenesisSymmetry.Inks | genart/genesis/symmetry.mjs:110-112 | each interior fill uses the one colour `randColor` drew for it (also line 12) |
| GenesisSymmetry.InksInPalette | genart/genesis/symmetry.mjs:3-12 | every colour symmetry.mjs can draw is one of its six |
| GenesisSymmetry.Paint | genart/genesis/symmetry.mjs:78-117 | `paint`: the frame pass claims exactly the pixels reachable from the frame; they and line pixels keep their colour; every other non-line pixel, a region cut off from the frame included, ends up one of the six colours |
| GenesisSymmetry.ReflectInvolution | genart/genesis/symmetry.mjs:40 | `reflectLocalTheta` is an involution that swaps the two sides of the wedge and keeps angles inside it |
| GenesisSymmetry.RaddiiContiguous | genart/genesis/symmetry.mjs:131-134 | the rings of `raddii` are contiguous and equally wide, the first starting at the centre and the last ending at `radius` |
| GenesisPattern.Row | genart/genesis/pattern.mjs:3-124 | each row of a pattern has eight entries |
| GenesisPattern.Square | genart/genesis/pattern.mjs:3-124 | each pattern is eight rows of eight |
| GenesisPattern.PatternsSquare | genart/genesis/pattern.mjs:3-124 | there are twelve patterns, each 8 by 8, so `inPattern` always reads in range (also lines 179-184) |
| GenesisPattern.InPatternReads | genart/genesis/pattern.mjs:179-184 | `inPattern` is true exactly when row y mod 8, column x mod 8 of the pattern is 1 |
| GenesisPattern.OppositeInvolution | genart/genesis/pattern.mjs:126-134 | `getOppositeEdge` maps the four edges to a different edge, undoes itself, and pairs left with right and top with bottom |
| GenesisPattern.RndInRange | genart/genesis/pattern.mjs:133-144 | `rnd(n)` is an index below n |
| GenesisPattern.PickPosition | genart/genesis/pattern.mjs:135-146 | `pickPosition` gives a point exactly for the four edges; any other edge matches no case |
| GenesisPattern.PickOnEdge | genart/genesis/pattern.mjs:135-146 | the picked point lies on the canvas and on the requested edge |
| GenesisPattern.LineCrosses | genart/genesis/pattern.mjs:147-155 | each line joins opposite edges: its ends are on the two side columns or on the top and bottom rows |
| GenesisPattern.Inks | genart/genesis/pattern.mjs:235-237 | each interior fill uses the pattern drawn for it |
| GenesisPattern.InksInPalette | genart/genesis/pattern.mjs:204-209 | a pattern fill only ever paints black |
| GenesisPattern.Paint | genart/genesis/pattern.mjs:218-242 | `paint`: every interior pixel is claimed or a line pixel; line pixels keep their colour and every other pixel keeps its colour or turns black |
| GenesisRules.Growth | genart/genesis/rules.mjs:10-17 | each rewrite quadruples the X symbols, and the F symbols become twice the Fs plus three per X |
| GenesisRules.BodyCounts | genart/genesis/rules.mjs:10-17 | what one symbol rewrites to: X gives four X and three F, F gives two F, anything else is kept |
| GenesisRules.XBody | genart/genesis/rules.mjs:11 | the X rule's body holds four X and three F |
| GenesisRules.Tick | genart/genesis/rules.mjs:97-111 | `tick` rewrites once and schedules another tick exactly while iterations remain, counting them down |
| GenesisRules.AnimateRewrites | genart/genesis/rules.mjs:97-111 | with n iterations left the tick chain runs n + 1 ticks and rewrites n + 1 times |
| GenesisRules.AnimateFromReset | genart/genesis/rules.mjs:113-121 | from "X" with 6 iterations the sketch rewrites exactly seven times and stops (also lines 7-8) |
| GenesisRules.Move | genart/genesis/rules.mjs:40-94 | one symbol of `render`: `]` on an empty stack and any symbol outside `F+-[]` change nothing, and only brackets touch the stack |
| GenesisRules.TraceAppend | genart/genesis/rules.mjs:40-94 | tracing a concatenation is tracing the second word from where the first ended |
| GenesisRules.KeepsBottom | genart/genesis/rules.mjs:76-92 | a word that never closes more brackets than it opened leaves the saved poses beneath it untouched and adds its depth on top |
| GenesisRules.BracketRestores | genart/genesis/rules.mjs:76-92 | a balanced bracketed word returns to the pose and stack it started from |
| GenesisGraph.AddNode | genart/genesis/graph.mjs:13-25 | `addNode` returns the old node count as the new id, appends exactly that node and keeps the graph well formed |
| GenesisGraph.AddEdge | genart/genesis/graph.mjs:27 | `addEdge` appends one edge and nothing else; an edge between existing distinct nodes keeps the graph well formed and loop-free |
| GenesisGraph.Without | genart/genesis/graph.mjs:29-31 | the filter keeps exactly the edges that join neither (a, b) nor (b, a) |
| GenesisGraph.WithoutAppend | genart/genesis/graph.mjs:29-31 | the filter keeps the surviving edges in their original order |
| GenesisGraph.RemoveEdge | genart/genesis/graph.mjs:29-31 | `removeEdge` deletes every copy of the edge in either direction, keeps every other edge and the nodes, and keeps the graph well formed and loop-free |
| GenesisGraph.ContribsMeaning | genart/genesis/graph.mjs:36-39 | the loop adds y to x's set exactly when some edge joins x and y in either direction |
| GenesisGraph.Neighbours | genart/genesis/graph.mjs:34-39 | a node's neighbour set holds no duplicates, as a `Set` does |
| GenesisGraph.NeighboursMeaning | genart/genesis/graph.mjs:33-42 | y is in x's neighbour set exactly when x and y are adjacent |
| GenesisGraph.AdjacencyMatrix | genart/genesis/graph.mjs:33-42 | `adjacencyMatrix` has one set per node, each holding exactly that node's neighbours |
| GenesisGraph.AdjacencySymmetric | genart/genesis/graph.mjs:33-42 | adjacency is symmetric, names only existing nodes, and without self-loops no node is its own neighbour |
| GenesisGraph.CycIsMod | genart/genesis/graph.mjs:138 | the scan position is `(start + k) % m` (also lines 54, 76, 95, 118) |
| GenesisGraph.CyclicHit | genart/genesis/graph.mjs:53-54 | a cyclic scan of m steps from any start visits every position |
| GenesisGraph.FirstCommon | genart/genesis/graph.mjs:59-64 | the inner loop finds a w other than v that is in both sets, and finding none means there is none |
| GenesisGraph.ApexOn | genart/genesis/graph.mjs:54-65 | on one edge the search returns a node adjacent to both ends (and, without loops, distinct from them), or reports that the edge closes no triangle |
| GenesisGraph.ApexOnMeaning | genart/genesis/graph.mjs:56-64 | walking the smaller set of either end finds an apex exactly when the edge has one |
| GenesisGraph.NoTriangleAnywhere | genart/genesis/graph.mjs:53-68 | if no scanned edge has an apex then no edge of the graph has one |
| GenesisGraph.FindRandomTriangle | genart/genesis/graph.mjs:44-68 | `findRandomTriangle` returns an existing edge and a third node adjacent to both ends, or null only when no edge lies on a triangle |
| GenesisGraph.FindCrowdedNode | genart/genesis/graph.mjs:70-84 | `findCrowdedNode` returns a node with at least four neighbours, or null only when every node has fewer |
| GenesisGraph.Hub | genart/genesis/graph.mjs:96-97 | the hub and the other end are the edge's two endpoints |
| GenesisGraph.FirstOpen | genart/genesis/graph.mjs:99-104 | the inner loop finds a neighbour a other than c that is not adjacent to c, and finding none means every such a is |
| GenesisGraph.WedgeOn | genart/genesis/graph.mjs:95-105 | on one edge the search returns an open wedge centred on the hub, or reports that every hub neighbour is joined to the other end |
| GenesisGraph.WedgeOnMeaning | genart/genesis/graph.mjs:96-104 | the found a closes an open wedge a–b–c, and none found means the edge is closed |
| GenesisGraph.NoWedgeAnywhere | genart/genesis/graph.mjs:94-108 | if every scanned edge is closed then every edge is |
| GenesisGraph.FindRandomOpenWedge | genart/genesis/graph.mjs:86-108 | `findRandomOpenWedge` returns an open wedge, or null only when no edge has one |
| GenesisGraph.LonelyOn | genart/genesis/graph.mjs:118-124 | the per-edge test holds exactly when both ends have one neighbour and it is each other |
| GenesisGraph.NoLonelyEdge | genart/genesis/graph.mjs:117-127 | if no scanned edge is lonely then no edge is |
| GenesisGraph.FindLonelyPair | genart/genesis/graph.mjs:110-128 | `findLonelyPair` returns an edge whose ends only know each other, or null only when there is none |
| GenesisGraph.FirstMin | genart/genesis/graph.mjs:141-159 | the `dist2 < bestDist2` scan picks an allowed position of least distance, the first on ties, and finds nothing only when nothing is allowed |
| GenesisGraph.Candidates | genart/genesis/graph.mjs:146-151 | j is a candidate of i exactly when it is a stranger (not i, not adjacent), and its distance is the squared Euclidean one |
| GenesisGraph.NearestStranger | genart/genesis/graph.mjs:141-163 | the chosen j is a stranger of i at least distance, strictly nearer than every earlier stranger, and none is chosen only when i has no stranger |
| GenesisGraph.FindNearbyStrangers | genart/genesis/graph.mjs:130-166 | `findNearbyStrangers` returns a node and one of its strangers, or null only for fewer than two nodes or when no node has a stranger |
| GenesisGraph.TriangleEdges | genart/genesis/graph.mjs:212-218 | after the rule the triangle's three sides are gone, every other edge survives in order, and the last three edges join each corner to d |
| GenesisGraph.TriangleRule | genart/genesis/graph.mjs:198-218 | the triangle rule adds exactly one node, leaves the old nodes in place and keeps the graph well formed and loop-free |
| GenesisGraph.TriangleRuleValid | genart/genesis/graph.mjs:210-218 | the new centre node and its three spokes keep the graph well formed and loop-free |
| GenesisGraph.TriangleRuleEdges | genart/genesis/graph.mjs:212-218 | the three sides are removed, every other edge survives and the new node is joined to each corner |
| GenesisGraph.RemoveAll | genart/genesis/graph.mjs:227 | removing u's edge to each listed node keeps exactly the edges that join u to none of them |
| GenesisGraph.CrowdedRule | genart/genesis/graph.mjs:219-227 | the crowded rule leaves u with no neighbours and keeps exactly the edges not touching u |
| GenesisGraph.CrowdedRuleMeaning | genart/genesis/graph.mjs:224-227 | removing u's edge to each of its neighbours is the same as removing every edge touching u |
| GenesisGraph.FirstOther | genart/genesis/graph.mjs:245-249 | the `do … while` loop ends on a draw that is neither u nor v |
| GenesisGraph.AvoidsTwo | genart/genesis/graph.mjs:236-249 | with at least three distinct nodes the loop has a draw to stop on |
| GenesisGraph.RewriteGraph | genart/genesis/graph.mjs:195-262 | every rule keeps the graph well formed and loop-free and adds at most one node, keeping the old ones in place |
| GenesisGraph.RowEdges | genart/genesis/graph.mjs:174-178 | row i gets the edge (i, j) exactly for the j != i below N whose draw came up |
| GenesisGraph.InitEdges | genart/genesis/graph.mjs:173-179 | the double loop adds exactly the ordered pairs i != j whose draw came up |
| GenesisGraph.Placed | genart/genesis/graph.mjs:13-25 | node i gets id i and the i-th position (also line 171) |
| GenesisGraph.Init | genart/genesis/graph.mjs:168-180 | `init` makes N = 20 nodes with ids 0..19 and exactly the drawn edges, a well-formed loop-free graph |
| GenuaryLetters.LettersWellShaped | genart/genuary2026/05_write_genuary.mjs:135-143 | `GENUARY` holds seven letters, each three rows of two tiles |
| GenuaryLetters.TileAt | genart/genuary2026/05_write_genuary.mjs:149-158 | `getGenuaryTileAt` names a real tile, blank on the box's border and in every third (spacer) column |
| GenuaryLetters.LookupInBounds | genart/genuary2026/05_write_genuary.mjs:152-157 | inside the border the letter index and, off the spacer column, the row and column read inside `GENUARY` |
| GenuaryLetters.LetterPlacement | genart/genuary2026/05_write_genuary.mjs:149-158 | cell (r, c) of letter i appears at row r + 1, column 3i + c + 1 of the box |
| GenuaryLetters.Init | genart/genuary2026/05_write_genuary.mjs:218-243 | `init` fills a rows by cols grid with probability 0, marks exactly the box cells as in the word and leaves every cell outside it blank |
| GenuaryLetters.InitSpells | genart/genuary2026/05_write_genuary.mjs:224-242 | after `init` the box spells GENUARY: letter i's cell (r, c) sits at (gy + r + 1, gx + 3i + c + 1) |
| GenuaryLetters.Corner | genart/genuary2026/05_write_genuary.mjs:221-222 | `Math.floor(Math.random() * (n - span))` keeps a span-wide box inside n when it fits, and is a non-positive corner when it does not |
| GenuaryLetters.ShortGridReadMisses | genart/genuary2026/05_write_genuary.mjs:197-247 | as written, on a grid under five rows high the drawn corner puts a row of the box outside the grid, so the first frame's `isDone` reads `grid[row][col]` of a missing row and throws before `update` runs (also line 305) |
| GenuaryLetters.Start | genart/genuary2026/05_write_genuary.mjs:218-243 | the intended start places the word exactly when the grid is at least 5 by 22, inside the grid, so `isDone` and `update` stay on its rows (also lines 303-305) |
| GenuaryLetters.IsDone | genart/genuary2026/05_write_genuary.mjs:197-216 | `isDone` is true exactly when every box cell has probability at least one; the `break` only leaves the inner loop |
| GenuaryLetters.InitNotDone | genart/genuary2026/05_write_genuary.mjs:218-243 | a freshly initialised board is never done (also line 305) |
| GenuaryLetters.Creep | genart/genuary2026/05_write_genuary.mjs:249-255 | a probability below one grows but never past one; one at or above one is left alone |
| GenuaryLetters.Update | genart/genuary2026/05_write_genuary.mjs:245-258 | `update` changes only probabilities, and only inside the box |
| GenuaryLetters.UpdateMonotone | genart/genuary2026/05_write_genuary.mjs:245-258 | probabilities stay within [0, 1] and never decrease |
| GenuaryLetters.DoneIsStill | genart/genuary2026/05_write_genuary.mjs:245-305 | once the board is done `update` changes nothing |
| HexLife.OffsetsFor | genart/genesis/life.mjs:10-14 | each row uses six offsets, each moving at most one column and one row |
| HexLife.WrapAt | genart/genesis/life.mjs:21-24 | wrapping a coordinate one step outside the grid lands back inside it |
| HexLife.WrapIsModular | genart/genesis/life.mjs:18-24 | the four wrap tests are addition modulo the grid size: the grid is a torus |
| HexLife.NeighbourPos | genart/genesis/life.mjs:17-26 | every neighbour position lies on the grid |
| HexLife.Neighbours | genart/genesis/life.mjs:13-30 | `getNeighbours` returns six cells |
| HexLife.NeighboursOnTorus | genart/genesis/life.mjs:13-30 | neighbour k is the cell at the k-th offset, taken modulo the grid's height and width |
| HexLife.OffsetsAreHexNeighbours | genart/genesis/life.mjs:10-57 | for the odd-rows-shifted layout `toPixel` draws, the even and odd offset tables reach exactly the six cells at hexagonal distance one |
| HexLife.NeighboursDistinct | genart/genesis/life.mjs:13-30 | on a grid of at least 3 by 3 the six neighbours are six different cells, none the cell itself |
| HexLife.RemOne | genart/genesis/life.mjs:42-49 | JavaScript's `% 1`: it keeps the sign of its operand, stays within one of zero and removes a whole number |
| HexLife.Part | genart/genesis/life.mjs:49 | `d * t` for t in [0, 1] lies between 0 and d |
| HexLife.Toward | genart/genesis/life.mjs:48 | the signed hue step of `lerpHue` lies in [-0.5, 0.5) whenever h2 - h1 + 1.5 is not negative, and below 0.5 always |
| HexLife.LerpStaysUnit | genart/genesis/life.mjs:47-50 | `lerpHue` of two hues in [0, 1) takes the short way round and gives a hue in [0, 1) |
| HexLife.LerpEnds | genart/genesis/life.mjs:47-50 | `lerpHue` at t = 0 gives h1 and at t = 1 gives h2 |
| HexLife.TurbulenceStaysUnit | genart/genesis/life.mjs:108-122 | the turbulence pull, whose target is not a hue, still leaves a hue in [0, 1) |
| HexLife.MeanHue | genart/genesis/life.mjs:41-42 | the angle `Math.atan2` returns becomes a hue in [0, 1) |
| HexLife.Hues | genart/genesis/life.mjs:33 | the hues are the neighbours' `h` fields, in order |
| HexLife.NextCell | genart/genesis/life.mjs:115-124 | a cell's next state changes only its hue, and keeps a hue in [0, 1) there |
| HexLife.Update | genart/genesis/life.mjs:112-127 | `update` fills a buffer of the same shape, changing only hues and keeping them in [0, 1) |
| HexLife.UpdateIsLocal | genart/genesis/life.mjs:113-126 | a cell's next state depends only on itself and its six neighbours in the old grid |
| HexLife.Step | genart/genesis/life.mjs:112-131 | after the swap the current buffer is the update of the old grid and the spare buffer is the old grid |
| HuePalette.Turn | genart/genesis/colour.mjs:3-47 | `(hue + d) % 360` stays on the wheel and differs from hue + d by whole turns |
| HuePalette.Turns | genart/genesis/colour.mjs:3-47 | turning a hue by a list of offsets gives one hue per offset |
| HuePalette.DrawPalette | genart/genesis/colour.mjs:178-186 | the drawn palette starts at the base hue, has its scheme's length and holds the base turned by each of the scheme's offsets, except the analogous scheme's second entry, `hue + 60` left unreduced in [60, 420) (also lines 49-57) |
| HuePalette.PaletteTurns | genart/genesis/colour.mjs:3-47 | each generator is its list of offsets turned from the base hue, the analogous second entry excepted |
| HuePalette.PaletteLengths | genart/genesis/colour.mjs:3-57 | the seven schemes, in `paletteTypes` order, give 3, 4, 4, 6, 3, 2 and 3 hues |
| HuePalette.StaysOnWheel | genart/genesis/colour.mjs:3-47 | every palette starts at the base hue; all entries are in [0, 360) except in the analogous scheme, which stays on the wheel exactly for base hues below 300 |
| HuePalette.EntriesDistinct | genart/genesis/colour.mjs:3-47 | no palette repeats a hue |
| HuePalette.TurnTurn | genart/genesis/colour.mjs:3-47 | turning by a then by b is turning by a + b |
| HuePalette.RegularSchemes | genart/genesis/colour.mjs:3-41 | the triadic, hexadic and complementary schemes space their hues evenly round the wheel |
| HuePalette.RectangleIsTwoPairs | genart/genesis/colour.mjs:9-14 | the rectangle scheme is two complementary pairs 60 degrees apart |
| HuePalette.FlankingSchemes | genart/genesis/colour.mjs:32-47 | split-complementary flanks the complement by 30 degrees each side, and analogous flanks the base by 60 degrees each side |
| HuePalette.SquareIsRectangle | genart/genesis/colour.mjs:16-21 | as written, the square scheme equals the rectangle scheme and is not evenly spaced |
| HuePalette.SquareAtZero | genart/genesis/colour.mjs:16-21 | from hue 0 the square scheme as written gives 0, 60, 180, 240 where a square gives 0, 90, 180, 270 |
| HuePalette.SquareIntendedRegular | genart/genesis/colour.mjs:16-21 | the intended square scheme, offsets 0, 90, 180, 270, spaces its four hues evenly |
| LSystem.Expand | genart/genesis/rules.mjs:17 | `rules[c] \|\| c` yields at least one symbol, and the symbol itself when it has no rule |
| LSystem.RewriteAppend | genart/genesis/rules.mjs:17 | rewriting works symbol by symbol, so rewriting a concatenation is concatenating the rewrites |
| LSystem.RewriteGrows | genart/genuary2026/10_polar_coordinates.mjs:47 | a rewrite never shortens a sentence, and leaves unchanged one none of whose symbols has a rule |
| LSystem.OccurrencesAppend | genart/genesis/rules.mjs:17 | symbol counts add over concatenation |
| LSystem.RewriteOccurrences | genart/genesis/rules.mjs:17 | the count of a symbol in a rewrite is its count in the first symbol's body plus its count in the rewrite of the rest |
| PixelColour.DigitValue | gpt/pixels/main.mjs:559-566 | a hexadecimal digit of either case reads as a value below 16 |
| PixelColour.HexDigitValue | gpt/pixels/main.mjs:573-575 | every digit `toString(16)` prints reads back as its value |
| PixelColour.HexRun | gpt/pixels/main.mjs:559-566 | `parseInt` reads the longest run of hexadecimal digits and stops at the first non-digit |
| PixelColour.LeadingDigits | gpt/pixels/main.mjs:559-566 | there is a number exactly when the text starts with a hexadecimal digit |
| PixelColour.Unsigned | gpt/pixels/main.mjs:559-566 | without a "0x" prefix the number is the leading digit run |
| PixelColour.Negated | gpt/pixels/main.mjs:559-566 | a '-' sign negates a number and keeps NaN as NaN |
| PixelColour.Signed | gpt/pixels/main.mjs:559-566 | a text with nothing after the sign is NaN |
| PixelColour.ParseHex | gpt/pixels/main.mjs:559-566 | `parseInt(s, 16)`: the empty string is NaN, and a text starting with a digit (and not "0x") reads as its leading digit run |
| PixelColour.ParseSkipsSpace | gpt/pixels/main.mjs:559-566 | leading white space does not change what `parseInt` reads |
| PixelColour.ParseSign | gpt/pixels/main.mjs:559-566 | one '+' changes nothing and one '-' negates the rest, NaN staying NaN |
| PixelColour.ParsePrefix | gpt/pixels/main.mjs:559-566 | "0x" and "0X" are read as the radix prefix and the digits after them are the number |
| PixelColour.ParseBarePrefix | gpt/pixels/main.mjs:564-566 | the channel "0x" is NaN, not 0 |
| PixelColour.ParseMinusDigit | gpt/pixels/main.mjs:564-566 | the channel "-a" reads as -10 |
| PixelColour.ParsePlusDigit | gpt/pixels/main.mjs:564-566 | the channel "+f" reads as 15 |
| PixelColour.ParseSpaceDigit | gpt/pixels/main.mjs:564-566 | the channel " f" reads as 15 |
| PixelColour.ParseTrailingJunk | gpt/pixels/main.mjs:564-566 | "fz" reads as 15 because reading stops at the non-digit, while "zf" is NaN |
| PixelColour.Substring | gpt/pixels/main.mjs:564-566 | `substring(a, b)` is at most b - a characters long |
| PixelColour.HexToRgb | gpt/pixels/main.mjs:551-570 | after dropping one '#', a three-character colour has each channel read from its digit written twice |
| PixelColour.ToHex | gpt/pixels/main.mjs:574 | `toString(16)` prints at least one digit |
| PixelColour.Fixed | gpt/pixels/main.mjs:574 | the fixed-width digit string has exactly w digits |
| PixelColour.ToHexSplit | gpt/pixels/main.mjs:574 | printing a·16^w + m prints a and then m as exactly w digits |
| PixelColour.RgbToHex | gpt/pixels/main.mjs:573-575 | `rgbToHex` of three bytes is '#' and six more characters |
| PixelColour.FixedValue | gpt/pixels/main.mjs:574 | the w printed digits of m are all digits and read back as m |
| PixelColour.FixedConcat | gpt/pixels/main.mjs:574 | the digits of hi·16^w2 + lo are hi's digits followed by lo's w2 digits |
| PixelColour.SixDigits | gpt/pixels/main.mjs:574 | the six digits of (r << 16) + (g << 8) + b are two per channel, red first |
| PixelColour.PrintSeven | gpt/pixels/main.mjs:574 | adding `1 << 24` makes the printed number a '1' followed by six digits, so `slice(1)` keeps leading zeros |
| PixelColour.RgbToHexDigits | gpt/pixels/main.mjs:573-575 | a printed colour is '#' and exactly two digits per channel |
| PixelColour.ParseWholeRun | gpt/pixels/main.mjs:564-566 | a text made only of hexadecimal digits reads as a whole |
| PixelColour.HexRoundTrip | gpt/pixels/main.mjs:551-575 | `hexToRgb(rgbToHex(r, g, b))` gives back r, g and b for any three bytes |
| PixelColour.Channels | gpt/pixels/main.mjs:551-570 | a well-formed colour string reads as three bytes, none NaN |
| PixelColour.PrintedColour | gpt/pixels/main.mjs:551-575 | every printed colour is well formed and reads back as the channels printed |
| PixelColour.Mean | gpt/pixels/main.mjs:583-587 | the rounded channel means of two colours are bytes |
| PixelColour.Blend | gpt/pixels/main.mjs:578-590 | `blendColors` of two well-formed colours is well formed |
| PixelColour.BlendChannels | gpt/pixels/main.mjs:578-590 | each blended channel is the two channels' mean rounded half up: twice it is the sum or the sum plus one |
| PixelColour.BlendCommutes | gpt/pixels/main.mjs:578-590 | blending does not depend on the order of the two colours |
| PixelColour.BlendSelf | gpt/pixels/main.mjs:578-590 | a colour blended with itself keeps its channels and is that colour reprinted |
| PixelColour.MeanSelf | gpt/pixels/main.mjs:583-587 | the mean of a colour with itself is that colour |
| PixelGrid.NewGrid | gpt/pixels/main.mjs:235-246 | a new grid is empty, at zoom level 10, and well formed |
| PixelGrid.SaveState | gpt/pixels/main.mjs:262-278 | `saveState` clears the redo stack and pushes the current state, dropping the oldest entry only when the history would pass 50, so it never grows past 50 |
| PixelGrid.Undo | gpt/pixels/main.mjs:281-299 | `undo` fails exactly when the history is empty, changing nothing; otherwise it restores the last saved state and pushes the current one on the redo stack |
| PixelGrid.Redo | gpt/pixels/main.mjs:302-320 | `redo` fails exactly when the redo stack is empty, changing nothing; otherwise it restores the last undone state and pushes the current one on the history |
| PixelGrid.UndoRedoRoundTrip | gpt/pixels/main.mjs:281-320 | an undo followed by a redo, or a redo followed by an undo, gives back the grid it started from |
| PixelGrid.StartBatch | gpt/pixels/main.mjs:249-254 | `startBatch` enters a batch; inside one it changes nothing, and otherwise it saves a state |
| PixelGrid.EndBatch | gpt/pixels/main.mjs:257-259 | `endBatch` leaves the batch and changes nothing else |
| PixelGrid.FindIndex | gpt/pixels/main.mjs:334 | `findIndex` gives the first pixel at the position and zoom level, or -1 exactly when there is none |
| PixelGrid.GetPixel | gpt/pixels/main.mjs:328-330 | `getPixel` returns a stored pixel at the position and level, or null exactly when there is none |
| PixelGrid.HasPixel | gpt/pixels/main.mjs:323-325 | `hasPixel` is true exactly when some pixel sits at the position and level |
| PixelGrid.RemovePixel | gpt/pixels/main.mjs:333-340 | `removePixel` reports whether a pixel was there; if so exactly one is removed, every pixel elsewhere is kept, and with unique positions none is left at that one |
| PixelGrid.DeleteAtFacts | gpt/pixels/main.mjs:336 | `splice(index, 1)` keeps every other pixel and, with unique positions, leaves none at the removed one's position |
| PixelGrid.WriteColourEffect | gpt/pixels/main.mjs:349-368 | writing a colour (or null to erase) sets exactly that cell's colour, leaves every other cell's colour alone and keeps positions unique |
| PixelGrid.UniqueLookup | gpt/pixels/main.mjs:328-330 | with unique positions the lookup returns the colour of the pixel that is there, and null when none is |
| PixelGrid.SamePosition | gpt/pixels/main.mjs:328-366 | two pixels at the same position and level are the same entry |
| PixelGrid.FindIndexAgree | gpt/pixels/main.mjs:334-363 | updating a colour in place or appending elsewhere does not move where `findIndex` finds a position |
| PixelGrid.SetPixelColor | gpt/pixels/main.mjs:343-369 | `setPixelColor` sets the colour at the current level, changes no other cell, saves a state exactly when asked and not in a batch, and otherwise leaves history and redo alone |
| PixelGrid.Pow2 | gpt/pixels/main.mjs:386-408 | `Math.pow(2, k)` is at least one |
| PixelGrid.Finer | gpt/pixels/main.mjs:384-388 | the filter keeps exactly the pixels painted at a finer level inside the cell |
| PixelGrid.BlendAll | gpt/pixels/main.mjs:392-400 | folding `blendColors` over the finer colours gives a well-formed colour |
| PixelGrid.Coarser | gpt/pixels/main.mjs:405-413 | the upward search returns a well-formed colour when it finds one |
| PixelGrid.GetPixelColorAt | gpt/pixels/main.mjs:377-417 | `getPixelColorAt` returns a well-formed colour or null |
| PixelGrid.CoarserFinds | gpt/pixels/main.mjs:405-413 | the search finds nothing exactly when no coarser pixel contains the cell, and otherwise returns the colour of the finest such pixel |
| PixelGrid.GetPixelColorAtMeaning | gpt/pixels/main.mjs:377-417 | an exact pixel wins; the result is null exactly when there is no exact, finer (below level 20) or containing pixel; without exact or finer pixels the coarser search decides |
| PixelGrid.ZoomIn | gpt/pixels/main.mjs:420-428 | `zoomIn` does nothing at level 20 and otherwise saves a state and goes one level finer, keeping the level within 0..20 |
| PixelGrid.ZoomOut | gpt/pixels/main.mjs:431-439 | `zoomOut` does nothing at level 0 and otherwise saves a state and goes one level coarser, keeping the level within 0..20 |
| PixelGrid.LoadZoom | gpt/pixels/main.mjs:2150-2197 | a grid loaded from a link is empty and takes the link's level as given, unchecked |
| PixelGrid.SaveStateKeepsValid | gpt/pixels/main.mjs:262-278 | saving keeps the grid well formed |
| PixelGrid.UndoKeepsValid | gpt/pixels/main.mjs:281-299 | undo keeps the grid well formed |
| PixelGrid.RedoKeepsValid | gpt/pixels/main.mjs:302-320 | redo keeps the grid well formed |
| PixelGrid.OperationsKeepValid | gpt/pixels/main.mjs:249-320 | every history, batch and zoom operation keeps the grid well formed (also lines 420-439) |
| PixelPack.NatToBits | gpt/pixels/main.mjs:1720 | `toString(2).padStart(w, '0')` gives exactly w bits |
| PixelPack.BitsToNat | gpt/pixels/main.mjs:2222 | `parseInt(bits, 2)` of k bits is below 2^k |
| PixelPack.BitsRoundTrip | gpt/pixels/main.mjs:2222 | reading back the w bits written for n < 2^w gives n (also line 1720) |
| PixelPack.Zeros | gpt/pixels/main.mjs:1729 | the `padEnd` padding is all zero bits |
| PixelPack.PadLength | gpt/pixels/main.mjs:1727-1729 | the last byte is padded by fewer than eight bits |
| PixelPack.ToBytes | gpt/pixels/main.mjs:1726-1734 | cutting the bit string into bytes gives values below 256 |
| PixelPack.FromBytes | gpt/pixels/main.mjs:2205-2209 | each byte becomes exactly eight bits |
| PixelPack.BytesRoundTrip | gpt/pixels/main.mjs:1726-1734 | unpacking the packed bytes gives the bit string followed by the zero padding of its last byte (also lines 2205-2209) |
| PixelPack.BitsInverse | gpt/pixels/main.mjs:2208-2222 | writing back the value of any bit string at its own width gives that string |
| PixelPack.ReadIndices | gpt/pixels/main.mjs:2213-2234 | the reader yields one entry per cell, none where the bits ran out |
| PixelPack.ReadEncoded | gpt/pixels/main.mjs:2213-2222 | reading the cells back from the written bits, whatever follows them, gives every index written (also lines 1714-1723) |
| PixelPack.BitsPerPixel | gpt/pixels/main.mjs:1681-1687 | the loop picks at least 3 bits, enough for every code, and the fewest such above 3 |
| PixelPack.WidenFrom | gpt/pixels/main.mjs:1685-1687 | widening from b stops at the first width that holds every code |
| PixelPack.ReadPalette | gpt/pixels/main.mjs:2184-2193 | the reader keeps at most the announced number of colours, skipping those cut short |
| PixelPack.PaletteRoundTrip | gpt/pixels/main.mjs:2184-2193 | the palette written as six digits per colour reads back as the same colours (also lines 1698-1704) |
| PixelPack.Positions | gpt/pixels/main.mjs:2214-2215 | the row-major scan visits every cell of the box exactly once (also lines 1714-1715) |
| PixelPack.AppendRow | gpt/pixels/main.mjs:1714-1715 | adding row j to the scan of rows below j covers one more row without repeating a cell |
| PixelPack.Active | gpt/pixels/main.mjs:1633 | the filter keeps exactly the pixels of the current level |
| PixelPack.LastColourAt | gpt/pixels/main.mjs:1660-1664 | a cell has a colour exactly when some active pixel sits on it, and then it is that pixel's colour |
| PixelPack.MinX | gpt/pixels/main.mjs:1641-1649 | the running minimum is the least x of a pixel |
| PixelPack.MaxX | gpt/pixels/main.mjs:1641-1649 | the running maximum is the greatest x of a pixel |
| PixelPack.MinY | gpt/pixels/main.mjs:1641-1649 | the running minimum is the least y of a pixel |
| PixelPack.MaxY | gpt/pixels/main.mjs:1641-1649 | the running maximum is the greatest y of a pixel |
| PixelPack.Cells | gpt/pixels/main.mjs:1657-1664 | the cell list has one entry per scanned position |
| PixelPack.Present | gpt/pixels/main.mjs:1668-1674 | the non-null cells contribute exactly the colours that occur |
| PixelPack.PaletteOf | gpt/pixels/main.mjs:1667-1677 | the palette holds each colour that occurs exactly once, as a `Set` keeps it |
| PixelPack.Indices | gpt/pixels/main.mjs:1692-1717 | each cell's code is 0 exactly for an empty cell and otherwise one plus its colour's palette position |
| PixelPack.Serialize | gpt/pixels/main.mjs:1628-1760 | the encoding keeps the level, is the bare-zoom form exactly when the level has no pixels, and otherwise uses at least 3 bits, enough for every code, and bytes below 256 |
| PixelPack.Bounds | gpt/pixels/main.mjs:1641-1653 | the box holds every active pixel and each of its four sides touches one |
| PixelPack.PackBox | gpt/pixels/main.mjs:1655-1759 | the packed record carries the level and box it was given, a width that holds every code, and bytes |
| PixelPack.DecodeCells | gpt/pixels/main.mjs:2214-2234 | every decoded pixel is at the loaded level and inside the box |
| PixelPack.Load | gpt/pixels/main.mjs:2137-2246 | loading gives a grid at the encoded level with no history or redo, all its pixels at that level, and none for the bare-zoom form |
| PixelPack.Unpack | gpt/pixels/main.mjs:2166-2234 | every unpacked pixel is at the header's level |
| PixelPack.DecodeCellsMatch | gpt/pixels/main.mjs:2214-2234 | when each cell decodes as expected, the decoded pixels are exactly the expected ones and have unique positions |
| PixelPack.DecodeCellsHas | gpt/pixels/main.mjs:2214-2234 | a pixel is decoded exactly when its cell is in the box and decodes to it |
| PixelPack.DecodeCellsUnique | gpt/pixels/main.mjs:2214-2234 | distinct cells give pixels at distinct positions |
| PixelPack.PaletteWellFormed | gpt/pixels/main.mjs:1698-1704 | every palette colour of well-formed pixels is a seven-character colour |
| PixelPack.DecodeEncoded | gpt/pixels/main.mjs:1655-1759 | loading a packed box gives exactly the pixels expected at each cell, with unique positions (also lines 2166-2234) |
| PixelPack.EncodedCellsDecode | gpt/pixels/main.mjs:2205-2234 | every cell read back from the packed bytes decodes to what the box held there (also lines 1714-1734) |
| PixelPack.LoadPackBox | gpt/pixels/main.mjs:2159-2234 | the header fields read back as written, so loading decodes the written bytes with the written palette and width (also lines 1744-1759) |
| PixelPack.ReadBack | gpt/pixels/main.mjs:1714-1734 | through bytes and back, every written code is read again (also lines 2205-2222) |
| PixelPack.CellsDecodeAsExpected | gpt/pixels/main.mjs:2222-2231 | a code read back maps to the colour the cell held, and 0 to no pixel |
| PixelPack.ExpectedIsActive | gpt/pixels/main.mjs:1644-1664 | inside the bounds, the pixels expected in the box are exactly the active ones |
| PixelPack.SerializeLoadRoundTrip | gpt/pixels/main.mjs:1628-1760 | loading the encoding of a level gives a well-formed grid at that level holding exactly that level's pixels (also lines 2137-2246) |
| Polar.RewriteFacts | genart/genuary2026/10_polar_coordinates.mjs:16-47 | with any of the four tables, rewriting distributes over concatenation and never shortens a sentence |
| Polar.Update | genart/genuary2026/10_polar_coordinates.mjs:249-275 | a finished spin restarts from "X" with the next table cyclically; a spin in progress only advances its clock; a sentence at the length or step cap freezes and starts spinning; otherwise the sentence is rewritten once and the step count goes up |
| Polar.StartInv | genart/genuary2026/10_polar_coordinates.mjs:12-45 | the start state is zero rewrites of "X" with table 0 |
| Polar.IterateSnoc | genart/genuary2026/10_polar_coordinates.mjs:273-274 | n + 1 rewrites are one more rewrite after n |
| Polar.UpdateKeepsInv | genart/genuary2026/10_polar_coordinates.mjs:249-275 | every `update` keeps the sentence exactly `steps` rewrites of "X" under the current table, with at most 10 steps, and the frozen sentence equal to it while spinning |
| Polar.Move | genart/genuary2026/10_polar_coordinates.mjs:130-201 | '[' saves the angle and radius; ']' restores and pops the last saved pair, and on an empty stack does nothing |
| Polar.MoveInRings | genart/genuary2026/10_polar_coordinates.mjs:156-186 | every symbol keeps the radius between one ring step and the outer radius |
| Polar.TraceInRings | genart/genuary2026/10_polar_coordinates.mjs:130-202 | a whole sentence keeps the turtle, and every saved radius, within the rings |
| Polar.DrawStaysInRings | genart/genuary2026/10_polar_coordinates.mjs:93-206 | starting on the first ring, `drawLine` never leaves the rings, whatever the sentence |
| Quine.Store16 | genart/genuary2026/11_quine.mjs:260-316 | a store into a `Uint16Array` keeps a value below 2^16 as it is and always yields a 16-bit value |
| Quine.ByStartThenLongestIsPreorder | genart/genuary2026/11_quine.mjs:258-300 | the comparator (start ascending, then longer first) is a total preorder, so sorting by it is well defined |
| Quine.SortedStarts | genart/genuary2026/11_quine.mjs:258-300 | after the sort, starts never decrease |
| Quine.LastLive | genart/genuary2026/11_quine.mjs:262-276 | the label source at offset i is the last interval alive there, and none means no interval is alive at i |
| Quine.PopEnded | genart/genuary2026/11_quine.mjs:266 | popping ended entries keeps the stack invariant and leaves a top that is still open at i |
| Quine.PushStarting | genart/genuary2026/11_quine.mjs:268-273 | every interval starting at i is pushed, with its end clamped to [i, sourceLength], and the cursor stops at the first later start |
| Quine.PushKeeps | genart/genuary2026/11_quine.mjs:269-272 | pushing one interval keeps the stack invariant |
| Quine.ReadTop | genart/genuary2026/11_quine.mjs:275 | the stack top (or NONE) is the label of offset i |
| Quine.SweepStep | genart/genuary2026/11_quine.mjs:265-276 | one iteration of the sweep labels offset i correctly and keeps the invariant for i + 1 |
| Quine.Sweep | genart/genuary2026/11_quine.mjs:260-276 | the sweep labels every offset below sourceLength with its innermost live interval, NONE where there is none |
| Quine.TopIsLastLive | genart/genuary2026/11_quine.mjs:266-275 | with ended entries popped and starting ones pushed, the top entry is the last interval alive at i |
| Quine.NoneLive | genart/genuary2026/11_quine.mjs:275 | an empty stack means no interval is alive at i |
| Quine.CoveredIsLabelled | genart/genuary2026/11_quine.mjs:265-276 | an offset inside some interval gets a label, from that interval or a later one |
| Quine.LabelIsInnermost | genart/genuary2026/11_quine.mjs:258-276 | the label comes from the innermost interval alive at the offset: none alive there starts later, or starts together and is shorter |
| Quine.TypeIntervals | genart/genuary2026/11_quine.mjs:253-258 | the node intervals, sorted by start and then longest first, as a permutation of the nodes; intervals with the same range stay in collection order, since the sort is stable |
| Quine.TypeLabelIsLastCollected | genart/genuary2026/11_quine.mjs:219-276 | the type labelling an offset is that of the last collected node with the chosen range; `collectNodes` pushes a parent before its children, so a child with its parent's exact range wins |
| Quine.LastLiveClosesTies | genart/genuary2026/11_quine.mjs:258-275 | no interval after the labelling one has its exact range, since such an interval would be alive at the offset too |
| Quine.LastOfTies | genart/genuary2026/11_quine.mjs:258 | a non-empty class of same-range intervals ends with the last one of them in the input order |
| Quine.NodeIntervals | genart/genuary2026/11_quine.mjs:256-272 | each node becomes its start, end and the index of its type |
| Quine.Kinds | genart/genuary2026/11_quine.mjs:255 | the node types in node order |
| Quine.BuildTypeIndexMap | genart/genuary2026/11_quine.mjs:252-281 | `buildTypeIndexMap` lists each node type once and labels every offset with the type of its innermost node |
| Quine.TypeIntervalsMeaning | genart/genuary2026/11_quine.mjs:255-258 | every interval is a real node, carrying its own type's index |
| Quine.FlattenMeaning | genart/genuary2026/11_quine.mjs:288-298 | the flattened intervals are exactly the functions' ranges, each tagged with its function's index |
| Quine.FnIntervals | genart/genuary2026/11_quine.mjs:288-300 | the function intervals, sorted by start and then longest first, as a permutation of the flattened ranges; ranges alike in start and end keep their map order |
| Quine.Names | genart/genuary2026/11_quine.mjs:285 | the function names, in map order |
| Quine.BuildFnIndexMap | genart/genuary2026/11_quine.mjs:283-320 | `buildFnIndexMap` keeps the names in order and labels every offset with its innermost function |
| Quine.FnLabelIsCoveringRange | genart/genuary2026/11_quine.mjs:288-317 | a function label names a function one of whose ranges is alive at that offset |
| Quine.FlattenedFrom | genart/genuary2026/11_quine.mjs:288-298 | every flattened interval carries the index of a function one of whose ranges it spans |
| Quine.MinT0 | genart/genuary2026/11_quine.mjs:325 | `Math.min` of the start times is the earliest start |
| Quine.MaxT1 | genart/genuary2026/11_quine.mjs:326 | `Math.max` of the end times is the latest end |
| Quine.Shifted | genart/genuary2026/11_quine.mjs:330-337 | each call is moved so that times count from the earliest start, keeping its own duration |
| Quine.BuildPlayback | genart/genuary2026/11_quine.mjs:322-341 | `buildPlayback` is empty with total 0 for no calls; otherwise the timeline is a permutation of the shifted calls, sorted by start with deeper calls first on ties, and the total is not negative |
| Quine.PlaybackSpans | genart/genuary2026/11_quine.mjs:322-341 | every span starts at or after zero, ends by the total, and keeps its duration |
| Quine.PlaybackKeepsCalls | genart/genuary2026/11_quine.mjs:330-338 | no recorded call is lost from the timeline |
| Quine.Running | genart/genuary2026/11_quine.mjs:347-353 | the running calls at t are exactly those with t0 <= t < t1, in timeline order |
| Quine.RunningNext | genart/genuary2026/11_quine.mjs:347-353 | scanning one more call adds it to the running calls exactly when t0 <= t < t1, after the calls already kept |
| Quine.ActiveCallsAt | genart/genuary2026/11_quine.mjs:343-356 | `activeCallsAt` returns exactly the calls running at t, and the deepest depth among them, -1 when there are none |
| Quine.VisitCall | genart/genuary2026/11_quine.mjs:348-352 | one iteration appends the call exactly when it is running and keeps maxDepth the deepest depth seen |
| Raster.NoOvershootX | gpt/pixels/main.mjs:617-621 | once x has reached x1 and y has not reached y1, the x test fails, so x never passes its end |
| Raster.NoOvershootY | gpt/pixels/main.mjs:617-625 | once y has reached y1 and x has not reached x1, the y test fails, so y never passes its end |
| Raster.NoHalfStep | gpt/pixels/main.mjs:617-625 | on a diagonal the doubled error never ties either test |
| Raster.StepFacts | gpt/pixels/main.mjs:617-625 | each turn before the end moves at least one coordinate, keeps the error invariant, and moves along the major axis every time |
| Raster.PathFromEnds | gpt/pixels/main.mjs:609-626 | from any loop state the remaining points start at the current position, end at (x1, y1), and number the remaining major-axis steps plus one |
| Raster.PathFromSteps | gpt/pixels/main.mjs:609-626 | consecutive points differ by one step toward the end on each axis that moves |
| Raster.PathFromAvoidsStart | gpt/pixels/main.mjs:609-626 | once the walk has moved, it never returns to (x0, y0) |
| Raster.LineShape | gpt/pixels/main.mjs:593-629 | the line runs from (x0, y0) to (x1, y1) in max(|dx|, |dy|) + 1 points, each step of at most one on each axis toward the end, and visits the start once |
| Raster.AtEnd | gpt/pixels/main.mjs:614 | the walk is at its end coordinate exactly after |b - a| steps along that axis |
| Raster.StepPath | gpt/pixels/main.mjs:609-626 | one turn of the loop emits the current point and continues from the next state, which keeps the invariant and has advanced |
| Raster.GetLinePoints | gpt/pixels/main.mjs:593-629 | `getLinePoints` emits exactly the Bresenham points of the line, so it terminates and the facts of LineShape hold |
| Raster.Step | gpt/pixels/main.mjs:617-625 | one step moves x when `e2 > -dy` and y when `e2 < dx`, each with the error update that goes with it |
| Raster.RectangleIndex | gpt/pixels/main.mjs:632-663 | the four loops emit top, right, bottom and left edges in this order, with a known count |
| Raster.RectangleIsOutline | gpt/pixels/main.mjs:632-663 | the emitted points are exactly the points on the rectangle's outline |
| Raster.RectangleNoDuplicates | gpt/pixels/main.mjs:632-663 | for a rectangle with distinct corners no point is emitted twice |
| Raster.RowsFromFacts | gpt/pixels/main.mjs:676-680 | rows y..b of the filled loop emit each cell of those rows exactly once |
| Raster.FilledRectangleCells | gpt/pixels/main.mjs:666-683 | the filled rectangle emits every cell between the corners exactly once, (width) × (height) in all |
| Raster.Octants | gpt/pixels/main.mjs:782-790 | the eight reflections of (x, y) all lie at the same taxicab distance from the centre |
| Raster.Blocks | gpt/pixels/main.mjs:781-797 | each row of the loop emits a block of eight points |
| Raster.TracedOctant | gpt/pixels/main.mjs:780-797 | the x of the midpoint rule starts at the radius, stays at or above the row, and steps in by at most one per row |
| Raster.GetCirclePoints | gpt/pixels/main.mjs:772-803 | `getCirclePoints` emits nothing for a non-positive radius; otherwise it starts with the four axis points (each twice), emits eight points per row of the midpoint rule, and stops at the first row past the octant |
| Raster.BlocksHead | gpt/pixels/main.mjs:782-790 | the first block is the reflections of (radius, 0) |
| Rokoban.GcdDivides | vibes/rokoban/main.mjs:45-47 | `gcd` divides both of its arguments |
| Rokoban.GcdGreatest | vibes/rokoban/main.mjs:45-47 | every common divisor of the arguments divides `gcd`, so it is the greatest |
| Rokoban.BestFactor | vibes/rokoban/main.mjs:57-78 | the factor search returns a divisor of d no farther from 20 than any other divisor (1 when d is 0) |
| Rokoban.ConsiderFactor | vibes/rokoban/main.mjs:62-77 | one turn of the loop keeps the best divisor so far among those up to i and their partners |
| Rokoban.BestFactorComplete | vibes/rokoban/main.mjs:61 | stopping once i exceeds the square root misses no divisor, since each larger one's partner was already tried |
| Rokoban.CalculateGridSize | vibes/rokoban/main.mjs:50-82 | `calculateGridSize` is the divisor of gcd(width, height) closest to 20, clamped into [15, 25] |
| Rokoban.GetBoxAt | vibes/rokoban/main.mjs:723-730 | `getBoxAt` gives the first box at (x, y), or -1 exactly when there is none |
| Rokoban.WallCount | vibes/rokoban/main.mjs:673-679 | at most four neighbouring walls are counted |
| Rokoban.IsValidBoxPosition | vibes/rokoban/main.mjs:646-700 | an accepted box cell is an in-grid floor cell that is not an exit, the player's cell or a box, with fewer than two neighbouring walls and no neighbouring box |
| Rokoban.PlacingKeepsBoxesPlaced | vibes/rokoban/main.mjs:602-700 | placing a box where `isValidBoxPosition` allows keeps every box on its own floor cell, off the exits |
| Rokoban.TryPushBox | vibes/rokoban/main.mjs:733-752 | `tryPushBox` moves the box exactly when the target is an in-grid floor cell with no box and no exit; otherwise nothing changes |
| Rokoban.PushKeepsBoxesPlaced | vibes/rokoban/main.mjs:733-752 | pushing keeps every box on its own floor cell, off the exits |
| Rokoban.IsValidMove | vibes/rokoban/main.mjs:1321-1343 | a move is accepted only onto an in-grid floor cell; a rejected move changes nothing; onto free floor it is accepted unchanged; onto a box it is accepted exactly when the box can be pushed one further cell away from the player, which moves the box |
| Rokoban.CheckLineOfSight | vibes/rokoban/main.mjs:784-825 | line of sight holds exactly when every cell of the Bresenham line strictly between the endpoints is in the grid, not a wall and holds no box |
| Rokoban.Blocked | vibes/rokoban/main.mjs:800-808 | a cell blocks sight exactly when it is off the grid, a wall or a box |
| Rokoban.SightStep | vibes/rokoban/main.mjs:796-821 | the walk visits the line's cells in order, with at least one more after the current cell, and is at the start only before it moves |
| Rokoban.SightEnd | vibes/rokoban/main.mjs:796 | when the loop stops at the end point every other cell of the line has been checked |
| Rokoban.Remaining | vibes/rokoban/main.mjs:1117-1123 | the kept treasures are exactly those not at the player's cell |
| Rokoban.CountAt | vibes/rokoban/main.mjs:1117-1123 | the collected and the kept treasures together are all the treasures |
| Rokoban.CheckTreasureCollection | vibes/rokoban/main.mjs:1116-1124 | `checkTreasureCollection` removes every treasure at the player's cell, adds 100 points for each, and changes nothing else |
| Rokoban.Collect | vibes/rokoban/main.mjs:1117-1123 | the backwards splice loop keeps exactly the other treasures, in order, and counts 100 per collected one |
| Rokoban.IsValidEnemyMove | vibes/rokoban/main.mjs:1127-1157 | an accepted enemy cell is an in-grid floor cell with no box, no exit and no enemy |
| Rokoban.EnemyMoveKeepsPlaced | vibes/rokoban/main.mjs:1127-1157 | moving an enemy where `isValidEnemyMove` allows keeps the enemies on distinct floor cells |
| Rokoban.SpawnExitsAsWritten | vibes/rokoban/main.mjs:759-761 | as written, the filter keeps exactly the exits outside the player's column, since `exit.y === exit.y` always holds |
| Rokoban.SpawnExits | vibes/rokoban/main.mjs:758-761 | the intended filter keeps exactly the exits other than the player's cell |
| Rokoban.SpawnFilterDropsColumn | vibes/rokoban/main.mjs:759-761 | with the player at (3, 9), the exit (3, 0) is dropped as written but kept by the intended filter |
| Rokoban.SpawnFilterNarrower | vibes/rokoban/main.mjs:759-761 | the written filter keeps a subset of the intended one, and loses only exits in the player's column but not on the player's row |
| Rokoban.SpawnEnemy | vibes/rokoban/main.mjs:755-781 | as written: no spawn with at most one exit or none kept; otherwise one enemy is appended on a kept exit, never in the player's column |
| Rokoban.SpawnEnemyIntended | vibes/rokoban/main.mjs:754-781 | as intended: no spawn with at most one exit or none kept; otherwise one enemy is appended on an exit that is not the player's cell |
| Rokoban.OppositeInvolution | vibes/rokoban/main.mjs:1207-1212 | the opposite of the opposite direction is the direction itself, and no direction is its own opposite |
| Rokoban.ExitAt | vibes/rokoban/main.mjs:1178-1179 | the loop finds an exit at the player's cell exactly when there is one |
| Rokoban.CheckForExit | vibes/rokoban/main.mjs:1174-1238 | off an exit nothing happens; on one the new room is entered from the opposite side at the clamped row or column, enemies are cleared and one more room is counted |
| Rokoban.ExitPlacesPlayerOnEntrySide | vibes/rokoban/main.mjs:1183-1204 | after crossing, the player stands on the new room's edge they entered from, on the row or column of the exit they used |
| Scaffold.FirstFit | genart/genesis/scaffold.mjs:35-48 | the search settles on a drawn rectangle at least 20 by 20, picked among the first 99 draws, and gives up exactly when none of those 99 fits |
| Scaffold.Choose | genart/genesis/scaffold.mjs:35-48 | the `while` loop uses between 1 and 100 draws, returns the first fitting draw among the first 99, and returns nothing otherwise |
| Scaffold.HundredthDrawWasted | genart/genesis/scaffold.mjs:43-47 | if the first 99 draws do not fit, the update gives up whatever the 100th draw is, because the `--n <= 0` exit runs even after a draw that fits |
| Scaffold.RndPercent | genart/genesis/scaffold.mjs:7 | `rnd(20, 80)` with its arguments in (n, m) order draws a whole percentage from 20 to 80, and 80 exactly when `Math.random()` returns 0 |
| Scaffold.Cut | genart/genesis/scaffold.mjs:54-58 | the cut lies between 20% and 80% of the way across, since `rnd(20, 80)` is `floor(80 - 60 * Math.random())`, a whole number from 20 to 80 (also line 7) |
| Scaffold.SplitPartitions | genart/genesis/scaffold.mjs:50-61 | a tall rectangle is cut across its height and a wide or square one across its width; the first part keeps the colour, the second takes the new one, both are non-empty and the two meet at the cut |
| Scaffold.Splice | genart/genesis/scaffold.mjs:63 | `splice(i, 1, a, b)` lengthens the list by one |
| Scaffold.SpliceTiles | genart/genesis/scaffold.mjs:50-63 | replacing a rectangle of a tiling by its two halves still tiles the canvas |
| Scaffold.Update | genart/genesis/scaffold.mjs:21-64 | after a resize, or with no rectangles, the list becomes one full-canvas rectangle; otherwise the chosen rectangle is replaced by its two halves, or nothing changes when none fits |
| Scaffold.UpdateTiles | genart/genesis/scaffold.mjs:21-64 | every update leaves rectangles that tile the canvas exactly, without overlap, in the resetting branch (first update, resize, empty list) as in the splitting one |
| Scaffold.ResetDrawsValid | genart/genesis/scaffold.mjs:11-33 | the resetting update draws no pick, so any colour and percent in range make valid draws for it: the first update, while `width` and `height` are still 0, and every update after a resize are covered |
| Seed.ToBase3 | genart/genesis/seed.mjs:60 | the k digits it produces are each 0, 1 or 2; it is the inverse that `base3ToInt` is proved against |
| Seed.Base3Bound | genart/genesis/seed.mjs:18-60 | folding k base-3 digits with `acc * 3 + d` gives a value below 3^k, so six sensor digits index a genome of length L = 3^6 |
| Seed.Base3Decodes | genart/genesis/seed.mjs:60 | reading k digits back out of the value `base3ToInt` produces gives the original digits, so distinct surroundings pick distinct genes |
| Seed.Base3Encodes | genart/genesis/seed.mjs:60 | every value below 3^k is the `base3ToInt` of its own k digits, so every gene is reachable by some surroundings |
| Seed.Digit | genart/genesis/seed.mjs:221-227 | a probe reads 2 for an agent, else 1 for food, else 0: always a base-3 digit |
| Seed.Sense | genart/genesis/seed.mjs:210-231 | six probes give an index below 729, always inside the genome |
| Seed.Crossover | genart/genesis/seed.mjs:167 | at an in-range split the child is as long as the second parent, agrees with the first parent before the split and with the second from the split on |
| Seed.Mutate | genart/genesis/seed.mjs:169 | the genome keeps its length, and each gene becomes the drawn action exactly when its roll is below 5, and is kept otherwise |
| Seed.ChildValid | genart/genesis/seed.mjs:198-200 | crossing two genomes of 729 actions drawn from the four ACTIONS and then mutating gives a genome of 729 actions from the four ACTIONS (also lines 11, 167-169) |
| Seed.Cells | genart/genesis/seed.mjs:171-181 | the set of clamped cells contains the cell of every point, holds only cells of some point, and is no larger than the number of points |
| Seed.Window | genart/genesis/seed.mjs:174 | `trail.slice(-100)` keeps the whole trail while it is shorter than 100 points and exactly 100 points after that |
| Seed.Coverage | genart/genesis/seed.mjs:171-182 | the coverage score never exceeds 100 nor the number of points on the trail |
| Seed.Eat | genart/genesis/seed.mjs:274-276 | after the food step the list holds the old cells plus the agent's cell exactly when that cell has food, and a list without repeats stays without repeats |
| Seed.EatNeverRepeats | genart/genesis/seed.mjs:274-276 | a food list that starts empty and only grows through the food step never counts a cell twice, so `food.length` counts distinct cells eaten (also lines 85, 134) |
| Seed.EatAllKeeps | genart/genesis/seed.mjs:236-276 | any run of food steps over any cells keeps a repeat-free food list repeat-free |
| Seed.TournamentAsWritten | genart/genesis/seed.mjs:157-165 | the winner is one of the drawn agents and no drawn agent has lower fitness: `fitness(cand) < fitness(best)` makes the least fit draw win |
| Seed.TournamentPicksLeastFit | genart/genesis/seed.mjs:157-165 | with agents of fitness 1 and 5 and draws 0, 1, 1, 1, 1 the written tournament hands the fitness-1 agent to crossover |
| Seed.Tournament | genart/genesis/seed.mjs:157-165 | the intended tournament returns a drawn agent at least as fit as every draw |
| Seed.TournamentsCompared | genart/genesis/seed.mjs:157-165 | over the same draws the written winner is never fitter than the intended winner, and the two are equally fit exactly when every draw has the same fitness |
| Seed.EliteSize | genart/genesis/seed.mjs:191 | `Math.ceil(n / 5)` is the least count whose five-fold reaches n |
| Seed.ParentGenome | genart/genesis/seed.mjs:196-197 | a parent taken from the elite gives that elite agent's genome, and one taken by tournament gives the genome of a drawn agent that is the least fit of its draws |
| Seed.MakeChild | genart/genesis/seed.mjs:196-202 | every child the `while` loop builds, by crossing two parents and mutating the result, carries a valid genome when every ranked agent does |
| Seed.ResetPopulation | genart/genesis/seed.mjs:188-208 | the new generation holds P agents, or the whole elite when the elite alone reaches P, since the `while` loop adds children only below P; when every old agent carries a valid genome, so does every new one |
| Seed.Elite | genart/genesis/seed.mjs:191-193 | the first ceil(n/5) new agents are fresh agents carrying, in order, the genomes of the top-ranked agents |
| Seed.Offspring | genart/genesis/seed.mjs:195-205 | the loop adds one agent per drawn child, each with a valid genome |
| Seed.SortedGenomesValid | genart/genesis/seed.mjs:189 | sorting only reorders agents, so a population of valid genomes stays one after the sort |
| Seed.FitterIsPreorder | genart/genesis/seed.mjs:189 | the comparison `fitness(b) - fitness(a)` orders agents totally and transitively, so the sort is well defined |
| Seed.EliteIsFittest | genart/genesis/seed.mjs:189-193 | the sort is a permutation of the old population, the first ceil(n/5) new agents are fresh copies of the sorted head, and every elite agent is at least as fit as every agent left out |
| Seed.ParentValid | genart/genesis/seed.mjs:196-197 | whichever route picks a parent, its genome is valid when the sorted population's genomes are |
| Tesseract.Vertex | genart/genuary2026/15_invisible_object.mjs:21-28 | every coordinate of vertex i is +1 or -1, set by bit k of i |
| Tesseract.Vertices | genart/genuary2026/15_invisible_object.mjs:19-28 | the vertex list holds sixteen entries, entry i being vertex i |
| Tesseract.VertexInjective | genart/genuary2026/15_invisible_object.mjs:21-28 | distinct indices give distinct vertices, so the sixteen vertices are the sixteen corners of the hypercube |
| Tesseract.DiffOneIffXor | genart/genuary2026/15_invisible_object.mjs:36-43 | the count `diff` of differing coordinates is 1 exactly when the two indices differ in exactly one bit |
| Tesseract.EdgesFromExactly | genart/genuary2026/15_invisible_object.mjs:30-45 | from any point of the double loop on, the pairs pushed are exactly the not-yet-visited pairs a < b whose vertices differ in one coordinate, pushed in loop order |
| Tesseract.EdgeIff | genart/genuary2026/15_invisible_object.mjs:30-45 | (a, b) is on the edge list exactly when a < b and the indices differ in one bit |
| Tesseract.EdgesDistinct | genart/genuary2026/15_invisible_object.mjs:30-45 | no edge is listed twice |
| Tesseract.EdgeCount | genart/genuary2026/15_invisible_object.mjs:30-45 | the loops push 32 edges, the edge count of a four-dimensional hypercube |
| Tesseract.FlipIff | genart/genuary2026/15_invisible_object.mjs:30-45 | u is joined to v exactly when u is v with bit 1, 2, 4 or 8 toggled, and the relation is symmetric |
| Tesseract.DegreeFour | genart/genuary2026/15_invisible_object.mjs:30-45 | every vertex has exactly four neighbours in the edge graph |
| Tesseract.FlipsDistinct | genart/genuary2026/15_invisible_object.mjs:30-45 | toggling the four different bits of a vertex gives four different vertices |
| Tesseract.Set | genart/genuary2026/15_invisible_object.mjs:76 | writing key k sets that coordinate to the value and leaves the other three untouched |
| Tesseract.RotatePlane | genart/genuary2026/15_invisible_object.mjs:72-77 | `rotatePlane` changes only keys a and b, to a·c - b·s and a·s + b·c, when the keys differ |
| Tesseract.TurnKeepsLength | genart/genuary2026/15_invisible_object.mjs:72-77 | a turn by (cos, sin) keeps the squared length of the pair it turns |
| Tesseract.RotatePreservesPlane | genart/genuary2026/15_invisible_object.mjs:72-77 | a rotation keeps a² + b² in its own plane |
| Tesseract.RotatePreservesNorm | genart/genuary2026/15_invisible_object.mjs:72-77 | a rotation keeps the squared length of the whole 4-vector |
| Tesseract.VertexNorm | genart/genuary2026/15_invisible_object.mjs:21-28 | every vertex lies at squared distance 4 from the centre |
| Tesseract.RotateKeepsNorm | genart/genuary2026/15_invisible_object.mjs:156-162 | the five plane rotations applied in turn keep the squared length |
| Tesseract.RotatedVertexOnSphere | genart/genuary2026/15_invisible_object.mjs:155-162 | every rotated vertex stays on the sphere of radius 2 before projection, whatever the five angles |
| Truchet.Classify | genart/genesis/tile.mjs:88-145 | `drawCurve` draws a line exactly when `isLine` holds, a half circle exactly when `isHalfCircle` does, and the small or big quarter circle exactly when that test does; otherwise it warns (also lines 61-81) |
| Truchet.ClassifiersSymmetricAndDisjoint | genart/genesis/tile.mjs:61-81 | each of the four tests gives the same answer with its ports swapped, and no pair of ports passes two of them, so the order of the `else if` chain does not matter |
| Truchet.ClassifiersMeanGeometry | genart/genesis/tile.mjs:50-81 | a line joins ports on opposite sides, a half circle joins two ports of one side, and the small and big quarter circles join ports one third, respectively two thirds, along from a shared corner |
| Truchet.ArcCentreIsCorner | genart/genesis/tile.mjs:103-142 | for both quarter circles the centre picked by `cx`/`cy` is the corner the two sides share, and the radius `TILE_SIZE / 3` or `TILE_SIZE / (3/2)` reaches both ports |
| Truchet.TileWellFormed | genart/genesis/tile.mjs:3-22 | every one of the 14 table tiles has four curves that use each of the eight ports exactly once, and each curve passes one of the four tests, so the warning never fires |
| Truchet.DrawGrid | genart/genesis/tile.mjs:172-184 | the grid has the shape of the draws, and each cell holds the table tile picked by its draw |
| Truchet.DrawnTilesWellFormed | genart/genesis/tile.mjs:172-198 | every cell of a drawn grid holds a tile that covers all eight ports once and draws without the warning |
| Seqs.Dedup | genart/genuary2026/11_quine.mjs:255 | `[...new Set(xs)]` holds exactly the values of xs, each once |
| Seqs.IndexOf | gpt/pixels/main.mjs:1667-1696 | `indexOf` of a present value points at an occurrence of it |
| Seqs.IndexOfDistinct | gpt/pixels/main.mjs:1667-1696 | in a repeat-free palette a colour's index is its only position, so encoding by index can be decoded |
| Seqs.SortBy | genart/genuary2026/11_quine.mjs:258 | `Array.prototype.sort` returns a permutation of its input |
| Seqs.Ties | genart/genuary2026/11_quine.mjs:258 | the elements the comparator ranks like a given one are exactly those of the input, in input order |
| Seqs.TiesAppend | genart/genuary2026/11_quine.mjs:258 | appending an element extends only its own tie class |
| Seqs.InsertByStable | genart/genuary2026/11_quine.mjs:258 | an insertion step places the new element after every element tied with it, leaving every tie class in order |
| Seqs.SortByStable | genart/genuary2026/11_quine.mjs:258 | the sort is stable, as `Array.prototype.sort` is required to be: every tie class comes out in its input order |
| Seqs.TiesLast | genart/genuary2026/11_quine.mjs:258 | the last element of the input tied with c is the last of c's tie class |
| Seqs.TiesLastIndex | genart/genuary2026/11_quine.mjs:258 | the last of a non-empty tie class is the last element of the input tied with it |
| Seqs.SortBySorted | genart/genuary2026/11_quine.mjs:258 | the sorted result is ordered by any comparator that is a total preorder |
| Seqs.InsertBySorted | genart/genuary2026/11_quine.mjs:258 | one insertion step of the stable sort keeps the sequence ordered |
| Html.Join | anagramish2/html.mjs:2 | joining n pieces puts back n - 1 separators, the inverse `split` is proved against |
| Html.SplitNone | anagramish2/html.mjs:2-3 | a spec without the separator splits into itself alone, so a spec without `#` has no id |
| Html.SplitAt | anagramish2/html.mjs:2-3 | `split` cuts at the first separator: the text before it is the first piece and the rest splits on |
| BooleanAutomaton.FoldBit | genart/genuary2026/07_boolean_algebra.mjs:31-41 | every gate's `reduce` keeps a bit accumulator a bit over bit inputs |
| BooleanAutomaton.AndFoldBit | genart/genuary2026/07_boolean_algebra.mjs:33 | the AND gate yields a bit whatever the inputs, because `a & b` with the seed 1 never exceeds 1 |
| BooleanAutomaton.AndFoldAll | genart/genuary2026/07_boolean_algebra.mjs:33 | the AND gate outputs 1 exactly when the seed and every input are 1 |
| BooleanAutomaton.OrFoldAny | genart/genuary2026/07_boolean_algebra.mjs:35 | the OR gate outputs 1 exactly when the seed or some input is 1 |
| BooleanAutomaton.XorFoldParity | genart/genuary2026/07_boolean_algebra.mjs:37 | the XOR gate outputs the seed flipped by the parity of the inputs that are 1 |
| BooleanAutomaton.XnorFoldParity | genart/genuary2026/07_boolean_algebra.mjs:38 | the XNOR gate, whose step is `~(a ^ b) & 1`, outputs the seed flipped by the parity of the inputs that are 0 |
| CrazyAutomaton.UniqueKey | genart/genuary2026/09_crazy_automaton.mjs:360-373 | with distinct keys the Map lookup of a key finds its only entry |
| CrazyAutomaton.AddToKeepsDistinct | genart/genuary2026/09_crazy_automaton.mjs:366-370 | adding a triangle under an edge, new or existing, keeps one entry per key |
| CrazyAutomaton.GroupDistinct | genart/genuary2026/09_crazy_automaton.mjs:360-373 | the `edgeToTris` Map built from the triangles has one entry per edge key |
| CrazyAutomaton.GroupKeysBelow | genart/genuary2026/09_crazy_automaton.mjs:360-373 | when every triangle's corners lie below m, so do the endpoints of every edge key |
| CrazyAutomaton.NeighbourAt | genart/genuary2026/09_crazy_automaton.mjs:330-347 | v lands in u's neighbour set exactly when some two-triangle edge between real sites joins u and v, and no neighbour is listed twice |
| CrazyAutomaton.SymmetricNeighbours | genart/genuary2026/09_crazy_automaton.mjs:343-346 | the two `add` calls make the neighbour relation symmetric |
| CrazyAutomaton.GraphOf | genart/genuary2026/09_crazy_automaton.mjs:330-352 | the neighbour sets together with their sizes form a symmetric graph on the real sites |

## Left out

- Canvas drawing, the DOM, event wiring, timers and `requestAnimationFrame` are not modelled. Each sketch's state changes are modelled as functions called once per frame or per event.
- Random draws (`Math.random`, `rnd`) are not modelled as a generator. Every draw is a parameter whose range is stated in the `requires`.
- JavaScript doubles are modelled as exact `real` numbers in `HexLife`, `Animation`, `CirclePacking`, `CircleGrid`, `Boxes`, `Tesseract`, `CrazyAutomaton`, `Polar`, `Seed` and `City`, and in the few other places a coordinate is fractional. Rounding error and NaN are not modelled. Where the source only ever holds whole numbers, `int` is used.
- CircleGrid.GridIndex: `v | 0` is modelled as truncation toward zero of an unbounded value. The 32-bit wrap-around of `|` for magnitudes of 2^31 and above is not modelled, because canvas coordinates never reach it.
- `Math.sin`, `Math.cos`, `Math.atan2`, `Math.tanh` and π are not computed. Where a result depends on them, they are parameters, and the model states only the facts the code relies on.
- HexLife.Update: the circular mean and the sine of the turbulence term come from a `Trig` parameter. That parameter is constrained only by `ValidTrig`, which says π is positive and the mean angle lies in [-π, π]. The hue arithmetic around these values is modelled exactly.
- GenesisRules.Tick: in rules.mjs:106-119, a `pointerup` during a running animation resets the sentence and calls `tick` directly. That starts a second `requestAnimationFrame` chain beside the first, and the model does not represent it. A run of ticks is modelled as one chain from a reset.
- Animation.EaseOutBackEnds: the motion curves `easePos` and `easeVel` of genart/genuary2026/02_twelverulesofanimation.mjs and their trigonometry are left out. Only `clamp01`, the end points of `easeOutBack`, neighbour choice and the hue hand-off are modelled.
- Boxes.DrawQuadtree: the canvas width and height are taken as whole numbers, as a canvas's `width` and `height` are.
- Truchet.ArcCentreIsCorner: the arc's start angle, end angle and direction in tile.mjs:95-141 are drawing details and are not modelled. Only the curve kind, the centre and the radius are.
- Tesseract.RotatedVertexOnSphere: the projections `project4to3` and `project3to2`, the `fbm1` noise that drives the angular speeds, and the screen mapping in 15_invisible_object.mjs:79-168 are not modelled. The five rotations are modelled with their cosines and sines as parameters.
- GenesisGraph: the force-directed layout `moveGraph` (genart/genesis/graph.mjs:264-330) is floating-point physics and is not modelled.
- Seed.Eat: the agent's motion in `update` (seed.mjs:242-269) is not modelled: speed, turning, wrap-around at the canvas edge. The Fourier food curve of `resetFoodGrid` and the colour projection of the genome are not modelled either. The food step takes the agent's cell and whether it holds food as parameters.
- PixelPack: `btoa`/`atob` and the URL handling around the packed bytes are not modelled. The model works on the byte sequence.
- PixelGrid: the editor's tools built on `getEllipsePoints` and `getSprayPoints`, and the rest of the user interface, are not modelled.
- Quine: parsing the source text with acorn is not modelled. The sweep takes the parsed node list as input.
- GenuaryLetters: the rendering of the letter tiles is not modelled.
- CirclePacking: the rendering of the circles is not modelled.
- CrazyAutomaton.Circumcenter: the centre and squared radius are computed exactly, with the source's formulas, in `real` arithmetic. The contract states only when the result is absent (|d| < EPS); the in-circle test relies on the computed values, not on further facts about them.
- Strings are modelled as `seq<char>`, one element per Unicode scalar value. JavaScript's `split('')`, `.length`, `sort()` and `<` work on UTF-16 code units, while the spread `[...w]` splits by code point. The two views agree on text inside the Basic Multilingual Plane, which covers the words and symbols `AnagramUtils`, `AnagramGame`, `LSystem`, `JsText` and `Html` handle. For characters outside it (emoji, for instance) the model does not follow the source's code-unit counting and ordering.

## Findings

| source | as written | input that shows it | evidently intended | confidence | as-written member | corrected member |
|---|---|---|---|---|---|---|
| vibes/rokoban/main.mjs:759-761 | the filter drops an exit when `exit.x === playerX && exit.y === exit.y`; the second test always holds, so every exit in the player's column is dropped | player at (3, 9), exits (3, 0) and (0, 5): the exit (3, 0) is never a spawn point | drop only the exit under the player, comparing `exit.y` with the player's y | high, not executed | Rokoban.SpawnEnemy, Rokoban.SpawnFilterDropsColumn | Rokoban.SpawnEnemyIntended, Rokoban.SpawnFilterNarrower |
| genart/genesis/seed.mjs:157-165 | `tournamentSelect` replaces `best` when `fitness(cand) < fitness(best)`, so the least fit draw wins | fitnesses [1, 5], draws [0, 1, 1, 1, 1]: agent 0 (fitness 1) is chosen | the fittest draw wins, as a tournament selection does | high, not executed | Seed.TournamentAsWritten, Seed.TournamentPicksLeastFit | Seed.Tournament, Seed.TournamentsCompared |
| genart/genesis/colour.mjs:16-21 | `squareTetradic` turns the hue by 0, 60, 180 and 240, the rectangle's offsets | hue 0 gives [0, 60, 180, 240] | offsets 0, 90, 180, 270, four evenly spaced hues | high, not executed | HuePalette.SquareIsRectangle, HuePalette.SquareAtZero | HuePalette.SquareIntendedRegular |
| genart/genuary2026/14_everything_fits_perfectly.mjs:47-64, 106-127 | `neighborsNear` searches one cell each way, but a circle may grow to a cell's size, so two circles two cell rows apart can touch without seeing each other | on the 100 by 100 canvas, circles of radius 9.5 at (5, 5) and (5, 24): one tick grows both into an overlap | a search reach of two cells, under which growth never makes circles overlap | medium, not executed | CirclePacking.WrittenTickOverlaps | CirclePacking.UpdateKeepsFit |
| anagramish2/main.mjs:91-98, 113 | after "You win!" sets `state.position = null`, the key listener stays attached; Backspace reads `state.position.x` and a letter destructures `state.position`, both of which throw a TypeError | the winning letter, then any letter or Backspace | ignore keys once the game is won | high, not executed | AnagramGame.HandleKeyAsWritten, AnagramGame.KeyAfterWinThrows | AnagramGame.HandleKey, AnagramGame.HandleKeyKeepsInv |
| genart/genuary2026/05_write_genuary.mjs:197-222, 305 | `init` draws the word's top row as `Math.floor(Math.random() * (rows - GRID_ROWS))` with GRID_ROWS = 5, which is not positive when the grid has fewer than five rows, so a row of the box lies outside the grid; the first frame calls `isDone`, whose `grid[row][col]` reads a column of an undefined row and throws before `update` runs | a grid of 4 rows | place the word only when the grid is at least 5 rows by 22 columns | medium, not executed | GenuaryLetters.ShortGridReadMisses | GenuaryLetters.Start |

=== FILE: anagram_html.dfy ===
/** The element helper of the word-ladder game (anagramish2/html.mjs): a tag
    spec such as `div.board` or `p#message.note` is split into a tag name,
    an id and classes, and `set` builds an element keeping only the
    non-blank classes. */
module Html {
  import opened Optional
  import opened Seqs
  import opened JsText

  // ---------------------------------------------------------------------
  // String.prototype.split with a one-character separator, and its inverse
  // ---------------------------------------------------------------------

  /** `s.split(sep)`: the pieces between separators; the empty string gives
      one empty piece. */
  function Split(s: string, sep: char): (parts: seq<string>)
    ensures |parts| >= 1
    ensures forall k :: 0 <= k < |parts| ==> sep !in parts[k]
  {
    if |s| == 0 then [""]
    else
      var rest := Split(s[1..], sep);
      if s[0] == sep then [""] + rest
      else [[s[0]] + rest[0]] + rest[1..]
  }

  /** `parts.join(sep)`. */
  function Join(parts: seq<string>, sep: char): (s: string)
    requires |parts| >= 1
    ensures |s| >= |parts| - 1
  {
    if |parts| == 1 then parts[0]
    else parts[0] + [sep] + Join(parts[1..], sep)
  }

  /** A string without the separator is one piece. */
  lemma {:induction false} SplitNone(s: string, sep: char)
    requires sep !in s
    ensures Split(s, sep) == [s]
  {
    if |s| > 0 {
      SplitNone(s[1..], sep);
      assert [s[0]] + s[1..] == s;
    }
  }

  /** The text before the first separator is the first piece. */
  lemma {:induction false} SplitAt(a: string, sep: char, b: string)
    requires sep !in a
    ensures Split(a + [sep] + b, sep) == [a] + Split(b, sep)
  {
    var s := a + [sep] + b;
    if |a| > 0 {
      assert s[1..] == a[1..] + [sep] + b;
      SplitAt(a[1..], sep, b);
      assert [a[0]] + a[1..] == a;
    } else {
      assert s[1..] == b;
    }
  }

  /** Joining the pieces gives back the string. */
  lemma {:induction false} JoinSplit(s: string, sep: char)
    ensures Join(Split(s, sep), sep) == s
  {
    if |s| > 0 {
      var rest := Split(s[1..], sep);
      JoinSplit(s[1..], sep);
      if s[0] == sep {
        assert Join([""] + rest, sep) == [sep] + Join(rest, sep) by {
          assert ([""] + rest)[1..] == rest;
        }
        assert s == [sep] + s[1..];
      } else if |rest| == 1 {
        assert s == [s[0]] + s[1..];
      } else {
        var parts := [[s[0]] + rest[0]] + rest[1..];
        assert parts[1..] == rest[1..];
        assert Join(rest, sep) == rest[0] + [sep] + Join(rest[1..], sep);
        assert s == [s[0]] + s[1..];
      }
    }
  }

  /** Splitting a join of separator-free pieces gives back the pieces. */
  lemma {:induction false} SplitJoin(parts: seq<string>, sep: char)
    requires |parts| >= 1
    requires forall k :: 0 <= k < |parts| ==> sep !in parts[k]
    ensures Split(Join(parts, sep), sep) == parts
  {
    if |parts| == 1 {
      SplitNone(parts[0], sep);
    } else {
      SplitJoin(parts[1..], sep);
      SplitAt(parts[0], sep, Join(parts[1..], sep));
      assert [parts[0]] + parts[1..] == parts;
    }
  }

  // ---------------------------------------------------------------------
  // parse
  // ---------------------------------------------------------------------

  /** `parse`: the pieces of the spec between dots are the prefix and the
      classes; the prefix's pieces between hashes are the name and, when
      there is a hash, the id. Pieces after a second hash are dropped. */
  datatype Spec = Spec(name: string, id: Option<string>, classes: seq<string>)

  function Parse(spec: string): (r: Spec)
    ensures forall k :: 0 <= k < |r.classes| ==> '.' !in r.classes[k]
  {
    var parts := Split(spec, '.');
    var (name, id) := NameAndId(parts[0]);
    Spec(name, id, parts[1..])
  }

  /** `prefix.split('#')`: the name, and the id when there is a hash. */
  function NameAndId(prefix: string): (r: (string, Option<string>))
    ensures '#' !in r.0
    ensures r.1.Some? <==> '#' in prefix
    ensures '#' !in prefix ==> r.0 == prefix
  {
    var pieces := Split(prefix, '#');
    SplitMany(prefix, '#');
    if '#' !in prefix then SplitNone(prefix, '#'); (prefix, None)
    else (pieces[0], Some(pieces[1]))
  }

  /** There is more than one piece exactly when the separator occurs. */
  lemma {:induction false} SplitMany(s: string, sep: char)
    ensures |Split(s, sep)| > 1 <==> sep in s
  {
    if |s| > 0 {
      SplitMany(s[1..], sep);
      assert s == [s[0]] + s[1..];
    }
  }

  /** A string that ends with the separator splits into pieces the last of
      which is empty, as a text ending in a newline has an empty last line. */
  lemma {:induction false} SplitTrailing(s: string, sep: char)
    requires |s| > 0 && s[|s| - 1] == sep
    ensures var parts := Split(s, sep); |parts| >= 2 && parts[|parts| - 1] == ""
  {
    SplitMany(s, sep);
    if |s| > 1 {
      SplitTrailing(s[1..], sep);
    }
  }

  /** A spec without a hash: the name and the classes, joined with dots,
      are the spec itself, and there is no id. */
  lemma ParseNoHash(spec: string)
    requires '#' !in spec
    ensures Parse(spec).id.None?
    ensures Join([Parse(spec).name] + Parse(spec).classes, '.') == spec
  {
    var parts := Split(spec, '.');
    JoinSplit(spec, '.');
    assert '#' !in parts[0] by {
      HeadIsPrefix(spec, '.');
    }
    assert [parts[0]] + parts[1..] == parts;
  }

  /** Every character of every piece comes from the string. */
  lemma {:induction false} PiecesFrom(s: string, sep: char)
    ensures forall k, c :: 0 <= k < |Split(s, sep)| && c in Split(s, sep)[k] ==> c in s
  {
    if |s| > 0 {
      PiecesFrom(s[1..], sep);
      var rest := Split(s[1..], sep);
      forall k, c | 0 <= k < |Split(s, sep)| && c in Split(s, sep)[k] ensures c in s {
        assert s == [s[0]] + s[1..];
        if s[0] != sep && k == 0 {
          assert c == s[0] || c in rest[0];
        } else if s[0] != sep {
          assert Split(s, sep)[k] == rest[k];
        } else if k > 0 {
          assert Split(s, sep)[k] == rest[k - 1];
        }
      }
    }
  }

  /** The first piece is a prefix of the string. */
  lemma {:induction false} HeadIsPrefix(s: string, sep: char)
    ensures |Split(s, sep)[0]| <= |s| && s[..|Split(s, sep)[0]|] == Split(s, sep)[0]
  {
    if |s| > 0 {
      HeadIsPrefix(s[1..], sep);
    }
  }

  /** Parsing what a spec is built from: a name, optionally a hash and an
      id, and classes, each free of the separators, gives them back. */
  lemma ParseBuilt(name: string, id: Option<string>, classes: seq<string>)
    requires '#' !in name && '.' !in name
    requires id.Some? ==> '#' !in id.value && '.' !in id.value
    requires forall k :: 0 <= k < |classes| ==> '.' !in classes[k]
    ensures var prefix := if id.Some? then name + "#" + id.value else name;
      Parse(Join([prefix] + classes, '.')) == Spec(name, id, classes)
  {
    var prefix := if id.Some? then name + "#" + id.value else name;
    assert '.' !in prefix;
    ParseJoined(prefix, classes);
    NameAndIdBuilt(name, id);
  }

  /** Parsing a dot-join reads the name and id from the first piece and
      takes the other pieces as the classes. */
  lemma ParseJoined(prefix: string, classes: seq<string>)
    requires '.' !in prefix
    requires forall k :: 0 <= k < |classes| ==> '.' !in classes[k]
    ensures Parse(Join([prefix] + classes, '.')) == Spec(NameAndId(prefix).0, NameAndId(prefix).1, classes)
  {
    var parts := [prefix] + classes;
    forall k | 0 <= k < |parts| ensures '.' !in parts[k] {
      if k > 0 { assert parts[k] == classes[k - 1]; }
    }
    SplitJoin(parts, '.');
    assert parts[0] == prefix && parts[1..] == classes;
  }

  /** The name and id read back from `name#id` or `name`. */
  lemma NameAndIdBuilt(name: string, id: Option<string>)
    requires '#' !in name
    requires id.Some? ==> '#' !in id.value
    ensures NameAndId(if id.Some? then name + "#" + id.value else name) == (name, id)
  {
    if id.Some? {
      var v := id.value;
      var prefix := name + "#" + v;
      assert prefix == name + ['#'] + v;
      SplitAt(name, '#', v);
      SplitNone(v, '#');
      assert Split(prefix, '#') == [name] + [v];
    }
  }

  // ---------------------------------------------------------------------
  // set
  // ---------------------------------------------------------------------

  /** `classes.filter((c) => c.trim() !== '')`. */
  function NonBlank(classes: seq<string>): (r: seq<string>)
    ensures forall c :: c in r <==> c in classes && Trim(c) != ""
  {
    if |classes| == 0 then []
    else
      assert forall c :: c in classes <==> c == classes[0] || c in classes[1..];
      (if Trim(classes[0]) != "" then [classes[0]] else []) + NonBlank(classes[1..])
  }

  /** The separators a DOM token may not contain: ASCII white space. */
  predicate IsAsciiSpace(c: char) {
    c == '\U{0009}' || c == '\U{000A}' || c == '\U{000C}' || c == '\U{000D}' || c == ' '
  }

  predicate HasAsciiSpace(t: string) {
    exists i :: 0 <= i < |t| && IsAsciiSpace(t[i])
  }

  /** `classList.add` for each token in turn: a token already present is
      not added again, and a token holding ASCII white space throws, which
      here is None. */
  function AddClasses(list: seq<string>, tokens: seq<string>): (r: Option<seq<string>>)
    decreases |tokens|
    ensures r.Some? <==> forall k :: 0 <= k < |tokens| ==> !HasAsciiSpace(tokens[k])
    ensures r.Some? ==> forall c :: c in r.value <==> c in list || c in tokens
    ensures r.Some? && Distinct(list) ==> Distinct(r.value)
  {
    if |tokens| == 0 then Some(list)
    else if HasAsciiSpace(tokens[0]) then None
    else
      var t := tokens[0];
      assert forall c :: c in tokens <==> c == t || c in tokens[1..];
      assert forall k :: 1 <= k < |tokens| ==> tokens[k] == tokens[1..][k - 1];
      AddClasses(if t in list then list else list + [t], tokens[1..])
  }

  predicate IsAsciiAlpha(c: char) {
    'a' <= c <= 'z' || 'A' <= c <= 'Z'
  }

  /** A character the DOM allows after the first of a name that does not
      start with an ASCII letter. */
  predicate IsNameChar(c: char) {
    IsAsciiAlpha(c) || '0' <= c <= '9' || c == '-' || c == '.' || c == ':' || c == '_' || c >= '\U{0080}'
  }

  /** A name `document.createElement` accepts, a "valid element local
      name" of the DOM Standard: not empty; after a leading ASCII letter
      anything but ASCII white space, NUL, `/` and `>`; otherwise a leading
      `:`, `_` or non-ASCII character followed by ASCII letters, digits,
      `-`, `.`, `:`, `_` or non-ASCII characters. Any other name throws. */
  predicate ValidTagName(name: string) {
    && |name| > 0
    && if IsAsciiAlpha(name[0]) then
         forall i :: 0 <= i < |name| ==>
           !IsAsciiSpace(name[i]) && name[i] != '\U{0000}' && name[i] != '/' && name[i] != '>'
       else
         && (name[0] == ':' || name[0] == '_' || name[0] >= '\U{0080}')
         && forall i :: 1 <= i < |name| ==> IsNameChar(name[i])
  }

  /** ASCII lower case, as `createElement` applies it to the local name of
      an element of an HTML document. */
  function AsciiLower(s: string): (r: string)
    ensures |r| == |s|
    ensures forall i :: 0 <= i < |s| ==>
      if 'A' <= s[i] <= 'Z' then r[i] as int == s[i] as int + 32 else r[i] == s[i]
  {
    if |s| == 0 then []
    else [if 'A' <= s[0] <= 'Z' then (s[0] as int + 32) as char else s[0]] + AsciiLower(s[1..])
  }

  /** The element `set` creates, before parameters and children. */
  datatype Element = Element(tag: string, id: Option<string>, classList: seq<string>)

  /** `set(spec)`: the tag from the name, lower-cased as in an HTML
      document, the id only when it is present and not empty, and the
      non-blank classes without repeats, in order of first appearance; None
      where the DOM throws, on an invalid name (an empty one, as in ".a" or
      "#x", or one like "a b") or on a class. */
  function SetElement(spec: string): (r: Option<Element>)
    ensures var p := Parse(spec);
      && (r.Some? <==> ValidTagName(p.name) && forall c :: c in p.classes && Trim(c) != "" ==> !HasAsciiSpace(c))
      && (r.Some? ==>
            && r.value.tag == AsciiLower(p.name)
            && (r.value.id.Some? <==> p.id.Some? && p.id.value != "")
            && (r.value.id.Some? ==> r.value.id == p.id)
            && (forall c :: c in r.value.classList <==> c in p.classes && Trim(c) != "")
            && Distinct(r.value.classList))
  {
    var p := Parse(spec);
    var kept := NonBlank(p.classes);
    KeptClasses(p.classes);
    if !ValidTagName(p.name) then None
    else match AddClasses([], kept)
    case None => None
    case Some(list) =>
      Some(Element(AsciiLower(p.name), if p.id.Some? && p.id.value != "" then p.id else None, list))
  }

  /** `set` throws for a spec with an empty name, one with classes only
      or one with an id only. */
  lemma SetElementEmptyName()
    ensures SetElement(".a").None? && SetElement("#x").None?
  {
    assert Parse(".a").name == "" by {
      assert "" + ['.'] + "a" == ".a";
      SplitAt("", '.', "a");
      SplitNone("a", '.');
      SplitNone("", '#');
    }
    assert Parse("#x").name == "" by {
      assert "" + ['#'] + "x" == "#x";
      SplitNone("#x", '.');
      SplitAt("", '#', "x");
      SplitNone("x", '#');
    }
  }

  /** `set` throws for a name holding a space. */
  lemma SetElementSpaceName()
    ensures SetElement("a b").None?
  {
    SplitNone("a b", '.');
    SplitNone("a b", '#');
    assert !ValidTagName("a b") by { assert IsAsciiSpace("a b"[1]); }
  }

  /** `set` lower-cases an upper-case tag and keeps the id. */
  lemma SetElementLowerCase()
    ensures SetElement("DIV#x") == Some(Element("div", Some("x"), []))
  {
    ParseBuilt("DIV", Some("x"), []);
    assert "DIV" + "#" + "x" == "DIV#x" && ["DIV#x"] + [] == ["DIV#x"];
    assert Join(["DIV#x"], '.') == "DIV#x";
    var p := Parse("DIV#x");
    assert p == Spec("DIV", Some("x"), []);
    assert ValidTagName(p.name);
    LowerDiv();
    var r := SetElement("DIV#x");
    assert r.Some?;
  }

  /** The lower case of "DIV". */
  lemma LowerDiv()
    ensures AsciiLower("DIV") == "div"
  {
    assert AsciiLower("DIV")[0] == 'd' && AsciiLower("DIV")[1] == 'i' && AsciiLower("DIV")[2] == 'v';
  }

  /** The class list `set` builds from the classes of a spec. */
  lemma KeptClasses(classes: seq<string>)
    ensures var r := AddClasses([], NonBlank(classes));
      && (r.Some? <==> forall c :: c in classes && Trim(c) != "" ==> !HasAsciiSpace(c))
      && (r.Some? ==> (forall c :: c in r.value <==> c in classes && Trim(c) != "") && Distinct(r.value))
  {
    var kept := NonBlank(classes);
    assert forall k :: 0 <= k < |kept| ==> kept[k] in kept;
  }
}

=== FILE: anagram_main.dfy ===
/** The word-ladder game's state machine (anagramish2/main.mjs): a board
    whose first row holds the start word and whose last row holds the target
    word, a cursor in between, and `handleKey`, which types, erases, rejects
    a finished row, or declares the game won. */
module AnagramGame {
  import opened Optional
  import opened AnagramUtils
  import Html

  /** The cursor: column x of row y. */
  datatype Pos = Pos(x: nat, y: nat)

  /** `state`: the chosen pair, the board, and the cursor (`null` once the
      game is won). */
  datatype State = State(pair: seq<string>, board: seq<seq<Cell>>, position: Option<Pos>)

  /** `w.split('')`: one cell per character. */
  function Letters(w: string): (r: seq<Cell>)
    ensures |r| == |w| && forall i :: 0 <= i < |w| ==> r[i] == Some([w[i]])
  {
    seq(|w|, i requires 0 <= i < |w| => Some([w[i]]))
  }

  /** A row with no empty cell. */
  predicate Full(row: seq<Cell>) {
    forall i :: 0 <= i < |row| ==> row[i].Some?
  }

  /** The keys of a full row, as `compareWords` sees them. */
  function Keys(row: seq<Cell>): (r: seq<string>)
    requires Full(row)
    ensures |r| == |row| && forall i :: 0 <= i < |row| ==> row[i] == Some(r[i])
  {
    seq(|row|, i requires 0 <= i < |row| && row[i].Some? => row[i].value)
  }

  /** `row.join('')`: an empty cell contributes nothing. */
  function Join(row: seq<Cell>): (s: string)
    ensures (forall i :: 0 <= i < |row| ==> row[i].None?) ==> s == ""
  {
    if |row| == 0 then "" else row[0].GetOr("") + Join(row[1..])
  }

  /** A start word's row read back as keys is its list of characters. */
  lemma KeysOfLetters(w: string)
    ensures Full(Letters(w)) && Keys(Letters(w)) == Chars(w)
  {
  }

  /** The pairs file as the game reads it: one pair per line, the words of
      a line separated by commas. A line is a pair of words exactly when it
      holds a comma. */
  function Pairs(text: string): (r: seq<seq<string>>)
    ensures |r| == |Html.Split(text, '\n')| && |r| >= 1
    ensures forall k :: 0 <= k < |r| ==> |r[k]| >= 1 && (|r[k]| >= 2 <==> ',' in Html.Split(text, '\n')[k])
  {
    var lines := Html.Split(text, '\n');
    var r := seq(|lines|, k requires 0 <= k < |lines| => Html.Split(lines[k], ','));
    assert forall k :: 0 <= k < |r| ==> (|r[k]| >= 2 <==> ',' in lines[k]) by {
      forall k | 0 <= k < |r| ensures |r[k]| >= 2 <==> ',' in lines[k] {
        Html.SplitMany(lines[k], ',');
      }
    }
    r
  }

  /** `init`, given the pair the random draw picked: the start word in row
      0, the target in row 5, empty rows between, the cursor at (0, 1). A
      line of the pairs file without a comma has no `pair[1]`, and
      `pair[1].split('')` throws a TypeError: None. */
  function Init(pair: seq<string>): (r: Option<State>)
    ensures r.Some? <==> |pair| >= 2
    ensures r.Some? ==>
      var s := r.value;
      && s.pair == pair && |s.board| == Height
      && s.board[0] == Letters(pair[0]) && s.board[Height - 1] == Letters(pair[1])
      && (forall y :: 1 <= y < Height - 1 ==> s.board[y] == EmptyRow())
      && s.position == Some(Pos(0, 1))
  {
    if |pair| < 2 then None
    else Some(State(pair, EmptyBoard()[0 := Letters(pair[0])][5 := Letters(pair[1])], Some(Pos(0, 1))))
  }

  /** A pairs file that ends with a newline has an empty last line, and a
      draw of that line makes `init` throw. */
  lemma TrailingNewlineFails(text: string)
    requires |text| > 0 && text[|text| - 1] == '\n'
    ensures var ps := Pairs(text); Init(ps[|ps| - 1]).None?
  {
    Html.SplitTrailing(text, '\n');
    var lines := Html.Split(text, '\n');
    assert ',' !in lines[|lines| - 1];
  }

  // ---------------------------------------------------------------------
  // The invariant
  // ---------------------------------------------------------------------

  /** Row 0 is the start word, the last row the target, and every row
      between has five cells. */
  predicate Framed(s: State) {
    && |s.pair| >= 2
    && |s.board| >= 3
    && s.board[0] == Letters(s.pair[0])
    && s.board[|s.board| - 1] == Letters(s.pair[1])
    && forall y :: 1 <= y <= |s.board| - 2 ==> |s.board[y]| == Width
  }

  /** Two full rows with four letters in common, as `compareWords` counts
      them. */
  predicate Shares4(row: seq<Cell>, other: seq<Cell>) {
    Full(row) && Full(other) && CompareWords(Keys(row), Keys(other)) == 4
  }

  /** A rung of the ladder: a full dictionary word sharing four letters
      with the row above it. */
  predicate Rung(row: seq<Cell>, above: seq<Cell>, dictionary: set<string>) {
    Join(row) in dictionary && Shares4(row, above)
  }

  /** A row holding keys exactly in its first x cells. */
  predicate FilledTo(row: seq<Cell>, x: nat) {
    |row| == Width && forall i :: 0 <= i < Width ==> (row[i].Some? <==> i < x)
  }

  /** Every middle row from 1 up to (not including) `upTo` is a rung. */
  predicate Ladder(b: seq<seq<Cell>>, upTo: nat, dictionary: set<string>)
    requires upTo <= |b|
  {
    forall y :: 1 <= y < upTo ==> Rung(b[y], b[y - 1], dictionary)
  }

  /** What holds between key presses: the frame is intact; while playing,
      the cursor is inside the middle rows, every row above it is a rung,
      its own row is filled up to it, and the rows below are empty; once
      won, every middle row is a rung and the last one also shares four
      letters with the target. */
  predicate Inv(s: State, dictionary: set<string>) {
    && Framed(s)
    && var b := s.board;
    match s.position
    case None =>
      Ladder(b, |b| - 1, dictionary) && Shares4(b[|b| - 2], b[|b| - 1])
    case Some(p) =>
      && 1 <= p.y <= |b| - 2 && p.x < Width
      && Ladder(b, p.y, dictionary)
      && FilledTo(b[p.y], p.x)
      && (forall y :: p.y < y <= |b| - 2 ==> b[y] == EmptyRow())
  }

  lemma InitInv(pair: seq<string>, dictionary: set<string>)
    requires |pair| >= 2
    ensures Init(pair).Some? && Inv(Init(pair).value, dictionary)
  {
    var s := Init(pair).value;
    assert FilledTo(s.board[1], 0);
  }

  // ---------------------------------------------------------------------
  // handleKey
  // ---------------------------------------------------------------------

  /** `key >= 'a' && key <= 'z'` on strings. */
  predicate IsLetterKey(key: string) {
    LexLe("a", key) && LexLe(key, "z")
  }

  /** A key the handler acts on; it reads the cursor for these. */
  predicate Acts(key: string) {
    key == "Backspace" || IsLetterKey(key)
  }

  /** Backspace: clears the cell left of the cursor and steps back, within
      the row only. */
  function Backspace(s: State): (r: State)
    requires s.position.Some? && s.position.value.y < |s.board|
    requires s.position.value.x <= |s.board[s.position.value.y]|
    ensures r.pair == s.pair && |r.board| == |s.board|
    ensures s.position.value.x == 0 ==> r == s
  {
    var p := s.position.value;
    if p.x > 0 then
      s.(board := s.board[p.y := s.board[p.y][p.x - 1 := None]], position := Some(Pos(p.x - 1, p.y)))
    else s
  }

  /** The row the cursor is on, with the typed key written at the cursor. */
  function Typed(s: State, key: string): (row: seq<Cell>)
    requires s.position.Some? && s.position.value.y < |s.board|
    requires s.position.value.x < |s.board[s.position.value.y]|
    ensures |row| == |s.board[s.position.value.y]|
  {
    var p := s.position.value;
    s.board[p.y][p.x := Some(key)]
  }

  /** The finished row is turned away: not a dictionary word, or not
      sharing four letters with the row above. */
  predicate Rejected(s: State, key: string, dictionary: set<string>)
    requires s.position.Some? && 1 <= s.position.value.y < |s.board|
    requires s.position.value.x < |s.board[s.position.value.y]|
  {
    var p := s.position.value;
    p.x == 4 && !Rung(Typed(s, key), s.board[p.y - 1], dictionary)
  }

  /** The finished row is the last middle row and shares four letters with
      the target. */
  predicate Wins(s: State, key: string)
    requires s.position.Some? && s.position.value.y + 1 < |s.board|
    requires s.position.value.x < |s.board[s.position.value.y]|
  {
    var p := s.position.value;
    p.x == 4 && p.y == |s.board| - 2 && Shares4(Typed(s, key), s.board[p.y + 1])
  }

  /** A typed key: a rejected row is emptied and the cursor returns to its
      start; a winning row ends the game; otherwise the cursor advances,
      wrapping to the next row, and an empty row is inserted before the
      target when the cursor would reach it. */
  function TypeKey(s: State, key: string, dictionary: set<string>): (r: State)
    requires s.position.Some? && 1 <= s.position.value.y && s.position.value.y + 1 < |s.board|
    requires s.position.value.x < |s.board[s.position.value.y]|
    ensures r.pair == s.pair
  {
    var p := s.position.value;
    var row := Typed(s, key);
    if Rejected(s, key, dictionary) then
      s.(board := s.board[p.y := EmptyRow()], position := Some(Pos(0, p.y)))
    else if Wins(s, key) then
      s.(board := s.board[p.y := row], position := None)
    else
      var b := s.board[p.y := row];
      var next := if p.x + 1 >= Width then Pos(0, p.y + 1) else Pos(p.x + 1, p.y);
      var b' := if next.y > |b| - 2 then b[..|b| - 1] + [EmptyRow()] + [b[|b| - 1]] else b;
      s.(board := b', position := Some(next))
  }

  /** `handleKey` as intended. Keys other than Backspace and the letters
      do nothing, and once the game is won every key does nothing. */
  function HandleKey(s: State, key: string, dictionary: set<string>): (r: State)
    requires Inv(s, dictionary)
    ensures !Acts(key) || s.position.None? ==> r == s
    ensures r.pair == s.pair
  {
    if s.position.None? then s
    else if key == "Backspace" then Backspace(s)
    else if IsLetterKey(key) then TypeKey(s, key, dictionary)
    else s
  }

  /** `handleKey` as written: Backspace reads `state.position.x` and a
      letter destructures `state.position`, so once a win has set the
      position to `null` both throw a TypeError (None), before anything
      changes. Every other press is the intended one. */
  function HandleKeyAsWritten(s: State, key: string, dictionary: set<string>): (r: Option<State>)
    requires Inv(s, dictionary)
    ensures r.None? <==> s.position.None? && Acts(key)
    ensures r.Some? ==> r.value == HandleKey(s, key, dictionary)
  {
    if s.position.None? && Acts(key) then None else Some(HandleKey(s, key, dictionary))
  }

  /** The key that wins the game leaves a state in which, as written, the
      same letter or Backspace throws, while the intended handler ignores
      both. */
  lemma KeyAfterWinThrows(s: State, key: string, dictionary: set<string>)
    requires Inv(s, dictionary) && s.position.Some? && IsLetterKey(key)
    requires s.position.value.x == Width - 1 && s.position.value.y == |s.board| - 2
    requires Rung(Typed(s, key), s.board[s.position.value.y - 1], dictionary)
    requires Shares4(Typed(s, key), s.board[|s.board| - 1])
    ensures var won := HandleKey(s, key, dictionary);
      && Inv(won, dictionary) && won.position.None?
      && HandleKeyAsWritten(won, key, dictionary).None?
      && HandleKeyAsWritten(won, "Backspace", dictionary).None?
      && HandleKey(won, key, dictionary) == won
      && HandleKey(won, "Backspace", dictionary) == won
  {
    FinishWins(s, key, dictionary);
    HandleKeyKeepsInv(s, key, dictionary);
  }

  // ---------------------------------------------------------------------
  // What a key press does
  // ---------------------------------------------------------------------

  /** Backspace erases only within the current row: at its start it does
      nothing, otherwise the cell left of the cursor empties and the cursor
      moves onto it, and the game goes on. */
  lemma BackspaceEffect(s: State, dictionary: set<string>)
    requires Inv(s, dictionary) && s.position.Some?
    ensures var r := HandleKey(s, "Backspace", dictionary);
      var p := s.position.value;
      && (p.x == 0 ==> r == s)
      && (p.x > 0 ==>
            && r.position == Some(Pos(p.x - 1, p.y))
            && |r.board| == |s.board|
            && r.board[p.y][p.x - 1].None?
            && (forall i :: 0 <= i < Width && i != p.x - 1 ==> r.board[p.y][i] == s.board[p.y][i])
            && (forall y :: 0 <= y < |s.board| && y != p.y ==> r.board[y] == s.board[y]))
  {
  }

  lemma LetterIsNotBackspace(key: string)
    requires IsLetterKey(key)
    ensures key != "Backspace"
  {
    assert LexLt("Backspace", "a");
  }

  /** A letter before the last column is written at the cursor and the
      cursor moves one right. */
  lemma LetterEffect(s: State, key: string, dictionary: set<string>)
    requires Inv(s, dictionary) && s.position.Some? && IsLetterKey(key)
    requires s.position.value.x < Width - 1
    ensures var r := HandleKey(s, key, dictionary);
      var p := s.position.value;
      && r.position == Some(Pos(p.x + 1, p.y))
      && r.board == s.board[p.y := s.board[p.y][p.x := Some(key)]]
  {
    LetterIsNotBackspace(key);
  }

  /** Once the last cell of a row is typed, the row is full, and so is the
      row above it; the row below is full exactly when it is the target. */
  lemma FinishedRowFull(s: State, key: string, dictionary: set<string>)
    requires Inv(s, dictionary) && s.position.Some?
    requires s.position.value.x == Width - 1
    ensures var p := s.position.value;
      && Full(Typed(s, key)) && Full(s.board[p.y - 1])
      && (Full(s.board[p.y + 1]) <==> p.y + 1 == |s.board| - 1)
  {
    var p := s.position.value;
    var row := Typed(s, key);
    forall i | 0 <= i < |row| ensures row[i].Some? {
      if i != p.x { assert s.board[p.y][i].Some?; }
    }
    if p.y > 1 {
      assert Rung(s.board[p.y - 1], s.board[p.y - 2], dictionary);
    }
    if p.y + 1 < |s.board| - 1 {
      assert s.board[p.y + 1] == EmptyRow();
      assert !s.board[p.y + 1][0].Some?;
    }
  }

  /** Finishing a row that is not a dictionary word, or does not share four
      letters with the row above: the row empties and the cursor returns to
      its start. */
  lemma FinishRejected(s: State, key: string, dictionary: set<string>)
    requires Inv(s, dictionary) && s.position.Some? && IsLetterKey(key)
    requires s.position.value.x == Width - 1
    requires !Rung(Typed(s, key), s.board[s.position.value.y - 1], dictionary)
    ensures var r := HandleKey(s, key, dictionary);
      var p := s.position.value;
      r.position == Some(Pos(0, p.y)) && r.board == s.board[p.y := EmptyRow()]
  {
    LetterIsNotBackspace(key);
  }

  /** Finishing the last middle row with a dictionary word that shares four
      letters with the row above and with the target wins the game. */
  lemma FinishWins(s: State, key: string, dictionary: set<string>)
    requires Inv(s, dictionary) && s.position.Some? && IsLetterKey(key)
    requires s.position.value.x == Width - 1 && s.position.value.y == |s.board| - 2
    requires Rung(Typed(s, key), s.board[s.position.value.y - 1], dictionary)
    requires Shares4(Typed(s, key), s.board[|s.board| - 1])
    ensures var r := HandleKey(s, key, dictionary);
      r.position.None? && r.board == s.board[s.position.value.y := Typed(s, key)]
  {
    LetterIsNotBackspace(key);
  }

  /** Finishing a row that is accepted but does not win moves the cursor to
      the start of the next row and keeps the finished row. */
  lemma FinishAdvances(s: State, key: string, dictionary: set<string>)
    requires Inv(s, dictionary) && s.position.Some? && IsLetterKey(key)
    requires s.position.value.x == Width - 1
    requires Rung(Typed(s, key), s.board[s.position.value.y - 1], dictionary)
    requires s.position.value.y < |s.board| - 2 || !Shares4(Typed(s, key), s.board[|s.board| - 1])
    ensures var r := HandleKey(s, key, dictionary);
      var p := s.position.value;
      r.position == Some(Pos(0, p.y + 1)) && r.board[p.y] == Typed(s, key)
  {
    LetterIsNotBackspace(key);
  }

  // ---------------------------------------------------------------------
  // The invariant is kept
  // ---------------------------------------------------------------------

  /** Every key press keeps the invariant: the start and target rows never
      change, the cursor stays in the middle rows, and every finished row is
      a dictionary word sharing four letters with the row above. */
  lemma HandleKeyKeepsInv(s: State, key: string, dictionary: set<string>)
    requires Inv(s, dictionary)
    ensures Inv(HandleKey(s, key, dictionary), dictionary)
  {
    if s.position.None? {
    } else if key == "Backspace" {
      BackspaceKeepsInv(s, dictionary);
    } else if IsLetterKey(key) {
      TypeKeyKeepsInv(s, key, dictionary);
    }
  }

  /** Replacing rows at or below `upTo` keeps the ladder above it. */
  lemma LadderKept(b: seq<seq<Cell>>, b': seq<seq<Cell>>, upTo: nat, dictionary: set<string>)
    requires upTo <= |b| && upTo <= |b'|
    requires Ladder(b, upTo, dictionary)
    requires forall y :: 0 <= y < upTo ==> b'[y] == b[y]
    ensures Ladder(b', upTo, dictionary)
  {
    forall y | 1 <= y < upTo ensures Rung(b'[y], b'[y - 1], dictionary) {
      assert b'[y] == b[y] && b'[y - 1] == b[y - 1];
    }
  }

  lemma BackspaceKeepsInv(s: State, dictionary: set<string>)
    requires Inv(s, dictionary) && s.position.Some?
    ensures Inv(Backspace(s), dictionary)
  {
    var p := s.position.value;
    if p.x > 0 {
      var r := Backspace(s);
      assert FilledTo(r.board[p.y], p.x - 1);
      LadderKept(s.board, r.board, p.y, dictionary);
    }
  }

  lemma TypeKeyKeepsInv(s: State, key: string, dictionary: set<string>)
    requires Inv(s, dictionary) && s.position.Some?
    ensures Inv(TypeKey(s, key, dictionary), dictionary)
  {
    var p := s.position.value;
    var r := TypeKey(s, key, dictionary);
    if Rejected(s, key, dictionary) {
      assert FilledTo(r.board[p.y], 0);
      LadderKept(s.board, r.board, p.y, dictionary);
    } else if Wins(s, key) {
      WinKeepsInv(s, key, dictionary);
    } else if p.x + 1 < Width {
      assert FilledTo(r.board[p.y], p.x + 1);
      LadderKept(s.board, r.board, p.y, dictionary);
    } else {
      NextRowKeepsInv(s, key, dictionary);
    }
  }

  /** A rung on top of a ladder extends it by one row. */
  lemma LadderExtend(b: seq<seq<Cell>>, upTo: nat, dictionary: set<string>)
    requires 1 <= upTo < |b|
    requires Ladder(b, upTo, dictionary) && Rung(b[upTo], b[upTo - 1], dictionary)
    ensures Ladder(b, upTo + 1, dictionary)
  {
  }

  /** The board after an accepted row: the typed row in place and the
      ladder one rung longer. */
  lemma AcceptedRow(s: State, key: string, dictionary: set<string>)
    requires Inv(s, dictionary) && s.position.Some?
    requires !Rejected(s, key, dictionary) && s.position.value.x == Width - 1
    ensures var p := s.position.value;
      var b := s.board[p.y := Typed(s, key)];
      && Ladder(b, p.y + 1, dictionary)
      && Framed(s.(board := b))
      && FilledTo(b[p.y], Width)
  {
    var p := s.position.value;
    var b := s.board[p.y := Typed(s, key)];
    LadderKept(s.board, b, p.y, dictionary);
    assert b[p.y - 1] == s.board[p.y - 1];
    LadderExtend(b, p.y, dictionary);
    FinishedRowFull(s, key, dictionary);
    RowUpdateFramed(s, p.y, Typed(s, key));
  }

  /** Replacing one middle row by another five-cell row keeps the frame. */
  lemma RowUpdateFramed(s: State, y: nat, row: seq<Cell>)
    requires Framed(s) && 1 <= y <= |s.board| - 2 && |row| == Width
    ensures Framed(s.(board := s.board[y := row]))
  {
  }

  /** The winning row joins the ladder, and it shares four letters with
      the target. */
  lemma WinKeepsInv(s: State, key: string, dictionary: set<string>)
    requires Inv(s, dictionary) && s.position.Some?
    requires !Rejected(s, key, dictionary) && Wins(s, key)
    ensures Inv(TypeKey(s, key, dictionary), dictionary)
  {
    var p := s.position.value;
    var b := s.board[p.y := Typed(s, key)];
    var r := s.(board := b, position := None);
    assert TypeKey(s, key, dictionary) == r;
    assert Ladder(b, |b| - 1, dictionary) && Framed(r) by {
      AcceptedRow(s, key, dictionary);
    }
    assert Shares4(b[|b| - 2], b[|b| - 1]) by {
      assert b[|b| - 2] == Typed(s, key) && b[|b| - 1] == s.board[p.y + 1];
    }
  }

  /** The finished row is accepted and the cursor wraps to the next row,
      which is empty, inserting it before the target when needed. */
  lemma NextRowKeepsInv(s: State, key: string, dictionary: set<string>)
    requires Inv(s, dictionary) && s.position.Some?
    requires !Rejected(s, key, dictionary) && !Wins(s, key)
    requires s.position.value.x == Width - 1
    ensures Inv(TypeKey(s, key, dictionary), dictionary)
  {
    var p := s.position.value;
    var b := s.board[p.y := Typed(s, key)];
    assert Ladder(b, p.y + 1, dictionary) && Framed(s.(board := b)) by {
      AcceptedRow(s, key, dictionary);
    }
    assert forall y :: p.y + 1 < y <= |b| - 2 ==> b[y] == EmptyRow();
    if p.y + 1 > |b| - 2 {
      var b' := b[..|b| - 1] + [EmptyRow()] + [b[|b| - 1]];
      var r := s.(board := b', position := Some(Pos(0, p.y + 1)));
      assert TypeKey(s, key, dictionary) == r;
      NextRowInserted(s.(board := b), p.y + 1, dictionary);
    } else {
      var r := s.(board := b, position := Some(Pos(0, p.y + 1)));
      assert TypeKey(s, key, dictionary) == r;
      NextRowStarted(s.(board := b), p.y + 1, dictionary);
    }
  }

  /** Starting on an empty middle row below a ladder. */
  lemma NextRowStarted(s: State, y: nat, dictionary: set<string>)
    requires Framed(s) && 1 <= y <= |s.board| - 2
    requires Ladder(s.board, y, dictionary)
    requires forall k :: y <= k <= |s.board| - 2 ==> s.board[k] == EmptyRow()
    ensures Inv(s.(position := Some(Pos(0, y))), dictionary)
  {
    assert FilledTo(s.board[y], 0);
  }

  /** Starting on a fresh empty row inserted before the target, below a
      ladder that fills every middle row. */
  lemma NextRowInserted(s: State, y: nat, dictionary: set<string>)
    requires Framed(s) && y == |s.board| - 1
    requires Ladder(s.board, y, dictionary)
    ensures var b := s.board;
      Inv(s.(board := b[..|b| - 1] + [EmptyRow()] + [b[|b| - 1]], position := Some(Pos(0, y))), dictionary)
  {
    var b := s.board;
    var b' := b[..|b| - 1] + [EmptyRow()] + [b[|b| - 1]];
    LadderKept(b, b', y, dictionary);
    assert FilledTo(b'[y], 0);
  }
}

=== FILE: anagram_utils.dfy ===
/** The word-ladder game's helpers (anagramish2/utils.js, repeated in
    anagramish2/main.mjs): the empty board, JavaScript's string order, and
    `compare`, a merge over two sorted letter lists that counts the letters
    the two words share. */
module AnagramUtils {
  import opened Optional
  import opened Seqs

  /** A board cell: `null` or the key string typed into it. */
  type Cell = Option<string>

  const Width: nat := 5
  const Height: nat := 6

  /** `emptyRow`: five nulls. */
  function EmptyRow(): (r: seq<Cell>)
    ensures |r| == Width && forall i :: 0 <= i < |r| ==> r[i].None?
  {
    seq(Width, _ => None)
  }

  /** `emptyBoard`: six empty rows. Sequences are values, so the rows cannot
      alias one another, which is what the fresh `emptyRow()` per row buys
      in the source. */
  function EmptyBoard(): (b: seq<seq<Cell>>)
    ensures |b| == Height
    ensures forall y :: 0 <= y < |b| ==> b[y] == EmptyRow()
  {
    seq(Height, _ => EmptyRow())
  }

  // ---------------------------------------------------------------------
  // JavaScript's `<` on strings: lexicographic by character, a proper
  // prefix sorting first.
  // ---------------------------------------------------------------------

  predicate LexLt(a: string, b: string)
    decreases |a|
  {
    if |b| == 0 then false
    else if |a| == 0 then true
    else if a[0] != b[0] then a[0] < b[0]
    else LexLt(a[1..], b[1..])
  }

  /** `a <= b`, which JavaScript evaluates as `!(b < a)`. */
  predicate LexLe(a: string, b: string) {
    !LexLt(b, a)
  }

  lemma {:induction false} LexLtIrreflexive(a: string)
    ensures !LexLt(a, a)
  {
    if |a| > 0 {
      LexLtIrreflexive(a[1..]);
    }
  }

  /** Exactly one of a < b, a == b, b < a. */
  lemma {:induction false} LexTrichotomy(a: string, b: string)
    ensures LexLt(a, b) || a == b || LexLt(b, a)
    ensures !(LexLt(a, b) && LexLt(b, a))
    ensures a == b ==> !LexLt(a, b)
  {
    if |a| > 0 && |b| > 0 && a[0] == b[0] {
      LexTrichotomy(a[1..], b[1..]);
      if a[1..] == b[1..] {
        assert a == [a[0]] + a[1..] && b == [b[0]] + b[1..];
      }
    } else if a == b {
      LexLtIrreflexive(a);
    }
  }

  lemma {:induction false} LexLtTransitive(a: string, b: string, c: string)
    requires LexLt(a, b) && LexLt(b, c)
    ensures LexLt(a, c)
  {
    if |a| > 0 && a[0] == b[0] && b[0] == c[0] {
      LexLtTransitive(a[1..], b[1..], c[1..]);
    }
  }

  /** JavaScript's default sort order on strings is a total preorder. */
  lemma LexLeTotalPreorder()
    ensures TotalPreorder(LexLe)
  {
    forall a, b ensures LexLe(a, b) || LexLe(b, a) {
      LexTrichotomy(a, b);
    }
    forall a, b, c | LexLe(a, b) && LexLe(b, c) ensures LexLe(a, c) {
      LexTrichotomy(a, b);
      LexTrichotomy(b, c);
      LexTrichotomy(a, c);
      if LexLt(c, a) {
        if LexLt(a, b) {
          LexLtTransitive(c, a, b);
        }
      }
    }
  }

  // ---------------------------------------------------------------------
  // compare / compareWords
  // ---------------------------------------------------------------------

  /** `compare`: walks two lists from the front, dropping the smaller head,
      and counts a match whenever neither head is smaller. Each call
      shortens at least one list. */
  function Compare(ch1: seq<string>, ch2: seq<string>): (n: nat)
    decreases |ch1| + |ch2|
    ensures n <= |ch1| && n <= |ch2|
  {
    if |ch1| == 0 || |ch2| == 0 then 0
    else if LexLt(ch1[0], ch2[0]) then Compare(ch1[1..], ch2)
    else if LexLt(ch2[0], ch1[0]) then Compare(ch1, ch2[1..])
    else 1 + Compare(ch1[1..], ch2[1..])
  }

  /** The merge is symmetric on every input, sorted or not. */
  lemma {:induction false} CompareSymmetric(ch1: seq<string>, ch2: seq<string>)
    decreases |ch1| + |ch2|
    ensures Compare(ch1, ch2) == Compare(ch2, ch1)
  {
    if |ch1| > 0 && |ch2| > 0 {
      LexTrichotomy(ch1[0], ch2[0]);
      if LexLt(ch1[0], ch2[0]) {
        CompareSymmetric(ch1[1..], ch2);
      } else if LexLt(ch2[0], ch1[0]) {
        CompareSymmetric(ch1, ch2[1..]);
      } else {
        CompareSymmetric(ch1[1..], ch2[1..]);
      }
    }
  }

  /** A head strictly below the other list's head occurs nowhere in it. */
  lemma BelowHeadAbsent(x: string, s: seq<string>)
    requires |s| > 0 && SortedBy(s, LexLe) && LexLt(x, s[0])
    ensures multiset(s)[x] == 0
  {
    forall k | 0 <= k < |s| ensures s[k] != x {
      if k > 0 {
        assert LexLe(s[0], s[k]);
      } else {
        LexLtIrreflexive(x);
      }
    }
  }

  lemma ConsMultiset(s: seq<string>)
    requires |s| > 0
    ensures multiset(s) == multiset(s[1..]) + multiset{s[0]}
  {
    assert s == [s[0]] + s[1..];
  }

  /** On sorted lists the merge counts the multiset intersection: the
      letters the two lists share, with multiplicity. */
  lemma {:induction false} CompareIsIntersection(ch1: seq<string>, ch2: seq<string>)
    requires SortedBy(ch1, LexLe) && SortedBy(ch2, LexLe)
    decreases |ch1| + |ch2|
    ensures Compare(ch1, ch2) == |multiset(ch1) * multiset(ch2)|
  {
    if |ch1| == 0 {
      assert multiset(ch1) * multiset(ch2) == multiset{};
    } else if |ch2| == 0 {
      assert multiset(ch1) * multiset(ch2) == multiset{};
    } else {
      var a, b := ch1[0], ch2[0];
      ConsMultiset(ch1);
      ConsMultiset(ch2);
      LexTrichotomy(a, b);
      if LexLt(a, b) {
        BelowHeadAbsent(a, ch2);
        CompareIsIntersection(ch1[1..], ch2);
        assert multiset(ch1) * multiset(ch2) == multiset(ch1[1..]) * multiset(ch2);
      } else if LexLt(b, a) {
        BelowHeadAbsent(b, ch1);
        CompareIsIntersection(ch1, ch2[1..]);
        assert multiset(ch1) * multiset(ch2) == multiset(ch1) * multiset(ch2[1..]);
      } else {
        CompareIsIntersection(ch1[1..], ch2[1..]);
        assert multiset(ch1) * multiset(ch2)
          == multiset(ch1[1..]) * multiset(ch2[1..]) + multiset{a};
      }
    }
  }

  /** `[...w].sort()`: JavaScript's default sort, by string order. */
  function Sorted(w: seq<string>): (r: seq<string>)
    ensures multiset(r) == multiset(w) && |r| == |w|
  {
    SortBy(w, LexLe)
  }

  /** The default sort puts the letters in string order. */
  lemma SortedSorts(w: seq<string>)
    ensures SortedBy(Sorted(w), LexLe)
  {
    LexLeTotalPreorder();
    SortBySorted(w, LexLe);
  }

  /** `compareWords` on two lists of letters (the board rows in main.mjs). */
  function CompareWords(w1: seq<string>, w2: seq<string>): (n: nat)
    ensures n <= |w1| && n <= |w2|
  {
    Compare(Sorted(w1), Sorted(w2))
  }

  /** compareWords counts the letters the two lists share, with
      multiplicity. */
  lemma CompareWordsCounts(w1: seq<string>, w2: seq<string>)
    ensures CompareWords(w1, w2) == |multiset(w1) * multiset(w2)|
  {
    SortedSorts(w1);
    SortedSorts(w2);
    CompareIsIntersection(Sorted(w1), Sorted(w2));
  }

  /** `[...w]` on a string: its characters, each a one-character string. */
  function Chars(w: string): (r: seq<string>)
    ensures |r| == |w| && forall i :: 0 <= i < |w| ==> r[i] == [w[i]]
  {
    seq(|w|, i requires 0 <= i < |w| => [w[i]])
  }

  /** Two strings have the same one-character strings exactly when they have
      the same letters. */
  lemma CharsMultiset(w: string, v: string)
    requires multiset(w) == multiset(v)
    ensures multiset(Chars(w)) == multiset(Chars(v))
  {
    CharsCount(w);
    CharsCount(v);
  }

  lemma {:induction false} CharsCount(w: string)
    ensures forall s :: multiset(Chars(w))[s] == if |s| == 1 then multiset(w)[s[0]] else 0
  {
    if |w| > 0 {
      var k := |w| - 1;
      CharsCount(w[..k]);
      assert Chars(w) == Chars(w[..k]) + [[w[k]]];
      assert w == w[..k] + [w[k]];
      forall s ensures multiset(Chars(w))[s] == if |s| == 1 then multiset(w)[s[0]] else 0 {
        if |s| == 1 {
          assert s == [w[k]] <==> s[0] == w[k];
        }
      }
    } else {
      assert Chars(w) == [];
    }
  }

  /** `compareWords` as utils.js calls it, on two strings. */
  function CompareStrings(w1: string, w2: string): (n: nat)
    ensures n <= |w1| && n <= |w2|
  {
    CompareWords(Chars(w1), Chars(w2))
  }

  /** compareWords counts shared letters, so it is symmetric, blind to the
      order of either word's letters, and a word shares all of itself. */
  lemma CompareWordsProperties(w1: seq<string>, w2: seq<string>, w1r: seq<string>)
    requires multiset(w1r) == multiset(w1)
    ensures CompareWords(w1, w2) == CompareWords(w2, w1)
    ensures CompareWords(w1r, w2) == CompareWords(w1, w2)
    ensures CompareWords(w1, w1) == |w1|
  {
    CompareWordsCounts(w1, w2);
    CompareWordsCounts(w2, w1);
    CompareWordsCounts(w1r, w2);
    CompareWordsCounts(w1, w1);
    assert multiset(w1) * multiset(w2) == multiset(w2) * multiset(w1);
    assert multiset(w1) * multiset(w1) == multiset(w1);
  }

  lemma CompareStringsProperties(w1: string, w2: string, w1r: string)
    requires multiset(w1r) == multiset(w1)
    ensures CompareStrings(w1, w2) == CompareStrings(w2, w1)
    ensures CompareStrings(w1r, w2) == CompareStrings(w1, w2)
    ensures CompareStrings(w1, w1) == |w1|
  {
    CharsMultiset(w1r, w1);
    CompareWordsProperties(Chars(w1), Chars(w2), Chars(w1r));
  }
}

=== FILE: animation.dfy ===
/** Genuary 2026 day 2, "twelve rules of animation"
    (genart/genuary2026/02_twelverulesofanimation.mjs). A grid of coloured
    blobs; every cycle a few movers squash from their home cell into a
    neighbouring cell, bounce back, and hand their hue on to the cell they
    hit. The model keeps the grid logic: the neighbour choice, the easing
    arithmetic that brings every blob back to its cell, and the hue hand-off
    at the end of a cycle. */
module Animation {
  import opened Optional

  // ---------------------------------------------------------------------
  // Timing and sizes
  // ---------------------------------------------------------------------

  const StickTime: real := 250.0
  const ImpactTime: real := 125.0
  const ReturnTime: real := 500.0
  const MoveTime: real := 1000.0
  const Cycle: real := MoveTime + ReturnTime
  const BlobRadius: nat := 5
  const CellSize: nat := 10 * BlobRadius
  /** The default overshoot `s` of `easeOutBack`. */
  const Overshoot: real := 1.8

  /** The number of whole cells that fit in a canvas side, `Math.floor(height
      / CELL_SIZE)`. */
  function CellsAcross(pixels: nat): (n: nat)
    ensures n * CellSize <= pixels < (n + 1) * CellSize
  {
    pixels / CellSize
  }

  // ---------------------------------------------------------------------
  // Cells and neighbours
  // ---------------------------------------------------------------------

  datatype Cell = Cell(x: int, y: int)

  function Abs(n: int): nat {
    if n < 0 then -n else n
  }

  function Manhattan(a: Cell, b: Cell): nat {
    Abs(a.x - b.x) + Abs(a.y - b.y)
  }

  /** `neighbors4`: right, left, down, up. */
  function Neighbours4(x: int, y: int): (ns: seq<Cell>)
    ensures |ns| == 4
    ensures forall c :: c in ns <==> Manhattan(c, Cell(x, y)) == 1
  {
    [Cell(x + 1, y), Cell(x - 1, y), Cell(x, y + 1), Cell(x, y - 1)]
  }

  predicate InBounds(c: Cell, rows: int, cols: int) {
    0 <= c.x < cols && 0 <= c.y < rows
  }

  /** The cells of `cs` inside the grid, in their order. */
  function KeepInside(cs: seq<Cell>, rows: int, cols: int): (r: seq<Cell>)
    ensures |r| <= |cs|
    ensures forall c :: c in r <==> c in cs && InBounds(c, rows, cols)
  {
    if cs == [] then []
    else if InBounds(cs[0], rows, cols) then [cs[0]] + KeepInside(cs[1..], rows, cols)
    else KeepInside(cs[1..], rows, cols)
  }

  /** `pickNeighbor`'s candidate list. */
  function Candidates(p: Cell, rows: int, cols: int): seq<Cell> {
    KeepInside(Neighbours4(p.x, p.y), rows, cols)
  }

  /** A value of `rndInt(n)`: below n, and 0 when n is 0. */
  predicate ValidDraw(draw: nat, n: nat) {
    if n == 0 then draw == 0 else draw < n
  }

  /** `pickNeighbor` with the random index given; None stands for the
      `undefined` that indexing an empty candidate list yields. */
  function PickNeighbour(p: Cell, rows: int, cols: int, draw: nat): (r: Option<Cell>)
    requires ValidDraw(draw, |Candidates(p, rows, cols)|)
    ensures r.Some? ==> InBounds(r.value, rows, cols) && Manhattan(r.value, p) == 1
  {
    var cands := Candidates(p, rows, cols);
    if draw < |cands| then Some(cands[draw]) else None
  }

  /** An in-bounds cell of a grid with at least two cells always has an
      in-bounds neighbour, and on a one-cell grid it has none. */
  lemma PickNeighbourExists(p: Cell, rows: int, cols: int, draw: nat)
    requires InBounds(p, rows, cols)
    requires ValidDraw(draw, |Candidates(p, rows, cols)|)
    ensures PickNeighbour(p, rows, cols, draw).Some? <==> rows * cols >= 2
  {
    var cands := Candidates(p, rows, cols);
    if cols >= 2 {
      if p.x + 1 < cols {
        assert Cell(p.x + 1, p.y) in Neighbours4(p.x, p.y);
        assert Cell(p.x + 1, p.y) in cands;
      } else {
        assert Cell(p.x - 1, p.y) in Neighbours4(p.x, p.y);
        assert Cell(p.x - 1, p.y) in cands;
      }
      assert rows * cols >= 2 by {
        assert rows >= 1;
        MulAtLeast(rows, cols);
      }
    } else if rows >= 2 {
      if p.y + 1 < rows {
        assert Cell(p.x, p.y + 1) in Neighbours4(p.x, p.y);
        assert Cell(p.x, p.y + 1) in cands;
      } else {
        assert Cell(p.x, p.y - 1) in Neighbours4(p.x, p.y);
        assert Cell(p.x, p.y - 1) in cands;
      }
      assert rows * cols >= 2 by {
        MulAtLeast(cols, rows);
        assert cols * rows == rows * cols;
      }
    } else {
      assert rows == 1 && cols == 1;
      assert rows * cols == 1;
    }
  }

  lemma MulAtLeast(a: int, b: int)
    requires a >= 1 && b >= 2
    ensures a * b >= 2
  {
  }

  /** Every in-bounds orthogonal neighbour is a possible pick. */
  lemma PickNeighbourCovers(p: Cell, rows: int, cols: int, c: Cell)
    requires InBounds(c, rows, cols) && Manhattan(c, p) == 1
    ensures exists d: nat :: ValidDraw(d, |Candidates(p, rows, cols)|) && PickNeighbour(p, rows, cols, d) == Some(c)
  {
    var cands := Candidates(p, rows, cols);
    assert c in cands;
    var d :| 0 <= d < |cands| && cands[d] == c;
    assert PickNeighbour(p, rows, cols, d) == Some(c);
  }

  // ---------------------------------------------------------------------
  // Easing
  // ---------------------------------------------------------------------

  /** `clamp01`. */
  function Clamp01(t: real): (r: real)
    ensures 0.0 <= r <= 1.0
    ensures 0.0 <= t <= 1.0 ==> r == t
    ensures t < 0.0 ==> r == 0.0
    ensures t > 1.0 ==> r == 1.0
  {
    if t < 0.0 then 0.0 else if t > 1.0 then 1.0 else t
  }

  /** `easeOutBack(t, s)`: the clamped time eased with overshoot s. */
  function EaseOutBack(t: real, s: real): real {
    var u := Clamp01(t) - 1.0;
    1.0 + u * u * ((s + 1.0) * u + s)
  }

  /** Whatever the overshoot, the easing starts at 0 and ends at 1, and
      stays there outside [0, 1]. */
  lemma EaseOutBackEnds(t: real, s: real)
    ensures t <= 0.0 ==> EaseOutBack(t, s) == 0.0
    ensures t >= 1.0 ==> EaseOutBack(t, s) == 1.0
  {
    if t <= 0.0 {
      var u := Clamp01(t) - 1.0;
      assert u == -1.0;
      assert u * u == 1.0;
    }
  }

  /** With the default overshoot the return passes its end before settling:
      at four fifths of the way the eased value is above 1. */
  lemma EaseOutBackOvershoots()
    ensures EaseOutBack(0.8, Overshoot) > 1.0
  {
    var u := Clamp01(0.8) - 1.0;
    assert u == -0.2;
    assert u * u == 0.04;
  }

  /** One coordinate of a mover's home blob at time `dt` into the cycle:
      it follows the moving blob until `StickTime`, then springs from the
      release point back to the home centre. */
  function HomeBlob(moving: real, release: real, home: real, dt: real): real {
    if dt < StickTime then moving
    else release + (home - release) * EaseOutBack((dt - StickTime) / ReturnTime, Overshoot)
  }

  /** One coordinate of the target blob: pushed along `dir` by up to
      `PUSH_MAX` pixels, scaled by `push` in [0, 1], during the impact, then
      sprung from its release point back to the target centre. */
  function TargetBlob(release: real, centre: real, dir: real, push: real, dt: real): real {
    if MoveTime - ImpactTime <= dt <= MoveTime then centre + dir * 3.0 * push
    else if dt > MoveTime then release + (centre - release) * EaseOutBack((dt - MoveTime) / ReturnTime, Overshoot)
    else centre
  }

  /** By the end of a cycle both blobs have sprung back exactly onto their
      cell centres, so the restart leaves nothing displaced. */
  lemma BlobsHomeAtCycleEnd(moving: real, release: real, home: real, dir: real, push: real, centre: real, dt: real)
    requires dt >= Cycle
    ensures HomeBlob(moving, release, home, dt) == home
    ensures TargetBlob(release, centre, dir, push, dt) == centre
  {
    EaseOutBackEnds((dt - StickTime) / ReturnTime, Overshoot);
    EaseOutBackEnds((dt - MoveTime) / ReturnTime, Overshoot);
  }

  // ---------------------------------------------------------------------
  // Movers and the hue hand-off
  // ---------------------------------------------------------------------

  /** A mover's cells; the release points are animation state and are left
      to `HomeBlob` and `TargetBlob`. */
  datatype Mover = Mover(home: Cell, target: Option<Cell>)

  /** `Math.floor((rows * cols) / 20)`. */
  function MoverCount(rows: nat, cols: nat): nat {
    (rows * cols) / 20
  }

  /** The three random draws behind one mover: its column, its row and the
      index into its neighbour candidates. */
  datatype Draw = Draw(col: nat, row: nat, pick: nat)

  predicate ValidDraws(ds: seq<Draw>, rows: nat, cols: nat) {
    forall i :: 0 <= i < |ds| ==>
      ds[i].col < cols && ds[i].row < rows
      && ValidDraw(ds[i].pick, |Candidates(Cell(ds[i].col, ds[i].row), rows, cols)|)
  }

  /** Whether a mover's home and target are both cells of the grid. */
  predicate Placed(m: Mover, rows: int, cols: int) {
    InBounds(m.home, rows, cols) && m.target.Some? && InBounds(m.target.value, rows, cols)
  }

  /** One mover of `resetMovers`. */
  function NewMover(rows: nat, cols: nat, d: Draw): (m: Mover)
    requires d.col < cols && d.row < rows
    requires ValidDraw(d.pick, |Candidates(Cell(d.col, d.row), rows, cols)|)
    requires rows * cols >= 20
    ensures m.home == Cell(d.col, d.row) && Placed(m, rows, cols)
    ensures Manhattan(m.home, m.target.value) == 1
  {
    var home := Cell(d.col, d.row);
    PickNeighbourExists(home, rows, cols, d.pick);
    Mover(home, PickNeighbour(home, rows, cols, d.pick))
  }

  /** `resetMovers`: `MoverCount` movers, each with an in-bounds home and an
      in-bounds target next to it. */
  function ResetMovers(rows: nat, cols: nat, ds: seq<Draw>): (ms: seq<Mover>)
    requires |ds| == MoverCount(rows, cols) && ValidDraws(ds, rows, cols)
    ensures |ms| == MoverCount(rows, cols)
    ensures forall i :: 0 <= i < |ms| ==> ms[i].home == Cell(ds[i].col, ds[i].row)
    ensures forall i :: 0 <= i < |ms| ==> Placed(ms[i], rows, cols) && Manhattan(ms[i].home, ms[i].target.value) == 1
  {
    if |ds| == 0 then []
    else
      assert rows * cols >= 20;
      seq(|ds|, i requires 0 <= i < |ds| => NewMover(rows, cols, ds[i]))
  }

  /** A rows-by-cols table of hues. */
  predicate IsGrid(h: seq<seq<int>>, rows: int, cols: int) {
    |h| == rows && forall r :: 0 <= r < |h| ==> |h[r]| == cols
  }

  predicate AllPlaced(ms: seq<Mover>, rows: int, cols: int) {
    forall i :: 0 <= i < |ms| ==> Placed(ms[i], rows, cols)
  }

  /** One step of the loop at the end of a cycle: the target cell takes the
      home cell's current hue and nothing else changes. */
  function Carry(h: seq<seq<int>>, m: Mover, rows: int, cols: int): (h': seq<seq<int>>)
    requires IsGrid(h, rows, cols) && Placed(m, rows, cols)
    ensures IsGrid(h', rows, cols)
    ensures h'[m.target.value.y][m.target.value.x] == h[m.home.y][m.home.x]
    ensures forall r, c :: 0 <= r < rows && 0 <= c < cols && Cell(c, r) != m.target.value ==> h'[r][c] == h[r][c]
  {
    var t := m.target.value;
    h[t.y := h[t.y][t.x := h[m.home.y][m.home.x]]]
  }

  /** The hand-off for a list of movers, in mover order. */
  function HandOff(h: seq<seq<int>>, ms: seq<Mover>, rows: int, cols: int): (h': seq<seq<int>>)
    requires IsGrid(h, rows, cols) && AllPlaced(ms, rows, cols)
    ensures IsGrid(h', rows, cols)
    decreases |ms|
  {
    if ms == [] then h else HandOff(Carry(h, ms[0], rows, cols), ms[1..], rows, cols)
  }

  /** Handing off two lists of movers one after the other is handing off
      their concatenation. */
  lemma {:induction false} HandOffAppend(h: seq<seq<int>>, a: seq<Mover>, b: seq<Mover>, rows: int, cols: int)
    requires IsGrid(h, rows, cols) && AllPlaced(a, rows, cols) && AllPlaced(b, rows, cols)
    ensures AllPlaced(a + b, rows, cols)
    ensures HandOff(h, a + b, rows, cols) == HandOff(HandOff(h, a, rows, cols), b, rows, cols)
    decreases |a|
  {
    assert AllPlaced(a + b, rows, cols) by {
      forall i | 0 <= i < |a + b| ensures Placed((a + b)[i], rows, cols) {
        if i < |a| {
          assert (a + b)[i] == a[i];
        } else {
          assert (a + b)[i] == b[i - |a|];
        }
      }
    }
    if a == [] {
      assert a + b == b;
    } else {
      assert (a + b)[1..] == a[1..] + b;
      assert (a + b)[0] == a[0];
      HandOffAppend(Carry(h, a[0], rows, cols), a[1..], b, rows, cols);
    }
  }

  /** The last mover of a list acts last. */
  lemma HandOffSnoc(h: seq<seq<int>>, ms: seq<Mover>, m: Mover, rows: int, cols: int)
    requires IsGrid(h, rows, cols) && AllPlaced(ms, rows, cols) && Placed(m, rows, cols)
    ensures AllPlaced(ms + [m], rows, cols)
    ensures HandOff(h, ms + [m], rows, cols) == Carry(HandOff(h, ms, rows, cols), m, rows, cols)
  {
    HandOffAppend(h, ms, [m], rows, cols);
    var h' := HandOff(h, ms, rows, cols);
    assert HandOff(h', [m], rows, cols) == HandOff(Carry(h', m, rows, cols), [], rows, cols);
  }

  predicate Targets(ms: seq<Mover>, c: Cell) {
    exists i :: 0 <= i < |ms| && ms[i].target == Some(c)
  }

  /** A cell no mover targets keeps its hue. */
  lemma {:induction false} HandOffUntargeted(h: seq<seq<int>>, ms: seq<Mover>, rows: int, cols: int, c: Cell)
    requires IsGrid(h, rows, cols) && AllPlaced(ms, rows, cols)
    requires InBounds(c, rows, cols) && !Targets(ms, c)
    ensures HandOff(h, ms, rows, cols)[c.y][c.x] == h[c.y][c.x]
    decreases |ms|
  {
    if ms != [] {
      assert ms[0].target != Some(c);
      assert !Targets(ms[1..], c);
      HandOffUntargeted(Carry(h, ms[0], rows, cols), ms[1..], rows, cols, c);
    }
  }

  /** A targeted cell ends with the hue that the last mover targeting it
      found at its home when its turn came. */
  lemma LastMoverWins(h: seq<seq<int>>, pre: seq<Mover>, m: Mover, post: seq<Mover>, rows: int, cols: int)
    requires IsGrid(h, rows, cols) && AllPlaced(pre, rows, cols) && Placed(m, rows, cols) && AllPlaced(post, rows, cols)
    requires !Targets(post, m.target.value)
    ensures AllPlaced(pre + [m] + post, rows, cols)
    ensures HandOff(h, pre + [m] + post, rows, cols)[m.target.value.y][m.target.value.x]
         == HandOff(h, pre, rows, cols)[m.home.y][m.home.x]
  {
    HandOffSnoc(h, pre, m, rows, cols);
    HandOffAppend(h, pre + [m], post, rows, cols);
    HandOffUntargeted(HandOff(h, pre + [m], rows, cols), post, rows, cols, m.target.value);
  }

  predicate HuesBelow(h: seq<seq<int>>, bound: int) {
    forall r, c :: 0 <= r < |h| && 0 <= c < |h[r]| ==> 0 <= h[r][c] < bound
  }

  /** The hand-off only moves hues around, so every hue stays a `rndInt(360)`
      value. */
  lemma {:induction false} HandOffKeepsHues(h: seq<seq<int>>, ms: seq<Mover>, rows: int, cols: int)
    requires IsGrid(h, rows, cols) && AllPlaced(ms, rows, cols) && HuesBelow(h, 360)
    ensures HuesBelow(HandOff(h, ms, rows, cols), 360)
    decreases |ms|
  {
    if ms != [] {
      HandOffKeepsHues(Carry(h, ms[0], rows, cols), ms[1..], rows, cols);
    }
  }

  /** The loop at the end of a cycle, mover by mover. */
  method CycleEnd(hues: seq<seq<int>>, movers: seq<Mover>, rows: int, cols: int) returns (h: seq<seq<int>>)
    requires IsGrid(hues, rows, cols) && AllPlaced(movers, rows, cols)
    ensures h == HandOff(hues, movers, rows, cols)
  {
    h := hues;
    var i := 0;
    while i < |movers|
      invariant 0 <= i <= |movers|
      invariant AllPlaced(movers[..i], rows, cols)
      invariant h == HandOff(hues, movers[..i], rows, cols)
    {
      var m := movers[i];
      HandOffSnoc(hues, movers[..i], m, rows, cols);
      assert movers[..i + 1] == movers[..i] + [m];
      var t := m.target.value;
      h := h[t.y := h[t.y][t.x := h[m.home.y][m.home.x]]];
      i := i + 1;
    }
    assert movers[..i] == movers;
  }
}

=== FILE: boolean_automaton.dfy ===
/** The hexagonal boolean automaton (genart/genuary2026/07_boolean_algebra.mjs).
    Every cell holds a bit, a logic gate and a set of up to three incoming
    connections chosen among its six hexagonal neighbours; one step replaces
    every bit by its gate applied to the bits of its inputs, all computed
    from the previous generation. */
module BooleanAutomaton {
  import opened Seqs

  /** The six gates of `OPS`. */
  datatype Op = And | Nand | Or | Nor | Xor | Xnor

  /** The six connection directions. Offset rows are not shifted: the
      "up right" neighbour of (x, y) is (x, y - 1). */
  datatype Dir = UpL | UpR | Left | Right | DownL | DownR

  /** The flag each direction has in the source's connection bitmask. */
  function Flag(d: Dir): bv32 {
    match d
    case UpL => 1
    case UpR => 2
    case Left => 4
    case Right => 8
    case DownL => 16
    case DownR => 32
  }

  /** The bitmask `num` built by or-ing the flags of a set of directions. */
  function Mask(con: set<Dir>): bv32 {
    (if UpL in con then 1 else 0) | (if UpR in con then 2 else 0)
    | (if Left in con then 4 else 0) | (if Right in con then 8 else 0)
    | (if DownL in con then 16 else 0) | (if DownR in con then 32 else 0)
  }

  /** Testing `con & FLAG` on the mask recovers exactly the chosen set, so
      the model keeps connections as sets. */
  lemma MaskTest(con: set<Dir>, d: Dir)
    ensures Mask(con) & Flag(d) != 0 <==> d in con
  {
  }

  /** The constant `K`: how many connections a cell draws. */
  const Draws: nat := 3

  // ---------------------------------------------------------------------
  // applyOp
  // ---------------------------------------------------------------------

  /** One step of the gate's `reduce` callback, on 32-bit integers as
      JavaScript's bitwise operators see them. */
  function Step(op: Op, a: bv32, b: bv32): bv32 {
    match op
    case And => a & b
    case Nand => !(a & b) & 1
    case Or => a | b
    case Nor => !(a | b) & 1
    case Xor => a ^ b
    case Xnor => !(a ^ b) & 1
  }

  /** The initial accumulator each gate passes to `reduce`. */
  function Seed(op: Op): bv32 {
    if op == And || op == Nand then 1 else 0
  }

  /** `Array.prototype.reduce` from the left. */
  function Fold(op: Op, acc: bv32, s: seq<bv32>): bv32
    decreases |s|
  {
    if |s| == 0 then acc else Fold(op, Step(op, acc, s[0]), s[1..])
  }

  predicate IsBit(v: bv32) {
    v == 0 || v == 1
  }

  predicate AllBits(s: seq<bv32>) {
    forall i :: 0 <= i < |s| ==> IsBit(s[i])
  }

  /** `applyOp`. The source's `default: return 0` is unreachable because a
      gate is always one of `OPS`. With no inputs every gate returns its
      seed: 1 for AND and NAND, 0 for the rest. */
  function ApplyOp(op: Op, inputs: seq<bv32>): (r: bv32)
    ensures |inputs| == 0 ==> (r == 1 <==> op in {And, Nand}) && IsBit(r)
  {
    Fold(op, Seed(op), inputs)
  }

  lemma {:induction false} FoldBit(op: Op, acc: bv32, s: seq<bv32>)
    decreases |s|
    requires IsBit(acc) && AllBits(s)
    ensures IsBit(Fold(op, acc, s))
  {
    if |s| > 0 {
      FoldBit(op, Step(op, acc, s[0]), s[1..]);
    }
  }

  /** On bits every gate yields a bit. */
  lemma ApplyOpBit(op: Op, inputs: seq<bv32>)
    requires AllBits(inputs)
    ensures IsBit(ApplyOp(op, inputs))
  {
    FoldBit(op, Seed(op), inputs);
  }

  /** AND yields a bit on any inputs at all, since its seed is 1. */
  lemma {:induction false} AndFoldBit(acc: bv32, s: seq<bv32>)
    decreases |s|
    requires acc <= 1
    ensures Fold(And, acc, s) <= 1
  {
    if |s| > 0 {
      AndFoldBit(acc & s[0], s[1..]);
    }
  }

  lemma {:induction false} AndFoldAll(acc: bv32, s: seq<bv32>)
    decreases |s|
    requires IsBit(acc) && AllBits(s)
    ensures Fold(And, acc, s) == 1 <==> acc == 1 && forall i :: 0 <= i < |s| ==> s[i] == 1
  {
    if |s| > 0 {
      AndFoldAll(acc & s[0], s[1..]);
      assert forall i :: 1 <= i < |s| ==> s[i] == s[1..][i - 1];
    }
  }

  /** AND is 1 exactly when every input is 1. */
  lemma AndAll(inputs: seq<bv32>)
    requires AllBits(inputs)
    ensures ApplyOp(And, inputs) == 1 <==> forall i :: 0 <= i < |inputs| ==> inputs[i] == 1
  {
    AndFoldAll(1, inputs);
  }

  lemma {:induction false} OrFoldAny(acc: bv32, s: seq<bv32>)
    decreases |s|
    requires IsBit(acc) && AllBits(s)
    ensures Fold(Or, acc, s) == 1 <==> acc == 1 || exists i :: 0 <= i < |s| && s[i] == 1
  {
    if |s| > 0 {
      OrFoldAny(acc | s[0], s[1..]);
      assert forall i :: 1 <= i < |s| ==> s[i] == s[1..][i - 1];
      if s[0] == 1 {
        assert exists i :: 0 <= i < |s| && s[i] == 1;
      }
      if exists i :: 0 <= i < |s| && s[i] == 1 {
        var i :| 0 <= i < |s| && s[i] == 1;
        if i > 0 {
          assert s[1..][i - 1] == 1;
        }
      }
    }
  }

  /** OR is 1 exactly when some input is 1. */
  lemma OrAny(inputs: seq<bv32>)
    requires AllBits(inputs)
    ensures ApplyOp(Or, inputs) == 1 <==> exists i :: 0 <= i < |inputs| && inputs[i] == 1
  {
    OrFoldAny(0, inputs);
  }

  /** How many entries of `s` equal `v`. */
  function Count(s: seq<bv32>, v: bv32): nat {
    if |s| == 0 then 0 else (if s[0] == v then 1 else 0) + Count(s[1..], v)
  }

  function Parity(n: nat): bv32 {
    if n % 2 == 0 then 0 else 1
  }

  lemma {:induction false} XorFoldParity(acc: bv32, s: seq<bv32>)
    decreases |s|
    requires IsBit(acc) && AllBits(s)
    ensures Fold(Xor, acc, s) == acc ^ Parity(Count(s, 1))
  {
    if |s| > 0 {
      XorFoldParity(acc ^ s[0], s[1..]);
    }
  }

  lemma {:induction false} XnorFoldParity(acc: bv32, s: seq<bv32>)
    decreases |s|
    requires IsBit(acc) && AllBits(s)
    ensures Fold(Xnor, acc, s) == acc ^ Parity(Count(s, 0))
  {
    if |s| > 0 {
      assert !(acc ^ s[0]) & 1 == acc ^ (if s[0] == 0 then 1 else 0);
      XnorFoldParity(!(acc ^ s[0]) & 1, s[1..]);
    }
  }

  /** XOR is the parity of the ones; XNOR, being seeded with 0 and negating
      at every step, is the parity of the zeros. */
  lemma XorParity(inputs: seq<bv32>)
    requires AllBits(inputs)
    ensures ApplyOp(Xor, inputs) == Parity(Count(inputs, 1))
    ensures ApplyOp(Xnor, inputs) == Parity(Count(inputs, 0))
  {
    XorFoldParity(0, inputs);
    XnorFoldParity(0, inputs);
  }

  lemma {:induction false} FoldSnoc(op: Op, acc: bv32, s: seq<bv32>, b: bv32)
    decreases |s|
    ensures Fold(op, acc, s + [b]) == Step(op, Fold(op, acc, s), b)
  {
    if |s| > 0 {
      assert (s + [b])[1..] == s[1..] + [b];
      FoldSnoc(op, Step(op, acc, s[0]), s[1..], b);
    }
  }

  /** NAND and NOR chain from the left, so the last input decides: NAND is 1
      after a final 0 and otherwise negates the chain before it; NOR is 0
      after a final 1 and otherwise negates the chain before it. */
  lemma ChainLast(inputs: seq<bv32>)
    requires AllBits(inputs) && |inputs| > 0
    ensures var n := |inputs| - 1;
      var front := inputs[..n];
      && ApplyOp(Nand, inputs) == (if inputs[n] == 0 then 1 else 1 - ApplyOp(Nand, front))
      && ApplyOp(Nor, inputs) == (if inputs[n] == 1 then 0 else 1 - ApplyOp(Nor, front))
  {
    var n := |inputs| - 1;
    assert inputs == inputs[..n] + [inputs[n]];
    FoldSnoc(Nand, 1, inputs[..n], inputs[n]);
    FoldSnoc(Nor, 0, inputs[..n], inputs[n]);
    FoldBit(Nand, 1, inputs[..n]);
    FoldBit(Nor, 0, inputs[..n]);
  }

  // ---------------------------------------------------------------------
  // pickConnection
  // ---------------------------------------------------------------------

  /** The `bits` list of `pickConnection`: the directions whose neighbour
      exists, in the order the source pushes them. */
  function Available(x: nat, y: nat, cols: nat, rows: nat): (r: seq<Dir>)
    ensures Distinct(r)
    ensures forall d :: d in r <==> HasNeighbour(x, y, cols, rows, d)
  {
    (if y > 0 && x > 0 then [UpL] else [])
    + (if y > 0 && x + 1 < cols then [UpR] else [])
    + (if x + 1 < cols then [Right] else [])
    + (if x > 0 then [Left] else [])
    + (if y + 1 < rows && x > 0 then [DownL] else [])
    + (if y + 1 < rows then [DownR] else [])
  }

  /** Whether the neighbour in direction `d` lies on a `cols` by `rows`
      grid. */
  predicate HasNeighbour(x: nat, y: nat, cols: nat, rows: nat, d: Dir) {
    match d
    case UpL => y > 0 && x > 0
    case UpR => y > 0 && x + 1 < cols
    case Right => x + 1 < cols
    case Left => x > 0
    case DownL => y + 1 < rows && x > 0
    case DownR => y + 1 < rows
  }

  /** `rnd(bits.length)` on the shrinking list: the i-th draw is below the
      length left after i removals, and is 0 once the list is empty. */
  predicate DrawsFit(draws: seq<nat>, n: nat) {
    forall i :: 0 <= i < |draws| ==> draws[i] < (if n > i then n - i else 1)
  }

  /** `bits.splice(index, 1)`. */
  function Remove(bits: seq<Dir>, k: nat): (r: seq<Dir>)
    requires k < |bits|
    ensures |r| == |bits| - 1
  {
    bits[..k] + bits[k + 1..]
  }

  /** The loop of `pickConnection`. Once `bits` is empty, `bits[0]` is
      undefined and `num |= undefined` leaves `num` alone. */
  function Pick(bits: seq<Dir>, draws: seq<nat>): set<Dir>
    requires DrawsFit(draws, |bits|)
    decreases |draws|
  {
    if |draws| == 0 then {}
    else if |bits| == 0 then Pick(bits, draws[1..])
    else {bits[draws[0]]} + Pick(Remove(bits, draws[0]), draws[1..])
  }

  /** `pickConnection(x, y, cols, rows)` with its three draws. */
  function PickConnection(x: nat, y: nat, cols: nat, rows: nat, draws: seq<nat>): set<Dir>
    requires |draws| == Draws && DrawsFit(draws, |Available(x, y, cols, rows)|)
  {
    Pick(Available(x, y, cols, rows), draws)
  }

  lemma RemoveKeeps(bits: seq<Dir>, k: nat)
    requires k < |bits| && Distinct(bits)
    ensures Distinct(Remove(bits, k))
    ensures forall d :: d in Remove(bits, k) <==> d in bits && d != bits[k]
  {
    var r := Remove(bits, k);
    forall d | d in bits && d != bits[k] ensures d in r {
      var j :| 0 <= j < |bits| && bits[j] == d;
      if j < k {
        assert r[j] == d;
      } else {
        assert r[j - 1] == d;
      }
    }
  }

  lemma {:induction false} PickCount(bits: seq<Dir>, draws: seq<nat>)
    requires DrawsFit(draws, |bits|) && Distinct(bits)
    decreases |draws|
    ensures forall d :: d in Pick(bits, draws) ==> d in bits
    ensures |Pick(bits, draws)| == if |draws| < |bits| then |draws| else |bits|
  {
    if |draws| > 0 {
      if |bits| == 0 {
        PickCount(bits, draws[1..]);
      } else {
        var k := draws[0];
        RemoveKeeps(bits, k);
        PickCount(Remove(bits, k), draws[1..]);
        assert bits[k] !in Pick(Remove(bits, k), draws[1..]);
      }
    }
  }

  /** `pickConnection` chooses only directions whose neighbour exists, and
      exactly min(K, available) distinct ones. */
  lemma PickConnectionFits(x: nat, y: nat, cols: nat, rows: nat, draws: seq<nat>)
    requires |draws| == Draws && DrawsFit(draws, |Available(x, y, cols, rows)|)
    ensures forall d :: d in PickConnection(x, y, cols, rows, draws) ==> d in Available(x, y, cols, rows)
    ensures var n := |Available(x, y, cols, rows)|;
      |PickConnection(x, y, cols, rows, draws)| == if n < Draws then n else Draws
  {
    PickCount(Available(x, y, cols, rows), draws);
  }

  // ---------------------------------------------------------------------
  // The grid
  // ---------------------------------------------------------------------

  datatype Cell = Cell(value: bv32, op: Op, inputs: set<Dir>)

  type Grid = seq<seq<Cell>>

  predicate Rectangular(g: Grid) {
    |g| > 0 && forall y :: 0 <= y < |g| ==> |g[y]| == |g[0]|
  }

  /** A cell's connections all point at neighbours on the grid. */
  predicate CellConnected(g: Grid, x: nat, y: nat)
    requires Rectangular(g) && y < |g| && x < |g[y]|
  {
    forall d :: d in g[y][x].inputs ==> HasNeighbour(x, y, |g[0]|, |g|, d)
  }

  predicate Valid(g: Grid) {
    && Rectangular(g)
    && (forall y, x :: 0 <= y < |g| && 0 <= x < |g[y]| ==> CellConnected(g, x, y))
    && (forall y, x :: 0 <= y < |g| && 0 <= x < |g[y]| ==> IsBit(g[y][x].value))
  }

  /** The bit a cell reads from its neighbour in direction `d`. */
  function Read(g: Grid, x: nat, y: nat, d: Dir): bv32
    requires Rectangular(g) && y < |g| && x < |g[y]| && HasNeighbour(x, y, |g[0]|, |g|, d)
  {
    match d
    case UpL => g[y - 1][x - 1].value
    case UpR => g[y - 1][x].value
    case Left => g[y][x - 1].value
    case Right => g[y][x + 1].value
    case DownL => g[y + 1][x - 1].value
    case DownR => g[y + 1][x].value
  }

  /** `[Read(d)]` when the cell is connected in direction `d`. */
  function ReadIf(g: Grid, x: nat, y: nat, d: Dir): (r: seq<bv32>)
    requires Rectangular(g) && y < |g| && x < |g[y]| && CellConnected(g, x, y)
    ensures |r| == if d in g[y][x].inputs then 1 else 0
  {
    if d in g[y][x].inputs then [Read(g, x, y, d)] else []
  }

  /** The order in which `update` tests the connection flags. */
  const ReadOrder: seq<Dir> := [UpL, UpR, Left, Right, DownL, DownR]

  function ReadAll(g: Grid, x: nat, y: nat, ds: seq<Dir>): seq<bv32>
    requires Rectangular(g) && y < |g| && x < |g[y]| && CellConnected(g, x, y)
  {
    if |ds| == 0 then [] else ReadIf(g, x, y, ds[0]) + ReadAll(g, x, y, ds[1..])
  }

  /** The bits a cell reads in `update`, in the order the source pushes
      them. Each read is in bounds because the cell is only connected to
      neighbours that exist. */
  function Inputs(g: Grid, x: nat, y: nat): seq<bv32>
    requires Rectangular(g) && y < |g| && x < |g[y]| && CellConnected(g, x, y)
  {
    ReadAll(g, x, y, ReadOrder)
  }

  /** How many of the directions `ds` are in `con`. */
  function CountIn(con: set<Dir>, ds: seq<Dir>): nat {
    if |ds| == 0 then 0 else (if ds[0] in con then 1 else 0) + CountIn(con, ds[1..])
  }

  /** Counting a set along a list that covers it, once each, gives its size. */
  lemma {:induction false} CountInSize(con: set<Dir>, ds: seq<Dir>)
    requires Distinct(ds) && forall d :: d in con ==> d in ds
    ensures CountIn(con, ds) == |con|
  {
    if |ds| == 0 {
      assert con == {} by {
        forall d | d in con ensures false {
        }
      }
    } else {
      var rest := con - {ds[0]};
      forall d | d in rest ensures d in ds[1..] {
        var j :| 0 <= j < |ds| && ds[j] == d;
        assert j != 0;
        assert ds[1..][j - 1] == d;
      }
      assert Distinct(ds[1..]) by {
        forall i, j | 0 <= i < j < |ds[1..]| ensures ds[1..][i] != ds[1..][j] {
          assert ds[i + 1] != ds[j + 1];
        }
      }
      CountInSize(rest, ds[1..]);
      assert CountIn(con, ds[1..]) == CountIn(rest, ds[1..]) by {
        CountInMinus(con, ds[0], ds[1..]);
      }
      if ds[0] in con {
        assert con == rest + {ds[0]};
      } else {
        assert rest == con;
      }
    }
  }

  lemma {:induction false} CountInMinus(con: set<Dir>, d: Dir, ds: seq<Dir>)
    requires d !in ds
    ensures CountIn(con, ds) == CountIn(con - {d}, ds)
  {
    if |ds| > 0 {
      CountInMinus(con, d, ds[1..]);
    }
  }

  /** A connected cell reads one bit per connection, all of them bits when
      the grid holds bits. */
  lemma InputsCount(g: Grid, x: nat, y: nat)
    requires Valid(g) && y < |g| && x < |g[y]|
    ensures |Inputs(g, x, y)| == |g[y][x].inputs|
    ensures AllBits(Inputs(g, x, y))
  {
    var con := g[y][x].inputs;
    assert forall d :: d in con ==> d in ReadOrder by {
      forall d ensures d in ReadOrder {
        match d
        case UpL => case UpR => case Left => case Right => case DownL => case DownR =>
      }
    }
    CountInSize(con, ReadOrder);
    ReadAllCount(g, x, y, ReadOrder);
  }

  lemma {:induction false} ReadAllCount(g: Grid, x: nat, y: nat, ds: seq<Dir>)
    requires Valid(g) && y < |g| && x < |g[y]|
    ensures |ReadAll(g, x, y, ds)| == CountIn(g[y][x].inputs, ds)
    ensures AllBits(ReadAll(g, x, y, ds))
  {
    if |ds| > 0 {
      ReadAllCount(g, x, y, ds[1..]);
      var head := ReadIf(g, x, y, ds[0]);
      var rest := ReadAll(g, x, y, ds[1..]);
      assert AllBits(head) by {
        if ds[0] in g[y][x].inputs {
          ReadBit(g, x, y, ds[0]);
        }
      }
      assert forall i :: 0 <= i < |head + rest| ==>
        (head + rest)[i] == if i < |head| then head[i] else rest[i - |head|];
    }
  }

  lemma ReadBit(g: Grid, x: nat, y: nat, d: Dir)
    requires Valid(g) && y < |g| && x < |g[y]| && HasNeighbour(x, y, |g[0]|, |g|, d)
    ensures IsBit(Read(g, x, y, d))
  {
  }

  /** `update`: every new bit is its cell's gate over the previous
      generation's bits; gates and connections are left alone. */
  function Update(g: Grid): (r: Grid)
    requires Valid(g)
    ensures |r| == |g| && forall y :: 0 <= y < |r| ==> |r[y]| == |g[y]|
    ensures forall y, x :: 0 <= y < |g| && 0 <= x < |g[y]| ==>
      r[y][x].op == g[y][x].op && r[y][x].inputs == g[y][x].inputs
  {
    seq(|g|, y requires 0 <= y < |g| =>
      seq(|g[y]|, x requires 0 <= x < |g[y]| =>
        g[y][x].(value := ApplyOp(g[y][x].op, Inputs(g, x, y)))))
  }

  /** After a step the grid still holds bits and its cells stay connected
      to existing neighbours only. */
  lemma UpdateValid(g: Grid)
    requires Valid(g)
    ensures Valid(Update(g))
  {
    var r: Grid := Update(g);
    forall y: nat, x: nat | y < |g| && x < |g[y]|
      ensures IsBit(r[y][x].value) && CellConnected(r, x, y)
    {
      InputsCount(g, x, y);
      ApplyOpBit(g[y][x].op, Inputs(g, x, y));
    }
  }

  /** The step is synchronous: a cell's new bit depends on nothing but its
      gate, its connections and the previous bits of the neighbours it is
      connected to. Two grids that agree on those agree on the new bit,
      whatever else differs between them. */
  lemma UpdateIsLocal(g: Grid, h: Grid, x: nat, y: nat)
    requires Valid(g) && Valid(h) && |h| == |g| && |h[0]| == |g[0]|
    requires y < |g| && x < |g[y]|
    requires h[y][x].op == g[y][x].op && h[y][x].inputs == g[y][x].inputs
    requires forall d :: d in g[y][x].inputs && HasNeighbour(x, y, |g[0]|, |g|, d) ==>
      Read(h, x, y, d) == Read(g, x, y, d)
    ensures Update(h)[y][x].value == Update(g)[y][x].value
  {
    ReadAllLocal(g, h, x, y, ReadOrder);
  }

  lemma {:induction false} ReadAllLocal(g: Grid, h: Grid, x: nat, y: nat, ds: seq<Dir>)
    requires Valid(g) && Valid(h) && |h| == |g| && |h[0]| == |g[0]|
    requires y < |g| && x < |g[y]| && h[y][x].inputs == g[y][x].inputs
    requires forall d :: d in g[y][x].inputs && HasNeighbour(x, y, |g[0]|, |g|, d) ==>
      Read(h, x, y, d) == Read(g, x, y, d)
    ensures ReadAll(h, x, y, ds) == ReadAll(g, x, y, ds)
  {
    if |ds| > 0 {
      ReadAllLocal(g, h, x, y, ds[1..]);
      assert CellConnected(g, x, y);
      assert ReadIf(h, x, y, ds[0]) == ReadIf(g, x, y, ds[0]);
    }
  }

  // ---------------------------------------------------------------------
  // init
  // ---------------------------------------------------------------------

  /** The random draws behind one cell: `pickValue()`, `pickOperator()` and
      the three `rnd` calls of `pickConnection`. */
  datatype CellDraw = CellDraw(value: nat, op: Op, picks: seq<nat>)

  predicate DrawsFor(draws: seq<seq<CellDraw>>, cols: nat, rows: nat) {
    && |draws| == rows
    && (forall y :: 0 <= y < rows ==> |draws[y]| == cols)
    && forall y, x :: 0 <= y < rows && 0 <= x < cols ==>
      |draws[y][x].picks| == Draws && DrawsFit(draws[y][x].picks, |Available(x, y, cols, rows)|)
  }

  /** `init`: every cell gets a random bit, a random gate and its picked
      connections. */
  function Init(cols: nat, rows: nat, draws: seq<seq<CellDraw>>): (g: Grid)
    requires cols > 0 && rows > 0 && DrawsFor(draws, cols, rows)
    ensures |g| == rows && forall y :: 0 <= y < rows ==> |g[y]| == cols
    ensures forall y, x :: 0 <= y < rows && 0 <= x < cols ==>
      g[y][x].op == draws[y][x].op && IsBit(g[y][x].value)
  {
    seq(rows, y requires 0 <= y < rows =>
      seq(cols, x requires 0 <= x < cols =>
        Cell((draws[y][x].value % 2) as bv32, draws[y][x].op,
             PickConnection(x, y, cols, rows, draws[y][x].picks))))
  }

  /** A freshly built grid is valid, every cell having min(3, available)
      connections, so every read `update` makes is in bounds. */
  lemma InitValid(cols: nat, rows: nat, draws: seq<seq<CellDraw>>)
    requires cols > 0 && rows > 0 && DrawsFor(draws, cols, rows)
    ensures Valid(Init(cols, rows, draws))
    ensures forall y, x :: 0 <= y < rows && 0 <= x < cols ==>
      var n := |Available(x, y, cols, rows)|;
      |Init(cols, rows, draws)[y][x].inputs| == if n < Draws then n else Draws
  {
    var g := Init(cols, rows, draws);
    forall y, x | 0 <= y < rows && 0 <= x < cols
      ensures CellConnected(g, x, y)
      ensures var n := |Available(x, y, cols, rows)|;
        |g[y][x].inputs| == if n < Draws then n else Draws
    {
      PickConnectionFits(x, y, cols, rows, draws[y][x].picks);
    }
  }
}

=== FILE: boxes.dfy ===
/** The quadtree of genart/genuary2026/12_boxes_only.mjs: squares of 256
    are split into quarters while they lie near the wave curve, down to
    squares of 2, and the top-level squares tile the canvas. */
module Boxes {
  import opened Optional

  const MinSize: nat := 2
  const MaxSize: nat := 256
  const Steps: nat := 200

  /** A point of the curve, or of the plane. */
  datatype Point = Point(x: real, y: real)

  /** `clamp(v, a, b)`: `max(a, min(b, v))`. */
  function Clamp(v: int, a: int, b: int): int {
    if (if b <= v then b else v) <= a then a else if b <= v then b else v
  }

  lemma ClampInRange(v: int, a: int, b: int)
    requires a <= b
    ensures a <= Clamp(v, a, b) <= b
    ensures a <= v <= b ==> Clamp(v, a, b) == v
  {
  }

  // ---------------------------------------------------------------------
  // isBelow
  // ---------------------------------------------------------------------

  /** The curve step `isBelow` reads: the position along the longer side
      scaled to STEPS, clamped to the curve's indices. */
  function BelowStep(px: real, py: real, w: real, h: real, n: nat): (k: int)
    requires w > 0.0 && h > 0.0 && n > 0
    ensures 0 <= k < n
  {
    var raw := if h > w then (py / h * Steps as real).Floor else (px / w * Steps as real).Floor;
    ClampInRange(raw, 0, n - 1);
    Clamp(raw, 0, n - 1)
  }

  /** `isBelow(x, y)`: on a portrait canvas, right of the curve at that
      height; otherwise below it at that column. */
  function IsBelow(px: real, py: real, w: real, h: real, points: seq<Point>): bool
    requires w > 0.0 && h > 0.0 && |points| > 0
  {
    var k := BelowStep(px, py, w, h, |points|);
    if h > w then px > points[k].x else py > points[k].y
  }

  /** Within the canvas the step is the unclamped one as soon as the curve
      has STEPS + 1 points, as `update` makes it. */
  lemma BelowStepExact(px: real, py: real, w: real, h: real, n: nat)
    requires w > 0.0 && h > 0.0 && n == Steps + 1
    requires 0.0 <= px < w && 0.0 <= py < h
    ensures BelowStep(px, py, w, h, n) ==
      if h > w then (py / h * Steps as real).Floor else (px / w * Steps as real).Floor
  {
    var fy := py / h;
    var fx := px / w;
    UnitFraction(py, h);
    UnitFraction(px, w);
    ClampInRange((fy * Steps as real).Floor, 0, n - 1);
    ClampInRange((fx * Steps as real).Floor, 0, n - 1);
  }

  /** A share of a positive whole that is less than the whole. */
  lemma UnitFraction(a: real, b: real)
    requires 0.0 <= a < b
    ensures 0.0 <= a / b < 1.0
  {
    var f := a / b;
    assert f * b == a;
  }

  // ---------------------------------------------------------------------
  // Distances
  // ---------------------------------------------------------------------

  function SqDist(p: Point, q: Point): (r: real)
    ensures r >= 0.0
  {
    (p.x - q.x) * (p.x - q.x) + (p.y - q.y) * (p.y - q.y)
  }

  /** The parameter of the point of segment AB nearest P, clamped to
      [0, 1]; a segment shorter than 1e-6 counts as the point A. */
  function SegParam(p: Point, a: Point, b: Point): (t: real)
    ensures 0.0 <= t <= 1.0
    ensures SqDist(a, b) <= 1.0 / 1000000000000.0 ==> t == 0.0
  {
    var ab2 := SqDist(a, b);
    var t := if ab2 > 1.0 / 1000000000000.0
      then ((p.x - a.x) * (b.x - a.x) + (p.y - a.y) * (b.y - a.y)) / ab2
      else 0.0;
    if t >= 1.0 then 1.0 else if t <= 0.0 then 0.0 else t
  }

  /** `dist2PointSeg`: the squared distance from P to the point of AB at
      the clamped parameter, a point of the segment. */
  function Dist2PointSeg(p: Point, a: Point, b: Point): (r: real)
    ensures r >= 0.0
    ensures var t := SegParam(p, a, b);
      r == SqDist(p, Point(a.x + t * (b.x - a.x), a.y + t * (b.y - a.y)))
    ensures SqDist(a, b) <= 1.0 / 1000000000000.0 ==> r == SqDist(p, a)
  {
    var t := SegParam(p, a, b);
    SqDist(p, Point(a.x + t * (b.x - a.x), a.y + t * (b.y - a.y)))
  }

  /** A point of segment AB lies at distance 0 from it. */
  lemma OnSegmentZero(a: Point, b: Point, u: real)
    requires 0.0 <= u <= 1.0 && SqDist(a, b) > 1.0 / 1000000000000.0
    ensures Dist2PointSeg(Point(a.x + u * (b.x - a.x), a.y + u * (b.y - a.y)), a, b) == 0.0
  {
    var p := Point(a.x + u * (b.x - a.x), a.y + u * (b.y - a.y));
    var dx, dy := b.x - a.x, b.y - a.y;
    var ab2 := SqDist(a, b);
    assert ab2 == dx * dx + dy * dy;
    assert p.x - a.x == u * dx && p.y - a.y == u * dy;
    assert (p.x - a.x) * (b.x - a.x) + (p.y - a.y) * (b.y - a.y) == u * ab2;
    assert ((p.x - a.x) * (b.x - a.x) + (p.y - a.y) * (b.y - a.y)) / ab2 == u;
  }

  /** `dist2PointPolyline` over the segments from `i` on: nothing (the
      `Infinity` start) when there is no segment, otherwise the smaller of
      the first segment's distance and the rest's. */
  function Dist2Polyline(p: Point, pts: seq<Point>, i: nat): Option<real>
    decreases |pts| - i
  {
    if i + 1 >= |pts| then None
    else
      var here := Dist2PointSeg(p, pts[i], pts[i + 1]);
      match Dist2Polyline(p, pts, i + 1)
      case None => Some(here)
      case Some(rest) => if here < rest then Some(here) else Some(rest)
  }

  /** The polyline distance is infinite exactly when fewer than two points
      remain, and otherwise is the least segment distance, attained by some
      segment. */
  lemma {:induction false} PolylineLeast(p: Point, pts: seq<Point>, i: nat)
    decreases |pts| - i
    ensures Dist2Polyline(p, pts, i).None? <==> i + 1 >= |pts|
    ensures Dist2Polyline(p, pts, i).Some? ==>
      forall k :: i <= k < |pts| - 1 ==> Dist2Polyline(p, pts, i).value <= Dist2PointSeg(p, pts[k], pts[k + 1])
    ensures Dist2Polyline(p, pts, i).Some? ==>
      exists k :: i <= k < |pts| - 1 && Dist2Polyline(p, pts, i).value == Dist2PointSeg(p, pts[k], pts[k + 1])
  {
    if i + 1 < |pts| {
      PolylineLeast(p, pts, i + 1);
    }
  }

  // ---------------------------------------------------------------------
  // subdivide
  // ---------------------------------------------------------------------

  /** 2^e. */
  function Pow2(e: nat): (r: nat)
    ensures r >= 1
  {
    if e == 0 then 1 else 2 * Pow2(e - 1)
  }

  /** A square at (x, y) of size 2^e: every size `subdivide` meets is a
      power of two, from 256 = 2^8 down, so it is kept as its exponent. */
  datatype Square = Square(x: int, y: int, e: nat)

  /** `shouldSplit`: bigger than MIN_SIZE and the curve passes within
      0.75 of the size of the centre. */
  predicate ShouldSplit(s: Square, pts: seq<Point>) {
    var size := Pow2(s.e) as real;
    var centre := Point(s.x as real + size * 0.5, s.y as real + size * 0.5);
    var thresh := 0.75 * size;
    && Pow2(s.e) > MinSize
    && match Dist2Polyline(centre, pts, 0)
       case None => false
       case Some(d2) => d2 < thresh * thresh
  }

  /** The squares `subdivide` draws, in drawing order: the square itself,
      or the leaves of its top-left, top-right, bottom-left and
      bottom-right quarters. */
  function Subdivide(s: Square, pts: seq<Point>): seq<Square>
    decreases s.e
  {
    if ShouldSplit(s, pts) && s.e > 0 then
      var h := Pow2(s.e - 1);
      Subdivide(Square(s.x, s.y, s.e - 1), pts)
        + Subdivide(Square(s.x + h, s.y, s.e - 1), pts)
        + Subdivide(Square(s.x, s.y + h, s.e - 1), pts)
        + Subdivide(Square(s.x + h, s.y + h, s.e - 1), pts)
    else [s]
  }

  /** Only sizes above 2 split, so a split square has an exponent of at
      least 2 and a size that halves exactly. */
  lemma SplitOnlyAboveMin(s: Square, pts: seq<Point>)
    ensures ShouldSplit(s, pts) ==> s.e >= 2 && Pow2(s.e) == 2 * Pow2(s.e - 1)
  {
    if s.e < 2 {
      assert Pow2(s.e) <= 2 by {
        if s.e == 1 {
          assert Pow2(1) == 2 * Pow2(0);
        }
      }
    }
  }

  /** Every leaf of a square of size 2^e has size 2^k with k at most e and,
      when e is at least 1, at least 1: from 256 the leaves are 256 / 2^j
      with j at most 7. */
  lemma {:induction false} LeafSizes(s: Square, pts: seq<Point>)
    decreases s.e
    ensures forall k :: 0 <= k < |Subdivide(s, pts)| ==>
      var l := Subdivide(s, pts)[k]; l.e <= s.e && (s.e >= 1 ==> l.e >= 1)
  {
    SplitOnlyAboveMin(s, pts);
    if ShouldSplit(s, pts) && s.e > 0 {
      var h := Pow2(s.e - 1);
      var q0, q1, q2, q3 := Square(s.x, s.y, s.e - 1), Square(s.x + h, s.y, s.e - 1),
                            Square(s.x, s.y + h, s.e - 1), Square(s.x + h, s.y + h, s.e - 1);
      LeafSizes(q0, pts);
      LeafSizes(q1, pts);
      LeafSizes(q2, pts);
      LeafSizes(q3, pts);
      var a: seq<Square>, b: seq<Square>, c: seq<Square>, d: seq<Square> := Subdivide(q0, pts), Subdivide(q1, pts), Subdivide(q2, pts), Subdivide(q3, pts);
      assert Subdivide(s, pts) == a + b + c + d;
      forall k | 0 <= k < |a + b + c + d|
        ensures (a + b + c + d)[k].e <= s.e && (a + b + c + d)[k].e >= 1
      {
        if k < |a| {
          assert (a + b + c + d)[k] == a[k];
        } else if k < |a| + |b| {
          assert (a + b + c + d)[k] == b[k - |a|];
        } else if k < |a| + |b| + |c| {
          assert (a + b + c + d)[k] == c[k - |a| - |b|];
        } else {
          assert (a + b + c + d)[k] == d[k - |a| - |b| - |c|];
        }
      }
    }
  }

  /** From 256 every leaf is 256 / 2^j for some j at most 7. */
  lemma LeavesFromMax(x: int, y: int, pts: seq<Point>)
    ensures forall k :: 0 <= k < |Subdivide(Square(x, y, 8), pts)| ==>
      var l := Subdivide(Square(x, y, 8), pts)[k];
      1 <= l.e <= 8 && Pow2(l.e) * Pow2(8 - l.e) == MaxSize
  {
    LeafSizes(Square(x, y, 8), pts);
    forall k | 0 <= k < |Subdivide(Square(x, y, 8), pts)|
      ensures var l := Subdivide(Square(x, y, 8), pts)[k]; Pow2(l.e) * Pow2(8 - l.e) == MaxSize
    {
      Pow2Add(Subdivide(Square(x, y, 8), pts)[k].e, 8 - Subdivide(Square(x, y, 8), pts)[k].e);
      assert Pow2(8) == 256;
    }
  }

  lemma {:induction false} Pow2Add(a: nat, b: nat)
    decreases a
    ensures Pow2(a) * Pow2(b) == Pow2(a + b)
  {
    if a > 0 {
      Pow2Add(a - 1, b);
    }
  }

  // ---------------------------------------------------------------------
  // Tiling
  // ---------------------------------------------------------------------

  /** Point (px, py) lies in square `s`, low edges included. */
  predicate InSquare(s: Square, px: real, py: real) {
    s.x as real <= px < (s.x + Pow2(s.e)) as real && s.y as real <= py < (s.y + Pow2(s.e)) as real
  }

  /** How many squares of `ss` contain (px, py). */
  function CountIn(ss: seq<Square>, px: real, py: real): nat {
    if |ss| == 0 then 0
    else CountIn(ss[..|ss| - 1], px, py) + (if InSquare(ss[|ss| - 1], px, py) then 1 else 0)
  }

  lemma {:induction false} CountAppend(a: seq<Square>, b: seq<Square>, px: real, py: real)
    decreases |b|
    ensures CountIn(a + b, px, py) == CountIn(a, px, py) + CountIn(b, px, py)
  {
    if |b| == 0 {
      assert a + b == a;
    } else {
      assert (a + b)[..|a + b| - 1] == a + b[..|b| - 1];
      CountAppend(a, b[..|b| - 1], px, py);
    }
  }

  /** A square that splits draws the leaves of its quarters in order. */
  lemma SplitUnfolds(s: Square, pts: seq<Point>)
    requires ShouldSplit(s, pts) && s.e > 0
    ensures var h := Pow2(s.e - 1);
      Subdivide(s, pts) ==
        Subdivide(Square(s.x, s.y, s.e - 1), pts) + Subdivide(Square(s.x + h, s.y, s.e - 1), pts)
        + Subdivide(Square(s.x, s.y + h, s.e - 1), pts) + Subdivide(Square(s.x + h, s.y + h, s.e - 1), pts)
  {
  }

  /** 1 when square `s` holds (px, py). */
  function Indicator(s: Square, px: real, py: real): nat {
    if InSquare(s, px, py) then 1 else 0
  }

  /** The four quarters of a square partition it. */
  lemma QuartersPartition(s: Square, q0: Square, q1: Square, q2: Square, q3: Square, px: real, py: real)
    requires s.e > 0
    requires q0 == Square(s.x, s.y, s.e - 1) && q1 == Square(s.x + Pow2(s.e - 1), s.y, s.e - 1)
    requires q2 == Square(s.x, s.y + Pow2(s.e - 1), s.e - 1) && q3 == Square(s.x + Pow2(s.e - 1), s.y + Pow2(s.e - 1), s.e - 1)
    ensures Indicator(s, px, py) ==
      Indicator(q0, px, py) + Indicator(q1, px, py) + Indicator(q2, px, py) + Indicator(q3, px, py)
  {
    var h := Pow2(s.e - 1);
    assert Pow2(s.e) == 2 * h;
    assert (s.x + Pow2(s.e)) as real == s.x as real + 2.0 * h as real;
    assert (s.y + Pow2(s.e)) as real == s.y as real + 2.0 * h as real;
    assert (s.x + h) as real == s.x as real + h as real;
    assert (s.y + h) as real == s.y as real + h as real;
    assert (s.x + h + h) as real == s.x as real + 2.0 * h as real;
    assert (s.y + h + h) as real == s.y as real + 2.0 * h as real;
  }

  /** The leaves of a square tile it exactly: a point of the square lies
      in exactly one leaf, and any other point in none. */
  lemma {:induction false} SubdivideTiles(s: Square, pts: seq<Point>, px: real, py: real)
    decreases s.e
    ensures CountIn(Subdivide(s, pts), px, py) == Indicator(s, px, py)
  {
    if ShouldSplit(s, pts) && s.e > 0 {
      var h := Pow2(s.e - 1);
      var q0, q1, q2, q3 := Square(s.x, s.y, s.e - 1), Square(s.x + h, s.y, s.e - 1),
                            Square(s.x, s.y + h, s.e - 1), Square(s.x + h, s.y + h, s.e - 1);
      var a: seq<Square>, b: seq<Square>, c: seq<Square>, d: seq<Square> := Subdivide(q0, pts), Subdivide(q1, pts), Subdivide(q2, pts), Subdivide(q3, pts);
      SplitUnfolds(s, pts);
      SubdivideTiles(q0, pts, px, py);
      SubdivideTiles(q1, pts, px, py);
      SubdivideTiles(q2, pts, px, py);
      SubdivideTiles(q3, pts, px, py);
      CountAppend(a + b + c, d, px, py);
      CountAppend(a + b, c, px, py);
      CountAppend(a, b, px, py);
      assert CountIn(a + b + c + d, px, py) == CountIn(a, px, py) + CountIn(b, px, py) + CountIn(c, px, py) + CountIn(d, px, py);
      QuartersPartition(s, q0, q1, q2, q3, px, py);
    } else {
      assert Subdivide(s, pts) == [s];
      assert [s][..0] == [];
      assert CountIn([s], px, py) == CountIn([], px, py) + Indicator(s, px, py);
    }
  }

  /** The first multiple of 256 at or past `n`: where the loops of
      `drawQuadtree` stop. */
  function End(n: nat): (e: nat)
    ensures e % MaxSize == 0 && n <= e < n + MaxSize
  {
    if n == 0 then 0 else if n <= MaxSize then MaxSize else End(n - MaxSize) + MaxSize
  }

  /** 1 when (px, py) lies in the band [0, x) by [y, y + 256). */
  function Band(x: int, y: int, px: real, py: real): nat {
    if 0.0 <= px < x as real && y as real <= py < (y + MaxSize) as real then 1 else 0
  }

  /** `drawSquare` at (x, y): appends the leaves of the 256 square there,
      which add exactly that square to the count of every point. */
  method DrawSquare(x: int, y: int, pts: seq<Point>, leaves: seq<Square>) returns (leaves': seq<Square>)
    ensures forall px, py :: CountIn(leaves', px, py) == CountIn(leaves, px, py) + Indicator(Square(x, y, 8), px, py)
    ensures |leaves'| >= |leaves|
    ensures forall k :: 0 <= k < |leaves| ==> leaves'[k] == leaves[k]
    ensures forall k :: |leaves| <= k < |leaves'| ==> 1 <= leaves'[k].e <= 8
  {
    var sub := Subdivide(Square(x, y, 8), pts);
    LeavesFromMax(x, y, pts);
    forall px, py ensures CountIn(leaves + sub, px, py) == CountIn(leaves, px, py) + Indicator(Square(x, y, 8), px, py) {
      CountAppend(leaves, sub, px, py);
      SubdivideTiles(Square(x, y, 8), pts, px, py);
    }
    leaves' := leaves + sub;
  }

  /** One row of `drawQuadtree`: the leaves of the squares at (x, y) for x
      = 0, 256, ... while x < W. */
  method DrawRow(w: nat, y: int, pts: seq<Point>, leaves: seq<Square>) returns (leaves': seq<Square>)
    ensures forall px, py :: CountIn(leaves', px, py) == CountIn(leaves, px, py) + Band(End(w), y, px, py)
    ensures |leaves'| >= |leaves|
    ensures forall k :: 0 <= k < |leaves| ==> leaves'[k] == leaves[k]
    ensures forall k :: |leaves| <= k < |leaves'| ==> 1 <= leaves'[k].e <= 8
  {
    leaves' := leaves;
    var x := 0;
    assert Pow2(8) == MaxSize;
    while x < w
      invariant x % MaxSize == 0 && x <= End(w) && |leaves'| >= |leaves|
      invariant forall px, py :: CountIn(leaves', px, py) == CountIn(leaves, px, py) + Band(x, y, px, py)
      invariant forall k :: 0 <= k < |leaves| ==> leaves'[k] == leaves[k]
      invariant forall k :: |leaves| <= k < |leaves'| ==> 1 <= leaves'[k].e <= 8
    {
      var next := DrawSquare(x, y, pts, leaves');
      forall px, py ensures CountIn(next, px, py) == CountIn(leaves, px, py) + Band(x + MaxSize, y, px, py) {
        assert CountIn(next, px, py) == CountIn(leaves', px, py) + Indicator(Square(x, y, 8), px, py);
      }
      leaves' := next;
      x := x + MaxSize;
    }
  }

  /** `drawQuadtree`: the leaves of the squares at every multiple of 256
      with x < W and y < H, row by row. Every point of the W by H canvas
      lies in exactly one drawn square, no point lies in two, and every
      drawn square has a size from 2 to 256. */
  method DrawQuadtree(w: nat, h: nat, pts: seq<Point>) returns (leaves: seq<Square>)
    ensures forall px, py :: CountIn(leaves, px, py) <= 1
    ensures forall px, py :: 0.0 <= px < w as real && 0.0 <= py < h as real ==> CountIn(leaves, px, py) == 1
    ensures forall k :: 0 <= k < |leaves| ==> 1 <= leaves[k].e <= 8
  {
    leaves := [];
    var y := 0;
    while y < h
      invariant y % MaxSize == 0 && y <= End(h)
      invariant forall px, py :: (CountIn(leaves, px, py) ==
        (if 0.0 <= px < End(w) as real && 0.0 <= py < y as real then 1 else 0))
      invariant forall k :: 0 <= k < |leaves| ==> 1 <= leaves[k].e <= 8
    {
      leaves := DrawRow(w, y, pts, leaves);
      y := y + MaxSize;
    }
  }
}

=== FILE: circle_grid.dfy ===
/** The spatial grid of Genuary 2026 day 14, "everything fits perfectly"
    (genart/genuary2026/14_everything_fits_perfectly.mjs): circles are
    bucketed by the grid cell of their centre, and the neighbour search reads
    the buckets of the cells around a point.

    A JavaScript array is a reference, and `init` fills every row with one
    shared empty array (`Array(cols).fill([])`). The model therefore keeps
    the grid as a table of bucket names plus the buckets themselves: a push
    through one cell shows in every cell that names the same bucket. */
module CircleGrid {

  datatype Circle = Circle(x: real, y: real, r: real, alive: bool)

  /** `cells[row][col]` names the bucket a cell holds; `buckets[b]` lists
      circle indices. */
  datatype Grid = Grid(cellSize: real, rows: nat, cols: nat, cells: seq<seq<nat>>, buckets: seq<seq<nat>>)

  /** A grid cell, by column and row. */
  datatype Pos = Pos(x: int, y: int)

  predicate Shaped(g: Grid) {
    && g.cellSize > 0.0 && g.rows >= 1 && g.cols >= 1
    && |g.cells| == g.rows
    && (forall r :: 0 <= r < g.rows ==> |g.cells[r]| == g.cols)
    && (forall r, c :: 0 <= r < g.rows && 0 <= c < g.cols ==> g.cells[r][c] < |g.buckets|)
  }

  // ---------------------------------------------------------------------
  // init
  // ---------------------------------------------------------------------

  function MinReal(a: real, b: real): real {
    if a <= b then a else b
  }

  /** `Math.ceil`. */
  function Ceil(v: real): (n: int)
    ensures v <= n as real < v + 1.0
  {
    -((-v).Floor)
  }

  lemma {:induction false} TenCells(side: real, cs: real)
    requires cs > 0.0 && side >= 10.0 * cs
    ensures side / cs >= 10.0
  {
    var q := side / cs;
    assert q * cs == side;
  }

  /** Whether every cell of a row names the same bucket. */
  predicate RowShared(g: Grid)
    requires Shaped(g)
  {
    forall r, c :: 0 <= r < g.rows && 0 <= c < g.cols ==> g.cells[r][c] == g.cells[r][0]
  }

  /** `init`: a tenth of the shorter side per cell, enough cells to cover
      the canvas, and one empty bucket per ROW, since `fill` puts the same
      array in every cell of a row. */
  function Init(w: real, h: real): (g: Grid)
    requires w > 0.0 && h > 0.0
    ensures Shaped(g) && RowShared(g)
    ensures g.rows >= 10 && g.cols >= 10
    ensures (g.rows - 1) as real * g.cellSize < h <= g.rows as real * g.cellSize
    ensures forall r, r' :: 0 <= r < r' < g.rows ==> g.cells[r][0] != g.cells[r'][0]
    ensures forall b :: 0 <= b < |g.buckets| ==> g.buckets[b] == []
  {
    var cs := MinReal(w, h) / 10.0;
    TenCells(h, cs);
    TenCells(w, cs);
    var rows := Ceil(h / cs);
    var cols := Ceil(w / cs);
    CeilCovers(h, cs);
    Grid(cs, rows, cols, RowTable(rows, cols), seq(rows, r => []))
  }

  /** The cell table `init` builds: every cell of row r names bucket r. */
  function RowTable(rows: nat, cols: nat): (t: seq<seq<nat>>)
    ensures |t| == rows
    ensures forall r :: 0 <= r < rows ==> |t[r]| == cols && forall c :: 0 <= c < cols ==> t[r][c] == r
  {
    seq(rows, r => seq(cols, c => r))
  }

  /** Math.ceil(v / cs) cells of size cs cover v, and one fewer do not. */
  lemma {:induction false} CeilCovers(v: real, cs: real)
    requires v > 0.0 && cs > 0.0
    ensures (Ceil(v / cs) - 1) as real * cs < v <= Ceil(v / cs) as real * cs
  {
    var q := v / cs;
    var n := Ceil(q);
    assert q * cs == v;
    MulBelow((n - 1) as real, q, cs);
    MulAtMost(q, n as real, cs);
  }

  lemma {:induction false} MulBelow(a: real, b: real, c: real)
    requires a < b && c > 0.0
    ensures a * c < b * c
  {
    assert b * c - a * c == (b - a) * c;
  }

  lemma {:induction false} MulAtMost(a: real, b: real, c: real)
    requires a <= b && c > 0.0
    ensures a * c <= b * c
  {
    assert b * c - a * c == (b - a) * c;
  }

  // ---------------------------------------------------------------------
  // gridIndex
  // ---------------------------------------------------------------------

  /** `v | 0` for values inside the 32-bit range: truncation toward zero. */
  function Trunc(v: real): int {
    if v >= 0.0 then v.Floor else -((-v).Floor)
  }

  /** Truncation rounds toward zero, by less than one. */
  lemma {:induction false} TruncBounds(v: real)
    ensures v >= 0.0 ==> Trunc(v) as real <= v < Trunc(v) as real + 1.0
    ensures v < 0.0 ==> Trunc(v) as real - 1.0 < v <= Trunc(v) as real
  {
  }

  /** `Math.max(lo, Math.min(hi, v))`. */
  function Clamp(lo: int, hi: int, v: int): int {
    if v > hi then (if lo > hi then lo else hi) else if v < lo then lo else v
  }

  /** `gridIndex`: the cell of a point, clamped onto the grid. */
  function GridIndex(g: Grid, cx: real, cy: real): (p: Pos)
    requires Shaped(g)
    ensures 0 <= p.x < g.cols && 0 <= p.y < g.rows
  {
    Pos(Clamp(0, g.cols - 1, Trunc(cx / g.cellSize)), Clamp(0, g.rows - 1, Trunc(cy / g.cellSize)))
  }

  /** A point over the grid gets its own cell: clamping only moves points
      beyond the edges. */
  lemma {:induction false} GridIndexInside(g: Grid, cx: real, cy: real)
    requires Shaped(g)
    requires 0.0 <= cx < g.cols as real * g.cellSize && 0.0 <= cy < g.rows as real * g.cellSize
    ensures GridIndex(g, cx, cy) == Pos((cx / g.cellSize).Floor, (cy / g.cellSize).Floor)
  {
    AxisInside(g.cols, g.cellSize, cx);
    AxisInside(g.rows, g.cellSize, cy);
  }

  /** One axis of gridIndexInside: a coordinate inside n cells of size cs. */
  lemma {:induction false} AxisInside(n: nat, cs: real, v: real)
    requires n >= 1 && cs > 0.0 && 0.0 <= v < n as real * cs
    ensures Clamp(0, n - 1, Trunc(v / cs)) == (v / cs).Floor
  {
    var q := v / cs;
    assert q * cs == v;
    assert q < n as real by {
      if q >= n as real {
        MulAtMost(n as real, q, cs);
      }
    }
    assert q >= 0.0 by {
      if q < 0.0 {
        MulBelow(q, 0.0, cs);
      }
    }
  }

  /** Clamping never pulls two values further apart. */
  lemma {:induction false} ClampCloser(lo: int, hi: int, u: int, v: int)
    requires lo <= hi
    ensures -(if u <= v then v - u else u - v) <= Clamp(lo, hi, v) - Clamp(lo, hi, u) <= (if u <= v then v - u else u - v)
  {
  }

  /** Truncation of two values less than 2 apart lands at most 2 apart. */
  lemma {:induction false} TruncCloser(u: real, v: real)
    requires -2.0 < v - u < 2.0
    ensures -2 <= Trunc(v) - Trunc(u) <= 2
  {
    TruncBounds(u);
    TruncBounds(v);
  }

  /** Two coordinates closer than two cells fall in cells at most two apart. */
  lemma {:induction false} CellsCloser(cs: real, a: real, b: real)
    requires cs > 0.0 && -2.0 * cs < b - a < 2.0 * cs
    ensures -2.0 < b / cs - a / cs < 2.0
  {
    var d := b / cs - a / cs;
    assert d * cs == b - a;
    if d >= 2.0 {
      MulAtMost(2.0, d, cs);
    }
    if d <= -2.0 {
      MulAtMost(d, -2.0, cs);
    }
  }

  /** Points less than two cells apart on both axes sit in cells at most
      two apart on both axes. */
  lemma {:induction false} NearbyCells(g: Grid, ax: real, ay: real, bx: real, by_: real)
    requires Shaped(g)
    requires -2.0 * g.cellSize < bx - ax < 2.0 * g.cellSize
    requires -2.0 * g.cellSize < by_ - ay < 2.0 * g.cellSize
    ensures -2 <= GridIndex(g, bx, by_).x - GridIndex(g, ax, ay).x <= 2
    ensures -2 <= GridIndex(g, bx, by_).y - GridIndex(g, ax, ay).y <= 2
  {
    var cs := g.cellSize;
    CellsCloser(cs, ax, bx);
    CellsCloser(cs, ay, by_);
    TruncCloser(ax / cs, bx / cs);
    TruncCloser(ay / cs, by_ / cs);
    ClampCloser(0, g.cols - 1, Trunc(ax / cs), Trunc(bx / cs));
    ClampCloser(0, g.rows - 1, Trunc(ay / cs), Trunc(by_ / cs));
  }

  // ---------------------------------------------------------------------
  // neighborsNear
  // ---------------------------------------------------------------------

  /** The bucket of a cell, or nothing off the grid (the `continue`s). */
  function Bucket(g: Grid, yy: int, xx: int): seq<nat> {
    if 0 <= yy < g.rows && 0 <= xx < g.cols && OnTable(g, yy, xx) then g.buckets[g.cells[yy][xx]] else []
  }

  /** Whether the table names a bucket at (yy, xx); every on-grid cell of a
      shaped grid does. */
  predicate OnTable(g: Grid, yy: int, xx: int) {
    0 <= yy < |g.cells| && 0 <= xx < |g.cells[yy]| && g.cells[yy][xx] < |g.buckets|
  }

  /** The inner loop: the buckets of row yy, columns xx to xhi. */
  function ScanRow(g: Grid, yy: int, xx: int, xhi: int): seq<nat>
    decreases xhi - xx
  {
    if xx > xhi then [] else Bucket(g, yy, xx) + ScanRow(g, yy, xx + 1, xhi)
  }

  /** The outer loop: rows yy to yhi. */
  function ScanRows(g: Grid, yy: int, yhi: int, xlo: int, xhi: int): seq<nat>
    decreases yhi - yy
  {
    if yy > yhi then [] else ScanRow(g, yy, xlo, xhi) + ScanRows(g, yy + 1, yhi, xlo, xhi)
  }

  /** The buckets of the cells within `reach` of cell q, row by row. */
  function NearCell(g: Grid, q: Pos, reach: nat): seq<nat>
  {
    ScanRows(g, q.y - reach, q.y + reach, q.x - reach, q.x + reach)
  }

  /** The neighbour search around the cell of (x, y), `reach` cells each
      way; `neighborsNear` is reach 1. */
  function Near(g: Grid, x: real, y: real, reach: nat): seq<nat>
    requires Shaped(g)
  {
    NearCell(g, GridIndex(g, x, y), reach)
  }

  /** `neighborsNear`. */
  function NeighboursNear(g: Grid, x: real, y: real): seq<nat>
    requires Shaped(g)
  {
    Near(g, x, y, 1)
  }

  /** Whether every listed index is below n. */
  predicate Below(s: seq<nat>, n: nat) {
    forall k :: 0 <= k < |s| ==> s[k] < n
  }

  /** Whether every bucket lists only indices below n. */
  predicate BucketsBelow(g: Grid, n: nat) {
    forall b :: 0 <= b < |g.buckets| ==> Below(g.buckets[b], n)
  }

  lemma {:induction false} ScanRowBelow(g: Grid, yy: int, xx: int, xhi: int, n: nat)
    requires BucketsBelow(g, n)
    ensures Below(ScanRow(g, yy, xx, xhi), n)
    decreases xhi - xx
  {
    if xx <= xhi {
      ScanRowBelow(g, yy, xx + 1, xhi, n);
      assert Below(Bucket(g, yy, xx), n);
    }
  }

  lemma {:induction false} ScanRowsBelow(g: Grid, yy: int, yhi: int, xlo: int, xhi: int, n: nat)
    requires BucketsBelow(g, n)
    ensures Below(ScanRows(g, yy, yhi, xlo, xhi), n)
    decreases yhi - yy
  {
    if yy <= yhi {
      ScanRowBelow(g, yy, xlo, xhi, n);
      ScanRowsBelow(g, yy + 1, yhi, xlo, xhi, n);
    }
  }

  /** The search only returns indices the buckets hold. */
  lemma {:induction false} NearBelow(g: Grid, x: real, y: real, reach: nat, n: nat)
    requires Shaped(g) && BucketsBelow(g, n)
    ensures Below(Near(g, x, y, reach), n)
  {
    NearCellBelow(g, GridIndex(g, x, y), reach, n);
  }

  lemma {:induction false} NearCellBelow(g: Grid, q: Pos, reach: nat, n: nat)
    requires BucketsBelow(g, n)
    ensures Below(NearCell(g, q, reach), n)
  {
    ScanRowsBelow(g, q.y - reach, q.y + reach, q.x - reach, q.x + reach, n);
  }

  lemma {:induction false} ScanRowFinds(g: Grid, yy: int, xx: int, xhi: int, c: int, j: nat)
    requires xx <= c <= xhi && j in Bucket(g, yy, c)
    ensures j in ScanRow(g, yy, xx, xhi)
    decreases xhi - xx
  {
    var rest := ScanRow(g, yy, xx + 1, xhi);
    assert ScanRow(g, yy, xx, xhi) == Bucket(g, yy, xx) + rest;
    if c != xx {
      ScanRowFinds(g, yy, xx + 1, xhi, c, j);
      assert j in rest;
    }
  }

  lemma {:induction false} ScanRowsFinds(g: Grid, yy: int, yhi: int, xlo: int, xhi: int, p: Pos, j: nat)
    requires yy <= p.y <= yhi && xlo <= p.x <= xhi && j in Bucket(g, p.y, p.x)
    ensures j in ScanRows(g, yy, yhi, xlo, xhi)
    decreases yhi - yy
  {
    var row, rest := ScanRow(g, yy, xlo, xhi), ScanRows(g, yy + 1, yhi, xlo, xhi);
    assert ScanRows(g, yy, yhi, xlo, xhi) == row + rest;
    if p.y == yy {
      ScanRowFinds(g, yy, xlo, xhi, p.x, j);
      assert j in row;
    } else {
      ScanRowsFinds(g, yy + 1, yhi, xlo, xhi, p, j);
      assert j in rest;
    }
  }

  /** The search returns everything bucketed in any cell within `reach` of
      the point's cell. */
  lemma {:induction false} NearFinds(g: Grid, x: real, y: real, reach: nat, p: Pos, j: nat)
    requires Shaped(g) && 0 <= p.x < g.cols && 0 <= p.y < g.rows
    requires -(reach as int) <= p.x - GridIndex(g, x, y).x <= reach
    requires -(reach as int) <= p.y - GridIndex(g, x, y).y <= reach
    requires j in g.buckets[g.cells[p.y][p.x]]
    ensures j in Near(g, x, y, reach)
  {
    assert OnTable(g, p.y, p.x);
    assert j in Bucket(g, p.y, p.x);
    NearCellFinds(g, GridIndex(g, x, y), reach, p, j);
  }

  lemma {:induction false} NearCellFinds(g: Grid, q: Pos, reach: nat, p: Pos, j: nat)
    requires q.y - reach <= p.y <= q.y + reach && q.x - reach <= p.x <= q.x + reach
    requires j in Bucket(g, p.y, p.x)
    ensures j in NearCell(g, q, reach)
  {
    ScanRowsFinds(g, q.y - reach, q.y + reach, q.x - reach, q.x + reach, p, j);
  }

  // ---------------------------------------------------------------------
  // The shared-row buckets, exactly
  // ---------------------------------------------------------------------

  /** b repeated k times. */
  function Repeat(b: seq<nat>, k: nat): seq<nat> {
    if k == 0 then [] else b + Repeat(b, k - 1)
  }

  /** How many of the columns xx..xhi are on the grid. */
  function Columns(xx: int, xhi: int, cols: nat): nat
    decreases xhi - xx
  {
    if xx > xhi then 0 else (if 0 <= xx < cols then 1 else 0) + Columns(xx + 1, xhi, cols)
  }

  /** What the search reads row by row when rows share their bucket: the
      bucket of each on-grid row, once per on-grid column. */
  function RowsView(g: Grid, yy: int, yhi: int, k: nat): seq<nat>
    requires Shaped(g)
    decreases yhi - yy
  {
    if yy > yhi then []
    else (if 0 <= yy < g.rows then Repeat(g.buckets[g.cells[yy][0]], k) else []) + RowsView(g, yy + 1, yhi, k)
  }

  lemma {:induction false} ScanSharedRow(g: Grid, yy: int, xx: int, xhi: int)
    requires Shaped(g) && RowShared(g)
    ensures ScanRow(g, yy, xx, xhi)
         == if 0 <= yy < g.rows then Repeat(g.buckets[g.cells[yy][0]], Columns(xx, xhi, g.cols)) else []
    decreases xhi - xx
  {
    if xx <= xhi {
      ScanSharedRow(g, yy, xx + 1, xhi);
      if 0 <= yy < g.rows && 0 <= xx < g.cols {
        assert g.cells[yy][xx] == g.cells[yy][0];
      }
    }
  }

  lemma {:induction false} ScanSharedRows(g: Grid, yy: int, yhi: int, xlo: int, xhi: int)
    requires Shaped(g) && RowShared(g)
    ensures ScanRows(g, yy, yhi, xlo, xhi) == RowsView(g, yy, yhi, Columns(xlo, xhi, g.cols))
    decreases yhi - yy
  {
    if yy <= yhi {
      ScanSharedRow(g, yy, xlo, xhi);
      ScanSharedRows(g, yy + 1, yhi, xlo, xhi);
    }
  }

  /** With the buckets `init` builds, `neighborsNear` returns the whole
      contents of rows gy-1 to gy+1, whatever the columns, each row once
      per on-grid column of gx-1 to gx+1: repeats included. */
  lemma {:induction false} NeighboursNearSharedRows(g: Grid, x: real, y: real)
    requires Shaped(g) && RowShared(g)
    ensures NeighboursNear(g, x, y)
         == RowsView(g, GridIndex(g, x, y).y - 1, GridIndex(g, x, y).y + 1,
                     Columns(GridIndex(g, x, y).x - 1, GridIndex(g, x, y).x + 1, g.cols))
  {
    SharedRowsAround(g, GridIndex(g, x, y));
  }

  lemma {:induction false} SharedRowsAround(g: Grid, q: Pos)
    requires Shaped(g) && RowShared(g)
    ensures NearCell(g, q, 1) == RowsView(g, q.y - 1, q.y + 1, Columns(q.x - 1, q.x + 1, g.cols))
  {
    ScanSharedRows(g, q.y - 1, q.y + 1, q.x - 1, q.x + 1);
  }
}

=== FILE: circle_packing.dfy ===
/** The circle packing of Genuary 2026 day 14, "everything fits perfectly"
    (genart/genuary2026/14_everything_fits_perfectly.mjs): every frame
    spawns up to ten small circles where they fit, then grows each living
    circle by the frame's step unless the grown disc would leave its grid
    cell's size or touch a neighbour, in which case the circle stops for
    good.

    The neighbour search reaches one cell each way (`WrittenReach`), but two
    circles of up to a cell's radius can overlap from two cells apart, so
    as written circles can grow into each other (`WrittenTickOverlaps`).
    Every operation takes the reach as a parameter; with `SafeReach` the
    packing provably never overlaps (`UpdateKeepsFit`). */
module CirclePacking {
  import opened CircleGrid

  const InitialRadius: real := 1.0
  const Speed: real := 1.0
  /** `N`: the circles wanted per frame. */
  const SpawnTarget: nat := 10
  const MaxAttempts: nat := SpawnTarget * 200
  /** The longest frame step `tick` passes, in seconds. */
  const MaxStep: real := 0.05
  /** The reach of `neighborsNear`. */
  const WrittenReach: nat := 1
  /** The reach a search needs to see every circle a disc of up to a cell's
      radius can touch. */
  const SafeReach: nat := 2

  datatype State = State(grid: Grid, circles: seq<Circle>, done: bool)

  /** The grid is well shaped and its buckets list existing circles. */
  predicate Valid(s: State) {
    Shaped(s.grid) && BucketsBelow(s.grid, |s.circles|)
  }

  /** `init` and the initial `state`. */
  function Start(w: real, h: real): (s: State)
    requires w > 0.0 && h > 0.0
    ensures Valid(s) && s.circles == [] && !s.done
    ensures s.grid == Init(w, h)
  {
    State(Init(w, h), [], false)
  }

  /** The `dx * dx + dy * dy < rr * rr` test: a disc of radius r at (x, y)
      overlaps circle o. */
  predicate Overlaps(x: real, y: real, r: real, o: Circle) {
    (x - o.x) * (x - o.x) + (y - o.y) * (y - o.y) < (r + o.r) * (r + o.r)
  }

  // ---------------------------------------------------------------------
  // canGrow and growTick
  // ---------------------------------------------------------------------

  /** `canGrow(i, dr)`: the grown radius fits a cell and the grown disc
      overlaps no other circle the search lists. */
  function CanGrow(s: State, i: nat, dr: real, reach: nat): (ok: bool)
    requires Valid(s) && i < |s.circles|
    ensures ok ==> s.circles[i].r + dr <= s.grid.cellSize
  {
    var c := s.circles[i];
    var newR := c.r + dr;
    var idxs := Near(s.grid, c.x, c.y, reach);
    NearBelow(s.grid, c.x, c.y, reach, |s.circles|);
    newR <= s.grid.cellSize
    && forall k :: 0 <= k < |idxs| && idxs[k] != i ==> !Overlaps(c.x, c.y, newR, s.circles[idxs[k]])
  }

  /** What one tick may do to a circle: a dead circle stays as it is; a
      living one either grows by exactly dr and lives, or dies at its
      radius. */
  predicate Grew(c: Circle, c': Circle, dr: real) {
    && c'.x == c.x && c'.y == c.y
    && (!c.alive ==> c' == c)
    && (c'.alive ==> c.alive && c'.r == c.r + dr)
    && (!c'.alive ==> c'.r == c.r)
  }

  /** The number of living circles. */
  function Alive(cs: seq<Circle>): nat {
    if cs == [] then 0 else (if cs[0].alive then 1 else 0) + Alive(cs[1..])
  }

  /** One pass of the `growTick` loop body, on circle i: skip it if dead,
      grow it if it can, else stop it. */
  function StepAt(s: State, i: nat, dr: real, reach: nat): (s': State)
    requires Valid(s) && i < |s.circles|
    ensures Valid(s') && s'.grid == s.grid && s'.done == s.done
    ensures |s'.circles| == |s.circles| && Grew(s.circles[i], s'.circles[i], dr)
    ensures forall k :: 0 <= k < |s.circles| && k != i ==> s'.circles[k] == s.circles[k]
    ensures s'.circles[i].alive <==> s.circles[i].alive && CanGrow(s, i, dr, reach)
  {
    var c := s.circles[i];
    if !c.alive then s
    else if CanGrow(s, i, dr, reach) then s.(circles := s.circles[i := c.(r := c.r + dr)])
    else s.(circles := s.circles[i := c.(alive := false)])
  }

  /** s' is s after the loop has passed circles i and on. */
  predicate Ticked(s: State, s': State, i: nat, dr: real)
    requires i <= |s.circles|
  {
    && s'.grid == s.grid && s'.done == s.done
    && |s'.circles| == |s.circles| && s'.circles[..i] == s.circles[..i]
    && forall k :: i <= k < |s.circles| ==> Grew(s.circles[k], s'.circles[k], dr)
  }

  lemma {:induction false} TickedAfterStep(s: State, i: nat, dr: real, reach: nat, s': State)
    requires Valid(s) && i < |s.circles|
    requires Ticked(StepAt(s, i, dr, reach), s', i + 1, dr)
    ensures Ticked(s, s', i, dr)
    ensures Alive(s'.circles[i..]) == (if StepAt(s, i, dr, reach).circles[i].alive then 1 else 0) + Alive(s'.circles[i + 1..])
  {
    var s1 := StepAt(s, i, dr, reach);
    assert s'.circles[..i] == s'.circles[..i + 1][..i];
    assert s1.circles[..i] == s.circles[..i];
    assert s'.circles[i] == s1.circles[i];
    assert s'.circles[i..][1..] == s'.circles[i + 1..];
  }

  /** The loop of `growTick` from circle i on; the count is the circles
      grown. Each circle is tested against the radii already updated. */
  function GrowFrom(s: State, i: nat, dr: real, reach: nat): (r: (State, nat))
    requires Valid(s) && i <= |s.circles|
    ensures Valid(r.0) && Ticked(s, r.0, i, dr)
    ensures r.1 == Alive(r.0.circles[i..])
    decreases |s.circles| - i
  {
    if i == |s.circles| then
      assert s.circles[i..] == [];
      (s, 0)
    else
      var s1 := StepAt(s, i, dr, reach);
      var t := GrowFrom(s1, i + 1, dr, reach);
      TickedAfterStep(s, i, dr, reach, t.0);
      (t.0, t.1 + if s1.circles[i].alive then 1 else 0)
  }

  /** `growTick(dt)`. */
  function GrowTick(s: State, dt: real, reach: nat): (r: (State, nat))
    requires Valid(s)
    ensures Valid(r.0) && r.0.grid == s.grid && |r.0.circles| == |s.circles| && r.0.done == s.done
    ensures forall k :: 0 <= k < |s.circles| ==> Grew(s.circles[k], r.0.circles[k], Speed * dt)
    ensures r.1 == Alive(r.0.circles)
  {
    var r := GrowFrom(s, 0, Speed * dt, reach);
    assert r.0.circles[0..] == r.0.circles;
    r
  }

  /** With a step that is not negative a tick never shrinks a circle, and a
      circle that stopped never starts again. */
  lemma {:induction false} TickNeverShrinks(s: State, dt: real, reach: nat, k: nat)
    requires Valid(s) && dt >= 0.0 && k < |s.circles|
    ensures GrowTick(s, dt, reach).0.circles[k].r >= s.circles[k].r
    ensures !s.circles[k].alive ==> !GrowTick(s, dt, reach).0.circles[k].alive
  {
  }

  /** A tick grows nothing exactly when it leaves no circle alive. */
  lemma {:induction false} AliveZero(cs: seq<Circle>)
    ensures Alive(cs) == 0 <==> forall k :: 0 <= k < |cs| ==> !cs[k].alive
  {
    if cs != [] {
      AliveZero(cs[1..]);
      assert forall k :: 1 <= k < |cs| ==> cs[k] == cs[1..][k - 1];
    }
  }

  // ---------------------------------------------------------------------
  // spawnCircles
  // ---------------------------------------------------------------------

  /** Adding a circle: it goes at the end of the list and its index into
      the bucket of its centre's cell. */
  function Push(s: State, x: real, y: real): (s': State)
    requires Valid(s)
    ensures Valid(s') && s'.circles == s.circles + [Circle(x, y, InitialRadius, true)]
    ensures s'.grid.cellSize == s.grid.cellSize && s'.grid.rows == s.grid.rows
    ensures s'.grid.cols == s.grid.cols && s'.grid.cells == s.grid.cells && s'.done == s.done
    ensures |s'.grid.buckets| == |s.grid.buckets|
    ensures forall b :: 0 <= b < |s.grid.buckets| ==> forall j :: j in s.grid.buckets[b] ==> j in s'.grid.buckets[b]
    ensures Home(s', |s.circles|)
  {
    var p := GridIndex(s.grid, x, y);
    var b := s.grid.cells[p.y][p.x];
    var n := |s.circles|;
    var buckets := s.grid.buckets[b := s.grid.buckets[b] + [n]];
    assert BucketsBelow(s.grid.(buckets := buckets), n + 1) by {
      forall b' | 0 <= b' < |buckets| ensures Below(buckets[b'], n + 1) {
        assert Below(s.grid.buckets[b'], n);
      }
    }
    s.(circles := s.circles + [Circle(x, y, InitialRadius, true)], grid := s.grid.(buckets := buckets))
  }

  /** The test of one attempt: no listed circle overlaps a new circle at
      (x, y). */
  predicate Clear(s: State, x: real, y: real, reach: nat)
    requires Valid(s)
  {
    var idxs := Near(s.grid, x, y, reach);
    NearBelow(s.grid, x, y, reach, |s.circles|);
    forall k :: 0 <= k < |idxs| ==> !Overlaps(x, y, InitialRadius, s.circles[idxs[k]])
  }

  /** s' is s with n new living circles of the initial radius after the
      old ones, on the same grid cells. */
  predicate Appended(s: State, s': State, n: nat) {
    && |s'.circles| == |s.circles| + n && s'.circles[..|s.circles|] == s.circles
    && (forall k :: |s.circles| <= k < |s'.circles| ==> s'.circles[k].r == InitialRadius && s'.circles[k].alive)
    && s'.grid == s.grid.(buckets := s'.grid.buckets) && s'.done == s.done
  }

  lemma {:induction false} AppendedAfterPush(s: State, x: real, y: real, s': State, n: nat)
    requires Valid(s) && Appended(Push(s, x, y), s', n)
    ensures Appended(s, s', n + 1)
  {
    var m := |s.circles|;
    assert s'.circles[..m] == s'.circles[..m + 1][..m];
    assert s'.circles[m] == Push(s, x, y).circles[m];
  }

  /** One attempt of the `spawnCircles` loop at the point (x, y): push a
      circle there when the spot is clear. */
  function Attempt(s: State, x: real, y: real, reach: nat): (r: (State, bool))
    requires Valid(s)
    ensures Valid(r.0)
    ensures r.1 ==> r.0 == Push(s, x, y)
    ensures !r.1 ==> r.0 == s
  {
    if Clear(s, x, y, reach) then (Push(s, x, y), true) else (s, false)
  }

  /** The loop of `spawnCircles` from a given attempt and count. `pts` holds
      the point `randRange` would draw at each attempt. */
  function SpawnFrom(s: State, pts: seq<(real, real)>, attempts: nat, spawned: nat, reach: nat): (r: (State, nat))
    requires Valid(s) && |pts| >= MaxAttempts && attempts <= MaxAttempts && spawned <= SpawnTarget
    ensures Valid(r.0) && spawned <= r.1 <= SpawnTarget && r.1 - spawned <= MaxAttempts - attempts
    ensures Appended(s, r.0, r.1 - spawned)
    decreases MaxAttempts - attempts
  {
    if spawned < SpawnTarget && attempts < MaxAttempts then
      var a := Attempt(s, pts[attempts].0, pts[attempts].1, reach);
      var t := SpawnFrom(a.0, pts, attempts + 1, spawned + (if a.1 then 1 else 0), reach);
      if a.1 then
        AppendedAfterPush(s, pts[attempts].0, pts[attempts].1, t.0, t.1 - (spawned + 1));
        t
      else
        t
    else
      assert s.circles[..|s.circles|] == s.circles;
      (s, spawned)
  }

  /** `spawnCircles`: at most ten new circles from at most 2000 attempts,
      each new one a living circle of the initial radius, added after the
      circles already there. */
  function SpawnCircles(s: State, pts: seq<(real, real)>, reach: nat): (r: (State, nat))
    requires Valid(s) && |pts| >= MaxAttempts
    ensures Valid(r.0) && r.1 <= SpawnTarget && Appended(s, r.0, r.1)
  {
    SpawnFrom(s, pts, 0, 0, reach)
  }

  // ---------------------------------------------------------------------
  // update
  // ---------------------------------------------------------------------

  /** `update(dt)`: spawn, then grow; the sketch stops for good once a
      frame adds no circle and leaves no circle growing. */
  function Update(s: State, pts: seq<(real, real)>, dt: real, reach: nat): (s': State)
    requires Valid(s) && |pts| >= MaxAttempts
    ensures Valid(s') && s'.grid.cellSize == s.grid.cellSize && |s'.circles| >= |s.circles|
    ensures s'.done <==> s.done || (|s'.circles| == |s.circles| && forall k :: 0 <= k < |s'.circles| ==> !s'.circles[k].alive)
  {
    var sp := SpawnCircles(s, pts, reach);
    var gr := GrowTick(sp.0, dt, reach);
    AliveZero(gr.0.circles);
    gr.0.(done := s.done || (sp.1 == 0 && gr.1 == 0))
  }

  // ---------------------------------------------------------------------
  // Everything fits: the invariant
  // ---------------------------------------------------------------------

  /** Every circle's index is in the bucket of its centre's cell. */
  predicate Indexed(s: State)
    requires Shaped(s.grid)
  {
    forall i :: 0 <= i < |s.circles| ==> Home(s, i)
  }

  /** Circle i is listed in the bucket of its centre's cell. */
  predicate Home(s: State, i: nat)
    requires Shaped(s.grid) && i < |s.circles|
  {
    var p := GridIndex(s.grid, s.circles[i].x, s.circles[i].y);
    i in s.grid.buckets[s.grid.cells[p.y][p.x]]
  }

  /** Every radius is between 0 and a cell. */
  predicate Bounded(s: State) {
    forall i :: 0 <= i < |s.circles| ==> 0.0 <= s.circles[i].r <= s.grid.cellSize
  }

  /** No two circles overlap. */
  predicate NoOverlap(cs: seq<Circle>) {
    forall i, j {:trigger Apart(cs[i], cs[j])} :: 0 <= i < j < |cs| ==> Apart(cs[i], cs[j])
  }

  /** Circle a does not overlap circle b. */
  predicate Apart(a: Circle, b: Circle) {
    !Overlaps(a.x, a.y, a.r, b)
  }

  /** The packing invariant: a consistent grid, radii within a cell, cells
      at least the initial radius wide, and no overlap. */
  predicate Fits(s: State) {
    && Valid(s) && Indexed(s) && Bounded(s) && NoOverlap(s.circles)
    && s.grid.cellSize >= InitialRadius
  }

  lemma {:induction false} OverlapsSymmetric(a: Circle, b: Circle)
    ensures Overlaps(a.x, a.y, a.r, b) <==> Overlaps(b.x, b.y, b.r, a)
  {
    assert (a.x - b.x) * (a.x - b.x) == (b.x - a.x) * (b.x - a.x);
    assert (a.y - b.y) * (a.y - b.y) == (b.y - a.y) * (b.y - a.y);
  }

  /** A square below rr * rr bounds the side by rr. */
  lemma {:induction false} SquareBelow(d: real, e: real, rr: real)
    requires rr >= 0.0 && d * d + e * e < rr * rr
    ensures -rr < d < rr
  {
    assert e * e >= 0.0;
  }

  /** Overlapping discs of at most a cell's radius sit within two cells of
      each other on both axes. */
  lemma {:induction false} OverlapIsClose(g: Grid, x: real, y: real, r: real, o: Circle)
    requires Shaped(g) && 0.0 <= r <= g.cellSize && 0.0 <= o.r <= g.cellSize
    requires Overlaps(x, y, r, o)
    ensures -2 <= GridIndex(g, o.x, o.y).x - GridIndex(g, x, y).x <= 2
    ensures -2 <= GridIndex(g, o.x, o.y).y - GridIndex(g, x, y).y <= 2
  {
    SquareBelow(x - o.x, y - o.y, r + o.r);
    assert (y - o.y) * (y - o.y) + (x - o.x) * (x - o.x) < (r + o.r) * (r + o.r);
    SquareBelow(y - o.y, x - o.x, r + o.r);
    NearbyCells(g, x, y, o.x, o.y);
  }

  /** With the safe reach the search lists every circle that a disc of at
      most a cell's radius overlaps. */
  lemma {:induction false} OverlapIsListed(s: State, x: real, y: real, r: real, j: nat)
    requires Valid(s) && Indexed(s) && Bounded(s) && j < |s.circles|
    requires 0.0 <= r <= s.grid.cellSize && Overlaps(x, y, r, s.circles[j])
    ensures j in Near(s.grid, x, y, SafeReach)
  {
    var o := s.circles[j];
    assert Home(s, j);
    OverlapIsClose(s.grid, x, y, r, o);
    NearFinds(s.grid, x, y, SafeReach, GridIndex(s.grid, o.x, o.y), j);
  }

  /** With the safe reach, a circle allowed to grow overlaps no other
      circle at its new radius. */
  lemma {:induction false} SafeGrowthFits(s: State, i: nat, dr: real)
    requires Fits(s) && i < |s.circles| && dr >= 0.0
    requires CanGrow(s, i, dr, SafeReach)
    ensures forall j :: 0 <= j < |s.circles| && j != i ==>
      !Overlaps(s.circles[i].x, s.circles[i].y, s.circles[i].r + dr, s.circles[j])
  {
    var c := s.circles[i];
    var idxs := Near(s.grid, c.x, c.y, SafeReach);
    forall j | 0 <= j < |s.circles| && j != i
      ensures !Overlaps(c.x, c.y, c.r + dr, s.circles[j])
    {
      if Overlaps(c.x, c.y, c.r + dr, s.circles[j]) {
        OverlapIsListed(s, c.x, c.y, c.r + dr, j);
      }
    }
  }

  /** Replacing circle i by one at the same centre keeps the index; with a
      radius that overlaps nobody it keeps the packing. */
  lemma {:induction false} ReplaceFits(s: State, i: nat, c': Circle)
    requires Fits(s) && i < |s.circles|
    requires c'.x == s.circles[i].x && c'.y == s.circles[i].y && 0.0 <= c'.r <= s.grid.cellSize
    requires forall j :: 0 <= j < |s.circles| && j != i ==> !Overlaps(c'.x, c'.y, c'.r, s.circles[j])
    ensures Fits(s.(circles := s.circles[i := c']))
  {
    var cs := s.circles[i := c'];
    var s' := s.(circles := cs);
    forall k | 0 <= k < |cs| ensures Home(s', k) {
      assert Home(s, k);
    }
    forall a, b | 0 <= a < b < |cs| ensures Apart(cs[a], cs[b]) {
      if b == i {
        OverlapsSymmetric(cs[a], c');
      } else if a != i {
        assert Apart(s.circles[a], s.circles[b]);
      }
    }
  }

  /** One pass of the safe loop body keeps the packing. */
  lemma {:induction false} SafeStepFits(s: State, i: nat, dr: real)
    requires Fits(s) && i < |s.circles| && dr >= 0.0
    ensures Fits(StepAt(s, i, dr, SafeReach))
  {
    var c := s.circles[i];
    if c.alive {
      if CanGrow(s, i, dr, SafeReach) {
        SafeGrowthFits(s, i, dr);
        ReplaceFits(s, i, c.(r := c.r + dr));
      } else {
        forall j | 0 <= j < |s.circles| && j != i ensures !Overlaps(c.x, c.y, c.r, s.circles[j]) {
          if j < i {
            assert Apart(s.circles[j], c);
            OverlapsSymmetric(s.circles[j], c);
          } else {
            assert Apart(c, s.circles[j]);
          }
        }
        ReplaceFits(s, i, c.(alive := false));
      }
    }
  }

  /** The safe `growTick` loop keeps the packing. */
  lemma {:induction false} SafeGrowFromFits(s: State, i: nat, dr: real)
    requires Fits(s) && i <= |s.circles| && dr >= 0.0
    ensures Fits(GrowFrom(s, i, dr, SafeReach).0)
    decreases |s.circles| - i
  {
    if i < |s.circles| {
      SafeStepFits(s, i, dr);
      SafeGrowFromFits(StepAt(s, i, dr, SafeReach), i + 1, dr);
    }
  }

  /** A clear spot with the safe reach keeps the packing when the new
      circle is pushed. */
  lemma {:induction false} SafePushFits(s: State, x: real, y: real)
    requires Fits(s) && Clear(s, x, y, SafeReach)
    ensures Fits(Push(s, x, y))
  {
    var s' := Push(s, x, y);
    var n := |s.circles|;
    var idxs := Near(s.grid, x, y, SafeReach);
    forall j | 0 <= j < n ensures !Overlaps(x, y, InitialRadius, s.circles[j]) {
      if Overlaps(x, y, InitialRadius, s.circles[j]) {
        OverlapIsListed(s, x, y, InitialRadius, j);
      }
    }
    forall a, b | 0 <= a < b < n + 1 ensures Apart(s'.circles[a], s'.circles[b]) {
      if b == n {
        OverlapsSymmetric(s.circles[a], Circle(x, y, InitialRadius, true));
      } else {
        assert s'.circles[a] == s.circles[a] && s'.circles[b] == s.circles[b];
        assert Apart(s.circles[a], s.circles[b]);
      }
    }
    assert Indexed(s') by {
      forall i | 0 <= i < n + 1 ensures Home(s', i) {
        if i < n {
          assert s'.circles[i] == s.circles[i];
          assert Home(s, i);
        }
      }
    }
  }

  /** Each step of the safe `spawnCircles` loop keeps the packing. */
  lemma {:induction false} SafeSpawnFromFits(s: State, pts: seq<(real, real)>, attempts: nat, spawned: nat)
    requires Fits(s) && |pts| >= MaxAttempts && attempts <= MaxAttempts && spawned <= SpawnTarget
    ensures Fits(SpawnFrom(s, pts, attempts, spawned, SafeReach).0)
    decreases MaxAttempts - attempts, 2
  {
    if spawned < SpawnTarget && attempts < MaxAttempts {
      SafeSpawnTurnFits(s, pts, attempts, spawned);
    } else {
      assert SpawnFrom(s, pts, attempts, spawned, SafeReach).0 == s;
    }
  }

  /** One safe attempt, then the rest of the loop, keeps the packing. */
  lemma {:induction false} SafeSpawnTurnFits(s: State, pts: seq<(real, real)>, attempts: nat, spawned: nat)
    requires Fits(s) && |pts| >= MaxAttempts && attempts < MaxAttempts && spawned < SpawnTarget
    ensures Fits(SpawnFrom(s, pts, attempts, spawned, SafeReach).0)
    decreases MaxAttempts - attempts, 1
  {
    var x, y := pts[attempts].0, pts[attempts].1;
    var a := Attempt(s, x, y, SafeReach);
    SafeAttemptFits(s, x, y);
    SafeSpawnRestFits(a.0, a.1, pts, attempts, spawned);
    SpawnFitsBack(s, pts, attempts, spawned);
  }

  /** The rest of the loop, after an attempt that left a packing t and
      spawned a circle or not, keeps the packing. */
  lemma {:induction false} SafeSpawnRestFits(t: State, ok: bool, pts: seq<(real, real)>, attempts: nat, spawned: nat)
    requires Fits(t) && |pts| >= MaxAttempts && attempts < MaxAttempts && spawned < SpawnTarget
    ensures Fits(SpawnFrom(t, pts, attempts + 1, spawned + (if ok then 1 else 0), SafeReach).0)
    decreases MaxAttempts - attempts, 0
  {
    SafeSpawnFromFits(t, pts, attempts + 1, spawned + (if ok then 1 else 0));
  }

  /** The packing after the rest of the loop is the packing after the
      whole loop. */
  lemma {:induction false} SpawnFitsBack(s: State, pts: seq<(real, real)>, attempts: nat, spawned: nat)
    requires Valid(s) && |pts| >= MaxAttempts && attempts < MaxAttempts && spawned < SpawnTarget
    requires var a := Attempt(s, pts[attempts].0, pts[attempts].1, SafeReach);
             Fits(SpawnFrom(a.0, pts, attempts + 1, spawned + (if a.1 then 1 else 0), SafeReach).0)
    ensures Fits(SpawnFrom(s, pts, attempts, spawned, SafeReach).0)
  {
    SpawnFromUnfold(s, pts, attempts, spawned, SafeReach);
  }

  /** One turn of the spawning loop. */
  lemma {:induction false} SpawnFromUnfold(s: State, pts: seq<(real, real)>, attempts: nat, spawned: nat, reach: nat)
    requires Valid(s) && |pts| >= MaxAttempts && attempts < MaxAttempts && spawned < SpawnTarget
    ensures var a := Attempt(s, pts[attempts].0, pts[attempts].1, reach);
            SpawnFrom(s, pts, attempts, spawned, reach).0
              == SpawnFrom(a.0, pts, attempts + 1, spawned + (if a.1 then 1 else 0), reach).0
  {
  }

  lemma {:induction false} SafeAttemptFits(s: State, x: real, y: real)
    requires Fits(s)
    ensures Fits(Attempt(s, x, y, SafeReach).0)
  {
    if Clear(s, x, y, SafeReach) {
      SafePushFits(s, x, y);
    }
  }

  /** Everything fits: with the safe reach, every frame keeps the circles
      apart, starting from the empty canvas. */
  lemma {:induction false} UpdateKeepsFit(s: State, pts: seq<(real, real)>, dt: real)
    requires Fits(s) && |pts| >= MaxAttempts && dt >= 0.0
    ensures Fits(Update(s, pts, dt, SafeReach))
  {
    SpawnThenGrowFits(s, pts, dt);
    var sp := SpawnFrom(s, pts, 0, 0, SafeReach);
    var gr := GrowFrom(sp.0, 0, Speed * dt, SafeReach);
    FitsIgnoresDone(gr.0, s.done || (sp.1 == 0 && gr.1 == 0));
  }

  lemma {:induction false} SpawnThenGrowFits(s: State, pts: seq<(real, real)>, dt: real)
    requires Fits(s) && |pts| >= MaxAttempts && dt >= 0.0
    ensures Fits(GrowFrom(SpawnFrom(s, pts, 0, 0, SafeReach).0, 0, Speed * dt, SafeReach).0)
  {
    SafeSpawnFromFits(s, pts, 0, 0);
    SafeGrowFromFits(SpawnFrom(s, pts, 0, 0, SafeReach).0, 0, Speed * dt);
  }

  lemma {:induction false} FitsIgnoresDone(s: State, d: bool)
    requires Fits(s)
    ensures Fits(s.(done := d))
  {
    var s' := s.(done := d);
    forall k | 0 <= k < |s'.circles| ensures Home(s', k) {
      assert Home(s, k);
    }
  }

  /** The empty canvas fits once a cell is at least the initial radius. */
  lemma {:induction false} StartFits(w: real, h: real)
    requires w > 0.0 && h > 0.0 && MinReal(w, h) >= 10.0 * InitialRadius
    ensures Fits(Start(w, h))
  {
  }

  // ---------------------------------------------------------------------
  // As written: the one-cell search lets circles grow into each other
  // ---------------------------------------------------------------------

  /** The grid `init` builds on a 100 by 100 canvas: ten rows and ten
      columns of ten-pixel cells, row r naming bucket r, all buckets empty. */
  lemma {:induction false} HundredGrid()
    ensures var g := Init(100.0, 100.0);
      && g.cellSize == 10.0 && g.rows == 10 && g.cols == 10 && |g.buckets| == 10
      && g.cells == RowTable(10, 10)
  {
    assert MinReal(100.0, 100.0) / 10.0 == 10.0;
    assert Ceil(100.0 / 10.0) == 10;
  }

  /** Two circles of radius 9.5 centred at (5, 5) and (5, 24), whose edges
      just touch. */
  const Touching: seq<Circle> := [Circle(5.0, 5.0, 9.5, true), Circle(5.0, 24.0, 9.5, true)]

  /** `Touching` after one written tick: both have grown by 0.05. */
  const Grown: seq<Circle> := [Circle(5.0, 5.0, 9.55, true), Circle(5.0, 24.0, 9.55, true)]

  /** The 100 by 100 grid once circle 0 is in the bucket of row 0 and
      circle 1 in that of row 2. */
  predicate TwoRowsGrid(g: Grid) {
    && g.cellSize == 10.0 && g.rows == 10 && g.cols == 10
    && g.cells == RowTable(10, 10)
    && |g.buckets| == 10 && g.buckets[0] == [0] && g.buckets[2] == [1]
    && forall b :: 0 <= b < 10 && b != 0 && b != 2 ==> g.buckets[b] == []
  }

  /** `Touching` in column 0 of the 100 by 100 grid, in rows 0 and 2: the
      canvas after spawning circles at those two centres, once both have
      grown (`TwoRowsReached`). */
  function TwoRowsApart(): State {
    var g := Init(100.0, 100.0);
    HundredGrid();
    State(g.(buckets := g.buckets[0 := [0]][2 := [1]]), Touching, false)
  }

  lemma {:induction false} TwoRowsIsGrid()
    ensures TwoRowsGrid(TwoRowsApart().grid)
    ensures TwoRowsApart() == State(TwoRowsApart().grid, Touching, false)
  {
    HundredGrid();
  }

  /** `TwoRowsApart` is what the sketch holds after two spawns on a fresh
      100 by 100 canvas at (5, 5) and (5, 24), with both circles grown. */
  lemma {:induction false} TwoRowsReached()
    ensures var s := Push(Push(Start(100.0, 100.0), 5.0, 5.0), 5.0, 24.0);
      TwoRowsApart() == s.(circles := Touching)
  {
    HundredGrid();
    var g := Init(100.0, 100.0);
    var s0 := Start(100.0, 100.0);
    var s1 := Push(s0, 5.0, 5.0);
    var s2 := Push(s1, 5.0, 24.0);
    assert s0.grid == g && s0.circles == [];
    GridCells(g);
    PushInto(s0, 5.0, 5.0);
    assert g.buckets[0] + [0] == [0];
    assert s1.grid == g.(buckets := g.buckets[0 := [0]]);
    GridCells(s1.grid);
    PushInto(s1, 5.0, 24.0);
    assert s1.grid.buckets[2] + [1] == [1];
    assert s2.grid == g.(buckets := g.buckets[0 := [0]][2 := [1]]);
  }

  /** Push appends the new index to the bucket of its centre's cell. */
  lemma PushInto(s: State, x: real, y: real)
    requires Valid(s)
    ensures var p := GridIndex(s.grid, x, y); var b := s.grid.cells[p.y][p.x];
      Push(s, x, y).grid == s.grid.(buckets := s.grid.buckets[b := s.grid.buckets[b] + [|s.circles|]])
  {
  }

  /** The cells of the two centres on any grid shaped like the 100 by 100 one. */
  lemma {:induction false} GridCells(g: Grid)
    requires g.cellSize == 10.0 && g.rows == 10 && g.cols == 10 && g.cells == RowTable(10, 10)
    requires |g.buckets| == 10
    ensures Shaped(g)
    ensures GridIndex(g, 5.0, 5.0) == Pos(0, 0) && GridIndex(g, 5.0, 24.0) == Pos(0, 2)
    ensures g.cells[0][0] == 0 && g.cells[2][0] == 2
  {
    assert Trunc(5.0 / 10.0) == 0;
    assert Trunc(24.0 / 10.0) == 2;
  }

  lemma {:induction false} GridValid(g: Grid, cs: seq<Circle>)
    requires TwoRowsGrid(g) && |cs| == 2
    ensures Valid(State(g, cs, false))
  {
    GridCells(g);
    forall b | 0 <= b < |g.buckets| ensures Below(g.buckets[b], 2) {
    }
  }

  lemma {:induction false} GridFits(g: Grid)
    requires TwoRowsGrid(g)
    ensures Fits(State(g, Touching, false))
  {
    var s := State(g, Touching, false);
    GridValid(g, Touching);
    GridCells(g);
    assert Home(s, 0) && Home(s, 1);
    assert Apart(Touching[0], Touching[1]);
  }

  /** The written search from either circle sees only that circle, once
      for each of the two cells of its row that the search covers. */
  lemma {:induction false} GridSearchBlind(g: Grid)
    requires TwoRowsGrid(g)
    ensures Shaped(g)
    ensures Near(g, 5.0, 5.0, WrittenReach) == [0, 0]
    ensures Near(g, 5.0, 24.0, WrittenReach) == [1, 1]
  {
    GridCells(g);
    assert ScanRow(g, -1, -1, 1) == [];
    assert ScanRow(g, 0, -1, 1) == [0, 0];
    assert ScanRow(g, 1, -1, 1) == [];
    assert ScanRow(g, 2, -1, 1) == [1, 1];
    assert ScanRow(g, 3, -1, 1) == [];
  }

  lemma {:induction false} GridFirstStep(g: Grid)
    requires TwoRowsGrid(g)
    ensures Valid(State(g, Touching, false))
    ensures StepAt(State(g, Touching, false), 0, Speed * MaxStep, WrittenReach)
         == State(g, [Grown[0], Touching[1]], false)
  {
    GridValid(g, Touching);
    GridSearchBlind(g);
  }

  lemma {:induction false} GridSecondStep(g: Grid)
    requires TwoRowsGrid(g)
    ensures Valid(State(g, [Grown[0], Touching[1]], false))
    ensures StepAt(State(g, [Grown[0], Touching[1]], false), 1, Speed * MaxStep, WrittenReach)
         == State(g, Grown, false)
  {
    GridValid(g, [Grown[0], Touching[1]]);
    GridSearchBlind(g);
  }

  /** One written tick grows both circles. */
  lemma {:induction false} GridTickGrowsBoth(g: Grid)
    requires TwoRowsGrid(g)
    ensures Valid(State(g, Touching, false))
    ensures GrowTick(State(g, Touching, false), MaxStep, WrittenReach).0.circles == Grown
  {
    var s := State(g, Touching, false);
    var dr := Speed * MaxStep;
    var s1 := State(g, [Grown[0], Touching[1]], false);
    var s2 := State(g, Grown, false);
    GridFirstStep(g);
    GridSecondStep(g);
    GridValid(g, Grown);
    assert GrowFrom(s, 0, dr, WrittenReach).0 == GrowFrom(s1, 1, dr, WrittenReach).0;
    assert GrowFrom(s1, 1, dr, WrittenReach).0 == GrowFrom(s2, 2, dr, WrittenReach).0;
  }

  /** The packing invariant holds for `TwoRowsApart`, yet one tick with the
      written reach grows both circles, each blind to the other, into an
      overlap; with the safe reach the same tick keeps them apart. */
  lemma {:induction false} WrittenTickOverlaps()
    ensures Fits(TwoRowsApart())
    ensures !NoOverlap(GrowTick(TwoRowsApart(), MaxStep, WrittenReach).0.circles)
    ensures NoOverlap(GrowTick(TwoRowsApart(), MaxStep, SafeReach).0.circles)
  {
    var s := TwoRowsApart();
    TwoRowsIsGrid();
    GridFits(s.grid);
    GridTickGrowsBoth(s.grid);
    assert !Apart(Grown[0], Grown[1]);
    SafeGrowFromFits(s, 0, Speed * MaxStep);
  }
}

=== FILE: city.dfy ===
/** The isometric city of genart/genuary2026/08_city.mjs: an N by N grid
    of towers that grow one floor at a time towards a drawn height, drawn
    back to front along the anti-diagonals of the grid. */
module City {
  const TileW: nat := 40
  const TileH: nat := 20
  const MaxFloors: nat := 20

  /** One tower: its floors so far and the height it grows to. */
  datatype Tower = Tower(current: nat, max: nat)

  type Heights = seq<seq<Tower>>

  /** An n by n table. */
  predicate Square<T>(g: seq<seq<T>>, n: nat) {
    |g| == n && forall i :: 0 <= i < n ==> |g[i]| == n
  }

  /** No tower has passed its height, and every height is one the
      initial draw can produce. */
  predicate Sane(g: Heights) {
    forall i, j :: 0 <= i < |g| && 0 <= j < |g[i]| ==>
      g[i][j].current <= g[i][j].max && 1 <= g[i][j].max <= MaxFloors
  }

  /** Draws of `Math.random`, one per cell, each in [0, 1). */
  predicate Draws(u: seq<seq<real>>, n: nat) {
    Square(u, n) && forall i, j :: 0 <= i < n && 0 <= j < n ==> 0.0 <= u[i][j] < 1.0
  }

  /** `1 + floor(random * MAX_FLOORS)`. */
  function HeightOf(u: real): (m: nat)
    requires 0.0 <= u < 1.0
    ensures 1 <= m <= MaxFloors
  {
    1 + (u * MaxFloors as real).Floor
  }

  /** `init(N)`: every tower empty, with a drawn height. */
  function Init(n: nat, u: seq<seq<real>>): (g: Heights)
    requires Draws(u, n)
    ensures Square(g, n) && Sane(g)
    ensures forall i, j :: 0 <= i < n && 0 <= j < n ==> g[i][j].current == 0 && g[i][j].max == HeightOf(u[i][j])
  {
    seq(n, i requires 0 <= i < n => seq(n, j requires 0 <= j < n => Tower(0, HeightOf(u[i][j]))))
  }

  const GrowthRate: real := 0.5

  /** One tower in `update`: a tower below its height grows one floor when
      its draw is under GROWTH_RATE. The flag says whether it grew. */
  function GrowTower(t: Tower, u: real): (Tower, bool) {
    if t.current >= t.max then (t, false)
    else if u < GrowthRate then (t.(current := t.current + 1), true)
    else (t, false)
  }

  /** The growth pass of `update` over the whole grid. */
  function Grow(g: Heights, n: nat, u: seq<seq<real>>): (g': Heights)
    requires Square(g, n) && Draws(u, n)
    ensures Square(g', n)
  {
    seq(n, i requires 0 <= i < n => seq(n, j requires 0 <= j < n => GrowTower(g[i][j], u[i][j]).0))
  }

  /** Some tower grew in the pass: `done` was cleared. */
  predicate AnyGrew(g: Heights, n: nat, u: seq<seq<real>>)
    requires Square(g, n) && Draws(u, n)
  {
    exists i, j :: 0 <= i < n && 0 <= j < n && GrowTower(g[i][j], u[i][j]).1
  }

  /** `update(N)`: the growth pass, then a new `init` drawing `redraw`
      when no tower grew. */
  function Update(g: Heights, n: nat, u: seq<seq<real>>, redraw: seq<seq<real>>): (g': Heights)
    requires Square(g, n) && Draws(u, n) && Draws(redraw, n)
    ensures Square(g', n)
    ensures AnyGrew(g, n, u) ==> g' == Grow(g, n, u)
    ensures !AnyGrew(g, n, u) ==> g' == Init(n, redraw)
  {
    if AnyGrew(g, n, u) then Grow(g, n, u) else Init(n, redraw)
  }

  /** The growth pass raises exactly the towers that are below their
      height and drew under the rate, by exactly one floor, and leaves
      every height alone. */
  lemma GrowSteps(g: Heights, n: nat, u: seq<seq<real>>, i: nat, j: nat)
    requires Square(g, n) && Draws(u, n) && i < n && j < n
    ensures Grow(g, n, u)[i][j].max == g[i][j].max
    ensures Grow(g, n, u)[i][j].current ==
      if g[i][j].current < g[i][j].max && u[i][j] < GrowthRate then g[i][j].current + 1 else g[i][j].current
  {
  }

  /** `current <= max`, and every height in [1, MAX_FLOORS], hold after
      every update. */
  lemma UpdateSane(g: Heights, n: nat, u: seq<seq<real>>, redraw: seq<seq<real>>)
    requires Square(g, n) && Draws(u, n) && Draws(redraw, n) && Sane(g)
    ensures Sane(Update(g, n, u, redraw))
  {
    if AnyGrew(g, n, u) {
      var g': Heights := Grow(g, n, u);
      forall i, j | 0 <= i < |g'| && 0 <= j < |g'[i]|
        ensures g'[i][j].current <= g'[i][j].max && 1 <= g'[i][j].max <= MaxFloors
      {
        GrowSteps(g, n, u, i, j);
      }
    }
  }

  /** The city restarts after a pass in which no tower grew, even while
      some tower is still below its height: every such tower drew at or
      above the rate. */
  lemma RestartsWhenStalled(g: Heights, n: nat, u: seq<seq<real>>, redraw: seq<seq<real>>)
    requires Square(g, n) && Draws(u, n) && Draws(redraw, n)
    requires forall i, j :: 0 <= i < n && 0 <= j < n && g[i][j].current < g[i][j].max ==> u[i][j] >= GrowthRate
    ensures Update(g, n, u, redraw) == Init(n, redraw)
  {
  }

  /** A tower below its height that draws under the rate keeps the city
      growing rather than restarting. */
  lemma GrowingDoesNotRestart(g: Heights, n: nat, u: seq<seq<real>>, redraw: seq<seq<real>>, i: nat, j: nat)
    requires Square(g, n) && Draws(u, n) && Draws(redraw, n) && i < n && j < n
    requires g[i][j].current < g[i][j].max && u[i][j] < GrowthRate
    ensures Update(g, n, u, redraw) == Grow(g, n, u)
    ensures Update(g, n, u, redraw)[i][j].current == g[i][j].current + 1
  {
    assert GrowTower(g[i][j], u[i][j]).1;
  }

  // ---------------------------------------------------------------------
  // drawGrid
  // ---------------------------------------------------------------------

  /** A grid cell (i, j). */
  datatype Cell = Cell(i: nat, j: nat)

  /** Cells are drawn by anti-diagonal s = i + j, and by i within one. */
  predicate Before(a: Cell, b: Cell) {
    a.i + a.j < b.i + b.j || (a.i + a.j == b.i + b.j && a.i < b.i)
  }

  /** `cellToScreen`'s y: the screen row grows with i + j. */
  function ScreenY(c: Cell, oy: real): real {
    oy + (c.i + c.j) as real * (TileH as real * 0.5)
  }

  /** The order of `drawGrid`: every cell of [0, N)² drawn once, in
      non-decreasing i + j, so that no tower is drawn over a nearer one. */
  method DrawOrder(n: nat) returns (order: seq<Cell>)
    ensures forall k :: 0 <= k < |order| ==> order[k].i < n && order[k].j < n
    ensures forall i, j :: 0 <= i < n && 0 <= j < n ==> Cell(i, j) in order
    ensures forall a, b :: 0 <= a < b < |order| ==> Before(order[a], order[b])
    ensures forall a, b :: 0 <= a < b < |order| ==> order[a] != order[b]
    ensures forall a, b :: 0 <= a < b < |order| ==> order[a].i + order[a].j <= order[b].i + order[b].j
  {
    order := [];
    if n == 0 {
      return;
    }
    var s := 0;
    while s <= 2 * (n - 1)
      invariant s <= 2 * (n - 1) + 1
      invariant forall k :: 0 <= k < |order| ==> order[k].i < n && order[k].j < n && order[k].i + order[k].j < s
      invariant forall i, j :: 0 <= i < n && 0 <= j < n && i + j < s ==> Cell(i, j) in order
      invariant forall a, b :: 0 <= a < b < |order| ==> Before(order[a], order[b])
    {
      order := Diagonal(n, s, order);
      s := s + 1;
    }
    forall a, b | 0 <= a < b < |order| ensures order[a] != order[b] {
      assert Before(order[a], order[b]);
    }
  }

  /** One pass of the outer loop of `drawGrid`: the cells of anti-diagonal
      s, by increasing i, skipping the j outside [0, N). */
  method Diagonal(n: nat, s: nat, order: seq<Cell>) returns (order': seq<Cell>)
    requires forall k :: 0 <= k < |order| ==> order[k].i < n && order[k].j < n && order[k].i + order[k].j < s
    requires forall a, b :: 0 <= a < b < |order| ==> Before(order[a], order[b])
    ensures |order'| >= |order|
    ensures forall k :: 0 <= k < |order'| ==> order'[k].i < n && order'[k].j < n && order'[k].i + order'[k].j <= s
    ensures forall i, j :: 0 <= i < n && 0 <= j < n && i + j <= s ==> (Cell(i, j) in order' <==> i + j == s || Cell(i, j) in order)
    ensures forall a, b :: 0 <= a < b < |order'| ==> Before(order'[a], order'[b])
  {
    order' := order;
    var i := 0;
    while i < n
      invariant i <= n && DiagonalSoFar(n, s, i, order, order')
    {
      if i <= s && s - i < n {
        order' := Visit(n, s, i, order, order');
      }
      i := i + 1;
    }
    DiagonalDone(n, s, order, order');
  }

  /** What the inner loop of `drawGrid` has done before index i: kept the
      earlier diagonals and appended the cells of diagonal s with a
      smaller i, in order. */
  ghost predicate DiagonalSoFar(n: nat, s: nat, i: nat, order: seq<Cell>, order': seq<Cell>) {
    && |order'| >= |order| && order'[..|order|] == order
    && (forall k :: 0 <= k < |order'| ==> order'[k].i < n && order'[k].j < n && order'[k].i + order'[k].j <= s)
    && (forall k :: |order| <= k < |order'| ==> order'[k].i + order'[k].j == s && order'[k].i < i)
    && (forall i', j :: 0 <= i' < n && 0 <= j < n && i' + j == s && i' < i ==> Cell(i', j) in order')
    && (forall a, b :: 0 <= a < b < |order'| ==> Before(order'[a], order'[b]))
  }

  /** One drawn cell of the inner loop: (i, s - i), inside the grid. */
  method Visit(n: nat, s: nat, i: nat, order: seq<Cell>, order': seq<Cell>) returns (order'': seq<Cell>)
    requires forall k :: 0 <= k < |order| ==> order[k].i + order[k].j < s
    requires i <= s && s - i < n && i < n && DiagonalSoFar(n, s, i, order, order')
    ensures DiagonalSoFar(n, s, i + 1, order, order'')
    ensures |order''| == |order'| + 1 && order''[|order'|] == Cell(i, s - i)
  {
    order'' := order' + [Cell(i, s - i)];
    assert order''[..|order|] == order'[..|order|];
    forall k | 0 <= k < |order'| ensures Before(order'[k], Cell(i, s - i)) {
      if k < |order| {
        assert order'[k] == order[k];
      }
    }
  }

  /** After the inner loop, diagonal s has joined the cells drawn before. */
  lemma DiagonalDone(n: nat, s: nat, order: seq<Cell>, order': seq<Cell>)
    requires DiagonalSoFar(n, s, n, order, order')
    ensures forall i, j :: 0 <= i < n && 0 <= j < n && i + j <= s ==> (Cell(i, j) in order' <==> i + j == s || Cell(i, j) in order)
  {
    forall i', j | 0 <= i' < n && 0 <= j < n && i' + j <= s && Cell(i', j) in order' && i' + j != s
      ensures Cell(i', j) in order
    {
      var k :| 0 <= k < |order'| && order'[k] == Cell(i', j);
      assert k < |order|;
      assert order[k] == order'[k];
    }
    forall i', j | 0 <= i' < n && 0 <= j < n && Cell(i', j) in order
      ensures Cell(i', j) in order'
    {
      var k :| 0 <= k < |order| && order[k] == Cell(i', j);
      assert order'[k] == order[k];
    }
  }

  /** Drawing in this order never moves up the screen: a later tower
      stands at the same height or nearer the viewer. */
  lemma DrawnBackToFront(n: nat, order: seq<Cell>, oy: real, a: nat, b: nat)
    requires forall a, b :: 0 <= a < b < |order| ==> order[a].i + order[a].j <= order[b].i + order[b].j
    requires a < b < |order|
    ensures ScreenY(order[a], oy) <= ScreenY(order[b], oy)
  {
    assert order[a].i + order[a].j <= order[b].i + order[b].j;
  }

  // ---------------------------------------------------------------------
  // computeNToCover
  // ---------------------------------------------------------------------

  function Ceil(x: real): int {
    -((-x).Floor)
  }

  function MaxReal(a: real, b: real): real {
    if a >= b then a else b
  }

  /** The first size the search of `computeNToCover` tries. */
  function StartN(w: real, h: real): int {
    Ceil(MaxReal(w / TileW as real, h / TileH as real)) + 2
  }

  /** The diamond of an N grid covers the padded canvas: the loop's exit
      test `halfW / a + halfH / b <= 1`. */
  predicate Fits(w: real, h: real, n: int) {
    var halfW := w * 0.5 * 1.05;
    var halfH := h * 0.5 * 1.05;
    var a := (n * TileW) as real * 0.5;
    var b := (n * TileH) as real * 0.5;
    a != 0.0 && b != 0.0 && halfW / a + halfH / b <= 1.0
  }

  /** The padded half-extent the grid has to reach, in grid steps. */
  function Need(w: real, h: real): real {
    1.05 * (w / TileW as real + h / TileH as real)
  }

  /** For a positive N the test is `Need <= N`. */
  lemma FitsIff(w: real, h: real, n: int)
    requires n > 0
    ensures Fits(w, h, n) <==> Need(w, h) <= n as real
  {
    var nr := n as real;
    var halfW := w * 0.5 * 1.05;
    var halfH := h * 0.5 * 1.05;
    var a := (n * TileW) as real * 0.5;
    var b := (n * TileH) as real * 0.5;
    assert a == 20.0 * nr && b == 10.0 * nr;
    var sum := halfW / a + halfH / b;
    assert sum * nr == Need(w, h) by {
      assert halfW / a * nr == halfW / 20.0;
      assert halfH / b * nr == halfH / 10.0;
    }
    if sum <= 1.0 {
      assert sum * nr <= nr;
    }
    if Need(w, h) <= nr {
      assert sum * nr <= 1.0 * nr;
    }
  }

  /** `computeNToCover`: from the start size, the first N whose diamond
      covers the canvas. */
  method NToCover(w: real, h: real) returns (n: int)
    requires w >= 0.0 && h >= 0.0
    ensures n >= StartN(w, h) && Fits(w, h, n)
    ensures forall m :: StartN(w, h) <= m < n ==> !Fits(w, h, m)
  {
    n := StartN(w, h);
    assert n >= 2;
    while !Fits(w, h, n)
      invariant n >= StartN(w, h) && n >= 2
      invariant forall m :: StartN(w, h) <= m < n ==> !Fits(w, h, m)
      decreases Ceil(Need(w, h)) - n
    {
      FitsIff(w, h, n);
      n := n + 1;
    }
  }

  /** In closed form the search returns the larger of the start size and
      `ceil(Need)`. */
  lemma NToCoverClosed(w: real, h: real, n: int)
    requires w >= 0.0 && h >= 0.0
    requires n >= StartN(w, h) && Fits(w, h, n)
    requires forall m :: StartN(w, h) <= m < n ==> !Fits(w, h, m)
    ensures n == if StartN(w, h) >= Ceil(Need(w, h)) then StartN(w, h) else Ceil(Need(w, h))
  {
    var s, c := StartN(w, h), Ceil(Need(w, h));
    assert s >= 2;
    FitsIff(w, h, n);
    if s < c {
      FitsIff(w, h, c);
      assert Fits(w, h, c);
    } else {
      FitsIff(w, h, s);
      assert Fits(w, h, s);
    }
  }
}

=== FILE: crazy_automaton.dfy ===
/** The combinatorial skeleton of the Voronoi automaton: Bowyer-Watson
    insertion bookkeeping (super-triangle, bad triangles, boundary edges,
    orientation swap, removal of the super-triangle), the edge-to-triangle
    map, the neighbour graph it induces, and the birth/survive/death step.
    Coordinates are exact reals rather than doubles. */
module CrazyAutomaton {
  import opened Optional

  datatype Vec = Vec(x: real, y: real)

  /** A circumcircle: centre and squared radius. */
  datatype Circle = Circle(x: real, y: real, r2: real)

  /** A triangle over point indices with its cached circumcircle. */
  datatype Tri = Tri(a: nat, b: nat, c: nat, cc: Option<Circle>)

  /** An undirected edge stored as (smaller, larger) index. */
  datatype Edge = Edge(u: nat, v: nat)

  const Eps: real := 0.000000001

  /** Fewer neighbours than LowCount die, LowCount up to SpawnCount survive,
      SpawnCount up to HighCount survive and spawn, HighCount or more die. */
  const LowCount: int := 3
  const SpawnCount: int := 6
  const HighCount: int := 7
  const MaxSites: nat := 1000

  function RAbs(r: real): real { if r < 0.0 then -r else r }
  function RMax(a: real, b: real): real { if a >= b then a else b }
  function RMin(a: real, b: real): real { if a <= b then a else b }

  /** `clamp(v, lo, hi) = max(lo, min(hi, v))`. */
  function Clamp(v: real, lo: real, hi: real): (r: real)
    ensures lo <= r
    ensures lo <= hi ==> r <= hi
    ensures lo <= v <= hi ==> r == v
  {
    RMax(lo, RMin(hi, v))
  }

  // ---------------------------------------------------------------------
  // Geometry kept as signs
  // ---------------------------------------------------------------------

  /** Twice the signed area of abc. */
  function Orient(a: Vec, b: Vec, c: Vec): real {
    (b.x - a.x) * (c.y - a.y) - (b.y - a.y) * (c.x - a.x)
  }

  /** The denominator of the circumcentre formula. */
  function Denominator(a: Vec, b: Vec, c: Vec): real {
    2.0 * (a.x * (b.y - c.y) + b.x * (c.y - a.y) + c.x * (a.y - b.y))
  }

  lemma DenominatorIsTwiceOrient(a: Vec, b: Vec, c: Vec)
    ensures Denominator(a, b, c) == 2.0 * Orient(a, b, c)
  {
  }

  /** Exchanging the first two corners reverses the orientation. */
  lemma OrientSwap(a: Vec, b: Vec, c: Vec)
    ensures Orient(b, a, c) == -Orient(a, b, c)
  {
  }

  /** `circumcenter`: absent exactly when |2 orient| < EPS. */
  function Circumcenter(a: Vec, b: Vec, c: Vec): (r: Option<Circle>)
    ensures r.Some? <==> RAbs(2.0 * Orient(a, b, c)) >= Eps
  {
    var d := Denominator(a, b, c);
    DenominatorIsTwiceOrient(a, b, c);
    if RAbs(d) < Eps then None
    else
      var a2 := a.x * a.x + a.y * a.y;
      var b2 := b.x * b.x + b.y * b.y;
      var c2 := c.x * c.x + c.y * c.y;
      var ux := (a2 * (b.y - c.y) + b2 * (c.y - a.y) + c2 * (a.y - b.y)) / d;
      var uy := (a2 * (c.x - b.x) + b2 * (a.x - c.x) + c2 * (b.x - a.x)) / d;
      Some(Circle(ux, uy, (ux - a.x) * (ux - a.x) + (uy - a.y) * (uy - a.y)))
  }

  /** `pointInCircumcircle`: a triangle without a circumcircle never
      contains a point. */
  predicate InCircumcircle(p: Vec, t: Tri) {
    match t.cc
    case None => false
    case Some(cc) => (p.x - cc.x) * (p.x - cc.x) + (p.y - cc.y) * (p.y - cc.y) <= cc.r2 + Eps
  }

  // ---------------------------------------------------------------------
  // Super-triangle
  // ---------------------------------------------------------------------

  function SuperCorners(w: real, h: real): (r: seq<Vec>)
    ensures |r| == 3
  {
    var margin := RMax(w, h) * 10.0;
    var cx, cy := w * 0.5, h * 0.5;
    [Vec(cx, cy - margin), Vec(cx - margin, cy + margin), Vec(cx + margin, cy + margin)]
  }

  /** `makeSuperTriangle`: the three corners are appended after the n input
      points, at indices n, n + 1 and n + 2. */
  function MakeSuperTriangle(pts: seq<Vec>, w: real, h: real): (r: (seq<Vec>, nat, nat, nat))
    ensures |r.0| == |pts| + 3 && r.0[..|pts|] == pts
    ensures r.1 == |pts| && r.2 == |pts| + 1 && r.3 == |pts| + 2
    ensures r.0[r.1] == SuperCorners(w, h)[0] && r.0[r.2] == SuperCorners(w, h)[1] && r.0[r.3] == SuperCorners(w, h)[2]
  {
    (pts + SuperCorners(w, h), |pts|, |pts| + 1, |pts| + 2)
  }

  /** The super-triangle winds clockwise in screen coordinates (negative
      orientation, -4 margin^2), so it has a circumcircle once the margin
      is not tiny. */
  lemma SuperTriangleOrientation(w: real, h: real)
    ensures var s := SuperCorners(w, h); var m := RMax(w, h) * 10.0;
      Orient(s[0], s[1], s[2]) == -4.0 * m * m
  {
  }

  // ---------------------------------------------------------------------
  // Edge keys and grouping
  // ---------------------------------------------------------------------

  /** `edgeKey`: the canonical (min, max) pair. */
  function Key(u: nat, v: nat): (e: Edge)
    ensures e.u <= e.v
    ensures {e.u, e.v} == {u, v}
  {
    if u < v then Edge(u, v) else Edge(v, u)
  }

  /** Keys ignore the order of their endpoints and tell unordered pairs apart. */
  lemma KeyCanonical(u: nat, v: nat, x: nat, y: nat)
    ensures Key(u, v) == Key(v, u)
    ensures Key(u, v) == Key(x, y) <==> (u == x && v == y) || (u == y && v == x)
  {
    if Key(u, v) == Key(x, y) {
      assert {u, v} == {x, y};
      assert u in {x, y} && v in {x, y} && x in {u, v};
    }
  }

  /** Triangle edges as (key, triangle index) incidences. */
  function TriEdges(t: Tri): seq<Edge> {
    [Key(t.a, t.b), Key(t.b, t.c), Key(t.c, t.a)]
  }

  /** The incidences of all triangles, triangle by triangle, each triangle's
      edges in the order ab, bc, ca. */
  function Incidences(tris: seq<Tri>): (r: seq<(Edge, nat)>)
    ensures |r| == 3 * |tris|
    ensures forall k :: 0 <= k < |r| ==> r[k].1 < |tris| && r[k].0 in TriEdges(tris[r[k].1])
  {
    if |tris| == 0 then []
    else
      var n := |tris| - 1;
      var t := tris[n];
      var prefix := Incidences(tris[..n]);
      assert forall k :: 0 <= k < |prefix| ==> tris[..n][prefix[k].1] == tris[prefix[k].1];
      prefix + [(Key(t.a, t.b), n), (Key(t.b, t.c), n), (Key(t.c, t.a), n)]
  }

  type Groups = seq<(Edge, seq<nat>)>

  /** The position of the entry for k, or -1. */
  function FindKey(gs: Groups, k: Edge): (i: int)
    ensures -1 <= i < |gs|
    ensures i >= 0 ==> gs[i].0 == k
    ensures i == -1 <==> forall j :: 0 <= j < |gs| ==> gs[j].0 != k
  {
    if |gs| == 0 then -1
    else if gs[|gs| - 1].0 == k then |gs| - 1
    else FindKey(gs[..|gs| - 1], k)
  }

  /** The map update of the construction loops: append to the entry for k,
      or create it at the end. */
  function AddTo(gs: Groups, k: Edge, v: nat): Groups {
    var i := FindKey(gs, k);
    if i >= 0 then gs[i := (k, gs[i].1 + [v])] else gs + [(k, [v])]
  }

  /** The map a `Map` keyed by edge builds from the incidences, keys in
      first-insertion order. */
  function Group(ps: seq<(Edge, nat)>): Groups {
    if |ps| == 0 then [] else AddTo(Group(ps[..|ps| - 1]), ps[|ps| - 1].0, ps[|ps| - 1].1)
  }

  /** The values recorded under key k, in order. */
  function Select(ps: seq<(Edge, nat)>, k: Edge): seq<nat> {
    if |ps| == 0 then []
    else Select(ps[..|ps| - 1], k) + (if ps[|ps| - 1].0 == k then [ps[|ps| - 1].1] else [])
  }

  predicate KeysDistinct(gs: Groups) {
    forall i, j :: 0 <= i < j < |gs| ==> gs[i].0 != gs[j].0
  }

  /** The grouping has one entry per key that occurs, holding exactly the
      values recorded under that key in order. */
  lemma {:induction false} GroupSpec(ps: seq<(Edge, nat)>)
    ensures KeysDistinct(Group(ps))
    ensures forall k :: FindKey(Group(ps), k) >= 0 <==> |Select(ps, k)| > 0
    ensures forall k :: FindKey(Group(ps), k) >= 0 ==> Group(ps)[FindKey(Group(ps), k)].1 == Select(ps, k)
  {
    if |ps| > 0 {
      var prefix := ps[..|ps| - 1];
      GroupSpec(prefix);
      var gs := Group(prefix);
      var (k0, v0) := ps[|ps| - 1];
      var i := FindKey(gs, k0);
      var r := Group(ps);
      assert r == AddTo(gs, k0, v0);
      forall k ensures FindKey(r, k) >= 0 <==> |Select(ps, k)| > 0
        ensures FindKey(r, k) >= 0 ==> r[FindKey(r, k)].1 == Select(ps, k)
      {
        var j := FindKey(gs, k);
        if j >= 0 {
          assert r[j].0 == k;
          UniqueKey(r, k, j);
        } else if k == k0 {
          assert r[|r| - 1].0 == k;
          UniqueKey(r, k, |r| - 1);
        } else {
          assert forall m :: 0 <= m < |r| ==> r[m].0 != k;
        }
      }
    }
  }

  lemma UniqueKey(gs: Groups, k: Edge, j: int)
    requires KeysDistinct(gs) && 0 <= j < |gs| && gs[j].0 == k
    ensures FindKey(gs, k) == j
  {
    var i := FindKey(gs, k);
    assert i >= 0;
    assert !(i < j) && !(j < i);
  }

  lemma AddToKeepsDistinct(gs: Groups, k: Edge, v: nat)
    requires KeysDistinct(gs)
    ensures KeysDistinct(AddTo(gs, k, v))
  {
  }

  lemma {:induction false} GroupDistinct(ps: seq<(Edge, nat)>)
    ensures KeysDistinct(Group(ps))
  {
    if |ps| > 0 {
      GroupDistinct(ps[..|ps| - 1]);
      AddToKeepsDistinct(Group(ps[..|ps| - 1]), ps[|ps| - 1].0, ps[|ps| - 1].1);
    }
  }

  /** A key's values are the incidences carrying it. */
  lemma {:induction false} SelectMeaning(ps: seq<(Edge, nat)>, k: Edge, v: nat)
    ensures v in Select(ps, k) <==> (k, v) in ps
  {
    if |ps| > 0 {
      SelectMeaning(ps[..|ps| - 1], k, v);
      assert ps == ps[..|ps| - 1] + [ps[|ps| - 1]];
    }
  }

  /** The edge-to-triangle map lists, for every edge, the triangles having
      it as a side, in triangle order. */
  lemma EdgeToTrisMeaning(tris: seq<Tri>, e: Edge, i: nat)
    ensures i in Select(Incidences(tris), e) <==> i < |tris| && e in TriEdges(tris[i])
  {
    SelectMeaning(Incidences(tris), e, i);
    IncidencesMeaning(tris, e, i);
  }

  lemma {:induction false} IncidencesMeaning(tris: seq<Tri>, e: Edge, i: nat)
    ensures (e, i) in Incidences(tris) <==> i < |tris| && e in TriEdges(tris[i])
  {
    if |tris| > 0 {
      var n := |tris| - 1;
      IncidencesMeaning(tris[..n], e, i);
      if i < n { assert tris[..n][i] == tris[i]; }
    }
  }

  // ---------------------------------------------------------------------
  // Bowyer-Watson insertion
  // ---------------------------------------------------------------------

  function Bad(tris: seq<Tri>, p: Vec): (r: seq<Tri>)
    ensures forall t :: t in r <==> t in tris && InCircumcircle(p, t)
  {
    if |tris| == 0 then []
    else (if InCircumcircle(p, tris[0]) then [tris[0]] else []) + Bad(tris[1..], p)
  }

  function Kept(tris: seq<Tri>, p: Vec): (r: seq<Tri>)
    ensures forall t :: t in r <==> t in tris && !InCircumcircle(p, t)
  {
    if |tris| == 0 then []
    else (if InCircumcircle(p, tris[0]) then [] else [tris[0]]) + Kept(tris[1..], p)
  }

  /** The edges counted exactly once, in first-insertion order. */
  function Boundary(gs: Groups): (r: seq<Edge>)
    ensures forall e :: e in r <==> exists i :: 0 <= i < |gs| && gs[i].0 == e && |gs[i].1| == 1
  {
    if |gs| == 0 then []
    else
      var rest := Boundary(gs[1..]);
      assert forall i :: 1 <= i < |gs| ==> gs[i] == gs[1..][i - 1];
      (if |gs[0].1| == 1 then [gs[0].0] else []) + rest
  }

  /** The cavity boundary is exactly the set of edges occurring once among
      the bad triangles. */
  lemma BoundaryIsOnceEdges(bad: seq<Tri>, e: Edge)
    ensures e in Boundary(Group(Incidences(bad))) <==> |Select(Incidences(bad), e)| == 1
  {
    var ps := Incidences(bad);
    var gs := Group(ps);
    GroupSpec(ps);
    if e in Boundary(gs) {
      var i :| 0 <= i < |gs| && gs[i].0 == e && |gs[i].1| == 1;
      UniqueKey(gs, e, i);
    }
    if |Select(ps, e)| == 1 {
      var i := FindKey(gs, e);
      assert gs[i].0 == e && |gs[i].1| == 1;
    }
  }

  predicate Indexed(tris: seq<Tri>, m: nat) {
    forall t :: t in tris ==> t.a < m && t.b < m && t.c < m
  }

  predicate KeysBelow(gs: Groups, m: nat) {
    forall i :: 0 <= i < |gs| ==> gs[i].0.u < m && gs[i].0.v < m
  }

  lemma {:induction false} GroupKeysBelow(ps: seq<(Edge, nat)>, m: nat)
    requires forall k :: 0 <= k < |ps| ==> ps[k].0.u < m && ps[k].0.v < m
    ensures KeysBelow(Group(ps), m)
  {
    if |ps| > 0 {
      GroupKeysBelow(ps[..|ps| - 1], m);
    }
  }

  lemma IncidencesBelow(tris: seq<Tri>, m: nat)
    requires Indexed(tris, m)
    ensures KeysBelow(Group(Incidences(tris)), m)
  {
    var ps := Incidences(tris);
    forall k | 0 <= k < |ps| ensures ps[k].0.u < m && ps[k].0.v < m {
      assert tris[ps[k].1] in tris;
    }
    GroupKeysBelow(ps, m);
  }

  /** A triangle the insertion loop may keep: it has a circumcircle and
      2 orient >= EPS. */
  predicate WellOriented(pts: seq<Vec>, t: Tri)
    requires t.a < |pts| && t.b < |pts| && t.c < |pts|
  {
    t.cc.Some? && 2.0 * Orient(pts[t.a], pts[t.b], pts[t.c]) >= Eps
  }

  /** Triangle t has edge e as its side ab, in either direction. */
  predicate Joins(t: Tri, e: Edge) {
    (t.a == e.u && t.b == e.v) || (t.a == e.v && t.b == e.u)
  }

  /** The triangle joining boundary edge (u, v) to point c, swapped to
      positive orientation, or nothing when it is degenerate. */
  function Fan(pts: seq<Vec>, u: nat, v: nat, c: nat): (r: Option<Tri>)
    requires u < |pts| && v < |pts| && c < |pts|
    ensures r.Some? ==> r.value.c == c && Joins(r.value, Edge(u, v))
    ensures r.Some? ==> r.value.a < |pts| && r.value.b < |pts| && WellOriented(pts, r.value)
    ensures r.None? <==> RAbs(2.0 * Orient(pts[u], pts[v], pts[c])) < Eps
  {
    var (ta, tb) := if Orient(pts[u], pts[v], pts[c]) < 0.0 then (v, u) else (u, v);
    OrientSwap(pts[u], pts[v], pts[c]);
    var cc := Circumcenter(pts[ta], pts[tb], pts[c]);
    if cc.None? then None else Some(Tri(ta, tb, c, cc))
  }

  /** The new triangles of one insertion: one per non-degenerate boundary
      edge, in boundary order. */
  function FanAll(pts: seq<Vec>, boundary: seq<Edge>, c: nat): (r: seq<Tri>)
    requires c < |pts|
    requires forall e :: e in boundary ==> e.u < |pts| && e.v < |pts|
    ensures Indexed(r, |pts|)
    ensures forall k :: 0 <= k < |r| ==> r[k].c == c && (Edge(r[k].a, r[k].b) in boundary || Edge(r[k].b, r[k].a) in boundary) && WellOriented(pts, r[k])
  {
    if |boundary| == 0 then []
    else
      var e := boundary[0];
      var rest := FanAll(pts, boundary[1..], c);
      match Fan(pts, e.u, e.v, c)
      case None => rest
      case Some(t) => [t] + rest
  }

  /** Every boundary edge whose fan triangle is not degenerate gets one. */
  lemma {:induction false} FanAllComplete(pts: seq<Vec>, boundary: seq<Edge>, c: nat, e: Edge)
    requires c < |pts|
    requires forall e :: e in boundary ==> e.u < |pts| && e.v < |pts|
    requires e in boundary && RAbs(2.0 * Orient(pts[e.u], pts[e.v], pts[c])) >= Eps
    ensures exists t :: t in FanAll(pts, boundary, c) && Joins(t, e)
  {
    var r := FanAll(pts, boundary, c);
    if boundary[0] == e {
      var t := Fan(pts, e.u, e.v, c).value;
      assert r == [t] + FanAll(pts, boundary[1..], c);
      assert t in r;
    } else {
      FanAllComplete(pts, boundary[1..], c, e);
      var t :| t in FanAll(pts, boundary[1..], c) && Joins(t, e);
      assert t in r;
    }
  }

  /** One pass of the insertion loop for point pi. */
  function Insert(pts: seq<Vec>, tris: seq<Tri>, pi: nat): (r: seq<Tri>)
    requires pi < |pts| && Indexed(tris, |pts|)
    ensures Indexed(r, |pts|)
    ensures forall t :: t in r ==> (t in tris && !InCircumcircle(pts[pi], t)) || (t.c == pi && WellOriented(pts, t))
  {
    var bad := Bad(tris, pts[pi]);
    var gs := Group(Incidences(bad));
    IncidencesBelow(bad, |pts|);
    var boundary := Boundary(gs);
    Kept(tris, pts[pi]) + FanAll(pts, boundary, pi)
  }

  /** The new triangles are exactly built on once-counted bad edges. */
  lemma InsertFansBoundary(pts: seq<Vec>, tris: seq<Tri>, pi: nat, t: Tri)
    requires pi < |pts| && Indexed(tris, |pts|)
    requires t in Insert(pts, tris, pi) && t !in tris
    ensures t.c == pi
    ensures var ps := Incidences(Bad(tris, pts[pi]));
      |Select(ps, Edge(t.a, t.b))| == 1 || |Select(ps, Edge(t.b, t.a))| == 1
  {
    var bad := Bad(tris, pts[pi]);
    IncidencesBelow(bad, |pts|);
    BoundaryIsOnceEdges(bad, Edge(t.a, t.b));
    BoundaryIsOnceEdges(bad, Edge(t.b, t.a));
  }

  function InsertFrom(pts: seq<Vec>, tris: seq<Tri>, pi: nat, n: nat): (r: seq<Tri>)
    requires n <= |pts| && Indexed(tris, |pts|)
    ensures Indexed(r, |pts|)
    ensures forall t :: t in r ==> t in tris || (t.c < n && WellOriented(pts, t))
    decreases n - pi
  {
    if pi >= n then tris else InsertFrom(pts, Insert(pts, tris, pi), pi + 1, n)
  }

  predicate TouchesSuper(t: Tri, n: nat) {
    t.a in {n, n + 1, n + 2} || t.b in {n, n + 1, n + 2} || t.c in {n, n + 1, n + 2}
  }

  function RemoveSuper(tris: seq<Tri>, n: nat): (r: seq<Tri>)
    ensures forall t :: t in r <==> t in tris && !TouchesSuper(t, n)
  {
    if |tris| == 0 then []
    else (if TouchesSuper(tris[0], n) then [] else [tris[0]]) + RemoveSuper(tris[1..], n)
  }

  /** `buildDelaunay`: the points with the super-triangle corners appended,
      and triangles over the input points only, each with a circumcircle and
      2 orient >= EPS. */
  function BuildDelaunay(points: seq<Vec>, w: real, h: real): (r: (seq<Vec>, seq<Tri>))
    ensures r.0 == points + SuperCorners(w, h)
    ensures forall t :: t in r.1 ==> t.a < |points| && t.b < |points| && t.c < |points| && WellOriented(r.0, t)
  {
    var (pts, i0, i1, i2) := MakeSuperTriangle(points, w, h);
    var n := |points|;
    assert pts == points + SuperCorners(w, h);
    var first := Tri(i0, i1, i2, Circumcenter(pts[i0], pts[i1], pts[i2]));
    var tris := InsertFrom(pts, [first], 0, n);
    (pts, RemoveSuper(tris, n))
  }

  // ---------------------------------------------------------------------
  // Neighbours
  // ---------------------------------------------------------------------

  /** `Set.add`: appends unless already present. */
  function AddUnique(s: seq<nat>, x: nat): (r: seq<nat>)
    ensures forall y :: y in r <==> y in s || y == x
  {
    if x in s then s else s + [x]
  }

  predicate DistinctNats(s: seq<nat>) {
    forall i, j :: 0 <= i < j < |s| ==> s[i] != s[j]
  }

  /** Edge group g links u and v: shared by exactly two triangles, both
      endpoints real sites. */
  predicate Links(g: (Edge, seq<nat>), numSites: nat, u: nat, v: nat) {
    && |g.1| == 2
    && g.0.u < numSites && g.0.v < numSites
    && ((g.0.u == u && g.0.v == v) || (g.0.u == v && g.0.v == u))
  }

  function LinkStep(neigh: seq<seq<nat>>, g: (Edge, seq<nat>), numSites: nat): (r: seq<seq<nat>>)
    requires |neigh| == numSites
    ensures |r| == numSites
  {
    var (su, sv) := (g.0.u, g.0.v);
    if |g.1| != 2 then neigh
    else if su < numSites && sv < numSites then
      var n1 := neigh[su := AddUnique(neigh[su], sv)];
      n1[sv := AddUnique(n1[sv], su)]
    else neigh
  }

  lemma LinkStepMeaning(neigh: seq<seq<nat>>, g: (Edge, seq<nat>), numSites: nat, u: nat, v: nat)
    requires |neigh| == numSites && u < numSites
    ensures v in LinkStep(neigh, g, numSites)[u] <==> v in neigh[u] || Links(g, numSites, u, v)
    ensures DistinctNats(neigh[u]) ==> DistinctNats(LinkStep(neigh, g, numSites)[u])
  {
  }

  /** `buildNeighborsFromEdges`: one insertion-ordered set per site. */
  function BuildNeighbours(gs: Groups, numSites: nat): (r: seq<seq<nat>>)
    ensures |r| == numSites
  {
    if |gs| == 0 then seq(numSites, _ => [])
    else LinkStep(BuildNeighbours(gs[..|gs| - 1], numSites), gs[|gs| - 1], numSites)
  }

  /** v is u's neighbour exactly when some edge entry links them: the
      relation is symmetric, and every neighbour set is duplicate-free. */
  lemma {:induction false} NeighboursMeaning(gs: Groups, numSites: nat)
    ensures var r := BuildNeighbours(gs, numSites);
      forall u: nat, v: nat :: u < numSites ==>
        (v in r[u] <==> exists i :: 0 <= i < |gs| && Links(gs[i], numSites, u, v))
    ensures forall u :: 0 <= u < numSites ==> DistinctNats(BuildNeighbours(gs, numSites)[u])
  {
    forall u: nat, v: nat | u < numSites
      ensures v in BuildNeighbours(gs, numSites)[u] <==> exists i :: 0 <= i < |gs| && Links(gs[i], numSites, u, v)
    {
      NeighbourAt(gs, numSites, u, v);
    }
    forall u: nat | u < numSites ensures DistinctNats(BuildNeighbours(gs, numSites)[u]) {
      NeighbourAt(gs, numSites, u, 0);
    }
  }

  lemma {:induction false} NeighbourAt(gs: Groups, numSites: nat, u: nat, v: nat)
    requires u < numSites
    ensures v in BuildNeighbours(gs, numSites)[u] <==> exists i :: 0 <= i < |gs| && Links(gs[i], numSites, u, v)
    ensures DistinctNats(BuildNeighbours(gs, numSites)[u])
  {
    if |gs| > 0 {
      var prefix := gs[..|gs| - 1];
      NeighbourAt(prefix, numSites, u, v);
      var before := BuildNeighbours(prefix, numSites);
      assert BuildNeighbours(gs, numSites) == LinkStep(before, gs[|gs| - 1], numSites);
      LinkStepMeaning(before, gs[|gs| - 1], numSites, u, v);
      if exists i :: 0 <= i < |prefix| && Links(prefix[i], numSites, u, v) {
        var i :| 0 <= i < |prefix| && Links(prefix[i], numSites, u, v);
        assert Links(gs[i], numSites, u, v);
      }
      if exists i :: 0 <= i < |gs| && Links(gs[i], numSites, u, v) {
        var i :| 0 <= i < |gs| && Links(gs[i], numSites, u, v);
        if i < |prefix| { assert Links(prefix[i], numSites, u, v); }
      }
    }
  }

  /** Neighbourhood is symmetric. */
  lemma NeighboursSymmetric(gs: Groups, numSites: nat, u: nat, v: nat)
    requires u < numSites && v < numSites
    ensures v in BuildNeighbours(gs, numSites)[u] <==> u in BuildNeighbours(gs, numSites)[v]
  {
    NeighbourAt(gs, numSites, u, v);
    NeighbourAt(gs, numSites, v, u);
    forall i | 0 <= i < |gs| ensures Links(gs[i], numSites, u, v) <==> Links(gs[i], numSites, v, u) {}
  }

  /** Neighbours are real sites. */
  lemma NeighbourBelow(gs: Groups, numSites: nat, u: nat, v: nat)
    requires u < numSites && v in BuildNeighbours(gs, numSites)[u]
    ensures v < numSites
  {
    NeighbourAt(gs, numSites, u, v);
    var i :| 0 <= i < |gs| && Links(gs[i], numSites, u, v);
  }


  /** `counts[i] = neigh[i].size`. */
  function Counts(neigh: seq<seq<nat>>): (r: seq<int>)
    ensures |r| == |neigh|
    ensures forall i :: 0 <= i < |r| ==> r[i] == |neigh[i]|
  {
    if |neigh| == 0 then [] else Counts(neigh[..|neigh| - 1]) + [|neigh[|neigh| - 1]|]
  }

  function Elements(s: seq<nat>): set<nat> {
    set x | x in s
  }

  /** A duplicate-free list has as many elements as its set. */
  lemma {:induction false} DistinctCard(s: seq<nat>)
    requires DistinctNats(s)
    ensures |Elements(s)| == |s|
  {
    if |s| > 0 {
      var t := s[..|s| - 1];
      var last := s[|s| - 1];
      DistinctCard(t);
      assert Elements(s) == Elements(t) + {last} by {
        assert s == t + [last];
      }
      assert last !in Elements(t);
    }
  }

  /** Each count is the number of distinct neighbours. */
  lemma CountsAreSetSizes(gs: Groups, numSites: nat, i: nat)
    requires i < numSites
    ensures var neigh := BuildNeighbours(gs, numSites);
      Counts(neigh)[i] == |Elements(neigh[i])|
  {
    NeighboursMeaning(gs, numSites);
    DistinctCard(BuildNeighbours(gs, numSites)[i]);
  }

  /** The edge-to-triangle map of a triangulation, and the neighbour sets
      and counts it induces over the real sites. */
  datatype Graph = Graph(edgeToTris: Groups, neighbours: seq<seq<nat>>, counts: seq<int>)

  /** Neighbour sets over sites 0..numSites-1, symmetric, counted exactly. */
  predicate SymmetricGraph(g: Graph, numSites: nat) {
    && |g.neighbours| == numSites && |g.counts| == numSites
    && Symmetric(g.neighbours, numSites)
    && (forall i :: 0 <= i < numSites ==> g.counts[i] == |g.neighbours[i]|)
  }

  /** Every neighbour is a real site that has the first site as neighbour. */
  predicate Symmetric(neigh: seq<seq<nat>>, numSites: nat)
    requires |neigh| == numSites
  {
    forall u: nat, v: nat :: u < numSites && v in neigh[u] ==> v < numSites && u in neigh[v]
  }

  function NeighbourGraph(tris: seq<Tri>, numSites: nat): (r: Graph)
    ensures SymmetricGraph(r, numSites)
  {
    var gs := Group(Incidences(tris));
    var neigh := BuildNeighbours(gs, numSites);
    GraphOf(gs, numSites);
    Graph(gs, neigh, Counts(neigh))
  }

  lemma GraphOf(gs: Groups, numSites: nat)
    ensures var neigh := BuildNeighbours(gs, numSites);
      SymmetricGraph(Graph(gs, neigh, Counts(neigh)), numSites)
  {
    var neigh := BuildNeighbours(gs, numSites);
    SymmetricNeighbours(gs, numSites);
    assert forall i :: 0 <= i < numSites ==> Counts(neigh)[i] == |neigh[i]|;
  }

  lemma SymmetricNeighbours(gs: Groups, numSites: nat)
    ensures Symmetric(BuildNeighbours(gs, numSites), numSites)
  {
    var neigh := BuildNeighbours(gs, numSites);
    NeighboursMeaning(gs, numSites);
    forall u: nat, v: nat | u < numSites && v in neigh[u]
      ensures v < numSites && u in neigh[v]
    {
      NeighbourBelow(gs, numSites, u, v);
      NeighboursSymmetric(gs, numSites, u, v);
    }
  }


  /** `recalculateTriangulation`: triangulate the sites, then derive the
      edge map, neighbours and counts. */
  function Recalculate(sites: seq<Vec>, w: real, h: real): (r: (seq<Tri>, Graph))
    ensures SymmetricGraph(r.1, |sites|)
    ensures forall t :: t in r.0 ==> t.a < |sites| && t.b < |sites| && t.c < |sites|
  {
    var tris := BuildDelaunay(sites, w, h).1;
    (tris, NeighbourGraph(tris, |sites|))
  }



  // ---------------------------------------------------------------------
  // The automaton step
  // ---------------------------------------------------------------------

  function D2(a: Vec, b: Vec): (r: real)
    ensures r >= 0.0
  {
    Square(b.x - a.x);
    Square(b.y - a.y);
    (b.x - a.x) * (b.x - a.x) + (b.y - a.y) * (b.y - a.y)
  }

  lemma Square(r: real)
    ensures r * r >= 0.0
  {
    if r < 0.0 { assert r * r == (-r) * (-r); }
  }

  /** The neighbour scan with bestD2 = -1 and fj = -1: for the position in
      the neighbour list, the best squared distance so far. */
  function Scan(sites: seq<Vec>, si: Vec, ns: seq<nat>): (r: (real, int))
    requires forall l :: 0 <= l < |ns| ==> ns[l] < |sites|
    ensures -1 <= r.1 < |ns|
    ensures r.1 == -1 <==> |ns| == 0
    ensures r.1 >= 0 ==> r.0 == D2(si, sites[ns[r.1]])
    ensures forall l :: 0 <= l < |ns| ==> D2(si, sites[ns[l]]) <= r.0
    ensures forall l :: 0 <= l < r.1 ==> D2(si, sites[ns[l]]) < r.0
  {
    if |ns| == 0 then (-1.0, -1)
    else
      var (best, pos) := Scan(sites, si, ns[..|ns| - 1]);
      var d := D2(si, sites[ns[|ns| - 1]]);
      if d > best then (d, |ns| - 1) else (best, pos)
  }

  /** Position `l` of `ns` holds the first neighbour at the greatest
      squared distance from `si`: none is farther, and none before it is as
      far. */
  predicate FirstFarthest(sites: seq<Vec>, si: Vec, ns: seq<nat>, l: int)
    requires forall m :: 0 <= m < |ns| ==> ns[m] < |sites|
  {
    && 0 <= l < |ns|
    && (forall m :: 0 <= m < |ns| ==> D2(si, sites[ns[m]]) <= D2(si, sites[ns[l]]))
    && (forall m :: 0 <= m < l ==> D2(si, sites[ns[m]]) < D2(si, sites[ns[l]]))
  }

  /** The point halfway between `a` and `b`. */
  function Midpoint(a: Vec, b: Vec): Vec {
    Vec(0.5 * (a.x + b.x), 0.5 * (a.y + b.y))
  }

  /** The midpoint of `a` and `b` moved by the jitter and clamped into the
      `w` by `h` canvas. */
  function Jittered(a: Vec, b: Vec, w: real, h: real, jitter: Vec): Vec {
    var m := Midpoint(a, b);
    Vec(Clamp(m.x + jitter.x, 0.0, w), Clamp(m.y + jitter.y, 0.0, h))
  }

  /** `spawnBetweenSiteAndFurthestNeighbour`: none without neighbours;
      otherwise the midpoint between the site and its first farthest
      neighbour, moved by the jitter (each in [-1, 1)) and clamped into the
      canvas. */
  function Spawn(sites: seq<Vec>, neigh: seq<seq<nat>>, i: nat, w: real, h: real, jitter: Vec): (r: Option<Vec>)
    requires i < |sites|
    requires forall k, l :: 0 <= k < |neigh| && 0 <= l < |neigh[k]| ==> neigh[k][l] < |sites|
    ensures r.None? <==> i >= |neigh| || |neigh[i]| == 0
    ensures r.Some? ==> 0.0 <= r.value.x && 0.0 <= r.value.y
    ensures r.Some? && w >= 0.0 ==> r.value.x <= w
    ensures r.Some? && h >= 0.0 ==> r.value.y <= h
    ensures r.Some? ==>
      exists l :: FirstFarthest(sites, sites[i], neigh[i], l) && r.value == Jittered(sites[i], sites[neigh[i][l]], w, h, jitter)
  {
    if i >= |neigh| || |neigh[i]| == 0 then None
    else
      var si := sites[i];
      var (_, pos) := Scan(sites, si, neigh[i]);
      var sj := sites[neigh[i][pos]];
      var x := 0.5 * (si.x + sj.x) + jitter.x;
      var y := 0.5 * (si.y + sj.y) + jitter.y;
      assert FirstFarthest(sites, si, neigh[i], pos);
      Some(Vec(Clamp(x, 0.0, w), Clamp(y, 0.0, h)))
  }

  /** The first farthest neighbour is unique: two positions that both
      hold it are the same position. */
  lemma FirstFarthestUnique(sites: seq<Vec>, si: Vec, ns: seq<nat>, l: int, l': int)
    requires forall m :: 0 <= m < |ns| ==> ns[m] < |sites|
    requires FirstFarthest(sites, si, ns, l) && FirstFarthest(sites, si, ns, l')
    ensures l == l'
  {
    var d, d' := D2(si, sites[ns[l]]), D2(si, sites[ns[l']]);
    assert l < l' ==> d < d';
    assert l' < l ==> d' < d;
  }

  /** Clamping into [0, w] a point that started inside moves it by no
      more than the jitter added to it. */
  lemma ClampNear(m: real, j: real, w: real)
    requires 0.0 <= m <= w
    ensures RAbs(Clamp(m + j, 0.0, w) - m) <= RAbs(j)
  {
  }

  /** A spawned child whose parent midpoint lies on the canvas sits within
      the jitter of that midpoint on each axis, so with `jx`, `jy` drawn in
      [-1, 1) the child is less than one unit from the midpoint along
      either axis. */
  lemma SpawnNearMidpoint(sites: seq<Vec>, neigh: seq<seq<nat>>, i: nat, w: real, h: real, jitter: Vec, l: nat)
    requires i < |sites|
    requires forall k, l :: 0 <= k < |neigh| && 0 <= l < |neigh[k]| ==> neigh[k][l] < |sites|
    requires i < |neigh| && FirstFarthest(sites, sites[i], neigh[i], l)
    requires var m := Midpoint(sites[i], sites[neigh[i][l]]); 0.0 <= m.x <= w && 0.0 <= m.y <= h
    ensures var r := Spawn(sites, neigh, i, w, h, jitter);
      var m := Midpoint(sites[i], sites[neigh[i][l]]);
      && r.Some?
      && RAbs(r.value.x - m.x) <= RAbs(jitter.x)
      && RAbs(r.value.y - m.y) <= RAbs(jitter.y)
  {
    var r := Spawn(sites, neigh, i, w, h, jitter);
    var l' :| FirstFarthest(sites, sites[i], neigh[i], l') && r.value == Jittered(sites[i], sites[neigh[i][l']], w, h, jitter);
    FirstFarthestUnique(sites, sites[i], neigh[i], l, l');
    var m := Midpoint(sites[i], sites[neigh[i][l]]);
    ClampNear(m.x, jitter.x, w);
    ClampNear(m.y, jitter.y, h);
  }

  /** `neighbourCounts[i] || 0`. */
  function CountOf(counts: seq<int>, i: nat): int {
    if i < |counts| then counts[i] else 0
  }

  predicate Survives(n: int) { LowCount <= n < HighCount }

  predicate Spawns(n: int) { SpawnCount <= n < HighCount }

  /** The survivors among sites[..m], in order. */
  function Survivors(sites: seq<Vec>, counts: seq<int>, m: nat): (r: seq<Vec>)
    requires m <= |sites|
    ensures |r| <= m
  {
    if m == 0 then []
    else Survivors(sites, counts, m - 1) + (if Survives(CountOf(counts, m - 1)) then [sites[m - 1]] else [])
  }

  /** The children of sites[..m] that spawned, in order. */
  function Children(sites: seq<Vec>, counts: seq<int>, neigh: seq<seq<nat>>, w: real, h: real, jitter: seq<Vec>, m: nat): (r: seq<Vec>)
    requires m <= |sites| && |jitter| == |sites|
    requires forall k, l :: 0 <= k < |neigh| && 0 <= l < |neigh[k]| ==> neigh[k][l] < |sites|
    ensures |r| <= m
  {
    if m == 0 then []
    else
      var prev := Children(sites, counts, neigh, w, h, jitter, m - 1);
      var n := CountOf(counts, m - 1);
      if Survives(n) && Spawns(n) then
        match Spawn(sites, neigh, m - 1, w, h, jitter[m - 1])
        case None => prev
        case Some(child) => prev + [child]
      else prev
  }

  /** Survivors are exactly the sites whose neighbour count n has
      LowCount <= n < HighCount (a missing count reads as 0). */
  lemma {:induction false} SurvivorsMeaning(sites: seq<Vec>, counts: seq<int>, m: nat)
    requires m <= |sites|
    ensures |Survivors(sites, counts, m)| == |set k | 0 <= k < m && Survives(CountOf(counts, k))|
  {
    if m > 0 {
      SurvivorsMeaning(sites, counts, m - 1);
      var prev := set k | 0 <= k < m - 1 && Survives(CountOf(counts, k));
      assert (set k | 0 <= k < m && Survives(CountOf(counts, k)))
        == prev + (if Survives(CountOf(counts, m - 1)) then {m - 1} else {});
    }
  }

  /** `stepCA`: survivors in order, then spawned children, cut to
      MaxSites; births count the children and deaths the sites dropped.
      `jitter[i]` is the random offset drawn if site i spawns. */
  method StepCA(sites: seq<Vec>, counts: seq<int>, neigh: seq<seq<nat>>, w: real, h: real, jitter: seq<Vec>)
    returns (next: seq<Vec>, births: int, deaths: int)
    requires |jitter| == |sites|
    requires forall k, l :: 0 <= k < |neigh| && 0 <= l < |neigh[k]| ==> neigh[k][l] < |sites|
    ensures var all := Survivors(sites, counts, |sites|) + Children(sites, counts, neigh, w, h, jitter, |sites|);
      next == all[..if |all| < MaxSites then |all| else MaxSites]
    ensures births == |Children(sites, counts, neigh, w, h, jitter, |sites|)|
    ensures deaths == |sites| - |Survivors(sites, counts, |sites|)| && deaths >= 0
    ensures |next| <= MaxSites
  {
    var survivors: seq<Vec> := [];
    var spawns: seq<Vec> := [];
    var i := 0;
    while i < |sites|
      invariant 0 <= i <= |sites|
      invariant survivors == Survivors(sites, counts, i)
      invariant spawns == Children(sites, counts, neigh, w, h, jitter, i)
    {
      var n := CountOf(counts, i);
      if n < LowCount || n >= HighCount {
        i := i + 1;
        continue;
      }
      survivors := survivors + [sites[i]];
      if n >= SpawnCount {
        var child := Spawn(sites, neigh, i, w, h, jitter[i]);
        if child.Some? {
          spawns := spawns + [child.value];
        }
      }
      i := i + 1;
    }
    births := |spawns|;
    deaths := |sites| - |survivors|;
    var all := survivors + spawns;
    next := all[..if |all| < MaxSites then |all| else MaxSites];
  }

  datatype Velocity = Velocity(x: real, y: real)

  /** `syncVel`: pads with zero velocities or truncates to n entries,
      keeping the existing ones. */
  function SyncVel(vel: seq<Velocity>, n: nat): (r: seq<Velocity>)
    ensures |r| == n
    ensures forall i :: 0 <= i < n && i < |vel| ==> r[i] == vel[i]
    ensures forall i :: |vel| <= i < n ==> r[i] == Velocity(0.0, 0.0)
  {
    if |vel| >= n then vel[..n] else vel + seq(n - |vel|, _ => Velocity(0.0, 0.0))
  }
}

=== FILE: cyclic_automaton.dfy ===
/** The cyclic cellular automaton of genart/genuary2026/16_order_and_disorder.mjs.
    Every cell holds a state below `k`; a cell moves on to the next state,
    modulo `k`, when at least `t` of its eight neighbours on the torus
    already hold that next state. */
module CyclicAutomaton {

  /** One entry of `CONFIGS`: the number of states and the threshold. */
  datatype Config = Config(k: nat, t: nat)

  const Configs: seq<Config> := [Config(4, 2), Config(3, 3), Config(5, 3)]

  type Grid = seq<seq<nat>>

  /** A `rows` by `cols` grid whose states are all below `k`. */
  predicate ValidGrid(g: Grid, k: nat) {
    && |g| > 0 && |g[0]| > 0
    && (forall r :: 0 <= r < |g| ==> |g[r]| == |g[0]|)
    && (forall r, c :: 0 <= r < |g| && 0 <= c < |g[r]| ==> g[r][c] < k)
  }

  /** `init`: `Math.floor(Math.random() * k)` per cell, each draw given as a
      parameter in [0, k). The configuration index is a draw too. */
  function Init(choice: nat, rows: nat, cols: nat, draws: seq<seq<nat>>): (r: (Config, Grid))
    requires choice < |Configs| && rows > 0 && cols > 0
    requires |draws| == rows && forall i :: 0 <= i < rows ==> |draws[i]| == cols
    requires forall i, j :: 0 <= i < rows && 0 <= j < cols ==> draws[i][j] < Configs[choice].k
    ensures r.0 in Configs && r.0.k >= 3 && r.0.t >= 2
    ensures ValidGrid(r.1, r.0.k) && |r.1| == rows && |r.1[0]| == cols
  {
    (Configs[choice], draws)
  }

  /** `(i + d + n) % n` for an offset d in {-1, 0, 1}: the toroidal
      neighbour index, which is always on the grid. */
  function Wrap(i: nat, d: int, n: nat): (j: nat)
    requires i < n && -1 <= d <= 1
    ensures j < n
    ensures j == i + d || (i + d == -1 && j == n - 1) || (i + d == n && j == 0)
  {
    (i + d + n) % n
  }

  /** The state that follows `v`. */
  function Next(v: nat, k: nat): (w: nat)
    requires k > 0
    ensures w < k
  {
    (v + 1) % k
  }

  /** The eight neighbour offsets in the order the loops visit them, the
      centre skipped. */
  const Offsets: seq<(int, int)> :=
    [(-1, -1), (-1, 0), (-1, 1), (0, -1), (0, 1), (1, -1), (1, 0), (1, 1)]

  predicate IsOffset(o: (int, int)) {
    -1 <= o.0 <= 1 && -1 <= o.1 <= 1
  }

  predicate AllOffsets(offs: seq<(int, int)>) {
    forall i :: 0 <= i < |offs| ==> IsOffset(offs[i])
  }

  /** Whether the neighbour at offset `o` holds the next state. */
  predicate Ahead(g: Grid, k: nat, r: nat, c: nat, o: (int, int))
    requires ValidGrid(g, k) && r < |g| && c < |g[0]| && IsOffset(o)
  {
    g[Wrap(r, o.0, |g|)][Wrap(c, o.1, |g[0]|)] == Next(g[r][c], k)
  }

  /** How many of the offsets `offs` lead to a neighbour in the next state,
      counted from the last. */
  function CountAhead(g: Grid, k: nat, r: nat, c: nat, offs: seq<(int, int)>): (n: nat)
    requires ValidGrid(g, k) && r < |g| && c < |g[0]| && AllOffsets(offs)
    ensures n <= |offs|
  {
    if |offs| == 0 then 0
    else
      var before := CountAhead(g, k, r, c, offs[..|offs| - 1]);
      before + if Ahead(g, k, r, c, offs[|offs| - 1]) then 1 else 0
  }

  /** The neighbour count of a cell, at most eight. */
  function Count(g: Grid, k: nat, r: nat, c: nat): (n: nat)
    requires ValidGrid(g, k) && r < |g| && c < |g[0]|
    ensures n <= 8
  {
    CountAhead(g, k, r, c, Offsets)
  }

  /** Position of the offset (dr, dc) in `Offsets`. */
  function OffsetIndex(dr: int, dc: int): nat
    requires -1 <= dr <= 1 && -1 <= dc <= 1 && !(dr == 0 && dc == 0)
  {
    var i := (dr + 1) * 3 + (dc + 1);
    if i > 4 then i - 1 else i
  }

  lemma OffsetAt(dr: int, dc: int)
    requires -1 <= dr <= 1 && -1 <= dc <= 1 && !(dr == 0 && dc == 0)
    ensures OffsetIndex(dr, dc) < 8 && Offsets[OffsetIndex(dr, dc)] == (dr, dc)
  {
  }

  /** One pass of the inner loop body: looks at the neighbour at offset
      number `i` and bumps the count when it is ahead. */
  method Visit(g: Grid, k: nat, r: nat, c: nat, i: nat, count: nat) returns (count': nat)
    requires ValidGrid(g, k) && r < |g| && c < |g[0]| && i < 8
    requires count == CountAhead(g, k, r, c, Offsets[..i])
    ensures count' == CountAhead(g, k, r, c, Offsets[..i + 1])
  {
    var (dr, dc) := Offsets[i];
    assert Offsets[..i + 1][..i] == Offsets[..i];
    var nr := (r + dr + |g|) % |g|;
    var nc := (c + dc + |g[0]|) % |g[0]|;
    count' := count;
    if g[nr][nc] == (g[r][c] + 1) % k {
      count' := count + 1;
    }
  }

  /** Where the offsets of row `dr` start among the eight. */
  function RowStart(dr: int): nat
    requires -1 <= dr <= 2
  {
    if dr == -1 then 0 else if dr == 0 then 3 else if dr == 1 then 5 else 8
  }

  /** The inner loop of `update` over `dc` for one row `dr` of offsets. */
  method CountRow(g: Grid, k: nat, r: nat, c: nat, dr: int, count: nat) returns (count': nat)
    requires ValidGrid(g, k) && r < |g| && c < |g[0]| && -1 <= dr <= 1
    requires count == CountAhead(g, k, r, c, Offsets[..RowStart(dr)])
    ensures count' == CountAhead(g, k, r, c, Offsets[..RowStart(dr + 1)])
  {
    count' := count;
    var i := RowStart(dr);
    var dc := -1;
    while dc <= 1
      invariant -1 <= dc <= 2
      invariant i == RowStart(dr) + (if dr == 0 && dc > 0 then dc else dc + 1)
      invariant count' == CountAhead(g, k, r, c, Offsets[..i])
    {
      if !(dr == 0 && dc == 0) {
        OffsetAt(dr, dc);
        count' := Visit(g, k, r, c, i, count');
        i := i + 1;
      }
      dc := dc + 1;
    }
  }

  /** The two nested loops of `update` counting one cell's neighbours. */
  method CountNeighbours(g: Grid, k: nat, r: nat, c: nat) returns (count: nat)
    requires ValidGrid(g, k) && r < |g| && c < |g[0]|
    ensures count == Count(g, k, r, c)
  {
    count := 0;
    var dr := -1;
    while dr <= 1
      invariant -1 <= dr <= 2
      invariant count == CountAhead(g, k, r, c, Offsets[..RowStart(dr)])
    {
      count := CountRow(g, k, r, c, dr, count);
      dr := dr + 1;
    }
    assert Offsets[..8] == Offsets;
  }

  /** A cell's state after one step. */
  function Step(g: Grid, k: nat, t: nat, r: nat, c: nat): nat
    requires ValidGrid(g, k) && r < |g| && c < |g[0]|
  {
    if Count(g, k, r, c) >= t then Next(g[r][c], k) else g[r][c]
  }

  /** `update`: a fresh grid computed cell by cell from the old one. States
      stay below `k`; each cell either keeps its state or moves to the next
      one, and it moves exactly when at least `t` neighbours are ahead. */
  function Update(g: Grid, k: nat, t: nat): (h: Grid)
    requires ValidGrid(g, k) && k >= 2
    ensures ValidGrid(h, k) && |h| == |g| && |h[0]| == |g[0]|
    ensures forall r, c :: 0 <= r < |g| && 0 <= c < |g[0]| ==>
      (h[r][c] == g[r][c] || h[r][c] == Next(g[r][c], k))
      && (h[r][c] != g[r][c] <==> Count(g, k, r, c) >= t)
  {
    seq(|g|, r requires 0 <= r < |g| =>
      seq(|g[0]|, c requires 0 <= c < |g[0]| => Step(g, k, t, r, c)))
  }

  // ---------------------------------------------------------------------
  // Symmetry under relabelling
  // ---------------------------------------------------------------------

  /** Every state moved on by one, modulo `k`. */
  function Shift(g: Grid, k: nat): (h: Grid)
    requires ValidGrid(g, k)
    ensures ValidGrid(h, k) && |h| == |g| && |h[0]| == |g[0]|
  {
    seq(|g|, r requires 0 <= r < |g| =>
      seq(|g[0]|, c requires 0 <= c < |g[0]| => Next(g[r][c], k)))
  }

  lemma NextInjective(a: nat, b: nat, k: nat)
    requires a < k && b < k
    ensures Next(a, k) == Next(b, k) <==> a == b
  {
    assert Next(a, k) == if a + 1 < k then a + 1 else 0;
    assert Next(b, k) == if b + 1 < k then b + 1 else 0;
  }

  lemma {:induction false} ShiftKeepsCount(g: Grid, k: nat, r: nat, c: nat, offs: seq<(int, int)>)
    requires ValidGrid(g, k) && r < |g| && c < |g[0]| && AllOffsets(offs)
    ensures CountAhead(Shift(g, k), k, r, c, offs) == CountAhead(g, k, r, c, offs)
  {
    if |offs| > 0 {
      ShiftKeepsCount(g, k, r, c, offs[..|offs| - 1]);
      var o := offs[|offs| - 1];
      var nr, nc := Wrap(r, o.0, |g|), Wrap(c, o.1, |g[0]|);
      NextInjective(g[nr][nc], Next(g[r][c], k), k);
    }
  }

  /** The rule only compares a state with its successor, so renaming every
      state to the next one commutes with a step. */
  lemma UpdateCommutesWithShift(g: Grid, k: nat, t: nat)
    requires ValidGrid(g, k) && k >= 2
    ensures Update(Shift(g, k), k, t) == Shift(Update(g, k, t), k)
  {
    var a, b := Update(Shift(g, k), k, t), Shift(Update(g, k, t), k);
    forall r | 0 <= r < |g| ensures a[r] == b[r] {
      forall c | 0 <= c < |g[0]| ensures a[r][c] == b[r][c] {
        ShiftKeepsCount(g, k, r, c, Offsets);
      }
    }
  }

  /** A grid with a single state everywhere has no neighbour ahead, so it
      never changes once the threshold is positive. */
  lemma UniformIsStill(g: Grid, k: nat, t: nat, v: nat)
    requires ValidGrid(g, k) && k >= 2 && t >= 1
    requires forall r, c :: 0 <= r < |g| && 0 <= c < |g[r]| ==> g[r][c] == v
    ensures Update(g, k, t) == g
  {
    var h := Update(g, k, t);
    forall r | 0 <= r < |g| ensures h[r] == g[r] {
      forall c | 0 <= c < |g[0]| ensures h[r][c] == g[r][c] {
        NoneAhead(g, k, r, c, Offsets, v);
      }
    }
  }

  lemma {:induction false} NoneAhead(g: Grid, k: nat, r: nat, c: nat, offs: seq<(int, int)>, v: nat)
    requires ValidGrid(g, k) && k >= 2 && r < |g| && c < |g[0]| && AllOffsets(offs)
    requires forall r, c :: 0 <= r < |g| && 0 <= c < |g[r]| ==> g[r][c] == v
    ensures CountAhead(g, k, r, c, offs) == 0
  {
    if |offs| > 0 {
      NoneAhead(g, k, r, c, offs[..|offs| - 1], v);
    }
  }
}

=== FILE: flood_fill.dfy ===
/** The stack-based flood fill that genart/genesis/growth.mjs,
    genart/genesis/shape.mjs, genart/genesis/symmetry.mjs and
    genart/genesis/pattern.mjs each carry a copy of, and the frame pass of
    `paint`.

    The canvas's flat RGBA byte array is read as rows of pixels, and a
    pixel index `idx = y * width + x` as the position (x, y), so that
    `idx - 1`, `idx + 1`, `idx - width` and `idx + width` are the left,
    right, upper and lower neighbours. `visited` is the set of claimed
    positions. */
module FloodFill {
  import opened Optional

  datatype Rgb = Rgb(r: int, g: int, b: int)
  datatype Rgba = Rgba(r: int, g: int, b: int, a: int)
  datatype Pos = Pos(x: nat, y: nat)

  /** Rows of pixels: `img[y][x]`. */
  type Image = seq<seq<Rgba>>

  predicate Shaped(img: Image, w: nat, h: nat) {
    |img| == h && forall y :: 0 <= y < h ==> |img[y]| == w
  }

  predicate InBounds(w: nat, h: nat, p: Pos) {
    p.x < w && p.y < h
  }

  /** `isLine`: luminance 0.3r + 0.59g + 0.11b below 40, scaled by 100 so
      that it is exact. */
  predicate IsLine(c: Rgba) {
    30 * c.r + 59 * c.g + 11 * c.b < 4000
  }

  /** The four bytes a painted pixel is given. */
  function Opaque(c: Rgb): Rgba {
    Rgba(c.r, c.g, c.b, 255)
  }

  /** What a fill paints a claimed pixel with: nothing (the `null`
      colour), one colour, or, in pattern.mjs, black wherever the tiled
      pattern is set. */
  datatype Ink = NoInk | Solid(colour: Rgb) | Pattern(cells: seq<seq<int>>)

  /** A pattern tiles the plane when it has rows, all of one non-zero
      length. */
  predicate ValidInk(ink: Ink) {
    ink.Pattern? ==>
      |ink.cells| > 0 && |ink.cells[0]| > 0
      && forall k :: 0 <= k < |ink.cells| ==> |ink.cells[k]| == |ink.cells[0]|
  }

  /** `inPattern(x, y, pattern)`: whether `pattern[y % rows][x % columns]`
      is 1, the pattern tiling the plane. */
  predicate InPattern(cells: seq<seq<int>>, x: nat, y: nat)
    requires ValidInk(Pattern(cells))
  {
    cells[y % |cells|][x % |cells[0]|] == 1
  }

  /** The colour a claimed pixel at `p` takes, if any. */
  function InkAt(ink: Ink, p: Pos): Option<Rgb>
    requires ValidInk(ink)
  {
    match ink
    case NoInk => None
    case Solid(c) => Some(c)
    case Pattern(cells) => if InPattern(cells, p.x, p.y) then Some(Rgb(0, 0, 0)) else None
  }

  /** Every position of a `w` by `h` canvas. */
  function AllPos(w: nat, h: nat): set<Pos> {
    set x: nat, y: nat | x < w && y < h :: Pos(x, y)
  }

  /** Every claimed position lies on the canvas. */
  predicate Below(v: set<Pos>, w: nat, h: nat) {
    forall p :: p in v ==> InBounds(w, h, p)
  }

  // ---------------------------------------------------------------------
  // Neighbours
  // ---------------------------------------------------------------------

  /** `q` is one of the in-bounds 4-neighbours of `p`. */
  predicate Adjacent(w: nat, h: nat, p: Pos, q: Pos) {
    || (p.x > 0 && q == Pos(p.x - 1, p.y))
    || (p.x + 1 < w && q == Pos(p.x + 1, p.y))
    || (p.y > 0 && q == Pos(p.x, p.y - 1))
    || (p.y + 1 < h && q == Pos(p.x, p.y + 1))
  }

  /** The four guarded pushes, in the order `fill` makes them: exactly the
      in-bounds 4-neighbours. */
  function Pushes(w: nat, h: nat, p: Pos): (r: seq<Pos>)
    ensures forall q :: q in r <==> Adjacent(w, h, p, q)
  {
    (if p.x > 0 then [Pos(p.x - 1, p.y)] else [])
      + (if p.x + 1 < w then [Pos(p.x + 1, p.y)] else [])
      + (if p.y > 0 then [Pos(p.x, p.y - 1)] else [])
      + (if p.y + 1 < h then [Pos(p.x, p.y + 1)] else [])
  }

  /** The neighbours of an in-bounds position are in bounds. */
  lemma AdjacentInBounds(w: nat, h: nat, p: Pos, q: Pos)
    requires InBounds(w, h, p) && Adjacent(w, h, p, q)
    ensures InBounds(w, h, q)
  {
  }

  // ---------------------------------------------------------------------
  // fill
  // ---------------------------------------------------------------------

  /** Pixel `p` after a fill that grew the claimed set from `before` to
      `after`: painted with its ink if it was claimed now and the ink has
      a colour there, otherwise as it was. */
  function Painted(img: Image, before: set<Pos>, after: set<Pos>, ink: Ink, p: Pos): Rgba
    requires ValidInk(ink) && p.y < |img| && p.x < |img[p.y]|
  {
    if p in after && p !in before && InkAt(ink, p).Some? then Opaque(InkAt(ink, p).value)
    else img[p.y][p.x]
  }

  /** Every in-bounds neighbour of a newly claimed pixel is claimed or a
      line pixel. */
  ghost predicate Closed(w: nat, h: nat, img: Image, before: set<Pos>, after: set<Pos>)
    requires Shaped(img, w, h)
  {
    forall p, q :: p in after && p !in before && InBounds(w, h, q) && Adjacent(w, h, p, q) ==>
      q in after || IsLine(img[q.y][q.x])
  }

  /** The painted image relates to the original pixel by pixel. */
  predicate PaintedAs(w: nat, h: nat, img: Image, img': Image, before: set<Pos>, after: set<Pos>, ink: Ink)
    requires Shaped(img, w, h) && ValidInk(ink)
  {
    && Shaped(img', w, h)
    && forall x, y :: 0 <= x < w && 0 <= y < h ==>
      img'[y][x] == Painted(img, before, after, ink, Pos(x, y))
  }

  /** Every position on the stack is on the canvas. */
  predicate StackIn(w: nat, h: nat, stack: seq<Pos>) {
    forall k :: 0 <= k < |stack| ==> InBounds(w, h, stack[k])
  }

  lemma PushesIn(w: nat, h: nat, stack: seq<Pos>, p: Pos)
    requires StackIn(w, h, stack) && InBounds(w, h, p)
    ensures StackIn(w, h, stack + Pushes(w, h, p))
  {
    var r := Pushes(w, h, p);
    forall k | 0 <= k < |stack + r| ensures InBounds(w, h, (stack + r)[k]) {
      if k >= |stack| {
        assert r[k - |stack|] in r;
      }
    }
  }

  /** Every neighbour of a newly claimed pixel is claimed, a line pixel,
      or still waiting on the stack. */
  ghost predicate Frontier(w: nat, h: nat, img: Image, before: set<Pos>, after: set<Pos>, stack: seq<Pos>)
    requires Shaped(img, w, h)
  {
    forall p, q :: p in after && p !in before && InBounds(w, h, q) && Adjacent(w, h, p, q) ==>
      q in after || IsLine(img[q.y][q.x]) || q in stack
  }

  /** A walk inside `region`, each step to a 4-neighbour. */
  ghost predicate WalkIn(w: nat, h: nat, region: set<Pos>, ps: seq<Pos>) {
    && |ps| > 0
    && (forall k :: 0 <= k < |ps| ==> ps[k] in region)
    && (forall k :: 0 <= k < |ps| - 1 ==> Adjacent(w, h, ps[k], ps[k + 1]))
  }

  /** Some walk inside `region` leads from `from` to `p`. */
  ghost predicate ReachedIn(w: nat, h: nat, region: set<Pos>, from: Pos, p: Pos) {
    exists ps :: WalkIn(w, h, region, ps) && ps[0] == from && ps[|ps| - 1] == p
  }

  /** Every position on the stack is the start or a neighbour of a pixel
      claimed since `before`: `fill` pushes nothing else. */
  ghost predicate Sourced(w: nat, h: nat, before: set<Pos>, after: set<Pos>, start: Pos, stack: seq<Pos>) {
    forall k :: 0 <= k < |stack| ==>
      stack[k] == start || exists q :: q in after && q !in before && Adjacent(w, h, q, stack[k])
  }

  /** A walk inside a region is a walk inside any larger one. */
  lemma ReachedGrows(w: nat, h: nat, region: set<Pos>, region': set<Pos>, from: Pos, p: Pos)
    requires region <= region' && ReachedIn(w, h, region, from, p)
    ensures ReachedIn(w, h, region', from, p)
  {
    var ps :| WalkIn(w, h, region, ps) && ps[0] == from && ps[|ps| - 1] == p;
    assert WalkIn(w, h, region', ps);
  }

  /** A walk to `q` continues to a neighbour of `q` in the region. */
  lemma ReachedStep(w: nat, h: nat, region: set<Pos>, from: Pos, q: Pos, p: Pos)
    requires ReachedIn(w, h, region, from, q) && p in region && Adjacent(w, h, q, p)
    ensures ReachedIn(w, h, region, from, p)
  {
    var ps :| WalkIn(w, h, region, ps) && ps[0] == from && ps[|ps| - 1] == q;
    var ps' := ps + [p];
    assert WalkIn(w, h, region, ps');
  }

  /** Claiming the popped `p` and pushing its neighbours: `p` is reached
      through newly claimed pixels, and so is every source of the stack. */
  lemma ReachClaim(w: nat, h: nat, visited: set<Pos>, after: set<Pos>, start: Pos, stack: seq<Pos>, p: Pos)
    requires visited <= after && p !in after
    requires forall q :: q in after && q !in visited ==> ReachedIn(w, h, after - visited, start, q)
    requires Sourced(w, h, visited, after, start, stack + [p])
    ensures forall q :: q in after + {p} && q !in visited ==> ReachedIn(w, h, (after + {p}) - visited, start, q)
    ensures Sourced(w, h, visited, after + {p}, start, stack + Pushes(w, h, p))
  {
    var region, region' := after - visited, (after + {p}) - visited;
    forall q | q in after + {p} && q !in visited ensures ReachedIn(w, h, region', start, q) {
      if q == p {
        assert (stack + [p])[|stack|] == p;
        if p == start {
          assert WalkIn(w, h, region', [p]);
        } else {
          var s :| s in after && s !in visited && Adjacent(w, h, s, p);
          ReachedGrows(w, h, region, region', start, s);
          ReachedStep(w, h, region', start, s, p);
        }
      } else {
        ReachedGrows(w, h, region, region', start, q);
      }
    }
    var stack' := stack + Pushes(w, h, p);
    forall k | 0 <= k < |stack'|
      ensures stack'[k] == start || exists q :: q in after + {p} && q !in visited && Adjacent(w, h, q, stack'[k])
    {
      if k < |stack| {
        assert stack'[k] == (stack + [p])[k];
      } else {
        assert stack'[k] in Pushes(w, h, p);
      }
    }
  }

  /** Dropping the popped element keeps every stack position sourced. */
  lemma SourcedPop(w: nat, h: nat, visited: set<Pos>, after: set<Pos>, start: Pos, stack: seq<Pos>, p: Pos)
    requires Sourced(w, h, visited, after, start, stack + [p])
    ensures Sourced(w, h, visited, after, start, stack)
  {
    forall k | 0 <= k < |stack|
      ensures stack[k] == start || exists q :: q in after && q !in visited && Adjacent(w, h, q, stack[k])
    {
      assert stack[k] == (stack + [p])[k];
    }
  }

  /** `fill` from (startX, startY): pops a position, skips it if it is
      claimed or a line pixel, otherwise claims it, paints it and pushes
      its in-bounds neighbours.
      The claimed set only grows, and only by pixels that are not line
      pixels; the start pixel is claimed unless it was claimed already or
      is a line pixel; every neighbour of a newly claimed pixel ends up
      claimed or is a line pixel; and exactly the newly claimed pixels
      change, to their ink. */
  method Fill(w: nat, h: nat, img: Image, visited: set<Pos>, startX: nat, startY: nat, ink: Ink)
    returns (img': Image, visited': set<Pos>)
    requires Shaped(img, w, h) && ValidInk(ink)
    requires startX < w && startY < h && Below(visited, w, h)
    ensures visited <= visited' && Below(visited', w, h)
    ensures forall p :: p in visited' && p !in visited ==> !IsLine(img[p.y][p.x])
    ensures Pos(startX, startY) !in visited && !IsLine(img[startY][startX]) ==>
      Pos(startX, startY) in visited'
    ensures Closed(w, h, img, visited, visited')
    ensures forall p :: p in visited' && p !in visited ==>
      ReachedIn(w, h, visited' - visited, Pos(startX, startY), p)
    ensures PaintedAs(w, h, img, img', visited, visited', ink)
  {
    var start := Pos(startX, startY);
    var stack := [start];
    img', visited' := img, visited;
    while |stack| > 0
      invariant FillInv(w, h, img, visited, start, ink, img', visited', stack)
      decreases |AllPos(w, h) - visited'|, |stack|
    {
      img', visited', stack := Step(w, h, img, visited, start, ink, img', visited', stack);
    }
  }

  /** What holds between the iterations of `fill`'s loop. */
  ghost predicate FillInv(w: nat, h: nat, img: Image, visited: set<Pos>, start: Pos, ink: Ink,
                          cur: Image, after: set<Pos>, stack: seq<Pos>)
  {
    && Shaped(img, w, h) && ValidInk(ink) && InBounds(w, h, start)
    && visited <= after && Below(after, w, h) && StackIn(w, h, stack)
    && (forall p :: p in after && p !in visited ==> !IsLine(img[p.y][p.x]))
    && (start in stack || start in after || IsLine(img[start.y][start.x]))
    && PaintedAs(w, h, img, cur, visited, after, ink)
    && Frontier(w, h, img, visited, after, stack)
    && (forall p :: p in after && p !in visited ==> ReachedIn(w, h, after - visited, start, p))
    && Sourced(w, h, visited, after, start, stack)
  }

  /** One iteration of `fill`'s loop. */
  method Step(w: nat, h: nat, img: Image, visited: set<Pos>, start: Pos, ink: Ink,
              cur: Image, after: set<Pos>, stack: seq<Pos>)
    returns (cur': Image, after': set<Pos>, stack': seq<Pos>)
    requires |stack| > 0 && FillInv(w, h, img, visited, start, ink, cur, after, stack)
    ensures FillInv(w, h, img, visited, start, ink, cur', after', stack')
    ensures |AllPos(w, h) - after'| < |AllPos(w, h) - after|
      || (after' == after && |stack'| < |stack|)
  {
    var p := stack[|stack| - 1];
    stack' := stack[..|stack| - 1];
    assert stack == stack' + [p];
    cur', after' := cur, after;
    if p !in after && !IsLine(cur[p.y][p.x]) {
      cur', after' := Claim(w, h, img, cur, visited, after, ink, p);
      assert !IsLine(img[p.y][p.x]);
      ClaimKeepsInv(w, h, img, visited, start, ink, cur, after, cur', stack', p);
      stack' := stack' + Pushes(w, h, p);
    } else {
      assert p in after || IsLine(img[p.y][p.x]);
      SkipKeepsInv(w, h, img, visited, start, ink, cur, after, stack', p);
    }
  }

  /** Claiming the popped `p` and pushing its neighbours keeps the loop
      invariant. */
  lemma ClaimKeepsInv(w: nat, h: nat, img: Image, visited: set<Pos>, start: Pos, ink: Ink,
                      cur: Image, after: set<Pos>, cur': Image, stack: seq<Pos>, p: Pos)
    requires Shaped(img, w, h) && InBounds(w, h, p)
    requires FillInv(w, h, img, visited, start, ink, cur, after, stack + [p])
    requires p !in after && !IsLine(img[p.y][p.x])
    requires PaintedAs(w, h, img, cur', visited, after + {p}, ink)
    ensures FillInv(w, h, img, visited, start, ink, cur', after + {p}, stack + Pushes(w, h, p))
  {
    forall k | 0 <= k < |stack| ensures InBounds(w, h, stack[k]) {
      assert stack[k] == (stack + [p])[k];
    }
    PushesIn(w, h, stack, p);
    FrontierClaim(w, h, img, visited, after, stack, p);
    ReachClaim(w, h, visited, after, start, stack, p);
  }

  /** Dropping a popped `p` that is claimed or a line pixel keeps the loop
      invariant. */
  lemma SkipKeepsInv(w: nat, h: nat, img: Image, visited: set<Pos>, start: Pos, ink: Ink,
                     cur: Image, after: set<Pos>, stack: seq<Pos>, p: Pos)
    requires Shaped(img, w, h) && InBounds(w, h, p)
    requires FillInv(w, h, img, visited, start, ink, cur, after, stack + [p])
    requires p in after || IsLine(img[p.y][p.x])
    ensures FillInv(w, h, img, visited, start, ink, cur, after, stack)
  {
    FrontierSkip(w, h, img, visited, after, stack, p);
    SourcedPop(w, h, visited, after, start, stack, p);
  }

  /** Claiming the popped `p` and pushing its neighbours keeps the
      frontier. */
  lemma FrontierClaim(w: nat, h: nat, img: Image, visited: set<Pos>, after: set<Pos>, stack: seq<Pos>, p: Pos)
    requires Shaped(img, w, h) && Frontier(w, h, img, visited, after, stack + [p])
    ensures Frontier(w, h, img, visited, after + {p}, stack + Pushes(w, h, p))
  {
    var stack' := stack + Pushes(w, h, p);
    forall p', q | p' in after + {p} && p' !in visited && InBounds(w, h, q) && Adjacent(w, h, p', q)
      ensures q in after + {p} || IsLine(img[q.y][q.x]) || q in stack'
    {
      if p' == p {
        assert q in Pushes(w, h, p);
      } else if q in stack + [p] && q != p {
        assert q in stack;
      }
    }
  }

  /** Dropping a popped `p` that is claimed or a line pixel keeps the
      frontier. */
  lemma FrontierSkip(w: nat, h: nat, img: Image, visited: set<Pos>, after: set<Pos>, stack: seq<Pos>, p: Pos)
    requires Shaped(img, w, h) && InBounds(w, h, p) && Frontier(w, h, img, visited, after, stack + [p])
    requires p in after || IsLine(img[p.y][p.x])
    ensures Frontier(w, h, img, visited, after, stack)
  {
    forall p', q | p' in after && p' !in visited && InBounds(w, h, q) && Adjacent(w, h, p', q)
      ensures q in after || IsLine(img[q.y][q.x]) || q in stack
    {
      if q in stack + [p] && q != p {
        assert q in stack;
      }
    }
  }

  /** The loop body's claiming step: marks `p` and paints it. */
  method Claim(w: nat, h: nat, img: Image, cur: Image, before: set<Pos>, after: set<Pos>, ink: Ink, p: Pos)
    returns (cur': Image, after': set<Pos>)
    requires Shaped(img, w, h) && ValidInk(ink) && InBounds(w, h, p)
    requires before <= after && Below(after, w, h) && p !in after
    requires PaintedAs(w, h, img, cur, before, after, ink)
    ensures after' == after + {p}
    ensures |AllPos(w, h) - after'| < |AllPos(w, h) - after|
    ensures PaintedAs(w, h, img, cur', before, after', ink)
  {
    after' := after + {p};
    ClaimShrinks(w, h, after, p);
    cur' := cur;
    if InkAt(ink, p).Some? {
      var row := cur[p.y][p.x := Opaque(InkAt(ink, p).value)];
      cur' := cur[p.y := row];
      forall x, y | 0 <= x < w && 0 <= y < h
        ensures cur'[y][x] == Painted(img, before, after', ink, Pos(x, y))
      {
        if y != p.y || x != p.x {
          assert cur'[y][x] == cur[y][x];
        }
      }
    }
  }

  /** Claiming an unclaimed position leaves one fewer unclaimed. */
  lemma ClaimShrinks(w: nat, h: nat, after: set<Pos>, p: Pos)
    requires InBounds(w, h, p) && p !in after
    ensures |AllPos(w, h) - (after + {p})| < |AllPos(w, h) - after|
  {
    assert p in AllPos(w, h);
    assert AllPos(w, h) - (after + {p}) == (AllPos(w, h) - after) - {p};
  }

  // ---------------------------------------------------------------------
  // Reachability
  // ---------------------------------------------------------------------

  /** A claimed set with no way out: every claimed pixel is a non-line
      pixel on the canvas, and each of its neighbours is claimed or a line
      pixel. */
  ghost predicate Sealed(w: nat, h: nat, img: Image, v: set<Pos>)
    requires Shaped(img, w, h)
  {
    Below(v, w, h) && Closed(w, h, img, {}, v) && forall p :: p in v ==> !IsLine(img[p.y][p.x])
  }

  /** A walk through non-line pixels, each step to a 4-neighbour. */
  ghost predicate Path(w: nat, h: nat, img: Image, ps: seq<Pos>)
    requires Shaped(img, w, h)
  {
    && |ps| > 0
    && (forall k :: 0 <= k < |ps| ==> InBounds(w, h, ps[k]) && !IsLine(img[ps[k].y][ps[k].x]))
    && (forall k :: 0 <= k < |ps| - 1 ==> Adjacent(w, h, ps[k], ps[k + 1]))
  }

  /** A walk that starts in a sealed set never leaves it. */
  lemma {:induction false} PathStaysIn(w: nat, h: nat, img: Image, v: set<Pos>, ps: seq<Pos>)
    requires Shaped(img, w, h) && Sealed(w, h, img, v)
    requires Path(w, h, img, ps) && ps[0] in v
    decreases |ps|
    ensures ps[|ps| - 1] in v
  {
    if |ps| > 1 {
      var prefix := ps[..|ps| - 1];
      assert Path(w, h, img, prefix);
      PathStaysIn(w, h, img, v, prefix);
      assert Adjacent(w, h, ps[|ps| - 2], ps[|ps| - 1]);
    }
  }

  /** Pixel `p` lies on the canvas's outer frame. */
  predicate OnFrame(w: nat, h: nat, p: Pos) {
    p.x == 0 || p.x == w - 1 || p.y == 0 || p.y == h - 1
  }

  /** A walk from a non-line frame pixel: the pixels `paint` treats as
      outside the drawing. */
  ghost predicate FramePath(w: nat, h: nat, img: Image, ps: seq<Pos>)
    requires Shaped(img, w, h)
  {
    Path(w, h, img, ps) && OnFrame(w, h, ps[0])
  }

  /** Some walk through non-line pixels leads from `from` to `p`. */
  ghost predicate PathFrom(w: nat, h: nat, img: Image, from: Pos, p: Pos)
    requires Shaped(img, w, h)
  {
    exists ps :: Path(w, h, img, ps) && ps[0] == from && ps[|ps| - 1] == p
  }

  /** Some walk from a non-line frame pixel ends at `p`. */
  ghost predicate FrameReached(w: nat, h: nat, img: Image, p: Pos)
    requires Shaped(img, w, h)
  {
    exists ps :: FramePath(w, h, img, ps) && ps[|ps| - 1] == p
  }

  /** A walk inside a region of non-line pixels on the canvas is a walk
      through non-line pixels. */
  lemma ReachedIsPath(w: nat, h: nat, img: Image, region: set<Pos>, from: Pos, p: Pos)
    requires Shaped(img, w, h) && Below(region, w, h)
    requires forall q :: q in region ==> !IsLine(img[q.y][q.x])
    requires ReachedIn(w, h, region, from, p)
    ensures PathFrom(w, h, img, from, p)
  {
    var ps :| WalkIn(w, h, region, ps) && ps[0] == from && ps[|ps| - 1] == p;
    assert Path(w, h, img, ps);
  }

  /** Pixels reached from a frame pixel, added to pixels reached from the
      frame, are all reached from the frame. */
  /** Every pixel of `v` is reached from the frame. */
  ghost predicate AllFrameReached(w: nat, h: nat, img: Image, v: set<Pos>)
    requires Shaped(img, w, h)
  {
    forall p :: p in v ==> FrameReached(w, h, img, p)
  }

  lemma FromFrame(w: nat, h: nat, img: Image, v: set<Pos>, v': set<Pos>, s: Pos)
    requires Shaped(img, w, h) && OnFrame(w, h, s)
    requires AllFrameReached(w, h, img, v)
    requires forall p :: p in v' && p !in v ==> PathFrom(w, h, img, s, p)
    ensures AllFrameReached(w, h, img, v')
  {
    forall p | p in v' ensures FrameReached(w, h, img, p) {
      if p !in v {
        var ps :| Path(w, h, img, ps) && ps[0] == s && ps[|ps| - 1] == p;
        assert FramePath(w, h, img, ps);
      }
    }
  }

  /** Pixel (x, y) is claimed or is a line pixel. */
  predicate Covered(w: nat, h: nat, img: Image, v: set<Pos>, x: nat, y: nat)
    requires Shaped(img, w, h) && x < w && y < h
  {
    Pos(x, y) in v || IsLine(img[y][x])
  }

  /** A fill with the `null` colour claims the start pixel and its region
      and paints nothing; everything it claims is reached from the start
      through non-line pixels. */
  method FillPlain(w: nat, h: nat, img: Image, visited: set<Pos>, x: nat, y: nat)
    returns (visited': set<Pos>)
    requires Shaped(img, w, h) && x < w && y < h && Sealed(w, h, img, visited)
    ensures visited <= visited' && Sealed(w, h, img, visited')
    ensures Covered(w, h, img, visited', x, y)
    ensures forall p :: p in visited' && p !in visited ==> PathFrom(w, h, img, Pos(x, y), p)
  {
    var same;
    same, visited' := Fill(w, h, img, visited, x, y, NoInk);
    forall p | p in visited' && p !in visited ensures PathFrom(w, h, img, Pos(x, y), p) {
      ReachedIsPath(w, h, img, visited' - visited, Pos(x, y), p);
    }
  }

  // ---------------------------------------------------------------------
  // The frame pass of paint
  // ---------------------------------------------------------------------

  /** Column `x` is covered in the top and the bottom row. */
  predicate EndsCovered(w: nat, h: nat, img: Image, v: set<Pos>, x: nat)
    requires Shaped(img, w, h) && h > 0 && x < w
  {
    Covered(w, h, img, v, x, 0) && Covered(w, h, img, v, x, h - 1)
  }

  /** Row `y` is covered in the left and the right column. */
  predicate SidesCovered(w: nat, h: nat, img: Image, v: set<Pos>, y: nat)
    requires Shaped(img, w, h) && w > 0 && y < h
  {
    Covered(w, h, img, v, 0, y) && Covered(w, h, img, v, w - 1, y)
  }

  /** The first `n` pixels of the top and bottom rows are covered. */
  predicate RowsCovered(w: nat, h: nat, img: Image, v: set<Pos>, n: nat)
    requires Shaped(img, w, h) && h > 0 && n <= w
  {
    forall x: nat :: x < n ==> EndsCovered(w, h, img, v, x)
  }

  /** The first `n` pixels of the left and right columns are covered. */
  predicate ColumnsCovered(w: nat, h: nat, img: Image, v: set<Pos>, n: nat)
    requires Shaped(img, w, h) && w > 0 && n <= h
  {
    forall y: nat :: y < n ==> SidesCovered(w, h, img, v, y)
  }

  /** Claiming more keeps covered frame pixels covered. */
  lemma RowsGrow(w: nat, h: nat, img: Image, v: set<Pos>, v': set<Pos>, n: nat)
    requires Shaped(img, w, h) && h > 0 && n <= w && v <= v' && RowsCovered(w, h, img, v, n)
    ensures RowsCovered(w, h, img, v', n)
  {
    forall x: nat | x < n ensures EndsCovered(w, h, img, v', x) {
      assert EndsCovered(w, h, img, v, x);
    }
  }

  lemma ColumnsGrow(w: nat, h: nat, img: Image, v: set<Pos>, v': set<Pos>, n: nat)
    requires Shaped(img, w, h) && w > 0 && n <= h && v <= v' && ColumnsCovered(w, h, img, v, n)
    ensures ColumnsCovered(w, h, img, v', n)
  {
    forall y: nat | y < n ensures SidesCovered(w, h, img, v', y) {
      assert SidesCovered(w, h, img, v, y);
    }
  }

  /** One step of a frame loop: a `null`-coloured fill from the frame pixel
      (x, y) unless it is already claimed. The pixel ends up covered and
      everything claimed stays reached from the frame. */
  method FrameFill(w: nat, h: nat, img: Image, visited: set<Pos>, x: nat, y: nat)
    returns (visited': set<Pos>)
    requires Shaped(img, w, h) && x < w && y < h && OnFrame(w, h, Pos(x, y))
    requires Sealed(w, h, img, visited) && AllFrameReached(w, h, img, visited)
    ensures visited <= visited' && Sealed(w, h, img, visited')
    ensures Covered(w, h, img, visited', x, y)
    ensures AllFrameReached(w, h, img, visited')
    ensures Pos(x, y) in visited ==> visited' == visited
  {
    visited' := visited;
    if Pos(x, y) !in visited {
      visited' := FillPlain(w, h, img, visited, x, y);
      FromFrame(w, h, img, visited, visited', Pos(x, y));
    }
  }

  /** Covering both ends of column `x` extends the covered prefix of the
      top and bottom rows by one. */
  lemma RowsNext(w: nat, h: nat, img: Image, v0: set<Pos>, v1: set<Pos>, v2: set<Pos>, x: nat)
    requires Shaped(img, w, h) && h > 0 && x < w && v0 <= v1 <= v2
    requires RowsCovered(w, h, img, v0, x)
    requires Covered(w, h, img, v1, x, 0) && Covered(w, h, img, v2, x, h - 1)
    ensures RowsCovered(w, h, img, v2, x + 1)
  {
    RowsGrow(w, h, img, v0, v2, x);
  }

  /** Covering both sides of row `y` extends the covered prefix of the
      left and right columns by one. */
  lemma ColumnsNext(w: nat, h: nat, img: Image, v0: set<Pos>, v1: set<Pos>, v2: set<Pos>, y: nat)
    requires Shaped(img, w, h) && w > 0 && y < h && v0 <= v1 <= v2
    requires ColumnsCovered(w, h, img, v0, y)
    requires Covered(w, h, img, v1, 0, y) && Covered(w, h, img, v2, w - 1, y)
    ensures ColumnsCovered(w, h, img, v2, y + 1)
  {
    ColumnsGrow(w, h, img, v0, v2, y);
  }

  /** The first loop of `paint`, along the top and bottom rows. */
  method FrameRows(w: nat, h: nat, img: Image, visited: set<Pos>) returns (visited': set<Pos>)
    requires Shaped(img, w, h) && w > 0 && h > 0 && Sealed(w, h, img, visited)
    requires AllFrameReached(w, h, img, visited)
    ensures visited <= visited' && Sealed(w, h, img, visited') && RowsCovered(w, h, img, visited', w)
    ensures AllFrameReached(w, h, img, visited')
  {
    visited' := visited;
    var x := 0;
    while x < w
      invariant x <= w && visited <= visited' && Sealed(w, h, img, visited')
      invariant RowsCovered(w, h, img, visited', x)
      invariant AllFrameReached(w, h, img, visited')
    {
      ghost var v0 := visited';
      visited' := FrameFill(w, h, img, visited', x, 0);
      ghost var v1 := visited';
      visited' := FrameFill(w, h, img, visited', x, h - 1);
      RowsNext(w, h, img, v0, v1, visited', x);
      x := x + 1;
    }
  }

  /** The second loop of `paint`, down the left and right columns. */
  method FrameColumns(w: nat, h: nat, img: Image, visited: set<Pos>) returns (visited': set<Pos>)
    requires Shaped(img, w, h) && w > 0 && h > 0 && Sealed(w, h, img, visited)
    requires AllFrameReached(w, h, img, visited)
    ensures visited <= visited' && Sealed(w, h, img, visited') && ColumnsCovered(w, h, img, visited', h)
    ensures AllFrameReached(w, h, img, visited')
  {
    visited' := visited;
    var y := 0;
    while y < h
      invariant y <= h && visited <= visited' && Sealed(w, h, img, visited')
      invariant ColumnsCovered(w, h, img, visited', y)
      invariant AllFrameReached(w, h, img, visited')
    {
      ghost var v0 := visited';
      visited' := FrameFill(w, h, img, visited', 0, y);
      ghost var v1 := visited';
      visited' := FrameFill(w, h, img, visited', w - 1, y);
      ColumnsNext(w, h, img, v0, v1, visited', y);
      y := y + 1;
    }
  }

  /** The frame loops of `paint`: a `null`-coloured fill from every
      unclaimed pixel of the top and bottom rows, then of the left and
      right columns. Nothing is painted. Afterwards the claimed set is
      sealed, and it is exactly the set of pixels some walk from a non-line
      frame pixel reaches. */
  method FramePass(w: nat, h: nat, img: Image) returns (visited: set<Pos>)
    requires Shaped(img, w, h) && w > 0 && h > 0
    ensures Sealed(w, h, img, visited)
    ensures forall ps :: FramePath(w, h, img, ps) ==> ps[|ps| - 1] in visited
    ensures forall p :: p in visited <==> FrameReached(w, h, img, p)
    ensures forall x: nat, y: nat :: x < w && y < h && !Interior(w, h, x, y) ==> Covered(w, h, img, visited, x, y)
  {
    var rows := FrameRows(w, h, img, {});
    visited := FrameColumns(w, h, img, rows);
    RowsGrow(w, h, img, rows, visited, w);
    FrameCovered(w, h, img, visited);
    FrameWalksStay(w, h, img, visited);
    forall p | FrameReached(w, h, img, p) ensures p in visited {
      var ps :| FramePath(w, h, img, ps) && ps[|ps| - 1] == p;
    }
  }

  // ---------------------------------------------------------------------
  // The interior pass of paint
  // ---------------------------------------------------------------------

  /** `inks[y][x]` is the ink a fill started at (x, y) would use: one draw
      per possible start, on a `w` by `h` canvas. */
  predicate InksShaped(inks: seq<seq<Ink>>, w: nat, h: nat) {
    |inks| == h && forall y :: 0 <= y < h ==> |inks[y]| == w
  }

  /** Every ink is valid and every colour it paints is in `palette`. */
  ghost predicate InksIn(inks: seq<seq<Ink>>, w: nat, h: nat, palette: set<Rgba>)
    requires InksShaped(inks, w, h)
  {
    forall x, y :: 0 <= x < w && 0 <= y < h ==>
      ValidInk(inks[y][x]) && forall q :: InkAt(inks[y][x], q).Some? ==> Opaque(InkAt(inks[y][x], q).value) in palette
  }

  /** Every ink is a single colour. */
  predicate AllSolid(inks: seq<seq<Ink>>, w: nat, h: nat)
    requires InksShaped(inks, w, h)
  {
    forall x, y :: 0 <= x < w && 0 <= y < h ==> inks[y][x].Solid?
  }

  /** Pixel (x, y) after fills that grew the claimed set from `before` to
      `after`: a pixel claimed now was not a line pixel and is painted from
      the palette, or, when some ink leaves pixels alone, kept; any other
      pixel is as it was. */
  predicate RepaintedAt(w: nat, h: nat, img: Image, img': Image, before: set<Pos>, after: set<Pos>,
                        palette: set<Rgba>, solid: bool, x: nat, y: nat)
    requires Shaped(img, w, h) && Shaped(img', w, h) && x < w && y < h
  {
    if Pos(x, y) in after && Pos(x, y) !in before then
      !IsLine(img[y][x]) && (img'[y][x] in palette || (!solid && img'[y][x] == img[y][x]))
    else img'[y][x] == img[y][x]
  }

  predicate Repainted(w: nat, h: nat, img: Image, img': Image, before: set<Pos>, after: set<Pos>,
                      palette: set<Rgba>, solid: bool)
    requires Shaped(img, w, h)
  {
    Shaped(img', w, h) && forall x: nat, y: nat :: x < w && y < h ==>
      RepaintedAt(w, h, img, img', before, after, palette, solid, x, y)
  }

  /** One more fill, whose ink paints from the palette, keeps the record. */
  lemma RepaintStep(w: nat, h: nat, img: Image, cur: Image, cur': Image, before: set<Pos>,
                    mid: set<Pos>, after: set<Pos>, ink: Ink, palette: set<Rgba>, solid: bool)
    requires Shaped(img, w, h) && ValidInk(ink) && before <= mid <= after
    requires Repainted(w, h, img, cur, before, mid, palette, solid)
    requires PaintedAs(w, h, cur, cur', mid, after, ink) && Below(after, w, h)
    requires forall p :: p in after && p !in mid ==> !IsLine(cur[p.y][p.x])
    requires forall q :: InkAt(ink, q).Some? ==> Opaque(InkAt(ink, q).value) in palette
    requires solid ==> ink.Solid?
    ensures Repainted(w, h, img, cur', before, after, palette, solid)
  {
    forall x: nat, y: nat | x < w && y < h
      ensures RepaintedAt(w, h, img, cur', before, after, palette, solid, x, y)
    {
      var p := Pos(x, y);
      assert RepaintedAt(w, h, img, cur, before, mid, palette, solid, x, y);
      assert cur'[y][x] == Painted(cur, mid, after, ink, p);
    }
  }

  /** Pixel (x, y) is interior: off the frame of the canvas. */
  predicate Interior(w: nat, h: nat, x: nat, y: nat) {
    1 <= x < w - 1 && 1 <= y < h - 1
  }

  /** The interior pixels of row `y` left of `n` are covered. */
  predicate RowDone(w: nat, h: nat, img: Image, v: set<Pos>, y: nat, n: nat)
    requires Shaped(img, w, h) && y < h
  {
    forall x: nat :: 1 <= x < n && x < w - 1 ==> Covered(w, h, img, v, x, y)
  }

  /** The interior rows above `n` are covered. */
  predicate RowsDone(w: nat, h: nat, img: Image, v: set<Pos>, n: nat)
    requires Shaped(img, w, h)
  {
    forall y: nat :: 1 <= y < n && y < h - 1 ==> RowDone(w, h, img, v, y, w)
  }

  lemma RowDoneGrows(w: nat, h: nat, img: Image, v: set<Pos>, v': set<Pos>, y: nat, n: nat)
    requires Shaped(img, w, h) && y < h && v <= v' && RowDone(w, h, img, v, y, n)
    ensures RowDone(w, h, img, v', y, n)
  {
    forall x: nat | 1 <= x < n && x < w - 1 ensures Covered(w, h, img, v', x, y) {
      assert Covered(w, h, img, v, x, y);
    }
  }

  lemma RowsDoneGrows(w: nat, h: nat, img: Image, v: set<Pos>, v': set<Pos>, n: nat)
    requires Shaped(img, w, h) && v <= v' && RowsDone(w, h, img, v, n)
    ensures RowsDone(w, h, img, v', n)
  {
    forall y: nat | 1 <= y < n && y < h - 1 ensures RowDone(w, h, img, v', y, w) {
      RowDoneGrows(w, h, img, v, v', y, w);
    }
  }

  /** The loop body of the interior pass at (x, y): skip a claimed pixel or
      a line pixel, otherwise fill from it with its ink. */
  method Visit(w: nat, h: nat, img: Image, inks: seq<seq<Ink>>, palette: set<Rgba>, solid: bool,
               visited: set<Pos>, cur: Image, after: set<Pos>, x: nat, y: nat)
    returns (cur': Image, after': set<Pos>)
    requires Shaped(img, w, h) && InksShaped(inks, w, h) && InksIn(inks, w, h, palette)
    requires solid ==> AllSolid(inks, w, h)
    requires x < w && y < h && visited <= after && Below(after, w, h)
    requires Repainted(w, h, img, cur, visited, after, palette, solid)
    ensures after <= after' && Below(after', w, h)
    ensures Repainted(w, h, img, cur', visited, after', palette, solid)
    ensures Covered(w, h, img, after', x, y)
  {
    cur', after' := cur, after;
    if Pos(x, y) !in after {
      assert RepaintedAt(w, h, img, cur, visited, after, palette, solid, x, y);
      if !IsLine(cur[y][x]) {
        var ink := inks[y][x];
        cur', after' := Fill(w, h, cur, after, x, y, ink);
        RepaintStep(w, h, img, cur, cur', visited, after, after', ink, palette, solid);
      }
    }
  }

  /** One row of the interior pass. */
  method InteriorRow(w: nat, h: nat, img: Image, inks: seq<seq<Ink>>, palette: set<Rgba>, solid: bool,
                     visited: set<Pos>, cur: Image, after: set<Pos>, y: nat)
    returns (cur': Image, after': set<Pos>)
    requires Shaped(img, w, h) && InksShaped(inks, w, h) && InksIn(inks, w, h, palette)
    requires solid ==> AllSolid(inks, w, h)
    requires 1 <= y < h - 1 && visited <= after && Below(after, w, h)
    requires Repainted(w, h, img, cur, visited, after, palette, solid)
    requires RowsDone(w, h, img, after, y)
    ensures after <= after' && Below(after', w, h)
    ensures Repainted(w, h, img, cur', visited, after', palette, solid)
    ensures RowsDone(w, h, img, after', y + 1)
  {
    cur', after' := cur, after;
    var x := 1;
    while x < w - 1
      invariant 1 <= x && after <= after' && Below(after', w, h)
      invariant Repainted(w, h, img, cur', visited, after', palette, solid)
      invariant RowsDone(w, h, img, after', y) && RowDone(w, h, img, after', y, x)
    {
      ghost var before := after';
      cur', after' := Visit(w, h, img, inks, palette, solid, visited, cur', after', x, y);
      RowsDoneGrows(w, h, img, before, after', y);
      RowDoneGrows(w, h, img, before, after', y, x);
      x := x + 1;
    }
    assert RowDone(w, h, img, after', y, w);
  }

  /** The interior loops of `paint`: rows 1 to h - 2, columns 1 to w - 2,
      skipping claimed and line pixels and filling from every other pixel
      with its ink. Afterwards every interior pixel is claimed or a line
      pixel, pixels claimed before are untouched, and each newly claimed
      pixel was not a line pixel and is painted from the palette (or, when
      some ink leaves pixels alone, possibly kept). */
  method InteriorPass(w: nat, h: nat, img: Image, inks: seq<seq<Ink>>, palette: set<Rgba>, solid: bool,
                      visited: set<Pos>)
    returns (img': Image, visited': set<Pos>)
    requires Shaped(img, w, h) && InksShaped(inks, w, h) && InksIn(inks, w, h, palette)
    requires solid ==> AllSolid(inks, w, h)
    requires Below(visited, w, h)
    ensures visited <= visited' && Below(visited', w, h)
    ensures Repainted(w, h, img, img', visited, visited', palette, solid)
    ensures forall x: nat, y: nat :: Interior(w, h, x, y) ==> Covered(w, h, img, visited', x, y)
  {
    img', visited' := img, visited;
    assert Repainted(w, h, img, img', visited, visited', palette, solid) by {
      forall x: nat, y: nat | x < w && y < h
        ensures RepaintedAt(w, h, img, img', visited, visited', palette, solid, x, y)
      {
      }
    }
    var y := 1;
    while y < h - 1
      invariant 1 <= y && visited <= visited' && Below(visited', w, h)
      invariant Repainted(w, h, img, img', visited, visited', palette, solid)
      invariant RowsDone(w, h, img, visited', y)
    {
      img', visited' := InteriorRow(w, h, img, inks, palette, solid, visited, img', visited', y);
      y := y + 1;
    }
    forall x: nat, y: nat | Interior(w, h, x, y) ensures Covered(w, h, img, visited', x, y) {
      assert RowDone(w, h, img, visited', y, w);
    }
  }


  // ---------------------------------------------------------------------
  // paint
  // ---------------------------------------------------------------------

  /** Covered top and bottom rows and side columns cover the frame. */
  lemma FrameCovered(w: nat, h: nat, img: Image, v: set<Pos>)
    requires Shaped(img, w, h) && w > 0 && h > 0
    requires RowsCovered(w, h, img, v, w) && ColumnsCovered(w, h, img, v, h)
    ensures forall x: nat, y: nat :: x < w && y < h && !Interior(w, h, x, y) ==> Covered(w, h, img, v, x, y)
  {
    forall x: nat, y: nat | x < w && y < h && !Interior(w, h, x, y) ensures Covered(w, h, img, v, x, y) {
      if y == 0 || y == h - 1 {
        assert EndsCovered(w, h, img, v, x);
      } else {
        assert SidesCovered(w, h, img, v, y);
      }
    }
  }

  /** A sealed set covering the frame holds every walk from a non-line
      frame pixel. */
  lemma FrameWalksStay(w: nat, h: nat, img: Image, v: set<Pos>)
    requires Shaped(img, w, h) && w > 0 && h > 0 && Sealed(w, h, img, v)
    requires forall x: nat, y: nat :: x < w && y < h && !Interior(w, h, x, y) ==> Covered(w, h, img, v, x, y)
    ensures forall ps :: FramePath(w, h, img, ps) ==> ps[|ps| - 1] in v
  {
    forall ps: seq<Pos> | FramePath(w, h, img, ps) ensures ps[|ps| - 1] in v {
      var p: Pos := ps[0];
      assert InBounds(w, h, p) && !IsLine(img[p.y][p.x]) && !Interior(w, h, p.x, p.y);
      assert Covered(w, h, img, v, p.x, p.y);
      PathStaysIn(w, h, img, v, ps);
    }
  }

  /** `paint` of growth.mjs, shape.mjs and symmetry.mjs: the frame pass,
      then the interior pass. `outside` is what the frame pass claimed.
      Every pixel ends up claimed or a line pixel; line pixels and every
      pixel a walk from the frame reaches keep their colour; every other
      pixel keeps its colour or takes one from the palette, and with
      single-colour inks every non-line pixel the frame pass did not claim
      takes one. The frame pass claims exactly the pixels a walk from the
      frame reaches, so a region that lines cut off from the frame is
      coloured. */
  method Paint(w: nat, h: nat, img: Image, inks: seq<seq<Ink>>, palette: set<Rgba>, solid: bool)
    returns (img': Image, outside: set<Pos>, visited: set<Pos>)
    requires Shaped(img, w, h) && w > 0 && h > 0
    requires InksShaped(inks, w, h) && InksIn(inks, w, h, palette)
    requires solid ==> AllSolid(inks, w, h)
    ensures Shaped(img', w, h) && outside <= visited && Below(visited, w, h) && Sealed(w, h, img, outside)
    ensures forall x: nat, y: nat :: x < w && y < h ==> Covered(w, h, img, visited, x, y)
    ensures forall ps :: FramePath(w, h, img, ps) ==> ps[|ps| - 1] in outside
    ensures forall p :: p in outside <==> FrameReached(w, h, img, p)
    ensures forall x: nat, y: nat :: x < w && y < h && (Pos(x, y) in outside || IsLine(img[y][x])) ==>
      img'[y][x] == img[y][x]
    ensures forall x: nat, y: nat :: x < w && y < h ==> img'[y][x] == img[y][x] || img'[y][x] in palette
    ensures solid ==> forall x: nat, y: nat :: x < w && y < h && Pos(x, y) !in outside && !IsLine(img[y][x]) ==>
      img'[y][x] in palette
    ensures solid ==> forall x: nat, y: nat ::
      x < w && y < h && !FrameReached(w, h, img, Pos(x, y)) && !IsLine(img[y][x]) ==> img'[y][x] in palette
  {
    outside := FramePass(w, h, img);
    img', visited := InteriorPass(w, h, img, inks, palette, solid, outside);
    forall x: nat, y: nat | x < w && y < h ensures Covered(w, h, img, visited, x, y) {
      if !Interior(w, h, x, y) {
        assert Covered(w, h, img, outside, x, y);
      }
    }
    RepaintedFacts(w, h, img, img', outside, visited, palette, solid);
    if solid {
      forall x: nat, y: nat | x < w && y < h && Pos(x, y) !in outside && !IsLine(img[y][x])
        ensures img'[y][x] in palette
      {
        assert Covered(w, h, img, visited, x, y);
      }
    }
  }

  /** `paint` of pattern.mjs: the interior pass alone, with no frame pass.
      Every interior pixel ends up claimed or a line pixel, and every pixel
      keeps its colour or takes one from the palette; line pixels keep
      theirs. */
  method PaintInterior(w: nat, h: nat, img: Image, inks: seq<seq<Ink>>, palette: set<Rgba>)
    returns (img': Image, visited: set<Pos>)
    requires Shaped(img, w, h) && InksShaped(inks, w, h) && InksIn(inks, w, h, palette)
    ensures Shaped(img', w, h) && Below(visited, w, h)
    ensures forall x: nat, y: nat :: Interior(w, h, x, y) ==> Covered(w, h, img, visited, x, y)
    ensures forall x: nat, y: nat :: x < w && y < h && IsLine(img[y][x]) ==> img'[y][x] == img[y][x]
    ensures forall x: nat, y: nat :: x < w && y < h ==> img'[y][x] == img[y][x] || img'[y][x] in palette
  {
    img', visited := InteriorPass(w, h, img, inks, palette, false, {});
    RepaintedFacts(w, h, img, img', {}, visited, palette, false);
  }

  /** The record read pixel by pixel: pixels claimed before or line
      pixels are kept, every pixel is kept or from the palette, and with
      single-colour inks every non-line pixel not claimed before is from
      the palette once it is claimed. */
  lemma RepaintedFacts(w: nat, h: nat, img: Image, img': Image, before: set<Pos>, after: set<Pos>,
                       palette: set<Rgba>, solid: bool)
    requires Shaped(img, w, h) && Repainted(w, h, img, img', before, after, palette, solid)
    ensures forall x: nat, y: nat :: x < w && y < h && (Pos(x, y) in before || IsLine(img[y][x])) ==>
      img'[y][x] == img[y][x]
    ensures forall x: nat, y: nat :: x < w && y < h ==> img'[y][x] == img[y][x] || img'[y][x] in palette
    ensures solid ==> forall x: nat, y: nat :: x < w && y < h && Pos(x, y) in after && Pos(x, y) !in before ==>
      img'[y][x] in palette
  {
    forall x: nat, y: nat | x < w && y < h
      ensures (Pos(x, y) in before || IsLine(img[y][x])) ==> img'[y][x] == img[y][x]
      ensures img'[y][x] == img[y][x] || img'[y][x] in palette
      ensures solid && Pos(x, y) in after && Pos(x, y) !in before ==> img'[y][x] in palette
    {
      assert RepaintedAt(w, h, img, img', before, after, palette, solid, x, y);
    }
  }

}

=== FILE: genesis_graph.dfy ===
/** The rewriting graph sketch (genart/genesis/graph.mjs): a node list and an
    edge list, an adjacency built from the edges, pattern searches that scan
    the edges (or nodes) cyclically from a random start, and five rewrite
    rules chosen by a random draw. */
module GenesisGraph {
  import opened Optional
  import opened Seqs

  datatype Node = Node(id: nat, x: real, y: real)

  datatype Edge = Edge(a: nat, b: nat)

  datatype Graph = Graph(nodes: seq<Node>, edges: seq<Edge>)

  /** Every edge joins existing nodes. */
  predicate EdgesIn(g: Graph) {
    forall e :: e in g.edges ==> e.a < |g.nodes| && e.b < |g.nodes|
  }

  /** Every node's id is its index, and every edge joins existing nodes. */
  predicate Valid(g: Graph) {
    && (forall i :: 0 <= i < |g.nodes| ==> g.nodes[i].id == i)
    && EdgesIn(g)
  }

  /** No edge joins a node to itself. */
  predicate Loopless(g: Graph) {
    forall e :: e in g.edges ==> e.a != e.b
  }

  /** Edge e joins x and y, in either direction. */
  predicate Joins(e: Edge, x: nat, y: nat) {
    (e.a == x && e.b == y) || (e.a == y && e.b == x)
  }

  ghost predicate Adjacent(edges: seq<Edge>, x: nat, y: nat) {
    exists e :: e in edges && Joins(e, x, y)
  }

  // ---------------------------------------------------------------------
  // addNode, addEdge, removeEdge
  // ---------------------------------------------------------------------

  /** `addNode`: appends a node whose id is the previous node count. The
      random default position is the caller's `x` and `y`. */
  function AddNode(g: Graph, x: real, y: real): (r: (Graph, nat))
    ensures r.1 == |g.nodes| && r.0.nodes == g.nodes + [Node(r.1, x, y)]
    ensures r.0.edges == g.edges
    ensures Valid(g) ==> Valid(r.0)
  {
    (Graph(g.nodes + [Node(|g.nodes|, x, y)], g.edges), |g.nodes|)
  }

  function AddEdge(g: Graph, a: nat, b: nat): (r: Graph)
    ensures r.nodes == g.nodes && r.edges == g.edges + [Edge(a, b)]
    ensures Valid(g) && a < |g.nodes| && b < |g.nodes| ==> Valid(r)
    ensures Loopless(g) && a != b ==> Loopless(r)
  {
    Graph(g.nodes, g.edges + [Edge(a, b)])
  }

  /** The edges that do not join a and b, in order. */
  function Without(edges: seq<Edge>, a: nat, b: nat): (r: seq<Edge>)
    ensures forall e :: e in r <==> e in edges && !Joins(e, a, b)
    ensures |r| <= |edges|
  {
    if |edges| == 0 then []
    else
      var init := Without(edges[..|edges| - 1], a, b);
      var e := edges[|edges| - 1];
      assert edges == edges[..|edges| - 1] + [e];
      if Joins(e, a, b) then init else init + [e]
  }

  /** Filtering distributes over concatenation, so the kept edges stay in
      their original order. */
  lemma {:induction false} WithoutAppend(xs: seq<Edge>, ys: seq<Edge>, a: nat, b: nat)
    ensures Without(xs + ys, a, b) == Without(xs, a, b) + Without(ys, a, b)
  {
    if |ys| > 0 {
      var init := ys[..|ys| - 1];
      assert (xs + ys)[..|xs + ys| - 1] == xs + init;
      WithoutAppend(xs, init, a, b);
    } else {
      assert xs + ys == xs;
    }
  }

  /** `removeEdge`: deletes every copy of (a, b) and (b, a). */
  function RemoveEdge(g: Graph, a: nat, b: nat): (r: Graph)
    ensures r.nodes == g.nodes
    ensures forall e :: e in r.edges <==> e in g.edges && !Joins(e, a, b)
    ensures Valid(g) ==> Valid(r)
    ensures EdgesIn(g) ==> EdgesIn(r)
    ensures Loopless(g) ==> Loopless(r)
  {
    Graph(g.nodes, Without(g.edges, a, b))
  }

  // ---------------------------------------------------------------------
  // adjacencyMatrix
  // ---------------------------------------------------------------------

  /** What edge e adds to the neighbour set of x: `adj[u].add(v)` then
      `adj[v].add(u)`. */
  function Contrib(e: Edge, x: nat): seq<nat> {
    (if e.a == x then [e.b] else []) + (if e.b == x then [e.a] else [])
  }

  function Contribs(edges: seq<Edge>, x: nat): seq<nat> {
    if |edges| == 0 then []
    else Contribs(edges[..|edges| - 1], x) + Contrib(edges[|edges| - 1], x)
  }

  lemma {:induction false} ContribsMeaning(edges: seq<Edge>, x: nat, y: nat)
    ensures y in Contribs(edges, x) <==> Adjacent(edges, x, y)
  {
    if |edges| > 0 {
      var init := edges[..|edges| - 1];
      var e := edges[|edges| - 1];
      ContribsMeaning(init, x, y);
      assert edges == init + [e];
      if Adjacent(edges, x, y) {
        var f :| f in edges && Joins(f, x, y);
        if f != e {
          assert f in init;
        }
      }
      if Adjacent(init, x, y) {
        var f :| f in init && Joins(f, x, y);
        assert f in edges;
      }
      if y in Contrib(e, x) {
        assert Joins(e, x, y);
      }
    }
  }

  /** The neighbour set of x, in the insertion order a `Set` iterates in. */
  function Neighbours(edges: seq<Edge>, x: nat): (r: seq<nat>)
    ensures Distinct(r)
  {
    Dedup(Contribs(edges, x))
  }

  lemma NeighboursMeaning(edges: seq<Edge>, x: nat, y: nat)
    ensures y in Neighbours(edges, x) <==> Adjacent(edges, x, y)
  {
    ContribsMeaning(edges, x, y);
  }

  function Degree(edges: seq<Edge>, x: nat): nat {
    |Neighbours(edges, x)|
  }

  /** `adjacencyMatrix`: one neighbour set per node. */
  function AdjacencyMatrix(g: Graph): (adj: seq<seq<nat>>)
    ensures |adj| == |g.nodes|
    ensures forall x :: 0 <= x < |adj| ==> adj[x] == Neighbours(g.edges, x)
  {
    seq(|g.nodes|, x requires 0 <= x < |g.nodes| => Neighbours(g.edges, x))
  }

  /** The adjacency is symmetric, mentions only existing nodes, and in a
      graph without self-loops never lists a node as its own neighbour. */
  lemma AdjacencySymmetric(g: Graph, x: nat, y: nat)
    requires EdgesIn(g) && x < |g.nodes|
    ensures y in AdjacencyMatrix(g)[x] ==> y < |g.nodes| && x in AdjacencyMatrix(g)[y]
    ensures Loopless(g) ==> x !in AdjacencyMatrix(g)[x]
  {
    NeighboursMeaning(g.edges, x, y);
    NeighboursMeaning(g.edges, y, x);
    NeighboursMeaning(g.edges, x, x);
    if y in AdjacencyMatrix(g)[x] {
      var e :| e in g.edges && Joins(e, x, y);
      assert Joins(e, y, x);
    }
  }

  // ---------------------------------------------------------------------
  // Cyclic scans
  // ---------------------------------------------------------------------

  /** The k-th position of a cyclic scan of m places from `start`, the
      source's `(start + k) % m` (see `CycIsMod`) written without the
      remainder. */
  function Cyc(start: nat, k: nat, m: nat): (j: nat)
    requires start < m && k < m
    ensures j < m
  {
    if start + k < m then start + k else start + k - m
  }

  lemma CycIsMod(start: nat, k: nat, m: nat)
    requires start < m && k < m
    ensures Cyc(start, k, m) == (start + k) % m
  {
    if start + k < m {
      ModSmall(start + k, m);
    } else {
      ModSub(start + k, m);
    }
  }

  /** Scanning `(start + k) % m` for k below m reaches every position. */
  lemma CyclicHit(start: nat, m: nat, j: nat) returns (k: nat)
    requires start < m && j < m
    ensures k < m && Cyc(start, k, m) == j
  {
    k := if j >= start then j - start else j + m - start;
  }

  lemma ModSmall(x: nat, m: nat)
    requires x < m
    ensures x % m == x
  {
  }

  lemma ModSub(x: nat, m: nat)
    requires 0 < m <= x < 2 * m
    ensures x % m == x - m
  {
  }

  // ---------------------------------------------------------------------
  // findRandomTriangle
  // ---------------------------------------------------------------------

  /** w closes a triangle on edge e. */
  ghost predicate Apex(edges: seq<Edge>, e: Edge, w: nat) {
    w != e.a && w != e.b && Adjacent(edges, e.a, w) && Adjacent(edges, e.b, w)
  }

  ghost predicate NoApex(edges: seq<Edge>, e: Edge) {
    forall w: nat :: !Apex(edges, e, w)
  }

  /** The first w of `list` other than v that is also in `other`. */
  function FirstCommon(list: seq<nat>, v: nat, other: seq<nat>): (r: Option<nat>)
    ensures r.Some? ==> r.value in list && r.value != v && r.value in other
    ensures r.None? ==> forall w :: w in list && w != v ==> w !in other
  {
    if |list| == 0 then None
    else if list[0] != v && list[0] in other then Some(list[0])
    else FirstCommon(list[1..], v, other)
  }

  /** The triangle search on one edge: walk the smaller neighbour set. */
  method ApexOn(g: Graph, e: Edge) returns (r: Option<nat>)
    requires EdgesIn(g) && e in g.edges
    ensures r.Some? ==> Adjacent(g.edges, e.a, r.value) && Adjacent(g.edges, e.b, r.value)
    ensures r.Some? && Loopless(g) ==> r.value != e.a && r.value != e.b
    ensures r.None? ==> NoApex(g.edges, e)
  {
    var adj := AdjacencyMatrix(g);
    var u := if |adj[e.a]| <= |adj[e.b]| then e.a else e.b;
    var v := if u == e.a then e.b else e.a;
    r := FirstCommon(adj[u], v, adj[v]);
    ApexOnMeaning(g, e, u, v, r);
  }

  lemma ApexOnMeaning(g: Graph, e: Edge, u: nat, v: nat, r: Option<nat>)
    requires EdgesIn(g) && e in g.edges && u < |g.nodes| && v < |g.nodes|
    requires (u == e.a && v == e.b) || (u == e.b && v == e.a)
    requires r == FirstCommon(AdjacencyMatrix(g)[u], v, AdjacencyMatrix(g)[v])
    ensures r.Some? ==> Adjacent(g.edges, e.a, r.value) && Adjacent(g.edges, e.b, r.value)
    ensures r.Some? && Loopless(g) ==> r.value != e.a && r.value != e.b
    ensures r.None? ==> NoApex(g.edges, e)
  {
    if r.Some? {
      var w := r.value;
      NeighboursMeaning(g.edges, u, w);
      NeighboursMeaning(g.edges, v, w);
      if Loopless(g) {
        AdjacencySymmetric(g, u, u);
      }
    } else {
      forall w: nat ensures !Apex(g.edges, e, w) {
        NeighboursMeaning(g.edges, u, w);
        NeighboursMeaning(g.edges, v, w);
      }
    }
  }

  datatype Triangle = Triangle(a: nat, b: nat, c: nat)

  /** A cyclic scan that found no apex on any edge covered every edge. */
  lemma NoTriangleAnywhere(g: Graph, start: nat)
    requires EdgesIn(g) && start < |g.edges|
    requires forall q :: 0 <= q < |g.edges| ==> NoApex(g.edges, g.edges[Cyc(start, q, |g.edges|)])
    ensures forall e :: e in g.edges ==> NoApex(g.edges, e)
  {
    forall e | e in g.edges ensures NoApex(g.edges, e) {
      var j :| 0 <= j < |g.edges| && g.edges[j] == e;
      var q := CyclicHit(start, |g.edges|, j);
    }
  }

  /** `findRandomTriangle`: scans the edges cyclically from `start` (the
      `rnd(m)` draw) and returns the first edge with a common neighbour,
      or nothing when no edge has one. */
  method FindRandomTriangle(g: Graph, start: nat) returns (r: Option<Triangle>)
    requires EdgesIn(g)
    requires |g.edges| == 0 || start < |g.edges|
    ensures r.Some? ==> Edge(r.value.a, r.value.b) in g.edges
    ensures r.Some? ==> Adjacent(g.edges, r.value.a, r.value.c) && Adjacent(g.edges, r.value.b, r.value.c)
    ensures r.Some? && Loopless(g) ==> r.value.c != r.value.a && r.value.c != r.value.b
    ensures r.None? ==> forall e :: e in g.edges ==> NoApex(g.edges, e)
  {
    var m := |g.edges|;
    if m == 0 {
      return None;
    }
    var k := 0;
    while k < m
      invariant 0 <= k <= m
      invariant forall q :: 0 <= q < k ==> NoApex(g.edges, g.edges[Cyc(start, q, m)])
    {
      var e := g.edges[Cyc(start, k, m)];
      var w := ApexOn(g, e);
      if w.Some? {
        return Some(Triangle(e.a, e.b, w.value));
      }
      k := k + 1;
    }
    NoTriangleAnywhere(g, start);
    return None;
  }

  // ---------------------------------------------------------------------
  // findCrowdedNode
  // ---------------------------------------------------------------------

  /** `findCrowdedNode`: the first node, cyclically from `start`, with at
      least four neighbours. */
  method FindCrowdedNode(g: Graph, start: nat) returns (r: Option<nat>)
    requires |g.nodes| == 0 || start < |g.nodes|
    ensures r.Some? ==> r.value < |g.nodes| && Degree(g.edges, r.value) >= 4
    ensures r.None? ==> forall u :: 0 <= u < |g.nodes| ==> Degree(g.edges, u) < 4
  {
    var adj := AdjacencyMatrix(g);
    var n := |adj|;
    var k := 0;
    while k < n
      invariant 0 <= k <= n
      invariant forall q :: 0 <= q < k ==> Degree(g.edges, Cyc(start, q, n)) < 4
    {
      var u := Cyc(start, k, n);
      if |adj[u]| >= 4 {
        return Some(u);
      }
      k := k + 1;
    }
    forall u | 0 <= u < n ensures Degree(g.edges, u) < 4 {
      var q := CyclicHit(start, n, u);
    }
    return None;
  }

  // ---------------------------------------------------------------------
  // findRandomOpenWedge
  // ---------------------------------------------------------------------

  /** The wedge search's hub on edge e: the endpoint with the larger (or
      equal) neighbour set, and the other endpoint. */
  function Hub(edges: seq<Edge>, e: Edge): (r: (nat, nat))
    ensures (r.0 == e.a && r.1 == e.b) || (r.0 == e.b && r.1 == e.a)
  {
    if Degree(edges, e.a) >= Degree(edges, e.b) then (e.a, e.b) else (e.b, e.a)
  }

  /** Every neighbour of the hub other than c is adjacent to c. */
  ghost predicate ClosedAt(edges: seq<Edge>, e: Edge) {
    var (b, c) := Hub(edges, e);
    forall a: nat :: Adjacent(edges, b, a) && a != c ==> Adjacent(edges, a, c)
  }

  /** The first a of `list` other than c that c is not adjacent to. */
  function FirstOpen(adj: seq<seq<nat>>, list: seq<nat>, c: nat): (r: Option<nat>)
    requires forall k :: 0 <= k < |list| ==> list[k] < |adj|
    ensures r.Some? ==> r.value in list && r.value != c && c !in adj[r.value]
    ensures r.None? ==> forall a :: a in list && a != c ==> c in adj[a]
  {
    if |list| == 0 then None
    else if list[0] != c && c !in adj[list[0]] then Some(list[0])
    else FirstOpen(adj, list[1..], c)
  }

  datatype Wedge = Wedge(a: nat, b: nat, c: nat)

  ghost predicate OpenWedge(edges: seq<Edge>, w: Wedge) {
    Adjacent(edges, w.a, w.b) && Adjacent(edges, w.b, w.c) && w.a != w.c && !Adjacent(edges, w.a, w.c)
  }

  method WedgeOn(g: Graph, e: Edge) returns (r: Option<Wedge>)
    requires EdgesIn(g) && e in g.edges
    ensures r.Some? ==> OpenWedge(g.edges, r.value)
    ensures r.Some? ==> r.value.b == Hub(g.edges, e).0 && r.value.c == Hub(g.edges, e).1
    ensures r.None? ==> ClosedAt(g.edges, e)
  {
    var adj := AdjacencyMatrix(g);
    var (b, c) := Hub(g.edges, e);
    NeighboursBelow(g, b);
    var a := FirstOpen(adj, adj[b], c);
    WedgeOnMeaning(g, e, b, c, a);
    r := if a.Some? then Some(Wedge(a.value, b, c)) else None;
  }

  lemma NeighboursBelow(g: Graph, x: nat)
    requires EdgesIn(g)
    ensures forall k :: 0 <= k < |Neighbours(g.edges, x)| ==> Neighbours(g.edges, x)[k] < |g.nodes|
  {
    var ns := Neighbours(g.edges, x);
    forall k | 0 <= k < |ns| ensures ns[k] < |g.nodes| {
      NeighboursMeaning(g.edges, x, ns[k]);
    }
  }

  lemma WedgeOnMeaning(g: Graph, e: Edge, b: nat, c: nat, r: Option<nat>)
    requires EdgesIn(g) && e in g.edges && (b, c) == Hub(g.edges, e)
    requires forall k :: 0 <= k < |AdjacencyMatrix(g)[b]| ==> AdjacencyMatrix(g)[b][k] < |g.nodes|
    requires r == FirstOpen(AdjacencyMatrix(g), AdjacencyMatrix(g)[b], c)
    ensures r.Some? ==> OpenWedge(g.edges, Wedge(r.value, b, c))
    ensures r.None? ==> ClosedAt(g.edges, e)
  {
    assert Joins(e, b, c);
    if r.Some? {
      var a := r.value;
      NeighboursMeaning(g.edges, b, a);
      NeighboursMeaning(g.edges, a, c);
      var f :| f in g.edges && Joins(f, b, a);
      assert Joins(f, a, b);
    } else {
      forall a: nat | Adjacent(g.edges, b, a) && a != c ensures Adjacent(g.edges, a, c) {
        NeighboursMeaning(g.edges, b, a);
        NeighboursMeaning(g.edges, a, c);
      }
    }
  }

  /** A cyclic scan that found no open wedge on any edge covered every edge. */
  lemma NoWedgeAnywhere(g: Graph, start: nat)
    requires EdgesIn(g) && start < |g.edges|
    requires forall q :: 0 <= q < |g.edges| ==> ClosedAt(g.edges, g.edges[Cyc(start, q, |g.edges|)])
    ensures forall e :: e in g.edges ==> ClosedAt(g.edges, e)
  {
    forall e | e in g.edges ensures ClosedAt(g.edges, e) {
      var j :| 0 <= j < |g.edges| && g.edges[j] == e;
      var q := CyclicHit(start, |g.edges|, j);
    }
  }

  /** `findRandomOpenWedge`: cyclically from `start`, the first edge whose
      hub has a neighbour not adjacent to the other endpoint. */
  method FindRandomOpenWedge(g: Graph, start: nat) returns (r: Option<Wedge>)
    requires EdgesIn(g)
    requires |g.edges| == 0 || start < |g.edges|
    ensures r.Some? ==> OpenWedge(g.edges, r.value)
    ensures r.None? ==> forall e :: e in g.edges ==> ClosedAt(g.edges, e)
  {
    var m := |g.edges|;
    if m == 0 {
      return None;
    }
    var k := 0;
    while k < m
      invariant 0 <= k <= m
      invariant forall q :: 0 <= q < k ==> ClosedAt(g.edges, g.edges[Cyc(start, q, m)])
    {
      var e := g.edges[Cyc(start, k, m)];
      r := WedgeOn(g, e);
      if r.Some? {
        return;
      }
      k := k + 1;
    }
    NoWedgeAnywhere(g, start);
    return None;
  }

  // ---------------------------------------------------------------------
  // findLonelyPair
  // ---------------------------------------------------------------------

  ghost predicate Lonely(edges: seq<Edge>, e: Edge) {
    Degree(edges, e.a) == 1 && Degree(edges, e.b) == 1
  }

  /** The test on one edge: both ends have one neighbour, each other. */
  method LonelyOn(edges: seq<Edge>, e: Edge) returns (b: bool)
    requires e in edges
    ensures b <==> Lonely(edges, e)
  {
    NeighboursMeaning(edges, e.a, e.b);
    NeighboursMeaning(edges, e.b, e.a);
    assert Joins(e, e.a, e.b) && Joins(e, e.b, e.a);
    var (na, nb) := (Neighbours(edges, e.a), Neighbours(edges, e.b));
    b := |na| == 1 && |nb| == 1 && e.b in na && e.a in nb;
  }

  lemma NoLonelyEdge(g: Graph, start: nat, seen: seq<Edge>)
    requires start < |g.edges| && |seen| == |g.edges|
    requires forall q :: 0 <= q < |g.edges| ==> seen[q] == g.edges[Cyc(start, q, |g.edges|)]
    requires forall x :: x in seen ==> !Lonely(g.edges, x)
    ensures forall e :: e in g.edges ==> !Lonely(g.edges, e)
  {
    forall e | e in g.edges ensures !Lonely(g.edges, e) {
      var j :| 0 <= j < |g.edges| && g.edges[j] == e;
      var q := CyclicHit(start, |g.edges|, j);
      assert seen[q] in seen;
    }
  }

  /** `findLonelyPair`: cyclically from `start`, the first edge whose two
      endpoints both have exactly one neighbour. */
  method FindLonelyPair(g: Graph, start: nat) returns (r: Option<Edge>)
    requires |g.edges| == 0 || start < |g.edges|
    ensures r.Some? ==> r.value in g.edges && Lonely(g.edges, r.value)
    ensures r.None? ==> forall e :: e in g.edges ==> !Lonely(g.edges, e)
  {
    var m := |g.edges|;
    if m == 0 {
      return None;
    }
    r := None;
    var k := 0;
    ghost var seen: seq<Edge> := [];
    while k < m && r.None?
      invariant 0 <= k <= m && |seen| == k
      invariant forall q :: 0 <= q < k ==> seen[q] == g.edges[Cyc(start, q, m)]
      invariant r.None? ==> forall x :: x in seen ==> !Lonely(g.edges, x)
      invariant r.Some? ==> r.value in g.edges && Lonely(g.edges, r.value)
    {
      var e := g.edges[Cyc(start, k, m)];
      var lonely := LonelyOn(g.edges, e);
      if lonely {
        r := Some(e);
      }
      seen := seen + [e];
      k := k + 1;
    }
    if r.None? {
      NoLonelyEdge(g, start, seen);
    }
  }

  // ---------------------------------------------------------------------
  // findNearbyStrangers
  // ---------------------------------------------------------------------

  function Dist2(p: Node, q: Node): real {
    (p.x - q.x) * (p.x - q.x) + (p.y - q.y) * (p.y - q.y)
  }

  /** j is a node i could be joined to. */
  ghost predicate Stranger(g: Graph, i: nat, j: nat) {
    j < |g.nodes| && j != i && !Adjacent(g.edges, i, j)
  }

  /** The first position j with `ok[j]` whose distance is least among
      those: the `dist2 < bestDist2` scan seeded with infinity. */
  method FirstMin(ok: seq<bool>, ds: seq<real>) returns (best: Option<nat>)
    requires |ok| == |ds|
    ensures best.Some? ==> best.value < |ok| && ok[best.value]
    ensures best.Some? ==> forall j :: 0 <= j < |ok| && ok[j] ==> ds[best.value] <= ds[j]
    ensures best.Some? ==> forall j :: 0 <= j < best.value && ok[j] ==> ds[best.value] < ds[j]
    ensures best.None? ==> forall j :: 0 <= j < |ok| ==> !ok[j]
  {
    best := None;
    var bestDist2 := 0.0;
    var j := 0;
    while j < |ok|
      invariant 0 <= j <= |ok|
      invariant best.Some? ==> best.value < j && ok[best.value] && bestDist2 == ds[best.value]
      invariant best.Some? ==> forall q :: 0 <= q < j && ok[q] ==> bestDist2 <= ds[q]
      invariant best.Some? ==> forall q :: 0 <= q < best.value && ok[q] ==> bestDist2 < ds[q]
      invariant best.None? ==> forall q :: 0 <= q < j ==> !ok[q]
    {
      if ok[j] && (best.None? || ds[j] < bestDist2) {
        best := Some(j);
        bestDist2 := ds[j];
      }
      j := j + 1;
    }
  }

  /** The candidates of node i (`j !== i` and not adjacent) and their
      squared distances. */
  function Candidates(g: Graph, i: nat): (r: (seq<bool>, seq<real>))
    requires EdgesIn(g) && i < |g.nodes|
    ensures |r.0| == |r.1| == |g.nodes|
    ensures forall j :: 0 <= j < |g.nodes| ==> (r.0[j] <==> Stranger(g, i, j))
    ensures forall j :: 0 <= j < |g.nodes| ==> r.1[j] == Dist2(g.nodes[i], g.nodes[j])
  {
    var adj := AdjacencyMatrix(g);
    var ok := seq(|g.nodes|, j requires 0 <= j < |g.nodes| => j != i && j !in adj[i]);
    assert forall j :: 0 <= j < |g.nodes| ==> (ok[j] <==> Stranger(g, i, j)) by {
      forall j | 0 <= j < |g.nodes| ensures ok[j] <==> Stranger(g, i, j) {
        NeighboursMeaning(g.edges, i, j);
      }
    }
    (ok, seq(|g.nodes|, j requires 0 <= j < |g.nodes| => Dist2(g.nodes[i], g.nodes[j])))
  }

  /** The nearest stranger of node i, the first on ties. */
  method NearestStranger(g: Graph, i: nat) returns (best: Option<nat>)
    requires EdgesIn(g) && i < |g.nodes|
    ensures best.Some? ==> Stranger(g, i, best.value)
    ensures best.Some? ==> forall j: nat :: Stranger(g, i, j) ==>
      Dist2(g.nodes[i], g.nodes[best.value]) <= Dist2(g.nodes[i], g.nodes[j])
    ensures best.Some? ==> forall j: nat :: j < best.value && Stranger(g, i, j) ==>
      Dist2(g.nodes[i], g.nodes[best.value]) < Dist2(g.nodes[i], g.nodes[j])
    ensures best.None? ==> forall j: nat :: !Stranger(g, i, j)
  {
    var (ok, ds) := Candidates(g, i);
    best := FirstMin(ok, ds);
  }

  /** `findNearbyStrangers`: nothing for fewer than two nodes; otherwise,
      cyclically from `start`, the first node with a stranger, paired with
      its nearest one. */
  method FindNearbyStrangers(g: Graph, start: nat) returns (r: Option<Edge>)
    requires EdgesIn(g)
    requires |g.nodes| < 2 || start < |g.nodes|
    ensures r.Some? ==> r.value.a < |g.nodes| && Stranger(g, r.value.a, r.value.b)
    ensures r.None? ==> |g.nodes| < 2 || forall i: nat, j: nat :: i < |g.nodes| ==> !Stranger(g, i, j)
  {
    var n := |g.nodes|;
    if n < 2 {
      return None;
    }
    var k := 0;
    while k < n
      invariant 0 <= k <= n
      invariant forall q, j: nat :: 0 <= q < k ==> !Stranger(g, Cyc(start, q, n), j)
    {
      var i := Cyc(start, k, n);
      var best := NearestStranger(g, i);
      if best.Some? {
        return Some(Edge(i, best.value));
      }
      k := k + 1;
    }
    forall i: nat, j: nat | i < n ensures !Stranger(g, i, j) {
      var q := CyclicHit(start, n, i);
    }
    return None;
  }

  // ---------------------------------------------------------------------
  // Rewrite rules
  // ---------------------------------------------------------------------

  /** The triangle rule: a node at the centroid replaces the triangle's three
      edges by three spokes. */
  /** The triangle rule's edge list: the three sides removed, then a spoke
      from each corner to the new node d. */
  function TriangleEdges(edges: seq<Edge>, t: Triangle, d: nat): (r: seq<Edge>)
    ensures |r| >= 3 && r[|r| - 3..] == [Edge(t.a, d), Edge(t.b, d), Edge(t.c, d)]
    ensures forall e :: e in r[..|r| - 3] <==>
      e in edges && !Joins(e, t.a, t.b) && !Joins(e, t.b, t.c) && !Joins(e, t.c, t.a)
    ensures forall e :: e in r ==> e in edges || (e.b == d && (e.a == t.a || e.a == t.b || e.a == t.c))
  {
    var kept := Without(Without(Without(edges, t.a, t.b), t.b, t.c), t.c, t.a);
    var r := kept + [Edge(t.a, d), Edge(t.b, d), Edge(t.c, d)];
    assert r[..|r| - 3] == kept;
    r
  }

  /** `triangleRule`: a new node at the triangle's centroid, the triangle's
      sides removed and a spoke from each corner to the new node. */
  function TriangleRule(g: Graph, t: Triangle): (r: Graph)
    requires Valid(g) && t.a < |g.nodes| && t.b < |g.nodes| && t.c < |g.nodes|
    ensures |r.nodes| == |g.nodes| + 1 && r.nodes[..|g.nodes|] == g.nodes
    ensures Valid(r)
    ensures Loopless(g) ==> Loopless(r)
  {
    var (na, nb, nc) := (g.nodes[t.a], g.nodes[t.b], g.nodes[t.c]);
    var d := |g.nodes|;
    var centre := Node(d, (na.x + nb.x + nc.x) / 3.0, (na.y + nb.y + nc.y) / 3.0);
    var r := Graph(g.nodes + [centre], TriangleEdges(g.edges, t, d));
    assert r.nodes[..d] == g.nodes;
    TriangleRuleValid(g, t, r);
    r
  }

  lemma TriangleRuleValid(g: Graph, t: Triangle, r: Graph)
    requires Valid(g) && t.a < |g.nodes| && t.b < |g.nodes| && t.c < |g.nodes|
    requires |r.nodes| == |g.nodes| + 1 && r.nodes[..|g.nodes|] == g.nodes
    requires r.nodes[|g.nodes|].id == |g.nodes|
    requires r.edges == TriangleEdges(g.edges, t, |g.nodes|)
    ensures Valid(r)
    ensures Loopless(g) ==> Loopless(r)
  {
    var d := |g.nodes|;
    forall i | 0 <= i < |r.nodes| ensures r.nodes[i].id == i {
      if i < d {
        assert r.nodes[i] == r.nodes[..d][i];
      }
    }
  }

  /** The triangle's three sides are gone, every other edge survives, and
      the new centre node is joined to each corner. */
  lemma TriangleRuleEdges(g: Graph, t: Triangle)
    requires Valid(g) && t.a < |g.nodes| && t.b < |g.nodes| && t.c < |g.nodes|
    ensures var r := TriangleRule(g, t); var d := |g.nodes|;
      |r.edges| >= 3 && r.edges[|r.edges| - 3..] == [Edge(t.a, d), Edge(t.b, d), Edge(t.c, d)]
    ensures var r := TriangleRule(g, t);
      forall e :: e in r.edges[..|r.edges| - 3] <==>
        e in g.edges && !Joins(e, t.a, t.b) && !Joins(e, t.b, t.c) && !Joins(e, t.c, t.a)
  {
  }

  /** Removes the edges between u and each listed node, in order. */
  function RemoveAll(g: Graph, u: nat, ns: seq<nat>): (r: Graph)
    decreases |ns|
    ensures r.nodes == g.nodes
    ensures forall e :: e in r.edges <==> e in g.edges && forall n :: n in ns ==> !Joins(e, u, n)
    ensures Valid(g) ==> Valid(r)
    ensures Loopless(g) ==> Loopless(r)
  {
    if |ns| == 0 then g
    else RemoveAll(RemoveEdge(g, u, ns[0]), u, ns[1..])
  }

  /** The crowded rule: u loses every edge. */
  function CrowdedRule(g: Graph, u: nat): (r: Graph)
    requires EdgesIn(g) && u < |g.nodes|
    ensures r.nodes == g.nodes
    ensures Degree(r.edges, u) == 0
    ensures forall e :: e in r.edges <==> e in g.edges && e.a != u && e.b != u
    ensures Loopless(g) ==> Loopless(r)
  {
    var r := RemoveAll(g, u, AdjacencyMatrix(g)[u]);
    CrowdedRuleMeaning(g, u, r);
    r
  }

  lemma CrowdedRuleMeaning(g: Graph, u: nat, r: Graph)
    requires EdgesIn(g) && u < |g.nodes|
    requires forall e :: e in r.edges <==> e in g.edges && forall n :: n in Neighbours(g.edges, u) ==> !Joins(e, u, n)
    ensures forall e :: e in r.edges <==> e in g.edges && e.a != u && e.b != u
    ensures Degree(r.edges, u) == 0
  {
    forall e | e in g.edges
      ensures (forall n :: n in Neighbours(g.edges, u) ==> !Joins(e, u, n)) <==> e.a != u && e.b != u
    {
      if e.a == u {
        NeighboursMeaning(g.edges, u, e.b);
        assert Joins(e, u, e.b);
      } else if e.b == u {
        NeighboursMeaning(g.edges, u, e.a);
        assert Joins(e, u, e.a);
      }
    }
    var ns := Neighbours(r.edges, u);
    if |ns| > 0 {
      NeighboursMeaning(r.edges, u, ns[0]);
      assert ns[0] in ns;
    }
  }

  /** The first draw that is neither u nor v: the `do … while` loop. */
  function FirstOther(draws: seq<nat>, u: nat, v: nat): (r: nat)
    requires exists d :: d in draws && d != u && d != v
    ensures r in draws && r != u && r != v
  {
    assert draws == [draws[0]] + draws[1..];
    if draws[0] != u && draws[0] != v then draws[0] else FirstOther(draws[1..], u, v)
  }

  /** Three distinct draws, so that one of them avoids any two nodes. */
  predicate ThreeDistinct(draws: seq<nat>) {
    exists i, j, k :: 0 <= i < |draws| && 0 <= j < |draws| && 0 <= k < |draws| &&
      draws[i] != draws[j] && draws[j] != draws[k] && draws[i] != draws[k]
  }

  lemma AvoidsTwo(draws: seq<nat>, u: nat, v: nat)
    requires ThreeDistinct(draws)
    ensures exists d :: d in draws && d != u && d != v
  {
    var i, j, k :| 0 <= i < |draws| && 0 <= j < |draws| && 0 <= k < |draws| &&
      draws[i] != draws[j] && draws[j] != draws[k] && draws[i] != draws[k];
    if draws[i] != u && draws[i] != v {
      assert draws[i] in draws;
    } else if draws[j] != u && draws[j] != v {
      assert draws[j] in draws;
    } else {
      assert draws[k] in draws;
    }
  }

  /** The random inputs of one rewrite: the rule draw `rnd(100)`, the start
      of the search it runs, and the node draws of the lonely-pair rule. */
  datatype Draws = Draws(rule: nat, start: nat, nodes: seq<nat>)

  /** `rewriteGraph`: by the rule draw, the triangle rule (below 40), the
      crowded rule (below 50), closing an open wedge (below 60), linking a
      lonely pair to a third node (below 70), or joining nearby strangers. A
      search that finds nothing leaves the graph unchanged. */
  method RewriteGraph(g: Graph, d: Draws) returns (r: Graph)
    requires Valid(g) && d.rule < 100
    requires d.rule < 40 || 50 <= d.rule < 70 ==> |g.edges| == 0 || d.start < |g.edges|
    requires 40 <= d.rule < 50 || d.rule >= 70 ==> |g.nodes| == 0 || d.start < |g.nodes|
    requires 60 <= d.rule < 70 && |g.nodes| >= 3 ==>
      ThreeDistinct(d.nodes) && forall w :: w in d.nodes ==> w < |g.nodes|
    ensures Valid(r)
    ensures Loopless(g) ==> Loopless(r)
    ensures |g.nodes| <= |r.nodes| <= |g.nodes| + 1 && r.nodes[..|g.nodes|] == g.nodes
  {
    r := g;
    if d.rule < 40 {
      var t := FindRandomTriangle(g, d.start);
      if t.Some? {
        r := TriangleRule(g, t.value);
      }
    } else if d.rule < 50 {
      var u := FindCrowdedNode(g, d.start);
      if u.Some? {
        r := CrowdedRule(g, u.value);
      }
    } else if d.rule < 60 {
      var w := FindRandomOpenWedge(g, d.start);
      if w.Some? {
        ghost var e :| e in g.edges && Joins(e, w.value.a, w.value.b);
        ghost var f :| f in g.edges && Joins(f, w.value.b, w.value.c);
        r := AddEdge(g, w.value.a, w.value.c);
      }
    } else if d.rule < 70 {
      if |g.nodes| >= 3 {
        var p := FindLonelyPair(g, d.start);
        if p.Some? {
          AvoidsTwo(d.nodes, p.value.a, p.value.b);
          var w := FirstOther(d.nodes, p.value.a, p.value.b);
          r := AddEdge(AddEdge(g, p.value.a, w), p.value.b, w);
        }
      }
    } else {
      var p := FindNearbyStrangers(g, d.start);
      if p.Some? {
        r := AddEdge(g, p.value.a, p.value.b);
      }
    }
  }

  // ---------------------------------------------------------------------
  // init
  // ---------------------------------------------------------------------

  const N: nat := 20

  /** The edges of row i: (i, j) for each j < n, j != i, whose draw came up,
      `heads` being the set of ordered pairs whose `Math.random() < 0.1`. */
  function RowEdges(i: nat, n: nat, heads: set<Edge>): (r: seq<Edge>)
    ensures forall e :: e in r <==> e in heads && e.a == i && e.b < n && e.b != i
  {
    if n == 0 then []
    else
      var j := n - 1;
      RowEdges(i, j, heads) + (if j != i && Edge(i, j) in heads then [Edge(i, j)] else [])
  }

  /** Rows 0 .. rows-1 of the construction, in row-major order. */
  function InitEdges(rows: nat, n: nat, heads: set<Edge>): (r: seq<Edge>)
    ensures forall e :: e in r <==> e in heads && e.a < rows && e.b < n && e.a != e.b
  {
    if rows == 0 then [] else InitEdges(rows - 1, n, heads) + RowEdges(rows - 1, n, heads)
  }

  /** Node i sits at (xs[i], ys[i]). */
  function Placed(xs: seq<real>, ys: seq<real>): (ns: seq<Node>)
    requires |xs| == |ys|
    ensures |ns| == |xs|
    ensures forall i :: 0 <= i < |ns| ==> ns[i] == Node(i, xs[i], ys[i])
  {
    seq(|xs|, i requires 0 <= i < |xs| => Node(i, xs[i], ys[i]))
  }

  /** `init`: N nodes at the given (random) positions and an edge (i, j) for
      every ordered pair i != j whose draw came up. */
  function Init(xs: seq<real>, ys: seq<real>, heads: set<Edge>): (g: Graph)
    requires |xs| == N && |ys| == N
    ensures |g.nodes| == N && Valid(g) && Loopless(g)
    ensures forall i :: 0 <= i < N ==> g.nodes[i] == Node(i, xs[i], ys[i])
    ensures forall e :: e in g.edges <==> e in heads && e.a < N && e.b < N && e.a != e.b
  {
    Graph(Placed(xs, ys), InitEdges(|xs|, |xs|, heads))
  }
}

=== FILE: genesis_growth.dfy ===
/** The colouring of genart/genesis/growth.mjs: `paint` over the drawn
    curve, with the interior fill colour chosen by pixel index. */
module GenesisGrowth {
  import opened FloodFill

  /** `COLORS`: red, blue, yellow. */
  const Colors: seq<Rgb> := [Rgb(255, 0, 0), Rgb(0, 0, 255), Rgb(255, 255, 0)]

  /** The three colours as painted pixels. */
  const Palette: set<Rgba> := {Opaque(Colors[0]), Opaque(Colors[1]), Opaque(Colors[2])}

  /** `COLORS[i4 % COLORS.length]` for the fill started at (x, y), where
      `i4 = 4 * (y * width + x)` is the pixel's byte offset. */
  function ColourAt(w: nat, x: nat, y: nat): (c: Rgb)
    ensures Opaque(c) in Palette
  {
    Colors[(4 * (y * w + x)) % |Colors|]
  }

  /** The ink of every possible start. */
  function Inks(w: nat, h: nat): (inks: seq<seq<Ink>>)
    ensures InksShaped(inks, w, h) && AllSolid(inks, w, h)
    ensures forall x, y :: 0 <= x < w && 0 <= y < h ==> inks[y][x] == Solid(ColourAt(w, x, y))
  {
    seq(h, y requires 0 <= y => seq(w, x requires 0 <= x => Solid(ColourAt(w, x, y))))
  }

  lemma InksInPalette(w: nat, h: nat)
    ensures InksIn(Inks(w, h), w, h, Palette)
  {
    var inks := Inks(w, h);
    forall x, y | 0 <= x < w && 0 <= y < h
      ensures ValidInk(inks[y][x])
      ensures forall q :: InkAt(inks[y][x], q).Some? ==> Opaque(InkAt(inks[y][x], q).value) in Palette
    {
      assert inks[y][x] == Solid(ColourAt(w, x, y));
    }
  }

  /** `paint`. `outside` is what the frame pass claimed: exactly the
      pixels a walk from the frame reaches, closed under non-line
      neighbours; it keeps its colour, as do line pixels. Every other
      pixel, a region cut off from the frame included, becomes red, blue
      or yellow. */
  method Paint(w: nat, h: nat, img: Image) returns (img': Image, outside: set<Pos>)
    requires Shaped(img, w, h) && w > 0 && h > 0
    ensures Shaped(img', w, h) && Sealed(w, h, img, outside)
    ensures forall ps :: FramePath(w, h, img, ps) ==> ps[|ps| - 1] in outside
    ensures forall p :: p in outside <==> FrameReached(w, h, img, p)
    ensures forall x: nat, y: nat :: x < w && y < h && (Pos(x, y) in outside || IsLine(img[y][x])) ==>
      img'[y][x] == img[y][x]
    ensures forall x: nat, y: nat :: x < w && y < h && Pos(x, y) !in outside && !IsLine(img[y][x]) ==>
      img'[y][x] in Palette
    ensures forall x: nat, y: nat ::
      x < w && y < h && !FrameReached(w, h, img, Pos(x, y)) && !IsLine(img[y][x]) ==> img'[y][x] in Palette
  {
    InksInPalette(w, h);
    var visited;
    img', outside, visited := FloodFill.Paint(w, h, img, Inks(w, h), Palette, true);
  }
}

=== FILE: genesis_pattern.dfy ===
/** The patterned colouring of genart/genesis/pattern.mjs: the twelve 8 by
    8 patterns, the edge-to-edge lines and `paint`, which has no frame pass
    and tiles every interior region with a random pattern in black. */
module GenesisPattern {
  import opened Optional
  import opened FloodFill

  /** One pattern row. */
  function Row(a: int, b: int, c: int, d: int, e: int, f: int, g: int, h: int): (r: seq<int>)
    ensures |r| == 8
  {
    [a, b, c, d, e, f, g, h]
  }

  /** One pattern: eight rows of eight. */
  function Square(r0: seq<int>, r1: seq<int>, r2: seq<int>, r3: seq<int>,
                  r4: seq<int>, r5: seq<int>, r6: seq<int>, r7: seq<int>): (p: seq<seq<int>>)
    requires |r0| == 8 && |r1| == 8 && |r2| == 8 && |r3| == 8
    requires |r4| == 8 && |r5| == 8 && |r6| == 8 && |r7| == 8
    ensures |p| == 8 && forall k :: 0 <= k < 8 ==> |p[k]| == 8
  {
    [r0, r1, r2, r3, r4, r5, r6, r7]
  }

  /** `PATTERNS`. */
  const Patterns: seq<seq<seq<int>>> := [
    Square(
      Row(1, 1, 1, 1, 1, 1, 1, 1),
      Row(1, 0, 0, 0, 0, 0, 0, 0),
      Row(1, 0, 0, 0, 0, 0, 0, 0),
      Row(1, 0, 0, 0, 0, 0, 0, 0),
      Row(1, 1, 1, 1, 1, 1, 1, 1),
      Row(0, 0, 0, 0, 1, 0, 0, 0),
      Row(0, 0, 0, 0, 1, 0, 0, 0),
      Row(0, 0, 0, 0, 1, 0, 0, 0)),
    Square(
      Row(0, 0, 0, 0, 1, 0, 0, 0),
      Row(0, 0, 0, 1, 1, 1, 0, 0),
      Row(0, 0, 1, 0, 0, 0, 1, 0),
      Row(1, 1, 0, 0, 0, 0, 0, 1),
      Row(1, 0, 0, 0, 0, 0, 0, 0),
      Row(0, 0, 0, 0, 0, 0, 0, 1),
      Row(0, 0, 0, 0, 0, 0, 1, 0),
      Row(0, 0, 0, 0, 0, 1, 0, 0)),
    Square(
      Row(1, 1, 1, 1, 1, 1, 1, 1),
      Row(1, 0, 0, 0, 0, 0, 0, 0),
      Row(1, 0, 0, 0, 0, 0, 0, 0),
      Row(1, 0, 0, 0, 0, 0, 0, 0),
      Row(1, 0, 0, 0, 0, 0, 0, 0),
      Row(1, 0, 0, 0, 0, 0, 0, 0),
      Row(1, 0, 0, 0, 0, 0, 0, 0),
      Row(1, 0, 0, 0, 0, 0, 0, 0)),
    Square(
      Row(0, 0, 0, 1, 0, 0, 0, 1),
      Row(0, 0, 1, 0, 0, 0, 1, 0),
      Row(0, 1, 0, 0, 0, 1, 0, 0),
      Row(1, 0, 0, 0, 1, 0, 0, 0),
      Row(0, 0, 0, 1, 0, 0, 0, 1),
      Row(0, 0, 1, 0, 0, 0, 1, 0),
      Row(0, 1, 0, 0, 0, 1, 0, 0),
      Row(1, 0, 0, 0, 1, 0, 0, 0)),
    Square(
      Row(0, 0, 0, 0, 0, 0, 0, 0),
      Row(0, 0, 0, 0, 1, 0, 0, 0),
      Row(0, 0, 0, 1, 0, 1, 0, 0),
      Row(0, 0, 1, 0, 1, 0, 1, 0),
      Row(0, 1, 0, 1, 0, 1, 0, 1),
      Row(0, 0, 1, 0, 1, 0, 1, 0),
      Row(0, 0, 0, 1, 0, 1, 0, 0),
      Row(0, 0, 0, 0, 1, 0, 0, 0)),
    Square(
      Row(1, 0, 0, 0, 0, 0, 0, 0),
      Row(0, 1, 0, 0, 0, 0, 0, 0),
      Row(0, 0, 1, 0, 0, 0, 0, 0),
      Row(0, 0, 0, 0, 0, 0, 0, 0),
      Row(0, 0, 0, 0, 0, 0, 1, 0),
      Row(0, 0, 0, 0, 0, 1, 0, 0),
      Row(0, 0, 0, 0, 1, 0, 0, 0),
      Row(0, 0, 0, 0, 0, 0, 0, 0)),
    Square(
      Row(1, 0, 0, 0, 1, 0, 0, 0),
      Row(1, 0, 0, 0, 1, 0, 0, 0),
      Row(1, 0, 0, 0, 1, 0, 0, 0),
      Row(1, 0, 0, 0, 1, 0, 0, 0),
      Row(1, 0, 0, 0, 1, 0, 0, 0),
      Row(1, 0, 0, 0, 1, 0, 0, 0),
      Row(1, 0, 0, 0, 1, 0, 0, 0),
      Row(1, 0, 0, 0, 1, 0, 0, 0)),
    Square(
      Row(0, 1, 0, 1, 0, 1, 0, 1),
      Row(1, 0, 1, 0, 0, 0, 0, 0),
      Row(0, 1, 0, 0, 0, 0, 0, 0),
      Row(0, 1, 0, 0, 0, 0, 0, 0),
      Row(0, 1, 0, 1, 0, 1, 0, 1),
      Row(0, 0, 0, 0, 1, 0, 1, 0),
      Row(0, 0, 0, 0, 0, 1, 0, 0),
      Row(0, 0, 0, 0, 0, 1, 0, 0)),
    Square(
      Row(1, 1, 1, 1, 1, 0, 0, 0),
      Row(0, 1, 1, 1, 0, 1, 0, 0),
      Row(0, 0, 1, 0, 0, 0, 1, 0),
      Row(0, 1, 0, 0, 0, 1, 1, 1),
      Row(1, 0, 0, 0, 1, 1, 1, 1),
      Row(0, 0, 0, 1, 0, 1, 1, 1),
      Row(0, 0, 1, 0, 0, 0, 1, 0),
      Row(0, 1, 1, 1, 0, 0, 0, 1)),
    Square(
      Row(1, 0, 1, 1, 0, 0, 0, 1),
      Row(0, 0, 1, 1, 0, 0, 0, 0),
      Row(0, 0, 0, 0, 0, 0, 1, 1),
      Row(0, 0, 0, 1, 1, 0, 1, 1),
      Row(1, 1, 0, 1, 1, 0, 0, 0),
      Row(1, 1, 0, 0, 0, 0, 0, 0),
      Row(0, 0, 0, 0, 1, 1, 0, 0),
      Row(1, 0, 0, 0, 1, 1, 0, 1)),
    Square(
      Row(1, 0, 0, 0, 0, 0, 1, 0),
      Row(0, 1, 0, 0, 0, 1, 0, 0),
      Row(0, 0, 1, 1, 1, 0, 0, 1),
      Row(0, 1, 0, 0, 0, 1, 0, 0),
      Row(1, 0, 0, 0, 0, 0, 1, 0),
      Row(0, 0, 0, 0, 0, 0, 0, 1),
      Row(0, 0, 0, 0, 0, 0, 0, 1),
      Row(0, 0, 0, 0, 0, 0, 0, 1)),
    Square(
      Row(0, 0, 0, 0, 0, 0, 1, 1),
      Row(1, 0, 0, 0, 0, 1, 0, 0),
      Row(0, 1, 0, 0, 1, 0, 0, 0),
      Row(0, 0, 1, 1, 0, 0, 0, 0),
      Row(0, 0, 0, 0, 1, 1, 0, 0),
      Row(0, 0, 0, 0, 0, 0, 1, 0),
      Row(0, 0, 0, 0, 0, 0, 0, 1),
      Row(0, 0, 0, 0, 0, 0, 0, 1))
  ]

  /** Every pattern is 8 by 8, so `inPattern` reads `pattern[y % 8][x % 8]`,
      always in range. */
  lemma PatternsSquare()
    ensures |Patterns| == 12
    ensures forall k :: 0 <= k < |Patterns| ==>
      ValidInk(Pattern(Patterns[k])) && |Patterns[k]| == 8 && |Patterns[k][0]| == 8
  {
  }

  /** `inPattern` reads row `y mod 8` and column `x mod 8`. */
  lemma InPatternReads(k: nat, x: nat, y: nat)
    requires k < |Patterns|
    ensures ValidInk(Pattern(Patterns[k]))
    ensures InPattern(Patterns[k], x, y) <==> Patterns[k][y % 8][x % 8] == 1
  {
    PatternsSquare();
  }

  // ---------------------------------------------------------------------
  // The lines
  // ---------------------------------------------------------------------

  const Left: nat := 0
  const Top: nat := 1
  const Right: nat := 2
  const Bottom: nat := 3

  /** `getOppositeEdge`. */
  function OppositeEdge(edge: nat): nat {
    (edge + 2) % 4
  }

  /** On the four edges the opposite is an involution with no fixed point
      that swaps left with right and top with bottom. */
  lemma OppositeInvolution(edge: nat)
    requires edge < 4
    ensures OppositeEdge(edge) < 4 && OppositeEdge(edge) != edge
    ensures OppositeEdge(OppositeEdge(edge)) == edge
    ensures OppositeEdge(Left) == Right && OppositeEdge(Top) == Bottom
  {
  }

  /** `rnd(n)` for the host's draw `u` in [0, 1): `floor(u * n)`. */
  function Rnd(n: nat, u: real): int {
    (u * n as real).Floor
  }

  lemma RndInRange(n: nat, u: real)
    requires 0.0 <= u < 1.0 && n > 0
    ensures 0 <= Rnd(n, u) < n
  {
    assert u * n as real < n as real by {
      assert (1.0 - u) * n as real > 0.0;
    }
  }

  /** `pickPosition(edge, width, height)` with the host's draw `u`. An edge
      outside 0..3 matches no case and gives nothing. */
  function PickPosition(edge: nat, w: nat, h: nat, u: real): (r: Option<(int, int)>)
    ensures r.Some? <==> edge < 4
  {
    if edge == Left then Some((0, Rnd(h, u)))
    else if edge == Top then Some((Rnd(w, u), 0))
    else if edge == Right then Some((w - 1, Rnd(h, u)))
    else if edge == Bottom then Some((Rnd(w, u), h - 1))
    else None
  }

  /** The point lies on the canvas, on the requested edge. */
  lemma PickOnEdge(edge: nat, w: nat, h: nat, u: real)
    requires edge < 4 && w > 0 && h > 0 && 0.0 <= u < 1.0
    ensures var (x, y) := PickPosition(edge, w, h, u).value;
      && 0 <= x < w && 0 <= y < h
      && (edge == Left ==> x == 0)
      && (edge == Top ==> y == 0)
      && (edge == Right ==> x == w - 1)
      && (edge == Bottom ==> y == h - 1)
  {
    RndInRange(w, u);
    RndInRange(h, u);
  }

  /** `pickPositions`: a point on a drawn edge and one on the opposite
      edge, with draws `e` for the edge and `u1`, `u2` for the points. */
  function PickPositions(w: nat, h: nat, e: real, u1: real, u2: real): (r: ((int, int), (int, int)))
    requires 0.0 <= e < 1.0 && 0.0 <= u1 < 1.0 && 0.0 <= u2 < 1.0
  {
    RndInRange(4, e);
    var edge := Rnd(4, e) as nat;
    (PickPosition(edge, w, h, u1).value, PickPosition(OppositeEdge(edge), w, h, u2).value)
  }

  /** The two ends of a line lie on opposite edges of the canvas: one end
      on a side column and the other on the other side column, or one on
      the top row and the other on the bottom row. */
  lemma LineCrosses(w: nat, h: nat, e: real, u1: real, u2: real)
    requires 0.0 <= e < 1.0 && 0.0 <= u1 < 1.0 && 0.0 <= u2 < 1.0 && w > 0 && h > 0
    ensures var ((x1, y1), (x2, y2)) := PickPositions(w, h, e, u1, u2);
      && 0 <= x1 < w && 0 <= y1 < h && 0 <= x2 < w && 0 <= y2 < h
      && (((x1 == 0 && x2 == w - 1) || (x1 == w - 1 && x2 == 0))
          || ((y1 == 0 && y2 == h - 1) || (y1 == h - 1 && y2 == 0)))
  {
    RndInRange(4, e);
    var edge := Rnd(4, e) as nat;
    PickOnEdge(edge, w, h, u1);
    OppositeInvolution(edge);
    PickOnEdge(OppositeEdge(edge), w, h, u2);
  }

  // ---------------------------------------------------------------------
  // paint
  // ---------------------------------------------------------------------

  /** Black, the only colour `fill` paints. */
  const Palette: set<Rgba> := {Opaque(Rgb(0, 0, 0))}

  /** `draws[y][x]` is the `rnd(PATTERNS.length)` drawn by `pickPattern` if
      a fill starts at (x, y). */
  predicate Draws(draws: seq<seq<nat>>, w: nat, h: nat) {
    && |draws| == h
    && forall y :: 0 <= y < h ==> |draws[y]| == w && forall x :: 0 <= x < w ==> draws[y][x] < |Patterns|
  }

  function Inks(draws: seq<seq<nat>>, w: nat, h: nat): (inks: seq<seq<Ink>>)
    requires Draws(draws, w, h)
    ensures InksShaped(inks, w, h)
    ensures forall x, y :: 0 <= x < w && 0 <= y < h ==> inks[y][x] == Pattern(Patterns[draws[y][x]])
  {
    seq(h, y requires 0 <= y < h => seq(w, x requires 0 <= x < w => Pattern(Patterns[draws[y][x]])))
  }

  lemma InksInPalette(draws: seq<seq<nat>>, w: nat, h: nat)
    requires Draws(draws, w, h)
    ensures InksIn(Inks(draws, w, h), w, h, Palette)
  {
    var inks := Inks(draws, w, h);
    PatternsSquare();
    forall x, y | 0 <= x < w && 0 <= y < h
      ensures ValidInk(inks[y][x])
      ensures forall q :: InkAt(inks[y][x], q).Some? ==> Opaque(InkAt(inks[y][x], q).value) in Palette
    {
      assert inks[y][x] == Pattern(Patterns[draws[y][x]]);
    }
  }

  /** `paint`: every interior pixel is claimed by some fill or is a line
      pixel; line pixels keep their colour and every other pixel keeps its
      colour or turns black. */
  method Paint(w: nat, h: nat, img: Image, draws: seq<seq<nat>>) returns (img': Image, visited: set<Pos>)
    requires Shaped(img, w, h) && Draws(draws, w, h)
    ensures Shaped(img', w, h) && Below(visited, w, h)
    ensures forall x: nat, y: nat :: Interior(w, h, x, y) ==> Pos(x, y) in visited || IsLine(img[y][x])
    ensures forall x: nat, y: nat :: x < w && y < h && IsLine(img[y][x]) ==> img'[y][x] == img[y][x]
    ensures forall x: nat, y: nat :: x < w && y < h ==>
      img'[y][x] == img[y][x] || img'[y][x] == Opaque(Rgb(0, 0, 0))
  {
    InksInPalette(draws, w, h);
    img', visited := PaintInterior(w, h, img, Inks(draws, w, h), Palette);
    forall x: nat, y: nat | Interior(w, h, x, y) ensures Pos(x, y) in visited || IsLine(img[y][x]) {
      assert Covered(w, h, img, visited, x, y);
    }
  }
}

=== FILE: genesis_rules.dfy ===
/** The branching-plant L-system of genart/genesis/rules.mjs: the rule
    table, the tick that rewrites the sentence a fixed number of times, and
    the turtle that interprets the sentence with a stack of saved poses. */
module GenesisRules {
  import opened LSystem

  /** The two rules of the plant. */
  const Table: Rules := map['X' := "F+[[X]-X]-F[-FX]+X", 'F' := "FF"]

  /** Every rewrite quadruples the X symbols, since the X body holds four of
      them and the F body none; an F becomes two F and an X three F. */
  lemma {:induction false} Growth(s: string)
    ensures Occurrences(Rewrite(Table, s), 'X') == 4 * Occurrences(s, 'X')
    ensures Occurrences(Rewrite(Table, s), 'F') == 2 * Occurrences(s, 'F') + 3 * Occurrences(s, 'X')
  {
    if |s| > 0 {
      Growth(s[1..]);
      RewriteOccurrences(Table, s, 'X');
      RewriteOccurrences(Table, s, 'F');
      BodyCounts(s[0]);
    }
  }

  /** What one symbol contributes: X gives four X and three F, F gives two
      F, anything else itself. */
  lemma BodyCounts(c: char)
    ensures var w := Expand(Table, c);
      && Occurrences(w, 'X') == (if c == 'X' then 4 else 0)
      && Occurrences(w, 'F') == (if c == 'X' then 3 else if c == 'F' then 2 else 0)
  {
    if c == 'X' {
      assert Expand(Table, c) == "F+[[X]-X]-F[-FX]+X";
      XBody();
    } else if c == 'F' {
      assert Expand(Table, c) == "FF";
    } else {
      assert Expand(Table, c) == [c];
    }
  }

  /** The X body, counted symbol by symbol from its end. */
  lemma XBody()
    ensures Occurrences("F+[[X]-X]-F[-FX]+X", 'X') == 4
    ensures Occurrences("F+[[X]-X]-F[-FX]+X", 'F') == 3
  {
    var w := "F+[[X]-X]-F[-FX]+X";
    assert CountFrom(w, 18, 'X') == 0 && CountFrom(w, 18, 'F') == 0;
    assert CountFrom(w, 17, 'X') == 1 && CountFrom(w, 17, 'F') == 0;
    assert CountFrom(w, 16, 'X') == 1 && CountFrom(w, 16, 'F') == 0;
    assert CountFrom(w, 15, 'X') == 1 && CountFrom(w, 15, 'F') == 0;
    assert CountFrom(w, 14, 'X') == 2 && CountFrom(w, 14, 'F') == 0;
    assert CountFrom(w, 13, 'X') == 2 && CountFrom(w, 13, 'F') == 1;
    assert CountFrom(w, 12, 'X') == 2 && CountFrom(w, 12, 'F') == 1;
    assert CountFrom(w, 11, 'X') == 2 && CountFrom(w, 11, 'F') == 1;
    assert CountFrom(w, 10, 'X') == 2 && CountFrom(w, 10, 'F') == 2;
    assert CountFrom(w, 9, 'X') == 2 && CountFrom(w, 9, 'F') == 2;
    assert CountFrom(w, 8, 'X') == 2 && CountFrom(w, 8, 'F') == 2;
    assert CountFrom(w, 7, 'X') == 3 && CountFrom(w, 7, 'F') == 2;
    assert CountFrom(w, 6, 'X') == 3 && CountFrom(w, 6, 'F') == 2;
    assert CountFrom(w, 5, 'X') == 3 && CountFrom(w, 5, 'F') == 2;
    assert CountFrom(w, 4, 'X') == 4 && CountFrom(w, 4, 'F') == 2;
    assert CountFrom(w, 3, 'X') == 4 && CountFrom(w, 3, 'F') == 2;
    assert CountFrom(w, 2, 'X') == 4 && CountFrom(w, 2, 'F') == 2;
    assert CountFrom(w, 1, 'X') == 4 && CountFrom(w, 1, 'F') == 2;
    assert CountFrom(w, 0, 'X') == 4 && CountFrom(w, 0, 'F') == 3;
  }

  // ---------------------------------------------------------------------
  // tick
  // ---------------------------------------------------------------------

  /** The sketch's `sentence` and remaining `iterations`. */
  datatype Sketch = Sketch(sentence: string, iterations: nat)

  /** The state a click, or the first run, starts from. */
  const Reset: Sketch := Sketch("X", 6)

  /** `tick`: rewrite once, then schedule another tick while iterations
      remain, counting them down. The second component says whether another
      tick was scheduled. */
  function Tick(s: Sketch): (r: (Sketch, bool))
    ensures r.1 <==> s.iterations > 0
    ensures r.1 ==> r.0.iterations == s.iterations - 1
    ensures r.0.sentence == Rewrite(Table, s.sentence)
  {
    var next := Rewrite(Table, s.sentence);
    if s.iterations > 0 then (Sketch(next, s.iterations - 1), true)
    else (Sketch(next, s.iterations), false)
  }

  /** Ticks until none is scheduled: the final sentence and how many ticks
      ran. */
  function Animate(s: Sketch): (string, nat)
    decreases s.iterations
  {
    var (t, more) := Tick(s);
    if more then
      var (w, n) := Animate(t);
      (w, n + 1)
    else (t.sentence, 1)
  }

  /** `n` remaining iterations mean `n + 1` ticks and as many rewrites. */
  lemma {:induction false} AnimateRewrites(s: Sketch)
    decreases s.iterations
    ensures Animate(s) == (Iterate(Table, s.sentence, s.iterations + 1), s.iterations + 1)
  {
    if s.iterations > 0 {
      AnimateRewrites(Tick(s).0);
    }
  }

  /** From a reset the sketch rewrites exactly seven times and stops. */
  lemma AnimateFromReset()
    ensures Animate(Reset) == (Iterate(Table, "X", 7), 7)
  {
    AnimateRewrites(Reset);
  }

  // ---------------------------------------------------------------------
  // The turtle
  // ---------------------------------------------------------------------

  /** What `[` saves: position, heading and stroke width. */
  datatype Pose = Pose(x: real, y: real, angle: real, thickness: real)

  /** The turtle: its pose, the stack of saved poses and `stepIndex`, which
      is not saved. */
  datatype Turtle = Turtle(pose: Pose, stack: seq<Pose>, stepIndex: nat)

  /** One symbol. The trigonometry is the host's: `forward` gives the point
      one step ahead of a pose, and `turn(i)` the turn angle at the i-th
      turn, `angleStep` plus the Perlin jitter. */
  function Move(t: Turtle, c: char, forward: Pose -> (real, real), turn: nat -> real): (r: Turtle)
    ensures c == ']' && |t.stack| == 0 ==> r == t
    ensures c !in "F+-[]" ==> r == t
    ensures c != '[' && c != ']' ==> r.stack == t.stack
  {
    match c
    case 'F' =>
      var (nx, ny) := forward(t.pose);
      t.(pose := Pose(nx, ny, t.pose.angle, t.pose.thickness * 0.99))
    case '+' =>
      t.(pose := t.pose.(angle := t.pose.angle + turn(t.stepIndex)), stepIndex := t.stepIndex + 1)
    case '-' =>
      t.(pose := t.pose.(angle := t.pose.angle - turn(t.stepIndex)), stepIndex := t.stepIndex + 1)
    case '[' => t.(stack := t.stack + [t.pose])
    case ']' =>
      if |t.stack| == 0 then t
      else t.(pose := t.stack[|t.stack| - 1], stack := t.stack[..|t.stack| - 1])
    case _ => t
  }

  /** The turtle after reading `w` from the left. */
  function Trace(t: Turtle, w: string, forward: Pose -> (real, real), turn: nat -> real): Turtle
    decreases |w|
  {
    if |w| == 0 then t
    else Move(Trace(t, w[..|w| - 1], forward, turn), w[|w| - 1], forward, turn)
  }

  lemma {:induction false} TraceAppend(t: Turtle, a: string, b: string,
                                       forward: Pose -> (real, real), turn: nat -> real)
    decreases |b|
    ensures Trace(t, a + b, forward, turn) == Trace(Trace(t, a, forward, turn), b, forward, turn)
  {
    if |b| == 0 {
      assert a + b == a;
    } else {
      var n := |b| - 1;
      assert (a + b)[..|a + b| - 1] == a + b[..n];
      TraceAppend(t, a, b[..n], forward, turn);
    }
  }

  /** Opening brackets minus closing brackets. */
  function Depth(w: string): int
    decreases |w|
  {
    if |w| == 0 then 0
    else
      var c := w[|w| - 1];
      Depth(w[..|w| - 1]) + (if c == '[' then 1 else if c == ']' then -1 else 0)
  }

  /** No prefix closes more brackets than it opens. */
  predicate NeverBelow(w: string) {
    forall k :: 0 <= k <= |w| ==> Depth(w[..k]) >= 0
  }

  /** A word that never closes more than it opened leaves the saved poses
      below it alone, with `Depth(w)` new ones on top. */
  lemma {:induction false} KeepsBottom(t: Turtle, w: string, forward: Pose -> (real, real), turn: nat -> real)
    requires NeverBelow(w)
    decreases |w|
    ensures var s := Trace(t, w, forward, turn).stack;
      Depth(w) >= 0 && |s| == |t.stack| + Depth(w) && s[..|t.stack|] == t.stack
  {
    if |w| > 0 {
      var n := |w| - 1;
      var v := w[..n];
      assert NeverBelow(v) by {
        forall k | 0 <= k <= |v| ensures Depth(v[..k]) >= 0 {
          assert v[..k] == w[..k];
        }
      }
      KeepsBottom(t, v, forward, turn);
      assert Depth(w[..|w|]) >= 0 by {
        assert w[..|w|] == w;
      }
      var before := Trace(t, v, forward, turn);
      if w[n] == '[' {
        assert (before.stack + [before.pose])[..|t.stack|] == before.stack[..|t.stack|];
      } else if w[n] == ']' {
        assert before.stack[..|before.stack| - 1][..|t.stack|] == before.stack[..|t.stack|];
      }
    }
  }

  /** `[` saves the pose and the matching `]` restores it: a bracketed word
      that is balanced inside comes back to the pose and stack it started
      from. Only `stepIndex` keeps counting. */
  lemma BracketRestores(t: Turtle, w: string, forward: Pose -> (real, real), turn: nat -> real)
    requires NeverBelow(w) && Depth(w) == 0
    ensures var r := Trace(t, "[" + w + "]", forward, turn);
      r.pose == t.pose && r.stack == t.stack
  {
    var pushed := Move(t, '[', forward, turn);
    assert Trace(t, "[", forward, turn) == pushed by {
      assert "["[..0] == "";
    }
    TraceAppend(t, "[", w, forward, turn);
    KeepsBottom(pushed, w, forward, turn);
    var inside := Trace(pushed, w, forward, turn);
    assert inside.stack == pushed.stack;
    assert ("[" + w + "]")[..|"[" + w + "]"| - 1] == "[" + w;
  }
}

=== FILE: genesis_shape.dfy ===
/** The colouring of genart/genesis/shape.mjs: `paint` over the drawn
    closed curve, each interior region taking a random colour. */
module GenesisShape {
  import opened FloodFill

  /** `COLORS`: red, blue, yellow. */
  const Colors: seq<Rgb> := [Rgb(255, 0, 0), Rgb(0, 0, 255), Rgb(255, 255, 0)]

  /** The colours as painted pixels. */
  const Palette: set<Rgba> := {Opaque(Colors[0]), Opaque(Colors[1]), Opaque(Colors[2])}

  /** `draws[y][x]` is the `rnd(COLORS.length)` drawn by `randColor` if a
      fill starts at (x, y). */
  predicate Draws(draws: seq<seq<nat>>, w: nat, h: nat) {
    && |draws| == h
    && forall y :: 0 <= y < h ==> |draws[y]| == w && forall x :: 0 <= x < w ==> draws[y][x] < |Colors|
  }

  /** The ink of every possible start. */
  function Inks(draws: seq<seq<nat>>, w: nat, h: nat): (inks: seq<seq<Ink>>)
    requires Draws(draws, w, h)
    ensures InksShaped(inks, w, h) && AllSolid(inks, w, h)
    ensures forall x, y :: 0 <= x < w && 0 <= y < h ==> inks[y][x] == Solid(Colors[draws[y][x]])
  {
    seq(h, y requires 0 <= y < h => seq(w, x requires 0 <= x < w => Solid(Colors[draws[y][x]])))
  }

  lemma InksInPalette(draws: seq<seq<nat>>, w: nat, h: nat)
    requires Draws(draws, w, h)
    ensures InksIn(Inks(draws, w, h), w, h, Palette)
  {
    var inks := Inks(draws, w, h);
    forall x, y | 0 <= x < w && 0 <= y < h
      ensures ValidInk(inks[y][x])
      ensures forall q :: InkAt(inks[y][x], q).Some? ==> Opaque(InkAt(inks[y][x], q).value) in Palette
    {
      assert inks[y][x] == Solid(Colors[draws[y][x]]);
    }
  }

  /** `paint`. `outside` is what the frame pass claimed: exactly the
      pixels a walk from the frame reaches, closed under non-line
      neighbours; it keeps its colour, as do line pixels. Every other
      pixel, a region cut off from the frame included, becomes red, blue
      or yellow. */
  method Paint(w: nat, h: nat, img: Image, draws: seq<seq<nat>>) returns (img': Image, outside: set<Pos>)
    requires Shaped(img, w, h) && w > 0 && h > 0 && Draws(draws, w, h)
    ensures Shaped(img', w, h) && Sealed(w, h, img, outside)
    ensures forall ps :: FramePath(w, h, img, ps) ==> ps[|ps| - 1] in outside
    ensures forall p :: p in outside <==> FrameReached(w, h, img, p)
    ensures forall x: nat, y: nat :: x < w && y < h && (Pos(x, y) in outside || IsLine(img[y][x])) ==>
      img'[y][x] == img[y][x]
    ensures forall x: nat, y: nat :: x < w && y < h && Pos(x, y) !in outside && !IsLine(img[y][x]) ==>
      img'[y][x] in Palette
    ensures forall x: nat, y: nat ::
      x < w && y < h && !FrameReached(w, h, img, Pos(x, y)) && !IsLine(img[y][x]) ==> img'[y][x] in Palette
  {
    InksInPalette(draws, w, h);
    var visited;
    img', outside, visited := FloodFill.Paint(w, h, img, Inks(draws, w, h), Palette, true);
  }
}

=== FILE: genesis_symmetry.dfy ===
/** The colouring and the polar helpers of genart/genesis/symmetry.mjs:
    `paint` over the mirrored wedge drawing, each interior region taking a
    random colour, the reflection of a local angle and the ring radii. */
module GenesisSymmetry {
  import opened FloodFill

  /** `COLORS`: red, blue, yellow, green, magenta, cyan. */
  const Colors: seq<Rgb> := [Rgb(255, 0, 0), Rgb(0, 0, 255), Rgb(255, 255, 0),
                          Rgb(0, 255, 0), Rgb(255, 0, 255), Rgb(0, 255, 255)]

  /** The colours as painted pixels. */
  const Palette: set<Rgba> := {Opaque(Colors[0]), Opaque(Colors[1]), Opaque(Colors[2]),
                               Opaque(Colors[3]), Opaque(Colors[4]), Opaque(Colors[5])}

  /** `draws[y][x]` is the `rnd(COLORS.length)` drawn by `randColor` if a
      fill starts at (x, y). */
  predicate Draws(draws: seq<seq<nat>>, w: nat, h: nat) {
    && |draws| == h
    && forall y :: 0 <= y < h ==> |draws[y]| == w && forall x :: 0 <= x < w ==> draws[y][x] < |Colors|
  }

  /** The ink of every possible start. */
  function Inks(draws: seq<seq<nat>>, w: nat, h: nat): (inks: seq<seq<Ink>>)
    requires Draws(draws, w, h)
    ensures InksShaped(inks, w, h) && AllSolid(inks, w, h)
    ensures forall x, y :: 0 <= x < w && 0 <= y < h ==> inks[y][x] == Solid(Colors[draws[y][x]])
  {
    seq(h, y requires 0 <= y < h => seq(w, x requires 0 <= x < w => Solid(Colors[draws[y][x]])))
  }

  lemma InksInPalette(draws: seq<seq<nat>>, w: nat, h: nat)
    requires Draws(draws, w, h)
    ensures InksIn(Inks(draws, w, h), w, h, Palette)
  {
    var inks := Inks(draws, w, h);
    forall x, y | 0 <= x < w && 0 <= y < h
      ensures ValidInk(inks[y][x])
      ensures forall q :: InkAt(inks[y][x], q).Some? ==> Opaque(InkAt(inks[y][x], q).value) in Palette
    {
      assert inks[y][x] == Solid(Colors[draws[y][x]]);
    }
  }

  /** `paint`. `outside` is what the frame pass claimed: exactly the
      pixels a walk from the frame reaches, closed under non-line
      neighbours; it keeps its colour, as do line pixels. Every other
      pixel, a region cut off from the frame included, becomes one of the
      six colours. */
  method Paint(w: nat, h: nat, img: Image, draws: seq<seq<nat>>) returns (img': Image, outside: set<Pos>)
    requires Shaped(img, w, h) && w > 0 && h > 0 && Draws(draws, w, h)
    ensures Shaped(img', w, h) && Sealed(w, h, img, outside)
    ensures forall ps :: FramePath(w, h, img, ps) ==> ps[|ps| - 1] in outside
    ensures forall p :: p in outside <==> FrameReached(w, h, img, p)
    ensures forall x: nat, y: nat :: x < w && y < h && (Pos(x, y) in outside || IsLine(img[y][x])) ==>
      img'[y][x] == img[y][x]
    ensures forall x: nat, y: nat :: x < w && y < h && Pos(x, y) !in outside && !IsLine(img[y][x]) ==>
      img'[y][x] in Palette
    ensures forall x: nat, y: nat ::
      x < w && y < h && !FrameReached(w, h, img, Pos(x, y)) && !IsLine(img[y][x]) ==> img'[y][x] in Palette
  {
    InksInPalette(draws, w, h);
    var visited;
    img', outside, visited := FloodFill.Paint(w, h, img, Inks(draws, w, h), Palette, true);
  }

  // ---------------------------------------------------------------------
  // Polar helpers
  // ---------------------------------------------------------------------

  /** `reflectLocalTheta(dTheta, tLocal)`: the local angle mirrored inside
      a wedge of angle `dTheta`. */
  function ReflectLocalTheta(dTheta: real, tLocal: real): real {
    dTheta - tLocal
  }

  /** Mirroring twice gives the angle back, and the mirror swaps the two
      sides of the wedge. */
  lemma ReflectInvolution(dTheta: real, t: real)
    ensures ReflectLocalTheta(dTheta, ReflectLocalTheta(dTheta, t)) == t
    ensures ReflectLocalTheta(dTheta, 0.0) == dTheta && ReflectLocalTheta(dTheta, dTheta) == 0.0
    ensures 0.0 <= t <= dTheta ==> 0.0 <= ReflectLocalTheta(dTheta, t) <= dTheta
  {
  }

  /** `raddii(layer)`: the inner and outer radius of ring `layer` of
      `layers` rings filling `radius`. */
  function Raddii(layer: int, layers: nat, radius: real): (real, real)
    requires layers > 0
  {
    (((layer - 1) as real / layers as real) * radius, (layer as real / layers as real) * radius)
  }

  /** The rings are contiguous and of equal width, the first starts at
      the centre and the last ends at `radius`. */
  lemma RaddiiContiguous(layer: int, layers: nat, radius: real)
    requires layers > 0
    ensures Raddii(layer, layers, radius).1 == Raddii(layer + 1, layers, radius).0
    ensures Raddii(layer, layers, radius).1 - Raddii(layer, layers, radius).0 == radius / layers as real
    ensures Raddii(1, layers, radius).0 == 0.0
    ensures Raddii(layers, layers, radius).1 == radius
  {
    var n := layers as real;
    assert (layer as real / n) * radius - ((layer - 1) as real / n) * radius
        == ((layer as real - (layer - 1) as real) / n) * radius;
  }

}

=== FILE: genuary_letters.dfy ===
/** The letter board of genart/genuary2026/05_write_genuary.mjs: the word
    GENUARY drawn as a 5 by 22 box of tiles, placed somewhere on the grid,
    whose cells collapse to their tile with a probability that creeps up to
    one. */
module GenuaryLetters {
  import opened Optional

  /** Tile indices into `TILES`; only those the letters use are named. */
  const LeftSide: nat := 0
  const RightSide: nat := 1
  const TopSide: nat := 2
  const BottomSide: nat := 3
  const ForwardDiagonal: nat := 4
  const TopRightQuarterArc: nat := 8
  const TopLeftQuarterArc: nat := 9
  const BottomRightQuarterArc: nat := 10
  const BottomLeftQuarterArc: nat := 11
  const LeftTee: nat := 12
  const TopLeftVArrow: nat := 18
  const BottomRightVArrow: nat := 20
  const TopRightCorner: nat := 24
  const TopLeftCorner: nat := 25
  const BothVerticals: nat := 28
  const Blank: nat := 30

  /** `TILES.length`. */
  const TileCount: nat := 31

  type Letter = seq<seq<nat>>

  const G: Letter := [[TopLeftQuarterArc, TopRightQuarterArc], [LeftSide, BottomSide],
                      [BottomLeftQuarterArc, BottomRightQuarterArc]]
  const E: Letter := [[TopLeftQuarterArc, TopSide], [LeftTee, Blank],
                      [BottomLeftQuarterArc, BottomSide]]
  const N: Letter := [[TopLeftVArrow, RightSide], [LeftSide, BothVerticals],
                      [LeftSide, BottomRightVArrow]]
  const U: Letter := [[LeftSide, RightSide], [LeftSide, RightSide],
                      [BottomLeftQuarterArc, BottomRightQuarterArc]]
  const A: Letter := [[TopLeftQuarterArc, TopRightQuarterArc], [LeftSide, RightSide],
                      [TopLeftCorner, TopRightCorner]]
  const R: Letter := [[TopLeftQuarterArc, TopRightQuarterArc], [LeftSide, BottomRightQuarterArc],
                      [TopLeftCorner, ForwardDiagonal]]
  const Y: Letter := [[LeftSide, RightSide], [BottomLeftQuarterArc, BottomRightQuarterArc],
                      [RightSide, Blank]]

  const Genuary: seq<Letter> := [G, E, N, U, A, R, Y]

  const GridRows: nat := 5
  const GridCols: nat := 22

  /** Three rows of two tiles, each a valid tile index. */
  predicate WellShaped(l: Letter) {
    && |l| == 3
    && forall r :: 0 <= r < 3 ==> |l[r]| == 2 && l[r][0] < TileCount && l[r][1] < TileCount
  }

  /** Every letter of the word is three rows of two tiles. */
  lemma LettersWellShaped()
    ensures |Genuary| == 7
    ensures forall i :: 0 <= i < 7 ==> WellShaped(Genuary[i])
  {
    assert WellShaped(G) && WellShaped(E) && WellShaped(N) && WellShaped(U);
    assert WellShaped(A) && WellShaped(R) && WellShaped(Y);
  }

  /** Whether (row, col) of the box is on its one-tile frame. */
  predicate OnBorder(row: nat, col: nat) {
    row == 0 || row == GridRows - 1 || col == 0 || col == GridCols - 1
  }

  /** `getGenuaryTileAt`: a frame of blanks round seven letters, each two
      tiles wide and followed by a blank spacer column. */
  function TileAt(row: nat, col: nat): (t: nat)
    requires row < GridRows && col < GridCols
    ensures t < TileCount
    ensures OnBorder(row, col) ==> t == Blank
    ensures !OnBorder(row, col) && (col - 1) % 3 == 2 ==> t == Blank
  {
    if OnBorder(row, col) then Blank
    else
      var letterIndex := (col - 1) / 3;
      var letterCol := (col - 1) % 3;
      if letterCol == 2 then Blank
      else
        LettersWellShaped();
        Genuary[letterIndex][row - 1][letterCol]
  }

  /** The lookup is in bounds: inside the frame the letter index is one of
      the seven and the row and column fall inside a 3 by 2 letter. */
  lemma LookupInBounds(row: nat, col: nat)
    requires 1 <= row <= 3 && 1 <= col <= 20
    ensures (col - 1) / 3 < |Genuary|
    ensures (col - 1) % 3 < 2 ==>
      (row - 1 < |Genuary[(col - 1) / 3]| && (col - 1) % 3 < |Genuary[(col - 1) / 3][row - 1]|)
  {
    LettersWellShaped();
  }

  /** Read the other way round: tile (r, c) of letter i sits at box row
      r + 1 and column 3i + c + 1. */
  lemma LetterPlacement(i: nat, r: nat, c: nat)
    requires i < 7 && r < 3 && c < 2
    ensures TileAt(r + 1, 3 * i + c + 1) == Genuary[i][r][c]
  {
    var col := 3 * i + c + 1;
    assert (col - 1) / 3 == i && (col - 1) % 3 == c;
  }

  // ---------------------------------------------------------------------
  // The grid
  // ---------------------------------------------------------------------

  /** One grid cell: its target tile, how likely it is to show that tile,
      and whether it belongs to the word. */
  datatype Cell = Cell(tile: nat, probability: real, inWord: bool)

  type Grid = seq<seq<Cell>>

  predicate Shaped(g: Grid, rows: nat, cols: nat) {
    |g| == rows && forall r :: 0 <= r < rows ==> |g[r]| == cols
  }

  /** Whether (r, c) lies in the box whose top-left corner is (gx, gy). */
  predicate InBox(gx: nat, gy: nat, r: nat, c: nat) {
    gy <= r < gy + GridRows && gx <= c < gx + GridCols
  }

  /** One cell of `init`. */
  function InitCell(gx: nat, gy: nat, r: nat, c: nat): Cell {
    if InBox(gx, gy, r, c) then Cell(TileAt(r - gy, c - gx), 0.0, true)
    else Cell(Blank, 0.0, false)
  }

  /** `init`: the corner (gx, gy) is the random draw, which keeps the box
      inside the grid. Every cell starts at probability zero; the cells of
      the box are the word and carry its tile, all others are blank. */
  function Init(rows: nat, cols: nat, gx: nat, gy: nat): (g: Grid)
    requires rows >= GridRows && cols >= GridCols
    requires gx + GridCols <= cols && gy + GridRows <= rows
    ensures Shaped(g, rows, cols)
    ensures forall r, c :: 0 <= r < rows && 0 <= c < cols ==>
      g[r][c].probability == 0.0 && (g[r][c].inWord <==> InBox(gx, gy, r, c))
    ensures forall r, c :: 0 <= r < rows && 0 <= c < cols && !InBox(gx, gy, r, c) ==>
      g[r][c].tile == Blank
  {
    seq(rows, r requires 0 <= r < rows => seq(cols, c requires 0 <= c < cols => InitCell(gx, gy, r, c)))
  }

  /** The box of a fresh grid spells the word: each letter tile sits at its
      place, offset by the corner. */
  lemma InitSpells(rows: nat, cols: nat, gx: nat, gy: nat, i: nat, r: nat, c: nat)
    requires rows >= GridRows && cols >= GridCols
    requires gx + GridCols <= cols && gy + GridRows <= rows
    requires i < 7 && r < 3 && c < 2
    ensures Init(rows, cols, gx, gy)[gy + r + 1][gx + 3 * i + c + 1].tile == Genuary[i][r][c]
  {
    LetterPlacement(i, r, c);
  }

  /** The corner draw of `init`, `Math.floor(Math.random() * (n - span))`,
      for a draw u in [0, 1). */
  function Corner(n: int, span: int, u: real): (k: int)
    requires 0.0 <= u < 1.0
    ensures n >= span ==> 0 <= k && k + span <= n
    ensures n < span ==> n - span <= k <= 0
  {
    var d := (n - span) as real;
    Scaled(u, d);
    var k := (u * d).Floor;
    assert k as real <= u * d < k as real + 1.0;
    k
  }

  /** A fraction u in [0, 1) of d lies between 0 and d. */
  lemma Scaled(u: real, d: real)
    requires 0.0 <= u < 1.0
    ensures d >= 0.0 ==> 0.0 <= u * d <= d
    ensures d < 0.0 ==> d <= u * d <= 0.0
  {
    var e := if d >= 0.0 then d else -d;
    NonNegProduct(u, e);
    NonNegProduct(1.0 - u, e);
    assert e - u * e == (1.0 - u) * e;
    if d < 0.0 {
      assert u * d == -(u * e);
    }
  }

  lemma NonNegProduct(a: real, b: real)
    requires a >= 0.0 && b >= 0.0
    ensures a * b >= 0.0
  {
  }

  /** Whether the box's rows gy .. gy + 4, which the row loops of both
      `isDone` and `update` run over, include a row the grid does not have:
      the first lies above the grid or the last below it. */
  predicate BoxMissesRow(rows: int, gy: int) {
    gy < 0 || gy + GridRows - 1 >= rows
  }

  /** As written, `init` places the box whatever the grid's height: on a
      grid of fewer than five rows (a wide, low window) the box cannot fit.
      The first frame then calls `isDone` before `update`, and its
      `grid[row][col]` reads a row outside the grid: `grid[row]` is
      undefined, so reading a column of it throws and stops the sketch
      before `update` runs. */
  lemma ShortGridReadMisses(rows: nat, w: real)
    requires rows < GridRows && 0.0 <= w < 1.0
    ensures BoxMissesRow(rows, Corner(rows, GridRows, w))
  {
    var gy := Corner(rows, GridRows, w);
    assert gy <= 0 && rows <= GridRows - 1;
  }

  /** The evidently intended start: the word is placed only where it fits,
      at the corner the draws give, and a grid too small for it is left
      without a word, so `isDone` and `update` stay on the grid's rows. */
  function Start(rows: nat, cols: nat, u: real, w: real): (s: Option<(Grid, nat, nat)>)
    requires 0.0 <= u < 1.0 && 0.0 <= w < 1.0
    ensures s.Some? <==> rows >= GridRows && cols >= GridCols
    ensures s.Some? ==>
      var (g, gx, gy) := s.value;
      && gx + GridCols <= cols && gy + GridRows <= rows
      && !BoxMissesRow(rows, gy)
      && g == Init(rows, cols, gx, gy)
  {
    if rows >= GridRows && cols >= GridCols then
      var gx: nat, gy: nat := Corner(cols, GridCols, u), Corner(rows, GridRows, w);
      Some((Init(rows, cols, gx, gy), gx, gy))
    else None
  }

  /** `isDone`: every cell of the box has reached probability one. */
  predicate Done(g: Grid, gx: nat, gy: nat)
    requires gy + GridRows <= |g| && forall r :: 0 <= r < |g| ==> gx + GridCols <= |g[r]|
  {
    forall r, c :: gy <= r < gy + GridRows && gx <= c < gx + GridCols ==> g[r][c].probability >= 1.0
  }

  /** The loops of `isDone`. The `break` leaves only the inner loop, so the
      outer loop runs on, but `allOnes` never becomes true again. */
  method IsDone(g: Grid, gx: nat, gy: nat) returns (allOnes: bool)
    requires gy + GridRows <= |g| && forall r :: 0 <= r < |g| ==> gx + GridCols <= |g[r]|
    ensures allOnes <==> Done(g, gx, gy)
  {
    allOnes := true;
    var row := gy;
    while row < gy + GridRows
      invariant gy <= row <= gy + GridRows
      invariant allOnes <==> forall r, c :: gy <= r < row && gx <= c < gx + GridCols ==>
        g[r][c].probability >= 1.0
    {
      var col := gx;
      while col < gx + GridCols
        invariant gx <= col <= gx + GridCols
        invariant allOnes <==> (forall r, c :: gy <= r < row && gx <= c < gx + GridCols ==>
          g[r][c].probability >= 1.0) && forall c :: gx <= c < col ==> g[row][c].probability >= 1.0
      {
        if g[row][col].probability < 1.0 {
          allOnes := false;
          break;
        }
        col := col + 1;
      }
      row := row + 1;
    }
  }

  /** A fresh grid is never done: its box is all zeros. */
  lemma InitNotDone(rows: nat, cols: nat, gx: nat, gy: nat)
    requires rows >= GridRows && cols >= GridCols
    requires gx + GridCols <= cols && gy + GridRows <= rows
    ensures !Done(Init(rows, cols, gx, gy), gx, gy)
  {
    var g: Grid := Init(rows, cols, gx, gy);
    assert g[gy][gx].probability == 0.0;
  }

  /** One cell of `update`, with `step` the draw `Math.random() * 0.01`. */
  function Creep(p: real, step: real): (q: real)
    requires 0.0 <= step
    ensures p < 1.0 ==> p <= q <= 1.0
    ensures p >= 1.0 ==> q == p
  {
    if p < 1.0 then (if p + step > 1.0 then 1.0 else p + step) else p
  }

  /** Draws for every cell of the box, row by row. */
  predicate Steps(steps: seq<seq<real>>) {
    && |steps| == GridRows
    && forall r :: 0 <= r < GridRows ==>
      |steps[r]| == GridCols && forall c :: 0 <= c < GridCols ==> 0.0 <= steps[r][c] < 0.01
  }

  /** `update`: only the box cells move, each by its own draw. */
  function Update(g: Grid, gx: nat, gy: nat, steps: seq<seq<real>>): (h: Grid)
    requires gy + GridRows <= |g| && forall r :: 0 <= r < |g| ==> gx + GridCols <= |g[r]|
    requires Steps(steps)
    ensures |h| == |g| && forall r :: 0 <= r < |g| ==> |h[r]| == |g[r]|
    ensures forall r, c :: 0 <= r < |g| && 0 <= c < |g[r]| ==>
      h[r][c].tile == g[r][c].tile && h[r][c].inWord == g[r][c].inWord
    ensures forall r, c :: 0 <= r < |g| && 0 <= c < |g[r]| && !InBox(gx, gy, r, c) ==>
      h[r][c] == g[r][c]
  {
    seq(|g|, r requires 0 <= r < |g| =>
      seq(|g[r]|, c requires 0 <= c < |g[r]| =>
        if InBox(gx, gy, r, c) then
          g[r][c].(probability := Creep(g[r][c].probability, steps[r - gy][c - gx]))
        else g[r][c]))
  }

  /** Probabilities stay in [0, 1]. */
  predicate Bounded(g: Grid) {
    forall r, c :: 0 <= r < |g| && 0 <= c < |g[r]| ==> 0.0 <= g[r][c].probability <= 1.0
  }

  /** `update` never lowers a probability and never lifts one above one. */
  lemma UpdateMonotone(g: Grid, gx: nat, gy: nat, steps: seq<seq<real>>)
    requires gy + GridRows <= |g| && forall r :: 0 <= r < |g| ==> gx + GridCols <= |g[r]|
    requires Steps(steps) && Bounded(g)
    ensures var h := Update(g, gx, gy, steps);
      && Bounded(h)
      && forall r, c :: 0 <= r < |g| && 0 <= c < |g[r]| ==> g[r][c].probability <= h[r][c].probability
  {
  }

  /** Once done, an update changes nothing. */
  lemma DoneIsStill(g: Grid, gx: nat, gy: nat, steps: seq<seq<real>>)
    requires gy + GridRows <= |g| && forall r :: 0 <= r < |g| ==> gx + GridCols <= |g[r]|
    requires Steps(steps) && Done(g, gx, gy)
    ensures Update(g, gx, gy, steps) == g
  {
    var h := Update(g, gx, gy, steps);
    forall r | 0 <= r < |g| ensures h[r] == g[r] {
      forall c | 0 <= c < |g[r]| ensures h[r][c] == g[r][c] {
      }
    }
  }
}

=== FILE: hex_life.dfy ===
/** The hue-diffusing hexagonal automaton of genart/genesis/life.mjs. The
    canvas is a torus of hexagons laid out in rows, odd rows shifted half a
    hexagon to the right; each step moves every cell's hue towards the
    circular mean of its six neighbours' hues and nudges it by a slow
    turbulence term. The new grid is computed from the old one into a second
    buffer, and the two buffers are then swapped. */
module HexLife {

  /** One hexagon: hue, saturation, value and the phase of its turbulence. */
  datatype Cell = Cell(h: real, s: real, v: real, angle: real)

  type Grid = seq<seq<Cell>>

  /** A rows by cols grid, both at least one. */
  predicate Rect(g: Grid) {
    && |g| > 0 && |g[0]| > 0
    && forall r :: 0 <= r < |g| ==> |g[r]| == |g[0]|
  }

  // ---------------------------------------------------------------------
  // Neighbours
  // ---------------------------------------------------------------------

  /** `NEIGHBORS_EVEN` and `NEIGHBORS_ODD`, as (column, row) offsets. */
  const NeighboursEven: seq<(int, int)> := [(1, 0), (-1, 0), (0, -1), (-1, -1), (0, 1), (-1, 1)]
  const NeighboursOdd: seq<(int, int)> := [(1, 0), (-1, 0), (1, -1), (0, -1), (1, 1), (0, 1)]

  /** `row & 1` picks the table. */
  function OffsetsFor(row: int): (offs: seq<(int, int)>)
    ensures |offs| == 6
    ensures forall i :: 0 <= i < 6 ==> -1 <= offs[i].0 <= 1 && -1 <= offs[i].1 <= 1
  {
    if row % 2 == 1 then NeighboursOdd else NeighboursEven
  }

  /** An index one step off the grid is replaced by the index at the other
      end: below zero becomes n - 1, and n or more becomes 0. */
  function WrapAt(i: int, n: nat): (j: nat)
    requires n > 0 && -1 <= i <= n
    ensures j < n
  {
    var k := if i < 0 then n - 1 else i;
    if k >= n then 0 else k
  }

  /** The wrap is the torus: it agrees with arithmetic modulo n. */
  lemma WrapIsModular(i: nat, d: int, n: nat)
    requires i < n && -1 <= d <= 1
    ensures WrapAt(i + d, n) == (i + d + n) % n
  {
  }

  /** Where the neighbour at offset number k of (row, col) sits. */
  function NeighbourPos(rows: nat, cols: nat, row: nat, col: nat, k: nat): (p: (nat, nat))
    requires row < rows && col < cols && k < 6
    ensures p.0 < rows && p.1 < cols
  {
    var o := OffsetsFor(row)[k];
    (WrapAt(row + o.1, rows), WrapAt(col + o.0, cols))
  }

  /** `getNeighbours`: the six cells around (row, col), in table order. */
  function Neighbours(g: Grid, row: nat, col: nat): (ns: seq<Cell>)
    requires Rect(g) && row < |g| && col < |g[0]|
    ensures |ns| == 6
  {
    seq(6, k requires 0 <= k < 6 =>
      var p := NeighbourPos(|g|, |g[0]|, row, col, k);
      g[p.0][p.1])
  }

  /** Each neighbour is the cell at the toroidal position of its offset. */
  lemma NeighboursOnTorus(g: Grid, row: nat, col: nat, k: nat)
    requires Rect(g) && row < |g| && col < |g[0]| && k < 6
    ensures var o := OffsetsFor(row)[k];
      Neighbours(g, row, col)[k] == g[(row + o.1 + |g|) % |g|][(col + o.0 + |g[0]|) % |g[0]|]
  {
    var o := OffsetsFor(row)[k];
    WrapIsModular(row, o.1, |g|);
    WrapIsModular(col, o.0, |g[0]|);
  }

  // ---------------------------------------------------------------------
  // The offsets are the hexagonal neighbourhood
  // ---------------------------------------------------------------------

  /** Axial coordinates of an odd-row-shifted hexagon. */
  function AxialQ(col: int, row: int): int {
    col - (row - row % 2) / 2
  }

  function Abs(x: int): nat {
    if x < 0 then -x else x
  }

  function Max(a: nat, b: nat): nat {
    if a < b then b else a
  }

  /** Hexagonal distance between two cells, through axial coordinates: the
      largest of the three cube-coordinate differences. */
  function HexDist(c1: int, r1: int, c2: int, r2: int): nat {
    var dq, dr := AxialQ(c2, r2) - AxialQ(c1, r1), r2 - r1;
    Max(Max(Abs(dq), Abs(dr)), Abs(dq + dr))
  }

  /** How the axial column moves from row to row + dr, for one step dr. */
  lemma AxialStep(c: int, row: int, dr: int)
    requires -1 <= dr <= 1
    ensures AxialQ(c, row + dr) == AxialQ(c, row) +
      (if row % 2 == 0 && dr == -1 then 1 else if row % 2 == 1 && dr == 1 then -1 else 0)
  {
    var m := (row - row % 2) / 2;
    assert row == 2 * m + row % 2;
    if row % 2 == 0 {
      assert (row + 1) % 2 == 1 && (row + 1 - 1) / 2 == m;
      assert (row - 1) % 2 == 1 && (row - 1 - 1) / 2 == m - 1;
    } else {
      assert (row + 1) % 2 == 0 && (row + 1) / 2 == m + 1;
      assert (row - 1) % 2 == 0 && (row - 1) / 2 == m;
    }
  }

  /** Whether (c, r) is reached from (col, row) by one of row's offsets. */
  predicate IsOffsetOf(col: int, row: int, c: int, r: int) {
    exists k :: 0 <= k < 6 && c == col + OffsetsFor(row)[k].0 && r == row + OffsetsFor(row)[k].1
  }

  /** Before wrapping, the six offsets of a row reach exactly the cells at
      hexagonal distance one: the shift of odd rows is the one the tables
      assume. */
  lemma OffsetsAreHexNeighbours(col: int, row: int, c: int, r: int)
    ensures IsOffsetOf(col, row, c, r) <==> HexDist(col, row, c, r) == 1
  {
    var offs := OffsetsFor(row);
    if IsOffsetOf(col, row, c, r) {
      var k :| 0 <= k < 6 && c == col + offs[k].0 && r == row + offs[k].1;
      AxialStep(c, row, offs[k].1);
    }
    if HexDist(col, row, c, r) == 1 {
      var dr := r - row;
      assert -1 <= dr <= 1;
      AxialStep(c, row, dr);
      NeighbourCases(col, row, c, r);
    }
  }

  /** The six cells at distance one are the six table entries. */
  lemma NeighbourCases(col: int, row: int, c: int, r: int)
    requires -1 <= r - row <= 1 && HexDist(col, row, c, r) == 1
    ensures IsOffsetOf(col, row, c, r)
  {
    var offs := OffsetsFor(row);
    var dc, dr := c - col, r - row;
    AxialStep(c, row, dr);
    var k := if row % 2 == 1 then
        if dr == 0 then (if dc == 1 then 0 else 1)
        else if dr == -1 then (if dc == 1 then 2 else 3)
        else (if dc == 1 then 4 else 5)
      else
        if dr == 0 then (if dc == 1 then 0 else 1)
        else if dr == -1 then (if dc == 0 then 2 else 3)
        else (if dc == 0 then 4 else 5);
    assert c == col + offs[k].0 && r == row + offs[k].1;
  }

  /** When the grid has at least three rows and three columns, the six
      wrapped neighbours are six different cells, none of them the cell
      itself. */
  lemma NeighboursDistinct(rows: nat, cols: nat, row: nat, col: nat)
    requires 3 <= rows && 3 <= cols && row < rows && col < cols
    ensures forall k, l :: 0 <= k < l < 6 ==> NeighbourPos(rows, cols, row, col, k) != NeighbourPos(rows, cols, row, col, l)
    ensures forall k :: 0 <= k < 6 ==> NeighbourPos(rows, cols, row, col, k) != (row, col)
  {
  }

  // ---------------------------------------------------------------------
  // Hue arithmetic
  // ---------------------------------------------------------------------

  /** JavaScript's `x % 1` on a number: the remainder takes the sign of x. */
  function RemOne(x: real): (y: real)
    ensures x >= 0.0 ==> 0.0 <= y < 1.0
    ensures x < 0.0 ==> -1.0 < y <= 0.0
    ensures (x - y).Floor as real == x - y
  {
    if x >= 0.0 then
      var n := x.Floor;
      assert (n as real).Floor == n;
      x - n as real
    else
      var n := (-x).Floor;
      assert (-(n as real)).Floor == -n;
      x + n as real
  }

  /** `lerpHue`: moves h1 a fraction t of the signed way to h2 around the
      hue circle. */
  function LerpHue(h1: real, h2: real, t: real): real {
    RemOne(h1 + Part(Toward(h1, h2), t) + 1.0)
  }

  /** The fraction t of the step d: no longer than d, and on the same side of
      zero, when t is in [0, 1]. */
  function Part(d: real, t: real): (p: real)
    ensures 0.0 <= t <= 1.0 && d >= 0.0 ==> 0.0 <= p <= d
    ensures 0.0 <= t <= 1.0 && d < 0.0 ==> d <= p <= 0.0
  {
    if 0.0 <= t <= 1.0 then Scale(d, t); d * t else d * t
  }

  /** The signed step from h1 to h2 around the circle: between -0.5 and 0.5
      when h2 is not far below h1, and between -1.5 and 0.5 otherwise. */
  function Toward(h1: real, h2: real): (d: real)
    ensures h2 - h1 + 1.5 >= 0.0 ==> -0.5 <= d < 0.5
    ensures -1.5 < d < 0.5
  {
    RemOne(h2 - h1 + 1.5) - 0.5
  }

  /** Whether a hue lies on the unit circle [0, 1). */
  predicate UnitHue(h: real) {
    0.0 <= h < 1.0
  }

  /** Between two unit hues the signed step goes the short way round, and a
      fraction in [0, 1] of it lands on a unit hue. */
  lemma LerpStaysUnit(h1: real, h2: real, t: real)
    requires UnitHue(h1) && UnitHue(h2) && 0.0 <= t <= 1.0
    ensures -0.5 <= Toward(h1, h2) < 0.5
    ensures UnitHue(LerpHue(h1, h2, t))
  {
  }

  /** |d * t| is at most |d| for t in [0, 1]. */
  lemma Scale(d: real, t: real)
    requires 0.0 <= t <= 1.0
    ensures d >= 0.0 ==> 0.0 <= d * t <= d
    ensures d < 0.0 ==> d <= d * t <= 0.0
  {
    if d >= 0.0 {
      MulMono(0.0, t, d);
      MulMono(t, 1.0, d);
    } else {
      MulMono(0.0, t, -d);
      MulMono(t, 1.0, -d);
      assert t * -d == -(d * t);
    }
  }

  lemma MulMono(a: real, b: real, c: real)
    requires a <= b && c >= 0.0
    ensures a * c <= b * c
  {
    assert b * c - a * c == (b - a) * c;
  }

  /** The fraction 0 keeps the first hue and the fraction 1 reaches the
      second. */
  lemma LerpEnds(h1: real, h2: real)
    requires UnitHue(h1) && UnitHue(h2)
    ensures LerpHue(h1, h2, 0.0) == h1
    ensures LerpHue(h1, h2, 1.0) == h2
  {
    var x := h2 - h1 + 1.5;
    assert x > 0.0;
    var n := x.Floor;
    assert h1 + Toward(h1, h2) + 1.0 == h2 + 2.0 - n as real;
    assert (h2 + 2.0 - n as real).Floor == 2 - n;
  }

  /** The weak turbulence pull keeps a unit hue on the unit circle whatever
      the target, even one far outside it. */
  lemma TurbulenceStaysUnit(h1: real, h2: real)
    requires UnitHue(h1)
    ensures UnitHue(LerpHue(h1, h2, ExternalWeight))
  {
  }

  /** `averageHue`'s last line: the circular mean angle, in [-pi, pi] as
      `Math.atan2` returns it, turned into a hue. */
  function MeanHue(angle: real, pi: real): (h: real)
    requires pi > 0.0 && -pi <= angle <= pi
    ensures UnitHue(h)
  {
    assert -0.5 <= angle / (2.0 * pi) <= 0.5 by {
      HalfTurn(angle, pi);
    }
    RemOne(angle / (2.0 * pi) + 1.0)
  }

  lemma HalfTurn(angle: real, pi: real)
    requires pi > 0.0 && -pi <= angle <= pi
    ensures -0.5 <= angle / (2.0 * pi) <= 0.5
  {
  }

  const NeighbourWeight: real := 0.8
  const ExternalWeight: real := 0.01

  // ---------------------------------------------------------------------
  // Update
  // ---------------------------------------------------------------------

  /** The trigonometry of the step, which the model takes as given: the
      circular mean angle of a list of hues (`Math.atan2` of the summed
      cosines and sines), `Math.sin`, and pi. */
  datatype Trig = Trig(meanAngle: seq<real> -> real, sin: real -> real, pi: real)

  ghost predicate ValidTrig(tr: Trig) {
    && tr.pi > 0.0
    && (forall hs :: -tr.pi <= tr.meanAngle(hs) <= tr.pi)
  }

  function Hues(ns: seq<Cell>): (hs: seq<real>)
    ensures |hs| == |ns| && forall i :: 0 <= i < |ns| ==> hs[i] == ns[i].h
  {
    seq(|ns|, i requires 0 <= i < |ns| => ns[i].h)
  }

  /** The new hue of one cell at time t, from the old grid. */
  function NewHue(g: Grid, row: nat, col: nat, tr: Trig, t: real): real
    requires Rect(g) && row < |g| && col < |g[0]| && ValidTrig(tr)
  {
    var cell := g[row][col];
    var avg := MeanHue(tr.meanAngle(Hues(Neighbours(g, row, col))), tr.pi);
    var turb := 90.0 * tr.sin(cell.angle + t * 0.02);
    LerpHue(LerpHue(cell.h, avg, NeighbourWeight), turb, ExternalWeight)
  }

  /** Whether every hue of the grid is a unit hue. */
  predicate UnitHues(g: Grid) {
    forall r, c :: 0 <= r < |g| && 0 <= c < |g[r]| ==> UnitHue(g[r][c].h)
  }

  /** One cell of the next buffer: the old cell with its new hue. */
  function NextCell(g: Grid, row: nat, col: nat, tr: Trig, t: real): (cell: Cell)
    requires Rect(g) && row < |g| && col < |g[0]| && ValidTrig(tr)
    ensures cell.s == g[row][col].s && cell.v == g[row][col].v && cell.angle == g[row][col].angle
    ensures UnitHue(g[row][col].h) ==> UnitHue(cell.h)
  {
    var h := NewHue(g, row, col, tr, t);
    assert UnitHue(g[row][col].h) ==> UnitHue(h) by {
      if UnitHue(g[row][col].h) {
        var cell := g[row][col];
        var avg := MeanHue(tr.meanAngle(Hues(Neighbours(g, row, col))), tr.pi);
        LerpStaysUnit(cell.h, avg, NeighbourWeight);
        TurbulenceStaysUnit(LerpHue(cell.h, avg, NeighbourWeight), 90.0 * tr.sin(cell.angle + t * 0.02));
      }
    }
    g[row][col].(h := h)
  }

  /** The grid `update` writes into the second buffer: same shape, only hues
      change, and unit hues stay unit hues. */
  function Update(g: Grid, tr: Trig, t: real): (n: Grid)
    requires Rect(g) && ValidTrig(tr)
    ensures Rect(n) && |n| == |g| && |n[0]| == |g[0]|
    ensures forall r, c :: 0 <= r < |g| && 0 <= c < |g[0]| ==>
      n[r][c].s == g[r][c].s && n[r][c].v == g[r][c].v && n[r][c].angle == g[r][c].angle
    ensures UnitHues(g) ==> UnitHues(n)
  {
    seq(|g|, r requires 0 <= r < |g| =>
      seq(|g[0]|, c requires 0 <= c < |g[0]| => NextCell(g, r, c, tr, t)))
  }

  /** Whether two grids of the same shape agree on a cell and its six
      neighbours. */
  predicate SameAround(g: Grid, g': Grid, row: nat, col: nat)
    requires Rect(g) && Rect(g') && |g'| == |g| && |g'[0]| == |g[0]| && row < |g| && col < |g[0]|
  {
    && g'[row][col] == g[row][col]
    && forall k :: 0 <= k < 6 ==>
      var p := NeighbourPos(|g|, |g[0]|, row, col, k);
      g'[p.0][p.1] == g[p.0][p.1]
  }

  /** A new cell depends only on the old cell and its six old neighbours,
      whatever has already been written elsewhere: this is what the second
      buffer buys. */
  lemma UpdateIsLocal(g: Grid, g': Grid, tr: Trig, t: real, row: nat, col: nat)
    requires Rect(g) && Rect(g') && |g'| == |g| && |g'[0]| == |g[0]| && row < |g| && col < |g[0]|
    requires ValidTrig(tr) && SameAround(g, g', row, col)
    ensures Update(g', tr, t)[row][col] == Update(g, tr, t)[row][col]
  {
    assert Neighbours(g', row, col) == Neighbours(g, row, col);
  }

  /** The nested loops of `update` followed by the swap. The loops read only
      `grid` and write only `next`; afterwards `grid` holds the new
      generation and `next` the old one. */
  method Step(grid: Grid, next: Grid, tr: Trig, t: real) returns (grid': Grid, next': Grid)
    requires Rect(grid) && ValidTrig(tr)
    requires |next| == |grid| && forall r :: 0 <= r < |next| ==> |next[r]| == |grid[0]|
    ensures grid' == Update(grid, tr, t) && next' == grid
  {
    var buf := next;
    var rows, cols := |grid|, |grid[0]|;
    var row := 0;
    while row < rows
      invariant row <= rows && |buf| == rows
      invariant forall r :: 0 <= r < rows ==> |buf[r]| == cols
      invariant forall r, c :: 0 <= r < row && 0 <= c < cols ==> buf[r][c] == NextCell(grid, r, c, tr, t)
    {
      var line := buf[row];
      var col := 0;
      while col < cols
        invariant col <= cols && |line| == cols
        invariant forall c :: 0 <= c < col ==> line[c] == NextCell(grid, row, c, tr, t)
      {
        line := line[col := NextCell(grid, row, col, tr, t)];
        col := col + 1;
      }
      buf := buf[row := line];
      row := row + 1;
    }
    forall r | 0 <= r < rows ensures buf[r] == Update(grid, tr, t)[r] {
    }
    grid', next' := buf, grid;
  }
}

=== FILE: hue_palette.dfy ===
/** The colour-scheme generators of genart/genesis/colour.mjs. Each takes a
    base hue in degrees, an integer in [0, 360) as `rnd(360)` draws it, and
    returns a short list of hues related to it on the colour wheel. */
module HuePalette {

  /** Whether h is an angle on the wheel, in [0, 360). */
  predicate OnWheel(h: int) {
    0 <= h < 360
  }

  /** The hue `d` degrees round from `h`, brought back to the wheel. */
  function Turn(h: int, d: nat): (r: int)
    requires OnWheel(h)
    ensures OnWheel(r)
    ensures r == h + d || r == h + d - 360 * ((h + d) / 360)
  {
    (h + d) % 360
  }

  /** The hues `h` turned by each of `offs`, reduced to the wheel: the shape
      every generator but one has. */
  function Turns(h: int, offs: seq<nat>): (p: seq<int>)
    requires OnWheel(h)
    ensures |p| == |offs|
  {
    seq(|offs|, i requires 0 <= i < |offs| => Turn(h, offs[i]))
  }

  // ---------------------------------------------------------------------
  // The generators
  // ---------------------------------------------------------------------

  function Triadic(hue: int): seq<int>
    requires OnWheel(hue)
  {
    [hue, (hue + 120) % 360, (hue + 240) % 360]
  }

  function RectTetradic(hue: int): seq<int>
    requires OnWheel(hue)
  {
    [hue, (hue + 60) % 360, (hue + 180) % 360, (hue + 240) % 360]
  }

  /** `squareTetradic` as written: the same four offsets as the rectangle,
      0, 60, 180 and 240, rather than the quarter turns of a square. */
  function SquareTetradicAsWritten(hue: int): seq<int>
    requires OnWheel(hue)
  {
    [hue, (hue + 60) % 360, (hue + 180) % 360, (hue + 240) % 360]
  }

  /** The square scheme as intended, with quarter turns: 0, 90, 180 and
      270 degrees. No palette uses it. */
  function SquareTetradic(hue: int): seq<int>
    requires OnWheel(hue)
  {
    [hue, (hue + 90) % 360, (hue + 180) % 360, (hue + 270) % 360]
  }

  function Hexadic(hue: int): seq<int>
    requires OnWheel(hue)
  {
    [hue, (hue + 60) % 360, (hue + 120) % 360, (hue + 180) % 360, (hue + 240) % 360, (hue + 300) % 360]
  }

  /** `analagous`: its second entry is `hue + 60` with no reduction. */
  function Analagous(hue: int): seq<int>
    requires OnWheel(hue)
  {
    [hue, hue + 60, (hue + 300) % 360]
  }

  function Complementary(hue: int): seq<int>
    requires OnWheel(hue)
  {
    [hue, (hue + 180) % 360]
  }

  function SplitComplementary(hue: int): seq<int>
    requires OnWheel(hue)
  {
    [hue, (hue + 150) % 360, (hue + 210) % 360]
  }

  /** The entries of `paletteTypes`, in order. */
  datatype Scheme = Triadic | RectTetradic | SquareTetradic | Hexadic | Analagous | Complementary | SplitComplementary

  const Schemes: seq<Scheme> :=
    [Scheme.Triadic, Scheme.RectTetradic, Scheme.SquareTetradic, Scheme.Hexadic,
     Scheme.Analagous, Scheme.Complementary, Scheme.SplitComplementary]

  /** The generator a scheme names. */
  function Palette(s: Scheme, hue: int): seq<int>
    requires OnWheel(hue)
  {
    match s
    case Triadic => Triadic(hue)
    case RectTetradic => RectTetradic(hue)
    case SquareTetradic => SquareTetradicAsWritten(hue)
    case Hexadic => Hexadic(hue)
    case Analagous => Analagous(hue)
    case Complementary => Complementary(hue)
    case SplitComplementary => SplitComplementary(hue)
  }

  /** The turn, in degrees, of each entry of a scheme from the base hue. */
  function Offsets(s: Scheme): seq<nat> {
    match s
    case Triadic => [0, 120, 240]
    case RectTetradic => [0, 60, 180, 240]
    case SquareTetradic => [0, 60, 180, 240]
    case Hexadic => [0, 60, 120, 180, 240, 300]
    case Analagous => [0, 60, 300]
    case Complementary => [0, 180]
    case SplitComplementary => [0, 150, 210]
  }

  /** `drawPalette`'s choice: `rnd(paletteTypes.length)` picks the scheme and
      `rnd(360)` the base hue, both given as draws. The palette starts at the
      base hue, has the scheme's length, and every entry is the base hue
      turned by the scheme's offset: reduced to the wheel, except the second
      entry of the analogous scheme, which lies in [60, 420). */
  function DrawPalette(schemeDraw: nat, base: int): (p: seq<int>)
    requires schemeDraw < |Schemes| && OnWheel(base)
    ensures |p| == |Offsets(Schemes[schemeDraw])| && p[0] == base
    ensures forall i :: 0 <= i < |p| && !(Schemes[schemeDraw] == Scheme.Analagous && i == 1) ==>
      p[i] == Turn(base, Offsets(Schemes[schemeDraw])[i])
    ensures Schemes[schemeDraw] == Scheme.Analagous ==> p[1] == base + 60 && 60 <= p[1] < 420
  {
    PaletteTurns(Schemes[schemeDraw], base);
    Palette(Schemes[schemeDraw], base)
  }

  // ---------------------------------------------------------------------
  // Properties
  // ---------------------------------------------------------------------

  /** Every scheme is its offsets turned from the base hue, with the
      analogous scheme's unreduced second entry the one exception. */
  lemma PaletteTurns(s: Scheme, hue: int)
    requires OnWheel(hue)
    ensures |Palette(s, hue)| == |Offsets(s)|
    ensures s != Scheme.Analagous ==> Palette(s, hue) == Turns(hue, Offsets(s))
    ensures s == Scheme.Analagous ==> Palette(s, hue) == Turns(hue, Offsets(s))[1 := hue + 60]
  {
    var p, q := Palette(s, hue), Turns(hue, Offsets(s));
    if s != Scheme.Analagous {
      forall i | 0 <= i < |p| ensures p[i] == q[i] {
      }
    } else {
      forall i | 0 <= i < |p| ensures p[i] == q[1 := hue + 60][i] {
      }
    }
  }

  /** The list lengths of `paletteTypes` in order: 3, 4, 4, 6, 3, 2, 3. */
  lemma PaletteLengths(hue: int)
    requires OnWheel(hue)
    ensures |Palette(Schemes[0], hue)| == 3 && |Palette(Schemes[1], hue)| == 4
    ensures |Palette(Schemes[2], hue)| == 4 && |Palette(Schemes[3], hue)| == 6
    ensures |Palette(Schemes[4], hue)| == 3 && |Palette(Schemes[5], hue)| == 2
    ensures |Palette(Schemes[6], hue)| == 3
  {
  }

  /** Every scheme but the analogous one stays on the wheel; the analogous
      one leaves it exactly when the base hue is 300 or more. */
  lemma StaysOnWheel(s: Scheme, hue: int)
    requires OnWheel(hue)
    ensures Palette(s, hue)[0] == hue
    ensures s != Scheme.Analagous ==> forall i :: 0 <= i < |Palette(s, hue)| ==> OnWheel(Palette(s, hue)[i])
    ensures s == Scheme.Analagous ==> ((forall i :: 0 <= i < 3 ==> OnWheel(Palette(s, hue)[i])) <==> hue < 300)
  {
    PaletteTurns(s, hue);
    if s == Scheme.Analagous {
      assert Palette(s, hue)[1] == hue + 60;
    }
  }

  /** The entries of every scheme are different hues: no two offsets of a
      scheme agree modulo 360. */
  lemma EntriesDistinct(s: Scheme, hue: int)
    requires OnWheel(hue)
    ensures forall i, j :: 0 <= i < j < |Palette(s, hue)| ==> Palette(s, hue)[i] != Palette(s, hue)[j]
  {
  }

  /** Whether the hues of p are spaced evenly round the wheel, each the
      one before turned by 360 / |p|. */
  predicate EvenlySpaced(p: seq<int>)
    requires |p| > 0
  {
    forall i :: 0 <= i < |p| ==> SpacedAt(p, i)
  }

  /** The hue after entry i, cyclically, is entry i turned by 360 / |p|. */
  predicate SpacedAt(p: seq<int>, i: nat)
    requires i < |p|
  {
    p[Succ(i, |p|)] == (p[i] + Gap(|p|)) % 360
  }

  /** The index after i in a cycle of n. */
  function Succ(i: nat, n: nat): (j: nat)
    requires i < n
    ensures j < n
  {
    if i + 1 < n then i + 1 else 0
  }

  /** The even spacing of n hues, in whole degrees. */
  function Gap(n: nat): nat
    requires n > 0
  {
    360 / n
  }

  /** Turning by a and then by b is turning by a + b. */
  lemma TurnTurn(h: int, a: nat, b: nat)
    requires OnWheel(h)
    ensures Turn(Turn(h, a), b) == Turn(h, a + b)
  {
    var q := (h + a) / 360;
    assert h + a == 360 * q + (h + a) % 360;
    ModShift(h + a + b, q);
  }

  lemma ModShift(x: int, q: int)
    ensures (x - 360 * q) % 360 == x % 360
  {
  }

  /** Offsets that are the multiples of one step, the step taking |offs|
      turns to go once round, give an evenly spaced palette. */
  lemma MultiplesEvenlySpaced(h: int, offs: seq<nat>, step: nat)
    requires OnWheel(h) && |offs| > 0 && step == Gap(|offs|) && step * |offs| == 360
    requires forall i :: 0 <= i < |offs| ==> offs[i] == step * i
    ensures EvenlySpaced(Turns(h, offs))
  {
    var p := Turns(h, offs);
    forall i | 0 <= i < |p| ensures SpacedAt(p, i) {
      MultipleSpacedAt(h, offs, step, i);
    }
  }

  /** One entry of the palette of multiples and the one after it. */
  lemma MultipleSpacedAt(h: int, offs: seq<nat>, step: nat, i: nat)
    requires OnWheel(h) && i < |offs| && step == Gap(|offs|) && step * |offs| == 360
    requires forall i :: 0 <= i < |offs| ==> offs[i] == step * i
    ensures SpacedAt(Turns(h, offs), i)
  {
    TurnTurn(h, offs[i], step);
    assert step * (i + 1) == step * i + step;
  }

  /** Triadic, hexadic and complementary palettes are regular polygons on
      the wheel. */
  lemma RegularSchemes(s: Scheme, hue: int)
    requires OnWheel(hue)
    requires s == Scheme.Triadic || s == Scheme.Hexadic || s == Scheme.Complementary
    ensures EvenlySpaced(Palette(s, hue))
  {
    PaletteTurns(s, hue);
    var offs := Offsets(s);
    MultiplesEvenlySpaced(hue, offs, Gap(|offs|));
  }

  /** The intended square scheme is a regular polygon on the wheel. */
  lemma SquareIntendedRegular(hue: int)
    requires OnWheel(hue)
    ensures EvenlySpaced(SquareTetradic(hue))
  {
    var offs: seq<nat> := [0, 90, 180, 270];
    var q := Turns(hue, offs);
    assert SquareTetradic(hue) == q by {
      forall i | 0 <= i < 4 ensures SquareTetradic(hue)[i] == q[i] {
      }
    }
    MultiplesEvenlySpaced(hue, offs, Gap(|offs|));
  }

  /** The rectangle is two complementary pairs, 60 degrees apart. */
  lemma RectangleIsTwoPairs(hue: int)
    requires OnWheel(hue)
    ensures var p := RectTetradic(hue);
      p[2] == (p[0] + 180) % 360 && p[3] == (p[1] + 180) % 360 && p[1] == (p[0] + 60) % 360
  {
  }

  /** Split-complementary hues flank the complement 30 degrees either side;
      analogous hues flank the base 60 degrees either side. */
  lemma FlankingSchemes(hue: int)
    requires OnWheel(hue)
    ensures var p, c := SplitComplementary(hue), (hue + 180) % 360;
      p[1] == (c + 330) % 360 && p[2] == (c + 30) % 360
    ensures var p := Analagous(hue);
      p[1] % 360 == (hue + 60) % 360 && p[2] == (hue + 300) % 360
  {
  }

  /** The square palette is the rectangle palette, and it is not evenly
      spaced, whatever the base hue; the intended square is. */
  lemma SquareIsRectangle(hue: int)
    requires OnWheel(hue)
    ensures Palette(Scheme.SquareTetradic, hue) == Palette(Scheme.RectTetradic, hue)
    ensures !EvenlySpaced(Palette(Scheme.SquareTetradic, hue))
    ensures Palette(Scheme.SquareTetradic, hue) != SquareTetradic(hue)
  {
    var p := Palette(Scheme.SquareTetradic, hue);
    assert !SpacedAt(p, 0);
    assert p[1] != SquareTetradic(hue)[1];
  }

  /** The sample of the discrepancy: base hue 0. */
  lemma SquareAtZero()
    ensures SquareTetradicAsWritten(0) == [0, 60, 180, 240]
    ensures SquareTetradic(0) == [0, 90, 180, 270]
  {
  }
}

=== FILE: js_text.dfy ===
/** JavaScript's white space, as the string methods that skip it see it:
    `trim`, and the leading white space `parseInt` ignores. */
module JsText {

  /** ECMAScript's StrWhiteSpaceChar: the white space characters (tab,
      vertical tab, form feed, space, no-break space, byte-order mark and
      the Unicode space separators) and the line terminators. */
  predicate IsJsSpace(c: char) {
    || c == '\U{0009}' || c == '\U{000B}' || c == '\U{000C}' || c == ' ' || c == '\U{00A0}' || c == '\U{FEFF}'
    || c == '\U{1680}' || ('\U{2000}' <= c <= '\U{200A}') || c == '\U{202F}' || c == '\U{205F}' || c == '\U{3000}'
    || c == '\U{000A}' || c == '\U{000D}' || c == '\U{2028}' || c == '\U{2029}'
  }

  /** `s` without its leading white space. What it removes is stated by
      `TrimStartSkips`. */
  function TrimStart(s: string): (r: string)
    ensures |r| <= |s| && (|s| > 0 && !IsJsSpace(s[0]) ==> r == s)
  {
    if |s| > 0 && IsJsSpace(s[0]) then TrimStart(s[1..]) else s
  }

  /** TrimStart removes exactly the white space in front of the first other
      character. */
  lemma {:induction false} TrimStartSkips(s: string)
    ensures var r := TrimStart(s);
      && r == s[|s| - |r|..]
      && (forall i :: 0 <= i < |s| - |r| ==> IsJsSpace(s[i]))
      && (|r| > 0 ==> !IsJsSpace(r[0]))
  {
    if |s| > 0 && IsJsSpace(s[0]) {
      TrimStartSkips(s[1..]);
      var r := TrimStart(s);
      forall i | 0 < i < |s| - |r| ensures IsJsSpace(s[i]) {
        assert s[i] == s[1..][i - 1];
      }
    }
  }

  /** `s` without its trailing white space. */
  function TrimEnd(s: string): (r: string)
    ensures |r| <= |s| && r == s[..|r|]
    ensures |r| > 0 ==> !IsJsSpace(r[|r| - 1])
    ensures forall i :: |r| <= i < |s| ==> IsJsSpace(s[i])
  {
    if |s| > 0 && IsJsSpace(s[|s| - 1]) then TrimEnd(s[..|s| - 1]) else s
  }

  /** `s.trim()`: the string without leading and trailing white space. */
  function Trim(s: string): (r: string)
  {
    TrimEnd(TrimStart(s))
  }

  /** A string trims to nothing exactly when it is all white space. */
  lemma TrimEmptyIff(s: string)
    ensures Trim(s) == "" <==> forall i :: 0 <= i < |s| ==> IsJsSpace(s[i])
  {
    var t := TrimStart(s);
    TrimStartSkips(s);
    if !(forall i :: 0 <= i < |s| ==> IsJsSpace(s[i])) {
      var i :| 0 <= i < |s| && !IsJsSpace(s[i]);
      assert |t| > 0;
      assert t[0] == s[|s| - |t|];
    }
  }
}

=== FILE: lsystem.dfy ===
/** The string rewriting both L-system sketches share: `s.split('')
    .map((c) => rules[c] || c).join('')` (genart/genesis/rules.mjs and
    genart/genuary2026/10_polar_coordinates.mjs). */
module LSystem {

  /** A rule table: the body each symbol rewrites to. */
  type Rules = map<char, string>

  /** `rules[c] || c`: the body, unless there is none or it is the empty
      string, which JavaScript treats as false. */
  function Expand(rules: Rules, c: char): (w: string)
    ensures |w| >= 1
    ensures c !in rules ==> w == [c]
  {
    if c in rules && rules[c] != "" then rules[c] else [c]
  }

  /** One parallel rewrite of a sentence. */
  function Rewrite(rules: Rules, s: string): string {
    if |s| == 0 then "" else Expand(rules, s[0]) + Rewrite(rules, s[1..])
  }

  /** Rewriting works symbol by symbol, so it distributes over
      concatenation. */
  lemma {:induction false} RewriteAppend(rules: Rules, a: string, b: string)
    ensures Rewrite(rules, a + b) == Rewrite(rules, a) + Rewrite(rules, b)
  {
    if |a| > 0 {
      assert (a + b)[1..] == a[1..] + b;
      RewriteAppend(rules, a[1..], b);
    } else {
      assert a + b == b;
    }
  }

  /** A sentence never gets shorter: every symbol becomes at least one
      symbol. Symbols without a non-empty body are kept. */
  lemma {:induction false} RewriteGrows(rules: Rules, s: string)
    ensures |Rewrite(rules, s)| >= |s|
    ensures (forall i :: 0 <= i < |s| ==> s[i] !in rules) ==> Rewrite(rules, s) == s
  {
    if |s| > 0 {
      RewriteGrows(rules, s[1..]);
      assert s == [s[0]] + s[1..];
    }
  }

  /** `n` successive rewrites. */
  function Iterate(rules: Rules, s: string, n: nat): string
    decreases n
  {
    if n == 0 then s else Iterate(rules, Rewrite(rules, s), n - 1)
  }

  /** How many times `c` occurs in `s` from position `i` on. */
  function CountFrom(s: string, i: nat, c: char): (n: nat)
    requires i <= |s|
    decreases |s| - i
    ensures n <= |s| - i
  {
    if i == |s| then 0 else (if s[i] == c then 1 else 0) + CountFrom(s, i + 1, c)
  }

  /** How many times `c` occurs in `s`. */
  function Occurrences(s: string, c: char): nat {
    CountFrom(s, 0, c)
  }

  lemma {:induction false} CountFromShift(a: string, b: string, j: nat, c: char)
    requires j <= |b|
    decreases |b| - j
    ensures CountFrom(a + b, |a| + j, c) == CountFrom(b, j, c)
  {
    if j < |b| {
      CountFromShift(a, b, j + 1, c);
    }
  }

  lemma {:induction false} CountFromAppend(a: string, b: string, i: nat, c: char)
    requires i <= |a|
    decreases |a| - i
    ensures CountFrom(a + b, i, c) == CountFrom(a, i, c) + CountFrom(b, 0, c)
  {
    if i < |a| {
      CountFromAppend(a, b, i + 1, c);
    } else {
      CountFromShift(a, b, 0, c);
    }
  }

  /** Counting is additive over concatenation. */
  lemma OccurrencesAppend(a: string, b: string, c: char)
    ensures Occurrences(a + b, c) == Occurrences(a, c) + Occurrences(b, c)
  {
    CountFromAppend(a, b, 0, c);
  }

  /** Counting the first symbol on its own. */
  lemma OccurrencesCons(s: string, c: char)
    requires |s| > 0
    ensures Occurrences(s, c) == (if s[0] == c then 1 else 0) + Occurrences(s[1..], c)
  {
    assert s == [s[0]] + s[1..];
    OccurrencesAppend([s[0]], s[1..], c);
  }

  /** The count of `c` after a rewrite adds up over the symbols
      rewritten. */
  lemma RewriteOccurrences(rules: Rules, s: string, c: char)
    requires |s| > 0
    ensures Occurrences(Rewrite(rules, s), c)
      == Occurrences(Expand(rules, s[0]), c) + Occurrences(Rewrite(rules, s[1..]), c)
    ensures Occurrences(s, c) == (if s[0] == c then 1 else 0) + Occurrences(s[1..], c)
  {
    OccurrencesAppend(Expand(rules, s[0]), Rewrite(rules, s[1..]), c);
    OccurrencesCons(s, c);
  }
}

=== FILE: optional.dfy ===
/** A value that may be absent: the model's stand-in for JavaScript's `null`
    and `undefined` results. */
module Optional {

  datatype Option<+T> = None | Some(value: T) {

    /** The carried value, or `default` when absent (JavaScript's `x || default`). */
    function GetOr(default: T): T {
      match this
      case Some(v) => v
      case None => default
    }
  }
}

=== FILE: pixel_colour.dfy ===
/** The pixel editor's colour helpers: `#rrggbb` strings, their red, green
    and blue channels, and the 50/50 blend used when a coarse cell shows the
    finer pixels painted inside it. */
module PixelColour {
  import opened Optional
  import opened JsText

  datatype Rgb = Rgb(r: int, g: int, b: int)

  predicate IsByte(n: int) {
    0 <= n < 256
  }

  predicate IsRgb(c: Rgb) {
    IsByte(c.r) && IsByte(c.g) && IsByte(c.b)
  }

  const HexDigits: string := "0123456789abcdef"

  /** The lower-case digit JavaScript's `toString(16)` prints for `n`. */
  function HexDigit(n: int): char
    requires 0 <= n < 16
  {
    HexDigits[n]
  }

  /** The value of a hexadecimal digit of either case, as `parseInt` reads it. */
  function DigitValue(c: char): (v: Option<int>)
    ensures v.Some? ==> 0 <= v.value < 16
  {
    if '0' <= c <= '9' then Some(c as int - '0' as int)
    else if 'a' <= c <= 'f' then Some(c as int - 'a' as int + 10)
    else if 'A' <= c <= 'F' then Some(c as int - 'A' as int + 10)
    else None
  }

  lemma HexDigitValue(n: int)
    requires 0 <= n < 16
    ensures DigitValue(HexDigit(n)) == Some(n)
  {
  }

  /** The length of the longest prefix of `s` made of hexadecimal digits. */
  function HexRun(s: string): (k: nat)
    ensures k <= |s|
    ensures forall i :: 0 <= i < k ==> DigitValue(s[i]).Some?
    ensures k < |s| ==> DigitValue(s[k]).None?
  {
    if |s| == 0 || DigitValue(s[0]).None? then 0 else 1 + HexRun(s[1..])
  }

  /** Big-endian value of a run of hexadecimal digits. */
  function DigitsValue(s: string): nat
    requires forall i :: 0 <= i < |s| ==> DigitValue(s[i]).Some?
  {
    if |s| == 0 then 0
    else 16 * DigitsValue(s[..|s| - 1]) + DigitValue(s[|s| - 1]).value
  }

  /** Whether `s` starts with the "0x" or "0X" that radix 16 allows. */
  predicate HexPrefixed(s: string) {
    |s| >= 2 && s[0] == '0' && (s[1] == 'x' || s[1] == 'X')
  }

  /** The value of the leading run of hexadecimal digits of `s`, if any. */
  function LeadingDigits(s: string): (v: Option<nat>)
    ensures v.None? <==> (|s| == 0 || DigitValue(s[0]).None?)
  {
    var k := HexRun(s);
    if k == 0 then None else Some(DigitsValue(s[..k]))
  }

  /** The number after any sign: one "0x"/"0X" prefix is skipped, then the
      leading run of hexadecimal digits is read. */
  function Unsigned(u: string): (v: Option<nat>)
    ensures !HexPrefixed(u) ==> v == LeadingDigits(u)
  {
    LeadingDigits(if HexPrefixed(u) then u[2..] else u)
  }

  function Negated(v: Option<nat>): (w: Option<int>)
    ensures w.None? <==> v.None?
    ensures v.Some? ==> w.value == -(v.value as int)
  {
    match v
    case None => None
    case Some(m) => Some(-(m as int))
  }

  /** The number after the white space: one '-' negates it, one '+' is skipped. */
  function Signed(t: string): (v: Option<int>)
    ensures |t| == 0 ==> v.None?
  {
    if |t| > 0 && t[0] == '-' then Negated(Unsigned(t[1..]))
    else if |t| > 0 && t[0] == '+' then Unsigned(t[1..])
    else Unsigned(t)
  }

  lemma DigitNotSpace(c: char)
    requires DigitValue(c).Some?
    ensures !IsJsSpace(c) && c != '-' && c != '+'
  {
  }

  /** `parseInt(s, 16)`: leading white space is skipped, then one '-' or
      '+' sign, then one "0x"/"0X" prefix; the number is the value of the
      run of hexadecimal digits that follows, negated after a '-', and None
      (JavaScript's NaN) when that run is empty. A string that starts with a
      digit, other than the "0x" prefix, reads as its leading digit run. */
  function ParseHex(s: string): (v: Option<int>)
    ensures |s| == 0 ==> v.None?
    ensures |s| > 0 && DigitValue(s[0]).Some? && !HexPrefixed(s) ==>
      v == Some(DigitsValue(s[..HexRun(s)]))
  {
    if |s| > 0 && DigitValue(s[0]).Some? then DigitNotSpace(s[0]); Signed(TrimStart(s))
    else Signed(TrimStart(s))
  }

  /** parseInt skips leading white space. */
  lemma ParseSkipsSpace(c: char, s: string)
    requires IsJsSpace(c)
    ensures ParseHex([c] + s) == ParseHex(s)
  {
    assert ([c] + s)[1..] == s;
  }

  /** One leading '-' negates what follows, and one leading '+' changes
      nothing, once the white space is gone and no second sign follows. */
  lemma ParseSign(s: string)
    requires |s| == 0 || (!IsJsSpace(s[0]) && s[0] != '-' && s[0] != '+')
    ensures ParseHex("+" + s) == ParseHex(s)
    ensures ParseHex("-" + s) == (match ParseHex(s) case None => None case Some(m) => Some(-m))
  {
    assert ("+" + s)[1..] == s && ("-" + s)[1..] == s;
  }

  /** The "0x" prefix is read as the radix's, not as the digit 0: a bare
      prefix is NaN, and a prefixed run reads as the digits after it. */
  lemma ParsePrefix(s: string)
    ensures ParseHex("0x" + s) == LeadingDigits(s)
    ensures ParseHex("0X" + s) == LeadingDigits(s)
  {
    assert ("0x" + s)[2..] == s && ("0X" + s)[2..] == s;
  }

  /** The two-character channel strings that `hexToRgb` can meet, read the
      way `parseInt` reads them: a bare prefix, a sign, white space and a
      trailing non-digit. */
  lemma ParseBarePrefix()
    ensures ParseHex("0x") == None
  {
    ParsePrefix("");
  }

  lemma ParseMinusDigit()
    ensures ParseHex("-a") == Some(-10)
  {
    ParseSign("a");
    ParseWholeRun("a");
  }

  lemma ParsePlusDigit()
    ensures ParseHex("+f") == Some(15)
  {
    ParseSign("f");
    ParseWholeRun("f");
  }

  lemma ParseSpaceDigit()
    ensures ParseHex(" f") == Some(15)
  {
    ParseSkipsSpace(' ', "f");
    ParseWholeRun("f");
  }

  lemma ParseTrailingJunk()
    ensures ParseHex("fz") == Some(15) && ParseHex("zf") == None
  {
    assert HexRun("fz") == 1;
    assert "fz"[..1] == "f";
  }

  /** `String.prototype.substring(a, b)` for 0 <= a <= b: indices past the
      end are clamped to the length. */
  function Substring(s: string, a: nat, b: nat): (t: string)
    requires a <= b
    ensures |t| <= b - a
  {
    if a >= |s| then [] else if b >= |s| then s[a..] else s[a..b]
  }

  /** `hexToRgb`: drops one leading '#', reads the three-digit short form by
      doubling each digit, and otherwise reads characters 0-1, 2-3 and 4-5.
      A channel that does not parse is None (NaN in the source). */
  function HexToRgb(hex: string): (c: (Option<int>, Option<int>, Option<int>))
    ensures var h := if |hex| > 0 && hex[0] == '#' then hex[1..] else hex;
      |h| == 3 ==> c == (ParseHex([h[0], h[0]]), ParseHex([h[1], h[1]]), ParseHex([h[2], h[2]]))
  {
    var h := if |hex| > 0 && hex[0] == '#' then hex[1..] else hex;
    if |h| == 3 then
      (ParseHex([h[0], h[0]]), ParseHex([h[1], h[1]]), ParseHex([h[2], h[2]]))
    else
      (ParseHex(Substring(h, 0, 2)), ParseHex(Substring(h, 2, 4)), ParseHex(Substring(h, 4, 6)))
  }

  /** Non-negative `n.toString(16)`. */
  function ToHex(n: nat): (s: string)
    ensures |s| >= 1
    decreases n
  {
    if n < 16 then [HexDigit(n)] else ToHex(n / 16) + [HexDigit(n % 16)]
  }

  function Pow16(w: nat): (p: nat)
    ensures p >= 1
  {
    if w == 0 then 1 else 16 * Pow16(w - 1)
  }

  /** The `w` low hexadecimal digits of `m`, most significant first. */
  function Fixed(m: nat, w: nat): (s: string)
    ensures |s| == w
  {
    if w == 0 then [] else Fixed(m / 16, w - 1) + [HexDigit(m % 16)]
  }

  /** The arithmetic of one printing step of a*16p + m, with m below 16p. */
  lemma SplitStep(a: nat, p: nat, m: nat)
    requires a >= 1 && p >= 1 && m < 16 * p
    ensures var n := a * (16 * p) + m;
      && n >= 16 && n / 16 == a * p + m / 16 && n % 16 == m % 16 && m / 16 < p
  {
    var n := a * (16 * p) + m;
    var q := a * p + m / 16;
    assert n == 16 * q + m % 16;
  }

  /** Printing a*16^w + m, with m below 16^w, prints a and then the w digits of m. */
  lemma {:induction false} ToHexSplit(a: nat, w: nat, m: nat)
    requires a >= 1 && m < Pow16(w)
    ensures ToHex(a * Pow16(w) + m) == ToHex(a) + Fixed(m, w)
  {
    if w > 0 {
      SplitStep(a, Pow16(w - 1), m);
      ToHexSplit(a, w - 1, m / 16);
    }
  }

  /** `rgbToHex`: prints (1 << 24) + (r << 16) + (g << 8) + b in hexadecimal
      and drops the leading digit. */
  function RgbToHex(r: int, g: int, b: int): (s: string)
    requires IsByte(r) && IsByte(g) && IsByte(b)
    ensures |s| == 7 && s[0] == '#'
  {
    var m := r * 0x1_0000 + g * 0x100 + b;
    PrintSeven(m);
    "#" + ToHex(0x100_0000 + m)[1..]
  }

  lemma FixedDigits(m: nat, w: nat, k: nat)
    requires k < w
    ensures DigitValue(Fixed(m, w)[k]).Some?
  {
    if k < w - 1 {
      FixedDigits(m / 16, w - 1, k);
    } else {
      HexDigitValue(m % 16);
    }
  }

  lemma {:induction false} FixedValue(m: nat, w: nat)
    requires m < Pow16(w)
    ensures forall k :: 0 <= k < w ==> DigitValue(Fixed(m, w)[k]).Some?
    ensures DigitsValue(Fixed(m, w)) == m
  {
    forall k | 0 <= k < w {
      FixedDigits(m, w, k);
    }
    if w > 0 {
      FixedValue(m / 16, w - 1);
      HexDigitValue(m % 16);
      assert Fixed(m, w)[..w - 1] == Fixed(m / 16, w - 1);
    }
  }

  /** The digits of hi*16^w2 + lo are those of hi followed by the w2 digits of lo. */
  lemma {:induction false} FixedConcat(n: nat, hi: nat, lo: nat, w1: nat, w2: nat)
    requires lo < Pow16(w2) && n == hi * Pow16(w2) + lo
    ensures Fixed(n, w1 + w2) == Fixed(hi, w1) + Fixed(lo, w2)
  {
    if w2 > 0 {
      var p := Pow16(w2 - 1);
      SplitStepLow(hi, p, lo);
      FixedConcat(n / 16, hi, lo / 16, w1, w2 - 1);
    }
  }

  lemma SplitStepLow(hi: nat, p: nat, lo: nat)
    requires p >= 1 && lo < 16 * p
    ensures var n := hi * (16 * p) + lo;
      && n / 16 == hi * p + lo / 16 && n % 16 == lo % 16 && lo / 16 < p
  {
    var n := hi * (16 * p) + lo;
    assert n == 16 * (hi * p + lo / 16) + lo % 16;
  }

  lemma SixDigits(r: int, g: int, b: int, w: nat)
    requires IsByte(r) && IsByte(g) && IsByte(b) && w == 2
    ensures Fixed((r * 0x100 + g) * 0x100 + b, w + w + w) == Fixed(r, w) + Fixed(g, w) + Fixed(b, w)
  {
    var hi := r * 0x100 + g;
    assert Pow16(w) == 0x100 by {
      assert Pow16(w) == 16 * Pow16(1);
    }
    FixedConcat(hi * 0x100 + b, hi, b, w + w, w);
    FixedConcat(hi, r, g, w, w);
  }

  lemma PrintSeven(m: nat)
    requires m < 0x100_0000
    ensures ToHex(0x100_0000 + m) == "1" + Fixed(m, 6)
  {
    assert Pow16(6) == 0x100_0000;
    ToHexSplit(1, 6, m);
  }

  /** A printed colour is '#' followed by two digits per channel. */
  lemma RgbToHexDigits(r: int, g: int, b: int)
    requires IsByte(r) && IsByte(g) && IsByte(b)
    ensures RgbToHex(r, g, b) == "#" + Fixed(r, 2) + Fixed(g, 2) + Fixed(b, 2)
  {
    var m := (r * 0x100 + g) * 0x100 + b;
    PrintSeven(m);
    SixDigits(r, g, b, 2);
  }

  /** A run made only of hexadecimal digits parses as a whole. */
  lemma ParseWholeRun(s: string)
    requires |s| > 0 && forall i :: 0 <= i < |s| ==> DigitValue(s[i]).Some?
    ensures ParseHex(s) == Some(DigitsValue(s))
  {
    assert HexRun(s) == |s|;
    assert s[..|s|] == s;
    assert |s| >= 2 ==> DigitValue(s[1]).Some?;
    assert !HexPrefixed(s);
  }

  /** Reading back a printed colour gives its channels. */
  lemma HexRoundTrip(r: int, g: int, b: int)
    requires IsByte(r) && IsByte(g) && IsByte(b)
    ensures HexToRgb(RgbToHex(r, g, b)) == (Some(r), Some(g), Some(b))
  {
    RgbToHexDigits(r, g, b);
    var h := Fixed(r, 2) + Fixed(g, 2) + Fixed(b, 2);
    assert RgbToHex(r, g, b)[1..] == h;
    assert Pow16(2) == 0x100;
    FixedValue(r, 2);
    FixedValue(g, 2);
    FixedValue(b, 2);
    assert Substring(h, 0, 2) == Fixed(r, 2);
    assert Substring(h, 2, 4) == Fixed(g, 2);
    assert Substring(h, 4, 6) == Fixed(b, 2);
    ParseWholeRun(Fixed(r, 2));
    ParseWholeRun(Fixed(g, 2));
    ParseWholeRun(Fixed(b, 2));
  }

  /** A well-formed colour: '#' and six hexadecimal digits. */
  predicate IsHexColour(s: string) {
    |s| == 7 && s[0] == '#' && forall i :: 1 <= i < 7 ==> DigitValue(s[i]).Some?
  }

  lemma TwoDigitsByte(s: string)
    requires |s| == 2 && forall i :: 0 <= i < 2 ==> DigitValue(s[i]).Some?
    ensures IsByte(DigitsValue(s))
  {
    assert s[..1][..0] == [];
    assert DigitsValue(s[..1]) == DigitValue(s[0]).value;
  }

  /** The channels of a well-formed colour, as `hexToRgb` reads them. */
  function Channels(s: string): (c: Rgb)
    requires IsHexColour(s)
    ensures IsRgb(c)
    ensures HexToRgb(s) == (Some(c.r), Some(c.g), Some(c.b))
  {
    var h := s[1..];
    assert Substring(h, 0, 2) == s[1..3] && Substring(h, 2, 4) == s[3..5] && Substring(h, 4, 6) == s[5..7];
    ParseWholeRun(s[1..3]);
    ParseWholeRun(s[3..5]);
    ParseWholeRun(s[5..7]);
    TwoDigitsByte(s[1..3]);
    TwoDigitsByte(s[3..5]);
    TwoDigitsByte(s[5..7]);
    Rgb(DigitsValue(s[1..3]), DigitsValue(s[3..5]), DigitsValue(s[5..7]))
  }

  /** Every printed colour is well formed and reads back as its channels. */
  lemma PrintedColour(c: Rgb)
    requires IsRgb(c)
    ensures IsHexColour(RgbToHex(c.r, c.g, c.b))
    ensures Channels(RgbToHex(c.r, c.g, c.b)) == c
  {
    RgbToHexDigits(c.r, c.g, c.b);
    var s := RgbToHex(c.r, c.g, c.b);
    FixedValue(c.r, 2);
    FixedValue(c.g, 2);
    FixedValue(c.b, 2);
    assert Pow16(2) == 0x100;
    forall i | 1 <= i < 7 ensures DigitValue(s[i]).Some? {
      if i < 3 { assert s[i] == Fixed(c.r, 2)[i - 1]; }
      else if i < 5 { assert s[i] == Fixed(c.g, 2)[i - 3]; }
      else { assert s[i] == Fixed(c.b, 2)[i - 5]; }
    }
    HexRoundTrip(c.r, c.g, c.b);
  }

  /** `Math.round(v / 2)` for a non-negative integer v. */
  function HalfRound(v: nat): nat {
    (v + 1) / 2
  }

  /** The channel-wise rounded mean. */
  function Mean(a: Rgb, b: Rgb): (m: Rgb)
    requires IsRgb(a) && IsRgb(b)
    ensures IsRgb(m)
  {
    Rgb(HalfRound(a.r + b.r), HalfRound(a.g + b.g), HalfRound(a.b + b.b))
  }

  /** `blendColors` on two well-formed colours. */
  function Blend(c1: string, c2: string): (s: string)
    requires IsHexColour(c1) && IsHexColour(c2)
    ensures IsHexColour(s)
  {
    var m := Mean(Channels(c1), Channels(c2));
    PrintedColour(m);
    RgbToHex(m.r, m.g, m.b)
  }

  /** A blend is a well-formed colour whose channels are the rounded means
      of the two inputs' channels, so each lies between them. */
  lemma BlendChannels(c1: string, c2: string)
    requires IsHexColour(c1) && IsHexColour(c2)
    ensures IsHexColour(Blend(c1, c2))
    ensures var a, b, m := Channels(c1), Channels(c2), Channels(Blend(c1, c2));
      && 2 * m.r - 1 <= a.r + b.r <= 2 * m.r
      && 2 * m.g - 1 <= a.g + b.g <= 2 * m.g
      && 2 * m.b - 1 <= a.b + b.b <= 2 * m.b
  {
    PrintedColour(Mean(Channels(c1), Channels(c2)));
  }

  /** Blending is commutative. */
  lemma BlendCommutes(c1: string, c2: string)
    requires IsHexColour(c1) && IsHexColour(c2)
    ensures Blend(c1, c2) == Blend(c2, c1)
  {
    var a, b := Channels(c1), Channels(c2);
    assert Mean(a, b) == Mean(b, a);
  }

  /** A colour blended with itself prints its own channels. */
  lemma BlendSelf(c1: string)
    requires IsHexColour(c1)
    ensures Blend(c1, c1) == RgbToHex(Channels(c1).r, Channels(c1).g, Channels(c1).b)
    ensures Channels(Blend(c1, c1)) == Channels(c1)
  {
    var c := Channels(c1);
    MeanSelf(c);
    PrintedColour(c);
  }

  lemma MeanSelf(c: Rgb)
    requires IsRgb(c)
    ensures Mean(c, c) == c
  {
  }
}

=== FILE: pixel_grid.dfy ===
/** The pixel editor's `PixelGrid`: a sparse list of painted pixels, each
    tagged with the zoom level it was painted at, a bounded undo history,
    a redo stack, batch painting and zooming between levels 0 and 20. */
module PixelGrid {
  import opened Optional
  import PixelColour

  type Colour = string

  datatype Pixel = Pixel(x: int, y: int, zoom: int, colour: Colour)

  /** What the history stores: a copy of the pixels and the zoom level. */
  datatype Snapshot = Snapshot(pixels: seq<Pixel>, zoom: int)

  datatype Grid = Grid(
    pixels: seq<Pixel>,
    zoom: int,
    history: seq<Snapshot>,
    redo: seq<Snapshot>,
    inBatch: bool)

  const MaxHistorySize: nat := 50
  const MaxZoom: int := 20
  const StartZoom: int := 10

  /** The constructor: no pixels, zoom level 10, empty stacks. */
  function NewGrid(): (g: Grid)
    ensures Valid(g) && g.zoom == StartZoom && |g.pixels| == 0
  {
    Grid([], StartZoom, [], [], false)
  }

  predicate At(p: Pixel, x: int, y: int, z: int) {
    p.x == x && p.y == y && p.zoom == z
  }

  /** At most one pixel per (x, y, zoom level). */
  predicate Unique(ps: seq<Pixel>) {
    forall i, j :: 0 <= i < j < |ps| ==> !At(ps[j], ps[i].x, ps[i].y, ps[i].zoom)
  }

  /** The invariant every operation keeps: unique pixels, now and in every
      stored snapshot, and at most 50 stored states in both stacks together. */
  predicate Valid(g: Grid) {
    && Unique(g.pixels)
    && (forall s :: s in g.history ==> Unique(s.pixels))
    && (forall s :: s in g.redo ==> Unique(s.pixels))
    && |g.history| + |g.redo| <= MaxHistorySize
  }

  function Current(g: Grid): Snapshot {
    Snapshot(g.pixels, g.zoom)
  }

  // ---------------------------------------------------------------------
  // History
  // ---------------------------------------------------------------------

  /** `saveState`: clears the redo stack, pushes the current state and drops
      the oldest state once the history holds more than 50. */
  function SaveState(g: Grid): (r: Grid)
    ensures r.pixels == g.pixels && r.zoom == g.zoom && r.inBatch == g.inBatch
    ensures r.redo == []
    ensures |r.history| >= 1 && r.history[|r.history| - 1] == Current(g)
    ensures |g.history| < MaxHistorySize ==> r.history[..|r.history| - 1] == g.history
    ensures |g.history| <= MaxHistorySize ==> |r.history| <= MaxHistorySize
    ensures |r.history| <= |g.history| + 1
    ensures r.history[..|r.history| - 1] == g.history[|g.history| + 1 - |r.history|..]
  {
    var h := g.history + [Current(g)];
    var h' := if |h| > MaxHistorySize then h[1..] else h;
    assert h'[..|h'| - 1] == g.history[|g.history| + 1 - |h'|..];
    g.(redo := [], history := h')
  }

  /** `undo`: with an empty history nothing changes and the result is false;
      otherwise the current state goes onto the redo stack and the newest
      history state is restored. */
  function Undo(g: Grid): (res: (Grid, bool))
    ensures !res.1 <==> |g.history| == 0
    ensures !res.1 ==> res.0 == g
    ensures res.1 ==> var r := res.0;
      && Current(r) == g.history[|g.history| - 1]
      && r.history == g.history[..|g.history| - 1]
      && r.redo == g.redo + [Current(g)]
      && r.inBatch == g.inBatch
  {
    if |g.history| == 0 then (g, false)
    else
      var prev := g.history[|g.history| - 1];
      (g.(pixels := prev.pixels, zoom := prev.zoom,
          history := g.history[..|g.history| - 1],
          redo := g.redo + [Current(g)]), true)
  }

  /** `redo`: the mirror image of `undo`, moving a state from the redo stack
      back to the history; the history is not trimmed here. */
  function Redo(g: Grid): (res: (Grid, bool))
    ensures !res.1 <==> |g.redo| == 0
    ensures !res.1 ==> res.0 == g
    ensures res.1 ==> var r := res.0;
      && Current(r) == g.redo[|g.redo| - 1]
      && r.redo == g.redo[..|g.redo| - 1]
      && r.history == g.history + [Current(g)]
      && r.inBatch == g.inBatch
  {
    if |g.redo| == 0 then (g, false)
    else
      var next := g.redo[|g.redo| - 1];
      (g.(pixels := next.pixels, zoom := next.zoom,
          redo := g.redo[..|g.redo| - 1],
          history := g.history + [Current(g)]), true)
  }

  /** Undo followed by redo, with nothing in between, restores the pixels,
      the zoom level and both stacks exactly; so does redo followed by undo. */
  lemma UndoRedoRoundTrip(g: Grid)
    ensures |g.history| > 0 ==> Redo(Undo(g).0).0 == g && Redo(Undo(g).0).1
    ensures |g.redo| > 0 ==> Undo(Redo(g).0).0 == g && Undo(Redo(g).0).1
  {
    if |g.history| > 0 {
      assert g.history[..|g.history| - 1] + [g.history[|g.history| - 1]] == g.history;
    }
    if |g.redo| > 0 {
      assert g.redo[..|g.redo| - 1] + [g.redo[|g.redo| - 1]] == g.redo;
    }
  }

  /** `startBatch`: the first call of a batch saves the state once. */
  function StartBatch(g: Grid): (r: Grid)
    ensures r.inBatch
    ensures g.inBatch ==> r == g
    ensures !g.inBatch ==> r.history != g.history || r.redo == []
  {
    if g.inBatch then g else SaveState(g.(inBatch := true))
  }

  /** `endBatch`. */
  function EndBatch(g: Grid): (r: Grid)
    ensures !r.inBatch && r.(inBatch := g.inBatch) == g
  {
    g.(inBatch := false)
  }

  // ---------------------------------------------------------------------
  // Pixel lookup and update
  // ---------------------------------------------------------------------

  /** `findIndex`: the first index holding a pixel at (x, y, z), or -1. */
  function FindIndex(ps: seq<Pixel>, x: int, y: int, z: int): (k: int)
    ensures -1 <= k < |ps|
    ensures k >= 0 ==> At(ps[k], x, y, z) && forall i :: 0 <= i < k ==> !At(ps[i], x, y, z)
    ensures k == -1 <==> forall i :: 0 <= i < |ps| ==> !At(ps[i], x, y, z)
  {
    if |ps| == 0 then -1
    else if At(ps[0], x, y, z) then 0
    else
      var k := FindIndex(ps[1..], x, y, z);
      if k == -1 then -1 else k + 1
  }

  /** `getPixel`: the first pixel at (x, y, z), if any. */
  function GetPixel(ps: seq<Pixel>, x: int, y: int, z: int): (r: Option<Pixel>)
    ensures r.Some? ==> r.value in ps && At(r.value, x, y, z)
    ensures r.None? <==> forall p :: p in ps ==> !At(p, x, y, z)
  {
    var k := FindIndex(ps, x, y, z);
    if k < 0 then None else Some(ps[k])
  }

  /** `hasPixel`. */
  function HasPixel(ps: seq<Pixel>, x: int, y: int, z: int): (b: bool)
    ensures b <==> exists p :: p in ps && At(p, x, y, z)
  {
    GetPixel(ps, x, y, z).Some?
  }

  /** `removePixel`: deletes the first pixel at (x, y, z) and reports
      whether there was one. */
  function RemovePixel(ps: seq<Pixel>, x: int, y: int, z: int): (res: (seq<Pixel>, bool))
    ensures res.1 <==> exists p :: p in ps && At(p, x, y, z)
    ensures !res.1 ==> res.0 == ps
    ensures res.1 ==> |res.0| == |ps| - 1
    ensures forall p :: p in res.0 ==> p in ps
    ensures forall p :: p in ps && !At(p, x, y, z) ==> p in res.0
    ensures Unique(ps) ==> Unique(res.0) && forall p :: p in res.0 ==> !At(p, x, y, z)
  {
    var k := FindIndex(ps, x, y, z);
    if k < 0 then (ps, false)
    else
      DeleteAtFacts(ps, k);
      (ps[..k] + ps[k + 1..], true)
  }

  /** Deleting index k keeps every other element and, in a list without
      duplicates, removes every pixel at k's position. */
  lemma DeleteAtFacts(ps: seq<Pixel>, k: int)
    requires 0 <= k < |ps|
    ensures var r := ps[..k] + ps[k + 1..];
      && (forall p :: p in ps && p != ps[k] ==> p in r)
      && (Unique(ps) ==> Unique(r) && forall p :: p in r ==> !At(p, ps[k].x, ps[k].y, ps[k].zoom))
  {
    var r := ps[..k] + ps[k + 1..];
    forall p | p in ps && p != ps[k] ensures p in r {
      var i :| 0 <= i < |ps| && ps[i] == p;
      if i < k { assert r[i] == p; } else { assert r[i - 1] == p; }
    }
    if Unique(ps) {
      forall i, j | 0 <= i < j < |r| ensures !At(r[j], r[i].x, r[i].y, r[i].zoom) {
        var i' := if i < k then i else i + 1;
        var j' := if j < k then j else j + 1;
        assert r[i] == ps[i'] && r[j] == ps[j'];
      }
      forall p | p in r ensures !At(p, ps[k].x, ps[k].y, ps[k].zoom) {
        var i :| 0 <= i < |r| && r[i] == p;
        var i' := if i < k then i else i + 1;
        assert r[i] == ps[i'];
        if i' > k { assert !At(ps[i'], ps[k].x, ps[k].y, ps[k].zoom); }
      }
    }
  }

  /** Writing `c` over the pixel at (x, y, z): updated in place if present,
      appended otherwise; removed when `c` is null. */
  function WriteColour(ps: seq<Pixel>, x: int, y: int, z: int, c: Option<Colour>): seq<Pixel> {
    var k := FindIndex(ps, x, y, z);
    match c
    case None => RemovePixel(ps, x, y, z).0
    case Some(col) =>
      if k >= 0 then ps[k := ps[k].(colour := col)] else ps + [Pixel(x, y, z, col)]
  }

  /** The colour a pixel list holds at (x, y, z). */
  function ColourAt(ps: seq<Pixel>, x: int, y: int, z: int): Option<Colour> {
    match GetPixel(ps, x, y, z)
    case Some(p) => Some(p.colour)
    case None => None
  }

  /** After the write, (x, y, z) holds exactly `c`, every other position is
      unchanged, and pixels stay unique. */
  lemma WriteColourEffect(ps: seq<Pixel>, x: int, y: int, z: int, c: Option<Colour>)
    requires Unique(ps)
    ensures var r := WriteColour(ps, x, y, z, c);
      && Unique(r)
      && ColourAt(r, x, y, z) == c
      && forall x', y', z' :: (x', y', z') != (x, y, z) ==> ColourAt(r, x', y', z') == ColourAt(ps, x', y', z')
  {
    var r := WriteColour(ps, x, y, z, c);
    var k := FindIndex(ps, x, y, z);
    match c
    case None =>
      forall x', y', z' | (x', y', z') != (x, y, z)
        ensures ColourAt(r, x', y', z') == ColourAt(ps, x', y', z')
      {
        UniqueLookup(ps, x', y', z');
        UniqueLookup(r, x', y', z');
      }
    case Some(col) =>
      if k >= 0 {
        assert Unique(r) by {
          forall i, j | 0 <= i < j < |r| ensures !At(r[j], r[i].x, r[i].y, r[i].zoom) {
            assert !At(ps[j], ps[i].x, ps[i].y, ps[i].zoom);
          }
        }
        UniqueLookup(r, x, y, z);
        assert r[k].colour == col;
        forall x', y', z' | (x', y', z') != (x, y, z)
          ensures ColourAt(r, x', y', z') == ColourAt(ps, x', y', z')
        {
          FindIndexAgree(ps, r, x', y', z');
        }
      } else {
        assert Unique(r) by {
          forall i, j | 0 <= i < j < |r| ensures !At(r[j], r[i].x, r[i].y, r[i].zoom) {
            if j == |ps| { assert !At(ps[i], x, y, z); }
          }
        }
        UniqueLookup(r, x, y, z);
        forall x', y', z' | (x', y', z') != (x, y, z)
          ensures ColourAt(r, x', y', z') == ColourAt(ps, x', y', z')
        {
          FindIndexAgree(ps, r, x', y', z');
        }
      }
  }

  /** In a list without duplicates the colour at a position is that of the
      only pixel there. */
  lemma UniqueLookup(ps: seq<Pixel>, x: int, y: int, z: int)
    requires Unique(ps)
    ensures forall p :: p in ps && At(p, x, y, z) ==> ColourAt(ps, x, y, z) == Some(p.colour)
    ensures (forall p :: p in ps ==> !At(p, x, y, z)) ==> ColourAt(ps, x, y, z) == None
  {
    var k := FindIndex(ps, x, y, z);
    forall p | p in ps && At(p, x, y, z) ensures ColourAt(ps, x, y, z) == Some(p.colour) {
      var i :| 0 <= i < |ps| && ps[i] == p;
      SamePosition(ps, k, i);
    }
  }

  lemma SamePosition(ps: seq<Pixel>, i: int, j: int)
    requires Unique(ps) && 0 <= i < |ps| && 0 <= j < |ps|
    requires At(ps[j], ps[i].x, ps[i].y, ps[i].zoom)
    ensures i == j
  {
  }

  /** Two lists that agree, index by index, on which entries sit at
      (x, y, z), and differ only in entries elsewhere, find the same index. */
  lemma FindIndexAgree(a: seq<Pixel>, b: seq<Pixel>, x: int, y: int, z: int)
    requires |a| <= |b|
    requires forall i :: 0 <= i < |a| ==> (At(a[i], x, y, z) <==> At(b[i], x, y, z))
    requires forall i :: 0 <= i < |a| && At(a[i], x, y, z) ==> a[i] == b[i]
    requires forall i :: |a| <= i < |b| ==> !At(b[i], x, y, z)
    ensures FindIndex(a, x, y, z) == FindIndex(b, x, y, z)
    ensures ColourAt(a, x, y, z) == ColourAt(b, x, y, z)
  {
  }

  /** `setPixelColor`: saves the state unless told not to or inside a batch,
      then writes `colour` (None erases) at the current zoom level. */
  function SetPixelColor(g: Grid, x: int, y: int, colour: Option<Colour>, saveHistory: bool): (r: Grid)
    requires Valid(g)
    ensures Valid(r)
    ensures r.zoom == g.zoom && r.inBatch == g.inBatch
    ensures ColourAt(r.pixels, x, y, g.zoom) == colour
    ensures forall x', y', z' :: (x', y', z') != (x, y, g.zoom) ==>
      ColourAt(r.pixels, x', y', z') == ColourAt(g.pixels, x', y', z')
    ensures saveHistory && !g.inBatch ==> r.redo == [] && |r.history| > 0 && r.history[|r.history| - 1] == Current(g)
    ensures !(saveHistory && !g.inBatch) ==> r.history == g.history && r.redo == g.redo
  {
    var g1 := if saveHistory && !g.inBatch then SaveState(g) else g;
    WriteColourEffect(g1.pixels, x, y, g.zoom, colour);
    g1.(pixels := WriteColour(g1.pixels, x, y, g.zoom, colour))
  }

  // ---------------------------------------------------------------------
  // Resolving the colour shown at a zoom level
  // ---------------------------------------------------------------------

  function Pow2(k: nat): (p: nat)
    ensures p >= 1
  {
    if k == 0 then 1 else 2 * Pow2(k - 1)
  }

  /** The cell at `z` that contains pixel p painted at a finer level: the
      source's `Math.floor(p.x / 2^(p.zoom - z))`; Dafny's division by a
      positive number rounds down, like `Math.floor`. */
  predicate InsideCell(p: Pixel, x: int, y: int, z: int) {
    p.zoom > z && p.x / Pow2(p.zoom - z) == x && p.y / Pow2(p.zoom - z) == y
  }

  /** The finer pixels inside cell (x, y) of level z, in list order. */
  function Finer(ps: seq<Pixel>, x: int, y: int, z: int): (r: seq<Pixel>)
    ensures forall p :: p in r <==> p in ps && InsideCell(p, x, y, z)
  {
    if |ps| == 0 then []
    else (if InsideCell(ps[0], x, y, z) then [ps[0]] else []) + Finer(ps[1..], x, y, z)
  }

  predicate AllWellFormed(ps: seq<Pixel>) {
    forall p :: p in ps ==> PixelColour.IsHexColour(p.colour)
  }

  /** The left fold of `blendColors` over the colours of `fine`, starting
      from the first. */
  function BlendAll(fine: seq<Pixel>): (c: Colour)
    requires |fine| > 0 && AllWellFormed(fine)
    ensures PixelColour.IsHexColour(c)
  {
    if |fine| == 1 then fine[0].colour
    else PixelColour.Blend(BlendAll(fine[..|fine| - 1]), fine[|fine| - 1].colour)
  }

  /** The nearest coarser level, from z-1 down to `lower`, with a pixel
      containing cell (x, y) of level z. */
  function Coarser(ps: seq<Pixel>, x: int, y: int, z: int, lower: int): (r: Option<Colour>)
    requires 0 <= lower < z
    ensures AllWellFormed(ps) && r.Some? ==> PixelColour.IsHexColour(r.value)
    decreases lower
  {
    match GetPixel(ps, x / Pow2(z - lower), y / Pow2(z - lower), lower)
    case Some(p) => Some(p.colour)
    case None => if lower == 0 then None else Coarser(ps, x, y, z, lower - 1)
  }

  /** `getPixelColorAt`: an exact pixel wins; otherwise (below level 20) the
      blend of the finer pixels inside the cell; otherwise the nearest
      coarser pixel containing it; otherwise nothing. */
  function GetPixelColorAt(ps: seq<Pixel>, x: int, y: int, z: int): (r: Option<Colour>)
    requires AllWellFormed(ps)
    ensures r.Some? ==> PixelColour.IsHexColour(r.value)
  {
    match GetPixel(ps, x, y, z)
    case Some(p) => Some(p.colour)
    case None =>
      var fine := Finer(ps, x, y, z);
      if z < MaxZoom && |fine| > 0 then Some(BlendAll(fine))
      else if z > 0 then Coarser(ps, x, y, z, z - 1)
      else None
  }

  /** A pixel painted at a coarser level `lower` whose cell contains (x, y) of level z. */
  predicate Contains(p: Pixel, x: int, y: int, z: int) {
    0 <= p.zoom < z && p.x == x / Pow2(z - p.zoom) && p.y == y / Pow2(z - p.zoom)
  }

  lemma {:induction false} CoarserFinds(ps: seq<Pixel>, x: int, y: int, z: int, lower: int)
    requires 0 <= lower < z
    requires AllWellFormed(ps)
    ensures Coarser(ps, x, y, z, lower).None? <==>
      forall p :: p in ps && p.zoom <= lower ==> !Contains(p, x, y, z)
    ensures Coarser(ps, x, y, z, lower).Some? ==>
      exists p :: p in ps && p.zoom <= lower && Contains(p, x, y, z)
        && Coarser(ps, x, y, z, lower) == Some(p.colour)
        && forall q :: q in ps && p.zoom < q.zoom <= lower ==> !Contains(q, x, y, z)
    decreases lower
  {
    var found := GetPixel(ps, x / Pow2(z - lower), y / Pow2(z - lower), lower);
    if found.Some? {
      var p := found.value;
      assert p in ps && p.zoom == lower && Contains(p, x, y, z);
    } else {
      forall q | q in ps && q.zoom == lower ensures !Contains(q, x, y, z) {
        assert !At(q, x / Pow2(z - lower), y / Pow2(z - lower), lower);
      }
      if lower > 0 {
        CoarserFinds(ps, x, y, z, lower - 1);
        assert Coarser(ps, x, y, z, lower) == Coarser(ps, x, y, z, lower - 1);
      }
    }
  }

  /** What `getPixelColorAt` means: the exact pixel if there is one; else a
      colour only if some finer pixel lies inside the cell (below level 20)
      or some coarser pixel contains it; and a coarser answer comes from the
      nearest such level. */
  lemma GetPixelColorAtMeaning(ps: seq<Pixel>, x: int, y: int, z: int)
    requires AllWellFormed(ps) && Unique(ps)
    ensures ColourAt(ps, x, y, z).Some? ==> GetPixelColorAt(ps, x, y, z) == ColourAt(ps, x, y, z)
    ensures GetPixelColorAt(ps, x, y, z).None? <==>
      && ColourAt(ps, x, y, z).None?
      && (z < MaxZoom ==> forall p :: p in ps ==> !InsideCell(p, x, y, z))
      && (forall p :: p in ps ==> !Contains(p, x, y, z))
    ensures ColourAt(ps, x, y, z).None? && (z >= MaxZoom || |Finer(ps, x, y, z)| == 0) && z > 0 ==>
      GetPixelColorAt(ps, x, y, z) == Coarser(ps, x, y, z, z - 1)
  {
    if z > 0 {
      CoarserFinds(ps, x, y, z, z - 1);
    }
    if |Finer(ps, x, y, z)| > 0 {
      assert Finer(ps, x, y, z)[0] in Finer(ps, x, y, z);
    }
  }

  // ---------------------------------------------------------------------
  // Zoom
  // ---------------------------------------------------------------------

  /** `zoomIn`: a no-op at level 20 or above; otherwise saves and goes one finer. */
  function ZoomIn(g: Grid): (r: Grid)
    ensures g.zoom >= MaxZoom ==> r == g
    ensures g.zoom < MaxZoom ==> r.zoom == g.zoom + 1 && r.pixels == g.pixels && |r.history| > 0 && r.history[|r.history| - 1] == Current(g)
    ensures 0 <= g.zoom <= MaxZoom ==> 0 <= r.zoom <= MaxZoom
  {
    if g.zoom >= MaxZoom then g else SaveState(g).(zoom := g.zoom + 1)
  }

  /** `zoomOut`: a no-op at level 0 or below; otherwise saves and goes one coarser. */
  function ZoomOut(g: Grid): (r: Grid)
    ensures g.zoom <= 0 ==> r == g
    ensures g.zoom > 0 ==> r.zoom == g.zoom - 1 && r.pixels == g.pixels && |r.history| > 0 && r.history[|r.history| - 1] == Current(g)
    ensures 0 <= g.zoom <= MaxZoom ==> 0 <= r.zoom <= MaxZoom
  {
    if g.zoom <= 0 then g else SaveState(g).(zoom := g.zoom - 1)
  }

  /** Loading a grid from a link sets the zoom level without the range
      check zooming applies, so any level can result. */
  function LoadZoom(level: int): (r: Grid)
    ensures r.zoom == level && Valid(r) && |r.pixels| == 0
  {
    NewGrid().(zoom := level)
  }

  lemma SaveStateKeepsValid(g: Grid)
    requires Valid(g)
    ensures Valid(SaveState(g))
  {
    var s := SaveState(g);
    forall t | t in s.history ensures Unique(t.pixels) {
      var i :| 0 <= i < |s.history| && s.history[i] == t;
      if i < |s.history| - 1 {
        assert t in s.history[..|s.history| - 1];
      }
    }
  }

  lemma UndoKeepsValid(g: Grid)
    requires Valid(g)
    ensures Valid(Undo(g).0)
  {
    if |g.history| > 0 {
      var u := Undo(g).0;
      assert forall t :: t in u.history ==> t in g.history;
      assert g.history[|g.history| - 1] in g.history;
    }
  }

  lemma RedoKeepsValid(g: Grid)
    requires Valid(g)
    ensures Valid(Redo(g).0)
  {
    if |g.redo| > 0 {
      var u := Redo(g).0;
      assert forall t :: t in u.redo ==> t in g.redo;
      assert g.redo[|g.redo| - 1] in g.redo;
    }
  }

  /** Every operation keeps the grid valid: pixels stay unique and the two
      stacks together never hold more than 50 states. */
  lemma OperationsKeepValid(g: Grid)
    requires Valid(g)
    ensures Valid(SaveState(g)) && Valid(Undo(g).0) && Valid(Redo(g).0)
    ensures Valid(StartBatch(g)) && Valid(EndBatch(g))
    ensures Valid(ZoomIn(g)) && Valid(ZoomOut(g))
  {
    SaveStateKeepsValid(g);
    SaveStateKeepsValid(g.(inBatch := true));
    UndoKeepsValid(g);
    RedoKeepsValid(g);
  }
}

=== FILE: pixel_pack.dfy ===
/** The pixel editor's shareable encoding of one zoom level: the pixels of
    that level are laid out on their bounding box, row by row; each cell is
    replaced by an index into a palette of the colours in first-seen order
    (0 for an empty cell), written in a fixed number of bits, and the bit
    string is cut into zero-padded bytes. The colon-separated text header
    and the base64 wrapping around it are not part of this model: the header
    is carried as a record. */
module PixelPack {
  import opened Optional
  import opened PixelGrid
  import opened Seqs

  type Bits = seq<bool>

  // ---------------------------------------------------------------------
  // Numbers as fixed-width bit strings
  // ---------------------------------------------------------------------

  /** `n.toString(2).padStart(w, '0')` for `n < 2^w`: w bits, most
      significant first. */
  function NatToBits(n: nat, w: nat): (b: Bits)
    ensures |b| == w
  {
    if w == 0 then [] else NatToBits(n / 2, w - 1) + [n % 2 == 1]
  }

  /** `parseInt(bits, 2)` on a string of '0' and '1'; the empty string
      yields 0 here (where the source would get NaN, which it then treats
      like 0: as no colour). */
  function BitsToNat(b: Bits): (n: nat)
    ensures n < Pow2(|b|)
  {
    if |b| == 0 then 0 else 2 * BitsToNat(b[..|b| - 1]) + (if b[|b| - 1] then 1 else 0)
  }

  lemma {:induction false} BitsRoundTrip(n: nat, w: nat)
    requires n < Pow2(w)
    ensures BitsToNat(NatToBits(n, w)) == n
  {
    if w > 0 {
      var b := NatToBits(n, w);
      assert b[..w - 1] == NatToBits(n / 2, w - 1);
      BitsRoundTrip(n / 2, w - 1);
    }
  }

  function Zeros(k: nat): (z: Bits)
    ensures |z| == k && forall i :: 0 <= i < k ==> !z[i]
  {
    if k == 0 then [] else [false] + Zeros(k - 1)
  }

  /** How many zero bits complete the last byte. */
  function PadLength(n: nat): (p: nat)
    ensures p < 8
  {
    if n == 0 then 0 else if n >= 8 then PadLength(n - 8) else 8 - n
  }

  /** The bit string in 8-bit chunks, the last one padded with zeros at the
      end (`substr(i, 8).padEnd(8, '0')`), each read as a number. */
  function ToBytes(bits: Bits): (bytes: seq<nat>)
    ensures forall b :: b in bytes ==> b < 256
    decreases |bits|
  {
    if |bits| == 0 then []
    else if |bits| >= 8 then [BitsToNat(bits[..8])] + ToBytes(bits[8..])
    else [BitsToNat(bits + Zeros(8 - |bits|))]
  }

  /** The decoder's side: every byte back to 8 bits (`padStart(8, '0')`). */
  function FromBytes(bytes: seq<nat>): (bits: Bits)
    ensures |bits| == 8 * |bytes|
  {
    if |bytes| == 0 then [] else NatToBits(bytes[0], 8) + FromBytes(bytes[1..])
  }

  /** Bytes and back give the original bits followed by the padding zeros. */
  lemma {:induction false} BytesRoundTrip(bits: Bits)
    ensures FromBytes(ToBytes(bits)) == bits + Zeros(PadLength(|bits|))
    decreases |bits|
  {
    if |bits| == 0 {
    } else if |bits| >= 8 {
      var head, rest := bits[..8], bits[8..];
      BitsRoundTripAt8(head);
      BytesRoundTrip(rest);
      FromBytesCons(BitsToNat(head), ToBytes(rest));
      var z := Zeros(PadLength(|bits|));
      assert PadLength(|bits|) == PadLength(|rest|);
      calc {
        FromBytes(ToBytes(bits));
        NatToBits(BitsToNat(head), 8) + FromBytes(ToBytes(rest));
        head + (rest + z);
        { assert bits == head + rest; }
        bits + z;
      }
    } else {
      BitsRoundTripAt8(bits + Zeros(8 - |bits|));
      FromBytesCons(BitsToNat(bits + Zeros(8 - |bits|)), []);
    }
  }

  lemma FromBytesCons(x: nat, ys: seq<nat>)
    ensures FromBytes([x] + ys) == NatToBits(x, 8) + FromBytes(ys)
  {
    assert ([x] + ys)[1..] == ys;
  }

  lemma BitsRoundTripAt8(b: Bits)
    requires |b| == 8
    ensures NatToBits(BitsToNat(b), 8) == b
  {
    BitsInverse(b);
  }

  lemma {:induction false} BitsInverse(b: Bits)
    ensures NatToBits(BitsToNat(b), |b|) == b
  {
    if |b| > 0 {
      var n := BitsToNat(b);
      var m := BitsToNat(b[..|b| - 1]);
      assert n / 2 == m;
      BitsInverse(b[..|b| - 1]);
      assert b == b[..|b| - 1] + [b[|b| - 1]];
    }
  }

  // ---------------------------------------------------------------------
  // Palette indices in a fixed number of bits
  // ---------------------------------------------------------------------

  /** The encoder's bit string: each index in `bpp` bits, in order. */
  function EncodeIndices(idx: seq<nat>, bpp: nat): (bits: Bits)
  {
    if |idx| == 0 then [] else NatToBits(idx[0], bpp) + EncodeIndices(idx[1..], bpp)
  }

  /** The decoder's walk over n cells: a cell reads the next `bpp` bits if
      that many remain (`bitIndex + bitsPerPixel <= bitString.length`) and
      is skipped otherwise, without advancing. */
  function ReadIndices(bits: Bits, bpp: nat, n: nat): (r: seq<Option<nat>>)
    ensures |r| == n
  {
    if n == 0 then []
    else if bpp <= |bits| then [Some(BitsToNat(bits[..bpp]))] + ReadIndices(bits[bpp..], bpp, n - 1)
    else [None] + ReadIndices(bits, bpp, n - 1)
  }

  /** Whatever follows the encoded indices, the decoder reads exactly the
      indices that were written, one per cell. */
  lemma {:induction false} ReadEncoded(idx: seq<nat>, bpp: nat, extra: Bits)
    requires forall k :: 0 <= k < |idx| ==> idx[k] < Pow2(bpp)
    ensures ReadIndices(EncodeIndices(idx, bpp) + extra, bpp, |idx|) == seq(|idx|, k requires 0 <= k < |idx| => Some(idx[k]))
  {
    if |idx| > 0 {
      var bits := EncodeIndices(idx, bpp) + extra;
      var head := NatToBits(idx[0], bpp);
      assert bits == head + (EncodeIndices(idx[1..], bpp) + extra);
      assert bits[..bpp] == head;
      assert bits[bpp..] == EncodeIndices(idx[1..], bpp) + extra;
      BitsRoundTrip(idx[0], bpp);
      ReadEncoded(idx[1..], bpp, extra);
    }
  }

  /** `bitsPerPixel`: start at 3 and widen while `1 << bits` is below the
      number of codes. The palette holds distinct seven-character colour
      strings, far fewer than 2^31, so the 32-bit shift never wraps. */
  function BitsPerPixel(codes: nat): (b: nat)
    ensures b >= 3 && codes <= Pow2(b)
    ensures b > 3 ==> Pow2(b - 1) < codes
  {
    WidenFrom(3, codes)
  }

  function WidenFrom(b: nat, codes: nat): (r: nat)
    requires b >= 3
    requires b > 3 ==> Pow2(b - 1) < codes
    ensures r >= b && codes <= Pow2(r)
    ensures r > 3 ==> Pow2(r - 1) < codes
    decreases codes - Pow2(b)
  {
    if Pow2(b) >= codes then b else WidenFrom(b + 1, codes)
  }

  // ---------------------------------------------------------------------
  // Palette
  // ---------------------------------------------------------------------

  /** Each palette colour without its leading '#', concatenated. */
  function PaletteText(palette: seq<Colour>): string
  {
    if |palette| == 0 then [] else (if |palette[0]| == 0 then "" else palette[0][1..]) + PaletteText(palette[1..])
  }

  /** The decoder rebuilds up to `count` colours as '#' plus six characters,
      stopping where the text runs out. */
  function ReadPalette(text: string, count: nat): (palette: seq<Colour>)
    ensures |palette| <= count
  {
    if count == 0 || |text| < 6 then [] else ["#" + text[..6]] + ReadPalette(text[6..], count - 1)
  }

  predicate Seven(c: Colour) {
    |c| == 7 && c[0] == '#'
  }

  lemma {:induction false} PaletteRoundTrip(palette: seq<Colour>)
    requires forall c :: c in palette ==> Seven(c)
    ensures ReadPalette(PaletteText(palette), |palette|) == palette
  {
    if |palette| > 0 {
      var c := palette[0];
      assert c in palette;
      var text := PaletteText(palette);
      assert text == c[1..] + PaletteText(palette[1..]);
      assert text[..6] == c[1..] && text[6..] == PaletteText(palette[1..]);
      assert "#" + c[1..] == c;
      PaletteRoundTrip(palette[1..]);
    }
  }

  // ---------------------------------------------------------------------
  // Cells of the bounding box
  // ---------------------------------------------------------------------

  /** The cells of a w by h box, row by row: the order of the encoder's and
      the decoder's nested loops. */
  function Positions(w: nat, h: nat): (pos: seq<(int, int)>)
    ensures forall i, j :: (i, j) in pos <==> 0 <= i < w && 0 <= j < h
    ensures Distinct(pos)
  {
    if h == 0 then []
    else
      var prev := Positions(w, h - 1);
      var row := seq(w, i => (i, h - 1));
      AppendRow(prev, row, w, h - 1);
      prev + row
  }

  lemma AppendRow(prev: seq<(int, int)>, row: seq<(int, int)>, w: nat, j: nat)
    requires forall a, b :: (a, b) in prev <==> 0 <= a < w && 0 <= b < j
    requires Distinct(prev)
    requires row == seq(w, i => (i, j))
    ensures forall a, b :: (a, b) in prev + row <==> 0 <= a < w && 0 <= b < j + 1
    ensures Distinct(prev + row)
  {
    forall a, b ensures (a, b) in prev + row <==> 0 <= a < w && 0 <= b < j + 1 {
      if 0 <= a < w && b == j { assert row[a] == (a, b); }
    }
    var s := prev + row;
    forall m, n | 0 <= m < n < |s| ensures s[m] != s[n] {
      if n >= |prev| && m < |prev| {
        assert s[m] in prev;
        assert s[m].1 < j;
      }
    }
  }

  function Active(ps: seq<Pixel>, z: int): (r: seq<Pixel>)
    ensures forall p :: p in r <==> p in ps && p.zoom == z
  {
    if |ps| == 0 then []
    else (if ps[0].zoom == z then [ps[0]] else []) + Active(ps[1..], z)
  }

  /** The colour the encoder's 2-D array holds at (x, y): pixels are written
      in list order, so the last one there wins. */
  function LastColourAt(ps: seq<Pixel>, x: int, y: int): (r: Option<Colour>)
    ensures r.Some? <==> exists p :: p in ps && p.x == x && p.y == y
    ensures r.Some? ==> exists p :: p in ps && p.x == x && p.y == y && p.colour == r.value
  {
    if |ps| == 0 then None
    else
      var last := ps[|ps| - 1];
      assert forall p :: p in ps <==> p in ps[..|ps| - 1] || p == last by {
        assert ps == ps[..|ps| - 1] + [last];
      }
      if last.x == x && last.y == y then Some(last.colour) else LastColourAt(ps[..|ps| - 1], x, y)
  }

  function MinX(ps: seq<Pixel>): (m: int)
    requires |ps| > 0
    ensures (exists p :: p in ps && p.x == m) && forall p :: p in ps ==> m <= p.x
  {
    if |ps| == 1 then ps[0].x
    else var m := MinX(ps[1..]); assert ps[1] in ps[1..]; if ps[0].x < m then ps[0].x else m
  }

  function MaxX(ps: seq<Pixel>): (m: int)
    requires |ps| > 0
    ensures (exists p :: p in ps && p.x == m) && forall p :: p in ps ==> p.x <= m
  {
    if |ps| == 1 then ps[0].x
    else var m := MaxX(ps[1..]); assert ps[1] in ps[1..]; if ps[0].x > m then ps[0].x else m
  }

  function MinY(ps: seq<Pixel>): (m: int)
    requires |ps| > 0
    ensures (exists p :: p in ps && p.y == m) && forall p :: p in ps ==> m <= p.y
  {
    if |ps| == 1 then ps[0].y
    else var m := MinY(ps[1..]); assert ps[1] in ps[1..]; if ps[0].y < m then ps[0].y else m
  }

  function MaxY(ps: seq<Pixel>): (m: int)
    requires |ps| > 0
    ensures (exists p :: p in ps && p.y == m) && forall p :: p in ps ==> p.y <= m
  {
    if |ps| == 1 then ps[0].y
    else var m := MaxY(ps[1..]); assert ps[1] in ps[1..]; if ps[0].y > m then ps[0].y else m
  }

  function Cells(active: seq<Pixel>, minX: int, minY: int, pos: seq<(int, int)>): (cells: seq<Option<Colour>>)
    ensures |cells| == |pos|
  {
    seq(|pos|, k requires 0 <= k < |pos| => LastColourAt(active, minX + pos[k].0, minY + pos[k].1))
  }

  /** The colours of the non-empty cells, in order. */
  function Present(cells: seq<Option<Colour>>): (r: seq<Colour>)
    ensures forall c :: c in r <==> Some(c) in cells
  {
    if |cells| == 0 then []
    else
      assert forall o :: o in cells <==> o == cells[0] || o in cells[1..];
      (if cells[0].Some? then [cells[0].value] else []) + Present(cells[1..])
  }

  /** The palette: the distinct colours of the non-empty cells in
      row-major order of first appearance. */
  function PaletteOf(cells: seq<Option<Colour>>): (palette: seq<Colour>)
    ensures Distinct(palette)
    ensures forall c :: c in palette <==> Some(c) in cells
    ensures forall k :: 0 <= k < |cells| && cells[k].Some? ==> cells[k].value in palette
  {
    assert forall k :: 0 <= k < |cells| ==> cells[k] in cells;
    Dedup(Present(cells))
  }

  /** 0 for an empty cell, palette position + 1 otherwise. */
  function Indices(cells: seq<Option<Colour>>, palette: seq<Colour>): (idx: seq<nat>)
    requires forall k :: 0 <= k < |cells| && cells[k].Some? ==> cells[k].value in palette
    ensures |idx| == |cells|
    ensures forall k :: 0 <= k < |cells| ==> idx[k] <= |palette|
    ensures forall k :: 0 <= k < |cells| ==> (idx[k] == 0 <==> cells[k].None?)
    ensures forall k :: 0 <= k < |cells| && cells[k].Some? ==> palette[idx[k] - 1] == cells[k].value
  {
    seq(|cells|, k requires 0 <= k < |cells| => if cells[k].None? then 0 else IndexOf(palette, cells[k].value) + 1)
  }

  // ---------------------------------------------------------------------
  // Encoder and decoder
  // ---------------------------------------------------------------------

  /** What the encoder produces: just the zoom level when the level is
      empty, otherwise the header fields and the packed bytes. */
  datatype Packed =
    | ZoomOnly(zoom: int)
    | Packed(zoom: int, minX: int, minY: int, width: nat, height: nat,
             bitsPerPixel: nat, paletteCount: nat, paletteText: string,
             data: seq<nat>)

  /** `serializeGridToBase64` below the base64 layer. */
  function Serialize(ps: seq<Pixel>, z: int): (r: Packed)
    ensures r.zoom == z
    ensures r.ZoomOnly? <==> forall p :: p in ps ==> p.zoom != z
    ensures r.Packed? ==> r.bitsPerPixel >= 3 && r.paletteCount + 1 <= Pow2(r.bitsPerPixel)
    ensures r.Packed? ==> forall b :: b in r.data ==> b < 256
  {
    var active := Active(ps, z);
    if |active| == 0 then
      assert forall p :: p in ps ==> p.zoom != z;
      ZoomOnly(z)
    else
      assert active[0] in ps;
      PackLevel(active, z)
  }

  datatype Box = Box(minX: int, minY: int, width: nat, height: nat)

  /** The bounding box of a non-empty level: the smallest one holding every
      pixel. */
  function Bounds(active: seq<Pixel>): (b: Box)
    requires |active| > 0
    ensures forall p :: p in active ==> b.minX <= p.x < b.minX + b.width && b.minY <= p.y < b.minY + b.height
    ensures exists p :: p in active && p.x == b.minX
    ensures exists p :: p in active && p.y == b.minY
    ensures exists p :: p in active && p.x == b.minX + b.width - 1
    ensures exists p :: p in active && p.y == b.minY + b.height - 1
  {
    var minX, minY := MinX(active), MinY(active);
    assert active[0] in active;
    Box(minX, minY, MaxX(active) - minX + 1, MaxY(active) - minY + 1)
  }

  function PackLevel(active: seq<Pixel>, z: int): (r: Packed)
    requires |active| > 0
  {
    var b := Bounds(active);
    PackBox(active, z, b.minX, b.minY, b.width, b.height)
  }

  /** The header and packed bytes for the cells of one box. */
  function PackBox(active: seq<Pixel>, z: int, minX: int, minY: int, w: nat, h: nat): (r: Packed)
    ensures r.Packed? && r.zoom == z && r.minX == minX && r.minY == minY && r.width == w && r.height == h
    ensures r.bitsPerPixel >= 3 && r.paletteCount + 1 <= Pow2(r.bitsPerPixel)
    ensures forall b :: b in r.data ==> b < 256
  {
    var cells := Cells(active, minX, minY, Positions(w, h));
    var palette := PaletteOf(cells);
    var bpp := BitsPerPixel(|palette| + 1);
    Packed(z, minX, minY, w, h, bpp, |palette|, PaletteText(palette),
           ToBytes(EncodeIndices(Indices(cells, palette), bpp)))
  }

  /** The pixel (if any) the decoder adds for one cell: only for an index
      read in full that is positive and within the palette. */
  function DecodeCell(xy: (int, int), o: Option<nat>, palette: seq<Colour>, minX: int, minY: int, z: int): Option<Pixel>
  {
    if o.Some? && o.value > 0 && o.value - 1 < |palette| then
      Some(Pixel(minX + xy.0, minY + xy.1, z, palette[o.value - 1]))
    else None
  }

  function DecodeCells(pos: seq<(int, int)>, idx: seq<Option<nat>>, palette: seq<Colour>, minX: int, minY: int, z: int): (r: seq<Pixel>)
    requires |pos| == |idx|
    ensures forall p :: p in r ==> p.zoom == z && (p.x - minX, p.y - minY) in pos
  {
    if |pos| == 0 then []
    else
      var head := DecodeCell(pos[0], idx[0], palette, minX, minY, z);
      (if head.Some? then [head.value] else []) + DecodeCells(pos[1..], idx[1..], palette, minX, minY, z)
  }

  /** The bit-packed branch of `loadGridFromBitPackedFormat` below the
      base64 and text layers: a fresh grid at the recorded zoom level (not
      range-checked) holding the decoded pixels. */
  function Load(packed: Packed): (g: Grid)
    ensures g.zoom == packed.zoom && g.history == [] && g.redo == []
    ensures forall p :: p in g.pixels ==> p.zoom == packed.zoom
    ensures packed.ZoomOnly? ==> g.pixels == []
  {
    match packed
    case ZoomOnly(z) => LoadZoom(z)
    case Packed(z, minX, minY, w, h, bpp, count, text, data) =>
      LoadZoom(z).(pixels := Unpack(z, minX, minY, w, h, bpp, count, text, data))
  }

  /** The decoder's loops over the box. */
  function Unpack(z: int, minX: int, minY: int, w: nat, h: nat, bpp: nat, count: nat, text: string, data: seq<nat>): (r: seq<Pixel>)
    ensures forall p :: p in r ==> p.zoom == z
  {
    var pos := Positions(w, h);
    DecodeCells(pos, ReadIndices(FromBytes(data), bpp, |pos|), ReadPalette(text, count), minX, minY, z)
  }

  // ---------------------------------------------------------------------
  // Round trip
  // ---------------------------------------------------------------------

  /** The pixel a cell should decode to: one of the colour the encoder's
      2-D array holds there, if any. */
  function Expected(active: seq<Pixel>, minX: int, minY: int, z: int, xy: (int, int)): Option<Pixel>
  {
    match LastColourAt(active, minX + xy.0, minY + xy.1)
    case Some(c) => Some(Pixel(minX + xy.0, minY + xy.1, z, c))
    case None => None
  }

  /** When every cell decodes to what it should, the decoded pixels are
      exactly the expected ones, and no two share a position. */
  lemma {:induction false} DecodeCellsMatch(pos: seq<(int, int)>, idx: seq<Option<nat>>, palette: seq<Colour>,
                                            minX: int, minY: int, z: int, active: seq<Pixel>)
    requires |pos| == |idx| && Distinct(pos)
    requires forall k :: 0 <= k < |pos| ==>
      DecodeCell(pos[k], idx[k], palette, minX, minY, z) == Expected(active, minX, minY, z, pos[k])
    ensures var r := DecodeCells(pos, idx, palette, minX, minY, z);
      && (forall p :: p in r <==>
           (p.x - minX, p.y - minY) in pos && Expected(active, minX, minY, z, (p.x - minX, p.y - minY)) == Some(p))
      && Unique(r)
  {
    forall p ensures var r := DecodeCells(pos, idx, palette, minX, minY, z);
      p in r <==> (p.x - minX, p.y - minY) in pos && Expected(active, minX, minY, z, (p.x - minX, p.y - minY)) == Some(p)
    {
      DecodeCellsHas(pos, idx, palette, minX, minY, z, active, p);
    }
    DecodeCellsUnique(pos, idx, palette, minX, minY, z);
  }

  /** The membership half of DecodeCellsMatch, one pixel at a time. */
  lemma {:induction false} DecodeCellsHas(pos: seq<(int, int)>, idx: seq<Option<nat>>, palette: seq<Colour>,
                                          minX: int, minY: int, z: int, active: seq<Pixel>, p: Pixel)
    requires |pos| == |idx|
    requires forall k :: 0 <= k < |pos| ==>
      DecodeCell(pos[k], idx[k], palette, minX, minY, z) == Expected(active, minX, minY, z, pos[k])
    ensures p in DecodeCells(pos, idx, palette, minX, minY, z) <==>
      (p.x - minX, p.y - minY) in pos && Expected(active, minX, minY, z, (p.x - minX, p.y - minY)) == Some(p)
  {
    var xy := (p.x - minX, p.y - minY);
    if |pos| > 0 {
      var r := DecodeCells(pos, idx, palette, minX, minY, z);
      var rest := DecodeCells(pos[1..], idx[1..], palette, minX, minY, z);
      var head := DecodeCell(pos[0], idx[0], palette, minX, minY, z);
      assert head == Expected(active, minX, minY, z, pos[0]);
      DecodeCellsHas(pos[1..], idx[1..], palette, minX, minY, z, active, p);
      assert r == (if head.Some? then [head.value] else []) + rest;
      assert pos == [pos[0]] + pos[1..];
      assert head == Some(p) <==> xy == pos[0] && Expected(active, minX, minY, z, xy) == Some(p);
    }
  }

  lemma {:induction false} DecodeCellsUnique(pos: seq<(int, int)>, idx: seq<Option<nat>>, palette: seq<Colour>,
                                             minX: int, minY: int, z: int)
    requires |pos| == |idx| && Distinct(pos)
    ensures Unique(DecodeCells(pos, idx, palette, minX, minY, z))
  {
    if |pos| > 0 {
      var r := DecodeCells(pos, idx, palette, minX, minY, z);
      var rest := DecodeCells(pos[1..], idx[1..], palette, minX, minY, z);
      var head := DecodeCell(pos[0], idx[0], palette, minX, minY, z);
      assert Distinct(pos[1..]);
      DecodeCellsUnique(pos[1..], idx[1..], palette, minX, minY, z);
      if head.Some? {
        assert pos[0] !in pos[1..];
        assert r == [head.value] + rest;
        forall q | q in rest ensures !At(q, head.value.x, head.value.y, head.value.zoom) {
          assert (q.x - minX, q.y - minY) in pos[1..];
        }
        UniqueCons(head.value, rest);
      }
    }
  }

  /** A pixel at a position no later pixel takes keeps a unique list unique. */
  lemma UniqueCons(h: Pixel, rest: seq<Pixel>)
    requires Unique(rest)
    requires forall q :: q in rest ==> !At(q, h.x, h.y, h.zoom)
    ensures Unique([h] + rest)
  {
    var r := [h] + rest;
    forall a, b | 0 <= a < b < |r| ensures !At(r[b], r[a].x, r[a].y, r[a].zoom) {
      if a == 0 { assert r[b] == rest[b - 1]; assert r[b] in rest; }
      else { assert r[a] == rest[a - 1] && r[b] == rest[b - 1]; }
    }
  }

  lemma PaletteWellFormed(active: seq<Pixel>, minX: int, minY: int, pos: seq<(int, int)>)
    requires AllWellFormed(active)
    ensures forall c :: c in PaletteOf(Cells(active, minX, minY, pos)) ==> Seven(c)
  {
    var cells := Cells(active, minX, minY, pos);
    forall c | c in PaletteOf(cells) ensures Seven(c) {
      var k :| 0 <= k < |cells| && cells[k] == Some(c);
      assert PixelColour.IsHexColour(c);
    }
  }

  /** Decoding the cells that were encoded gives back, for every cell with a
      colour, a pixel of that colour at that cell, and nothing else. */
  lemma DecodeEncoded(active: seq<Pixel>, z: int, minX: int, minY: int, w: nat, h: nat)
    requires AllWellFormed(active)
    ensures
      var pos := Positions(w, h);
      var r := Load(PackBox(active, z, minX, minY, w, h)).pixels;
      && (forall p :: p in r <==>
           (p.x - minX, p.y - minY) in pos && Expected(active, minX, minY, z, (p.x - minX, p.y - minY)) == Some(p))
      && Unique(r)
  {
    var pos := Positions(w, h);
    var cells := Cells(active, minX, minY, pos);
    var palette := PaletteOf(cells);
    var bpp := BitsPerPixel(|palette| + 1);
    var read := ReadIndices(FromBytes(ToBytes(EncodeIndices(Indices(cells, palette), bpp))), bpp, |pos|);
    EncodedCellsDecode(active, minX, minY, z, pos);
    DecodeCellsMatch(pos, read, palette, minX, minY, z, active);
    LoadPackBox(active, z, minX, minY, w, h);
  }

  /** Every cell the encoder wrote decodes to the pixel it should. */
  lemma EncodedCellsDecode(active: seq<Pixel>, minX: int, minY: int, z: int, pos: seq<(int, int)>)
    requires AllWellFormed(active)
    ensures
      var cells := Cells(active, minX, minY, pos);
      var palette := PaletteOf(cells);
      var bpp := BitsPerPixel(|palette| + 1);
      var read := ReadIndices(FromBytes(ToBytes(EncodeIndices(Indices(cells, palette), bpp))), bpp, |pos|);
      && |read| == |pos|
      && forall k :: 0 <= k < |pos| ==>
        DecodeCell(pos[k], read[k], palette, minX, minY, z) == Expected(active, minX, minY, z, pos[k])
  {
    var cells := Cells(active, minX, minY, pos);
    var palette := PaletteOf(cells);
    var bpp := BitsPerPixel(|palette| + 1);
    var idx := Indices(cells, palette);
    var read := ReadIndices(FromBytes(ToBytes(EncodeIndices(idx, bpp))), bpp, |pos|);
    assert |read| == |pos| && forall k :: 0 <= k < |pos| ==> read[k] == Some(idx[k]) by {
      ReadBack(idx, bpp);
    }
    CellsDecodeAsExpected(active, minX, minY, z, pos, palette, idx, read);
  }

  /** Loading a packed box runs the decoder over the bits the encoder wrote. */
  lemma LoadPackBox(active: seq<Pixel>, z: int, minX: int, minY: int, w: nat, h: nat)
    requires AllWellFormed(active)
    ensures
      var pos := Positions(w, h);
      var cells := Cells(active, minX, minY, pos);
      var palette := PaletteOf(cells);
      var bpp := BitsPerPixel(|palette| + 1);
      var read := ReadIndices(FromBytes(ToBytes(EncodeIndices(Indices(cells, palette), bpp))), bpp, |pos|);
      Load(PackBox(active, z, minX, minY, w, h)).pixels == DecodeCells(pos, read, palette, minX, minY, z)
  {
    var pos := Positions(w, h);
    var cells := Cells(active, minX, minY, pos);
    var palette := PaletteOf(cells);
    var bpp := BitsPerPixel(|palette| + 1);
    var data := ToBytes(EncodeIndices(Indices(cells, palette), bpp));
    var packed := PackBox(active, z, minX, minY, w, h);
    assert packed == Packed(z, minX, minY, w, h, bpp, |palette|, PaletteText(palette), data);
    assert Load(packed).pixels == Unpack(z, minX, minY, w, h, bpp, |palette|, PaletteText(palette), data);
    assert ReadPalette(PaletteText(palette), |palette|) == palette by {
      PaletteWellFormed(active, minX, minY, pos);
      PaletteRoundTrip(palette);
    }
  }

  /** Indices packed into bytes read back as they were written. */
  lemma ReadBack(idx: seq<nat>, bpp: nat)
    requires forall k :: 0 <= k < |idx| ==> idx[k] < Pow2(bpp)
    ensures var read := ReadIndices(FromBytes(ToBytes(EncodeIndices(idx, bpp))), bpp, |idx|);
      |read| == |idx| && forall k :: 0 <= k < |idx| ==> read[k] == Some(idx[k])
  {
    var bits := EncodeIndices(idx, bpp);
    BytesRoundTrip(bits);
    ReadEncoded(idx, bpp, Zeros(PadLength(|bits|)));
  }

  lemma CellsDecodeAsExpected(active: seq<Pixel>, minX: int, minY: int, z: int, pos: seq<(int, int)>,
                              palette: seq<Colour>, idx: seq<nat>, read: seq<Option<nat>>)
    requires |idx| == |pos| && |read| == |pos|
    requires forall k :: 0 <= k < |pos| ==> read[k] == Some(idx[k])
    requires var cells := Cells(active, minX, minY, pos);
      forall k :: 0 <= k < |pos| ==>
        && idx[k] <= |palette|
        && (idx[k] == 0 <==> cells[k].None?)
        && (cells[k].Some? ==> palette[idx[k] - 1] == cells[k].value)
    ensures forall k :: 0 <= k < |pos| ==>
      DecodeCell(pos[k], read[k], palette, minX, minY, z) == Expected(active, minX, minY, z, pos[k])
  {
    var cells := Cells(active, minX, minY, pos);
    forall k | 0 <= k < |pos|
      ensures DecodeCell(pos[k], read[k], palette, minX, minY, z) == Expected(active, minX, minY, z, pos[k])
    {
      assert cells[k] == LastColourAt(active, minX + pos[k].0, minY + pos[k].1);
    }
  }

  lemma SamePixel(ps: seq<Pixel>, p: Pixel, q: Pixel)
    requires Unique(ps) && p in ps && q in ps && At(q, p.x, p.y, p.zoom)
    ensures p == q
  {
    var i :| 0 <= i < |ps| && ps[i] == p;
    var j :| 0 <= j < |ps| && ps[j] == q;
    SamePosition(ps, i, j);
  }

  /** With every active pixel inside the box and no two at one position,
      the expected pixels of the box's cells are exactly the active ones. */
  lemma ExpectedIsActive(active: seq<Pixel>, z: int, minX: int, minY: int, w: nat, h: nat, p: Pixel)
    requires forall q :: q in active ==> q.zoom == z && minX <= q.x < minX + w && minY <= q.y < minY + h
    requires forall q1, q2 :: q1 in active && q2 in active && q1.x == q2.x && q1.y == q2.y ==> q1 == q2
    ensures (p.x - minX, p.y - minY) in Positions(w, h) && Expected(active, minX, minY, z, (p.x - minX, p.y - minY)) == Some(p)
      <==> p in active
  {
    var c := LastColourAt(active, p.x, p.y);
    if p in active {
      var q :| q in active && q.x == p.x && q.y == p.y && q.colour == c.value;
    }
    if c.Some? {
      var q :| q in active && q.x == p.x && q.y == p.y && q.colour == c.value;
    }
  }

  /** The round trip of the shareable encoding: loading what was saved gives
      a valid grid at the saved zoom level holding exactly the pixels of
      that level, provided no two pixels share a position (which every grid
      operation keeps) and every colour is a seven-character hex colour. */
  lemma SerializeLoadRoundTrip(ps: seq<Pixel>, z: int)
    requires Unique(ps) && AllWellFormed(ps)
    ensures var g := Load(Serialize(ps, z));
      && g.zoom == z
      && Valid(g)
      && forall p :: p in g.pixels <==> p in ps && p.zoom == z
  {
    var active := Active(ps, z);
    if |active| > 0 {
      assert active[0] in ps;
      var b := Bounds(active);
      var minX, minY, w, h := b.minX, b.minY, b.width, b.height;
      assert Serialize(ps, z) == PackBox(active, z, minX, minY, w, h);
      DecodeEncoded(active, z, minX, minY, w, h);
      forall q1, q2 | q1 in active && q2 in active && q1.x == q2.x && q1.y == q2.y ensures q1 == q2 {
        SamePixel(ps, q1, q2);
      }
      forall p: Pixel ensures (p.x - minX, p.y - minY) in Positions(w, h) && Expected(active, minX, minY, z, (p.x - minX, p.y - minY)) == Some(p)
        <==> p in active
      {
        ExpectedIsActive(active, z, minX, minY, w, h, p);
      }
    }
  }
}

=== FILE: polar.dfy ===
/** The polar L-system of genart/genuary2026/10_polar_coordinates.mjs: four
    rule tables used in turn, a two-mode update that grows the sentence and
    then spins the finished drawing, and the polar turtle whose radius
    moves between rings. */
module Polar {
  import opened LSystem

  /** The four entries of `rules`. */
  const RuleTables: seq<Rules> := [
    map['X' := "F[OFX]B[IBX]", 'F' := "Ff", 'B' := "Bb"],
    map['X' := "F[[OFFXI][IBXO]]", 'F' := "Ff"],
    map['X' := "FX", 'F' := "FOFI"],
    map['Y' := "Y[IFFF][OFFF]FY", 'X' := "XFY[OX][IX]"]
  ]

  const MaxLength: nat := 200000
  const MaxSteps: nat := 10
  /** `ROTATE_SECONDS * 1000`: the length of a spin in milliseconds. */
  const RotateMs: real := 3000.0

  /** `rewrite` with the table `ruleIndex`. Every body in every table is
      non-empty, and rewriting distributes over concatenation and never
      shortens a sentence. */
  lemma RewriteFacts(ruleIndex: nat, a: string, b: string)
    requires ruleIndex < |RuleTables|
    ensures var rules := RuleTables[ruleIndex];
      && Rewrite(rules, a + b) == Rewrite(rules, a) + Rewrite(rules, b)
      && |Rewrite(rules, a)| >= |a|
  {
    RewriteAppend(RuleTables[ruleIndex], a, b);
    RewriteGrows(RuleTables[ruleIndex], a);
  }

  // ---------------------------------------------------------------------
  // update
  // ---------------------------------------------------------------------

  datatype Mode = Sim | Rotate

  /** The sketch's module-level state: `mode`, `rotateT`, `freezeSentence`
      and the sentence, rule index and step count of `state`. */
  datatype Sketch = Sketch(mode: Mode, rotateT: real, freeze: string,
                           sentence: string, ruleIndex: nat, steps: nat)

  const Start: Sketch := Sketch(Sim, 0.0, "X", "X", 0, 0)

  /** `update(dt)`. In ROTATE the spin clock advances; once it reaches
      3000 ms the next rule table starts from "X". In SIM the sentence is
      frozen and the spin starts once it is long enough or has been
      rewritten MAX_STEPS times; otherwise it is rewritten once more. */
  function Update(s: Sketch, dt: real): (r: Sketch)
    requires s.ruleIndex < |RuleTables|
    ensures r.ruleIndex < |RuleTables|
    ensures s.mode == Rotate && s.rotateT + dt >= RotateMs ==>
      r == Sketch(Sim, 0.0, s.freeze, "X", (s.ruleIndex + 1) % |RuleTables|, 0)
    ensures s.mode == Rotate && s.rotateT + dt < RotateMs ==> r == s.(rotateT := s.rotateT + dt)
    ensures s.mode == Sim && (|s.sentence| >= MaxLength || s.steps >= MaxSteps) ==>
      r == s.(mode := Rotate, rotateT := 0.0, freeze := s.sentence)
    ensures s.mode == Sim && |s.sentence| < MaxLength && s.steps < MaxSteps ==>
      r == s.(sentence := Rewrite(RuleTables[s.ruleIndex], s.sentence), steps := s.steps + 1)
  {
    match s.mode
    case Rotate =>
      var t := s.rotateT + dt;
      if t >= RotateMs then Sketch(Sim, 0.0, s.freeze, "X", (s.ruleIndex + 1) % |RuleTables|, 0)
      else s.(rotateT := t)
    case Sim =>
      if |s.sentence| >= MaxLength || s.steps >= MaxSteps then
        s.(mode := Rotate, rotateT := 0.0, freeze := s.sentence)
      else
        s.(sentence := Rewrite(RuleTables[s.ruleIndex], s.sentence), steps := s.steps + 1)
  }

  /** What every reachable state satisfies: a valid table, at most
      MAX_STEPS rewrites, the sentence being exactly that many rewrites of
      "X", and during a spin the frozen sentence being that sentence. */
  predicate Inv(s: Sketch) {
    && s.ruleIndex < |RuleTables|
    && s.steps <= MaxSteps
    && s.sentence == Iterate(RuleTables[s.ruleIndex], "X", s.steps)
    && (s.mode == Rotate ==> s.freeze == s.sentence)
  }

  lemma StartInv()
    ensures Inv(Start)
  {
  }

  lemma {:induction false} IterateSnoc(rules: Rules, w: string, n: nat)
    decreases n
    ensures Iterate(rules, w, n + 1) == Rewrite(rules, Iterate(rules, w, n))
  {
    if n > 0 {
      IterateSnoc(rules, Rewrite(rules, w), n - 1);
    }
  }

  /** `update` keeps the invariant, whatever the frame time. */
  lemma UpdateKeepsInv(s: Sketch, dt: real)
    requires Inv(s)
    ensures Inv(Update(s, dt))
  {
    var r := Update(s, dt);
    if s.mode == Rotate {
      if s.rotateT + dt >= RotateMs {
        assert r.sentence == "X" && r.steps == 0 && r.mode == Sim;
      } else {
        assert r == s.(rotateT := s.rotateT + dt);
      }
    } else if |s.sentence| >= MaxLength || s.steps >= MaxSteps {
      assert r == s.(mode := Rotate, rotateT := 0.0, freeze := s.sentence);
    } else {
      var rules := RuleTables[s.ruleIndex];
      assert r == s.(sentence := Rewrite(rules, s.sentence), steps := s.steps + 1);
      IterateSnoc(rules, "X", s.steps);
    }
  }

  // ---------------------------------------------------------------------
  // The turtle of drawLine
  // ---------------------------------------------------------------------

  /** The turtle: heading in whole `angleStep`s, radius, pen state and the
      stack of saved (angle, radius) pairs. */
  datatype Turtle = Turtle(angle: int, radius: real, penDown: bool, stack: seq<(int, real)>)

  function Min(a: real, b: real): real {
    if a <= b then a else b
  }

  function Max(a: real, b: real): real {
    if a >= b then a else b
  }

  /** One symbol, with `step` the ring spacing `radiusStep` and `outer` the
      outermost radius `state.radius`. F and B draw arcs one slice forward
      or back, f and b move without drawing, O and I draw one ring out or
      in, o and i move one ring without drawing. */
  function Move(t: Turtle, c: char, step: real, outer: real): (r: Turtle)
    ensures c == ']' && |t.stack| == 0 ==> r == t
    ensures c == '[' ==> r.stack == t.stack + [(t.angle, t.radius)] && r.radius == t.radius
    ensures c == ']' && |t.stack| > 0 ==>
      (r.angle, r.radius) == t.stack[|t.stack| - 1] && r.stack == t.stack[..|t.stack| - 1]
  {
    match c
    case 'F' => t.(angle := t.angle + 1, penDown := true)
    case 'B' => t.(angle := t.angle - 1, penDown := true)
    case 'f' => t.(angle := t.angle + 1, penDown := false)
    case 'b' => t.(angle := t.angle - 1, penDown := false)
    case 'O' => t.(radius := Min(outer, t.radius + step), penDown := true)
    case 'I' => t.(radius := Max(step, t.radius - step), penDown := true)
    case 'o' => t.(radius := Min(outer, t.radius + step), penDown := false)
    case 'i' => t.(radius := Max(step, t.radius - step), penDown := false)
    case '[' => t.(stack := t.stack + [(t.angle, t.radius)])
    case ']' =>
      if |t.stack| == 0 then t
      else
        var (a, rad) := t.stack[|t.stack| - 1];
        t.(angle := a, radius := rad, penDown := false, stack := t.stack[..|t.stack| - 1])
    case _ => t
  }

  /** The turtle after reading `w`. */
  function Trace(t: Turtle, w: string, step: real, outer: real): Turtle
    decreases |w|
  {
    if |w| == 0 then t else Trace(Move(t, w[0], step, outer), w[1..], step, outer)
  }

  /** The turtle `drawLine` starts with: heading 0, one ring out, pen up. */
  function Initial(step: real): Turtle {
    Turtle(0, step, false, [])
  }

  /** The current radius and every saved one lie between the innermost and
      the outermost ring. */
  predicate InRings(t: Turtle, step: real, outer: real) {
    && step <= t.radius <= outer
    && forall k :: 0 <= k < |t.stack| ==> step <= t.stack[k].1 <= outer
  }

  lemma MoveInRings(t: Turtle, c: char, step: real, outer: real)
    requires InRings(t, step, outer) && 0.0 <= step
    ensures InRings(Move(t, c, step, outer), step, outer)
  {
  }

  lemma {:induction false} TraceInRings(t: Turtle, w: string, step: real, outer: real)
    requires InRings(t, step, outer) && 0.0 <= step
    decreases |w|
    ensures InRings(Trace(t, w, step, outer), step, outer)
  {
    if |w| > 0 {
      MoveInRings(t, w[0], step, outer);
      TraceInRings(Move(t, w[0], step, outer), w[1..], step, outer);
    }
  }

  /** `radiusStep = state.radius / levels` is at most `state.radius`, so the
      radius stays in [radiusStep, state.radius] through any sentence. */
  lemma DrawStaysInRings(w: string, step: real, outer: real)
    requires 0.0 <= step <= outer
    ensures InRings(Trace(Initial(step), w, step, outer), step, outer)
  {
    TraceInRings(Initial(step), w, step, outer);
  }
}

=== FILE: quine.dfy ===
/** The source-offset labelling and profile timeline of the self-reading
    sketch (genart/genuary2026/11_quine.mjs): every offset of the source text
    is labelled with the innermost syntax node (or function) covering it by a
    stack sweep over intervals sorted by start, and recorded calls are laid
    out on a timeline that starts at zero. */
module Quine {
  import opened Optional
  import opened Seqs

  /** The "no label" marker written into the 16-bit label arrays. */
  const None16: int := 0xffff

  /** A `Uint16Array` keeps the low sixteen bits of what is stored in it. */
  function Store16(v: nat): (r: int)
    ensures 0 <= r < 0x1_0000
    ensures v < 0x1_0000 ==> r == v
  {
    v % 0x1_0000
  }

  /** A half-open source range `[start, end)` carrying the label `idx`. */
  datatype Interval = Interval(start: int, end: int, idx: nat)

  /** The sort comparator `(a.start - b.start) || (b.end - a.end)`: earlier
      starts first, and among equal starts the longer interval first. */
  function ByStartThenLongest(a: Interval, b: Interval): bool {
    a.start < b.start || (a.start == b.start && a.end >= b.end)
  }

  lemma ByStartThenLongestIsPreorder()
    ensures TotalPreorder(ByStartThenLongest)
  {
  }

  /** The comparator's order puts starts in ascending order. */
  lemma SortedStarts(s: seq<Interval>)
    requires SortedBy(s, ByStartThenLongest)
    ensures StartsAscend(s)
  {
  }

  predicate StartsAscend(s: seq<Interval>) {
    forall j, k :: 0 <= j < k < |s| ==> s[j].start <= s[k].start
  }

  function Min(a: int, b: int): int { if a < b then a else b }
  function Max(a: int, b: int): int { if a < b then b else a }

  /** Interval `it` is alive at offset i: it has started, and either i lies
      inside it or i is its own start (an empty interval labels its start,
      since it is pushed and read before the next pop). */
  predicate Live(it: Interval, i: int) {
    it.start <= i && (i < it.end || it.start == i)
  }

  /** The position of the last interval among the first n alive at i. */
  function LastLive(s: seq<Interval>, i: int, n: nat): (r: Option<nat>)
    requires n <= |s|
    ensures r.Some? ==> r.value < n && Live(s[r.value], i)
    ensures r.Some? ==> forall j :: r.value < j < n ==> !Live(s[j], i)
    ensures r.None? ==> forall j :: 0 <= j < n ==> !Live(s[j], i)
  {
    if n == 0 then None
    else if Live(s[n - 1], i) then Some(n - 1)
    else LastLive(s, i, n - 1)
  }

  /** The label the sweep writes at offset i. */
  function LabelAt(s: seq<Interval>, i: int): int
  {
    match LastLive(s, i, |s|)
    case None => None16
    case Some(k) => Store16(s[k].idx)
  }

  /** A stack entry: the clamped end and the label. */
  datatype Entry = Entry(end: int, idx: nat)

  function ClampedEnd(it: Interval, len: int): int {
    Min(len, Max(it.start, it.end))
  }

  /** The stack holds, bottom to top, the entries of the intervals at
      positions `ks` (ascending, all already pushed), and every pushed
      interval no longer on the stack has ended by offset i. */
  ghost predicate StackInv(s: seq<Interval>, len: nat, stack: seq<Entry>, ks: seq<nat>, p: nat, i: int) {
    && p <= |s|
    && |stack| == |ks|
    && (forall m :: 0 <= m < |ks| ==> ks[m] < p)
    && (forall m :: 0 <= m < |ks| ==> stack[m] == Entry(ClampedEnd(s[ks[m]], len), s[ks[m]].idx))
    && (forall m, n :: 0 <= m < n < |ks| ==> ks[m] < ks[n])
    && (forall k :: 0 <= k < p && k !in ks ==> ClampedEnd(s[k], len) <= i)
  }

  /** The pops at offset i: ended tops leave the stack. */
  method PopEnded(ghost s: seq<Interval>, len: nat, stack0: seq<Entry>, ghost ks0: seq<nat>, ghost p: nat, i: int)
    returns (stack: seq<Entry>, ghost ks: seq<nat>)
    requires StackInv(s, len, stack0, ks0, p, i)
    ensures StackInv(s, len, stack, ks, p, i)
    ensures |stack| == 0 || stack[|stack| - 1].end > i
  {
    stack, ks := stack0, ks0;
    while |stack| > 0 && stack[|stack| - 1].end <= i
      invariant StackInv(s, len, stack, ks, p, i)
    {
      stack := stack[..|stack| - 1];
      ks := ks[..|ks| - 1];
    }
  }

  /** The pushes at offset i: every interval starting here, in order, with
      its end clamped into `[i, len]`. */
  method PushStarting(s: seq<Interval>, len: nat, stack0: seq<Entry>, ghost ks0: seq<nat>, p0: nat, i: int)
    returns (stack: seq<Entry>, ghost ks: seq<nat>, p: nat)
    requires StackInv(s, len, stack0, ks0, p0, i)
    requires forall k :: p0 <= k < |s| ==> s[k].start >= i
    requires |stack0| == 0 || stack0[|stack0| - 1].end > i
    ensures StackInv(s, len, stack, ks, p, i)
    ensures p0 <= p <= |s|
    ensures forall k :: p0 <= k < p ==> s[k].start == i
    ensures forall k :: p <= k < |s| ==> s[k].start >= i
    ensures p < |s| ==> s[p].start > i
    ensures p > p0 ==> |ks| > 0 && ks[|ks| - 1] == p - 1
    ensures p == p0 ==> |stack| == 0 || stack[|stack| - 1].end > i
  {
    stack, ks, p := stack0, ks0, p0;
    while p < |s| && s[p].start == i
      invariant p0 <= p <= |s|
      invariant forall k :: p0 <= k < p ==> s[k].start == i
      invariant forall k :: p <= k < |s| ==> s[k].start >= i
      invariant StackInv(s, len, stack, ks, p, i)
      invariant p > p0 ==> |ks| > 0 && ks[|ks| - 1] == p - 1
      invariant p == p0 ==> |stack| == 0 || stack[|stack| - 1].end > i
    {
      var end := Min(len, Max(i, s[p].end));
      PushKeeps(s, len, stack, ks, p, i);
      stack := stack + [Entry(end, s[p].idx)];
      ks := ks + [p];
      p := p + 1;
    }
  }

  /** Pushing the next interval, which starts at i, keeps the stack's
      invariant. */
  lemma PushKeeps(s: seq<Interval>, len: nat, stack: seq<Entry>, ks: seq<nat>, p: nat, i: int)
    requires StackInv(s, len, stack, ks, p, i)
    requires p < |s| && s[p].start == i
    ensures StackInv(s, len, stack + [Entry(Min(len, Max(i, s[p].end)), s[p].idx)], ks + [p], p + 1, i)
  {
    var stack', ks' := stack + [Entry(Min(len, Max(i, s[p].end)), s[p].idx)], ks + [p];
    assert forall m :: 0 <= m < |ks| ==> ks'[m] == ks[m] && stack'[m] == stack[m];
  }

  /** The label written at offset i after the pushes: the top's, or the
      marker on an empty stack. */
  method ReadTop(ghost s: seq<Interval>, len: nat, stack: seq<Entry>, ghost ks: seq<nat>,
                 ghost p: nat, ghost p0: nat, i: nat)
    returns (v: int)
    requires i < len && p0 <= p <= |s|
    requires StackInv(s, len, stack, ks, p, i)
    requires forall k :: 0 <= k < p0 ==> s[k].start < i
    requires forall k :: p0 <= k < p ==> s[k].start == i
    requires forall k :: p <= k < |s| ==> s[k].start > i
    requires p > p0 ==> |ks| > 0 && ks[|ks| - 1] == p - 1
    requires p == p0 ==> |stack| == 0 || stack[|stack| - 1].end > i
    ensures v == LabelAt(s, i)
  {
    v := None16;
    if |stack| > 0 {
      v := Store16(stack[|stack| - 1].idx);
      TopIsLastLive(s, len, i, p, p0, ks);
    } else {
      NoneLive(s, len, i, p, p0, ks);
    }
  }

  /** The state of the sweep at the head of offset i: the first p intervals
      (exactly those starting before i) have been pushed. */
  ghost predicate SweepInv(s: seq<Interval>, len: nat, stack: seq<Entry>, ks: seq<nat>, p: nat, i: int) {
    && p <= |s|
    && (forall k :: 0 <= k < p ==> s[k].start < i)
    && (forall k :: p <= k < |s| ==> s[k].start >= i)
    && StackInv(s, len, stack, ks, p, i)
  }

  /** One offset of the sweep: pop, push, and read the label. */
  method SweepStep(s: seq<Interval>, len: nat, stack0: seq<Entry>, ghost ks0: seq<nat>, p0: nat, i: nat)
    returns (v: int, stack: seq<Entry>, ghost ks: seq<nat>, p: nat)
    requires StartsAscend(s) && i < len
    requires SweepInv(s, len, stack0, ks0, p0, i)
    ensures SweepInv(s, len, stack, ks, p, i + 1)
    ensures v == LabelAt(s, i)
  {
    stack, ks := PopEnded(s, len, stack0, ks0, p0, i);
    stack, ks, p := PushStarting(s, len, stack, ks, p0, i);
    if p < |s| {
      assert forall k :: p <= k < |s| ==> s[p].start <= s[k].start;
    }
    v := ReadTop(s, len, stack, ks, p, p0, i);
  }

  /** The sweep of `buildTypeIndexMap` and `buildFnIndexMap`: walk the offsets,
      pop stack tops that have ended, push the intervals starting here, and
      label the offset with the top of the stack. */
  method Sweep(s: seq<Interval>, len: nat) returns (at: seq<int>)
    requires StartsAscend(s)
    requires forall k :: 0 <= k < |s| ==> s[k].start >= 0
    ensures |at| == len
    ensures forall i :: 0 <= i < len ==> at[i] == LabelAt(s, i)
  {
    at := [];
    var stack: seq<Entry> := [];
    ghost var ks: seq<nat> := [];
    var p := 0;
    var i := 0;
    while i < len
      invariant 0 <= i <= len
      invariant |at| == i && forall q :: 0 <= q < i ==> at[q] == LabelAt(s, q)
      invariant SweepInv(s, len, stack, ks, p, i)
    {
      var v;
      v, stack, ks, p := SweepStep(s, len, stack, ks, p, i);
      at := at + [v];
      i := i + 1;
    }
  }

  /** The top of a non-empty stack is the last interval alive at i. */
  lemma TopIsLastLive(s: seq<Interval>, len: nat, i: nat, p: nat, p0: nat, ks: seq<nat>)
    requires i < len && p0 <= p <= |s| && |ks| > 0
    requires forall k :: 0 <= k < p0 ==> s[k].start < i
    requires forall k :: p0 <= k < p ==> s[k].start == i
    requires forall k :: p <= k < |s| ==> s[k].start > i
    requires forall m :: 0 <= m < |ks| ==> ks[m] < p
    requires forall m, n :: 0 <= m < n < |ks| ==> ks[m] < ks[n]
    requires forall k :: 0 <= k < p && k !in ks ==> ClampedEnd(s[k], len) <= i
    requires p > p0 ==> ks[|ks| - 1] == p - 1
    requires p == p0 ==> ClampedEnd(s[ks[|ks| - 1]], len) > i
    ensures LastLive(s, i, |s|) == Some(ks[|ks| - 1])
  {
    var top := ks[|ks| - 1];
    assert Live(s[top], i);
    forall j | top < j < |s| ensures !Live(s[j], i) {
      if j < p {
        assert j !in ks by {
          forall m | 0 <= m < |ks| ensures ks[m] != j {
            if m < |ks| - 1 {
              assert ks[m] < top;
            }
          }
        }
      }
    }
  }

  /** With an empty stack no interval is alive at i. */
  lemma NoneLive(s: seq<Interval>, len: nat, i: nat, p: nat, p0: nat, ks: seq<nat>)
    requires i < len && p0 <= p <= |s| && |ks| == 0
    requires forall k :: 0 <= k < p0 ==> s[k].start < i
    requires forall k :: p <= k < |s| ==> s[k].start > i
    requires forall k :: 0 <= k < p && k !in ks ==> ClampedEnd(s[k], len) <= i
    requires p > p0 ==> |ks| > 0
    ensures LastLive(s, i, |s|) == None
  {
    forall j | 0 <= j < |s| ensures !Live(s[j], i) {
      if j < p {
        assert j !in ks;
      }
    }
  }

  /** Any non-empty interval covering i makes the label a real one, and the
      interval chosen starts no earlier than it. */
  lemma CoveredIsLabelled(s: seq<Interval>, i: int, k: nat)
    requires k < |s| && s[k].start <= i < s[k].end
    ensures LastLive(s, i, |s|).Some?
    ensures LastLive(s, i, |s|).value >= k
  {
  }

  /** The chosen interval is the innermost among those alive at i: every other
      live interval starts no later, and on an equal start is no shorter. */
  lemma LabelIsInnermost(s: seq<Interval>, i: int, j: nat)
    requires SortedBy(s, ByStartThenLongest)
    requires j < |s| && Live(s[j], i)
    ensures LastLive(s, i, |s|).Some?
    ensures var k := LastLive(s, i, |s|).value;
      s[j].start <= s[k].start && (s[j].start == s[k].start ==> s[j].end >= s[k].end)
  {
    var k := LastLive(s, i, |s|).value;
    if j != k {
      assert j < k;
      assert ByStartThenLongest(s[j], s[k]);
    }
  }

  // ---------------------------------------------------------------------
  // buildTypeIndexMap and buildFnIndexMap
  // ---------------------------------------------------------------------

  /** A syntax node's type name and source range. */
  datatype Node = Node(kind: string, start: int, end: int)

  datatype TypeMap = TypeMap(types: seq<string>, typeAt: seq<int>)

  /** The intervals of the nodes, labelled with their type's position in
      `types`, sorted for the sweep. The sort is stable, so intervals with
      the same range stay in the order their nodes were collected. */
  function TypeIntervals(nodes: seq<Node>, types: seq<string>): (r: seq<Interval>)
    requires forall n :: n in nodes ==> n.kind in types
    ensures multiset(r) == multiset(NodeIntervals(nodes, types))
    ensures SortedBy(r, ByStartThenLongest)
    ensures forall c :: Ties(r, c, ByStartThenLongest) == Ties(NodeIntervals(nodes, types), c, ByStartThenLongest)
  {
    ByStartThenLongestIsPreorder();
    SortBySorted(NodeIntervals(nodes, types), ByStartThenLongest);
    forall c ensures Ties(SortBy(NodeIntervals(nodes, types), ByStartThenLongest), c, ByStartThenLongest)
      == Ties(NodeIntervals(nodes, types), c, ByStartThenLongest)
    {
      SortByStable(NodeIntervals(nodes, types), c, ByStartThenLongest);
    }
    SortBy(NodeIntervals(nodes, types), ByStartThenLongest)
  }

  /** Nodes with the same range tie under the comparator and keep their
      collection order through the sort, so the label at an offset is the
      type of the last collected node with the chosen range. As
      `collectNodes` visits a node before its children, a child with
      exactly its parent's range gives the label. */
  lemma TypeLabelIsLastCollected(nodes: seq<Node>, types: seq<string>, i: int)
    requires forall n :: n in nodes ==> n.kind in types
    requires LastLive(TypeIntervals(nodes, types), i, |TypeIntervals(nodes, types)|).Some?
    ensures var s := TypeIntervals(nodes, types);
      var it := s[LastLive(s, i, |s|).value];
      exists j :: 0 <= j < |nodes| && NodeIntervals(nodes, types)[j] == it &&
        (forall j' :: j < j' < |nodes| ==> nodes[j'].start != it.start || nodes[j'].end != it.end)
  {
    var s := TypeIntervals(nodes, types);
    var ni := NodeIntervals(nodes, types);
    var k := LastLive(s, i, |s|).value;
    var c := s[k];
    LastLiveClosesTies(s, i);
    TiesLast(s, c, ByStartThenLongest, k);
    assert Ties(s, c, ByStartThenLongest) == Ties(ni, c, ByStartThenLongest);
    var j := LastOfTies(ni, c);
    forall j' | j < j' < |nodes| ensures nodes[j'].start != c.start || nodes[j'].end != c.end {
      assert !Tied(ni[j'], c, ByStartThenLongest);
    }
  }

  /** The interval labelling offset i is the last of those sharing its
      range: a later one with the same range would be alive at i too. */
  lemma LastLiveClosesTies(s: seq<Interval>, i: int)
    requires LastLive(s, i, |s|).Some?
    ensures var k := LastLive(s, i, |s|).value;
      Tied(s[k], s[k], ByStartThenLongest) &&
      forall j :: k < j < |s| ==> !Tied(s[j], s[k], ByStartThenLongest)
  {
    var k := LastLive(s, i, |s|).value;
    forall j | k < j < |s| ensures !Tied(s[j], s[k], ByStartThenLongest) {
      assert !Live(s[j], i);
    }
  }

  /** The position of the last element of a non-empty tie class. */
  lemma LastOfTies(s: seq<Interval>, c: Interval) returns (j: nat)
    requires |Ties(s, c, ByStartThenLongest)| > 0
    ensures var t := Ties(s, c, ByStartThenLongest);
      j < |s| && s[j] == t[|t| - 1] && Tied(s[j], c, ByStartThenLongest)
    ensures forall j' :: j < j' < |s| ==> !Tied(s[j'], c, ByStartThenLongest)
  {
    TiesLastIndex(s, c, ByStartThenLongest);
    var t := Ties(s, c, ByStartThenLongest);
    j :| 0 <= j < |s| && s[j] == t[|t| - 1] && Tied(s[j], c, ByStartThenLongest) &&
      forall j' :: j < j' < |s| ==> !Tied(s[j'], c, ByStartThenLongest);
  }

  function NodeIntervals(nodes: seq<Node>, types: seq<string>): (r: seq<Interval>)
    requires forall n :: n in nodes ==> n.kind in types
    ensures |r| == |nodes|
    ensures forall k :: 0 <= k < |r| ==>
      r[k].start == nodes[k].start && r[k].end == nodes[k].end && r[k].idx < |types| && types[r[k].idx] == nodes[k].kind
  {
    seq(|nodes|, k requires 0 <= k < |nodes| =>
      Interval(nodes[k].start, nodes[k].end, IndexOf(types, nodes[k].kind)))
  }

  function Kinds(nodes: seq<Node>): (r: seq<string>)
    ensures |r| == |nodes| && forall k :: 0 <= k < |nodes| ==> r[k] == nodes[k].kind
  {
    seq(|nodes|, k requires 0 <= k < |nodes| => nodes[k].kind)
  }

  /** `buildTypeIndexMap`: the distinct node types in order of first
      appearance, and each offset labelled with the type of the innermost
      node covering it. Sorting the nodes before looking up their type index
      is the same as looking it up first, since the comparator ignores it. */
  method BuildTypeIndexMap(nodes: seq<Node>, len: nat) returns (m: TypeMap)
    requires forall k :: 0 <= k < |nodes| ==> nodes[k].start >= 0
    ensures Distinct(m.types)
    ensures forall t :: t in m.types <==> exists n :: n in nodes && n.kind == t
    ensures |m.typeAt| == len
    ensures forall n :: n in nodes ==> n.kind in m.types
    ensures forall i :: 0 <= i < len ==> m.typeAt[i] == LabelAt(TypeIntervals(nodes, m.types), i)
  {
    var types := Dedup(Kinds(nodes));
    forall n | n in nodes ensures n.kind in types {
      var k :| 0 <= k < |nodes| && nodes[k] == n;
      assert Kinds(nodes)[k] == n.kind;
    }
    forall t | t in types ensures exists n :: n in nodes && n.kind == t {
      var k :| 0 <= k < |nodes| && Kinds(nodes)[k] == t;
      assert nodes[k] in nodes;
    }
    var sorted := TypeIntervals(nodes, types);
    SortedStarts(sorted);
    TypeIntervalsMeaning(nodes, types);
    forall k | 0 <= k < |sorted| ensures sorted[k].start >= 0 {
      var it := sorted[k];
      var j :| 0 <= j < |nodes| && nodes[j] == Node(types[it.idx], it.start, it.end);
    }
    var typeAt := Sweep(sorted, len);
    m := TypeMap(types, typeAt);
  }

  /** Every sorted interval is a node's range labelled with the position of
      that node's type. */
  lemma TypeIntervalsMeaning(nodes: seq<Node>, types: seq<string>)
    requires forall n :: n in nodes ==> n.kind in types
    ensures forall it :: it in TypeIntervals(nodes, types) ==>
      it.idx < |types| && Node(types[it.idx], it.start, it.end) in nodes
  {
    var ni := NodeIntervals(nodes, types);
    forall it | it in TypeIntervals(nodes, types)
      ensures it.idx < |types| && Node(types[it.idx], it.start, it.end) in nodes
    {
      assert it in multiset(ni);
      var j :| 0 <= j < |nodes| && ni[j] == it;
      assert nodes[j] == Node(types[it.idx], it.start, it.end);
    }
  }

  /** A function's name and the source ranges of its definitions. */
  datatype Range = Range(start: int, end: int)

  datatype FnMap = FnMap(fnNames: seq<string>, fnAt: seq<int>)

  /** The ranges flattened in map order, each labelled with its function's
      position. */
  function Flatten(fnRanges: seq<(string, seq<Range>)>, from: nat): (r: seq<Interval>)
    decreases |fnRanges|
  {
    if |fnRanges| == 0 then []
    else
      var rs := fnRanges[0].1;
      seq(|rs|, k requires 0 <= k < |rs| => Interval(rs[k].start, rs[k].end, from))
        + Flatten(fnRanges[1..], from + 1)
  }

  /** Every flattened interval comes from a range of the function whose
      position it carries, and every range is flattened. */
  lemma {:induction false} FlattenMeaning(fnRanges: seq<(string, seq<Range>)>, from: nat)
    ensures forall it :: it in Flatten(fnRanges, from) ==>
      from <= it.idx < from + |fnRanges| && Range(it.start, it.end) in fnRanges[it.idx - from].1
    ensures forall f, r :: 0 <= f < |fnRanges| && r in fnRanges[f].1 ==>
      Interval(r.start, r.end, from + f) in Flatten(fnRanges, from)
  {
    if |fnRanges| > 0 {
      FlattenMeaning(fnRanges[1..], from + 1);
      var rs := fnRanges[0].1;
      var head := seq(|rs|, k requires 0 <= k < |rs| => Interval(rs[k].start, rs[k].end, from));
      assert Flatten(fnRanges, from) == head + Flatten(fnRanges[1..], from + 1);
      forall f, r | 0 <= f < |fnRanges| && r in fnRanges[f].1
        ensures Interval(r.start, r.end, from + f) in Flatten(fnRanges, from)
      {
        if f == 0 {
          var k :| 0 <= k < |rs| && rs[k] == r;
          assert head[k] == Interval(r.start, r.end, from);
        } else {
          assert fnRanges[1..][f - 1] == fnRanges[f];
        }
      }
      forall it | it in Flatten(fnRanges, from)
        ensures from <= it.idx < from + |fnRanges| && Range(it.start, it.end) in fnRanges[it.idx - from].1
      {
        if it in head {
          var k :| 0 <= k < |rs| && head[k] == it;
          assert rs[k] == Range(it.start, it.end);
        } else {
          assert fnRanges[1..][it.idx - from - 1] == fnRanges[it.idx - from];
        }
      }
    }
  }

  /** The flattened ranges sorted for the sweep; ranges alike in start
      and end stay in map order. */
  function FnIntervals(fnRanges: seq<(string, seq<Range>)>): (r: seq<Interval>)
    ensures multiset(r) == multiset(Flatten(fnRanges, 0))
    ensures SortedBy(r, ByStartThenLongest)
    ensures forall c :: Ties(r, c, ByStartThenLongest) == Ties(Flatten(fnRanges, 0), c, ByStartThenLongest)
  {
    ByStartThenLongestIsPreorder();
    SortBySorted(Flatten(fnRanges, 0), ByStartThenLongest);
    forall c ensures Ties(SortBy(Flatten(fnRanges, 0), ByStartThenLongest), c, ByStartThenLongest)
      == Ties(Flatten(fnRanges, 0), c, ByStartThenLongest)
    {
      SortByStable(Flatten(fnRanges, 0), c, ByStartThenLongest);
    }
    SortBy(Flatten(fnRanges, 0), ByStartThenLongest)
  }

  function Names(fnRanges: seq<(string, seq<Range>)>): (r: seq<string>)
    ensures |r| == |fnRanges| && forall k :: 0 <= k < |r| ==> r[k] == fnRanges[k].0
  {
    seq(|fnRanges|, k requires 0 <= k < |fnRanges| => fnRanges[k].0)
  }

  /** `buildFnIndexMap`: the function names in map order, and each offset
      labelled with the position of the innermost function range covering it. */
  method BuildFnIndexMap(fnRanges: seq<(string, seq<Range>)>, len: nat) returns (m: FnMap)
    requires forall f, r :: 0 <= f < |fnRanges| && r in fnRanges[f].1 ==> r.start >= 0
    ensures m.fnNames == Names(fnRanges)
    ensures |m.fnAt| == len
    ensures forall i :: 0 <= i < len ==> m.fnAt[i] == LabelAt(FnIntervals(fnRanges), i)
  {
    var sorted := FnIntervals(fnRanges);
    SortedStarts(sorted);
    FlattenMeaning(fnRanges, 0);
    forall k | 0 <= k < |sorted| ensures sorted[k].start >= 0 {
      assert sorted[k] in multiset(Flatten(fnRanges, 0));
    }
    var fnAt := Sweep(sorted, len);
    m := FnMap(Names(fnRanges), fnAt);
  }

  /** A labelled offset lies in (or starts) a range of the named function. */
  lemma FnLabelIsCoveringRange(fnRanges: seq<(string, seq<Range>)>, i: int)
    requires LastLive(FnIntervals(fnRanges), i, |FnIntervals(fnRanges)|).Some?
    ensures var s := FnIntervals(fnRanges);
      var it := s[LastLive(s, i, |s|).value];
      it.idx < |fnRanges| && Range(it.start, it.end) in fnRanges[it.idx].1 && Live(it, i)
  {
    var s := FnIntervals(fnRanges);
    var k := LastLive(s, i, |s|).value;
    var it := s[k];
    assert it in multiset(s);
    assert it in Flatten(fnRanges, 0);
    FlattenedFrom(fnRanges, it);
  }

  /** An interval the flattening produced carries a range of its function. */
  lemma FlattenedFrom(fnRanges: seq<(string, seq<Range>)>, it: Interval)
    requires it in Flatten(fnRanges, 0)
    ensures it.idx < |fnRanges| && Range(it.start, it.end) in fnRanges[it.idx].1
  {
    FlattenMeaning(fnRanges, 0);
    assert 0 <= it.idx < |fnRanges| && Range(it.start, it.end) in fnRanges[it.idx - 0].1;
  }

  // ---------------------------------------------------------------------
  // Profile playback
  // ---------------------------------------------------------------------

  /** A recorded call: name, stack depth and start/end times. */
  datatype Call = Call(name: string, depth: int, t0: real, t1: real)

  /** A timeline entry, with times relative to the first call. */
  datatype Span = Span(name: string, depth: int, t0: real, t1: real, dt: real)

  datatype Playback = Playback(timeline: seq<Span>, total: real)

  /** The comparator `(a.t0 - b.t0) || (b.depth - a.depth)`: by start time,
      deeper first on ties. */
  function ByStartThenDeepest(a: Span, b: Span): bool {
    a.t0 < b.t0 || (a.t0 == b.t0 && a.depth >= b.depth)
  }

  function MinT0(calls: seq<Call>): (m: real)
    requires |calls| > 0
    ensures forall c :: c in calls ==> m <= c.t0
    ensures exists c :: c in calls && m == c.t0
  {
    if |calls| == 1 then calls[0].t0
    else
      var rest := MinT0(calls[1..]);
      assert forall c :: c in calls[1..] ==> c in calls;
      if calls[0].t0 <= rest then calls[0].t0 else rest
  }

  function MaxT1(calls: seq<Call>): (m: real)
    requires |calls| > 0
    ensures forall c :: c in calls ==> c.t1 <= m
    ensures exists c :: c in calls && m == c.t1
  {
    if |calls| == 1 then calls[0].t1
    else
      var rest := MaxT1(calls[1..]);
      assert forall c :: c in calls[1..] ==> c in calls;
      if calls[0].t1 >= rest then calls[0].t1 else rest
  }

  function Shifted(calls: seq<Call>, origin: real): (r: seq<Span>)
    ensures |r| == |calls|
    ensures forall k :: 0 <= k < |r| ==> r[k] == Span(calls[k].name, calls[k].depth,
      calls[k].t0 - origin, calls[k].t1 - origin, calls[k].t1 - calls[k].t0)
  {
    seq(|calls|, k requires 0 <= k < |calls| =>
      Span(calls[k].name, calls[k].depth, calls[k].t0 - origin, calls[k].t1 - origin, calls[k].t1 - calls[k].t0))
  }

  /** `buildPlayback`: no data gives an empty timeline of length 0; otherwise
      the calls are shifted to start at the earliest start, `total` spans to
      the latest end, and the timeline is stably sorted by start time with
      deeper calls first on ties. */
  function BuildPlayback(calls: seq<Call>): (pb: Playback)
    ensures |calls| == 0 ==> pb == Playback([], 0.0)
    ensures pb.total >= 0.0
    ensures |pb.timeline| == |calls|
    ensures |calls| > 0 ==> multiset(pb.timeline) == multiset(Shifted(calls, MinT0(calls)))
    ensures SortedBy(pb.timeline, ByStartThenDeepest)
  {
    if |calls| == 0 then Playback([], 0.0)
    else
      var minT0 := MinT0(calls);
      var maxT1 := MaxT1(calls);
      var total := if maxT1 - minT0 > 0.0 then maxT1 - minT0 else 0.0;
      var spans := Shifted(calls, minT0);
      assert TotalPreorder(ByStartThenDeepest);
      SortBySorted(spans, ByStartThenDeepest);
      Playback(SortBy(spans, ByStartThenDeepest), total)
  }

  /** Every timeline entry starts at or after zero, ends by `total`, and
      records its own duration. */
  lemma PlaybackSpans(calls: seq<Call>)
    ensures forall e :: e in BuildPlayback(calls).timeline ==>
      0.0 <= e.t0 && e.t1 <= BuildPlayback(calls).total && e.dt == e.t1 - e.t0
  {
    var pb := BuildPlayback(calls);
    if |calls| > 0 {
      var spans := Shifted(calls, MinT0(calls));
      forall e | e in pb.timeline ensures 0.0 <= e.t0 && e.t1 <= pb.total && e.dt == e.t1 - e.t0 {
        assert e in multiset(spans);
        var k :| 0 <= k < |spans| && spans[k] == e;
        assert calls[k] in calls;
      }
    }
  }

  /** The timeline keeps every call, shifted by the same amount. */
  lemma PlaybackKeepsCalls(calls: seq<Call>, k: nat)
    requires k < |calls|
    ensures Shifted(calls, MinT0(calls))[k] in BuildPlayback(calls).timeline
  {
    var spans := Shifted(calls, MinT0(calls));
    assert spans[k] in multiset(spans);
    assert spans[k] in multiset(BuildPlayback(calls).timeline);
  }

  /** The calls running at time t, in timeline order. */
  function Running(timeline: seq<Span>, t: real): (r: seq<Span>)
    ensures forall e :: e in r <==> e in timeline && e.t0 <= t < e.t1
    ensures |r| <= |timeline|
  {
    if |timeline| == 0 then []
    else
      var e := timeline[|timeline| - 1];
      var init := Running(timeline[..|timeline| - 1], t);
      assert timeline == timeline[..|timeline| - 1] + [e];
      if e.t0 <= t < e.t1 then init + [e] else init
  }

  /** Scanning one more call extends the running calls by that call
      exactly when it runs at t. */
  lemma RunningNext(timeline: seq<Span>, i: nat, t: real)
    requires i < |timeline|
    ensures var e := timeline[i];
      Running(timeline[..i + 1], t) == Running(timeline[..i], t) + (if e.t0 <= t < e.t1 then [e] else [])
  {
    assert timeline[..i + 1][..i] == timeline[..i];
  }

  datatype ActiveCalls = ActiveCalls(active: seq<Span>, maxDepth: int)

  /** `activeCallsAt`: the calls running at t in timeline order, and the
      greatest depth among them, or -1 when there is none deeper. */
  method ActiveCallsAt(timeline: seq<Span>, t: real) returns (r: ActiveCalls)
    ensures r.active == Running(timeline, t)
    ensures r.maxDepth >= -1
    ensures forall e :: e in r.active ==> e.depth <= r.maxDepth
    ensures r.maxDepth == -1 || exists e :: e in r.active && e.depth == r.maxDepth
  {
    var active: seq<Span> := [];
    var maxDepth := -1;
    var i := 0;
    while i < |timeline|
      invariant 0 <= i <= |timeline|
      invariant active == Running(timeline[..i], t)
      invariant maxDepth >= -1
      invariant forall e :: e in active ==> e.depth <= maxDepth
      invariant maxDepth == -1 || exists e :: e in active && e.depth == maxDepth
    {
      var e := timeline[i];
      RunningNext(timeline, i, t);
      active, maxDepth := VisitCall(active, maxDepth, e, t);
      i := i + 1;
    }
    assert timeline[..i] == timeline;
    r := ActiveCalls(active, maxDepth);
  }

  /** One call of the scan: kept when it runs at t, raising the depth. */
  method VisitCall(active: seq<Span>, maxDepth: int, e: Span, t: real) returns (active': seq<Span>, maxDepth': int)
    requires maxDepth >= -1
    requires forall x :: x in active ==> x.depth <= maxDepth
    requires maxDepth == -1 || exists x :: x in active && x.depth == maxDepth
    ensures active' == active + (if e.t0 <= t < e.t1 then [e] else [])
    ensures maxDepth' >= maxDepth
    ensures forall x :: x in active' ==> x.depth <= maxDepth'
    ensures maxDepth' == -1 || exists x :: x in active' && x.depth == maxDepth'
  {
    active', maxDepth' := active, maxDepth;
    if t >= e.t0 && t < e.t1 {
      active' := active + [e];
      if e.depth > maxDepth {
        maxDepth' := e.depth;
      }
    }
  }
}

=== FILE: raster.dfy ===
/** Integer rasterisation used by the pixel editor's drawing tools and by the
    puzzle game's line-of-sight test: Bresenham lines, rectangle outlines,
    filled rectangles and midpoint circles. */
module Raster {

  datatype Point = Point(x: int, y: int)

  function Abs(n: int): nat {
    if n < 0 then -n else n
  }

  function Max(a: int, b: int): int {
    if a < b then b else a
  }

  function Min(a: int, b: int): int {
    if a < b then a else b
  }

  /** The coordinate `k` steps from `a` in the direction the line takes
      towards `b`; the source steps by -1 whenever `a` is not below `b`. */
  function Along(a: int, b: int, k: int): int {
    if a < b then a + k else a - k
  }

  // ---------------------------------------------------------------------
  // Bresenham's line
  // ---------------------------------------------------------------------

  /** a * n, by repeated addition; the recursion keeps the product out of
      sight of the proofs that only need one step of it. */
  function Mul(a: int, n: nat): int {
    if n == 0 then 0 else Mul(a, n - 1) + a
  }

  lemma {:induction false} MulIsProduct(a: int, n: nat)
    ensures Mul(a, n) == a * n
  {
    if n > 0 {
      MulIsProduct(a, n - 1);
    }
  }

  /** How far the walk at offset (i, j) is from the ideal line through
      (0,0) and (dx,dy), scaled by the line's length. */
  function Dev(dx: int, dy: int, i: nat, j: nat): int {
    Mul(dx, j) - Mul(dy, i)
  }

  /** The state of the walk after `i` horizontal and `j` vertical steps of a
      line spanning `dx` columns and `dy` rows.  `err` is the source's error
      term; twice the deviation never leaves [-max(dx,dy), max(dx,dy)]. */
  predicate WalkInv(dx: int, dy: int, i: int, j: int, err: int) {
    && 0 <= i <= dx && 0 <= j <= dy
    && err == dx - dy + Dev(dx, dy, i, j)
    && -Max(dx, dy) <= 2 * Dev(dx, dy, i, j) <= Max(dx, dy)
  }

  /** Whether one loop iteration moves horizontally / vertically: the
      source's `e2 > -dy` and `e2 < dx` with `e2 = 2 * err`. */
  function MovesX(dy: int, err: int): bool { 2 * err + dy > 0 }
  function MovesY(dx: int, err: int): bool { 2 * err < dx }

  function NextI(dy: int, i: int, err: int): int { if MovesX(dy, err) then i + 1 else i }
  function NextJ(dx: int, j: int, err: int): int { if MovesY(dx, err) then j + 1 else j }
  function NextErr(dx: int, dy: int, err: int): int {
    err - (if MovesX(dy, err) then dy else 0) + (if MovesY(dx, err) then dx else 0)
  }

  lemma DevShift(dx: int, dy: int, i: nat, j: nat)
    ensures Dev(dx, dy, i + 1, j) == Dev(dx, dy, i, j) - dy
    ensures Dev(dx, dy, i, j + 1) == Dev(dx, dy, i, j) + dx
    ensures Dev(dx, dy, i + 1, j + 1) == Dev(dx, dy, i, j) + dx - dy
  {
  }

  lemma {:induction false} MulAdd(a: int, m: nat, n: nat)
    ensures Mul(a, m + n) == Mul(a, m) + Mul(a, n)
  {
    if n > 0 {
      MulAdd(a, m, n - 1);
    }
  }

  lemma {:induction false} MulAtLeast(a: nat, k: nat)
    ensures Mul(a, k) >= 0
    ensures k >= 1 ==> Mul(a, k) >= a
  {
    if k > 0 {
      MulAtLeast(a, k - 1);
    }
  }

  /** Mul(a, m) - Mul(a, n) >= a when m > n. */
  lemma MulGap(a: nat, m: nat, n: nat)
    requires n < m
    ensures Mul(a, m) - Mul(a, n) >= a
  {
    MulAdd(a, n, m - n);
    MulAtLeast(a, m - n);
  }

  lemma MulCommutes(a: nat, b: nat)
    ensures Mul(a, b) == Mul(b, a)
  {
    MulIsProduct(a, b);
    MulIsProduct(b, a);
  }

  /** On the last column, with rows still to go, the walk does not move
      horizontally: the deviation is at most -dx there. */
  lemma NoOvershootX(dx: nat, dy: nat, j: nat, err: int)
    requires WalkInv(dx, dy, dx, j, err) && j < dy
    ensures !MovesX(dy, err)
  {
    MulCommutes(dy, dx);
    MulGap(dx, dy, j);
  }

  /** Symmetrically, on the last row the walk does not move vertically. */
  lemma NoOvershootY(dx: nat, dy: nat, i: nat, err: int)
    requires WalkInv(dx, dy, i, dy, err) && i < dx
    ensures !MovesY(dx, err)
  {
    MulCommutes(dx, dy);
    MulGap(dy, dx, i);
  }

  /** On a diagonal the deviation is a multiple of d, so twice it is never +-d. */
  lemma NoHalfStep(d: int, i: nat, j: nat)
    requires d > 0
    ensures 2 * Dev(d, d, i, j) != -d && 2 * Dev(d, d, i, j) != d
  {
    if i < j {
      MulGap(d, j, i);
    } else if j < i {
      MulGap(d, i, j);
    }
  }

  /** One step of the walk before the end point: it keeps the invariant,
      never overshoots, always moves, and moves along the major axis. */
  lemma StepFacts(dx: int, dy: int, i: int, j: int, err: int)
    requires WalkInv(dx, dy, i, j, err)
    requires !(i == dx && j == dy)
    ensures MovesX(dy, err) || MovesY(dx, err)
    ensures WalkInv(dx, dy, NextI(dy, i, err), NextJ(dx, j, err), NextErr(dx, dy, err))
    ensures dx >= dy ==> MovesX(dy, err)
    ensures dy >= dx ==> MovesY(dx, err)
  {
    if i == dx && j < dy {
      NoOvershootX(dx, dy, j, err);
    }
    if j == dy && i < dx {
      NoOvershootY(dx, dy, i, err);
    }
    DevShift(dx, dy, i, j);
    if dx == dy && dx > 0 {
      NoHalfStep(dx, i, j);
    }
  }

  /** The points visited from offset (i, j) on, end point included. */
  function PathFrom(x0: int, y0: int, x1: int, y1: int, i: int, j: int, err: int): (r: seq<Point>)
    requires WalkInv(Abs(x1 - x0), Abs(y1 - y0), i, j, err)
    decreases Abs(x1 - x0) - i + Abs(y1 - y0) - j
  {
    var dx, dy := Abs(x1 - x0), Abs(y1 - y0);
    if i == dx && j == dy then [Point(x1, y1)]
    else
      StepFacts(dx, dy, i, j, err);
      [Point(Along(x0, x1, i), Along(y0, y1, j))]
        + PathFrom(x0, y0, x1, y1, NextI(dy, i, err), NextJ(dx, j, err), NextErr(dx, dy, err))
  }

  /** The reference definition of the line from (x0,y0) to (x1,y1). */
  function Line(x0: int, y0: int, x1: int, y1: int): seq<Point> {
    PathFrom(x0, y0, x1, y1, 0, 0, Abs(x1 - x0) - Abs(y1 - y0))
  }

  /** Consecutive points differ by 0 or the step sign on each axis, and never by nothing. */
  predicate UnitStep(x0: int, y0: int, x1: int, y1: int, p: Point, q: Point) {
    && (q.x == p.x || q.x == Along(p.x, p.x + (if x0 < x1 then 1 else -1), 1))
    && (q.y == p.y || q.y == Along(p.y, p.y + (if y0 < y1 then 1 else -1), 1))
    && q != p
  }

  /** The endpoints and length of the walk from offset (i, j). */
  lemma {:induction false} PathFromEnds(x0: int, y0: int, x1: int, y1: int, i: int, j: int, err: int)
    requires WalkInv(Abs(x1 - x0), Abs(y1 - y0), i, j, err)
    ensures var r := PathFrom(x0, y0, x1, y1, i, j, err);
      && r[0] == Point(Along(x0, x1, i), Along(y0, y1, j))
      && r[|r| - 1] == Point(x1, y1)
      && (Abs(x1 - x0) >= Abs(y1 - y0) ==> |r| == Abs(x1 - x0) - i + 1)
      && (Abs(y1 - y0) >= Abs(x1 - x0) ==> |r| == Abs(y1 - y0) - j + 1)
    decreases Abs(x1 - x0) - i + Abs(y1 - y0) - j
  {
    var dx, dy := Abs(x1 - x0), Abs(y1 - y0);
    if i == dx && j == dy {
      assert Along(x0, x1, dx) == x1 && Along(y0, y1, dy) == y1;
    } else {
      StepFacts(dx, dy, i, j, err);
      var i', j', e' := NextI(dy, i, err), NextJ(dx, j, err), NextErr(dx, dy, err);
      PathFromEnds(x0, y0, x1, y1, i', j', e');
      var rest := PathFrom(x0, y0, x1, y1, i', j', e');
      assert PathFrom(x0, y0, x1, y1, i, j, err) == [Point(Along(x0, x1, i), Along(y0, y1, j))] + rest;
    }
  }

  /** Every step of the walk from offset (i, j) is a unit step. */
  lemma {:induction false} PathFromSteps(x0: int, y0: int, x1: int, y1: int, i: int, j: int, err: int)
    requires WalkInv(Abs(x1 - x0), Abs(y1 - y0), i, j, err)
    ensures var r := PathFrom(x0, y0, x1, y1, i, j, err);
      forall k :: 0 <= k < |r| - 1 ==> UnitStep(x0, y0, x1, y1, r[k], r[k + 1])
    decreases Abs(x1 - x0) - i + Abs(y1 - y0) - j
  {
    var dx, dy := Abs(x1 - x0), Abs(y1 - y0);
    if !(i == dx && j == dy) {
      StepFacts(dx, dy, i, j, err);
      var i', j', e' := NextI(dy, i, err), NextJ(dx, j, err), NextErr(dx, dy, err);
      PathFromSteps(x0, y0, x1, y1, i', j', e');
      PathFromEnds(x0, y0, x1, y1, i', j', e');
      var r := PathFrom(x0, y0, x1, y1, i, j, err);
      var rest := PathFrom(x0, y0, x1, y1, i', j', e');
      assert r == [Point(Along(x0, x1, i), Along(y0, y1, j))] + rest;
      assert UnitStep(x0, y0, x1, y1, r[0], r[1]);
      forall k | 0 < k < |r| - 1
        ensures UnitStep(x0, y0, x1, y1, r[k], r[k + 1])
      {
        assert r[k] == rest[k - 1] && r[k + 1] == rest[k];
      }
    }
  }

  /** Once the walk has moved, it never returns to its start. */
  lemma {:induction false} PathFromAvoidsStart(x0: int, y0: int, x1: int, y1: int, i: int, j: int, err: int)
    requires WalkInv(Abs(x1 - x0), Abs(y1 - y0), i, j, err)
    requires i + j > 0
    ensures Point(x0, y0) !in PathFrom(x0, y0, x1, y1, i, j, err)
    decreases Abs(x1 - x0) - i + Abs(y1 - y0) - j
  {
    var dx, dy := Abs(x1 - x0), Abs(y1 - y0);
    if !(i == dx && j == dy) {
      StepFacts(dx, dy, i, j, err);
      PathFromAvoidsStart(x0, y0, x1, y1, NextI(dy, i, err), NextJ(dx, j, err), NextErr(dx, dy, err));
    }
  }

  /** The properties the drawing tool relies on: the line starts at the
      first endpoint, ends at the second, moves one cell at a time towards
      the end, and has max(|dx|,|dy|)+1 points, the start occurring once. */
  lemma LineShape(x0: int, y0: int, x1: int, y1: int)
    ensures var r := Line(x0, y0, x1, y1);
      && r[0] == Point(x0, y0)
      && r[|r| - 1] == Point(x1, y1)
      && |r| == Max(Abs(x1 - x0), Abs(y1 - y0)) + 1
      && (forall k :: 0 <= k < |r| - 1 ==> UnitStep(x0, y0, x1, y1, r[k], r[k + 1]))
      && Point(x0, y0) !in r[1..]
  {
    var dx: int, dy: int := Abs(x1 - x0), Abs(y1 - y0);
    var r := Line(x0, y0, x1, y1);
    assert r == PathFrom(x0, y0, x1, y1, 0, 0, dx - dy);
    PathFromEnds(x0, y0, x1, y1, 0, 0, dx - dy);
    PathFromSteps(x0, y0, x1, y1, 0, 0, dx - dy);
    assert r[0] == Point(x0, y0);
    if !(dx == 0 && dy == 0) {
      StepFacts(dx, dy, 0, 0, dx - dy);
      var i', j', e' := NextI(dy, 0, dx - dy), NextJ(dx, 0, dx - dy), NextErr(dx, dy, dx - dy);
      PathFromAvoidsStart(x0, y0, x1, y1, i', j', e');
      assert r[1..] == PathFrom(x0, y0, x1, y1, i', j', e');
    }
  }

  /** The walk is at the end point exactly when both offsets are complete. */
  lemma AtEnd(a: int, b: int, k: int)
    requires 0 <= k <= Abs(b - a)
    ensures Along(a, b, k) == b <==> k == Abs(b - a)
  {
  }

  /** One loop iteration, read on the reference walk: the current point is
      emitted and the walk continues from the stepped state. */
  lemma StepPath(x0: int, y0: int, x1: int, y1: int, i: int, j: int, err: int)
    requires WalkInv(Abs(x1 - x0), Abs(y1 - y0), i, j, err)
    requires !(Along(x0, x1, i) == x1 && Along(y0, y1, j) == y1)
    ensures var dx, dy := Abs(x1 - x0), Abs(y1 - y0);
      && WalkInv(dx, dy, NextI(dy, i, err), NextJ(dx, j, err), NextErr(dx, dy, err))
      && NextI(dy, i, err) + NextJ(dx, j, err) > i + j
      && PathFrom(x0, y0, x1, y1, i, j, err)
         == [Point(Along(x0, x1, i), Along(y0, y1, j))]
            + PathFrom(x0, y0, x1, y1, NextI(dy, i, err), NextJ(dx, j, err), NextErr(dx, dy, err))
      && Along(x0, x1, NextI(dy, i, err))
         == Along(x0, x1, i) + (if MovesX(dy, err) then (if x0 < x1 then 1 else -1) else 0)
      && Along(y0, y1, NextJ(dx, j, err))
         == Along(y0, y1, j) + (if MovesY(dx, err) then (if y0 < y1 then 1 else -1) else 0)
  {
    var dx, dy := Abs(x1 - x0), Abs(y1 - y0);
    AtEnd(x0, x1, i);
    AtEnd(y0, y1, j);
    StepFacts(dx, dy, i, j, err);
  }

  /** getLinePoints: the loop of the drawing tool, which pushes each point
      and stops after pushing the end point. */
  method GetLinePoints(x0: int, y0: int, x1: int, y1: int) returns (points: seq<Point>)
    ensures points == Line(x0, y0, x1, y1)
  {
    var dx: int, dy: int := Abs(x1 - x0), Abs(y1 - y0);
    var sx := if x0 < x1 then 1 else -1;
    var sy := if y0 < y1 then 1 else -1;
    var err := dx - dy;
    var x, y := x0, y0;
    ghost var i, j := 0, 0;
    ghost var line := Line(x0, y0, x1, y1);
    points := [];
    while true
      invariant WalkInv(dx, dy, i, j, err)
      invariant x == Along(x0, x1, i) && y == Along(y0, y1, j)
      invariant points + PathFrom(x0, y0, x1, y1, i, j, err) == line
      decreases dx - i + dy - j
    {
      if x == x1 && y == y1 {
        AtEnd(x0, x1, i);
        AtEnd(y0, y1, j);
        points := points + [Point(x, y)];
        break;
      }
      StepPath(x0, y0, x1, y1, i, j, err);
      ghost var rest := PathFrom(x0, y0, x1, y1, NextI(dy, i, err), NextJ(dx, j, err), NextErr(dx, dy, err));
      assert points + PathFrom(x0, y0, x1, y1, i, j, err) == (points + [Point(x, y)]) + rest;
      points := points + [Point(x, y)];
      i, j := NextI(dy, i, err), NextJ(dx, j, err);
      err, x, y := Step(dx, dy, sx, sy, err, x, y);
    }
  }

  /** One iteration's updates: `e2 = 2 * err`, then the horizontal and the
      vertical move. */
  method Step(dx: int, dy: int, sx: int, sy: int, err: int, x: int, y: int)
    returns (err': int, x': int, y': int)
    ensures err' == NextErr(dx, dy, err)
    ensures x' == x + (if MovesX(dy, err) then sx else 0)
    ensures y' == y + (if MovesY(dx, err) then sy else 0)
  {
    err', x', y' := err, x, y;
    var e2 := 2 * err;
    if e2 > -dy {
      err' := err' - dy;
      x' := x' + sx;
    }
    if e2 < dx {
      err' := err' + dx;
      y' := y' + sy;
    }
  }

  // ---------------------------------------------------------------------
  // Rectangles
  // ---------------------------------------------------------------------

  /** The cells on the outline of the box [l,r] x [t,b]. */
  predicate OnOutline(l: int, t: int, r: int, b: int, p: Point) {
    && l <= p.x <= r && t <= p.y <= b
    && (p.x == l || p.x == r || p.y == t || p.y == b)
  }

  /** getRectanglePoints, corner-normalised: the top edge left to right,
      the right edge downwards, the bottom edge right to left and the left
      edge upwards, each side omitting the corner the previous one drew. */
  function RectanglePoints(x0: int, y0: int, x1: int, y1: int): seq<Point> {
    var l, r, t, b := Min(x0, x1), Max(x0, x1), Min(y0, y1), Max(y0, y1);
    seq(r - l + 1, k => Point(l + k, t))
      + seq(b - t, k => Point(r, t + 1 + k))
      + seq(r - l, k => Point(r - 1 - k, b))
      + seq(Max(b - t - 1, 0), k => Point(l, b - 1 - k))
  }

  /** The k-th outline point, read side by side. */
  function OutlinePoint(l: int, t: int, r: int, b: int, k: int): Point {
    if k < r - l + 1 then Point(l + k, t)
    else if k < (r - l + 1) + (b - t) then Point(r, t + 1 + (k - (r - l + 1)))
    else if k < 2 * (r - l) + 1 + (b - t) then Point(r - 1 - (k - (r - l + 1) - (b - t)), b)
    else Point(l, b - 1 - (k - 2 * (r - l) - 1 - (b - t)))
  }

  lemma RectangleIndex(x0: int, y0: int, x1: int, y1: int)
    ensures var l, r, t, b := Min(x0, x1), Max(x0, x1), Min(y0, y1), Max(y0, y1);
      var pts := RectanglePoints(x0, y0, x1, y1);
      && |pts| == 2 * (r - l) + 1 + (b - t) + Max(b - t - 1, 0)
      && forall k :: 0 <= k < |pts| ==> pts[k] == OutlinePoint(l, t, r, b, k)
  {
  }

  /** The outline lists only outline cells, and lists all of them. */
  lemma RectangleIsOutline(x0: int, y0: int, x1: int, y1: int)
    ensures var l, r, t, b := Min(x0, x1), Max(x0, x1), Min(y0, y1), Max(y0, y1);
      var pts := RectanglePoints(x0, y0, x1, y1);
      forall p :: p in pts <==> OnOutline(l, t, r, b, p)
  {
    var l, r, t, b := Min(x0, x1), Max(x0, x1), Min(y0, y1), Max(y0, y1);
    var pts := RectanglePoints(x0, y0, x1, y1);
    RectangleIndex(x0, y0, x1, y1);
    forall p | OnOutline(l, t, r, b, p) ensures p in pts {
      var k := if p.y == t then p.x - l
        else if p.x == r then (r - l + 1) + (p.y - t - 1)
        else if p.y == b then (r - l + 1) + (b - t) + (r - 1 - p.x)
        else 2 * (r - l) + 1 + (b - t) + (b - 1 - p.y);
      assert pts[k] == p;
    }
  }

  /** For a proper box, each of the 2W+2H-4 outline cells is listed once. */
  lemma RectangleNoDuplicates(x0: int, y0: int, x1: int, y1: int)
    requires x0 != x1 && y0 != y1
    ensures var l, r, t, b := Min(x0, x1), Max(x0, x1), Min(y0, y1), Max(y0, y1);
      var pts := RectanglePoints(x0, y0, x1, y1);
      && |pts| == 2 * (r - l + 1) + 2 * (b - t + 1) - 4
      && forall m, n :: 0 <= m < n < |pts| ==> pts[m] != pts[n]
  {
    RectangleIndex(x0, y0, x1, y1);
  }

  /** The cells of rows y..b of the box, row by row, each row left to right. */
  function RowsFrom(l: int, r: int, y: int, b: int): seq<Point>
    requires l <= r
    decreases b - y
  {
    if y > b then [] else seq(r - l + 1, k => Point(l + k, y)) + RowsFrom(l, r, y + 1, b)
  }

  /** getFilledRectanglePoints, corner-normalised. */
  function FilledRectanglePoints(x0: int, y0: int, x1: int, y1: int): seq<Point> {
    RowsFrom(Min(x0, x1), Max(x0, x1), Min(y0, y1), Max(y0, y1))
  }

  lemma {:induction false} RowsFromFacts(l: int, r: int, y: int, b: int)
    requires l <= r
    ensures var pts := RowsFrom(l, r, y, b);
      && |pts| == (r - l + 1) * Max(b - y + 1, 0)
      && (forall p :: p in pts <==> l <= p.x <= r && y <= p.y <= b)
      && (forall m, n :: 0 <= m < n < |pts| ==> pts[m] != pts[n])
    decreases b - y
  {
    if y <= b {
      RowsFromFacts(l, r, y + 1, b);
      var row := seq(r - l + 1, k => Point(l + k, y));
      var rest := RowsFrom(l, r, y + 1, b);
      assert RowsFrom(l, r, y, b) == row + rest;
      assert (r - l + 1) * (b - y + 1) == (r - l + 1) + (r - l + 1) * Max(b - y, 0);
      forall p: Point | l <= p.x <= r && p.y == y ensures p in row {
        assert p == row[p.x - l];
      }
      forall m, n | 0 <= m < n < |row + rest| ensures (row + rest)[m] != (row + rest)[n] {
        if n >= |row| && m < |row| {
          assert (row + rest)[n] in rest;
        }
      }
    }
  }

  /** The filled box lists every cell of the box exactly once and nothing else. */
  lemma FilledRectangleCells(x0: int, y0: int, x1: int, y1: int)
    ensures var l, r, t, b := Min(x0, x1), Max(x0, x1), Min(y0, y1), Max(y0, y1);
      var pts := FilledRectanglePoints(x0, y0, x1, y1);
      && |pts| == (r - l + 1) * (b - t + 1)
      && (forall p :: p in pts <==> l <= p.x <= r && t <= p.y <= b)
      && (forall m, n :: 0 <= m < n < |pts| ==> pts[m] != pts[n])
  {
    RowsFromFacts(Min(x0, x1), Max(x0, x1), Min(y0, y1), Max(y0, y1));
  }

  // ---------------------------------------------------------------------
  // Midpoint circle
  // ---------------------------------------------------------------------

  /** The eight reflections of octant point (a, b) around (cx, cy), in the
      order the source pushes them. */
  function Octants(cx: int, cy: int, a: int, b: int): (r: seq<Point>)
    ensures |r| == 8
    ensures forall k :: 0 <= k < 8 ==> Abs(r[k].x - cx) + Abs(r[k].y - cy) == Abs(a) + Abs(b)
  {
    [Point(cx + a, cy + b), Point(cx + b, cy + a), Point(cx - b, cy + a), Point(cx - a, cy + b),
     Point(cx - a, cy - b), Point(cx - b, cy - a), Point(cx + b, cy - a), Point(cx + a, cy - b)]
  }

  /** The blocks of eight reflections for octant points (xs[n], n), in order. */
  function Blocks(cx: int, cy: int, xs: seq<int>): (r: seq<Point>)
    ensures |r| == 8 * |xs|
  {
    if |xs| == 0 then []
    else Blocks(cx, cy, xs[..|xs| - 1]) + Octants(cx, cy, xs[|xs| - 1], |xs| - 1)
  }

  /** The x of each block: starting at the radius, never below the block's
      y, and stepping down by at most one from block to block. */
  ghost predicate OctantXs(radius: int, xs: seq<int>) {
    && (|xs| > 0 ==> xs[0] == radius)
    && (forall n :: 0 <= n < |xs| ==> n <= xs[n] <= radius)
    && (forall n :: 0 < n < |xs| ==> xs[n] == xs[n - 1] || xs[n] == xs[n - 1] - 1)
  }

  /** The loop state of the midpoint circle: the octant point's x and the
      running error term. */
  datatype Mid = Mid(x: int, err: int)

  /** One turn of the loop after the block for row y: y becomes y + 1, the
      error grows by 1 + 2y, and x steps in (and the error is corrected)
      when `2 * (err - x) + 1 > 0`. */
  function MidStep(m: Mid, y: int): Mid {
    var err := m.err + 1 + 2 * (y + 1);
    if 2 * (err - m.x) + 1 > 0 then Mid(m.x - 1, err + 1 - 2 * (m.x - 1)) else Mid(m.x, err)
  }

  /** The loop state on entry to the turn for row n, from (radius, 0). */
  function MidAt(radius: int, n: nat): Mid {
    if n == 0 then Mid(radius, 0) else MidStep(MidAt(radius, n - 1), n - 1)
  }

  /** xs is the x the midpoint rule reaches at each of its rows 0, 1, ...,
      and every one of those rows still lies in the octant (x >= y). */
  ghost predicate Traced(radius: int, xs: seq<int>) {
    forall n :: 0 <= n < |xs| ==> xs[n] == MidAt(radius, n).x && xs[n] >= n
  }

  /** The x of the midpoint rule starts at the radius and steps in by at
      most one per row, so a traced prefix has the octant's shape. */
  lemma {:induction false} TracedOctant(radius: int, xs: seq<int>)
    requires Traced(radius, xs)
    ensures OctantXs(radius, xs)
    decreases |xs|
  {
    if |xs| > 1 {
      var n := |xs| - 1;
      TracedOctant(radius, xs[..n]);
      assert xs[n] == MidStep(MidAt(radius, n - 1), n - 1).x;
      assert xs[..n][n - 1] == xs[n - 1];
      assert forall k :: 0 <= k < n ==> xs[..n][k] == xs[k];
    }
  }

  /** getCirclePoints: nothing for a non-positive radius; otherwise one
      block of eight reflections per row y, of the x the midpoint rule has
      reached at that row, for every row from 0 up to the first at which
      x < y. */
  method GetCirclePoints(cx: int, cy: int, radius: int) returns (points: seq<Point>, ghost xs: seq<int>)
    ensures radius <= 0 ==> points == []
    ensures radius > 0 ==> |points| >= 8 && points[..8] == Octants(cx, cy, radius, 0)
    ensures points == Blocks(cx, cy, xs) && Traced(radius, xs) && OctantXs(radius, xs)
    ensures radius > 0 ==> MidAt(radius, |xs|).x < |xs|
  {
    points, xs := [], [];
    if radius <= 0 {
      TracedOctant(radius, xs);
      return;
    }
    var x, y, err := radius, 0, 0;
    while x >= y
      invariant 0 <= y == |xs|
      invariant Mid(x, err) == MidAt(radius, y)
      invariant points == Blocks(cx, cy, xs) && Traced(radius, xs)
      decreases x - y + 1
    {
      points := points + Octants(cx, cy, x, y);
      xs := xs + [x];
      y := y + 1;
      err := err + 1 + 2 * y;
      if 2 * (err - x) + 1 > 0 {
        x := x - 1;
        err := err + 1 - 2 * x;
      }
    }
    TracedOctant(radius, xs);
    BlocksHead(cx, cy, xs);
  }

  lemma {:induction false} BlocksHead(cx: int, cy: int, xs: seq<int>)
    requires |xs| > 0
    ensures Blocks(cx, cy, xs)[..8] == Octants(cx, cy, xs[0], 0)
  {
    if |xs| > 1 {
      BlocksHead(cx, cy, xs[..|xs| - 1]);
      assert xs[..|xs| - 1][0] == xs[0];
    }
  }
}

=== FILE: rokoban.dfy ===
/** The rules of the Rokoban puzzle: a player walks a walled room, pushes
    boxes, collects treasures, is hunted by enemies that need a clear line of
    sight, and leaves through exits into freshly generated rooms. Grid cells
    hold 0 for floor and 1 for wall. Room, box and treasure generation are
    random and enter the model as parameters. */
module Rokoban {
  import opened Optional
  import Raster

  datatype Pos = Pos(x: int, y: int)

  datatype Direction = North | South | East | West

  datatype Exit = Exit(x: int, y: int, direction: Direction)

  /** The game's global state: the grid dimensions, the current room, the
      player, the boxes, treasures and enemies, and the counters. */
  datatype Game = Game(
    width: int,
    height: int,
    grid: seq<seq<int>>,
    exits: seq<Exit>,
    playerX: int,
    playerY: int,
    boxes: seq<Pos>,
    treasures: seq<Pos>,
    enemies: seq<Pos>,
    score: int,
    roomsVisited: int)

  /** The room grid has `height` rows of `width` cells. */
  predicate Shaped(g: Game) {
    && g.width >= 0 && g.height >= 0
    && |g.grid| == g.height
    && forall y :: 0 <= y < |g.grid| ==> |g.grid[y]| == g.width
  }

  predicate InBounds(g: Game, x: int, y: int) {
    0 <= x < g.width && 0 <= y < g.height
  }

  function Cell(g: Game, x: int, y: int): int
    requires Shaped(g) && InBounds(g, x, y)
  {
    g.grid[y][x]
  }

  // ---------------------------------------------------------------------
  // Grid size
  // ---------------------------------------------------------------------

  /** `gcd`, Euclid's algorithm on non-negative numbers. */
  function Gcd(a: nat, b: nat): nat
    decreases b
  {
    if b == 0 then a else Gcd(b, a % b)
  }

  lemma DivLinear(a: int, q: int, b: int, r: int, g: int)
    requires g > 0 && b % g == 0 && r % g == 0 && a == q * b + r
    ensures a % g == 0
  {
    var s, t := b / g, r / g;
    assert b == g * s && r == g * t;
    assert q * b == g * (q * s) by { assert q * (g * s) == g * (q * s); }
    assert a == g * (q * s + t);
    MulMod(g, q * s + t);
  }

  /** Whole multiples of g leave no remainder and divide back exactly. */
  lemma MulMod(g: int, k: int)
    requires g > 0
    ensures (g * k) % g == 0 && (g * k) / g == k
  {
    var q, r := (g * k) / g, (g * k) % g;
    assert g * k == g * q + r;
    assert g * (k - q) == r by { assert g * (k - q) == g * k - g * q; }
    SmallMultiple(g, k - q, r);
  }

  lemma SmallMultiple(g: int, m: int, r: int)
    requires g > 0 && 0 <= r < g && g * m == r
    ensures m == 0 && r == 0
  {
  }

  /** The result divides both arguments. */
  lemma {:induction false} GcdDivides(a: nat, b: nat)
    requires a > 0 || b > 0
    ensures Gcd(a, b) > 0 && a % Gcd(a, b) == 0 && b % Gcd(a, b) == 0
    decreases b
  {
    if b > 0 {
      var q, r := a / b, a % b;
      GcdDivides(b, r);
      assert a == q * b + r;
      DivLinear(a, q, b, r, Gcd(b, r));
    }
  }

  /** Every common divisor of the arguments divides the result, so it is
      the greatest common divisor. */
  lemma {:induction false} GcdGreatest(a: nat, b: nat, d: int)
    requires d > 0 && a % d == 0 && b % d == 0
    ensures Gcd(a, b) % d == 0
    decreases b
  {
    if b > 0 {
      var q, r := a / b, a % b;
      assert r == -q * b + a;
      DivLinear(r, -q, b, a, d);
      GcdGreatest(b, r, d);
    }
  }

  /** Every positive divisor f of d comes with the divisor d / f. */
  lemma DivisorPair(d: nat, f: nat)
    requires d > 0 && f > 0 && d % f == 0
    ensures d / f > 0 && d % (d / f) == 0 && d / (d / f) == f && f * (d / f) == d
  {
    var q := d / f;
    assert d == f * q;
    assert q > 0;
    assert d == q * f;
    DivExact(d, q, f);
  }

  lemma DivExact(d: int, q: int, f: int)
    requires q > 0 && d == q * f
    ensures d % q == 0 && d / q == f
  {
    MulMod(q, f);
  }

  /** A divisor at least i, when i * i > d, has its partner below i. */
  lemma PartnerBelow(d: nat, f: nat, i: nat)
    requires d > 0 && f > 0 && d % f == 0 && f >= i && i * i > d
    ensures d / f < i
  {
    DivisorPair(d, f);
    var q := d / f;
    if q >= i {
      MulLeq(i, f, q);
      MulLeq(i, q, i);
    }
  }

  lemma MulLeq(a: nat, b: nat, c: nat)
    requires a <= b
    ensures a * c <= b * c
  {
  }

  function Dist20(n: int): nat {
    if n >= 20 then n - 20 else 20 - n
  }

  /** Every divisor below i, and its partner, is no closer to 20 than best. */
  ghost predicate BestBelow(d: nat, i: nat, best: nat) {
    forall f: nat :: 0 < f < i && d % f == 0 ==> Dist20(best) <= Dist20(f) && Dist20(best) <= Dist20(d / f)
  }

  /** The factor search of `calculateGridSize`: over i = 1, 2, ... while
      i <= sqrt(d) (for whole numbers, i * i <= d), each divisor i and then
      its partner d / i replaces the best so far when strictly closer to 20.
      `have` is false while the best difference is still `Infinity`. */
  method BestFactor(d: nat) returns (best: nat)
    ensures d == 0 ==> best == 1
    ensures d > 0 ==> best > 0 && d % best == 0
    ensures forall f: nat :: f > 0 && d % f == 0 && d > 0 ==> Dist20(best) <= Dist20(f)
  {
    best := 1;
    var have := false;
    var bestDifference := 0;
    var i: nat := 1;
    while i * i <= d
      invariant i >= 1
      invariant have <==> i > 1
      invariant have ==> d > 0 && best > 0 && d % best == 0 && bestDifference == Dist20(best)
      invariant !have ==> best == 1
      invariant BestBelow(d, i, best)
      decreases d + 1 - i
    {
      best, bestDifference := ConsiderFactor(d, i, best, bestDifference, have);
      have := true;
      SquareAtLeast(i);
      i := i + 1;
    }
    if d > 0 {
      BestFactorComplete(d, i, best);
    }
  }

  lemma SquareAtLeast(i: nat)
    ensures i <= i * i || i == 0
  {
  }

  /** The loop body: divisor i, then its partner d / i, each taken when
      strictly closer to 20 than the best so far. */
  method ConsiderFactor(d: nat, i: nat, best: nat, bestDifference: nat, have: bool)
    returns (best': nat, bestDifference': nat)
    requires 1 <= i && i * i <= d
    requires have ==> best > 0 && d % best == 0 && bestDifference == Dist20(best)
    requires !have ==> i == 1
    requires BestBelow(d, i, best)
    ensures best' > 0 && d % best' == 0 && bestDifference' == Dist20(best')
    ensures BestBelow(d, i + 1, best')
  {
    best', bestDifference' := best, bestDifference;
    if d % i == 0 {
      DivisorPair(d, i);
      var difference := Dist20(i);
      if !have || difference < bestDifference' {
        best' := i;
        bestDifference' := difference;
      }
      var paired := d / i;
      var pairedDifference := Dist20(paired);
      if pairedDifference < bestDifference' {
        best' := paired;
        bestDifference' := pairedDifference;
      }
    }
  }

  /** Past the square root every divisor's partner was already considered. */
  lemma BestFactorComplete(d: nat, i: nat, best: nat)
    requires d > 0 && i >= 1 && i * i > d && BestBelow(d, i, best)
    ensures forall f: nat :: f > 0 && d % f == 0 ==> Dist20(best) <= Dist20(f)
  {
    forall f: nat | f > 0 && d % f == 0 ensures Dist20(best) <= Dist20(f) {
      if f >= i {
        PartnerBelow(d, f, i);
        DivisorPair(d, f);
        assert Dist20(best) <= Dist20(d / (d / f));
      }
    }
  }

  /** `calculateGridSize`: the divisor of gcd(width, height) closest to 20
      pixels, clamped into [15, 25]. */
  method CalculateGridSize(width: nat, height: nat) returns (size: int)
    ensures 15 <= size <= 25
    ensures exists best: nat ::
      && (Gcd(width, height) > 0 ==> best > 0 && Gcd(width, height) % best == 0)
      && (forall f: nat :: f > 0 && Gcd(width, height) % f == 0 && Gcd(width, height) > 0 ==> Dist20(best) <= Dist20(f))
      && size == Raster.Max(15, Raster.Min(25, best))
  {
    var best := BestFactor(Gcd(width, height));
    size := Raster.Max(15, Raster.Min(25, best));
  }

  // ---------------------------------------------------------------------
  // Exits, boxes and box placement
  // ---------------------------------------------------------------------

  predicate IsExit(exits: seq<Exit>, x: int, y: int) {
    exists e :: e in exits && e.x == x && e.y == y
  }

  predicate HasBox(boxes: seq<Pos>, x: int, y: int) {
    Pos(x, y) in boxes
  }

  /** `getBoxAt`: the first index of a box at (x, y), or -1. */
  function GetBoxAt(boxes: seq<Pos>, x: int, y: int): (k: int)
    ensures -1 <= k < |boxes|
    ensures k == -1 <==> !HasBox(boxes, x, y)
    ensures k >= 0 ==> boxes[k] == Pos(x, y) && forall i :: 0 <= i < k ==> boxes[i] != Pos(x, y)
  {
    if |boxes| == 0 then -1
    else if boxes[0] == Pos(x, y) then 0
    else
      var k := GetBoxAt(boxes[1..], x, y);
      assert forall b :: b in boxes <==> b == boxes[0] || b in boxes[1..];
      if k == -1 then -1 else k + 1
  }

  /** The walls among the four orthogonal neighbours that lie in the grid. */
  function WallCount(g: Game, x: int, y: int): (n: nat)
    requires Shaped(g) && InBounds(g, x, y)
    ensures n <= 4
  {
    (if x > 0 && g.grid[y][x - 1] == 1 then 1 else 0)
    + (if x < g.width - 1 && g.grid[y][x + 1] == 1 then 1 else 0)
    + (if y > 0 && g.grid[y - 1][x] == 1 then 1 else 0)
    + (if y < g.height - 1 && g.grid[y + 1][x] == 1 then 1 else 0)
  }

  predicate AdjacentBox(g: Game, x: int, y: int) {
    || (x > 0 && HasBox(g.boxes, x - 1, y))
    || (x < g.width - 1 && HasBox(g.boxes, x + 1, y))
    || (y > 0 && HasBox(g.boxes, x, y - 1))
    || (y < g.height - 1 && HasBox(g.boxes, x, y + 1))
  }

  /** `isValidBoxPosition`: a floor cell of the grid, not an exit, not the
      player's, not holding a box, with fewer than two walls and no box among
      its orthogonal neighbours. */
  function IsValidBoxPosition(g: Game, x: int, y: int): (ok: bool)
    requires Shaped(g)
    ensures ok ==> InBounds(g, x, y) && Cell(g, x, y) == 0
    ensures ok ==> !IsExit(g.exits, x, y) && !(x == g.playerX && y == g.playerY) && !HasBox(g.boxes, x, y)
    ensures ok ==> WallCount(g, x, y) < 2 && !AdjacentBox(g, x, y)
  {
    if !InBounds(g, x, y) then false
    else if g.grid[y][x] != 0 then false
    else if IsExit(g.exits, x, y) then false
    else if x == g.playerX && y == g.playerY then false
    else if HasBox(g.boxes, x, y) then false
    else if WallCount(g, x, y) >= 2 then false
    else !AdjacentBox(g, x, y)
  }

  /** Boxes sit on distinct floor cells of the grid that are not exits. */
  predicate BoxesPlaced(g: Game)
    requires Shaped(g)
  {
    && (forall i, j :: 0 <= i < j < |g.boxes| ==> g.boxes[i] != g.boxes[j])
    && forall b :: b in g.boxes ==> InBounds(g, b.x, b.y) && Cell(g, b.x, b.y) == 0 && !IsExit(g.exits, b.x, b.y)
  }

  /** Placing a box where `isValidBoxPosition` allows keeps the boxes placed. */
  lemma PlacingKeepsBoxesPlaced(g: Game, x: int, y: int)
    requires Shaped(g) && BoxesPlaced(g) && IsValidBoxPosition(g, x, y)
    ensures BoxesPlaced(g.(boxes := g.boxes + [Pos(x, y)]))
  {
    var bs := g.boxes + [Pos(x, y)];
    forall i, j | 0 <= i < j < |bs| ensures bs[i] != bs[j] {
      if j == |g.boxes| { assert bs[i] in g.boxes; }
    }
  }

  // ---------------------------------------------------------------------
  // Pushing and moving
  // ---------------------------------------------------------------------

  /** `tryPushBox`: the box moves by (dirX, dirY) when the target is a floor
      cell of the grid holding no box and no exit; otherwise nothing changes. */
  function TryPushBox(g: Game, boxIndex: int, dirX: int, dirY: int): (res: (Game, bool))
    requires Shaped(g) && 0 <= boxIndex < |g.boxes|
    ensures var t := Pos(g.boxes[boxIndex].x + dirX, g.boxes[boxIndex].y + dirY);
      && (res.1 <==> InBounds(g, t.x, t.y) && Cell(g, t.x, t.y) == 0 && !HasBox(g.boxes, t.x, t.y) && !IsExit(g.exits, t.x, t.y))
      && (res.1 ==> res.0 == g.(boxes := g.boxes[boxIndex := t]))
      && (!res.1 ==> res.0 == g)
  {
    var box := g.boxes[boxIndex];
    var nx, ny := box.x + dirX, box.y + dirY;
    if 0 <= nx < g.width && 0 <= ny < g.height && g.grid[ny][nx] == 0
       && !HasBox(g.boxes, nx, ny) && !IsExit(g.exits, nx, ny)
    then (g.(boxes := g.boxes[boxIndex := Pos(nx, ny)]), true)
    else (g, false)
  }

  /** A push keeps the boxes on distinct floor cells that are not exits. */
  lemma PushKeepsBoxesPlaced(g: Game, boxIndex: int, dirX: int, dirY: int)
    requires Shaped(g) && 0 <= boxIndex < |g.boxes| && BoxesPlaced(g)
    ensures var r := TryPushBox(g, boxIndex, dirX, dirY).0; Shaped(r) && BoxesPlaced(r)
  {
    var r := TryPushBox(g, boxIndex, dirX, dirY);
    if r.1 {
      var bs := r.0.boxes;
      forall b | b in bs ensures InBounds(g, b.x, b.y) && Cell(g, b.x, b.y) == 0 && !IsExit(g.exits, b.x, b.y) {
        var i :| 0 <= i < |bs| && bs[i] == b;
        if i != boxIndex { assert b == g.boxes[i]; assert g.boxes[i] in g.boxes; }
      }
      forall i, j | 0 <= i < j < |bs| ensures bs[i] != bs[j] {
        if i == boxIndex { assert g.boxes[j] in g.boxes; }
        else if j == boxIndex { assert g.boxes[i] in g.boxes; }
      }
    }
  }

  /** `isValidMove`: false off the grid or on a wall; on a box, the result of
      pushing that box away from the player (pushing it as a side effect);
      true on free floor. */
  function IsValidMove(g: Game, x: int, y: int): (res: (Game, bool))
    requires Shaped(g)
    ensures res.1 ==> InBounds(g, x, y) && Cell(g, x, y) == 0
    ensures !res.1 ==> res.0 == g
    ensures !HasBox(g.boxes, x, y) ==> res.0 == g && (res.1 <==> InBounds(g, x, y) && Cell(g, x, y) == 0)
    ensures InBounds(g, x, y) && Cell(g, x, y) == 0 && HasBox(g.boxes, x, y) ==>
      var k := GetBoxAt(g.boxes, x, y);
      var t := Pos(x + (x - g.playerX), y + (y - g.playerY));
      && (res.1 <==> InBounds(g, t.x, t.y) && Cell(g, t.x, t.y) == 0 && !HasBox(g.boxes, t.x, t.y) && !IsExit(g.exits, t.x, t.y))
      && (res.1 ==> res.0.boxes == g.boxes[k := t])
  {
    if !InBounds(g, x, y) then (g, false)
    else if g.grid[y][x] != 0 then (g, false)
    else
      var k := GetBoxAt(g.boxes, x, y);
      if k >= 0 then TryPushBox(g, k, x - g.playerX, y - g.playerY)
      else (g, true)
  }

  // ---------------------------------------------------------------------
  // Line of sight
  // ---------------------------------------------------------------------

  /** A cell an enemy can see through: inside the grid, not a wall, no box. */
  predicate Clear(g: Game, p: Raster.Point)
    requires Shaped(g)
  {
    InBounds(g, p.x, p.y) && g.grid[p.y][p.x] != 1 && !HasBox(g.boxes, p.x, p.y)
  }

  /** `checkLineOfSight`: walks the same Bresenham line as the drawing tool
      and fails at the first cell strictly between the endpoints that is off
      the grid, a wall or a box; neither endpoint is tested. */
  method CheckLineOfSight(g: Game, x0: int, y0: int, x1: int, y1: int) returns (ok: bool)
    requires Shaped(g)
    ensures var line := Raster.Line(x0, y0, x1, y1);
      ok <==> forall k :: 1 <= k < |line| - 1 ==> Clear(g, line[k])
  {
    var dx: int, dy: int := Raster.Abs(x1 - x0), Raster.Abs(y1 - y0);
    var sx := if x0 < x1 then 1 else -1;
    var sy := if y0 < y1 then 1 else -1;
    var err := dx - dy;
    var x, y := x0, y0;
    ghost var i, j := 0, 0;
    ghost var seen: seq<Raster.Point> := [];
    ghost var line := Raster.Line(x0, y0, x1, y1);
    while !(x == x1 && y == y1)
      invariant Raster.WalkInv(dx, dy, i, j, err)
      invariant x == Raster.Along(x0, x1, i) && y == Raster.Along(y0, y1, j)
      invariant seen + Raster.PathFrom(x0, y0, x1, y1, i, j, err) == line
      invariant |seen| == 0 <==> i + j == 0
      invariant forall k :: 1 <= k < |seen| ==> Clear(g, seen[k])
      decreases dx - i + dy - j
    {
      SightStep(x0, y0, x1, y1, i, j, err, seen);
      if !(x == x0 && y == y0) {
        var blocked := Blocked(g, x, y);
        if blocked {
          return false;
        }
      }
      seen := seen + [Raster.Point(x, y)];
      i, j := Raster.NextI(dy, i, err), Raster.NextJ(dx, j, err);
      err, x, y := Raster.Step(dx, dy, sx, sy, err, x, y);
    }
    SightEnd(x0, y0, x1, y1, i, j, err, seen);
    ok := true;
  }

  /** The two tests on a cell between the endpoints: off the grid or a wall,
      then a box. */
  method Blocked(g: Game, x: int, y: int) returns (b: bool)
    requires Shaped(g)
    ensures b <==> !Clear(g, Raster.Point(x, y))
  {
    if x < 0 || x >= g.width || y < 0 || y >= g.height || g.grid[y][x] == 1 {
      return true;
    }
    b := HasBox(g.boxes, x, y);
  }

  /** Before the end point: the current cell is the next one of the line,
      at least one more follows, the walk steps on, and only the very first
      cell is the start. */
  lemma SightStep(x0: int, y0: int, x1: int, y1: int, i: int, j: int, err: int, seen: seq<Raster.Point>)
    requires Raster.WalkInv(Raster.Abs(x1 - x0), Raster.Abs(y1 - y0), i, j, err)
    requires seen + Raster.PathFrom(x0, y0, x1, y1, i, j, err) == Raster.Line(x0, y0, x1, y1)
    requires |seen| == 0 <==> i + j == 0
    requires !(Raster.Along(x0, x1, i) == x1 && Raster.Along(y0, y1, j) == y1)
    ensures var dx, dy := Raster.Abs(x1 - x0), Raster.Abs(y1 - y0);
      var p := Raster.Point(Raster.Along(x0, x1, i), Raster.Along(y0, y1, j));
      var line := Raster.Line(x0, y0, x1, y1);
      && |line| >= |seen| + 2 && line[|seen|] == p
      && (|seen| > 0 <==> p != Raster.Point(x0, y0))
      && Raster.WalkInv(dx, dy, Raster.NextI(dy, i, err), Raster.NextJ(dx, j, err), Raster.NextErr(dx, dy, err))
      && Raster.NextI(dy, i, err) + Raster.NextJ(dx, j, err) > 0
      && (seen + [p]) + Raster.PathFrom(x0, y0, x1, y1, Raster.NextI(dy, i, err), Raster.NextJ(dx, j, err), Raster.NextErr(dx, dy, err)) == line
      && Raster.Along(x0, x1, Raster.NextI(dy, i, err)) == Raster.Along(x0, x1, i) + (if Raster.MovesX(dy, err) then (if x0 < x1 then 1 else -1) else 0)
      && Raster.Along(y0, y1, Raster.NextJ(dx, j, err)) == Raster.Along(y0, y1, j) + (if Raster.MovesY(dx, err) then (if y0 < y1 then 1 else -1) else 0)
  {
    var dx, dy := Raster.Abs(x1 - x0), Raster.Abs(y1 - y0);
    Raster.StepPath(x0, y0, x1, y1, i, j, err);
    var i1, j1, err1 := Raster.NextI(dy, i, err), Raster.NextJ(dx, j, err), Raster.NextErr(dx, dy, err);
    Raster.PathFromEnds(x0, y0, x1, y1, i1, j1, err1);
    if i + j > 0 {
      Raster.PathFromAvoidsStart(x0, y0, x1, y1, i, j, err);
    }
  }

  /** At the end point every cell of the line but the last has been seen. */
  lemma SightEnd(x0: int, y0: int, x1: int, y1: int, i: int, j: int, err: int, seen: seq<Raster.Point>)
    requires Raster.WalkInv(Raster.Abs(x1 - x0), Raster.Abs(y1 - y0), i, j, err)
    requires seen + Raster.PathFrom(x0, y0, x1, y1, i, j, err) == Raster.Line(x0, y0, x1, y1)
    requires Raster.Along(x0, x1, i) == x1 && Raster.Along(y0, y1, j) == y1
    ensures |Raster.Line(x0, y0, x1, y1)| == |seen| + 1
  {
    Raster.AtEnd(x0, x1, i);
    Raster.AtEnd(y0, y1, j);
    Raster.PathFromEnds(x0, y0, x1, y1, i, j, err);
  }

  // ---------------------------------------------------------------------
  // Treasures
  // ---------------------------------------------------------------------

  /** The treasures not at (x, y), in order. */
  function Remaining(ts: seq<Pos>, x: int, y: int): (r: seq<Pos>)
    ensures forall t :: t in r <==> t in ts && t != Pos(x, y)
    ensures |r| <= |ts|
  {
    if |ts| == 0 then []
    else (if ts[0] == Pos(x, y) then [] else [ts[0]]) + Remaining(ts[1..], x, y)
  }

  function CountAt(ts: seq<Pos>, x: int, y: int): (n: nat)
    ensures n + |Remaining(ts, x, y)| == |ts|
  {
    if |ts| == 0 then 0 else (if ts[0] == Pos(x, y) then 1 else 0) + CountAt(ts[1..], x, y)
  }

  /** `checkTreasureCollection`: scans the treasures from the last to the
      first, removing each one at the player's cell and adding 100 points
      for it. */
  method CheckTreasureCollection(g: Game) returns (r: Game)
    ensures r.treasures == Remaining(g.treasures, g.playerX, g.playerY)
    ensures r.score == g.score + 100 * CountAt(g.treasures, g.playerX, g.playerY)
    ensures r == g.(treasures := r.treasures, score := r.score)
  {
    var ts, score := Collect(g.treasures, g.playerX, g.playerY, g.score);
    r := g.(treasures := ts, score := score);
  }

  /** The scan itself, from the last treasure to the first. */
  method Collect(all: seq<Pos>, x: int, y: int, score0: int) returns (ts: seq<Pos>, score: int)
    ensures ts == Remaining(all, x, y)
    ensures score == score0 + 100 * CountAt(all, x, y)
  {
    ts, score := all, score0;
    var i := |ts| - 1;
    while i >= 0
      invariant -1 <= i < |all|
      invariant ts == all[..i + 1] + Remaining(all[i + 1..], x, y)
      invariant score == score0 + 100 * CountAt(all[i + 1..], x, y)
    {
      ScanStep(all, i, x, y);
      Splice(all[..i + 1], Remaining(all[i + 1..], x, y));
      if ts[i] == Pos(x, y) {
        score := score + 100;
        ts := ts[..i] + ts[i + 1..];
      }
      i := i - 1;
    }
    assert all[..0] == [] && all[0..] == all;
  }

  /** Removing element i of pre + rest, when pre ends at i. */
  lemma Splice(pre: seq<Pos>, rest: seq<Pos>)
    requires |pre| > 0
    ensures var ts, i := pre + rest, |pre| - 1;
      ts[i] == pre[i] && ts[..i] + ts[i + 1..] == pre[..i] + rest && ts == pre[..i] + ([pre[i]] + rest)
  {
  }

  /** One step of the backwards scan, read on the whole list. */
  lemma ScanStep(ts: seq<Pos>, i: nat, x: int, y: int)
    requires i < |ts|
    ensures ts[..i + 1][..i] == ts[..i] && ts[..i + 1][i] == ts[i]
    ensures Remaining(ts[i..], x, y)
      == (if ts[i] == Pos(x, y) then [] else [ts[i]]) + Remaining(ts[i + 1..], x, y)
    ensures CountAt(ts[i..], x, y) == (if ts[i] == Pos(x, y) then 1 else 0) + CountAt(ts[i + 1..], x, y)
  {
    assert ts[i..][1..] == ts[i + 1..];
  }

  // ---------------------------------------------------------------------
  // Enemies
  // ---------------------------------------------------------------------

  predicate EnemyAt(enemies: seq<Pos>, x: int, y: int) {
    Pos(x, y) in enemies
  }

  /** `isValidEnemyMove`: inside the grid, a floor cell, no box, not an exit
      (enemies cannot leave) and no other enemy. */
  function IsValidEnemyMove(g: Game, x: int, y: int): (ok: bool)
    requires Shaped(g)
    ensures ok ==> InBounds(g, x, y) && Cell(g, x, y) == 0
    ensures ok ==> !HasBox(g.boxes, x, y) && !IsExit(g.exits, x, y) && !EnemyAt(g.enemies, x, y)
  {
    if !InBounds(g, x, y) then false
    else if g.grid[y][x] != 0 then false
    else if HasBox(g.boxes, x, y) then false
    else if IsExit(g.exits, x, y) then false
    else !EnemyAt(g.enemies, x, y)
  }

  /** Enemies stand on distinct floor cells inside the room. */
  predicate EnemiesPlaced(g: Game)
    requires Shaped(g)
  {
    && (forall i, j :: 0 <= i < j < |g.enemies| ==> g.enemies[i] != g.enemies[j])
    && forall e :: e in g.enemies ==> InBounds(g, e.x, e.y) && Cell(g, e.x, e.y) == 0
  }

  /** Moving one enemy onto a cell `isValidEnemyMove` accepts keeps the
      enemies on distinct floor cells. */
  lemma EnemyMoveKeepsPlaced(g: Game, k: int, x: int, y: int)
    requires Shaped(g) && EnemiesPlaced(g) && 0 <= k < |g.enemies|
    requires IsValidEnemyMove(g, x, y)
    ensures EnemiesPlaced(g.(enemies := g.enemies[k := Pos(x, y)]))
  {
    var es := g.enemies[k := Pos(x, y)];
    forall e | e in es ensures InBounds(g, e.x, e.y) && Cell(g, e.x, e.y) == 0 {
      var i :| 0 <= i < |es| && es[i] == e;
      if i != k { assert g.enemies[i] in g.enemies; }
    }
    forall i, j | 0 <= i < j < |es| ensures es[i] != es[j] {
      if i == k { assert g.enemies[j] in g.enemies; }
      else if j == k { assert g.enemies[i] in g.enemies; }
    }
  }

  /** The spawn-exit filter as written: `!(exit.x === playerX && exit.y ===
      exit.y)`, whose second test compares a value with itself. */
  function SpawnExitsAsWritten(exits: seq<Exit>, px: int, py: int): (r: seq<Exit>)
    ensures forall e :: e in r <==> e in exits && e.x != px
  {
    if |exits| == 0 then []
    else (if !(exits[0].x == px && exits[0].y == exits[0].y) then [exits[0]] else [])
         + SpawnExitsAsWritten(exits[1..], px, py)
  }

  /** The exits an enemy may spawn at: every exit except the player's cell. */
  function SpawnExits(exits: seq<Exit>, px: int, py: int): (r: seq<Exit>)
    ensures forall e :: e in r <==> e in exits && !(e.x == px && e.y == py)
  {
    if |exits| == 0 then []
    else (if !(exits[0].x == px && exits[0].y == py) then [exits[0]] else [])
         + SpawnExits(exits[1..], px, py)
  }

  /** The filter as written also drops an exit in the player's column that
      the player is nowhere near. */
  lemma SpawnFilterDropsColumn()
    ensures var exits := [Exit(3, 0, North), Exit(0, 5, West)];
      && Exit(3, 0, North) !in SpawnExitsAsWritten(exits, 3, 9)
      && Exit(3, 0, North) in SpawnExits(exits, 3, 9)
  {
    var exits := [Exit(3, 0, North), Exit(0, 5, West)];
    assert Exit(3, 0, North) in exits;
  }

  /** Every exit the written filter keeps, the intended one keeps too: the
      written filter only ever loses spawn points. */
  lemma SpawnFilterNarrower(exits: seq<Exit>, px: int, py: int)
    ensures forall e :: e in SpawnExitsAsWritten(exits, px, py) ==> e in SpawnExits(exits, px, py)
    ensures forall e :: e in SpawnExits(exits, px, py) && e !in SpawnExitsAsWritten(exits, px, py) ==>
      e.x == px && e.y != py
  {
  }

  /** `spawnEnemy` as written: nothing with at most one exit or no exit the
      written filter keeps; otherwise an enemy appears on the kept exit at
      the drawn index, never in the player's column. */
  function SpawnEnemy(g: Game, pick: nat): (r: Game)
    requires |g.exits| > 1 && |SpawnExitsAsWritten(g.exits, g.playerX, g.playerY)| > 0 ==>
      pick < |SpawnExitsAsWritten(g.exits, g.playerX, g.playerY)|
    ensures |g.exits| <= 1 || |SpawnExitsAsWritten(g.exits, g.playerX, g.playerY)| == 0 ==> r == g
    ensures r != g ==> |r.enemies| == |g.enemies| + 1 && r.enemies[..|g.enemies|] == g.enemies
    ensures r != g ==> var e := r.enemies[|g.enemies|];
      IsExit(g.exits, e.x, e.y) && e.x != g.playerX
    ensures r == g.(enemies := r.enemies)
  {
    var valid := SpawnExitsAsWritten(g.exits, g.playerX, g.playerY);
    if |g.exits| <= 1 || |valid| == 0 then g
    else
      var e := valid[pick];
      assert e in valid;
      g.(enemies := g.enemies + [Pos(e.x, e.y)])
  }

  /** `spawnEnemy` as intended ("not where the player is"): the same, with
      only the player's own cell left out. */
  function SpawnEnemyIntended(g: Game, pick: nat): (r: Game)
    requires |g.exits| > 1 && |SpawnExits(g.exits, g.playerX, g.playerY)| > 0 ==>
      pick < |SpawnExits(g.exits, g.playerX, g.playerY)|
    ensures |g.exits| <= 1 || |SpawnExits(g.exits, g.playerX, g.playerY)| == 0 ==> r == g
    ensures r != g ==> |r.enemies| == |g.enemies| + 1 && r.enemies[..|g.enemies|] == g.enemies
    ensures r != g ==> var e := r.enemies[|g.enemies|];
      IsExit(g.exits, e.x, e.y) && !(e.x == g.playerX && e.y == g.playerY)
    ensures r == g.(enemies := r.enemies)
  {
    var valid := SpawnExits(g.exits, g.playerX, g.playerY);
    if |g.exits| <= 1 || |valid| == 0 then g
    else
      var e := valid[pick];
      assert e in valid;
      g.(enemies := g.enemies + [Pos(e.x, e.y)])
  }

  // ---------------------------------------------------------------------
  // Leaving the room
  // ---------------------------------------------------------------------

  function Opposite(d: Direction): Direction {
    match d
    case North => South
    case South => North
    case East => West
    case West => East
  }

  lemma OppositeInvolution(d: Direction)
    ensures Opposite(Opposite(d)) == d && Opposite(d) != d
  {
  }

  /** The first exit at (x, y), if any. */
  function ExitAt(exits: seq<Exit>, x: int, y: int): (r: Option<Exit>)
    ensures r.None? <==> !IsExit(exits, x, y)
    ensures r.Some? ==> r.value in exits && r.value.x == x && r.value.y == y
  {
    if |exits| == 0 then None
    else if exits[0].x == x && exits[0].y == y then Some(exits[0])
    else
      assert forall e :: e in exits <==> e == exits[0] || e in exits[1..];
      ExitAt(exits[1..], x, y)
  }

  /** The side of the new room the player enters from and the entrance's
      position along that side. */
  datatype Entrance = Entrance(side: Direction, position: int)

  /** The new room the random generators produce for an entrance. */
  datatype NewRoom = NewRoom(grid: seq<seq<int>>, exits: seq<Exit>, boxes: seq<Pos>, treasures: seq<Pos>)

  /** `checkForExit`: standing on an exit, the player crosses to the
      opposite side of a new room, entering at the same row or column
      clamped into the grid; enemies are cleared and one more room is
      counted. `generate` stands for the random room, box and treasure
      generators. */
  function CheckForExit(g: Game, generate: Entrance -> NewRoom): (res: (Game, Option<Entrance>))
    ensures res.1.None? <==> !IsExit(g.exits, g.playerX, g.playerY)
    ensures res.1.None? ==> res.0 == g
    ensures res.1.Some? ==> var ent := res.1.value; var r := res.0;
      && ExitAt(g.exits, g.playerX, g.playerY).Some?
      && ent.side == Opposite(ExitAt(g.exits, g.playerX, g.playerY).value.direction)
      && 0 <= ent.position
      && (ent.side in {North, South} && g.width > 0 ==> ent.position < g.width)
      && (ent.side in {East, West} && g.height > 0 ==> ent.position < g.height)
      && r.enemies == []
      && r.roomsVisited == g.roomsVisited + 1
      && r.score == g.score && r.width == g.width && r.height == g.height
      && var room := generate(ent);
         r.grid == room.grid && r.exits == room.exits && r.boxes == room.boxes && r.treasures == room.treasures
  {
    match ExitAt(g.exits, g.playerX, g.playerY)
    case None => (g, None)
    case Some(exit) =>
      var (pos, px, py) :=
        match exit.direction
        case North => (g.playerX, g.playerX, g.height - 1)
        case South => (g.playerX, g.playerX, 0)
        case East => (g.playerY, 0, g.playerY)
        case West => (g.playerY, g.width - 1, g.playerY);
      var side := Opposite(exit.direction);
      var limit := if side == North || side == South then g.width - 1 else g.height - 1;
      var ent := Entrance(side, Raster.Max(0, Raster.Min(limit, pos)));
      var room := generate(ent);
      (g.(playerX := px, playerY := py, grid := room.grid, exits := room.exits,
          boxes := room.boxes, treasures := room.treasures, enemies := [],
          roomsVisited := g.roomsVisited + 1), Some(ent))
  }

  /** After crossing, the player stands on the edge of the new room they
      entered from, on the row or column of the exit they used. */
  lemma ExitPlacesPlayerOnEntrySide(g: Game, generate: Entrance -> NewRoom)
    requires IsExit(g.exits, g.playerX, g.playerY)
    ensures var (r, ent) := CheckForExit(g, generate);
      && ent.Some?
      && (ent.value.side == South ==> r.playerY == g.height - 1 && r.playerX == g.playerX)
      && (ent.value.side == North ==> r.playerY == 0 && r.playerX == g.playerX)
      && (ent.value.side == West ==> r.playerX == 0 && r.playerY == g.playerY)
      && (ent.value.side == East ==> r.playerX == g.width - 1 && r.playerY == g.playerY)
  {
  }
}

=== FILE: scaffold.dfy ===
/** The rectangle subdivision of genart/genesis/scaffold.mjs: each update
    picks a large enough rectangle at random and splits it across its
    longer side into two, so that the rectangles always tile the canvas. */
module Scaffold {
  import opened Optional

  /** `colors`. */
  const Colors: seq<string> := ["red", "blue", "yellow"]

  /** A rectangle from (x0, y0) to (x1, y1) and its colour. */
  datatype Rect = Rect(x0: real, y0: real, x1: real, y1: real, colour: string)

  /** The module-level `width` and `height` and the sketch's `rects`. */
  datatype Sketch = Sketch(width: int, height: int, rects: seq<Rect>)

  /** The draws of one update, each a `rnd` result: `colour` for
      `randColor`, `picks` for the successive `rnd(rects.length)`, and
      `percent` for `rnd(20, 80)`. With `rnd = (n, m) => floor(random * (n -
      m) + m)` that call is `floor(80 - 60 * random)`, a whole number from 20
      to 80, 80 itself when `Math.random()` returns 0. */
  datatype Draws = Draws(colour: nat, picks: seq<nat>, percent: nat)

  /** The draws lie in the ranges `rnd` gives, for `n` rectangles; the loop
      draws at most 100 picks. With no rectangles (`n == 0`) the update
      resets without drawing any pick, so the picks are unconstrained. */
  predicate ValidDraws(d: Draws, n: nat) {
    && d.colour < |Colors|
    && |d.picks| >= 100
    && (n > 0 ==> forall k :: 0 <= k < |d.picks| ==> d.picks[k] < n)
    && 20 <= d.percent <= 80
  }

  /** `rnd(20, 80)` for the value `u` of `Math.random()`: the arguments are
      in the order (n, m) = (20, 80), so the range runs down from 80. */
  function RndPercent(u: real): (p: int)
    requires 0.0 <= u < 1.0
    ensures 20 <= p <= 80
    ensures u == 0.0 <==> p == 80
  {
    (80.0 - 60.0 * u).Floor
  }

  /** Any draws whose colour and percent are in range are valid for an
      update that resets, so the reset branch is reachable: the first
      update of the sketch, when `width` and `height` are still 0, and
      every update after a resize. */
  lemma ResetDrawsValid(d: Draws)
    requires d.colour < |Colors| && |d.picks| >= 100 && 20 <= d.percent <= 80
    ensures ValidDraws(d, 0)
  {
  }

  /** Large enough to split: at least 20 wide and 20 high. */
  predicate Splittable(r: Rect) {
    r.x1 - r.x0 >= 20.0 && r.y1 - r.y0 >= 20.0
  }

  // ---------------------------------------------------------------------
  // Choosing a rectangle
  // ---------------------------------------------------------------------

  /** The first of picks `k` to 98 that names a splittable rectangle: the
      loop's 100th draw is made but returns before any split. */
  function FirstFit(rects: seq<Rect>, picks: seq<nat>, k: nat): (r: Option<nat>)
    requires |picks| >= 100 && forall j :: 0 <= j < |picks| ==> picks[j] < |rects|
    requires k <= 99
    decreases 99 - k
    ensures r.Some? ==> r.value < |rects| && Splittable(rects[r.value])
    ensures r.Some? ==> exists j :: k <= j < 99 && picks[j] == r.value
    ensures r.None? <==> forall j :: k <= j < 99 ==> !Splittable(rects[picks[j]])
  {
    if k == 99 then None
    else if Splittable(rects[picks[k]]) then Some(picks[k])
    else FirstFit(rects, picks, k + 1)
  }

  /** The `while (rectToSplit === null)` loop: draw an index, drop the
      rectangle if it is too small, and give up once `--n` reaches 0, even
      when the last draw found one. Returns the rectangle to split, if any,
      and how many draws were made. */
  method Choose(rects: seq<Rect>, picks: seq<nat>) returns (r: Option<nat>, used: nat)
    requires |picks| >= 100 && forall j :: 0 <= j < |picks| ==> picks[j] < |rects|
    ensures 1 <= used <= 100
    ensures r == FirstFit(rects, picks, 0)
    ensures r.Some? ==> used < 100 && picks[used - 1] == r.value
  {
    var n := 100;
    var found: Option<nat> := None;
    used := 0;
    while found.None?
      invariant n == 100 - used && 0 <= used < 100
      invariant found.None? ==> FirstFit(rects, picks, 0) == FirstFit(rects, picks, used)
      invariant found.Some? ==> FirstFit(rects, picks, 0) == found && used > 0 && picks[used - 1] == found.value
      decreases n
    {
      var i := picks[used];
      used := used + 1;
      if Splittable(rects[i]) {
        found := Some(i);
      }
      n := n - 1;
      if n <= 0 {
        return None, used;
      }
    }
    r := found;
  }

  /** Giving up at the 100th draw: when only that draw names a splittable
      rectangle, nothing is split. */
  lemma HundredthDrawWasted(rects: seq<Rect>, picks: seq<nat>)
    requires |picks| >= 100 && forall j :: 0 <= j < |picks| ==> picks[j] < |rects|
    requires forall j :: 0 <= j < 99 ==> !Splittable(rects[picks[j]])
    ensures FirstFit(rects, picks, 0).None?
  {
  }

  // ---------------------------------------------------------------------
  // Splitting
  // ---------------------------------------------------------------------

  /** `lo + rnd(20, 80) / 100 * (hi - lo)`: the cut lies between 20% and
      80% of the way from `lo` to `hi`. */
  function Cut(lo: real, hi: real, percent: nat): (c: real)
    requires hi - lo > 0.0 && 20 <= percent <= 80
    ensures lo + 0.2 * (hi - lo) <= c <= lo + 0.8 * (hi - lo)
  {
    var size := hi - lo;
    var frac := percent as real / 100.0;
    MulMono(0.2, frac, size);
    MulMono(frac, 0.8, size);
    lo + frac * size
  }

  lemma MulMono(a: real, b: real, c: real)
    requires a <= b && c >= 0.0
    ensures a * c <= b * c
  {
    assert b * c - a * c == (b - a) * c;
  }

  /** The split of `r` at `percent` per cent of its longer side: across
      the height (`splitHorizontally`) when it is narrower than high,
      otherwise across the width. The first part keeps the colour and the
      second takes `colour`. */
  function Split(r: Rect, percent: nat, colour: string): (Rect, Rect)
    requires Splittable(r) && 20 <= percent <= 80
  {
    if r.x1 - r.x0 < r.y1 - r.y0 then
      var splitY := Cut(r.y0, r.y1, percent);
      (Rect(r.x0, r.y0, r.x1, splitY, r.colour), Rect(r.x0, splitY, r.x1, r.y1, colour))
    else
      var splitX := Cut(r.x0, r.x1, percent);
      (Rect(r.x0, r.y0, splitX, r.y1, r.colour), Rect(splitX, r.y0, r.x1, r.y1, colour))
  }

  /** Point (px, py) lies in `r`, edges on the low side included. */
  predicate Contains(r: Rect, px: real, py: real) {
    r.x0 <= px < r.x1 && r.y0 <= py < r.y1
  }

  /** A splittable rectangle splits across its longer side into two
      non-empty parts that share the cut, each between 20% and 80% of the
      side, and every point of the rectangle lies in exactly one part. */
  lemma SplitPartitions(r: Rect, percent: nat, colour: string)
    requires Splittable(r) && 20 <= percent <= 80
    ensures var (a, b) := Split(r, percent, colour);
      && a.colour == r.colour && b.colour == colour
      && a.x0 == r.x0 && a.y0 == r.y0 && b.x1 == r.x1 && b.y1 == r.y1
      && a.x0 < a.x1 && a.y0 < a.y1 && b.x0 < b.x1 && b.y0 < b.y1
      && (r.x1 - r.x0 < r.y1 - r.y0 <==> a.x1 == r.x1 && b.x0 == r.x0 && a.y1 == b.y0)
      && (r.x1 - r.x0 < r.y1 - r.y0 ==>
            0.2 * (r.y1 - r.y0) <= a.y1 - a.y0 <= 0.8 * (r.y1 - r.y0))
      && (r.x1 - r.x0 >= r.y1 - r.y0 ==>
            a.y1 == r.y1 && b.y0 == r.y0 && a.x1 == b.x0
            && 0.2 * (r.x1 - r.x0) <= a.x1 - a.x0 <= 0.8 * (r.x1 - r.x0))
      && (forall px, py :: Contains(r, px, py) <==> (Contains(a, px, py) || Contains(b, px, py)))
      && (forall px, py :: !(Contains(a, px, py) && Contains(b, px, py)))
  {
  }

  // ---------------------------------------------------------------------
  // Tiling
  // ---------------------------------------------------------------------

  /** The rectangles are non-empty, inside the `w` by `h` canvas, pairwise
      disjoint, and together cover it. */
  ghost predicate Tiles(rects: seq<Rect>, w: int, h: int) {
    && (forall k :: 0 <= k < |rects| ==>
          0.0 <= rects[k].x0 < rects[k].x1 <= w as real && 0.0 <= rects[k].y0 < rects[k].y1 <= h as real)
    && (forall k, l, px, py :: 0 <= k < l < |rects| ==> !(Contains(rects[k], px, py) && Contains(rects[l], px, py)))
    && (forall px, py :: InCanvas(w, h, px, py) ==> Covers(rects, px, py))
  }

  predicate InCanvas(w: int, h: int, px: real, py: real) {
    0.0 <= px < w as real && 0.0 <= py < h as real
  }

  /** Some rectangle contains (px, py). */
  ghost predicate Covers(rects: seq<Rect>, px: real, py: real) {
    exists k :: 0 <= k < |rects| && Contains(rects[k], px, py)
  }

  /** `rects.splice(i, 1, a, b)`. */
  function Splice(rects: seq<Rect>, i: nat, a: Rect, b: Rect): (r: seq<Rect>)
    requires i < |rects|
    ensures |r| == |rects| + 1
  {
    rects[..i] + [a, b] + rects[i + 1..]
  }

  /** Replacing a rectangle by the two parts of its split keeps the
      tiling. */
  lemma SpliceTiles(rects: seq<Rect>, w: int, h: int, i: nat, percent: nat, colour: string)
    requires Tiles(rects, w, h) && i < |rects| && Splittable(rects[i]) && 20 <= percent <= 80
    ensures var (a, b) := Split(rects[i], percent, colour); Tiles(Splice(rects, i, a, b), w, h)
  {
    var (a, b) := Split(rects[i], percent, colour);
    SplitPartitions(rects[i], percent, colour);
    var s := Splice(rects, i, a, b);
    assert forall k :: 0 <= k < i ==> s[k] == rects[k];
    assert s[i] == a && s[i + 1] == b;
    assert forall k :: i + 1 < k < |s| ==> s[k] == rects[k - 1];
    forall px, py | InCanvas(w, h, px, py) ensures Covers(s, px, py) {
      assert Covers(rects, px, py);
      var k :| 0 <= k < |rects| && Contains(rects[k], px, py);
      if k < i {
        assert Contains(s[k], px, py);
      } else if k == i {
        if Contains(a, px, py) {
          assert Contains(s[i], px, py);
        } else {
          assert Contains(s[i + 1], px, py);
        }
      } else {
        assert Contains(s[k + 1], px, py);
      }
    }
    forall k, l, px, py | 0 <= k < l < |s|
      ensures !(Contains(s[k], px, py) && Contains(s[l], px, py))
    {
      var k' := if k <= i then k else k - 1;
      var l' := if l <= i then l else l - 1;
      assert Contains(s[k], px, py) ==> Contains(rects[k'], px, py);
      assert Contains(s[l], px, py) ==> Contains(rects[l'], px, py);
      if k' == l' {
        assert k == i && l == i + 1;
      } else {
        assert k' < l';
      }
    }
  }

  // ---------------------------------------------------------------------
  // update
  // ---------------------------------------------------------------------

  /** The rectangle covering a `w` by `h` canvas. */
  function Full(w: int, h: int, colour: string): Rect {
    Rect(0.0, 0.0, w as real, h as real, colour)
  }

  /** `update` on a `w` by `h` canvas. A size change forgets the
      rectangles; with none, the full canvas becomes the only one; otherwise
      a splittable rectangle found within the draws is replaced in place by
      its two parts, and if none is found nothing changes. */
  method Update(s: Sketch, w: int, h: int, d: Draws) returns (s': Sketch)
    requires ValidDraws(d, if s.width != w || s.height != h then 0 else |s.rects|)
    ensures s'.width == w && s'.height == h
    ensures (s.width != w || s.height != h || |s.rects| == 0) ==>
      s'.rects == [Full(w, h, Colors[d.colour])]
    ensures s.width == w && s.height == h && |s.rects| > 0 ==>
      match FirstFit(s.rects, d.picks, 0)
      case None => s' == s
      case Some(i) =>
        var (a, b) := Split(s.rects[i], d.percent, Colors[d.colour]);
        s'.rects == Splice(s.rects, i, a, b) && a.colour == s.rects[i].colour
    ensures w > 0 && h > 0 && (s.width == w && s.height == h ==> Tiles(s.rects, w, h)) ==>
      Tiles(s'.rects, w, h)
  {
    s' := s;
    if s.width != w || s.height != h {
      s' := Sketch(w, h, []);
    }
    if |s'.rects| == 0 {
      s' := s'.(rects := [Full(w, h, Colors[d.colour])]);
      if w > 0 && h > 0 && (s.width == w && s.height == h ==> Tiles(s.rects, w, h)) {
        UpdateTiles(s, w, h, d, s');
      }
      return;
    }
    var found, used := Choose(s'.rects, d.picks);
    if found.None? {
      return;
    }
    var i := found.value;
    var (a, b) := Split(s'.rects[i], d.percent, Colors[d.colour]);
    s' := s'.(rects := Splice(s'.rects, i, a, b));
    if w > 0 && h > 0 && (s.width == w && s.height == h ==> Tiles(s.rects, w, h)) {
      UpdateTiles(s, w, h, d, s');
    }
  }

  /** Every update leaves rectangles that tile the canvas, whether it
      resets them or splits one. */
  lemma UpdateTiles(s: Sketch, w: int, h: int, d: Draws, s': Sketch)
    requires s.width == w && s.height == h ==> Tiles(s.rects, w, h)
    requires w > 0 && h > 0
    requires ValidDraws(d, if s.width != w || s.height != h then 0 else |s.rects|)
    requires s'.width == w && s'.height == h
    requires (s.width != w || s.height != h || |s.rects| == 0) ==>
      s'.rects == [Full(w, h, Colors[d.colour])]
    requires s.width == w && s.height == h && |s.rects| > 0 ==>
      match FirstFit(s.rects, d.picks, 0)
      case None => s' == s
      case Some(i) =>
        var (a, b) := Split(s.rects[i], d.percent, Colors[d.colour]);
        s'.rects == Splice(s.rects, i, a, b)
    ensures Tiles(s'.rects, w, h)
  {
    if s.width != w || s.height != h || |s.rects| == 0 {
      var full := Full(w, h, Colors[d.colour]);
      forall px, py | InCanvas(w, h, px, py) ensures Covers(s'.rects, px, py) {
        assert Contains(s'.rects[0], px, py);
      }
    } else if FirstFit(s.rects, d.picks, 0).Some? {
      SpliceTiles(s.rects, w, h, FirstFit(s.rects, d.picks, 0).value, d.percent, Colors[d.colour]);
    }
  }
}

=== FILE: seed.dfy ===
/** The evolving foragers of genart/genesis/seed.mjs: each agent senses six
    directions, reads the base-3 code of what it sees as an index into its
    genome of 3^6 actions, and every generation the fittest fifth seeds the
    next one through crossover and mutation. */
module Seed {
  import opened Seqs

  const Slices: nat := 6
  /** `L = 3 ** SLICES`, the genome length. */
  const GenomeLength: nat := 729
  const Population: nat := 100
  const CellSize: int := 5
  /** The four actions SPEED_UP, SLOW_DOWN, TURN_LEFT, TURN_RIGHT. */
  const ActionCount: nat := 4
  const TournamentSize: nat := 5
  const CoverageWindow: nat := 100

  function Pow3(k: nat): (p: nat)
    ensures p >= 1
  {
    if k == 0 then 1 else 3 * Pow3(k - 1)
  }

  // ---------------------------------------------------------------------
  // base3ToInt and senseEnvironment
  // ---------------------------------------------------------------------

  predicate AllDigits(d: seq<nat>) {
    forall i :: 0 <= i < |d| ==> d[i] < 3
  }

  /** `arr.reduce((acc, d) => acc * 3 + d, 0)`, written from the last digit
      back, which is the same Horner evaluation. */
  function Base3(d: seq<nat>): nat {
    if |d| == 0 then 0 else Base3(d[..|d| - 1]) * 3 + d[|d| - 1]
  }

  /** k base-3 digits of n, most significant first. */
  function ToBase3(n: nat, k: nat): (d: seq<nat>)
    ensures |d| == k && AllDigits(d)
  {
    if k == 0 then [] else ToBase3(n / 3, k - 1) + [n % 3]
  }

  /** Digits of length k encode a number below 3^k. */
  lemma {:induction false} Base3Bound(d: seq<nat>)
    requires AllDigits(d)
    ensures Base3(d) < Pow3(|d|)
  {
    if |d| > 0 {
      Base3Bound(d[..|d| - 1]);
    }
  }

  /** base3ToInt is a bijection between k-digit strings and [0, 3^k):
      reading digits back out of the value gives the digits. */
  lemma {:induction false} Base3Decodes(d: seq<nat>)
    requires AllDigits(d)
    ensures ToBase3(Base3(d), |d|) == d
  {
    if |d| > 0 {
      var k := |d| - 1;
      var front := d[..k];
      Base3Decodes(front);
      var v := Base3(front);
      assert Base3(d) == v * 3 + d[k];
      assert Base3(d) / 3 == v && Base3(d) % 3 == d[k];
      assert d == front + [d[k]];
    }
  }

  /** ... and encoding the digits of a value gives the value back. */
  lemma {:induction false} Base3Encodes(n: nat, k: nat)
    requires n < Pow3(k)
    ensures Base3(ToBase3(n, k)) == n
  {
    if k > 0 {
      Base3Encodes(n / 3, k - 1);
      var d := ToBase3(n, k);
      assert d[..k - 1] == ToBase3(n / 3, k - 1);
      assert n == (n / 3) * 3 + n % 3;
    }
  }

  /** What the sensor finds in one direction, after wrapping the probe
      point onto the grid. */
  datatype Sensed = Sensed(agent: bool, food: bool)

  /** One sensor digit: 2 for another agent, else 1 for food, else 0. */
  function Digit(s: Sensed): (d: nat)
    ensures d < 3
  {
    if s.agent then 2 else if s.food then 1 else 0
  }

  /** `senseEnvironment`, given what each of the six probes found. The
      result indexes the genome. */
  function Sense(probes: seq<Sensed>): (e: nat)
    requires |probes| == Slices
    ensures e < GenomeLength
  {
    var digits := seq(Slices, i requires 0 <= i < Slices => Digit(probes[i]));
    Base3Bound(digits);
    Base3(digits)
  }

  // ---------------------------------------------------------------------
  // Genomes: crossover and mutate
  // ---------------------------------------------------------------------

  predicate ValidGenome(g: seq<nat>) {
    |g| == GenomeLength && forall i :: 0 <= i < |g| ==> g[i] < ActionCount
  }

  /** `crossover(g1, g2, split)`: the front of one parent and the back of
      the other, with JavaScript's `slice` clamping the split. */
  function Crossover(g1: seq<nat>, g2: seq<nat>, split: nat): (c: seq<nat>)
    ensures split <= |g1| && split <= |g2| ==>
      |c| == |g2| && c[..split] == g1[..split] && c[split..] == g2[split..]
  {
    var a := if split <= |g1| then split else |g1|;
    var b := if split <= |g2| then split else |g2|;
    g1[..a] + g2[b..]
  }

  /** One gene's two draws: `rnd(100)` and `rnd(ACTIONS.length)`. */
  datatype Mutation = Mutation(roll: nat, action: nat)

  predicate MutationsFit(ms: seq<Mutation>) {
    forall i :: 0 <= i < |ms| ==> ms[i].roll < 100 && ms[i].action < ActionCount
  }

  /** `mutate`: each gene is replaced by a random action when its roll is
      below 5 and kept otherwise. */
  function Mutate(g: seq<nat>, ms: seq<Mutation>): (r: seq<nat>)
    requires |ms| == |g| && MutationsFit(ms)
    ensures |r| == |g|
    ensures forall i :: 0 <= i < |g| ==> r[i] == if ms[i].roll < 5 then ms[i].action else g[i]
  {
    seq(|g|, i requires 0 <= i < |g| => if ms[i].roll < 5 then ms[i].action else g[i])
  }

  /** Crossover of two valid genomes at an in-range split, then mutation,
      gives a valid genome. */
  lemma ChildValid(g1: seq<nat>, g2: seq<nat>, split: nat, ms: seq<Mutation>)
    requires ValidGenome(g1) && ValidGenome(g2) && split <= GenomeLength
    requires |ms| == GenomeLength && MutationsFit(ms)
    ensures ValidGenome(Mutate(Crossover(g1, g2, split), ms))
  {
    var c := Crossover(g1, g2, split);
    forall i | 0 <= i < |c| ensures c[i] < ActionCount {
      if i < split {
        assert c[i] == c[..split][i] == g1[i];
      } else {
        assert c[i] == c[split..][i - split] == g2[i];
      }
    }
  }

  // ---------------------------------------------------------------------
  // coverage, fitness and food
  // ---------------------------------------------------------------------

  /** A trail point, in canvas pixels. */
  datatype Point = Point(x: real, y: real)

  /** `clamp(v, lo, hi)` from the sketches' shared utilities. */
  function Clamp(v: int, lo: int, hi: int): int {
    if v < lo then lo else if v > hi then hi else v
  }

  /** The grid cell of a point, clamped onto the grid. The source builds
      the key string `${row},${col}`; two integers and a comma determine
      it, so the pair is the key. */
  function CellOf(p: Point, rows: int, cols: int): (int, int) {
    (Clamp((p.y / CellSize as real).Floor, 0, rows - 1),
     Clamp((p.x / CellSize as real).Floor, 0, cols - 1))
  }

  /** The set of cells a run of points visits. */
  function Cells(ps: seq<Point>, rows: int, cols: int): (cs: set<(int, int)>)
    ensures |cs| <= |ps|
    ensures forall i :: 0 <= i < |ps| ==> CellOf(ps[i], rows, cols) in cs
    ensures forall c :: c in cs ==> exists i :: 0 <= i < |ps| && CellOf(ps[i], rows, cols) == c
  {
    if |ps| == 0 then {} else {CellOf(ps[0], rows, cols)} + Cells(ps[1..], rows, cols)
  }

  /** `trail.slice(-100)`. */
  function Window(trail: seq<Point>): (w: seq<Point>)
    ensures |w| == if |trail| < CoverageWindow then |trail| else CoverageWindow
  {
    if |trail| < CoverageWindow then trail else trail[|trail| - CoverageWindow..]
  }

  /** `coverage`: how many distinct cells the last hundred trail points
      visit, at most 100 and at most the trail's length. */
  function Coverage(trail: seq<Point>, rows: int, cols: int): (n: nat)
    ensures n <= CoverageWindow && n <= |trail|
  {
    |Cells(Window(trail), rows, cols)|
  }

  datatype Agent = Agent(genome: seq<nat>, food: seq<(int, int)>, trail: seq<Point>)

  /** `fitness`: cells of food eaten plus coverage. */
  function Fitness(a: Agent, rows: int, cols: int): nat {
    |a.food| + Coverage(a.trail, rows, cols)
  }

  /** The food step of `update`: the agent's cell is recorded when it holds
      food and is not recorded yet. */
  function Eat(food: seq<(int, int)>, cell: (int, int), hasFood: bool): (r: seq<(int, int)>)
    ensures forall c :: c in r <==> c in food || (hasFood && c == cell)
    ensures Distinct(food) ==> Distinct(r)
  {
    if hasFood && cell !in food then food + [cell] else food
  }

  /** A food list built by `Eat` alone never holds a cell twice. */
  lemma {:induction false} EatNeverRepeats(cells: seq<(int, int)>, flags: seq<bool>)
    requires |flags| == |cells|
    ensures Distinct(EatAll([], cells, flags))
  {
    EatAllKeeps([], cells, flags);
  }

  function EatAll(food: seq<(int, int)>, cells: seq<(int, int)>, flags: seq<bool>): seq<(int, int)>
    requires |flags| == |cells|
    decreases |cells|
  {
    if |cells| == 0 then food else EatAll(Eat(food, cells[0], flags[0]), cells[1..], flags[1..])
  }

  lemma {:induction false} EatAllKeeps(food: seq<(int, int)>, cells: seq<(int, int)>, flags: seq<bool>)
    requires |flags| == |cells| && Distinct(food)
    decreases |cells|
    ensures Distinct(EatAll(food, cells, flags))
  {
    if |cells| > 0 {
      EatAllKeeps(Eat(food, cells[0], flags[0]), cells[1..], flags[1..]);
    }
  }

  // ---------------------------------------------------------------------
  // tournamentSelect
  // ---------------------------------------------------------------------

  predicate DrawsIn(draws: seq<nat>, n: nat) {
    forall i :: 0 <= i < |draws| ==> draws[i] < n
  }

  /** `tournamentSelect` as written: `best` is replaced whenever a candidate
      has strictly lower fitness, so the least fit draw wins. `fits` holds
      each agent's fitness. */
  function TournamentAsWritten(fits: seq<int>, draws: seq<nat>): (best: nat)
    requires |draws| > 0 && DrawsIn(draws, |fits|)
    ensures best in draws
    ensures forall i :: 0 <= i < |draws| ==> fits[best] <= fits[draws[i]]
  {
    if |draws| == 1 then draws[0]
    else
      var b := TournamentAsWritten(fits, draws[..|draws| - 1]);
      var cand := draws[|draws| - 1];
      if fits[cand] < fits[b] then cand else b
  }

  /** Agent b is at most as fit as every drawn agent. */
  predicate LeastFitDrawn(fits: seq<int>, draws: seq<nat>, b: nat)
    requires b < |fits| && DrawsIn(draws, |fits|)
  {
    forall i :: 0 <= i < |draws| ==> fits[b] <= fits[draws[i]]
  }

  /** With two agents of fitness 1 and 5 both drawn, the tournament as
      written hands the less fit one to crossover. */
  lemma TournamentPicksLeastFit()
    ensures TournamentAsWritten([1, 5], [0, 1, 1, 1, 1]) == 0
  {
    assert [0, 1, 1, 1, 1][..4] == [0, 1, 1, 1];
    assert [0, 1, 1, 1][..3] == [0, 1, 1];
    assert [0, 1, 1][..2] == [0, 1];
    assert [0, 1][..1] == [0];
  }

  /** `tournamentSelect` as a tournament selection is meant to work: the
      fittest of the draws wins, the earliest on ties. */
  function Tournament(fits: seq<int>, draws: seq<nat>): (best: nat)
    requires |draws| > 0 && DrawsIn(draws, |fits|)
    ensures best in draws
    ensures forall i :: 0 <= i < |draws| ==> fits[best] >= fits[draws[i]]
  {
    if |draws| == 1 then draws[0]
    else
      var b := Tournament(fits, draws[..|draws| - 1]);
      var cand := draws[|draws| - 1];
      if fits[cand] > fits[b] then cand else b
  }

  /** The two tournaments over the same draws: the written one never picks
      a fitter agent than the intended one, and they pick equally fit
      agents exactly when every draw is equally fit. */
  lemma TournamentsCompared(fits: seq<int>, draws: seq<nat>)
    requires |draws| > 0 && DrawsIn(draws, |fits|)
    ensures fits[TournamentAsWritten(fits, draws)] <= fits[Tournament(fits, draws)]
    ensures fits[TournamentAsWritten(fits, draws)] == fits[Tournament(fits, draws)] <==>
      forall i :: 0 <= i < |draws| ==> fits[draws[i]] == fits[draws[0]]
  {
    var lo := TournamentAsWritten(fits, draws);
    var hi := Tournament(fits, draws);
    assert fits[lo] <= fits[draws[0]] <= fits[hi];
  }

  // ---------------------------------------------------------------------
  // resetPopulation
  // ---------------------------------------------------------------------

  /** Where a parent comes from: `elite[rnd(elite.length)]` when `rnd(10)`
      is below 8, a tournament otherwise. */
  datatype Parent = FromElite(index: nat) | FromTournament(draws: seq<nat>)

  /** The draws behind one child. */
  datatype Child = Child(a: Parent, b: Parent, split: nat, mutations: seq<Mutation>)

  predicate ParentFits(p: Parent, elite: nat, n: nat) {
    match p
    case FromElite(i) => i < elite
    case FromTournament(ds) => |ds| == TournamentSize && DrawsIn(ds, n)
  }

  predicate ChildFits(c: Child, elite: nat, n: nat) {
    && ParentFits(c.a, elite, n) && ParentFits(c.b, elite, n)
    && c.split < GenomeLength && |c.mutations| == GenomeLength && MutationsFit(c.mutations)
  }

  /** `Math.ceil(n / 5)`. */
  function EliteSize(n: nat): (e: nat)
    ensures e * 5 >= n && (e == 0 || (e - 1) * 5 < n)
  {
    (n + 4) / 5
  }

  /** The fitter-or-equal order the population is sorted by. */
  function Fitter(rows: int, cols: int): (Agent, Agent) -> bool {
    (a: Agent, b: Agent) => Fitness(a, rows, cols) >= Fitness(b, rows, cols)
  }

  /** A parent's genome: an elite agent's, or the winner's of the
      tournament as written, which is the least fit agent drawn. */
  function ParentGenome(p: Parent, sorted: seq<Agent>, fits: seq<int>, elite: nat): (g: seq<nat>)
    requires elite <= |sorted| == |fits| && ParentFits(p, elite, |sorted|)
    ensures p.FromElite? ==> g == sorted[p.index].genome
    ensures p.FromTournament? ==>
      exists b :: b in p.draws && g == sorted[b].genome && LeastFitDrawn(fits, p.draws, b)
  {
    match p
    case FromElite(i) => sorted[i].genome
    case FromTournament(ds) =>
      var b := TournamentAsWritten(fits, ds);
      sorted[b].genome
  }

  /** A fresh agent for a genome: `initAgent`, whose random position, speed
      and heading are not modelled. */
  function Fresh(g: seq<nat>): Agent {
    Agent(g, [], [])
  }

  /** One child of the `while` loop: two parents, crossed over at the
      drawn split and mutated. */
  function MakeChild(c: Child, sorted: seq<Agent>, fits: seq<int>, elite: nat): (child: Agent)
    requires elite <= |sorted| == |fits| && ChildFits(c, elite, |sorted|)
    requires forall i :: 0 <= i < |sorted| ==> ValidGenome(sorted[i].genome)
    ensures ValidGenome(child.genome)
  {
    var g1 := ParentGenome(c.a, sorted, fits, elite);
    var g2 := ParentGenome(c.b, sorted, fits, elite);
    ParentValid(c.a, sorted, fits, elite);
    ParentValid(c.b, sorted, fits, elite);
    ChildValid(g1, g2, c.split, c.mutations);
    Fresh(Mutate(Crossover(g1, g2, c.split), c.mutations))
  }

  /** How many children the `while` loop adds. */
  function ChildCount(n: nat): nat {
    if EliteSize(n) < Population then Population - EliteSize(n) else 0
  }

  /** `resetPopulation`: sort by fitness, highest first, keep the top fifth
      as fresh agents and fill up to P with children. */
  function ResetPopulation(pop: seq<Agent>, rows: int, cols: int, children: seq<Child>): (r: seq<Agent>)
    requires |pop| > 0 && |children| == ChildCount(|pop|)
    requires forall i :: 0 <= i < |children| ==> ChildFits(children[i], EliteSize(|pop|), |pop|)
    requires forall i :: 0 <= i < |pop| ==> ValidGenome(pop[i].genome)
    ensures |r| == if EliteSize(|pop|) < Population then Population else EliteSize(|pop|)
    ensures forall i :: 0 <= i < |r| ==> ValidGenome(r[i].genome)
  {
    var sorted := SortBy(pop, Fitter(rows, cols));
    SortedGenomesValid(pop, sorted);
    var fits := seq(|sorted|, i requires 0 <= i < |sorted| => Fitness(sorted[i], rows, cols));
    var e := EliteSize(|pop|);
    Elite(sorted, e) + Offspring(children, sorted, fits, e)
  }

  /** The first `e` ranked agents, as fresh agents with their genomes. */
  function Elite(sorted: seq<Agent>, e: nat): (r: seq<Agent>)
    requires e <= |sorted|
    ensures |r| == e && forall i :: 0 <= i < e ==> r[i] == Fresh(sorted[i].genome)
  {
    seq(e, i requires 0 <= i < e => Fresh(sorted[i].genome))
  }

  /** The children the `while` loop adds, one per drawn child. */
  function Offspring(children: seq<Child>, sorted: seq<Agent>, fits: seq<int>, e: nat): (r: seq<Agent>)
    requires e <= |sorted| == |fits|
    requires forall i :: 0 <= i < |children| ==> ChildFits(children[i], e, |sorted|)
    requires forall i :: 0 <= i < |sorted| ==> ValidGenome(sorted[i].genome)
    ensures |r| == |children| && forall i :: 0 <= i < |r| ==> ValidGenome(r[i].genome)
  {
    seq(|children|, i requires 0 <= i < |children| => MakeChild(children[i], sorted, fits, e))
  }

  /** Sorting moves agents without changing their genomes. */
  lemma SortedGenomesValid(pop: seq<Agent>, sorted: seq<Agent>)
    requires multiset(sorted) == multiset(pop)
    requires forall i :: 0 <= i < |pop| ==> ValidGenome(pop[i].genome)
    ensures forall i :: 0 <= i < |sorted| ==> ValidGenome(sorted[i].genome)
  {
    forall i | 0 <= i < |sorted| ensures ValidGenome(sorted[i].genome) {
      assert sorted[i] in multiset(pop);
    }
  }

  lemma FitterIsPreorder(rows: int, cols: int)
    ensures TotalPreorder(Fitter(rows, cols))
  {
  }

  /** The first ceil(n/5) new agents carry the genomes of agents at least as
      fit as every agent left out of the elite, and every old agent is
      accounted for by the ranking. */
  lemma EliteIsFittest(pop: seq<Agent>, rows: int, cols: int, children: seq<Child>)
    requires |pop| > 0 && |children| == ChildCount(|pop|)
    requires forall i :: 0 <= i < |children| ==> ChildFits(children[i], EliteSize(|pop|), |pop|)
    requires forall i :: 0 <= i < |pop| ==> ValidGenome(pop[i].genome)
    ensures var r := ResetPopulation(pop, rows, cols, children);
      var sorted := SortBy(pop, Fitter(rows, cols));
      && multiset(sorted) == multiset(pop)
      && (forall i :: 0 <= i < EliteSize(|pop|) ==> r[i] == Fresh(sorted[i].genome))
      && (forall i, j :: 0 <= i < EliteSize(|pop|) <= j < |pop| ==>
            Fitness(sorted[i], rows, cols) >= Fitness(sorted[j], rows, cols))
  {
    FitterIsPreorder(rows, cols);
    SortBySorted(pop, Fitter(rows, cols));
  }

  lemma ParentValid(p: Parent, sorted: seq<Agent>, fits: seq<int>, elite: nat)
    requires elite <= |sorted| == |fits| && ParentFits(p, elite, |sorted|)
    requires forall i :: 0 <= i < |sorted| ==> ValidGenome(sorted[i].genome)
    ensures ValidGenome(ParentGenome(p, sorted, fits, elite))
  {
  }
}

=== FILE: seqs.dfy ===
/** Sequence helpers shared by several sketches: JavaScript's
    `[...new Set(xs)]`, `indexOf`, and a stable sort by a comparator. */
module Seqs {

  predicate Distinct<T(==,!new)>(s: seq<T>) {
    forall i, j :: 0 <= i < j < |s| ==> s[i] != s[j]
  }

  /** A `Set` filled in order, turned back into an array: distinct values in
      order of first appearance. */
  function Dedup<T(==,!new)>(s: seq<T>): (r: seq<T>)
    ensures forall v :: v in r <==> v in s
    ensures Distinct(r)
  {
    if |s| == 0 then []
    else
      var d := Dedup(s[..|s| - 1]);
      assert forall v :: v in s <==> v in s[..|s| - 1] || v == s[|s| - 1] by {
        assert s == s[..|s| - 1] + [s[|s| - 1]];
      }
      if s[|s| - 1] in d then d else d + [s[|s| - 1]]
  }

  function IndexOf<T(==)>(s: seq<T>, v: T): (k: nat)
    requires v in s
    ensures k < |s| && s[k] == v
  {
    if s[0] == v then 0 else 1 + IndexOf(s[1..], v)
  }

  /** In a duplicate-free sequence the index of an element is its only position. */
  lemma {:induction false} IndexOfDistinct<T(!new)>(s: seq<T>, k: nat)
    requires Distinct(s) && k < |s|
    ensures IndexOf(s, s[k]) == k
  {
    if k > 0 && s[0] != s[k] {
      assert Distinct(s[1..]);
      assert s[1..][k - 1] == s[k];
      IndexOfDistinct(s[1..], k - 1);
    }
  }

  // ---------------------------------------------------------------------
  // Sorting
  // ---------------------------------------------------------------------

  /** A comparator's "may precede" relation: total and transitive. */
  ghost predicate TotalPreorder<T(!new)>(le: (T, T) -> bool) {
    && (forall a, b :: le(a, b) || le(b, a))
    && (forall a, b, c :: le(a, b) && le(b, c) ==> le(a, c))
  }

  predicate SortedBy<T>(s: seq<T>, le: (T, T) -> bool) {
    forall i, j :: 0 <= i < j < |s| ==> le(s[i], s[j])
  }

  /** Inserts x after every element that may precede it, so that elements
      the comparator ties keep their original order. */
  function InsertBy<T>(s: seq<T>, x: T, le: (T, T) -> bool): (r: seq<T>)
    ensures multiset(r) == multiset(s) + multiset{x} && |r| == |s| + 1
  {
    if |s| == 0 then [x]
    else
      var last := s[|s| - 1];
      assert s == s[..|s| - 1] + [last];
      if le(last, x) then s + [x]
      else InsertBy(s[..|s| - 1], x, le) + [last]
  }

  /** Insertion into a sorted sequence keeps it sorted. */
  lemma {:induction false} InsertBySorted<T(!new)>(s: seq<T>, x: T, le: (T, T) -> bool)
    requires TotalPreorder(le) && SortedBy(s, le)
    ensures SortedBy(InsertBy(s, x, le), le)
  {
    if |s| > 0 {
      var last := s[|s| - 1];
      var init := s[..|s| - 1];
      var r := InsertBy(s, x, le);
      if le(last, x) {
        forall i, j | 0 <= i < j < |r| ensures le(r[i], r[j]) {
          if j == |s| && i < |s| - 1 {
            assert le(s[i], last);
          }
        }
      } else {
        assert SortedBy(init, le);
        InsertBySorted(init, x, le);
        var q := InsertBy(init, x, le);
        assert r == q + [last];
        assert le(x, last);
        forall i, j | 0 <= i < j < |r| ensures le(r[i], r[j]) {
          if j == |q| {
            assert r[i] in multiset(q);
            assert r[i] in init || r[i] == x;
            if r[i] in init {
              var k :| 0 <= k < |init| && init[k] == r[i];
              assert s[k] == r[i];
            }
          }
        }
      }
    }
  }

  /** A stable sort by the comparator, the behaviour of `Array.prototype.sort`. */
  function SortBy<T>(s: seq<T>, le: (T, T) -> bool): (r: seq<T>)
    ensures multiset(r) == multiset(s) && |r| == |s|
  {
    if |s| == 0 then []
    else
      assert s == s[..|s| - 1] + [s[|s| - 1]];
      InsertBy(SortBy(s[..|s| - 1], le), s[|s| - 1], le)
  }

  /** The sort orders by any total preorder. */
  lemma {:induction false} SortBySorted<T(!new)>(s: seq<T>, le: (T, T) -> bool)
    requires TotalPreorder(le)
    ensures SortedBy(SortBy(s, le), le)
  {
    if |s| > 0 {
      SortBySorted(s[..|s| - 1], le);
      InsertBySorted(SortBy(s[..|s| - 1], le), s[|s| - 1], le);
    }
  }

  // ---------------------------------------------------------------------
  // Stability
  // ---------------------------------------------------------------------

  /** The comparator ranks a and b alike: each may precede the other. */
  predicate Tied<T>(a: T, b: T, le: (T, T) -> bool) {
    le(a, b) && le(b, a)
  }

  /** The elements of s the comparator ranks like c, in their order in s. */
  function Ties<T(==,!new)>(s: seq<T>, c: T, le: (T, T) -> bool): (r: seq<T>)
    ensures |r| <= |s|
    ensures forall y :: y in r <==> y in s && Tied(y, c, le)
  {
    if |s| == 0 then []
    else
      var last := s[|s| - 1];
      assert forall y :: y in s <==> y in s[..|s| - 1] || y == last by {
        assert s == s[..|s| - 1] + [last];
      }
      Ties(s[..|s| - 1], c, le) + (if Tied(last, c, le) then [last] else [])
  }

  /** Appending one element appends it to its tie class only. */
  lemma TiesAppend<T(!new)>(s: seq<T>, x: T, c: T, le: (T, T) -> bool)
    ensures Ties(s + [x], c, le) == Ties(s, c, le) + (if Tied(x, c, le) then [x] else [])
  {
    assert (s + [x])[..|s|] == s;
  }

  /** Inserting x adds it at the end of its tie class and leaves every tie
      class in its order: InsertBy never moves x ahead of an element tied
      with it. */
  lemma {:induction false} InsertByStable<T(!new)>(s: seq<T>, x: T, c: T, le: (T, T) -> bool)
    requires TotalPreorder(le)
    ensures Ties(InsertBy(s, x, le), c, le) == Ties(s, c, le) + (if Tied(x, c, le) then [x] else [])
  {
    if |s| > 0 {
      var last := s[|s| - 1];
      var init := s[..|s| - 1];
      assert s == init + [last];
      if le(last, x) {
        TiesAppend(s, x, c, le);
      } else {
        InsertByStable(init, x, c, le);
        TiesAppend(InsertBy(init, x, le), last, c, le);
        TiesAppend(init, last, c, le);
        assert !(Tied(x, c, le) && Tied(last, c, le));
      }
    }
  }

  /** The sort is stable: the elements of each tie class come out in the
      order they went in. */
  lemma {:induction false} SortByStable<T(!new)>(s: seq<T>, c: T, le: (T, T) -> bool)
    requires TotalPreorder(le)
    ensures Ties(SortBy(s, le), c, le) == Ties(s, c, le)
  {
    if |s| > 0 {
      var init, last := s[..|s| - 1], s[|s| - 1];
      var sorted := SortBy(init, le);
      var tail := if Tied(last, c, le) then [last] else [];
      calc {
        Ties(SortBy(s, le), c, le);
        Ties(InsertBy(sorted, last, le), c, le);
        { InsertByStable(sorted, last, c, le); }
        Ties(sorted, c, le) + tail;
        { SortByStable(init, c, le); }
        Ties(init, c, le) + tail;
        { TiesAppend(init, last, c, le); assert s == init + [last]; }
        Ties(s, c, le);
      }
    }
  }

  /** The last element of s tied with c closes c's tie class. */
  lemma {:induction false} TiesLast<T(!new)>(s: seq<T>, c: T, le: (T, T) -> bool, k: nat)
    requires k < |s| && Tied(s[k], c, le)
    requires forall j :: k < j < |s| ==> !Tied(s[j], c, le)
    ensures var t := Ties(s, c, le); |t| > 0 && t[|t| - 1] == s[k]
  {
    var init := s[..|s| - 1];
    assert s == init + [s[|s| - 1]];
    TiesAppend(init, s[|s| - 1], c, le);
    if k < |s| - 1 {
      TiesLast(init, c, le, k);
    }
  }

  /** The last element of a non-empty tie class is the last element of s
      tied with c. */
  lemma {:induction false} TiesLastIndex<T(!new)>(s: seq<T>, c: T, le: (T, T) -> bool)
    requires |Ties(s, c, le)| > 0
    ensures var t := Ties(s, c, le);
      exists k :: 0 <= k < |s| && s[k] == t[|t| - 1] && Tied(s[k], c, le) &&
        forall j :: k < j < |s| ==> !Tied(s[j], c, le)
  {
    var init := s[..|s| - 1];
    assert s == init + [s[|s| - 1]];
    TiesAppend(init, s[|s| - 1], c, le);
    if !Tied(s[|s| - 1], c, le) {
      TiesLastIndex(init, c, le);
      var t := Ties(s, c, le);
      var k :| 0 <= k < |init| && init[k] == t[|t| - 1] && Tied(init[k], c, le) &&
        forall j :: k < j < |init| ==> !Tied(init[j], c, le);
      assert s[k] == init[k];
    }
  }
}

=== FILE: tesseract.dfy ===
/** The hidden tesseract of genart/genuary2026/15_invisible_object.mjs:
    its sixteen vertices, the edges joining vertices that differ in one
    coordinate, and the plane rotations that turn it in four dimensions. */
module Tesseract {
  /** A point of four-space. */
  datatype Vec4 = Vec4(x: real, y: real, z: real, w: real)

  /** Vertex i: coordinate k is 1 when `i & 2^k` is set, -1 otherwise. */
  function Vertex(i: nat): (v: Vec4)
    requires i < 16
    ensures (v.x == 1.0 || v.x == -1.0) && (v.y == 1.0 || v.y == -1.0)
    ensures (v.z == 1.0 || v.z == -1.0) && (v.w == 1.0 || v.w == -1.0)
  {
    var b := i as bv4;
    Vec4(if b & 1 != 0 then 1.0 else -1.0, if b & 2 != 0 then 1.0 else -1.0,
         if b & 4 != 0 then 1.0 else -1.0, if b & 8 != 0 then 1.0 else -1.0)
  }

  /** The sixteen vertices, in index order. */
  function Vertices(): (vs: seq<Vec4>)
    ensures |vs| == 16
    ensures forall i :: 0 <= i < 16 ==> vs[i] == Vertex(i)
  {
    seq(16, i requires 0 <= i < 16 => Vertex(i))
  }

  /** Distinct indices give distinct vertices: the sign pattern spells out
      the index in binary. */
  lemma VertexInjective(a: nat, b: nat)
    requires a < 16 && b < 16 && Vertex(a) == Vertex(b)
    ensures a == b
  {
    var x, y := a as bv4, b as bv4;
    assert x & 1 == y & 1 && x & 2 == y & 2 && x & 4 == y & 4 && x & 8 == y & 8;
    assert x == y;
    assert (x as nat) == a && (y as nat) == b;
  }

  /** The `diff` count of the edge loop: coordinates in which two vertices
      differ. */
  function Diff(a: Vec4, b: Vec4): nat {
    (if a.x != b.x then 1 else 0) + (if a.y != b.y then 1 else 0)
    + (if a.z != b.z then 1 else 0) + (if a.w != b.w then 1 else 0)
  }

  /** A single set bit. */
  predicate OneBit(k: bv4) {
    k == 1 || k == 2 || k == 4 || k == 8
  }

  /** Two vertices differ in exactly one coordinate iff their indices
      differ in exactly one bit: `a ^ b` is a power of two. */
  lemma DiffOneIffXor(a: nat, b: nat)
    requires a < 16 && b < 16
    ensures Diff(Vertex(a), Vertex(b)) == 1 <==> OneBit((a as bv4) ^ (b as bv4))
  {
    var x, y := a as bv4, b as bv4;
    assert Vertex(a).x != Vertex(b).x <==> (x ^ y) & 1 != 0;
    assert Vertex(a).y != Vertex(b).y <==> (x ^ y) & 2 != 0;
    assert Vertex(a).z != Vertex(b).z <==> (x ^ y) & 4 != 0;
    assert Vertex(a).w != Vertex(b).w <==> (x ^ y) & 8 != 0;
  }

  /** An edge: a pair of vertex indices. */
  datatype Edge = Edge(a: nat, b: nat)

  /** The edge loop from (a, b) on, in the loop's order: b runs past a to
      15, then a moves on. */
  function EdgesFrom(a: nat, b: nat): seq<Edge>
    requires a < b
    decreases 16 - a, 16 - b
  {
    if a >= 15 then []
    else if b >= 16 then EdgesFrom(a + 1, a + 2)
    else (if Diff(Vertex(a), Vertex(b)) == 1 then [Edge(a, b)] else []) + EdgesFrom(a, b + 1)
  }

  /** `edges`. */
  function Edges(): seq<Edge> {
    EdgesFrom(0, 1)
  }

  /** Edges are listed by a, then by b. */
  predicate EdgeBefore(e: Edge, f: Edge) {
    e.a < f.a || (e.a == f.a && e.b < f.b)
  }

  /** From (a, b) on, the loop lists exactly the pairs it has yet to visit
      that differ in one coordinate, in loop order. */
  lemma {:induction false} EdgesFromExactly(a: nat, b: nat)
    requires a < b
    decreases 16 - a, 16 - b
    ensures forall e :: e in EdgesFrom(a, b) <==>
      (e.a < e.b < 16 && Diff(Vertex(e.a), Vertex(e.b)) == 1 && (e.a > a || (e.a == a && e.b >= b)))
    ensures forall k, l :: 0 <= k < l < |EdgesFrom(a, b)| ==> EdgeBefore(EdgesFrom(a, b)[k], EdgesFrom(a, b)[l])
  {
    if a >= 15 {
    } else if b >= 16 {
      EdgesFromExactly(a + 1, a + 2);
    } else {
      EdgesFromExactly(a, b + 1);
      var head := if Diff(Vertex(a), Vertex(b)) == 1 then [Edge(a, b)] else [];
      var rest := EdgesFrom(a, b + 1);
      assert EdgesFrom(a, b) == head + rest;
      forall k, l | 0 <= k < l < |head + rest| ensures EdgeBefore((head + rest)[k], (head + rest)[l]) {
        if k < |head| {
          assert (head + rest)[l] in rest;
        }
      }
    }
  }

  /** (a, b) is an edge iff a < b and `a ^ b` is a power of two. */
  lemma EdgeIff(a: nat, b: nat)
    requires a < 16 && b < 16
    ensures Edge(a, b) in Edges() <==> a < b && OneBit((a as bv4) ^ (b as bv4))
  {
    EdgesFromExactly(0, 1);
    DiffOneIffXor(a, b);
  }

  /** No edge is listed twice. */
  lemma EdgesDistinct()
    ensures forall k, l :: 0 <= k < l < |Edges()| ==> Edges()[k] != Edges()[l]
  {
    EdgesFromExactly(0, 1);
  }

  /** How many pairs the edge loop keeps from (a, b) on. */
  function KeptFrom(a: nat, b: nat): nat
    requires a < b
    decreases 16 - a, 16 - b
  {
    if a >= 15 then 0
    else if b >= 16 then KeptFrom(a + 1, a + 2)
    else (if Diff(Vertex(a), Vertex(b)) == 1 then 1 else 0) + KeptFrom(a, b + 1)
  }

  lemma {:induction false} EdgesFromLength(a: nat, b: nat)
    requires a < b
    decreases 16 - a, 16 - b
    ensures |EdgesFrom(a, b)| == KeptFrom(a, b)
  {
    if a >= 15 {
    } else if b >= 16 {
      EdgesFromLength(a + 1, a + 2);
    } else {
      EdgesFromLength(a, b + 1);
    }
  }

  /** How many pairs row a of the loop keeps from b on. */
  function RowKept(a: nat, b: nat): nat
    requires a < 16
    decreases 16 - b
  {
    if b >= 16 then 0
    else (if Diff(Vertex(a), Vertex(b)) == 1 then 1 else 0) + RowKept(a, b + 1)
  }

  /** The loop's count is row a's count plus the later rows'. */
  lemma {:induction false} KeptSplit(a: nat, b: nat)
    requires a < b && a < 15
    decreases 16 - b
    ensures KeptFrom(a, b) == RowKept(a, b) + KeptFrom(a + 1, a + 2)
  {
    if b < 16 {
      KeptSplit(a, b + 1);
    }
  }

  /** 1 when bit k is clear in a and a + k, the index with that bit set,
      is at least b. */
  function ClearAt(a: nat, b: nat, k: bv4): nat
    requires a < 16
  {
    if (a as bv4) & k == 0 && a + (k as nat) >= b then 1 else 0
  }

  /** How many of a's clear bits give an index at least b. */
  function Above(a: nat, b: nat): nat
    requires a < 16
  {
    ClearAt(a, b, 1) + ClearAt(a, b, 2) + ClearAt(a, b, 4) + ClearAt(a, b, 8)
  }

  /** Past a, b is a neighbour exactly when it is a with one clear bit set. */
  lemma ClearStep(a: nat, b: nat, k: bv4)
    requires a < b < 16 && OneBit(k)
    ensures ClearAt(a, b, k) - ClearAt(a, b + 1, k) == if (a as bv4) ^ (b as bv4) == k then 1 else 0
  {
    var x, y := a as bv4, b as bv4;
    assert x as nat == a && y as nat == b;
  }

  /** Setting a clear bit stays below 16. */
  lemma ClearTop(a: nat, k: bv4)
    requires a < 16 && OneBit(k)
    ensures ClearAt(a, 16, k) == 0
  {
    var x := a as bv4;
    assert x as nat == a;
  }

  /** Row a keeps, from b on, the indices that are a with one clear bit
      set. */
  lemma {:induction false} RowKeptAbove(a: nat, b: nat)
    requires a < b <= 16
    decreases 16 - b
    ensures RowKept(a, b) == Above(a, b)
  {
    if b == 16 {
      ClearTop(a, 1);
      ClearTop(a, 2);
      ClearTop(a, 4);
      ClearTop(a, 8);
    } else {
      RowKeptAbove(a, b + 1);
      DiffOneIffXor(a, b);
      ClearStep(a, b, 1);
      ClearStep(a, b, 2);
      ClearStep(a, b, 4);
      ClearStep(a, b, 8);
    }
  }

  /** The clear bits of the rows from a to 14, added up. */
  function Tally(a: nat): nat
    requires a <= 15
    decreases 15 - a
  {
    if a == 15 then 0 else Above(a, a + 1) + Tally(a + 1)
  }

  /** The pairs kept from row a on are the clear bits tallied from a. */
  lemma {:induction false} KeptTally(a: nat)
    requires a <= 15
    decreases 15 - a
    ensures KeptFrom(a, a + 1) == Tally(a)
  {
    if a < 15 {
      KeptSplit(a, a + 1);
      RowKeptAbove(a, a + 1);
      KeptTally(a + 1);
    }
  }

  /** How many bits of a, below 16, are clear. */
  const ClearBits: seq<nat> := [4, 3, 3, 2, 3, 2, 2, 1, 3, 2, 2, 1, 2, 1, 1, 0]

  /** Row a's neighbours above it are its clear bits. */
  lemma AboveClearBits(a: nat)
    requires a < 16
    ensures Above(a, a + 1) == ClearBits[a]
  {
    var x := a as bv4;
    assert x as nat == a;
  }

  /** Each row's share is the count of its clear bits. */
  lemma TallyStep(a: nat)
    requires a < 15
    ensures Tally(a) == ClearBits[a] + Tally(a + 1)
  {
    AboveClearBits(a);
  }

  /** The sixteen rows' clear bits add up to thirty-two. */
  lemma TallyAll()
    ensures Tally(0) == 32
  {
    var a := 15;
    assert Tally(a) == 0;
    a := 14;
    TallyStep(a);
    assert Tally(a) == 1;
    a := 13;
    TallyStep(a);
    assert Tally(a) == 2;
    a := 12;
    TallyStep(a);
    assert Tally(a) == 4;
    a := 11;
    TallyStep(a);
    assert Tally(a) == 5;
    a := 10;
    TallyStep(a);
    assert Tally(a) == 7;
    a := 9;
    TallyStep(a);
    assert Tally(a) == 9;
    a := 8;
    TallyStep(a);
    assert Tally(a) == 12;
    a := 7;
    TallyStep(a);
    assert Tally(a) == 13;
    a := 6;
    TallyStep(a);
    assert Tally(a) == 15;
    a := 5;
    TallyStep(a);
    assert Tally(a) == 17;
    a := 4;
    TallyStep(a);
    assert Tally(a) == 20;
    a := 3;
    TallyStep(a);
    assert Tally(a) == 22;
    a := 2;
    TallyStep(a);
    assert Tally(a) == 25;
    a := 1;
    TallyStep(a);
    assert Tally(a) == 28;
    a := 0;
    TallyStep(a);
    assert Tally(a) == 32;
  }

  /** Thirty-two edges in all: row a keeps one pair per clear bit of a. */
  lemma EdgeCount()
    ensures |Edges()| == 32
  {
    var first := 0;
    EdgesFromLength(first, first + 1);
    KeptTally(first);
    TallyAll();
  }

  /** The vertices an edge joins to v. */
  function Neighbours(v: nat): set<nat>
    requires v < 16
  {
    set u | 0 <= u < 16 && (Edge(v, u) in Edges() || Edge(u, v) in Edges())
  }

  /** `v ^ k`. */
  function Flip(v: nat, k: bv4): (u: nat)
    requires v < 16
    ensures u < 16
  {
    ((v as bv4) ^ k) as nat
  }

  /** u is v with one bit toggled iff `v ^ u` is a power of two. */
  lemma FlipIff(v: nat, u: nat)
    requires v < 16 && u < 16
    ensures OneBit((v as bv4) ^ (u as bv4)) <==> u == Flip(v, 1) || u == Flip(v, 2) || u == Flip(v, 4) || u == Flip(v, 8)
    ensures (v as bv4) ^ (u as bv4) == (u as bv4) ^ (v as bv4)
  {
    var x, y := v as bv4, u as bv4;
    assert (y as nat) == u;
    assert x ^ (x ^ y) == y;
    forall k: bv4 ensures u == Flip(v, k) ==> x ^ y == k {
      assert ((x ^ k) as nat) as bv4 == x ^ k;
    }
  }

  /** The neighbours of v are v with one bit toggled: four of them. */
  lemma DegreeFour(v: nat)
    requires v < 16
    ensures Neighbours(v) == {Flip(v, 1), Flip(v, 2), Flip(v, 4), Flip(v, 8)}
    ensures |Neighbours(v)| == 4
  {
    forall u | 0 <= u < 16
      ensures u in Neighbours(v) <==> u == Flip(v, 1) || u == Flip(v, 2) || u == Flip(v, 4) || u == Flip(v, 8)
    {
      EdgeIff(v, u);
      EdgeIff(u, v);
      FlipIff(v, u);
    }
    FlipsDistinct(v);
  }

  /** Toggling different bits gives different indices. */
  lemma FlipsDistinct(v: nat)
    requires v < 16
    ensures |{Flip(v, 1), Flip(v, 2), Flip(v, 4), Flip(v, 8)}| == 4
  {
    var a, b, c, d := Flip(v, 1), Flip(v, 2), Flip(v, 4), Flip(v, 8);
    var x := v as bv4;
    assert (x ^ 1) != (x ^ 2) && (x ^ 1) != (x ^ 4) && (x ^ 1) != (x ^ 8);
    assert (x ^ 2) != (x ^ 4) && (x ^ 2) != (x ^ 8) && (x ^ 4) != (x ^ 8);
    assert a != b && a != c && a != d && b != c && b != d && c != d;
    assert {a, b, c, d} == {a} + {b} + {c} + {d};
  }

  // ---------------------------------------------------------------------
  // rotatePlane
  // ---------------------------------------------------------------------

  datatype Axis = X | Y | Z | W

  function Get(v: Vec4, k: Axis): real {
    match k
    case X => v.x
    case Y => v.y
    case Z => v.z
    case W => v.w
  }

  function Set(v: Vec4, k: Axis, r: real): (v': Vec4)
    ensures Get(v', k) == r
    ensures forall j :: j != k ==> Get(v', j) == Get(v, j)
  {
    match k
    case X => v.(x := r)
    case Y => v.(y := r)
    case Z => v.(z := r)
    case W => v.(w := r)
  }

  /** `rotatePlane(v, a, b, ang)` with c = cos(ang) and s = sin(ang) given:
      the object spread writes key a and then key b. */
  function RotatePlane(v: Vec4, a: Axis, b: Axis, c: real, s: real): (r: Vec4)
    ensures forall k :: k != a && k != b ==> Get(r, k) == Get(v, k)
    ensures a != b ==> Get(r, a) == Get(v, a) * c - Get(v, b) * s && Get(r, b) == Get(v, a) * s + Get(v, b) * c
  {
    var p, q := Get(v, a), Get(v, b);
    Set(Set(v, a, p * c - q * s), b, p * s + q * c)
  }

  function Sq(r: real): real {
    r * r
  }

  /** Turning the pair (p, q) by (c, s) keeps p² + q² when c² + s² = 1. */
  lemma TurnKeepsLength(p: real, q: real, c: real, s: real)
    requires c * c + s * s == 1.0
    ensures Sq(p * c - q * s) + Sq(p * s + q * c) == Sq(p) + Sq(q)
  {
    calc {
      Sq(p * c - q * s) + Sq(p * s + q * c);
      p * p * (c * c + s * s) + q * q * (c * c + s * s);
      Sq(p) + Sq(q);
    }
  }

  /** A rotation keeps a² + b² in its plane when c² + s² = 1. */
  lemma RotatePreservesPlane(v: Vec4, a: Axis, b: Axis, c: real, s: real)
    requires a != b && c * c + s * s == 1.0
    ensures var r := RotatePlane(v, a, b, c, s);
      Sq(Get(r, a)) + Sq(Get(r, b)) == Sq(Get(v, a)) + Sq(Get(v, b))
  {
    TurnKeepsLength(Get(v, a), Get(v, b), c, s);
  }

  function Norm2(v: Vec4): real {
    Sq(v.x) + Sq(v.y) + Sq(v.z) + Sq(v.w)
  }

  /** The squared length is the two coordinates of a plane plus the other
      two, so a change inside the plane that keeps its part keeps it. */
  lemma NormSplit(v: Vec4, r: Vec4, a: Axis, b: Axis)
    requires a != b
    requires forall k :: k != a && k != b ==> Get(r, k) == Get(v, k)
    ensures Norm2(r) - Sq(Get(r, a)) - Sq(Get(r, b)) == Norm2(v) - Sq(Get(v, a)) - Sq(Get(v, b))
  {
    assert Get(r, X) == r.x && Get(r, Y) == r.y && Get(r, Z) == r.z && Get(r, W) == r.w;
    assert Get(v, X) == v.x && Get(v, Y) == v.y && Get(v, Z) == v.z && Get(v, W) == v.w;
  }

  /** A rotation keeps the squared length. */
  lemma RotatePreservesNorm(v: Vec4, a: Axis, b: Axis, c: real, s: real)
    requires a != b && c * c + s * s == 1.0
    ensures Norm2(RotatePlane(v, a, b, c, s)) == Norm2(v)
  {
    RotatePreservesPlane(v, a, b, c, s);
    NormSplit(v, RotatePlane(v, a, b, c, s), a, b);
  }

  /** The cosine and sine of one of the five rotation angles. */
  datatype Turn = Turn(c: real, s: real)

  predicate Unit(t: Turn) {
    t.c * t.c + t.s * t.s == 1.0
  }

  /** The five rotations `update` applies to each vertex: xw, yz, xz, yw,
      zw. */
  function Rotate(v: Vec4, xw: Turn, yz: Turn, xz: Turn, yw: Turn, zw: Turn): Vec4 {
    var p := RotatePlane(v, X, W, xw.c, xw.s);
    var p := RotatePlane(p, Y, Z, yz.c, yz.s);
    var p := RotatePlane(p, X, Z, xz.c, xz.s);
    var p := RotatePlane(p, Y, W, yw.c, yw.s);
    RotatePlane(p, Z, W, zw.c, zw.s)
  }

  /** Every vertex lies at squared distance 4 from the centre. */
  lemma VertexNorm(i: nat)
    requires i < 16
    ensures Norm2(Vertex(i)) == 4.0
  {
    var v := Vertex(i);
    assert Sq(v.x) == 1.0 && Sq(v.y) == 1.0 && Sq(v.z) == 1.0 && Sq(v.w) == 1.0;
  }

  /** The five rotations together keep the squared length. */
  lemma RotateKeepsNorm(v: Vec4, xw: Turn, yz: Turn, xz: Turn, yw: Turn, zw: Turn)
    requires Unit(xw) && Unit(yz) && Unit(xz) && Unit(yw) && Unit(zw)
    ensures Norm2(Rotate(v, xw, yz, xz, yw, zw)) == Norm2(v)
  {
    var p1 := RotatePlane(v, X, W, xw.c, xw.s);
    var p2 := RotatePlane(p1, Y, Z, yz.c, yz.s);
    var p3 := RotatePlane(p2, X, Z, xz.c, xz.s);
    var p4 := RotatePlane(p3, Y, W, yw.c, yw.s);
    RotatePreservesNorm(v, X, W, xw.c, xw.s);
    RotatePreservesNorm(p1, Y, Z, yz.c, yz.s);
    RotatePreservesNorm(p2, X, Z, xz.c, xz.s);
    RotatePreservesNorm(p3, Y, W, yw.c, yw.s);
    RotatePreservesNorm(p4, Z, W, zw.c, zw.s);
  }

  /** Every rotated vertex stays on the sphere of radius 2 the vertices lie
      on. */
  lemma RotatedVertexOnSphere(i: nat, xw: Turn, yz: Turn, xz: Turn, yw: Turn, zw: Turn)
    requires i < 16
    requires Unit(xw) && Unit(yz) && Unit(xz) && Unit(yw) && Unit(zw)
    ensures Norm2(Rotate(Vertex(i), xw, yz, xz, yw, zw)) == 4.0
  {
    VertexNorm(i);
    RotateKeepsNorm(Vertex(i), xw, yz, xz, yw, zw);
  }
}

=== FILE: truchet.dfy ===
/** The Truchet tiles of genart/genesis/tile.mjs. A square tile has eight
    ports, two on each side at a third and two thirds of the way along; a
    tile joins its ports in four pairs, and each pair is drawn as a straight
    line, a half circle or a quarter circle depending on where the two ports
    sit. */
module Truchet {
  import opened Optional

  datatype Side = Top | Right | Bottom | Left

  /** The ports by their names in the source. */
  datatype Port = T1 | T2 | R1 | R2 | B1 | B2 | L1 | L2

  /** The side a port's name starts with. */
  function SideOf(p: Port): Side {
    match p
    case T1 | T2 => Top
    case R1 | R2 => Right
    case B1 | B2 => Bottom
    case L1 | L2 => Left
  }

  // ---------------------------------------------------------------------
  // The four classifiers, as written
  // ---------------------------------------------------------------------

  predicate IsLine(p: Port, q: Port) {
    || (SideOf(p) == Left && SideOf(q) == Right) || (SideOf(p) == Right && SideOf(q) == Left)
    || (SideOf(p) == Top && SideOf(q) == Bottom) || (SideOf(p) == Bottom && SideOf(q) == Top)
  }

  predicate IsHalfCircle(p: Port, q: Port) {
    || (SideOf(p) == Top && SideOf(q) == Top) || (SideOf(p) == Bottom && SideOf(q) == Bottom)
    || (SideOf(p) == Left && SideOf(q) == Left) || (SideOf(p) == Right && SideOf(q) == Right)
  }

  predicate IsSmallQuarterCircle(p: Port, q: Port) {
    || (p == L1 && q == T1) || (p == T1 && q == L1)
    || (p == T2 && q == R1) || (p == R1 && q == T2)
    || (p == R2 && q == B2) || (p == B2 && q == R2)
    || (p == L2 && q == B1) || (p == B1 && q == L2)
  }

  predicate IsBigQuarterCircle(p: Port, q: Port) {
    || (p == L1 && q == B2) || (p == B2 && q == L1)
    || (p == T1 && q == R2) || (p == R2 && q == T1)
    || (p == T2 && q == L2) || (p == L2 && q == T2)
    || (p == R1 && q == B1) || (p == B1 && q == R1)
  }

  datatype Curve = Line | HalfCircle | SmallQuarter | BigQuarter

  /** `drawCurve`'s chain of tests: the first classifier that holds picks
      the curve, and None is the "Unknown curve type" warning. */
  function Classify(p: Port, q: Port): (c: Option<Curve>)
    ensures c == Some(Line) <==> IsLine(p, q)
    ensures c == Some(HalfCircle) <==> IsHalfCircle(p, q)
    ensures c == Some(SmallQuarter) <==> IsSmallQuarterCircle(p, q)
    ensures c == Some(BigQuarter) <==> IsBigQuarterCircle(p, q)
  {
    if IsLine(p, q) then Some(Line)
    else if IsHalfCircle(p, q) then Some(HalfCircle)
    else if IsSmallQuarterCircle(p, q) then Some(SmallQuarter)
    else if IsBigQuarterCircle(p, q) then Some(BigQuarter)
    else None
  }

  /** Each classifier is symmetric in its two ports, and no pair satisfies
      two of them. */
  lemma ClassifiersSymmetricAndDisjoint(p: Port, q: Port)
    ensures IsLine(p, q) == IsLine(q, p) && IsHalfCircle(p, q) == IsHalfCircle(q, p)
    ensures IsSmallQuarterCircle(p, q) == IsSmallQuarterCircle(q, p)
    ensures IsBigQuarterCircle(p, q) == IsBigQuarterCircle(q, p)
    ensures !(IsLine(p, q) && IsHalfCircle(p, q)) && !(IsLine(p, q) && IsSmallQuarterCircle(p, q))
    ensures !(IsLine(p, q) && IsBigQuarterCircle(p, q)) && !(IsHalfCircle(p, q) && IsSmallQuarterCircle(p, q))
    ensures !(IsHalfCircle(p, q) && IsBigQuarterCircle(p, q)) && !(IsSmallQuarterCircle(p, q) && IsBigQuarterCircle(p, q))
  {
  }

  // ---------------------------------------------------------------------
  // The geometry the classifiers stand for
  // ---------------------------------------------------------------------

  /** Where a port sits on the tile, in thirds of the tile size, from the
      top-left corner (`pts`). */
  function At(p: Port): (int, int) {
    match p
    case T1 => (1, 0)
    case T2 => (2, 0)
    case R1 => (3, 1)
    case R2 => (3, 2)
    case B2 => (2, 3)
    case B1 => (1, 3)
    case L2 => (0, 2)
    case L1 => (0, 1)
  }

  function Opposite(s: Side): Side {
    match s
    case Top => Bottom
    case Bottom => Top
    case Left => Right
    case Right => Left
  }

  /** The corner two adjacent sides share, in thirds; None for the same or
      opposite sides. */
  function Corner(a: Side, b: Side): Option<(int, int)> {
    if a == b || b == Opposite(a) then None
    else
      var x := if a == Left || b == Left then 0 else 3;
      var y := if a == Top || b == Top then 0 else 3;
      Some((x, y))
  }

  function Abs(x: int): nat {
    if x < 0 then -x else x
  }

  /** Distance from a port to a corner of its side, along the side. */
  function Along(p: Port, c: (int, int)): nat {
    Abs(At(p).0 - c.0) + Abs(At(p).1 - c.1)
  }

  /** Both ports on sides meeting at a corner, and both r thirds from it:
      the ends of a quarter circle of radius r about the corner. */
  predicate QuarterOf(p: Port, q: Port, r: nat) {
    && Corner(SideOf(p), SideOf(q)).Some?
    && Along(p, Corner(SideOf(p), SideOf(q)).value) == r
    && Along(q, Corner(SideOf(p), SideOf(q)).value) == r
  }

  /** A line joins opposite sides, a half circle joins two ports of one side,
      and the small and big quarter circles join ports one and two thirds
      from a shared corner. */
  lemma ClassifiersMeanGeometry(p: Port, q: Port)
    ensures IsLine(p, q) <==> SideOf(q) == Opposite(SideOf(p))
    ensures IsHalfCircle(p, q) <==> SideOf(p) == SideOf(q)
    ensures IsSmallQuarterCircle(p, q) <==> QuarterOf(p, q, 1)
    ensures IsBigQuarterCircle(p, q) <==> QuarterOf(p, q, 2)
  {
    SmallGeometry(p, q);
    BigGeometry(p, q);
  }

  /** The small quarter circles. */
  lemma SmallGeometry(p: Port, q: Port)
    ensures IsSmallQuarterCircle(p, q) <==> QuarterOf(p, q, 1)
  {
    QuarterGeometry(p, q);
  }

  /** The big quarter circles. */
  lemma BigGeometry(p: Port, q: Port)
    ensures IsBigQuarterCircle(p, q) <==> QuarterOf(p, q, 2)
  {
    QuarterGeometry(p, q);
  }

  /** Both quarter classifiers, one first port at a time. */
  lemma QuarterGeometry(p: Port, q: Port)
    ensures IsSmallQuarterCircle(p, q) <==> QuarterOf(p, q, 1)
    ensures IsBigQuarterCircle(p, q) <==> QuarterOf(p, q, 2)
  {
    match p
    case T1 => QuarterFromT1(q);
    case T2 => QuarterFromT2(q);
    case R1 => QuarterFromR1(q);
    case R2 => QuarterFromR2(q);
    case B1 => QuarterFromB1(q);
    case B2 => QuarterFromB2(q);
    case L1 => QuarterFromL1(q);
    case L2 => QuarterFromL2(q);
  }

  lemma QuarterFromT1(q: Port)
    ensures IsSmallQuarterCircle(T1, q) <==> QuarterOf(T1, q, 1)
    ensures IsBigQuarterCircle(T1, q) <==> QuarterOf(T1, q, 2)
  {
    match q
    case T1 => {} case T2 => {} case R1 => {} case R2 => {}
    case B1 => {} case B2 => {} case L1 => {} case L2 => {}
  }

  lemma QuarterFromT2(q: Port)
    ensures IsSmallQuarterCircle(T2, q) <==> QuarterOf(T2, q, 1)
    ensures IsBigQuarterCircle(T2, q) <==> QuarterOf(T2, q, 2)
  {
    match q
    case T1 => {} case T2 => {} case R1 => {} case R2 => {}
    case B1 => {} case B2 => {} case L1 => {} case L2 => {}
  }

  lemma QuarterFromR1(q: Port)
    ensures IsSmallQuarterCircle(R1, q) <==> QuarterOf(R1, q, 1)
    ensures IsBigQuarterCircle(R1, q) <==> QuarterOf(R1, q, 2)
  {
    match q
    case T1 => {} case T2 => {} case R1 => {} case R2 => {}
    case B1 => {} case B2 => {} case L1 => {} case L2 => {}
  }

  lemma QuarterFromR2(q: Port)
    ensures IsSmallQuarterCircle(R2, q) <==> QuarterOf(R2, q, 1)
    ensures IsBigQuarterCircle(R2, q) <==> QuarterOf(R2, q, 2)
  {
    match q
    case T1 => {} case T2 => {} case R1 => {} case R2 => {}
    case B1 => {} case B2 => {} case L1 => {} case L2 => {}
  }

  lemma QuarterFromB1(q: Port)
    ensures IsSmallQuarterCircle(B1, q) <==> QuarterOf(B1, q, 1)
    ensures IsBigQuarterCircle(B1, q) <==> QuarterOf(B1, q, 2)
  {
    match q
    case T1 => {} case T2 => {} case R1 => {} case R2 => {}
    case B1 => {} case B2 => {} case L1 => {} case L2 => {}
  }

  lemma QuarterFromB2(q: Port)
    ensures IsSmallQuarterCircle(B2, q) <==> QuarterOf(B2, q, 1)
    ensures IsBigQuarterCircle(B2, q) <==> QuarterOf(B2, q, 2)
  {
    match q
    case T1 => {} case T2 => {} case R1 => {} case R2 => {}
    case B1 => {} case B2 => {} case L1 => {} case L2 => {}
  }

  lemma QuarterFromL1(q: Port)
    ensures IsSmallQuarterCircle(L1, q) <==> QuarterOf(L1, q, 1)
    ensures IsBigQuarterCircle(L1, q) <==> QuarterOf(L1, q, 2)
  {
    match q
    case T1 => {} case T2 => {} case R1 => {} case R2 => {}
    case B1 => {} case B2 => {} case L1 => {} case L2 => {}
  }

  lemma QuarterFromL2(q: Port)
    ensures IsSmallQuarterCircle(L2, q) <==> QuarterOf(L2, q, 1)
    ensures IsBigQuarterCircle(L2, q) <==> QuarterOf(L2, q, 2)
  {
    match q
    case T1 => {} case T2 => {} case R1 => {} case R2 => {}
    case B1 => {} case B2 => {} case L1 => {} case L2 => {}
  }

  /** The centre `drawCurve` takes for a quarter circle, in thirds: the left
      edge when either port is on the left side, else the right edge; the top
      edge when either port is on top, else the bottom edge. */
  function ArcCentre(p: Port, q: Port): (int, int) {
    var x := if p == L1 || q == L1 || p == L2 || q == L2 then 0 else 3;
    var y := if p == T1 || q == T1 || p == T2 || q == T2 then 0 else 3;
    (x, y)
  }

  /** For both quarter circles the centre is the shared corner, and the
      radius, a third of the tile for the small one and two thirds
      (`TILE_SIZE / (3/2)`) for the big one, reaches both ports. */
  lemma ArcCentreIsCorner(p: Port, q: Port)
    requires IsSmallQuarterCircle(p, q) || IsBigQuarterCircle(p, q)
    ensures Corner(SideOf(p), SideOf(q)) == Some(ArcCentre(p, q))
    ensures IsSmallQuarterCircle(p, q) ==> Along(p, ArcCentre(p, q)) == 1 && Along(q, ArcCentre(p, q)) == 1
    ensures IsBigQuarterCircle(p, q) ==> Along(p, ArcCentre(p, q)) == 2 && Along(q, ArcCentre(p, q)) == 2
  {
    if IsSmallQuarterCircle(p, q) {
      SmallArc(p, q);
    } else {
      BigArc(p, q);
    }
  }

  lemma SmallArc(p: Port, q: Port)
    requires IsSmallQuarterCircle(p, q)
    ensures Corner(SideOf(p), SideOf(q)) == Some(ArcCentre(p, q))
    ensures Along(p, ArcCentre(p, q)) == 1 && Along(q, ArcCentre(p, q)) == 1
  {
    match p
    case T1 => {} case T2 => {} case R1 => {} case R2 => {}
    case B1 => {} case B2 => {} case L1 => {} case L2 => {}
  }

  lemma BigArc(p: Port, q: Port)
    requires IsBigQuarterCircle(p, q)
    ensures Corner(SideOf(p), SideOf(q)) == Some(ArcCentre(p, q))
    ensures Along(p, ArcCentre(p, q)) == 2 && Along(q, ArcCentre(p, q)) == 2
  {
    match p
    case T1 => {} case T2 => {} case R1 => {} case R2 => {}
    case B1 => {} case B2 => {} case L1 => {} case L2 => {}
  }

  // ---------------------------------------------------------------------
  // The tile table
  // ---------------------------------------------------------------------

  type Tile = seq<(Port, Port)>

  const TileCount: nat := 14

  /** `TILES`, entry k. */
  function TileAt(k: nat): Tile
    requires k < TileCount
  {
    if k == 0 then [(L1, T1), (T2, R1), (R2, B2), (B1, L2)]
    else if k == 1 then [(T1, T2), (R1, R2), (B1, B2), (L1, L2)]
    else if k == 2 then [(T1, R2), (T2, R1), (B2, L1), (B1, L2)]
    else if k == 3 then [(T1, L1), (T2, L2), (B2, R2), (B1, R1)]
    else if k == 4 then [(T1, T2), (R1, R2), (B1, L2), (B2, L1)]
    else if k == 5 then [(R1, R2), (B1, B2), (T2, L2), (T1, L1)]
    else if k == 6 then [(B1, B2), (L1, L2), (T1, R2), (T2, R1)]
    else if k == 7 then [(T1, T2), (L1, L2), (B2, R2), (B1, R1)]
    else if k == 8 then [(T1, B1), (T2, B2), (L1, L2), (R1, R2)]
    else if k == 9 then [(L1, R1), (L2, R2), (T1, T2), (B1, B2)]
    else if k == 10 then [(T1, B1), (R2, B2), (L1, L2), (R1, T2)]
    else if k == 11 then [(L1, R1), (L2, B1), (T1, T2), (B2, R2)]
    else if k == 12 then [(T2, B2), (B1, L2), (R1, R2), (L1, T1)]
    else [(L2, R2), (L1, T1), (T2, R1), (B1, B2)]
  }

  /** How many ends of a pair are at port p. */
  function Hits(e: (Port, Port), p: Port): nat {
    (if e.0 == p then 1 else 0) + (if e.1 == p then 1 else 0)
  }

  /** How many ends of a four-pair tile are at port p. */
  function Uses(t: Tile, p: Port): nat
    requires |t| == 4
  {
    Hits(t[0], p) + Hits(t[1], p) + Hits(t[2], p) + Hits(t[3], p)
  }

  /** Whether every pair of a tile is one of the four drawable curves. */
  predicate Drawable(t: Tile) {
    forall i :: 0 <= i < |t| ==> Classify(t[i].0, t[i].1).Some?
  }

  /** One tile of the table: four drawable pairs that use each of the eight
      ports exactly once. */
  predicate WellFormed(t: Tile) {
    |t| == 4 && (forall p :: Uses(t, p) == 1) && Drawable(t)
  }

  /** The same check written out port by port and pair by pair. */
  predicate WellFormedByCases(t: Tile) {
    && |t| == 4
    && Uses(t, T1) == 1 && Uses(t, T2) == 1 && Uses(t, R1) == 1 && Uses(t, R2) == 1
    && Uses(t, B1) == 1 && Uses(t, B2) == 1 && Uses(t, L1) == 1 && Uses(t, L2) == 1
    && Classify(t[0].0, t[0].1).Some? && Classify(t[1].0, t[1].1).Some?
    && Classify(t[2].0, t[2].1).Some? && Classify(t[3].0, t[3].1).Some?
  }

  lemma ByCases(t: Tile)
    requires WellFormedByCases(t)
    ensures WellFormed(t)
  {
    forall p ensures Uses(t, p) == 1 {
      match p
      case T1 => {} case T2 => {} case R1 => {} case R2 => {}
      case B1 => {} case B2 => {} case L1 => {} case L2 => {}
    }
  }

  /** The table, one tile at a time: no "Unknown curve type", and no port
      used twice or left out. */
  lemma TileWellFormed0()
    ensures WellFormed(TileAt(0))
  {
    ByCases(TileAt(0));
  }

  lemma TileWellFormed1()
    ensures WellFormed(TileAt(1))
  {
    ByCases(TileAt(1));
  }

  lemma TileWellFormed2()
    ensures WellFormed(TileAt(2))
  {
    ByCases(TileAt(2));
  }

  lemma TileWellFormed3()
    ensures WellFormed(TileAt(3))
  {
    ByCases(TileAt(3));
  }

  lemma TileWellFormed4()
    ensures WellFormed(TileAt(4))
  {
    ByCases(TileAt(4));
  }

  lemma TileWellFormed5()
    ensures WellFormed(TileAt(5))
  {
    ByCases(TileAt(5));
  }

  lemma TileWellFormed6()
    ensures WellFormed(TileAt(6))
  {
    ByCases(TileAt(6));
  }

  lemma TileWellFormed7()
    ensures WellFormed(TileAt(7))
  {
    ByCases(TileAt(7));
  }

  lemma TileWellFormed8()
    ensures WellFormed(TileAt(8))
  {
    ByCases(TileAt(8));
  }

  lemma TileWellFormed9()
    ensures WellFormed(TileAt(9))
  {
    ByCases(TileAt(9));
  }

  lemma TileWellFormed10()
    ensures WellFormed(TileAt(10))
  {
    ByCases(TileAt(10));
  }

  lemma TileWellFormed11()
    ensures WellFormed(TileAt(11))
  {
    ByCases(TileAt(11));
  }

  lemma TileWellFormed12()
    ensures WellFormed(TileAt(12))
  {
    ByCases(TileAt(12));
  }

  lemma TileWellFormed13()
    ensures WellFormed(TileAt(13))
  {
    ByCases(TileAt(13));
  }

  /** Every tile of the table is well formed. */
  lemma TileWellFormed(k: nat)
    requires k < TileCount
    ensures WellFormed(TileAt(k))
  {
    if k == 0 {
      TileWellFormed0();
    } else if k == 1 {
      TileWellFormed1();
    } else if k == 2 {
      TileWellFormed2();
    } else if k == 3 {
      TileWellFormed3();
    } else if k == 4 {
      TileWellFormed4();
    } else if k == 5 {
      TileWellFormed5();
    } else if k == 6 {
      TileWellFormed6();
    } else if k == 7 {
      TileWellFormed7();
    } else if k == 8 {
      TileWellFormed8();
    } else if k == 9 {
      TileWellFormed9();
    } else if k == 10 {
      TileWellFormed10();
    } else if k == 11 {
      TileWellFormed11();
    } else if k == 12 {
      TileWellFormed12();
    } else {
      TileWellFormed13();
    }
  }

  /** `update`: every cell takes the table tile of its draw
      `rnd(TILES.length)`. Every curve of the grid can be drawn and every
      tile is a perfect matching of the eight ports. */
  function DrawGrid(draws: seq<seq<nat>>): (g: seq<seq<Tile>>)
    requires forall r, c :: 0 <= r < |draws| && 0 <= c < |draws[r]| ==> draws[r][c] < TileCount
    ensures |g| == |draws| && forall r :: 0 <= r < |g| ==> |g[r]| == |draws[r]|
    ensures forall r, c :: 0 <= r < |g| && 0 <= c < |g[r]| ==> g[r][c] == TileAt(draws[r][c])
  {
    seq(|draws|, r requires 0 <= r < |draws| =>
      seq(|draws[r]|, c requires 0 <= c < |draws[r]| => TileAt(draws[r][c])))
  }

  /** Every cell of a drawn grid holds a well-formed table tile. */
  lemma DrawnTilesWellFormed(draws: seq<seq<nat>>, r: nat, c: nat)
    requires forall r, c :: 0 <= r < |draws| && 0 <= c < |draws[r]| ==> draws[r][c] < TileCount
    requires r < |draws| && c < |draws[r]|
    ensures WellFormed(DrawGrid(draws)[r][c])
  {
    TileWellFormed(draws[r][c]);
  }
}
